=== FILE: README.md ===
# A Dafny model of the llama.cpp fork's helper cores

This project models, in Dafny, the pure logic at the core of several parts of a llama.cpp fork, and proves properties of that model:

- the remote safetensors access layer of `gguf-py` (`SafetensorRemote`): header decoding, the tensor table, the single-request and chunked byte-range fetch engine, shard resolution over `model.safetensors.index.json`, and the GGUF file-naming helpers (`naming_convention`, `size_label`, `fill_templated_filename`);
- the pure parts of the Jinja template engine in `common/jinja`: the whitespace-control preprocessor, the tokenizer, the input-tracking multi-part string, the value types with their clone sharing, call arguments, Python-style `slice` and `range`, the string, array, object, boolean and null builtins, and JSON string escaping (section 7 of RFC 8259);
- the model-merge configuration parser;
- the integer bookkeeping of the Mimi audio decoder and of the Whisper audio front end;
- the shape arithmetic of the DeepSeek-OCR window attention and of the MobileNetV5 (Gemma 3n) vision tower, including its block registry;
- the layer-adaptive outlier policy of Q4_HIFI quantisation;
- the router's model-status codec;
- the mixed-domain imatrix dataset builder;
- the logits comparison script;
- the CSM and Mimi text-to-speech GGUF converters.

Every operation is a function over immutable data. One that raises or throws returns a `Result` whose error names the exception. The network, the decoders (UTF-8, JSON, WAV, floating-point parsing), the tensor libraries and the quantizer are parameters of the functions that call them.

Files and modules:

| file | module | models |
|---|---|---|
| wrappers.dfy | Wrappers | `Option` and `Result` |
| text.dfy | Text | character classes, find/rfind, strip, split/join/replace, decimal text |
| bytes.dfy | Bytes | octets and little-endian integers |
| c_int.dfy | CInt | C's truncating `/` and `%` |
| json.dfy | Json | JSON values as `json.loads` hands them over, dict lookup and item order |
| string_sort.dfy | StringSort | Python string order and `sorted(set(xs))` |
| remote_fetch.dfy | RemoteFetch | `get_data_by_range`, `check_file_exist`, the chunk partition and the Range header |
| safetensors.dfy | Safetensors | `get_metadata`, `get_list_tensors`, `RemoteTensor.data` |
| safetensor_model.dfy | SafetensorModel | `get_list_tensors_hf_model` |
| naming.dfy | GgufNaming | `naming_convention`, `size_label`, `fill_templated_filename` |
| jinja_value.dfy | JinjaValue | template values and their accessors |
| jinja_storage.dfy | JinjaStorage | storage sharing of value handles |
| jinja_args.dfy | JinjaArgs | call arguments, keyword lookup |
| jinja_string.dfy | JinjaString | the input-tracking string |
| jinja_string_filters.dfy | JinjaStringFilters | `split`, `rsplit`, `replace`, `startswith`, `endswith`, `join` |
| jinja_slice.dfy | JinjaSlice | `slice` and `range` |
| jinja_collections.dfy | JinjaCollections | array, object, boolean and null builtins, `default`, `from_json` |
| jinja_json.dfy | JinjaJson | JSON output of scalars |
| jinja_preprocess.dfy | JinjaPreprocess | `trim_template_markers_inplace`, `lexer::preprocess` |
| jinja_lexer.dfy | JinjaLexer | `lexer::tokenize` |
| merge_parser.dfy | MergeParser | the merge example's configuration parser |
| mimi.dfy | Mimi | Mimi decoder padding, code layout, frames, RVQ rows, layer list |
| whisper_audio.dfy | WhisperAudio | WAV checks, resampler preconditions, padding, frames, worker columns, FFT indices |
| deepseek_window.dfy | DeepseekWindow | window partition and unpartition, relative-position lookup |
| mobilenet_blocks.dfy | MobilenetBlocks | SAME padding, block constructors, tensor names, the block registry |
| mobilenet_graph.dfy | MobilenetGraph | stage starts, fusion points, block dispatch, MSFA shapes |
| hifi_quant.dfy | HifiQuant | outlier count, tensor importance, thread-local context |
| server_models.dfy | ServerModels | model-status codec and metadata defaults |
| mixed_dataset.dfy | MixedDataset | `read_lines`, the ratio targets, `interleave_datasets` |
| compare_logits.dfy | CompareLogits | `dump_logits`, `get_token_logprobs`, `clean_text`, `compare_logits` |
| tensor_convert.dfy | TensorConvert | what both TTS converters share |
| csm_converter.dfy | CsmConverter | `convert_csm_to_gguf.py` |
| mimi_converter.dfy | MimiConverter | `convert_mimi_to_gguf.py` |

## Model

| member | source | states |
|---|---|---|
| RemoteFetch.SchemeLength | gguf-py/gguf/utility.py:238-240 | the scheme `urlparse` finds is a letter followed by scheme characters ending just before the first ':' |
| RemoteFetch.NetlocEnd | gguf-py/gguf/utility.py:238-240 | the network location ends at the first '/', '?' or '#' after it, or at the end of the URL |
| RemoteFetch.Netloc | gguf-py/gguf/utility.py:238-240 | the network location is what follows a leading "//" up to that end, and is empty without the "//" |
| RemoteFetch.ParseUrl | gguf-py/gguf/utility.py:238-240 | the URL splits into lower-cased scheme and network location, or fails on an unbalanced IPv6 bracket |
| RemoteFetch.RequireUrl | gguf-py/gguf/utility.py:238-240 | the URL passes iff both the scheme and the network location are non-empty; otherwise ValueError("Invalid URL") |
| RemoteFetch.BaseUrlValid | gguf-py/gguf/utility.py:113 | every URL built as BASE_DOMAIN + "/" + path passes the URL check, whatever the path |
| RemoteFetch.CommonHeaders | gguf-py/gguf/utility.py:222-227 | the user agent comes first; an Authorization bearer header is added iff HF_TOKEN is set and non-empty |
| RemoteFetch.SingleRange | gguf-py/gguf/utility.py:329-337 | a size gives the inclusive range start..start+size-1, no size with a positive start gives an open range, otherwise no Range header |
| RemoteFetch.FetchSingle | gguf-py/gguf/utility.py:339-353 | succeeds iff the GET is answered without an HTTP error status and, when a size was asked for, the body has exactly that size; the body is returned unchanged |
| RemoteFetch.ChunkOffsetClosedForm | gguf-py/gguf/utility.py:276-293 | the offset of chunk i is start + i*(size//n) + min(i, size%n) |
| RemoteFetch.ChunkEnd | gguf-py/gguf/utility.py:276-293 | the offset after the last chunk is start + size |
| RemoteFetch.ChunkPartition | gguf-py/gguf/utility.py:276-293 | the chunks tile [start, start+size) in index order, and their sizes never increase and differ by at most one |
| RemoteFetch.Worker | gguf-py/gguf/utility.py:251-273 | a stored chunk has exactly its chunk's size and is the reply body; a failure is a transport error, an HTTP status or a size mismatch carrying the chunk index |
| RemoteFetch.Slots | gguf-py/gguf/utility.py:280-297 | one slot per worker, zero-size chunks holding empty bytes and the others the worker's outcome |
| RemoteFetch.Scan | gguf-py/gguf/utility.py:300-318 | a raised exception is one stored in some slot, or the "finished without data" error |
| RemoteFetch.FetchParallel | gguf-py/gguf/utility.py:245-324 | a successful parallel download has exactly the requested size |
| RemoteFetch.GetDataByRange | gguf-py/gguf/utility.py:230-353 | an invalid URL raises ValueError; a success has the requested size; below the threshold it succeeds iff the single GET does and returns its body |
| RemoteFetch.ScanOk | gguf-py/gguf/utility.py:300-318 | when every slot holds data the scan returns the parts concatenated in index order |
| RemoteFetch.ScanFirstError | gguf-py/gguf/utility.py:301-305 | a raised exception is stored in a slot before which every slot holds data |
| RemoteFetch.ScanReportsFirstError | gguf-py/gguf/utility.py:301-305 | the first stored exception in index order is the one raised, whatever the later slots hold |
| RemoteFetch.ParallelReportsFirstError | gguf-py/gguf/utility.py:245-324 | the parallel download raises the exception of the first failing chunk |
| RemoteFetch.ParallelAssemblyExact | gguf-py/gguf/utility.py:320-322 | the final assembled-size check never fires: every stored part already has its chunk's size |
| RemoteFetch.ScanLength | gguf-py/gguf/utility.py:300-318 | when every stored part has its chunk's size, a successful scan has the sum of the sizes |
| RemoteFetch.ParseDigitsRange | gguf-py/gguf/utility.py:256 | a value `bytes=A-B` with decimal digits reads back as the two numbers |
| RemoteFetch.RangeValueRoundTrip | gguf-py/gguf/utility.py:255-256 | the inclusive Range value written for a chunk reads back as its first and last byte |
| RemoteFetch.OpenRangeValueRoundTrip | gguf-py/gguf/utility.py:334-336 | the open-ended Range value reads back as its first byte with no last byte |
| RemoteFetch.CommonHeadersNoRange | gguf-py/gguf/utility.py:222-227 | the common headers never carry a Range header |
| RemoteFetch.ServeSingle | gguf-py/gguf/utility.py:329-339 | a server holding a file answers the single GET with the requested slice, clipped at the end, or with 416 past the end |
| RemoteFetch.SingleRangeHeader | gguf-py/gguf/utility.py:329-333 | the single GET carries exactly one Range header, for the requested inclusive range |
| RemoteFetch.ServeRange | gguf-py/gguf/utility.py:339 | the file server on a well-formed inclusive range returns that slice of the file |
| RemoteFetch.ServeParsedRange | gguf-py/gguf/utility.py:339 | the file server on a Range value that reads back as `bytes=a-b` returns the slice a..b |
| RemoteFetch.SingleFromFileServer | gguf-py/gguf/utility.py:327-353 | against such a server the single path returns exactly file[start:start+size] |
| RemoteFetch.ScanFromFileServer | gguf-py/gguf/utility.py:300-318 | against the file server the ordered scan assembles exactly file[start:start+size] |
| RemoteFetch.SlotsTiles | gguf-py/gguf/utility.py:280-297 | against the file server every slot from a given index on holds its chunk of the file |
| RemoteFetch.ScanTiles | gguf-py/gguf/utility.py:300-318 | when every slot from an index on holds its tile, the scan joins the tiles |
| RemoteFetch.SlotFromFileServer | gguf-py/gguf/utility.py:280-293 | slot i holds the file's bytes of chunk i |
| RemoteFetch.ChunkFromFileServer | gguf-py/gguf/utility.py:251-269 | one worker against the file server receives exactly its chunk |
| RemoteFetch.ChunkRangeHeader | gguf-py/gguf/utility.py:253-256 | a chunk request carries exactly one Range header, for its inclusive byte range |
| RemoteFetch.GetDataByRangeFromFileServer | gguf-py/gguf/utility.py:230-353 | against a server holding a file, get_data_by_range returns file[start:start+size] on both the single and the parallel path |
| RemoteFetch.CheckFileExist | gguf-py/gguf/utility.py:356-372 | an invalid URL raises; otherwise the HEAD with `Range: bytes=0-0` reports presence iff it is answered with a status in [200, 400), and a transport failure reports absence |
| Safetensors.AlignUp | gguf-py/gguf/utility.py:202-206 | the data start is a multiple of ALIGNMENT = 8 and less than 8 bytes past the end of the header |
| Safetensors.AlignUpLeast | gguf-py/gguf/utility.py:202-206 | the aligned data start is the least multiple of 8 not below 8 + metadata_length |
| Safetensors.SplitHeader | gguf-py/gguf/utility.py:196-213 | fewer than 8 bytes raise "Not enough data"; otherwise the header is the metadata_length bytes after the u64 little-endian prefix, or "Could not read complete metadata" when the buffer is shorter |
| Safetensors.FrameRoundTrip | gguf-py/gguf/utility.py:196-213 | splitting a buffer that starts with an 8-byte length and that many header bytes recovers the header and the aligned data start |
| Safetensors.SplitHeaderFramed | gguf-py/gguf/utility.py:196-213 | every buffer the split accepts is such a framed header followed by the rest |
| Safetensors.ParseHeader | gguf-py/gguf/utility.py:196-219 | the result is the JSON of the decoded header bytes with the aligned data start; it fails iff framing, UTF-8 decoding or JSON parsing fails |
| Safetensors.GetMetadataAsWritten | gguf-py/gguf/utility.py:186-219 | a success means the fixed 5 MiB range request succeeded and its bytes parse as the header |
| Safetensors.ShortFileRejected | gguf-py/gguf/utility.py:193-194 | for a file shorter than 5 MiB the exact-size check of the range request raises (416 for an empty file), so the header is never read |
| Safetensors.FetchPrefix | gguf-py/gguf/utility.py:193-194 | the intended fetch: at most the requested bytes from the start of the file, failing only on transport, HTTP status or an over-long body |
| Safetensors.GetMetadata | gguf-py/gguf/utility.py:186-219 | a success means the prefix fetch succeeded and its bytes parse as the header |
| Safetensors.GetMetadataFromFileServer | gguf-py/gguf/utility.py:186-219 | the corrected reader parses the header of the first min(|file|, 5 MiB) bytes of any non-empty file |
| Safetensors.FetchPrefixFromFileServer | gguf-py/gguf/utility.py:193-194 | against a server holding a non-empty file the prefix fetch returns the file's first bytes |
| Safetensors.GetMetadataAgreesOnLongFiles | gguf-py/gguf/utility.py:186-219 | on files of at least 5 MiB the corrected and the as-written reader agree |
| Safetensors.Unpack2 | gguf-py/gguf/utility.py:176 | `a, b = data_offsets` succeeds iff the value iterates to exactly two items, and fails with the type or the arity error otherwise |
| Safetensors.TensorEntry | gguf-py/gguf/utility.py:171-181 | a non-dict entry raises; a built entry carries dtype and shape from the entry, offset data_start + first offset, size end minus start, and the URL |
| Safetensors.Rows | gguf-py/gguf/utility.py:168-181 | one row per header item, in order, named like the item |
| Safetensors.RowEntry | gguf-py/gguf/utility.py:168-181 | row i holds the entry built from item i |
| Safetensors.CollectOk | gguf-py/gguf/utility.py:166-183 | with distinct names the table has exactly the non-`__metadata__` rows, each built from its entry |
| Safetensors.CollectFirstError | gguf-py/gguf/utility.py:168-181 | a failing loop reports the error of the first failing non-`__metadata__` row |
| Safetensors.CollectUrls | gguf-py/gguf/utility.py:179 | every row of the table carries the file's URL |
| Safetensors.TableOf | gguf-py/gguf/utility.py:165-183 | a table exists only for a header that is a JSON object, and every row carries the URL |
| Safetensors.GetListTensorsAsWritten | gguf-py/gguf/utility.py:158-183 | a table means the as-written metadata read succeeded with an object header; every row carries the URL |
| Safetensors.ListTensorsShortFileRejected | gguf-py/gguf/utility.py:165 | as written, no table is listed from a file shorter than 5 MiB |
| Safetensors.GetListTensors | gguf-py/gguf/utility.py:158-183 | a table means the corrected metadata read succeeded with an object header; every row carries the URL |
| Safetensors.ListTensorsShortFileRead | gguf-py/gguf/utility.py:158-183 | with the corrected reader a short file's table has exactly the header's entries other than `__metadata__` |
| Safetensors.RowNamesDistinct | gguf-py/gguf/utility.py:168 | the rows of a dict's items carry distinct names |
| Safetensors.RowOfKey | gguf-py/gguf/utility.py:168-179 | row i is the tensor entry of its key's value in the header dict |
| Safetensors.ListTensorsTable | gguf-py/gguf/utility.py:166-183 | the table's keys are the header keys other than `__metadata__`, and each row is the entry built from its key's value |
| Safetensors.ListTensorsFirstError | gguf-py/gguf/utility.py:168-181 | a failing table reports the first tensor entry, in header order, that could not be built |
| Safetensors.TensorData | gguf-py/gguf/utility.py:87-91 | `RemoteTensor.data()` returns exactly the tensor's size in bytes |
| Safetensors.TensorDataFromFileServer | gguf-py/gguf/utility.py:87-91 | served from the file it names, a tensor inside the file reads back its byte span |
| SafetensorModel.RepoFileUrlValid | gguf-py/gguf/utility.py:129-135 | every `{BASE_DOMAIN}/{model_id}/resolve/main/{file}` URL passes the URL check |
| SafetensorModel.StringValues | gguf-py/gguf/utility.py:145 | the weight-map values are taken in order, and exist only when every value is a string |
| SafetensorModel.StringValuesFiles | gguf-py/gguf/utility.py:145 | the values taken are exactly the set of files the weight map names |
| SafetensorModel.WeightFiles | gguf-py/gguf/utility.py:142-146 | a missing or null weight_map fails the assertion; a success is strictly sorted and holds exactly the set of files the weight map names |
| SafetensorModel.UnionAllLastWins | gguf-py/gguf/utility.py:148-152 | a key is in the merged table iff some shard table holds it, and its value is that of the last such shard |
| SafetensorModel.ShardTables | gguf-py/gguf/utility.py:149-151 | one table per shard file, each the reader's table for that file's URL |
| SafetensorModel.MergeShardsUnion | gguf-py/gguf/utility.py:148-153 | with every shard readable the loop yields the right-biased union of the shard tables |
| SafetensorModel.MergeShardsFirstError | gguf-py/gguf/utility.py:149-151 | a failing loop reports the error of the first shard, in sorted order, that cannot be read |
| SafetensorModel.MergeShardsProvenance | gguf-py/gguf/utility.py:148-153 | every tensor of the merged table comes from the starting table or from one of the shard tables read |
| SafetensorModel.HfModelWith | gguf-py/gguf/utility.py:121-155 | neither file existing raises "does not have any safetensor files"; every tensor listed comes from some repository file's table |
| SafetensorModel.GetListTensorsHfModelAsWritten | gguf-py/gguf/utility.py:121-155 | as written: no files raises, and every tensor listed carries the URL of a repository file |
| SafetensorModel.GetListTensorsHfModel | gguf-py/gguf/utility.py:121-155 | with the corrected reader: no files raises, and every tensor listed carries the URL of a repository file |
| SafetensorModel.HfModelShortFileRejected | gguf-py/gguf/utility.py:129-132 | as written, a single-file repository whose file is shorter than 5 MiB cannot be listed |
| SafetensorModel.HfModelShortFileRead | gguf-py/gguf/utility.py:129-132 | with the corrected reader the same repository lists exactly the header's tensors |
| SafetensorModel.ProbesNeverRaise | gguf-py/gguf/utility.py:129-136 | the two existence probes never raise, since the probed URLs are always well formed |
| SafetensorModel.ShardedModelTable | gguf-py/gguf/utility.py:134-153 | when only the index exists and it and every shard can be read, the table is the union of the shard tables in sorted order, later shards winning |
| GgufNaming.FieldEnd | gguf-py/gguf/utility.py:17-19 | the `}` closing a replacement field lies at or after the scan start and inside the template; nested braces are counted |
| GgufNaming.FieldEndFlat | gguf-py/gguf/utility.py:17-19 | a field body without braces closes at the first `}` |
| GgufNaming.Resolve | gguf-py/gguf/utility.py:17-19 | a keyword field (`outtype`, `ftype`, `OUTTYPE`, `FTYPE`) gets its argument and leaves the numbering alone; an empty field fails exactly when numbering is manual or already past the single positional argument; any substituted text is the lower- or upper-cased type |
| GgufNaming.Escape | gguf-py/gguf/utility.py:17-19 | brace-free text is its own template; escaping never shortens the text |
| GgufNaming.FormatEscape | gguf-py/gguf/utility.py:17-19 | formatting the escaped text returns the text, whatever the arguments and numbering |
| GgufNaming.FormatPlain | gguf-py/gguf/utility.py:17-19 | a brace-free file name comes back unchanged from `format` |
| GgufNaming.FormatLiteralPrefix | gguf-py/gguf/utility.py:17-19 | brace-free text before a template is copied in front of the template's expansion, and the template's error is raised unchanged |
| GgufNaming.FormatFieldThenPlain | gguf-py/gguf/utility.py:17-19 | a field that resolves to `v`, followed by brace-free text `q`, formats to `v + q` |
| GgufNaming.FormatKeywordField | gguf-py/gguf/utility.py:17-19 | `p{key}q` with brace-free `p`, `q` formats to `p`, the keyword's argument, `q` |
| GgufNaming.FormatSingleClose | gguf-py/gguf/utility.py:17-19 | an undoubled `}` after brace-free text raises the single-`}` error |
| GgufNaming.FormatSingleOpen | gguf-py/gguf/utility.py:17-19 | a `{` at the end of the template raises the single-`{` error |
| GgufNaming.FormatTwoAutoFields | gguf-py/gguf/utility.py:17-19 | `{}{}` raises IndexError for index 1, because only one positional argument is passed |
| GgufNaming.FillTemplatedFilename | gguf-py/gguf/utility.py:13-19 | a file name without braces is returned as it is |
| GgufNaming.FillTemplatedType | gguf-py/gguf/utility.py:13-19 | `{ftype}` and `{outtype}` receive the lower-cased output type; `{FTYPE}` and `{OUTTYPE}` receive the upper-cased one; with no output type the field becomes empty |
| GgufNaming.RoundHalfEven | gguf-py/gguf/utility.py:40 | the result is within one half of `x`, strictly unless `x` is a tie, and a tie rounds to the even neighbour, as Python's `round` does |
| GgufNaming.Scale | gguf-py/gguf/utility.py:23-38 | the suffix is T, B, M or K exactly on the count ranges of the strict `>` comparisons; the scaled value is above 1 for T, in (1, 1000] for B and M, and at most 1000 for K |
| GgufNaming.FractionDigits | gguf-py/gguf/utility.py:40 | the number of decimals is between 0 and `max(min_digits, 0)`; a value that rounds to 0 has no significant digits after `lstrip('0')`, so it gets `max(min_digits, 0)` decimals |
| GgufNaming.ZeroHasNoDigits | gguf-py/gguf/utility.py:40 | `str(0).lstrip('0')` is empty |
| GgufNaming.RoundedNotation | gguf-py/gguf/utility.py:22-42 | the notation ends with the suffix of the count's scale |
| GgufNaming.SizeLabelShape | gguf-py/gguf/utility.py:45-53 | a label with experts starts with the expert count and `x`; the label ends with the suffix of the scale of `abs(shared) + abs(expert)` when there are experts, and of `abs(total)` otherwise |
| GgufNaming.Dashed | gguf-py/gguf/utility.py:68-74 | the stripped, dashed text holds no space |
| GgufNaming.NameComponent | gguf-py/gguf/utility.py:59-64 | the name holds no space and no slash; with neither name given it is `ggml-model` |
| GgufNaming.Suffixes | gguf-py/gguf/utility.py:66-76 | with every optional part absent there is no suffix; without a space in the size label the suffix holds no space |
| GgufNaming.NamingConvention | gguf-py/gguf/utility.py:56-76 | the name component is a prefix of the file name, and the whole name when no other part is given; the name holds no space unless the size label brings one |
| GgufNaming.EncodingPart | gguf-py/gguf/utility.py:72 | the encoding holds no space and no lower-case ASCII letter |
| GgufNaming.NamingConventionSplitsBack | gguf-py/gguf/utility.py:56-76 | when the base name, size label, fine-tune, version and output type are all free of dashes, slashes and spaces, the name splits on `-` into exactly those five parts, in that order, with the output type upper-cased |
| JinjaStorage.Clone | common/jinja/jinja-value.h:62-158 | a container clone points at the same storage as the original; a scalar clone carries the same scalar |
| JinjaStorage.PushBack | common/jinja/jinja-value.h:111 | appending through a handle changes only that array's contents, adding the element at the end |
| JinjaStorage.CloneSharesStorage | common/jinja/jinja-value.h:19-26 | a push through a clone of an array is seen through the original handle |
| JinjaStorage.RangeEnd | common/jinja/jinja-value.h:103-105 | the end is never past the size; an end below the size that is not `size_t(-1)` is kept |
| JinjaStorage.NewArrayRange | common/jinja/jinja-value.h:101-113 | the range constructor allocates new storage and leaves every existing array and object alone; it holds `end' - start` clones of the elements from `start` on, where `end'` is the clamped end, and nothing when `start >= end'` |
| JinjaStorage.RangeCopyIsIndependent | common/jinja/jinja-value.h:101-113 | a push onto a range copy leaves the source array unchanged |
| JinjaStorage.FullRangeClonesAll | common/jinja/jinja-value.h:101 | the default range copies every element |
| JinjaStorage.NewObjectFrom | common/jinja/jinja-value.h:132-137 | the map constructor allocates new storage holding each entry's key with a clone of its value, and leaves the existing storage alone |
| JinjaValue.StrOf | common/jinja/jinja-value.h:76-80 | a string value built from plain text reads back as that text, is one part, and is not marked as input |
| JinjaValue.DerivedStr | common/jinja/value.cpp:461-462 | a derived string reads back as its text, is one part, and is marked as input exactly when every part of its origin is input |
| JinjaValue.Truncate | common/jinja/jinja-value.h:70 | `static_cast<int64_t>` of a double rounds toward zero: down for a non-negative value, up for a negative one |
| JinjaValue.AsInt | common/jinja/jinja-value.h:34-70 | integers and floats answer, a float truncated toward zero; every other value throws "Not an int value" |
| JinjaValue.AsFloat | common/jinja/jinja-value.h:35-69 | integers and floats answer, an integer converted; every other value throws |
| JinjaValue.AsString | common/jinja/jinja-value.h:36-88 | strings, integers, floats and booleans answer: the string itself, the decimal digits, the printed float, and "True" or "False"; every other value throws "Not a string value" |
| JinjaValue.AsBool | common/jinja/jinja-value.h:37-87 | only a boolean answers, with its own value |
| JinjaValue.AsArray | common/jinja/jinja-value.h:38-115 | only an array answers, with its elements |
| JinjaValue.AsObject | common/jinja/jinja-value.h:39-139 | only an object answers, with its entries |
| JinjaValue.BaseAnswersNothing | common/jinja/jinja-value.h:32-45 | a bare `value_t` throws from every accessor and is neither null nor undefined |
| JinjaValue.EqualityNeverHolds | common/jinja/jinja-value.h:47-53 | `operator==` answers false even for a value compared with itself, so `!=` always holds |
| JinjaValue.Find | common/jinja/value.cpp:808-813 | a key is found exactly when some entry has it, and the value found is that of the first such entry |
| JinjaValue.FindDistinct | common/jinja/value.cpp:808-813 | when keys are distinct, as in a `std::map`, looking up an entry's key returns that entry's value |
| JinjaArgs.EnsureCount | common/jinja/value.cpp:109 | the count check passes exactly when the number of arguments, receiver included, lies in `[lo, hi]`, and otherwise reports the range and the count |
| JinjaArgs.EnsureValsFrom | common/jinja/value.cpp:128-129 | from position `i` on, the check passes exactly when every position has the right kind or is absent and optional; otherwise it reports the first failing position, as a type error if present and a missing argument if absent |
| JinjaArgs.EnsureVals | common/jinja/value.cpp:128-129 | the check passes exactly when every listed position has the right kind or is absent and optional; otherwise it reports a failing position |
| JinjaArgs.Required | common/jinja/value.cpp:218 | with no flags given, every listed position is required |
| JinjaArgs.Arg | common/jinja/value.cpp:131-132 | reading argument `i` succeeds exactly when it exists, and gives that argument |
| JinjaArgs.GetKwarg | common/jinja/value.cpp:21-31 | when a keyword argument with the name exists, the value of the first one is returned; otherwise undefined |
| JinjaArgs.FirstKwargWins | common/jinja/value.cpp:21-31 | a keyword argument earlier in the call hides every later one with the same name |
| JinjaArgs.GetKwargOrPos | common/jinja/value.cpp:33-41 | the result is the first keyword argument with the name when its value is defined; otherwise it is positional argument `pos` when there is one, and undefined when there is not |
| JinjaArgs.UndefinedKwargFallsBack | common/jinja/value.cpp:33-41 | a keyword argument explicitly set to undefined does not hide the positional argument |
| JinjaString.ConcatChars | common/jinja/jinja-string.h:62-71 | a character occurs in the string's text exactly when it occurs in one of its parts |
| JinjaString.FromText | common/jinja/jinja-string.h:46-48 | the text constructor makes one part holding the text, with the requested input flag |
| JinjaString.FromInt | common/jinja/jinja-string.h:49-51 | the integer constructor holds the decimal digits and is not input |
| JinjaString.Str | common/jinja/jinja-string.h:62-71 | `str()` is the parts' texts in order, whether there is one part or several |
| JinjaString.Length | common/jinja/jinja-string.h:73-79 | `length()` equals the length of `str()` |
| JinjaString.MarkInput | common/jinja/jinja-string.h:56-60 | every part becomes input, with the same texts and the same number of parts |
| JinjaString.MarkInputBasedOn | common/jinja/jinja-string.h:108-115 | the texts are unchanged, and a part is input afterwards exactly when it was before or every part of `other` is input |
| JinjaString.MarkInputBasedOnEmpty | common/jinja/jinja-string.h:81-88 | a string without parts counts as all input, so it marks every part |
| JinjaString.Append | common/jinja/jinja-string.h:117-122 | the parts of `other` follow the string's own parts unchanged, so the text is the two texts joined |
| JinjaString.UppercaseMeansNoLower | common/jinja/jinja-string.h:22-97 | `is_uppercase()` holds exactly when the whole text has no lower-case letter |
| JinjaString.LowercaseMeansNoUpper | common/jinja/jinja-string.h:31-106 | `is_lowercase()` holds exactly when the whole text has no upper-case letter |
| JinjaString.ApplyTransform | common/jinja/jinja-string.h:126-131 | the function rewrites each part's text; part count and input flags stay |
| JinjaString.CapitalizeText | common/jinja/jinja-string.h:147-153 | the length is kept, the first character is upper-cased and every later one lower-cased |
| JinjaString.TitleFromSpec | common/jinja/jinja-string.h:156-170 | the character scan title-cases each position exactly as the per-position rule says: upper after a space or at the start, lower elsewhere, spaces kept |
| JinjaString.TitleText | common/jinja/jinja-string.h:156-170 | the length is kept and every position follows the per-position title-case rule |
| JinjaString.Uppercase | common/jinja/jinja-string.h:132-138 | the text becomes the upper-cased text; part count and flags stay |
| JinjaString.Lowercase | common/jinja/jinja-string.h:139-145 | the text becomes the lower-cased text; part count and flags stay |
| JinjaString.UpperConcat | common/jinja/jinja-string.h:132-138 | upper-casing every part upper-cases the joined text |
| JinjaString.LowerConcat | common/jinja/jinja-string.h:139-145 | lower-casing every part lower-cases the joined text |
| JinjaString.Capitalize | common/jinja/jinja-string.h:146-154 | each part is capitalised on its own, keeping its flag |
| JinjaString.Titlecase | common/jinja/jinja-string.h:155-171 | each part is title-cased on its own, keeping its flag |
| JinjaString.TitlecaseRestartsPerPart | common/jinja/jinja-string.h:155-171 | parts "ab" and "cd" title-case to "AbCd": a new part starts a new word |
| JinjaString.Flags | common/jinja/jinja-string.h:18-20 | the flag list has one input flag per part, in order |
| JinjaString.StripLeftText | common/jinja/jinja-string.h:191-203 | the left pass removes exactly the leading whitespace of the whole text, across parts |
| JinjaString.StripRightText | common/jinja/jinja-string.h:204-215 | the right pass removes exactly the trailing whitespace of the whole text, across parts |
| JinjaString.StripText | common/jinja/jinja-string.h:172-217 | `strip(true, true)` trims both ends of the text, `strip(true, false)` only the start and `strip(false, true)` only the end |
| JinjaString.StripLeftFlags | common/jinja/jinja-string.h:191-203 | the parts left after the left pass carry the flags of a suffix of the original parts |
| JinjaString.StripRightFlags | common/jinja/jinja-string.h:204-215 | the parts left after the right pass carry the flags of a prefix of the original parts |
| JinjaString.StripFlags | common/jinja/jinja-string.h:172-217 | after a full strip the flags are those of a contiguous run of the original parts |
| JinjaString.StripLeftFirstPart | common/jinja/jinja-string.h:194-198 | a part the left pass empties is erased, so the first remaining part starts with a non-space |
| JinjaStringFilters.SplitN | common/jinja/value.cpp:453-464 | the `split` loop returns at least one piece |
| JinjaStringFilters.SplitNJoin | common/jinja/value.cpp:453-464 | joining the pieces of `split` with the delimiter gives back the text, whatever the limit |
| JinjaStringFilters.SplitNBound | common/jinja/value.cpp:450-459 | a limit `maxsplit >= 0` allows at most `maxsplit` cuts, so at most `maxsplit + 1` pieces |
| JinjaStringFilters.SplitNUnlimited | common/jinja/value.cpp:450-455 | with the default limit -1 the loop cuts at every occurrence of the delimiter, left to right |
| JinjaStringFilters.SplitNEmptyDelimiter | common/jinja/value.cpp:455-459 | an empty delimiter with limit `k` yields `k` empty pieces followed by the whole text |
| JinjaStringFilters.RSplitN | common/jinja/value.cpp:474-486 | the `rsplit` loop returns at least one piece |
| JinjaStringFilters.RSplitNJoin | common/jinja/value.cpp:474-486 | joining the pieces of `rsplit`, reversed into left-to-right order, with the delimiter gives back the text |
| JinjaStringFilters.RSplitNJoinStep | common/jinja/value.cpp:476-481 | cutting at the last occurrence keeps the join property when the text before it satisfies it |
| JinjaStringFilters.RSplitNBound | common/jinja/value.cpp:471-480 | a limit `maxsplit >= 0` allows at most `maxsplit + 1` pieces |
| JinjaStringFilters.RSplitNPiecesFree | common/jinja/value.cpp:476 | without a limit, no piece of `rsplit` contains the delimiter |
| JinjaStringFilters.SplitDirections | common/jinja/value.cpp:445-487 | with limit 1, `split` cuts "a,b,c" into "a" and "b,c" and `rsplit` cuts it into "a,b" and "c" |
| JinjaStringFilters.PieceValues | common/jinja/value.cpp:457-462 | each piece becomes a one-part string with the piece's text; only the marked piece is input, and only when the whole receiver is |
| JinjaStringFilters.DelimiterArg | common/jinja/value.cpp:449 | the delimiter is `args[1]` as a string when given, and a single space otherwise |
| JinjaStringFilters.LimitArg | common/jinja/value.cpp:450 | the limit is `args[2]` as an integer when given, and -1 otherwise |
| JinjaStringFilters.SplitFilter | common/jinja/value.cpp:445-465 | `split` succeeds exactly when it gets one to three arguments, a string receiver, a usable delimiter and limit, and the loop ends; the result is the pieces, with the last one flagged like the receiver; a wrong count or receiver gives those errors; an empty delimiter without a limit never returns |
| JinjaStringFilters.RSplitFilter | common/jinja/value.cpp:466-487 | `rsplit` succeeds on the same arguments as `split`; the result is the pieces in left-to-right order, with the first flagged like the receiver, and the same error cases |
| JinjaStringFilters.SplitAll | common/jinja/jinja-value.cpp:315-331 | the unlimited `split` yields the pieces at every occurrence, with the last flagged like the receiver; an empty delimiter never returns; with one or two arguments it agrees with the limited `split` |
| JinjaStringFilters.ReplaceInPlace | common/jinja/value.cpp:497-501 | the in-place search-and-replace loop computes the replacement of every non-overlapping occurrence, left to right, never searching inserted text |
| JinjaStringFilters.ReplaceAfter | common/jinja/value.cpp:498-500 | replacing in the text after `pos` starts with the text up to the next occurrence, then the replacement |
| JinjaStringFilters.ReplaceStep | common/jinja/value.cpp:498-500 | replacing at the first occurrence: the text before it, the replacement, then the replacement of the rest |
| JinjaStringFilters.FindAfter | common/jinja/value.cpp:498 | an occurrence found from `pos` is the first occurrence in the text after `pos` |
| JinjaStringFilters.SpliceAlgebra | common/jinja/value.cpp:499-500 | one splice keeps the processed prefix and shrinks the part still to be searched |
| JinjaStringFilters.ReplaceUnfold | common/jinja/value.cpp:498-500 | the replacement at the first occurrence, with the occurrence in bounds |
| JinjaStringFilters.ReplaceDone | common/jinja/value.cpp:498 | when no occurrence is left after `pos`, the text is final |
| JinjaStringFilters.ReplaceFilter | common/jinja/value.cpp:488-505 | `replace` succeeds exactly when it gets three strings with a non-empty `old`, and an optional count that is an integer at most 0; the result replaces every occurrence and is flagged like the receiver; a positive count is not implemented; an empty `old` never returns |
| JinjaStringFilters.ReplaceAllFilter | common/jinja/jinja-value.cpp:332-345 | `replace` without a count succeeds exactly on three strings with a non-empty `old`, replaces every occurrence, and agrees with the counted variant on three arguments |
| JinjaStringFilters.StartsWith | common/jinja/value.cpp:379-382 | true exactly when the text is the prefix followed by something |
| JinjaStringFilters.EndsWith | common/jinja/value.cpp:384-387 | true exactly when the text is something followed by the suffix |
| JinjaStringFilters.AffixFilter | common/jinja/value.cpp:433-444 | `startswith` and `endswith` succeed exactly on two strings, and answer the prefix or suffix test |
| JinjaStringFilters.AffixReflexive | common/jinja/value.cpp:379-387 | a text starts and ends with itself and with the empty string |
| JinjaStringFilters.ItemText | common/jinja/value.cpp:697 | an element's text is the string's text, an integer's digits, or a float's printed form |
| JinjaStringFilters.ItemTexts | common/jinja/value.cpp:696-697 | the texts of the elements, one per element in order |
| JinjaStringFilters.JoinFilter | common/jinja/value.cpp:686-706 | `join` needs one or two arguments and an array receiver; it succeeds exactly when every element is acceptable (a string, or also a number in this variant) and otherwise reports the first refused element; the result is the elements' texts with the delimiter between consecutive elements, the delimiter being `args[1]` when it is a string and empty otherwise |
| JinjaStringFilters.JoinItems | common/jinja/value.cpp:694-702 | the loop succeeds exactly when every element is acceptable, otherwise stops at the first refused one; its result is the texts joined by the delimiter |
| JinjaStringFilters.JoinedStep | common/jinja/value.cpp:697-700 | after element `i`, the text built is the joined texts so far, followed by a delimiter unless this was the last element |
| JinjaStringFilters.PieceTexts | common/jinja/value.cpp:457-461 | the texts of the piece values are the pieces |
| JinjaStringFilters.SplitThenJoin | common/jinja/jinja-value.cpp:315-331 | joining the pieces of an unlimited `split` with the same delimiter restores the receiver's text |
| JinjaSlice.ProgressionUp | common/jinja/value.cpp:274 | counting up from `start` by a positive step gives `start + k*step` for each `k`, nothing exactly when `stop <= start`, and stops at the first value not below `stop` |
| JinjaSlice.ProgressionDown | common/jinja/value.cpp:278 | counting down by a negative step gives `start + k*step`, nothing exactly when `start <= stop`, and stops at the first value not above `stop` |
| JinjaSlice.ProgressionBounds | common/jinja/value.cpp:85 | every counter value lies between `start`, included, and `stop`, excluded |
| JinjaSlice.ProgressionLength | common/jinja/value.cpp:85 | there are at most `|stop - start|` counter values |
| JinjaSlice.Pick | common/jinja/value.cpp:86-88 | only indices inside the sequence contribute, so the result is no longer than the index list |
| JinjaSlice.PickInRange | common/jinja/value.cpp:86-88 | when every index is in range, each index contributes exactly its own element, in order |
| JinjaSlice.ClampUp | common/jinja/jinja-value.cpp:43-55 | a forward bound ends up in `[0, len]`; a bound already in range is kept; a negative bound no larger in size than `len` counts from the end |
| JinjaSlice.ClampDownStart | common/jinja/jinja-value.cpp:57-62 | a backward start ends up in `[-1, len-1]`; an index in range is kept; a negative start counts from the end |
| JinjaSlice.ClampDownStop | common/jinja/jinja-value.cpp:64-69 | a backward stop ends up in `[-1, len-1]`; a stop from -1 to `len-1` is kept, -1 meaning past index 0 |
| JinjaSlice.Slice | common/jinja/jinja-value.cpp:36-81 | step 0 gives nothing, and a slice is never longer than the sequence |
| JinjaSlice.SliceFacts | common/jinja/jinja-value.cpp:75-79 | after clamping, the loop visits only indices inside the sequence, so it keeps every index it visits |
| JinjaSlice.SliceForward | common/jinja/jinja-value.cpp:42-79 | a forward slice holds the elements `lo, lo+step, ...`, where `lo` and `hi` are the clamped bounds; it is empty exactly when `hi <= lo` and ends at the last such index below `hi` |
| JinjaSlice.SliceBackward | common/jinja/jinja-value.cpp:56-79 | a backward slice holds the elements `lo, lo+step, ...` above the clamped `hi`; it is empty exactly when `lo <= hi` |
| JinjaSlice.SliceDefaults | common/jinja/jinja-value.cpp:36-81 | `a[::1]` is `a`, and `a[::-1]` is `a` reversed |
| JinjaSlice.SliceAsWritten | common/jinja/value.cpp:46-91 | with plain integer bounds a positive step agrees with the optional-bound slice; a negative step ignores both bounds and walks the whole sequence backwards |
| JinjaSlice.SliceAsWrittenIgnoresBounds | common/jinja/value.cpp:66-80 | for a negative step, any two pairs of bounds give the same slice |
| JinjaSlice.SliceAsWrittenBackwardDiffers | common/jinja/value.cpp:66-80 | start 3, stop 0 and step -1 over "abcde" give "edcba" as written, but "dcb" with Python's bounds |
| JinjaSlice.StringSliceBackward | common/jinja/value.cpp:548-577 | `"abcde"\|slice(3, 0, -1)` gives "edcba" as written and "dcb" with the intended bounds |
| JinjaSlice.BackwardAsWritten | common/jinja/value.cpp:66-80 | as written, the backward slice of "abcde" from 3 to 0 is "edcba" |
| JinjaSlice.BackwardWithBounds | common/jinja/jinja-value.cpp:56-79 | with Python's bounds, the backward slice of "abcde" from 3 to 0 is "dcb" |
| JinjaSlice.SliceArgsAsWritten | common/jinja/value.cpp:548-572 | as written, only a call with a receiver of the right kind and three integer bounds, the last non-zero, succeeds, with the bounds `args[1..4]`; with one or two bounds the code reads past the end of the argument vector |
| JinjaSlice.SliceValsOk | common/jinja/value.cpp:550 | the type check passes exactly when there is a receiver of the right kind and at least one bound, and every bound present is an integer |
| JinjaSlice.SliceArgs | common/jinja/value.cpp:548-572 | corrected: one to three integer bounds after the receiver; one bound is the stop, two are start and stop with step 1, three include the step; a zero step fails |
| JinjaSlice.SliceArgsOffByOne | common/jinja/value.cpp:552-564 | `s|slice(i)` reads past the arguments as written, and gives `s[:i]` once corrected |
| JinjaSlice.StringSliceAsWritten | common/jinja/value.cpp:548-578 | the string `slice` succeeds exactly when its arguments do, and gives the sliced text, input exactly when the receiver is all input |
| JinjaSlice.StringSlice | common/jinja/value.cpp:548-578 | the corrected string `slice` gives the Python slice of the text, flagged like the receiver |
| JinjaSlice.ArraySliceAsWritten | common/jinja/value.cpp:652-681 | the array `slice` succeeds exactly when its arguments do, and gives the sliced elements |
| JinjaSlice.ArraySlice | common/jinja/value.cpp:652-681 | the corrected array `slice` gives the Python slice of the elements |
| JinjaSlice.IntOr | common/jinja/jinja-value.cpp:460-462 | an integer bound is taken; any other value gives the default |
| JinjaSlice.ArraySliceOptAsWritten | common/jinja/jinja-value.cpp:456-473 | as written, any call with fewer than four arguments reads past the end; a four-argument call succeeds exactly when the receiver is an array and the step is not zero, and slices with the bounds read, non-integers giving 0, -1 and 1 |
| JinjaSlice.IntArgOr | common/jinja/jinja-value.cpp:460-462 | an absent argument, like a non-integer one, gives the default |
| JinjaSlice.ArraySliceOpt | common/jinja/jinja-value.cpp:456-473 | corrected: one to four arguments with an array receiver and a non-zero step succeed, absent bounds taking their defaults; with four arguments it agrees with the code as written |
| JinjaSlice.Ints | common/jinja/value.cpp:275 | one integer value per counter value, in order |
| JinjaSlice.RangeOf | common/jinja/value.cpp:269-282 | step 0 raises; otherwise the result is the counter's values |
| JinjaSlice.RangeOfSpec | common/jinja/value.cpp:273-281 | `range(start, stop, step)` yields `start + k*step` while below `stop`, or above it for a negative step, and is empty exactly when no value qualifies |
| JinjaSlice.Range | common/jinja/value.cpp:246-283 | `range` succeeds only on one to three integers; one argument counts from 0 to it, two give start and stop with step 1, three include the step; another count is an error |
| JinjaSlice.RangeCountsFromZero | common/jinja/value.cpp:255-258 | `range(n)` is `0, 1, ..., n-1`, and empty for `n <= 0` |
| JinjaSlice.RangeOptAsWritten | common/jinja/jinja-value.cpp:130-160 | as written, one- and two-argument calls read past the end of the argument vector; a three-argument call counts with non-integers read as 0, -1 and 1 |
| JinjaSlice.RangeOpt | common/jinja/jinja-value.cpp:130-160 | corrected: an absent argument takes its default, so one and two arguments count as intended; three arguments agree with the code as written |
| JinjaSlice.RangeOptOneArgument | common/jinja/jinja-value.cpp:134-142 | `range(3)` reads past the arguments as written, and once corrected it gives `[0, 1, 2]`, as `range` in value.cpp does |
| JinjaSlice.ArraySliceOptOneBound | common/jinja/jinja-value.cpp:459-461 | `[1, 2, 3]\|slice(1)` reads past the arguments as written, and once corrected gives `[2]`, the absent stop taking its default -1 |
| JinjaCollections.Receiver | common/jinja/value.cpp:623 | the receiver check passes exactly when `args[0]` exists and has the required kind, and it names the failing case |
| JinjaCollections.List | common/jinja/value.cpp:622-630 | `list` succeeds exactly on an array receiver and copies its elements in order |
| JinjaCollections.First | common/jinja/value.cpp:631-638 | `first` succeeds exactly on an array, giving undefined for an empty one and element 0 otherwise |
| JinjaCollections.Last | common/jinja/value.cpp:639-646 | `last` succeeds exactly on an array, giving undefined for an empty one and the final element otherwise |
| JinjaCollections.Length | common/jinja/value.cpp:647-651 | `length` succeeds exactly on an array and gives its element count |
| JinjaCollections.FirstLastAgree | common/jinja/value.cpp:631-651 | on an array of at most one element, `first` and `last` agree, and `length` is the length of `list` |
| JinjaCollections.LastOfAppend | common/jinja/value.cpp:631-651 | after appending `x`, `last` is `x`, `first` of a non-empty array is unchanged, and `length` grows by one |
| JinjaCollections.Get | common/jinja/jinja-value.cpp:586-596 | `get` succeeds exactly on an object and a string key; a present key gives a value stored under it, and an absent key gives undefined |
| JinjaCollections.GetStoredKey | common/jinja/jinja-value.cpp:586-596 | with distinct keys, `get` of a stored key gives exactly its value |
| JinjaCollections.Keys | common/jinja/value.cpp:815-823 | `keys` succeeds exactly on an object and gives one fresh string per entry, in map order |
| JinjaCollections.Values | common/jinja/value.cpp:824-832 | `values` succeeds exactly on an object and gives the stored values in map order |
| JinjaCollections.Items | common/jinja/value.cpp:833-844 | `items` succeeds exactly on an object and gives a `[key, value]` pair per entry, in map order |
| JinjaCollections.ItemsZipKeysValues | common/jinja/value.cpp:815-844 | `items` pairs `keys` and `values` position by position, and `get` of each key finds the value beside it |
| JinjaCollections.Filter | common/jinja/jinja-value.cpp:489-505 | the kept elements satisfy the predicate, every satisfying element is kept, and nothing is added |
| JinjaCollections.FilterPartition | common/jinja/jinja-value.cpp:489-541 | keeping by a predicate and keeping by its negation split the elements exactly, as multisets |
| JinjaCollections.AttrNames | common/jinja/jinja-value.cpp:480-487 | the attribute names are read exactly when every argument after the receiver is a string, in order; otherwise the first non-string one is reported |
| JinjaCollections.SelectAttr | common/jinja/jinja-value.cpp:474-507 | `selectattr` needs an array receiver and string attributes, and keeps exactly the objects all of whose listed attributes are present, defined and not false |
| JinjaCollections.RejectAttr | common/jinja/jinja-value.cpp:508-542 | `rejectattr` keeps exactly the non-objects and the objects none of whose listed attributes is present, defined and not false |
| JinjaCollections.SelectRejectPartition | common/jinja/jinja-value.cpp:474-542 | with one attribute, `selectattr` and `rejectattr` split the array's elements exactly |
| JinjaCollections.FilterEquiv | common/jinja/jinja-value.cpp:489-541 | filters by predicates that agree on every value give the same result |
| JinjaCollections.NoAttributes | common/jinja/jinja-value.cpp:489-541 | without attributes, `selectattr` keeps exactly the objects and `rejectattr` keeps everything |
| JinjaCollections.FilterKeepsAll | common/jinja/jinja-value.cpp:523-539 | a filter whose predicate holds for every element keeps the whole sequence |
| JinjaCollections.NullList | common/jinja/jinja-value.cpp:638-642 | `list` on null gives an empty array, whatever the arguments |
| JinjaCollections.NullSelectAttr | common/jinja/jinja-value.cpp:643-647 | `selectattr` on null gives an empty array, whatever the arguments |
| JinjaCollections.NullSelectLikeEmpty | common/jinja/jinja-value.cpp:643-647 | on null, `selectattr` gives what it gives on an empty array |
| JinjaCollections.BoolInt | common/jinja/value.cpp:599-603 | `int` succeeds exactly on a boolean and gives 1 for true and 0 for false |
| JinjaCollections.BoolFloat | common/jinja/value.cpp:604-608 | `float` succeeds exactly on a boolean and gives 1.0 or 0.0 |
| JinjaCollections.BoolString | common/jinja/value.cpp:609-613 | `string` succeeds exactly on a boolean and gives "True" or "False", not marked as input |
| JinjaCollections.BoolConversionsAgree | common/jinja/value.cpp:599-613 | the three conversions of a boolean agree with each other and with the accessors |
| JinjaCollections.Default | common/jinja/value.cpp:203-213 | `default` needs two or three arguments and returns either the value or the fallback; without the flag the fallback replaces an undefined or none value; with the flag set it replaces a false boolean, and the flag and value must then be booleans |
| JinjaCollections.DefaultIdempotent | common/jinja/value.cpp:203-213 | with a defined fallback the result is never missing, and applying `default` again changes nothing |
| JinjaCollections.Insert | common/jinja/jinja-value.cpp:683 | after inserting, the key finds the new value; an existing key keeps the entry count, and a new key is appended |
| JinjaCollections.InsertOthers | common/jinja/jinja-value.cpp:683 | inserting one key leaves the lookup of every other key as it was |
| JinjaCollections.HasKeyCons | common/jinja/jinja-value.cpp:683 | a key is present exactly when it is the first entry's key or present among the rest |
| JinjaCollections.FromJson | common/jinja/jinja-value.cpp:656-690 | null, booleans, integers and strings become the matching values; a float becomes a float value carrying the number and its `std::to_string` text; an array keeps its length; an object with `__input__` becomes that string marked as input, and an error when the member is not a string; any other object becomes an object |
| JinjaCollections.FromJsonItems | common/jinja/jinja-value.cpp:667-672 | converted elements stay in order, each the conversion of its JSON element |
| JinjaCollections.FromJsonMembers | common/jinja/jinja-value.cpp:681-685 | when the object converts, every member's value converts |
| JinjaCollections.FromJsonMembersFind | common/jinja/jinja-value.cpp:681-685 | a key no remaining member has keeps its earlier lookup |
| JinjaCollections.FromJsonMembersLast | common/jinja/jinja-value.cpp:681-685 | the last member with a key decides the value stored under it |
| JinjaCollections.GlobalFromJson | common/jinja/jinja-value.cpp:692-700 | a document that is not an object is refused; otherwise it succeeds exactly when every member converts; every member's key becomes a variable, the last member with a key decides its value, other variables are kept, and no other variable appears |
| JinjaCollections.Assignments | common/jinja/jinja-value.cpp:697-699 | one assignment per member, with the member's key, in document order |
| JinjaCollections.AssignmentsMatch | common/jinja/jinja-value.cpp:698 | each assignment holds the conversion of its member's value |
| JinjaCollections.GlobalFrom | common/jinja/jinja-value.cpp:697-699 | the assignments succeed exactly when every remaining conversion does |
| JinjaCollections.GlobalFromFacts | common/jinja/jinja-value.cpp:697-699 | every remaining key is assigned, the last row with a key wins, variables no row names are kept, and nothing else is added |
| JinjaCollections.GlobalFromKeeps | common/jinja/jinja-value.cpp:697-699 | a variable no remaining row names keeps its value, and no key outside the variables and rows appears |
| JinjaCollections.GlobalFromAssigns | common/jinja/jinja-value.cpp:697-699 | every remaining row's key is assigned, and the last row with a key decides its value |
| JinjaCollections.GlobalFromLast | common/jinja/jinja-value.cpp:698 | the last row with a key decides that key's value |
| JinjaCollections.GlobalFromDefines | common/jinja/jinja-value.cpp:698 | every row's key ends up defined |
| JinjaCollections.FloatTextReadsBack | common/jinja/jinja-value.cpp:663-664 | a JSON float becomes a float value with the same number, whose text reads back as the number rounded to six decimals |
| JinjaJson.HexDigit | common/jinja/value.cpp:1026 | the digit written for `d` is one whose hex value is `d` |
| JinjaJson.EscapeChar | common/jinja/value.cpp:1015-1031 | a quote and a backslash get a backslash in front, every control character below U+0020 becomes an escape starting with a backslash, and every other character is copied |
| JinjaJson.EscapeBody | common/jinja/value.cpp:1014-1032 | the escaped text is never shorter than the string |
| JinjaJson.Quote | common/jinja/value.cpp:1013-1034 | the string's JSON text opens and closes with a double quote |
| JinjaJson.EscapeCharClean | common/jinja/value.cpp:1015-1031 | no escape of one character holds a raw control character |
| JinjaJson.EscapeBodyIsClean | common/jinja/value.cpp:1014-1032 | the escaped text holds no raw control character, and a string decoder reads it through to the closing quote |
| JinjaJson.EscapeCharParses | common/jinja/value.cpp:1015-1031 | decoding one escape, as section 7 of RFC 8259 reads it, consumes exactly that escape and gives the character back |
| JinjaJson.EscapeCharShape | common/jinja/value.cpp:1015-1031 | each escape is the character itself, a backslash and one of the RFC 8259 short escapes, or `\u00` and two lower-case hex digits |
| JinjaJson.EscapedParses | common/jinja/value.cpp:1014-1032 | decoding the escaped text followed by a quote gives the original string back and stops at that quote |
| JinjaJson.EscapedParsesStep | common/jinja/value.cpp:1014-1032 | one more escaped character in front keeps the decoding in step |
| JinjaJson.QuoteRoundTrip | common/jinja/value.cpp:1012-1034 | a string literal decoder reads the written literal back to the original string and consumes exactly the literal, whatever follows |
| JinjaJson.QuoteInjective | common/jinja/value.cpp:1012-1034 | distinct strings get distinct JSON texts |
| JinjaJson.ScalarToJson | common/jinja/value.cpp:1004-1034 | none and undefined give `null`, a boolean gives `true` or `false`, an integer gives its decimal text, which reads back as an RFC 8259 integer literal of the same value, and a string gives a literal that decodes back to its text; exactly the scalar kinds other than float have an answer |
| JinjaJson.IntLiteralRoundTrip | common/jinja/value.cpp:1008-1009 | the decimal text written for any integer, negative ones included, is an integer literal as section 6 of RFC 8259 defines it and reads back as that integer |
| JinjaJson.NatLiteralRoundTrip | common/jinja/value.cpp:1008-1009 | the digits written for a non-negative integer have no leading zero except in `0` and read back as that integer |
| JinjaJson.EscapeExamples | common/jinja/value.cpp:1016-1027 | a quote becomes `\"`, a newline becomes `\n`, and U+001F becomes `\u001f` |
| JinjaLexer.Peek | common/jinja/jinja-lexer.cpp:126 | reading inside the source gives its character, and reading at or past the end gives the terminating NUL |
| JinjaLexer.Unescape | common/jinja/jinja-lexer.h:55-65 | exactly `n t r b f v \ ' "` are known escapes |
| JinjaLexer.ConsumeWhile | common/jinja/jinja-lexer.cpp:124-151 | a successful `consume_while` stops inside the source at the first character, or the NUL, that the predicate rejects |
| JinjaLexer.RunEnd | common/jinja/jinja-lexer.cpp:126 | the run end is the first index from `pos` whose character the predicate rejects, or the end of the source |
| JinjaLexer.ConsumeRun | common/jinja/jinja-lexer.cpp:124-151 | for a predicate that rejects backslash and NUL, `consume_while` reads exactly the maximal run and stops at its end |
| JinjaLexer.StringEndsAtQuote | common/jinja/jinja-lexer.cpp:271-277 | when a string body is read, it stops at a closing quote inside the source |
| JinjaLexer.PlainStringBody | common/jinja/jinja-lexer.cpp:271-277 | a body without backslashes or quotes is read verbatim up to the closing quote |
| JinjaLexer.UnterminatedString | common/jinja/jinja-lexer.cpp:145-148 | a string that never closes and holds no backslash raises the end-of-input error |
| JinjaLexer.EscapeInString | common/jinja/jinja-lexer.cpp:128-142 | a backslash as the last character raises, an unknown escape raises and names the character, and a known escape puts its character into the text |
| JinjaLexer.TableEntry | common/jinja/jinja-lexer.h:75-108 | every entry of the ordered mapping table is one or two characters long and gives neither text nor comment |
| JinjaLexer.CharsAtIsSubstring | common/jinja/jinja-lexer.cpp:254 | the character-by-character comparison holds exactly when the entry fits and `src.substr(pos, size)` equals it |
| JinjaLexer.CloseExpressionEntry | common/jinja/jinja-lexer.cpp:251 | the close-expression entry is exactly the `}}` entry the curly-depth rule skips |
| JinjaLexer.MatchFrom | common/jinja/jinja-lexer.cpp:248-267 | the entry found matches at `pos` and is not `}}` inside a curly literal |
| JinjaLexer.MatchFromIsFirst | common/jinja/jinja-lexer.cpp:248-267 | no earlier entry matches: the table is searched in order and the first match wins |
| JinjaLexer.MatchFromNone | common/jinja/jinja-lexer.cpp:248-268 | the search finds nothing exactly when no entry matches |
| JinjaLexer.Skip | common/jinja/jinja-lexer.cpp:248-267 | an entry that does not match passes the search on to the next one |
| JinjaLexer.NewDepth | common/jinja/jinja-lexer.cpp:256-262 | `{{` resets `curly_bracket_depth` to 0, `{` adds one, `}` takes one away, and the depth wraps round as a `size_t` does; other tokens leave it alone |
| JinjaLexer.TextEnd | common/jinja/jinja-lexer.cpp:174-181 | text runs up to the next `{%`, `{{` or `{#`, or to the end of the source, and holds none of them |
| JinjaLexer.CommentEnd | common/jinja/jinja-lexer.cpp:194-199 | the comment loop finds the first `#}` from its start, and raises the missing-end error exactly when there is none |
| JinjaLexer.NumberEnd | common/jinja/jinja-lexer.cpp:281-290 | a number ends inside the source, after its digit run and an optional fraction |
| JinjaLexer.Step | common/jinja/jinja-lexer.cpp:161-302 | each round's token starts at or after the position and the position moves forward; a text token appears only after none, a closing tag or a comment, and holds the whole non-empty text up to the next tag; a round that produces nothing saw only whitespace |
| JinjaLexer.StepAt | common/jinja/jinja-lexer.cpp:211-301 | after the whitespace, a round gives one non-text token starting at the first non-space character |
| JinjaLexer.SignedToken | common/jinja/jinja-lexer.cpp:230-242 | a sign outside an operand context is one token from the sign's position, through its digits |
| JinjaLexer.TableToken | common/jinja/jinja-lexer.cpp:254-265 | a table match gives the entry's type and text at `pos`, moves past it, and updates the depth |
| JinjaLexer.LiteralToken | common/jinja/jinja-lexer.cpp:270-301 | when no entry matches, the round gives a string, number or identifier token, or raises for any other character |
| JinjaLexer.Lex | common/jinja/jinja-lexer.cpp:161-302 | the main loop only appends to the tokens produced so far |
| JinjaLexer.Tokenize | common/jinja/jinja-lexer.cpp:114-305 | `lstrip_blocks` raises its not-implemented error, and every token position lies inside the preprocessed source that is returned with the tokens |
| JinjaLexer.ExtendFacts | common/jinja/jinja-lexer.cpp:166-187 | appending a well-placed token after every earlier one keeps the text placement rule and the increasing positions |
| JinjaLexer.LexFacts | common/jinja/jinja-lexer.cpp:161-302 | a successful run places every text token after none, a closing tag or a comment, and the token positions strictly increase |
| JinjaLexer.WellPlacedNotAdjacent | common/jinja/jinja-lexer.cpp:166-187 | when text tokens are well placed, no two of them are adjacent |
| JinjaLexer.NoAdjacentText | common/jinja/jinja-lexer.cpp:166-187 | the tokens of a successful run never hold two text tokens in a row |
| JinjaLexer.CommentStep | common/jinja/jinja-lexer.cpp:190-204 | `{# ... #}` gives one comment token holding the text before the first `#}`; without `#}` the round raises the missing-end error |
| JinjaLexer.SignAfterText | common/jinja/jinja-lexer.cpp:214-219 | a sign right after text, or before any token, raises the unexpected-character error |
| JinjaLexer.PlusMatches | common/jinja/jinja-lexer.h:100 | `+` is found at entry 20, because no earlier entry starts with it |
| JinjaLexer.MinusMatches | common/jinja/jinja-lexer.h:101 | `-` is found at entry 21, because no earlier entry starts with it |
| JinjaLexer.TableStep | common/jinja/jinja-lexer.cpp:213-268 | when the table matches, and the character is not a sign or follows an operand, the round gives the table's token |
| JinjaLexer.SignToken | common/jinja/jinja-lexer.h:100-101 | the `+` and `-` entries give the sign itself as a one-character additive operator and leave the depth alone |
| JinjaLexer.SignIsBinary | common/jinja/jinja-lexer.cpp:220-229 | after an identifier, a literal, `)` or `]`, a sign is the binary additive operator |
| JinjaLexer.SignIsUnary | common/jinja/jinja-lexer.cpp:230-242 | elsewhere a sign and its following digits form a numeric literal when there are digits, and a unary operator otherwise |
| JinjaLexer.CloseCurlyMatches | common/jinja/jinja-lexer.cpp:251-253 | inside a curly literal, a `}` is found at the one-bracket entry 7 |
| JinjaLexer.CloseExpressionMatches | common/jinja/jinja-lexer.cpp:251-255 | outside a curly literal, `}}` is found whole at entry 3 |
| JinjaLexer.CurlyStep | common/jinja/jinja-lexer.cpp:251-263 | inside a curly literal, `}}` closes one bracket and lowers the depth; outside it ends the expression and keeps the depth at 0 |
| JinjaLexer.OpenStatementWins | common/jinja/jinja-lexer.h:77 | `{%` is matched whole, before the one-character `{` entry |
| JinjaLexer.CloseStatementWins | common/jinja/jinja-lexer.h:78 | `%}` is matched whole, before the one-character `%` entry |
| JinjaLexer.OpenExpressionWins | common/jinja/jinja-lexer.h:79 | `{{` is matched whole, before the one-character `{` entry |
| JinjaLexer.LessEqualWins | common/jinja/jinja-lexer.h:93 | `<=` is matched whole, before the one-character `<` entry |
| JinjaLexer.GreaterEqualWins | common/jinja/jinja-lexer.h:94 | `>=` is matched whole, before the one-character `>` entry |
| JinjaLexer.EqualEqualWins | common/jinja/jinja-lexer.h:95 | `==` is matched whole, before the one-character `=` entry |
| JinjaLexer.NotEqualWins | common/jinja/jinja-lexer.h:96 | `!=` is matched whole as a comparison operator |
| JinjaPreprocess.SkipSpace | common/jinja/jinja-lexer.cpp:43-45 | the index reached is the first from `i` that is not whitespace, or the end |
| JinjaPreprocess.DropSpaceEnd | common/jinja/jinja-lexer.cpp:52-54 | moving the write index back leaves a prefix of what was written, drops only whitespace, and stops at a non-space character or the start |
| JinjaPreprocess.OpenTag | common/jinja/jinja-lexer.cpp:50-66 | an opening marker drops the trailing whitespace already written, adds one space when a `{` is left last, then writes `{X` |
| JinjaPreprocess.TrimFrom | common/jinja/jinja-lexer.cpp:27-73 | the rest of the pass never writes more than it reads |
| JinjaPreprocess.TrimMarkers | common/jinja/jinja-lexer.cpp:22-76 | the marker pass never lengthens the string |
| JinjaPreprocess.MarkerFreeUnchanged | common/jinja/jinja-lexer.cpp:69-72 | without markers, every character is copied and the rest of the text comes out unchanged |
| JinjaPreprocess.TrimMarkersIdentity | common/jinja/jinja-lexer.cpp:27-75 | text without markers passes through the marker pass unchanged |
| JinjaPreprocess.TrimClosingExample | common/jinja/jinja-lexer.cpp:38-47 | `a -%}  b` becomes `a %}b`: the whitespace after the marker goes, and the whitespace before it stays |
| JinjaPreprocess.TrimOpeningExample | common/jinja/jinja-lexer.cpp:50-66 | `x \n{%- y` becomes `x{% y`: the whitespace before the marker goes |
| JinjaPreprocess.TrimGuardExample | common/jinja/jinja-lexer.cpp:56-60 | `{ {{-` becomes `{ {{`: a `{` left before the new tag is kept apart from it by one space |
| JinjaPreprocess.TrimMarkersInPlace | common/jinja/jinja-lexer.cpp:22-76 | the in-place loop, which keeps the write index at or behind the read index, computes exactly the marker pass |
| JinjaPreprocess.CloseStep | common/jinja/jinja-lexer.cpp:38-47 | a closing marker writes `X}` and moves the read index past the whitespace after it, without touching unread input |
| JinjaPreprocess.BackOverSpace | common/jinja/jinja-lexer.cpp:52-54 | the loop moves the write index back exactly over the trailing whitespace already written |
| JinjaPreprocess.OpenStep | common/jinja/jinja-lexer.cpp:50-66 | an opening marker's in-place step writes what `OpenTag` describes and reads three characters |
| JinjaPreprocess.DropFinalNewline | common/jinja/jinja-lexer.cpp:85-87 | one trailing newline, if present, is removed, and nothing else changes |
| JinjaPreprocess.TrimBlocks | common/jinja/jinja-lexer.cpp:97-101 | `trim_blocks` never lengthens the text and leaves text without a tag end followed by a newline unchanged |
| JinjaPreprocess.MatchTag | common/jinja/jinja-lexer.cpp:108-109 | a tag that matches starts with `{%`, ends with `%}`, and is long enough to hold the name |
| JinjaPreprocess.RemoveTag | common/jinja/jinja-lexer.cpp:108-109 | deleting the tags never lengthens the text and changes nothing when no tag is found |
| JinjaPreprocess.Preprocess | common/jinja/jinja-lexer.cpp:78-112 | preprocessing fails exactly when `lstrip_blocks` is set, with its not-implemented error, and otherwise never lengthens the template |
| JinjaPreprocess.NoBraceNoTag | common/jinja/jinja-lexer.cpp:108-109 | without a `{` no tag is found |
| JinjaPreprocess.PreprocessPlainText | common/jinja/jinja-lexer.cpp:78-112 | plain text without markers or braces keeps everything except one final newline |
| JinjaPreprocess.GenerationTagExample | common/jinja/jinja-lexer.cpp:108 | `{% generation %}` is found as one tag of 16 characters |
| JinjaPreprocess.RemoveGenerationExample | common/jinja/jinja-lexer.cpp:108 | removing the `generation` tag leaves the text after it |
| JinjaPreprocess.PreprocessExample | common/jinja/jinja-lexer.cpp:85-109 | `{% generation %}x` plus a newline preprocesses to `x` |
| MergeParser.LeadingCountUnique | examples/merge/parser.hpp:19-21 | the number of leading characters that satisfy the predicate is the one count whose characters all satisfy it and that stops at a character that does not |
| MergeParser.TrailingCountUnique | examples/merge/parser.hpp:22-24 | the same for the trailing characters |
| MergeParser.StrTrim | examples/merge/parser.hpp:16-26 | the two index loops of `str_trim` give exactly the string with leading and trailing C `isspace` characters removed |
| MergeParser.StrSplit | examples/merge/parser.hpp:28-39 | `str_split` cuts at every occurrence of the delimiter from the front, and joining its pieces with the delimiter gives the input back |
| MergeParser.ScanInt | examples/merge/parser.hpp:69 | text that starts with neither whitespace nor a sign scans as its leading digit run |
| MergeParser.ScanDigits | examples/merge/parser.hpp:69 | the value of a leading digit run is never negative |
| MergeParser.LeadingCountAppend | examples/merge/parser.hpp:69 | a run of digits followed by a non-digit has exactly its own length as its leading count |
| MergeParser.ScanDigitsOfPrinted | examples/merge/parser.hpp:171 | the decimal digits of a number, followed by a non-digit, scan back to the number |
| MergeParser.ScanIntMinus | examples/merge/parser.hpp:69 | a minus sign in front of digits negates their value |
| MergeParser.ScanIntOfPrinted | examples/merge/parser.hpp:69 | the printed form of any integer, followed by a non-digit, scans back to that integer |
| MergeParser.ScanNatOfPrinted | examples/merge/parser.hpp:69 | the printed form of a non-negative integer, followed by a non-digit, scans back to it |
| MergeParser.ScanNegativeOfPrinted | examples/merge/parser.hpp:69 | the printed form of a negative integer, followed by a non-digit, scans back to it |
| MergeParser.GetILayer | examples/merge/parser.hpp:67-70 | a name that does not start with `blk.` has layer -1 |
| MergeParser.LayerOfTensorName | examples/merge/parser.hpp:67-70 | `get_i_layer` of a name built by `get_tensor_name` gives back its layer number |
| MergeParser.SetsCons | examples/merge/parser.hpp:76-87 | the component and unit sets of a list are the first name's contribution plus those of the rest |
| MergeParser.CollectOptionsOk | examples/merge/parser.hpp:76-87 | collecting succeeds exactly when every layer name has a third part, and a failure names one of the names |
| MergeParser.CollectOptionsSets | examples/merge/parser.hpp:76-87 | the components collected are the first parts of the non-layer names, and the units are the third parts of the layer names |
| MergeParser.GetModelOptions | examples/merge/parser.hpp:72-89 | the tensor names are kept in order, and the two sets come out ascending, without repeats |
| MergeParser.GetModelOptionsSets | examples/merge/parser.hpp:72-89 | the options are read exactly when every layer name has a unit part, and the two sets are exactly the components and units the names contribute |
| MergeParser.DefaultComponent | examples/merge/parser.hpp:155-164 | every model component starts as SLERP at t = 0.5 from `<c>.weight` in both models, stored under `<c>.weight` |
| MergeParser.DefaultComponents | examples/merge/parser.hpp:155-164 | every model component, and nothing else, gets that default |
| MergeParser.ComponentLine | examples/merge/parser.hpp:204-236 | a component line succeeds only for `linear` with three parameters or `slerp` with two, stores under `params[0]` an instruction named `<params[0]>.weight` from that tensor in both models, refuses `copy`, and reports any other verb |
| MergeParser.ComponentStep | examples/merge/parser.hpp:198-237 | a line that does not start with `component` changes nothing, a component line never drops an entry, and its errors name its line |
| MergeParser.ComponentStepsSound | examples/merge/parser.hpp:198-237 | the component step skips every other line and never drops an entry |
| MergeParser.ComponentPassNoLines | examples/merge/parser.hpp:198-237 | without component lines, the components keep their defaults |
| MergeParser.ComponentPassKeeps | examples/merge/parser.hpp:198-237 | the component pass only adds or replaces entries, so every starting component stays |
| MergeParser.ClassifyLayerLine | examples/merge/parser.hpp:246-269 | the layer loop skips exactly the empty lines, the `#` comments and the component lines; a verb line is never `output layer` |
| MergeParser.ApplyVerb | examples/merge/parser.hpp:271-340 | a verb succeeds exactly for `linear` with four parameters, `slerp` with three, or `copy` with two and model 0 or 1, when the numbers parse; the name is kept, and the sources are the unit's tensors in the named layers; `copy` fills only the chosen model's source; `repeat` and unknown verbs are errors |
| MergeParser.ApplyAll | examples/merge/parser.hpp:343-346 | after `all`, the layer holds exactly its old entries plus every unit |
| MergeParser.ApplyAllOther | examples/merge/parser.hpp:343-346 | `all` leaves every entry that is not a unit as it was |
| MergeParser.SortedTail | examples/merge/parser.hpp:62 | the rest of an ascending unit list is ascending and does not hold its first unit |
| MergeParser.ApplyAllCons | examples/merge/parser.hpp:343-346 | a successful `all` applied the verb to the first unit and continues with the rest |
| MergeParser.ApplyAllAt | examples/merge/parser.hpp:343-346 | after `all`, each unit holds the verb applied to its own earlier instruction |
| MergeParser.ApplyAllNoUnits | examples/merge/parser.hpp:343-346 | with no units, `all` changes nothing |
| MergeParser.NewOutputLayer | examples/merge/parser.hpp:182-189 | a new layer holds one untouched instruction per unit, named `blk.<layer>.<unit>.weight` |
| MergeParser.Flush | examples/merge/parser.hpp:173-181 | the current layer is emitted only when some verb touched it |
| MergeParser.LayerStep | examples/merge/parser.hpp:245-353 | `output layer N` needs N to be one more than the last layer number, emits the current layer and starts a new one; other lines keep the numbering and the emitted layers; a verb line marks the layer touched, except `all` with no units; a line that is not three words and an unknown unit are errors on their line |
| MergeParser.LayerStepsSound | examples/merge/parser.hpp:245-353 | the layer step numbers layers and reports every error on its own line |
| MergeParser.LayerPassNumbering | examples/merge/parser.hpp:260-269 | after the layer pass, the layer index has grown by the number of `output layer` lines, and at most one layer was emitted per such line |
| MergeParser.LayerPassErrorLine | examples/merge/parser.hpp:191-195 | a parse error names a line of the file, counted from 1 |
| MergeParser.ApplyErrorLine | examples/merge/parser.hpp:191-195 | a failing layer line reports its own line number |
| MergeParser.ApplyAllErrorLine | examples/merge/parser.hpp:343-346 | when the verb reports errors on its line, so does `all` |
| MergeParser.ParseConfig | examples/merge/parser.hpp:141-144 | a configuration file that cannot be opened is an error |
| MergeParser.ParseLinesLayers | examples/merge/parser.hpp:198-355 | on success, `n_layers` is the number of `output layer` lines, at most one more layer than that is emitted, and every model component keeps an instruction |
| MergeParser.ParseLinesDefaultComponents | examples/merge/parser.hpp:155-237 | without component lines, the component instructions are exactly the defaults |
| MergeParser.ParseConfigLayers | examples/merge/parser.hpp:137-365 | on success, `n_layers` is the number of `output layer` lines, at most one more layer than that is emitted, and every model component has an instruction |
| MergeParser.ParseConfigDefaultComponents | examples/merge/parser.hpp:137-365 | a file with no component lines leaves exactly the model's components, each at SLERP t = 0.5 |
| Mimi.FrameConstants | examples/tts/mimi-model.cpp:55-67 | an embedding is 32 codes, a frame is 4000 codes, a whole number of embeddings, and a frame's upsampled embeddings fill the 250-position sliding window |
| Mimi.DivCeil | examples/tts/mimi-model.cpp:269-271 | for a positive divisor the result times the divisor reaches the dividend; for a non-negative dividend it is the ceiling of the quotient |
| Mimi.DivCeilOfNegative | examples/tts/mimi-model.cpp:269-271 | with C's truncating division, -3 and 2 give 0, not the ceiling -1 |
| Mimi.DivCeilOfNat | examples/tts/mimi-model.cpp:269-271 | for natural operands, `div_ceil` is the quotient plus one when a remainder is left |
| Mimi.DivCeilShift | examples/tts/mimi-model.cpp:269-271 | adding one divisor to a non-negative dividend adds one to the result |
| Mimi.Conv1dPadding | examples/tts/mimi-model.cpp:273-286 | the kernel size is `(taps - 1) * dilation + 1` and the total padding is kernel minus stride; the extra right padding is non-negative and below one stride; causal mode puts all regular padding on the left; the padded length is a whole number of strides plus one kernel |
| Mimi.ConvOutputFrames | examples/tts/mimi-model.cpp:273-288 | after this padding, the convolution yields the ceiling of length over stride samples, so a stride-1 convolution keeps the length |
| Mimi.ConvTranspose1dPadding | examples/tts/mimi-model.cpp:301-306 | the trimmed padding totals kernel minus stride; in causal mode nothing is trimmed on the left; otherwise half is trimmed on the right |
| Mimi.ConvTransposeOutputLength | examples/tts/mimi-model.cpp:316-318 | a transposed convolution of `length` samples, once trimmed, yields exactly `length * stride` samples |
| Mimi.Codebook | examples/tts/mimi-model.cpp:720-725 | codebook `j` of a frame-major sequence has one code per embedding |
| Mimi.Row | examples/tts/mimi-model.cpp:584 | row `ir` of a codebook-major input has one code per embedding |
| Mimi.RowAt | examples/tts/mimi-model.cpp:584 | entry `i` of row `ir` is input position `ir * n + i` |
| Mimi.SplitIndex | examples/tts/mimi-model.cpp:720-725 | every destination index of the transposition comes from a source index inside the input |
| Mimi.TransposeInput | examples/tts/mimi-model.cpp:714-729 | `transpose_input` succeeds exactly on a whole number of embeddings and keeps the length |
| Mimi.UntransposeInput | examples/tts/mimi-model.cpp:714-729 | the inverse layout change succeeds exactly on a whole number of embeddings and keeps the length |
| Mimi.TransposeAt | examples/tts/mimi-model.cpp:722-724 | position `j * rows + i` of the transposed codes holds code `j` of embedding `i` |
| Mimi.UntransposeAt | examples/tts/mimi-model.cpp:722-724 | position `i * 32 + j` of the untransposed input holds entry `i` of row `j` |
| Mimi.TransposeInputRows | examples/tts/mimi-model.cpp:714-729 | each row of the transposed codes is the matching codebook's codes |
| Mimi.TransposeInputRow | examples/tts/mimi-model.cpp:714-729 | row `j` of the transposed codes is codebook `j`'s codes |
| Mimi.TransposeRoundTrip | examples/tts/mimi-model.cpp:714-729 | undoing the transposition restores the frame-major codes |
| Mimi.UntransposeRoundTrip | examples/tts/mimi-model.cpp:714-729 | transposing also undoes the inverse, so the transposition permutes the codes |
| Mimi.RvqCodebook | examples/tts/mimi-model.cpp:583-595 | row `ir` is looked up in a semantic codebook exactly when `ir` is below the semantic count; acoustic codebooks are numbered from there |
| Mimi.RvqCodebookBijective | examples/tts/mimi-model.cpp:549-564 | every semantic and every acoustic codebook is used by exactly one row |
| Mimi.RvqRows | examples/tts/mimi-model.cpp:569-596 | the quantizer accepts exactly a whole number of embeddings and reads 32 rows, row `ir` being the block `ir * n .. (ir + 1) * n` |
| Mimi.RowsPrefix | examples/tts/mimi-model.cpp:583-584 | the first `k` rows together are the first `k` blocks of the input |
| Mimi.FlattenRowsSnoc | examples/tts/mimi-model.cpp:583-584 | one more row adds its codes at the end |
| Mimi.RvqRowsCover | examples/tts/mimi-model.cpp:583-584 | the rows cover the input exactly, in order |
| Mimi.PlanFrame | examples/tts/mimi-model.cpp:619-664 | a frame is accepted exactly when it is a whole number of embeddings that fits the window; its upsampled embeddings get positions `n_past, n_past + 1, ...`, two per embedding, and `n_past` moves past them |
| Mimi.DecodeFrameRows | examples/tts/mimi-model.cpp:714-729 | when the frame is transposed first, row `j` is looked up in codebook `j` and holds the `j`-th code of every embedding |
| Mimi.DecodeFrameAsWrittenMixesCodebooks | examples/tts/mimi-model.cpp:619-632 | without the transposition, a two-embedding frame sends the semantic code and the first acoustic code of embedding 0 to the semantic codebook, instead of the two semantic codes |
| Mimi.Frames | examples/tts/mimi-model.cpp:696-698 | `decode` cuts the codes into pieces of 4000 codes, the last holding the rest; together the pieces are the input in order |
| Mimi.FramesOne | examples/tts/mimi-model.cpp:696-698 | a non-empty input of at most one frame is one piece |
| Mimi.FramesMore | examples/tts/mimi-model.cpp:696-698 | a longer input starts with a full frame |
| Mimi.FramesWhole | examples/tts/mimi-model.cpp:696-698 | every piece is a whole number of embeddings exactly when the input is |
| Mimi.WholeCons | examples/tts/mimi-model.cpp:696-698 | a whole first piece leaves the question to the rest |
| Mimi.FrameShift | examples/tts/mimi-model.cpp:67 | a full frame does not change the remainder modulo one embedding |
| Mimi.FramesWholeMore | examples/tts/mimi-model.cpp:696-698 | the property carries from the rest of a long input to the whole input |
| Mimi.DecodersSound | examples/tts/mimi-model.cpp:619-664 | both frame steps accept exactly whole embeddings up to one frame and number the upsampled embeddings from `n_past` |
| Mimi.DecodeFramesSpec | examples/tts/mimi-model.cpp:695-704 | the loop succeeds exactly when every piece is a whole number of embeddings, and the positions then run on consecutively from `n_past` across all pieces |
| Mimi.CountAllFlatten | examples/tts/mimi-model.cpp:695-704 | the upsampled embeddings of all pieces are two per embedding of the whole input |
| Mimi.DecodeSpec | examples/tts/mimi-model.cpp:685-712 | `decode` accepts exactly a whole number of embeddings; the positions are then 0, 1, ... over the 2 * (n / 32) upsampled embeddings, one plan per piece |
| Mimi.FormattedName | examples/tts/mimi-model.cpp:207-212 | the looked-up name is the formatted name cut to 127 characters |
| Mimi.GetWeight | examples/tts/mimi-model.cpp:207-218 | `get_weight` finds a tensor exactly when the cut name is loaded, and otherwise throws, naming it |
| Mimi.GetWeights | examples/tts/mimi-model.cpp:361-394 | a constructor's lookups succeed exactly when every name is loaded; otherwise the first missing name is reported |
| Mimi.StageNames | examples/tts/mimi-model.cpp:366-386 | each upsampling stage looks up six weights |
| Mimi.SeanetWeightNames | examples/tts/mimi-model.cpp:361-394 | the SEANet decoder looks up 28 weights |
| Mimi.Kinds | examples/tts/mimi-model.cpp:347-356 | a layer list has one kind per layer |
| Mimi.KindsAppend | examples/tts/mimi-model.cpp:357 | the kinds of joined layer lists are the joined kinds |
| Mimi.DecoderLayersKinds | examples/tts/mimi-model.cpp:361-394 | the layers built are a convolution, four stages of ELU, transposed convolution with strides 8, 6, 5 and 4 and a residual block, then an ELU and a convolution |
| Mimi.SeanetDecoder | examples/tts/mimi-model.cpp:361-394 | the constructor succeeds exactly when all 28 weights are loaded, and then has that layout; otherwise it reports a missing weight |
| Mimi.OutputLengthAppend | examples/tts/mimi-model.cpp:399-414 | the samples out of joined layer lists are those of the second list applied to the first's output |
| Mimi.OutputLengthCons | examples/tts/mimi-model.cpp:399-414 | the first layer's output feeds the rest |
| Mimi.StageUpsamples | examples/tts/mimi-model.cpp:369-385 | a stage multiplies the length by its ratio |
| Mimi.DecoderKindsUpsample | examples/tts/mimi-model.cpp:396-417 | the decoder layout multiplies the length by 960 |
| Mimi.SeanetUpsamples | examples/tts/mimi-model.cpp:396-417 | the decoder built turns each upsampled embedding into 8 * 6 * 5 * 4 = 960 samples |
| WhisperAudio.TagsSpellAscii | tools/mtmd/mtmd-audio.cpp:402 | the RIFF and WAVE byte constants are the ASCII spellings of "RIFF" and "WAVE" |
| WhisperAudio.IsWavBuffer | tools/mtmd/mtmd-audio.cpp:399-412 | the lenient check accepts a buffer only when it has at least 12 bytes, with "RIFF" at offset 0 and "WAVE" at offset 8; the size field is ignored |
| WhisperAudio.ChunkSize | tools/mtmd/mtmd-audio.h:318 | the chunk size read from offset 4 is a little-endian 32-bit unsigned value, so it is below 2^32 |
| WhisperAudio.StrictCheckNoWrap | tools/mtmd/mtmd-audio.h:310-323 | the strict check's 32-bit sum chunk_size + 8 never admits a buffer by wrapping: an accepted buffer's size field plus 8 equals its length exactly, and below 4 GiB the check is equivalent to that equation |
| WhisperAudio.StrictIsStronger | tools/mtmd/mtmd-audio.h:310-323 | whatever the strict check accepts the lenient one accepts; a 12-byte header with a size field of 0 is accepted by the lenient check and rejected by the strict one |
| WhisperAudio.HeaderFields | tools/mtmd/mtmd-audio.h:313 | a buffer built as "RIFF", a 4-byte size, "WAVE" and a payload has the expected length, passes the tag checks and carries the size at offset 4 |
| WhisperAudio.StrictAcceptsWellFormed | tools/mtmd/mtmd-audio.h:310-323 | a header whose size field counts the payload plus the 4 bytes of "WAVE" passes the strict check |
| WhisperAudio.CheckWavFormat | tools/mtmd/mtmd-audio.h:334-350 | the format is accepted exactly when it has 1 or 2 channels, 16000 Hz and 16 bits; the errors come in that order, so a sample-rate error implies a valid channel count and a bit-depth error implies both earlier checks passed |
| WhisperAudio.MixToMono | tools/mtmd/mtmd-audio.h:359-369 | mixing gives one value per frame; mono keeps the samples unchanged |
| WhisperAudio.MixStereoIdentical | tools/mtmd/mtmd-audio.h:366-368 | stereo mixing adds each frame's two interleaved samples, so two identical channels give twice the sample |
| WhisperAudio.ReadWav | tools/mtmd/mtmd-audio.h:326-372 | a buffer the decoder cannot open is an error; otherwise reading succeeds exactly when the format passes the checks and the decoder delivers channels × frames samples, and the result has one value per frame |
| WhisperAudio.ResampleGate | tools/mtmd/mtmd-audio.cpp:338-349 | non-positive rates are rejected first; then an empty input gives an empty output and equal rates give the input back; a non-positive kernel width is an error only after those; every other input goes on to interpolation |
| WhisperAudio.KernelCheckedLast | tools/mtmd/mtmd-audio.cpp:346-349 | with equal rates the input comes back unchanged, whatever the kernel width |
| WhisperAudio.KernelTaps | tools/mtmd/mtmd-audio.cpp:368-375 | the taps for an output sample lie in floor(center) - half + 1 .. floor(center) + half and inside the input; away from the edges there are exactly 2 × half of them |
| WhisperAudio.TapsFrom | tools/mtmd/mtmd-audio.cpp:371-374 | the tap loop keeps only indices inside the input and within the range, and keeps the whole range when the range lies inside the input |
| WhisperAudio.PadSignal | tools/mtmd/mtmd-audio.cpp:225-237 | padding succeeds exactly when the input is longer than frame_size / 2 (the reflection reads samples 1 .. pad); the padded length is the input plus 30 seconds of samples plus twice the pad |
| WhisperAudio.PadSignalLayout | tools/mtmd/mtmd-audio.cpp:231-237 | the padded signal holds the reflection samples[pad - k] at position k, then the input at offset pad, then zeros to the end |
| WhisperAudio.MelFrames | tools/mtmd/mtmd-audio.cpp:239-245 | the data buffer holds n_mel × n_len values and n_mel is the requested band count |
| WhisperAudio.WhisperFrames | tools/mtmd/mtmd-audio.cpp:242-244 | with frame size 400 and hop 160 there are (n + 480000) / 160 columns, at least the 3000 of a 30-second window, and the semi-padded count is 1 + (n - 200) / 160 |
| WhisperAudio.Stride | tools/mtmd/mtmd-audio.cpp:154 | a worker's columns start at its index and stay below the limit |
| WhisperAudio.StrideMembers | tools/mtmd/mtmd-audio.cpp:154 | a column is visited exactly when it lies between the start and the limit and differs from the start by a multiple of the thread count |
| WhisperAudio.LoopEnd | tools/mtmd/mtmd-audio.cpp:154-199 | the first loop leaves the index at the first column of the worker's stride at or past the limit, which the second loop continues from |
| WhisperAudio.StrideSplit | tools/mtmd/mtmd-audio.cpp:154-199 | the FFT loop and the silent loop together visit exactly the worker's stride up to n_len, in order |
| WhisperAudio.Worker | tools/mtmd/mtmd-audio.cpp:141-204 | a worker's FFT columns followed by its silent columns are its whole stride below n_len, and every FFT column starts its frame inside the signal |
| WhisperAudio.StartsInSignal | tools/mtmd/mtmd-audio.cpp:154-155 | a column below n_samples / frame_step + 1 has its offset i × frame_step within the signal |
| WhisperAudio.ColumnOwner | tools/mtmd/mtmd-audio.cpp:248-261 | each column below n_len is written by exactly one of the workers: the one whose index is the column modulo the thread count |
| WhisperAudio.OffsetResidue | tools/mtmd/mtmd-audio.cpp:154 | stepping from ith by n_threads reaches c exactly when c modulo n_threads is ith |
| WhisperAudio.WorkerReadsInBounds | tools/mtmd/mtmd-audio.cpp:158-160 | every window sample a worker reads lies inside the padded signal |
| WhisperAudio.MelIndexInBounds | tools/mtmd/mtmd-audio.cpp:193 | the write position j × n_len + i lies inside the n_mel × n_len data |
| WhisperAudio.DftIndex | tools/mtmd/mtmd-audio.h:83-91 | the DFT's table index (k × n × step) modulo 400 is always a valid index into the 400-entry sine and cosine tables |
| WhisperAudio.TwiddleIndex | tools/mtmd/mtmd-audio.h:131-133 | the even FFT's twiddle index k × (400 / N) stays below 200 for every k < N / 2 |
| WhisperAudio.TwiddleBound | tools/mtmd/mtmd-audio.h:130-133 | the twiddle index is non-negative and below half the table for every bin of an even transform |
| WhisperAudio.HalfProduct | tools/mtmd/mtmd-audio.h:130-133 | the step-count bound behind the twiddle index: k below h steps keeps 2 × k × step below the table size |
| WhisperAudio.FftOutSpanBound | tools/mtmd/mtmd-audio.h:104-140 | the output entries the recursive FFT writes, including its half-size scratch at offsets 2N and 3N, number at most 6N |
| WhisperAudio.FftInSpanBound | tools/mtmd/mtmd-audio.h:104-128 | the input entries the recursive FFT touches, including the half-size copies at offset N, number fewer than 2N |
| WhisperAudio.WorkerBuffersSuffice | tools/mtmd/mtmd-audio.cpp:143-174 | the worker's buffers of 2 and 8 frame sizes cover the 400-point FFT's scratch, and the 201 power values read entries below 402 |
| WhisperAudio.Filters | tools/mtmd/mtmd-audio.cpp:149-151 | a filter bank has 201 FFT bins, the 1 + 400 / 2 the worker asserts, and n_mel × 201 coefficients |
| WhisperAudio.Get128Bins | tools/mtmd/mtmd-audio.cpp:570-574 | the 128-band bank has 201 bins and 128 × 201 coefficients |
| WhisperAudio.Get80Bins | tools/mtmd/mtmd-audio.h:396-400 | the 80-band bank has 201 bins and 80 × 201 coefficients |
| WhisperAudio.LogMelSpectrogram | tools/mtmd/mtmd-audio.cpp:207-262 | the spectrogram proceeds exactly when the frame size is 400, the bank has 1 + frame_size / 2 bins and the input is longer than the pad; it then plans one worker per thread and a data buffer of n_mel × n_len |
| WhisperAudio.PreprocessAudioSpec | tools/mtmd/mtmd-audio.cpp:296-312 | with either precomputed bank, preprocessing fails only on inputs of 200 samples or fewer, and otherwise gives (n + 480000) / 160 columns, four workers and n_mel × n_len values |
| DeepseekWindow.WindowPad | tools/mtmd/models/deepseekocr.cpp:11-12 | the padding is below one window, makes the padded length a multiple of the window, and is zero exactly when the length already is one |
| DeepseekWindow.PadCompletes | tools/mtmd/models/deepseekocr.cpp:11-12 | (window - len % window) % window lies in 0 .. window - 1, completes the last window, and vanishes exactly on multiples of the window |
| DeepseekWindow.WindowPadUnique | tools/mtmd/models/deepseekocr.cpp:11-12 | any amount below one window that completes the last window equals the computed padding |
| DeepseekWindow.WindowCount | tools/mtmd/models/deepseekocr.cpp:13-14 | the window count times the window is the padded length, and a non-empty axis has at least one window |
| DeepseekWindow.ExactQuotient | tools/mtmd/models/deepseekocr.cpp:13-14 | dividing the padded length by the window is exact, and positive for a positive length |
| DeepseekWindow.WindowPartition | tools/mtmd/models/deepseekocr.cpp:5-24 | the partition pads exactly when width or height is not a multiple of the window, and yields window × window tiles with the original channels |
| DeepseekWindow.PartitionKeepsElements | tools/mtmd/models/deepseekocr.cpp:16-22 | the padded map, the first reshape and the tile stack hold the same number of elements, so both reshapes are valid |
| DeepseekWindow.TilesElements | tools/mtmd/models/deepseekocr.cpp:20 | the padded map c × (npw·window) × (nph·window) × b and the reshape (c·window, npw, window, nph·b) have equal products |
| DeepseekWindow.ResultElements | tools/mtmd/models/deepseekocr.cpp:20-22 | the first reshape, its permutation and the tile stack (c, window, window, npw·nph·b) have equal products |
| DeepseekWindow.WindowUnpartition | tools/mtmd/models/deepseekocr.cpp:28-51 | unpartitioning yields a map of the requested width and height with the tiles' channels; it divides by zero exactly when the width or height is zero |
| DeepseekWindow.UnpartitionAfterPartition | tools/mtmd/models/deepseekocr.cpp:5-51 | unpartitioning a partition with the map's own width and height restores its whole shape, batch included |
| DeepseekWindow.GetRelPos | tools/mtmd/models/deepseekocr.cpp:53-89 | the lookup succeeds exactly when the indices are int32 of shape [k_size, q_size]; it then gives a [C, k_size, q_size] result and interpolates exactly when the table length differs from 2 × max(q_size, k_size) - 1 |
| DeepseekWindow.SamLayer | tools/mtmd/models/deepseekocr.cpp:137-212 | a local layer's lookups always succeed and a global layer's succeed exactly when the global indices are [W, W] and [H, H]; a successful layer returns the shape it was given |
| DeepseekWindow.GlobalLayerNeedsSquare | tools/mtmd/models/deepseekocr.cpp:114-187 | with the global index tensor built as [w, h] from the patch grid, a global layer's lookups succeed exactly on a square grid |
| MobilenetBlocks.SamePadding | tools/mtmd/clip-mobilenet.h:20-25 | the total padding is (kernel - 1) - (length - 1) % stride with C's remainder; a non-negative total splits into two halves with the right one at most one larger, a total of -1 splits into zeros and a smaller total leaves a negative left half |
| MobilenetBlocks.HalvesOf | tools/mtmd/clip-mobilenet.h:22-23 | C's truncating t / 2 and (t + 1) / 2 add up to t with the second at most one larger for t >= 0, are both 0 for t = -1, and the first is negative below that |
| MobilenetBlocks.Conv2dPaddingSpec | tools/mtmd/clip-mobilenet.h:13-47 | the left/top assertion holds exactly when neither total padding is below -1; then at most one extra column and row are padded on the right and bottom, and twice the symmetric padding plus the extra one is the total (or zero when the total is -1) |
| MobilenetBlocks.SameOutputLength | tools/mtmd/clip-mobilenet.h:13-61 | with that padding, the convolution's output length (padded - kernel) / stride + 1 is ceil(length / stride), TensorFlow's SAME size |
| MobilenetBlocks.Uir | tools/mtmd/clip-mobilenet.h:142-161 | the constructor keeps the two kernel sizes and the multiscale flag |
| MobilenetBlocks.SubBlocks | tools/mtmd/clip-mobilenet.h:137-140 | a universal inverted residual block has four ConvNormAct sub-blocks |
| MobilenetBlocks.UirSubBlocks | tools/mtmd/clip-mobilenet.h:146-160 | every sub-block has the block's filter count, only dw_start has the block's stride while the others have stride 1, the first three have the block's expansion and dw_proj has expansion 1 |
| MobilenetBlocks.CnaTensorNames | tools/mtmd/clip-mobilenet.h:83-89 | a ConvNormAct sub-block requests two tensors, both under its prefix |
| MobilenetBlocks.TensorNames | tools/mtmd/clip-mobilenet.h:113-205 | every tensor a block requests lies under its prefix; an edge residual requests 4, a universal inverted residual 9 and an attention block none |
| MobilenetBlocks.PrefixedNames | tools/mtmd/clip-mobilenet.h:164-167 | a sub-block loaded under prefix + sub requests two names, both under the block's prefix |
| MobilenetBlocks.UirTensorNames | tools/mtmd/clip-mobilenet.h:163-169 | a universal inverted residual requests the bn and conv weights of dw_start, dw_mid, dw_end and dw_proj under their sub-prefixes, in that order, then layer_scale.weight |
| MobilenetBlocks.BlockPrefix | tools/mtmd/clip-mobilenet.h:266 | a block prefix starts with "v.mobilenet." and ends with a dot |
| MobilenetBlocks.BlockPrefixInjective | tools/mtmd/clip-mobilenet.h:266 | two positions give the same "v.mobilenet.%d.%d." prefix only when their stage and index are equal |
| MobilenetBlocks.DigitsDotSplit | tools/mtmd/clip-mobilenet.h:266 | two decimal numbers joined by a dot split back uniquely |
| MobilenetBlocks.FirstDot | tools/mtmd/clip-mobilenet.h:266 | in a run of digits followed by a dot, the first dot is the one right after the digits |
| MobilenetBlocks.RegisteredAppend | tools/mtmd/clip-mobilenet.h:214-266 | after appending an entry, a key is registered exactly when it was before or is the new entry's key |
| MobilenetBlocks.NotRegisteredAbove | tools/mtmd/clip-mobilenet.h:214 | a key above every registered key is not registered |
| MobilenetBlocks.AddOne | tools/mtmd/clip-mobilenet.h:265-267 | add keeps the stage and advances the index by one whether or not the block was new; std::map::insert leaves a registered block's entry alone and records a new block at the current position |
| MobilenetBlocks.AddOneKeeps | tools/mtmd/clip-mobilenet.h:265-267 | add never drops or changes an existing entry, and afterwards exactly the old keys and the added block are registered |
| MobilenetBlocks.AddRoundsRegistered | tools/mtmd/clip-mobilenet.h:274-284 | repeating the add of already registered blocks leaves the map unchanged and advances the index by count times the number of blocks |
| MobilenetBlocks.AddAllRegistered | tools/mtmd/clip-mobilenet.h:269-272 | adding registered blocks one after another only advances the index |
| MobilenetBlocks.AddRoundsOne | tools/mtmd/clip-mobilenet.h:274-278 | add(count, blk) with a new block records it once at the first round's position and advances the index by count |
| MobilenetBlocks.AddRoundsPair | tools/mtmd/clip-mobilenet.h:280-284 | add(count, blk0, blk1) with two new blocks records each once at its first-round position and advances the index by 2 × count |
| MobilenetBlocks.AddOneFresh | tools/mtmd/clip-mobilenet.h:265-267 | adding a block whose key is above all registered keys appends its entry at the current position |
| MobilenetBlocks.AddRoundsOneFresh | tools/mtmd/clip-mobilenet.h:274-278 | repeating one block whose key is above all registered keys appends one entry and advances the index by count |
| MobilenetBlocks.AddRoundsPairFresh | tools/mtmd/clip-mobilenet.h:280-284 | repeating a pair of blocks whose keys are above all registered keys appends their two first-round entries and advances the index by 2 × count |
| MobilenetBlocks.AppendBatches | tools/mtmd/clip-mobilenet.h:220-247 | appending the entries of successive add calls one batch at a time appends their concatenation |
| MobilenetBlocks.AppendTwo | tools/mtmd/clip-mobilenet.h:220-247 | appending two batches one after another appends their concatenation |
| MobilenetBlocks.Stage0Positions | tools/mtmd/clip-mobilenet.h:221-224 | stage 0 registers its two edge residual blocks at (0, 0) and (0, 1) and leaves the index at 3 |
| MobilenetBlocks.Stage1Positions | tools/mtmd/clip-mobilenet.h:226-232 | stage 1 registers its five blocks at (1, 0) … (1, 4) |
| MobilenetBlocks.Stage2HeadPositions | tools/mtmd/clip-mobilenet.h:235-237 | stage 2 registers block 7 at (2, 0) and the block repeated 7 times once at (2, 1), leaving the index at 8 |
| MobilenetBlocks.Stage2TailPositions | tools/mtmd/clip-mobilenet.h:238-240 | the rest of stage 2 registers its blocks at (2, 8), (2, 9), (2, 10), (2, 35) and (2, 36), leaving the index at 37 |
| MobilenetBlocks.Stage2Positions | tools/mtmd/clip-mobilenet.h:234-240 | stage 2 appends its head and its tail entries and leaves the index at 37 |
| MobilenetBlocks.Stage3PairPositions | tools/mtmd/clip-mobilenet.h:245 | the pair repeated 18 times in stage 3 is registered once at (3, 1) and (3, 2), leaving the index at 37 |
| MobilenetBlocks.Stage3HeadPositions | tools/mtmd/clip-mobilenet.h:244-245 | the head of stage 3 registers block 14 at (3, 0) and the repeated pair once |
| MobilenetBlocks.Stage3Positions | tools/mtmd/clip-mobilenet.h:243-246 | stage 3 registers its five blocks and ends with the index at 39 |
| MobilenetBlocks.KeyedAppend | tools/mtmd/clip-mobilenet.h:220-247 | two batches with consecutive keys that both avoid a position concatenate into one such batch |
| MobilenetBlocks.StageEntriesKeyed | tools/mtmd/clip-mobilenet.h:220-247 | each stage's entries carry consecutive block keys, and none of them holds position (2, 2) |
| MobilenetBlocks.Gemma3nRegistryAsWritten | tools/mtmd/clip-mobilenet.h:220-284 | the constructor as written registers each of its 19 blocks once, in allocation order, and ends at index 39, the count a block per repetition would reach; positions such as (2, 2) name no block |
| MobilenetBlocks.Gemma3nRegistryEntries | tools/mtmd/clip-mobilenet.h:220-247 | the whole construction yields exactly the listed 19 entries and the final stage 3, index 39 |
| MobilenetBlocks.Gemma3nPositionsKeyed | tools/mtmd/clip-mobilenet.h:220-247 | the 19 entries carry the keys 0 … 18 in order and none holds position (2, 2) |
| MobilenetBlocks.StagePositions | tools/mtmd/clip-mobilenet.h:266-284 | with a block per repetition, the k-th block added in a stage gets position (stage, k) |
| MobilenetBlocks.AppendStage | tools/mtmd/clip-mobilenet.h:220-247 | appending a later stage's positions keeps all positions distinct, keeps the earlier ones, and covers every index of the new stage |
| MobilenetBlocks.FourStages | tools/mtmd/clip-mobilenet.h:220-247 | four stages laid out in order give distinct positions covering every index of every stage |
| MobilenetBlocks.Gemma3nPositionsCorrected | tools/mtmd/clip-mobilenet.h:220-247 | with a block per repetition the 84 blocks get distinct prefixes covering stage 0 indices 0-2, stage 1 0-4, stage 2 0-36 and stage 3 0-38 |
| MobilenetGraph.FollowsEnd | tools/mtmd/models/mobilenetv5.cpp:28-30 | the loop over the stage ends finds a match exactly when the block comes right after one of them |
| MobilenetGraph.EndsBelow | tools/mtmd/models/mobilenetv5.cpp:26-32 | the number of stage ends before a block, at most the number of ends: the stage the block belongs to |
| MobilenetGraph.StageStartChangesStage | tools/mtmd/models/mobilenetv5.cpp:26-32 | past block 0 the stage number never decreases, and a block starts a stage exactly when its stage number differs from the previous block's |
| MobilenetGraph.BlockStride | tools/mtmd/models/mobilenetv5.cpp:26-46 | a block runs with stride 1 or 2, and with 2 exactly when it is block 0 or comes right after a stage end |
| MobilenetGraph.StrideAtStageChange | tools/mtmd/models/mobilenetv5.cpp:46 | past block 0 the stride is 2 exactly where the stage changes |
| MobilenetGraph.FusionIndices | tools/mtmd/models/mobilenetv5.cpp:34-55 | the collected features come from exactly the fusion points among the blocks, in increasing block order |
| MobilenetGraph.NoFusionBetween | tools/mtmd/models/mobilenetv5.cpp:52-55 | a run of blocks without a fusion point collects nothing |
| MobilenetGraph.FusionWithStageEnds | tools/mtmd/models/mobilenetv5.cpp:35-37 | with at least four stage ends inside the network, in order, the MSFA receives the outputs of the ends of stages 2 and 3, in that order |
| MobilenetGraph.FusionWithoutStageEnds | tools/mtmd/models/mobilenetv5.cpp:38-40 | with fewer than four stage ends the MSFA receives only the last block's output |
| MobilenetGraph.KindOf | tools/mtmd/models/mobilenetv5.cpp:48-50 | a block with an expansion conv is an edge residual; otherwise one with a query projection is an attention block; otherwise it is an inverted residual |
| MobilenetGraph.BuildBlocks | tools/mtmd/models/mobilenetv5.cpp:44-56 | the loop builds one step per block with the dispatched builder, stride 2 exactly at stage starts and 1 elsewhere, and collects the fusion points' outputs in block order |
| MobilenetGraph.ResizeFeature | tools/mtmd/models/mobilenetv5.cpp:71-93 | a feature neither narrower nor shorter than the first is kept; otherwise a zero-width one divides by zero and any other is upscaled by high_res_w / w on both axes, keeping channels, batch and aspect ratio, reaching the target width exactly when it divides it (a warning only otherwise), and collapsing to 0 × 0 when it is wider but shorter |
| MobilenetGraph.UpscaleFacts | tools/mtmd/models/mobilenetv5.cpp:81-91 | the integer factor keeps the aspect ratio, undershoots the target width by less than the feature width, hits it exactly when the width divides it, and is 0 for a wider feature |
| MobilenetGraph.ConcatChannels | tools/mtmd/models/mobilenetv5.cpp:99 | concatenating along the channel axis succeeds exactly when width, height and batch agree, and adds the channels |
| MobilenetGraph.ResizeAll | tools/mtmd/models/mobilenetv5.cpp:71-94 | resizing gives one feature per collected feature |
| MobilenetGraph.MsfaSquareFeatures | tools/mtmd/models/mobilenetv5.cpp:59-100 | square features of one batch whose widths divide the first one's resize and concatenate into a map at the first feature's resolution holding the sum of their channels |
| MobilenetGraph.ResizeSquare | tools/mtmd/models/mobilenetv5.cpp:71-94 | each such feature resizes to the first feature's square resolution with its own channels, so the channel total is kept |
| MobilenetGraph.ConcatSquare | tools/mtmd/models/mobilenetv5.cpp:97-100 | concatenating maps of one width, height and batch onto an accumulator adds up their channels |
| MobilenetGraph.ConcatFirst | tools/mtmd/models/mobilenetv5.cpp:97-100 | starting the concatenation from the first feature equals starting from an empty map of its shape |
| MobilenetGraph.FinalPool | tools/mtmd/models/mobilenetv5.cpp:130-145 | a map at most 16 wide, or whose width is not a multiple of 16, passes unchanged (the irregular case only prints an error); otherwise average pooling with kernel and stride w / 16 gives width 16, keeps channels and batch, divides the height by the stride and gives height 0 only for height 0 |
| MobilenetGraph.PoolFacts | tools/mtmd/models/mobilenetv5.cpp:136-140 | with a width that is a multiple of 16 above 16 the stride is positive, the pooled width is 16, and the pooled height is h / s, 0 exactly for h = 0 |
| MobilenetGraph.PointwiseConv | tools/mtmd/models/mobilenetv5.cpp:106-128 | a 1x1 convolution with stride 1 and no padding succeeds exactly when the weight's input channels are the map's, and keeps width, height and batch while taking the weight's output channels |
| MobilenetGraph.MsfaFfnSpec | tools/mtmd/models/mobilenetv5.cpp:102-128 | the feed-forward block succeeds exactly when the expansion weight, if loaded, takes the map's channels and the projection weight, if loaded, takes the channels the expansion left; the map then keeps its resolution and batch and has the last loaded weight's output channels |
| MobilenetGraph.MsfaSquarePipeline | tools/mtmd/models/mobilenetv5.cpp:59-151 | square features whose widths divide the first one's, with an expansion taking their summed channels and a projection taking its output, leave the MSFA as the pooled map of the projection's output channels: 16 x 16 when the first width is a multiple of 16 above 16 |
| MobilenetGraph.MsfaExpandMismatch | tools/mtmd/models/mobilenetv5.cpp:106-108 | an expansion weight whose input channels differ from the concatenated map's stops the MSFA with the channel mismatch |
| HifiQuant.RoundHalfAway | ggml/src/ggml-quants-hifi.c:102 | roundf gives the integer nearest to its argument, with halves going away from zero |
| HifiQuant.RoundOfInteger | ggml/src/ggml-quants-hifi.c:102 | rounding an integral value gives that integer back |
| HifiQuant.Clamp | ggml/src/ggml-quants-hifi.c:104-106 | the count is clamped into [lo, hi]: kept when inside, lo when below, hi when above |
| HifiQuant.DepthRatio | ggml/src/ggml-quants-hifi.c:36-38 | with more than one layer the depth ratio of a layer in the stack lies in [0, 1], is 0 for the first layer and 1 for the last; a single layer gets 0.5 |
| HifiQuant.BaseCount | ggml/src/ggml-quants-hifi.c:40-51 | the base count is 8 exactly for depth ≤ 0.30, 7 exactly for depth in (0.30, 0.70], and 5 exactly beyond 0.70 |
| HifiQuant.BaseCountMonotone | ggml/src/ggml-quants-hifi.c:44-51 | a deeper layer never gets a larger base count |
| HifiQuant.ScaleFactor | ggml/src/ggml-quants-hifi.c:53-87 | the model-size factor always lies in [0.75, 1.3] |
| HifiQuant.ScaleFactorRegions | ggml/src/ggml-quants-hifi.c:58-87 | the factor boosts exactly for models of at most 1B parameters, reduces exactly for models of at least 1.5B past depth 0.70 (or past 0.50 from 3B), and is 1 for models between 1B and 1.5B and for every model above 1B in the first half of the stack |
| HifiQuant.ImportanceFactor | ggml/src/ggml-quants-hifi.c:89-98 | the importance factor is 1 for importance in [0.3, 0.7], above 1 above 0.7 and below 1 below 0.3 |
| HifiQuant.ImportanceFactorBounds | ggml/src/ggml-quants-hifi.c:89-98 | for an importance in [0, 1] the factor lies in [0.7, 1.3] and never decreases as the importance grows |
| HifiQuant.OutlierCount | ggml/src/ggml-quants-hifi.c:26-109 | the outlier count always lies in [2, 8], and is 8 when the layer count is not positive |
| HifiQuant.OutlierCountNeutral | ggml/src/ggml-quants-hifi.c:40-108 | with neutral importance and a model between 1B and 1.5B the outlier count equals the base count of the layer's depth |
| HifiQuant.RoundHalfAwayMonotone | ggml/src/ggml-quants-hifi.c:102 | `roundf` never decreases: a larger unrounded count never rounds to fewer outliers |
| HifiQuant.OutlierCountImportanceMonotone | ggml/src/ggml-quants-hifi.c:89-108 | for importances in [0, 1], a more important tensor never gets fewer outliers than a less important one in the same layer of the same model |
| HifiQuant.SmallModelEarlyLayersMax | ggml/src/ggml-quants-hifi.c:80-106 | a model of at most 1B parameters gets the maximum 8 outliers in its first 30% of layers, for any importance of at least 0.3 |
| HifiQuant.LargeModelLastLayer | ggml/src/ggml-quants-hifi.c:59-102 | the last layer of a model of 7B or more with neutral importance gets round(5 × 0.75) = 4 outliers |
| HifiQuant.SumSquares | ggml/src/ggml-quants-hifi.c:128 | a sum of squares is never negative |
| HifiQuant.Moments | ggml/src/ggml-quants-hifi.c:123-129 | the loop accumulates exactly the sum and the sum of squares of the first n values, the latter non-negative |
| HifiQuant.ImportanceOf | ggml/src/ggml-quants-hifi.c:137-152 | the importance always lies in [0.2, 0.9], and is the default 0.5 for a mean below 1e-10 or a negative variance |
| HifiQuant.TensorImportance | ggml/src/ggml-quants-hifi.c:113-153 | the importance lies in [0.2, 0.9]; a null pointer or a non-positive count gives 0.5; otherwise it is the mapped coefficient of variation of the first n values, with the variance taken as the mean square less the squared mean |
| HifiQuant.SumsOfConstant | ggml/src/ggml-quants-hifi.c:123-129 | over constant data the two sums are n × c and n × c² |
| HifiQuant.ConstantDataLeastImportant | ggml/src/ggml-quants-hifi.c:133-150 | constant imatrix data with a positive mean has zero variance and so gets the minimum importance 0.2 |
| HifiQuant.SetContext | ggml/src/ggml-quants-hifi.c:20-22 | after setting, the thread has a slot of its own |
| HifiQuant.SetThenGet | ggml/src/ggml-quants-hifi.c:8-22 | the thread-local slot gives a thread back what it last set, NULL included, and setting on one thread leaves every other thread's slot alone |
| HifiQuant.InitiallyNull | ggml/src/ggml-quants-hifi.c:10-14 | before anything is set every thread reads NULL |
| ServerModels.StatusToString | tools/server/server-models.h:46-54 | every status prints as one of the four names "unloaded", "loading", "loaded", "failed" |
| ServerModels.StatusFromString | tools/server/server-models.h:32-44 | parsing succeeds exactly on the four names; any other text gives the invalid-status error |
| ServerModels.StatusRoundTrip | tools/server/server-models.h:32-54 | parsing a status's printed name gives the status back |
| ServerModels.StatusNameRoundTrip | tools/server/server-models.h:32-54 | printing a successfully parsed status gives back the text that was parsed |
| ServerModels.StatusToStringInjective | tools/server/server-models.h:46-54 | distinct statuses print as distinct names |
| ServerModels.DefaultMeta | tools/server/server-models.h:56-63 | a default metadata record has empty name and paths, is not cached, has port 0 and is unloaded |
| MixedDataset.NonEmptyStripped | tools/create_mixed_imatrix_dataset.py:22-25 | the kept lines are no more than the raw lines and none of them is empty |
| MixedDataset.ScanAll | tools/create_mixed_imatrix_dataset.py:20-28 | without a limit the scan keeps every stripped non-empty line, in file order |
| MixedDataset.ScanLimited | tools/create_mixed_imatrix_dataset.py:24-27 | with a truthy limit the scan stops as soon as it has kept its cap of lines: the first max_lines non-empty lines for a positive limit, the first one for a negative limit |
| MixedDataset.ConsPrefix | tools/create_mixed_imatrix_dataset.py:25 | appending a kept line and then a prefix of the rest is a prefix of the line followed by the rest |
| MixedDataset.ReadLinesSpec | tools/create_mixed_imatrix_dataset.py:18-28 | read_lines keeps the stripped non-empty lines in order: all of them for an absent or zero limit, the first max_lines for a positive limit, and only the first for a negative one |
| MixedDataset.Tightest | tools/create_mixed_imatrix_dataset.py:46-50 | the source chosen for the multiplier has a positive fraction, and there is none exactly when no fraction is positive |
| MixedDataset.Targets | tools/create_mixed_imatrix_dataset.py:37-54 | the targets fail with a division by zero exactly when the ratios sum to zero |
| MixedDataset.TargetsFit | tools/create_mixed_imatrix_dataset.py:46-54 | the multiplier is infinite (and int() fails) exactly when no fraction is positive; otherwise each source with a positive fraction is asked for between 0 and its length, one with a zero fraction for 0 and one with a negative fraction for at most 0, and the tightest source is asked for all its lines |
| MixedDataset.TightestBounds | tools/create_mixed_imatrix_dataset.py:46-50 | the chosen source's len / frac is no larger than any other positive-fraction source's |
| MixedDataset.ScaledFits | tools/create_mixed_imatrix_dataset.py:52-54 | scaling the tightest length by a ratio no looser than a source's own keeps that source's target within its length |
| MixedDataset.SelfScaled | tools/create_mixed_imatrix_dataset.py:52-54 | the tightest source's own target is its length |
| MixedDataset.PyPrefix | tools/create_mixed_imatrix_dataset.py:59-61 | lines[:target] is a prefix of the lines: min(target, len) long for a non-negative target, len + target (or nothing) for a negative one |
| MixedDataset.Clamp | tools/create_mixed_imatrix_dataset.py:69-72 | the number of lines a round takes is the smaller of what is left and the round's quota |
| MixedDataset.TakeUpTo | tools/create_mixed_imatrix_dataset.py:69-82 | a round takes a prefix of a list, as long as the quota or the whole list |
| MixedDataset.DropUpTo | tools/create_mixed_imatrix_dataset.py:69-82 | what a round leaves of a list is the rest after what it took |
| MixedDataset.Interleave | tools/create_mixed_imatrix_dataset.py:64-84 | the mixed list has exactly as many lines as the three lists together |
| MixedDataset.InterleaveTags | tools/create_mixed_imatrix_dataset.py:67-82 | the source tags of the mixed list number the three lengths together |
| MixedDataset.Repeat | tools/create_mixed_imatrix_dataset.py:69-82 | a run of one source's tag of the given length |
| MixedDataset.ProjectAppend | tools/create_mixed_imatrix_dataset.py:64-84 | reading one source's lines out of two concatenated pieces reads them out of each piece in turn |
| MixedDataset.ProjectRun | tools/create_mixed_imatrix_dataset.py:69-82 | reading a source out of a run of one tag keeps the whole run or nothing |
| MixedDataset.ProjectRound | tools/create_mixed_imatrix_dataset.py:68-82 | a round's lines read by source give that source's part of the round |
| MixedDataset.MergeStep | tools/create_mixed_imatrix_dataset.py:67-82 | a round followed by a merge of the remaining lists is a merge of the whole lists |
| MixedDataset.InterleaveIsMerge | tools/create_mixed_imatrix_dataset.py:64-84 | read along its tags, the mixed list holds each source's lines exactly once, in that source's order |
| MixedDataset.TakeAt | tools/create_mixed_imatrix_dataset.py:69-82 | advancing a cursor by a round's quota takes the prefix of what was left and leaves the rest |
| MixedDataset.RoundAt | tools/create_mixed_imatrix_dataset.py:67-82 | interleaving from the cursors is one round's lines followed by the interleaving of what is left |
| MixedDataset.LoopStep | tools/create_mixed_imatrix_dataset.py:67-82 | the loop invariant — what is mixed so far plus the interleaving of the rest is the whole interleaving — survives one round |
| MixedDataset.Regroup | tools/create_mixed_imatrix_dataset.py:67-82 | regrouping the output after a round keeps the whole interleaving |
| MixedDataset.AppendUpTo | tools/create_mixed_imatrix_dataset.py:69-72 | the for-loop appends the next lines of the list, up to its count, and advances the cursor by as many |
| MixedDataset.Round | tools/create_mixed_imatrix_dataset.py:68-82 | one pass of the loop body appends up to two wikitext lines, then up to one code line and one math line, and advances each cursor by what it took |
| MixedDataset.InterleaveLoop | tools/create_mixed_imatrix_dataset.py:64-84 | the loop with its three cursors computes exactly the interleaving |
| MixedDataset.FullRound | tools/create_mixed_imatrix_dataset.py:68-82 | a round with lines left in every list is wikitext, wikitext, code, math, followed by the pattern of the shorter lists |
| MixedDataset.InterleaveDatasets | tools/create_mixed_imatrix_dataset.py:30-84 | interleave_datasets fails exactly when the target computation fails |
| MixedDataset.InterleaveDatasetsMerge | tools/create_mixed_imatrix_dataset.py:30-84 | the mixed dataset holds a prefix of each source, each line once and in its source's order, and its length is the sum of the three prefix lengths |
| MixedDataset.DropUnderscores | tools/create_mixed_imatrix_dataset.py:98 | removing the underscores of Python digit text leaves only digits, and text without underscores is unchanged |
| MixedDataset.DigitTextValue | tools/create_mixed_imatrix_dataset.py:98 | digit text has a value exactly when it is digits with underscores only between digits |
| MixedDataset.DigitTextChars | tools/create_mixed_imatrix_dataset.py:98 | digit text consists of digits and underscores |
| MixedDataset.PyInt | tools/create_mixed_imatrix_dataset.py:98 | int(x) succeeds exactly on whitespace-trimmed text that is digit text, optionally after a sign |
| MixedDataset.PrintedDigits | tools/create_mixed_imatrix_dataset.py:98 | a natural number's decimal text is digit text with that value |
| MixedDataset.PyIntOfPrinted | tools/create_mixed_imatrix_dataset.py:98 | int() reads back every integer's printed form |
| MixedDataset.Collect | tools/create_mixed_imatrix_dataset.py:98 | the tuple is built exactly when every part is an integer, with their values in order; otherwise the first part that is not raises |
| MixedDataset.ParseEach | tools/create_mixed_imatrix_dataset.py:98 | each part's value is int() of that part |
| MixedDataset.RatiosOf | tools/create_mixed_imatrix_dataset.py:98-100 | the ratios are the three values exactly when there are three parts that are all integers; the wrong-count error comes exactly when every part is an integer but there are not three |
| MixedDataset.ParseRatiosSpec | tools/create_mixed_imatrix_dataset.py:97-100 | the --ratio text parses exactly when its comma-split has three parts that int() accepts, giving their values; a count other than three is reported only when every part is an integer |
| MixedDataset.SplitAtFirst | tools/create_mixed_imatrix_dataset.py:98 | splitting at a comma absent from the first piece cuts that piece off |
| MixedDataset.SplitWithout | tools/create_mixed_imatrix_dataset.py:98 | text without a comma splits into itself alone |
| MixedDataset.PrintedHasNoComma | tools/create_mixed_imatrix_dataset.py:98 | a printed integer contains no comma |
| MixedDataset.SplitPrinted | tools/create_mixed_imatrix_dataset.py:98 | three printed integers joined with commas split back into the three texts |
| MixedDataset.ParseRatiosOfPrinted | tools/create_mixed_imatrix_dataset.py:92-100 | three printed integers joined with commas, like the default "50,25,25", parse back to the same three values |
| MixedDataset.ParseThreeParts | tools/create_mixed_imatrix_dataset.py:98-100 | three integer parts give the ratios of their values |
| MixedDataset.ThreeValues | tools/create_mixed_imatrix_dataset.py:98-100 | three values give the triple of those values |
| CompareLogits.EscapeAllOne | scripts/compare-logits.py:75 | the reference escaping of one character is that character's escape |
| CompareLogits.EscapeAllAppend | scripts/compare-logits.py:75 | the reference escaping of a concatenation is the concatenation of the escapings |
| CompareLogits.CleanText | scripts/compare-logits.py:74-75 | a cleaned token is at least two characters long and starts and ends with a single quote |
| CompareLogits.CharMapAppend | scripts/compare-logits.py:75 | replacing one character in a concatenation replaces it in each part |
| CompareLogits.CharMapAbsent | scripts/compare-logits.py:75 | replacing a character the text lacks leaves the text alone |
| CompareLogits.CharMapOne | scripts/compare-logits.py:75 | replacing a character in a one-character text gives the replacement or the character |
| CompareLogits.NoCharBefore | scripts/compare-logits.py:75 | when str.replace finds no occurrence before position i, no character before i is the one replaced |
| CompareLogits.CharMapSplit | scripts/compare-logits.py:75 | replacing a character splits the text at its first occurrence: the text before, the replacement, then the rest replaced |
| CompareLogits.ReplaceCharIsMap | scripts/compare-logits.py:75 | str.replace of a single character equals mapping each character on its own |
| CompareLogits.StagesAppend | scripts/compare-logits.py:75 | the four chained replacements distribute over concatenation |
| CompareLogits.StagesOne | scripts/compare-logits.py:75 | on one character the four replacements give exactly that character's escape: no later replacement touches the backslash sequence an earlier one wrote |
| CompareLogits.StagesCharwise | scripts/compare-logits.py:75 | the chained replacements equal the character-by-character escaping |
| CompareLogits.CleanTextCharwise | scripts/compare-logits.py:74-75 | clean_text is the quoted character-by-character escaping of newline, tab, carriage return and bar |
| CompareLogits.EscapeAllSafe | scripts/compare-logits.py:75 | the escaped text holds no newline, tab or carriage return, every bar follows a backslash, and it does not start with a bar |
| CompareLogits.CleanTextSafe | scripts/compare-logits.py:74-101 | every cleaned token can sit in one Markdown table cell: no line break or tab, every bar escaped |
| CompareLogits.EscapePlain | scripts/compare-logits.py:75 | text without the four special characters is left unchanged by the escaping |
| CompareLogits.CleanTextConflates | scripts/compare-logits.py:75 | the escaping is not reversible: a newline token and the two-character token backslash-n are written identically |
| CompareLogits.Key | scripts/compare-logits.py:62-70 | j[key] succeeds exactly on a dict holding the key and gives its value; a list or other value raises |
| CompareLogits.First | scripts/compare-logits.py:62-71 | j[0] gives a non-empty list's first item, and succeeds only on a list or a string |
| CompareLogits.In | scripts/compare-logits.py:63 | on a dict, "key in j" tests the keys |
| CompareLogits.GetTokenLogprobs | scripts/compare-logits.py:61-71 | a successful read implies the response is a dict with a "choices" key |
| CompareLogits.GetOne | scripts/compare-logits.py:61-71 | a one-member dict holds its key with its value |
| CompareLogits.GetOfTwo | scripts/compare-logits.py:61-71 | a two-member dict with distinct keys holds both with their values, and no "content" key unless one of them is "content" |
| CompareLogits.LlamaCppRoundTrip | scripts/compare-logits.py:63-66 | a llama.cpp response reads back as its top candidate's token and log-probability |
| CompareLogits.VllmRoundTrip | scripts/compare-logits.py:67-71 | a vLLM response reads back as its first token and first log-probability |
| CompareLogits.ContentWins | scripts/compare-logits.py:63-66 | a "content" key selects the llama.cpp reading whatever token lists the logprobs also hold |
| CompareLogits.BlankIsStripEmpty | scripts/compare-logits.py:91 | a line is skipped exactly when strip() leaves nothing of it |
| CompareLogits.Row | scripts/compare-logits.py:94-104 | a row has five cells whose token cells are table-safe; a failure reports the line it happened on |
| CompareLogits.RowOfResponses | scripts/compare-logits.py:94-104 | a llama.cpp line and a vLLM line with numeric log-probabilities become the row of the two cleaned tokens, both values to four decimals and their absolute difference to four decimals |
| CompareLogits.NumericCells | scripts/compare-logits.py:102-104 | the numeric cells exist exactly when both log-probabilities are numbers Python can subtract, and the difference cell never carries a minus sign |
| CompareLogits.NumericCellsReadBack | scripts/compare-logits.py:102-104 | each numeric cell reads back as its number, or the absolute difference, rounded to four decimals, and the difference read back is not negative |
| CompareLogits.CellReadsBack | scripts/compare-logits.py:104 | a four-decimal cell reads back as its number rounded to the nearest 0.0001, and a non-negative number stays non-negative |
| CompareLogits.Kept | scripts/compare-logits.py:90-92 | the kept line numbers are in range, in increasing order, and neither file's line is blank there |
| CompareLogits.KeptComplete | scripts/compare-logits.py:90-92 | every line number at which neither line is blank is kept |
| CompareLogits.Entries | scripts/compare-logits.py:90-104 | the entries are the rows of the kept lines, one each and in order, or the error of the first kept line whose row fails |
| CompareLogits.ColumnWidth | scripts/compare-logits.py:106-108 | a column's width is at least its starting width and every entry's cell length, and equals one of them |
| CompareLogits.Widths | scripts/compare-logits.py:85-108 | each column is as wide as the widest of its header cell and every entry's cell |
| CompareLogits.Repeat | scripts/compare-logits.py:115 | '-' * n is n dashes |
| CompareLogits.PadRight | scripts/compare-logits.py:112-119 | f"{s:<{w}}" starts with s, is padded with spaces, and is max(len(s), w) long |
| CompareLogits.OffsetBound | scripts/compare-logits.py:110-120 | each column and its three separator characters end within the line |
| CompareLogits.FitsTail | scripts/compare-logits.py:106-108 | the remaining cells still fit the remaining widths |
| CompareLogits.CellsTextLength | scripts/compare-logits.py:111-119 | a line of cells that fit their widths is exactly as long as the columns with their separators |
| CompareLogits.CellAtShift | scripts/compare-logits.py:110-120 | a cell written into a line sits shifted by the prefix's length once text is put in front |
| CompareLogits.CellsTextHead | scripts/compare-logits.py:112-119 | a row's first column is a bar, a space and the cell padded to its width |
| CompareLogits.CellsTextAt | scripts/compare-logits.py:111-119 | bar j of a row sits at column j's offset and cell j starts two characters after it |
| CompareLogits.RuleTextLength | scripts/compare-logits.py:114-115 | the rule line is exactly as long as the columns with their separators |
| CompareLogits.RuleTextAt | scripts/compare-logits.py:114-115 | bar j of the rule sits at column j's offset |
| CompareLogits.RowLineLayout | scripts/compare-logits.py:111-120 | a row line has the table's length, a bar at every column offset including the closing one, and each cell after its bar |
| CompareLogits.RuleLineLayout | scripts/compare-logits.py:114-116 | the rule line has the table's length and a bar at every column offset |
| CompareLogits.TableLines | scripts/compare-logits.py:110-120 | the table is the header line, the rule line, then one line per entry, all with the computed widths |
| CompareLogits.TableLengths | scripts/compare-logits.py:106-120 | every line of the table has the same length |
| CompareLogits.TableBars | scripts/compare-logits.py:106-120 | every line of the table has its column bars at the same offsets |
| CompareLogits.TableCells | scripts/compare-logits.py:106-120 | entry i's cell j is written two characters after bar j of line i + 2 |
| CompareLogits.CompareLogits | scripts/compare-logits.py:78-124 | the report fails on the line-count assertion exactly when the files differ in length; otherwise it fails with the first failing kept line's error, or it is the title followed by the table of one row per kept line, in order |
| CompareLogits.ReadLinesConcat | scripts/compare-logits.py:80-81 | readlines() of lines that each end in their only newline gives those lines back |
| CompareLogits.CellsTextOneLine | scripts/compare-logits.py:110-120 | a row of cells without newlines is written without newlines |
| CompareLogits.RuleTextOneLine | scripts/compare-logits.py:114-115 | the rule holds no newline |
| CompareLogits.LineOfOneLine | scripts/compare-logits.py:113-120 | a row body without newlines plus "\|\n" is one line |
| CompareLogits.ReportReadsBack | scripts/compare-logits.py:110-123 | when no cell holds a newline, reading the table back gives exactly its header, rule and entry lines |
| CompareLogits.Authorization | scripts/compare-logits.py:53 | the Authorization header is sent exactly for a non-empty API key, as "Bearer " followed by the key |
| CompareLogits.Prompts | scripts/compare-logits.py:38-44 | one prompt is sent per word of the prompt split at spaces |
| CompareLogits.AccumulatedPrefix | scripts/compare-logits.py:42 | curr_text only grows: each earlier value is a prefix of every later one |
| CompareLogits.AccumulatedJoin | scripts/compare-logits.py:42 | after n words, curr_text is the first n words joined by spaces plus a trailing space |
| CompareLogits.PromptsGrow | scripts/compare-logits.py:38-44 | each request's text before stripping is a prefix of the prompt followed by a space, and the last one is the whole prompt followed by a space |
| CompareLogits.Answers | scripts/compare-logits.py:41-56 | the loop writes at most one response line per remaining prompt |
| CompareLogits.DumpIsAnswers | scripts/compare-logits.py:40-56 | the dump file is the answered responses, each followed by a newline, and a loop that was not stopped answered every prompt |
| CompareLogits.DumpReadsBack | scripts/compare-logits.py:36-81 | when responses are single lines, reading the dump back gives one line per answered request, in request order, each the response to that request's prompt, and an unstopped dump has one line per word of the prompt |
| CompareLogits.AnswersAreLines | scripts/compare-logits.py:51-56 | each written answer is one line holding the response to the matching prompt |
| TensorConvert.CastForNumpy | examples/tts/convert_mimi_to_gguf.py:38-40 | the cast keeps the shape, leaves F16 and F32 tensors alone and makes every other dtype F32 |
| TensorConvert.FileTypeQType | examples/tts/convert_mimi_to_gguf.py:83-93 | each of the four file types selects its storage type (F32, F16, BF16, Q8_0), and any other value is the unsupported-file-type error |
| TensorConvert.QuantizeWithFallback | examples/tts/convert_mimi_to_gguf.py:101-106 | a quantization that succeeds keeps the requested type; a failing one is retried as F16, and the step fails exactly when that retry fails too |
| TensorConvert.Picked | examples/tts/convert_mimi_to_gguf.py:36-41 | the picked indices are increasing, in range, and each names an item that yields a tensor |
| TensorConvert.PickedComplete | examples/tts/convert_mimi_to_gguf.py:36-41 | every item that yields a tensor is among the picked indices |
| TensorConvert.Collect | examples/tts/convert_mimi_to_gguf.py:36-41 | a finished loop ran every item without error and wrote, in order, exactly the tensors of the picked items; a failed loop stops with the error of an item after only successful ones |
| TensorConvert.CollectSource | examples/tts/convert_csm_to_gguf.py:128-133 | every tensor the loop writes is what one state-dict entry turned into |
| TensorConvert.CollectCovers | examples/tts/convert_csm_to_gguf.py:128-133 | every tensor a state-dict entry turns into is written by the loop |
| CsmConverter.FileName | examples/tts/convert_csm_to_gguf.py:99 | Path.name is a suffix of the path |
| CsmConverter.CheckOutputName | examples/tts/convert_csm_to_gguf.py:99-100 | the converter goes on exactly when the output file name holds "<component>", and otherwise raises naming that file name |
| CsmConverter.OutputPathsDiffer | examples/tts/convert_csm_to_gguf.py:99-232 | once the name check passes, the backbone and decoder files get different paths |
| CsmConverter.WriteMetadata | examples/tts/convert_csm_to_gguf.py:44-69 | the metadata is written exactly when the vocabulary's architecture is "llama" and it has a token list and token types; the keys carry the class's layer, head and embedding sizes, head dimension embed_dim // num_heads for rope, key and value, and the token list and token types cut to the vocabulary size |
| CsmConverter.HeadDimensions | examples/tts/convert_csm_to_gguf.py:31-82 | the backbone's head dimension is 64 and the decoder's 128, each dividing the embedding exactly among the heads |
| CsmConverter.RenamePlain | examples/tts/convert_csm_to_gguf.py:144-156 | rename_transformer leaves alone a name holding none of its ten patterns |
| CsmConverter.RouteOf | examples/tts/convert_csm_to_gguf.py:158-192 | only the projection is routed to both components, renamed csm_proj.weight; a name routed nowhere keeps its name |
| CsmConverter.ProjectionOutside | examples/tts/convert_csm_to_gguf.py:158-189 | "projection.weight" matches none of the five family tests that come before it in the chain |
| CsmConverter.AudioHeadOutside | examples/tts/convert_csm_to_gguf.py:158-178 | "audio_head" matches none of the five family tests that come before it in the chain |
| CsmConverter.ProjectionRoute | examples/tts/convert_csm_to_gguf.py:189-192 | the projection goes to both components as csm_proj.weight |
| CsmConverter.AudioHeadRoute | examples/tts/convert_csm_to_gguf.py:178-180 | the audio head goes to the decoder only, as audio_head.weight |
| CsmConverter.UnknownRoute | examples/tts/convert_csm_to_gguf.py:158-192 | a name outside every branch of the chain goes to neither component, unrenamed |
| CsmConverter.PadAudioHead | examples/tts/convert_csm_to_gguf.py:181-187 | the padding succeeds exactly for a (31, 1024, 2051) head, which becomes (32, 2051, 1024); otherwise the shape assertion fails |
| CsmConverter.RequestedQType | examples/tts/convert_csm_to_gguf.py:136-206 | a 1-D tensor asks for F32; any other tensor fails exactly for an unsupported file type, otherwise the backbone asks for the file type's storage type and the decoder never for Q8_0 |
| CsmConverter.AddTensor | examples/tts/convert_csm_to_gguf.py:135-225 | a tensor is written exactly when it belongs to the pass's component, under its routed name; the decoder never stores Q8_0, a 1-D tensor is stored as F32 or F16, the audio head's padding is the decoder pass's shape and its failure, and the file-type error is raised on every other tensor of more than one dimension |
| CsmConverter.PassProvenance | examples/tts/convert_csm_to_gguf.py:128-225 | every tensor a pass writes comes from an entry routed to that component, under its routed name, and the decoder pass stores no Q8_0 |
| CsmConverter.PassComplete | examples/tts/convert_csm_to_gguf.py:128-225 | every entry routed to a component is written by that component's pass under its routed name |
| CsmConverter.Pass | examples/tts/convert_csm_to_gguf.py:128-133 | a finished pass wrote exactly the entries routed to its component, under their routed names, and the decoder pass stores no Q8_0 |
| CsmConverter.Convert | examples/tts/convert_csm_to_gguf.py:92-232 | a missing placeholder is the first error; a conversion that succeeds gives two files at distinct paths with "<component>" replaced, the backbone file holding the backbone pass and the decoder file the decoder pass, with no Q8_0 in the decoder |
| CsmConverter.ProjectionInBoth | examples/tts/convert_csm_to_gguf.py:189-225 | a projection in the state dict ends up as csm_proj.weight in both files |
| CsmConverter.UnknownTensorSkipped | examples/tts/convert_csm_to_gguf.py:158-217 | a tensor outside every branch of the chain is written by neither pass |
| MimiConverter.Lookup | examples/tts/convert_mimi_to_gguf.py:59-61 | state_dict[key] finds a tensor exactly when some entry has that key, and then the tensor is that entry's |
| MimiConverter.PermuteHeads | examples/tts/convert_mimi_to_gguf.py:122-123 | undo_permute reshapes with n_head_kv whenever it is given, and with n_head otherwise |
| MimiConverter.UndoPermuteShape | examples/tts/convert_mimi_to_gguf.py:121-126 | undo_permute succeeds exactly when the tensor has a dimension, the head count is positive and the reshape into (h, 2, rows // h // 2, rest) keeps the element count; it then gives back the shape it started with |
| MimiConverter.UndoPermuteEven | examples/tts/convert_mimi_to_gguf.py:121-126 | rows that split evenly into 2h groups can always be un-permuted |
| MimiConverter.Broadcast | examples/tts/convert_mimi_to_gguf.py:63 | a broadcast shape is as long as the longer operand |
| MimiConverter.BroadcastSymmetric | examples/tts/convert_mimi_to_gguf.py:63 | broadcasting does not depend on the order of the operands |
| MimiConverter.BroadcastSame | examples/tts/convert_mimi_to_gguf.py:63 | a shape broadcasts with itself to itself |
| MimiConverter.CodebookShape | examples/tts/convert_mimi_to_gguf.py:63 | a (k, d) embed_sum divided by a (k) cluster usage keeps the (k, d) shape |
| MimiConverter.Codebook | examples/tts/convert_mimi_to_gguf.py:57-64 | a non-codebook tensor is unchanged; a codebook needs its embed_sum and cluster_usage entries, with a KeyError naming the first one missing, and a matching pair gives embed_sum's shape |
| MimiConverter.ConvBiasShape | examples/tts/convert_mimi_to_gguf.py:71-73 | a conv bias is reshaped exactly when it has a dimension and as many elements as that first dimension, and it becomes a (n, 1) column of the same size |
| MimiConverter.QuantizerProjShape | examples/tts/convert_mimi_to_gguf.py:76-78 | a quantizer projection is flattened exactly when it has at least three dimensions, the third is 1 and the element counts agree, and it becomes its first two dimensions |
| MimiConverter.RequestedQType | examples/tts/convert_mimi_to_gguf.py:44-97 | a 1-D or bias tensor asks for F32 (F16 for a conv kernel); any other fails exactly for an unsupported file type and otherwise asks for the file type's storage type, conv kernels always F16 |
| MimiConverter.Prepare | examples/tts/convert_mimi_to_gguf.py:49-64 | the un-permutation keeps the shape, so only a codebook changes the tensor; outside the q and k projections the step is the codebook rebuild, and it fails only with a missing tensor or a bad shape |
| MimiConverter.Finish | examples/tts/convert_mimi_to_gguf.py:70-112 | a kept tensor is written under its shortened name with the element count it had, conv kernels as F16, a conv bias as an (n, 1) column and a quantizer projection as two dimensions; it fails only with a file-type, quantization or shape error |
| MimiConverter.AddTensor | examples/tts/convert_mimi_to_gguf.py:43-112 | a tensor is dropped exactly when its name marks a processed codebook part; a written tensor carries its shortened name, F16 for conv kernels, F32 or F16 for 1-D and bias tensors, and its element count unless it is a rebuilt codebook; a codebook missing its embed_sum raises a KeyError naming it |
| MimiConverter.PassProvenance | examples/tts/convert_mimi_to_gguf.py:36-97 | every tensor written comes from a kept state-dict entry under its shortened name, and every conv kernel among them is F16 |
| MimiConverter.PassComplete | examples/tts/convert_mimi_to_gguf.py:36-81 | every kept state-dict entry is written under its shortened name |
| MimiConverter.Convert | examples/tts/convert_mimi_to_gguf.py:33-41 | the architecture assertion fails exactly when the first architecture is not "MimiModel"; a finished conversion wrote exactly the kept entries under their shortened names, conv kernels as F16, no more tensors than entries |
| Json.Get | gguf-py/gguf/utility.py:142-143 | a lookup finds a value exactly when some member has the key, and it is the value of the last member with that key, as json.loads keeps it |
| Json.Keys | gguf-py/gguf/utility.py:168 | the keys are the items' first components, in order |
| Json.ItemAt | gguf-py/gguf/utility.py:168 | a member contributes one item exactly when it is the first with its key, and that item carries the value the lookup finds |
| Json.ItemsFromSound | gguf-py/gguf/utility.py:168 | every item carries the value the lookup finds for its key and comes from a first occurrence |
| Json.ItemsFromComplete | gguf-py/gguf/utility.py:168 | every first occurrence of a key yields an item |
| Json.FirstKeyNotLater | gguf-py/gguf/utility.py:168 | the key of a first occurrence does not come back later among the items |
| Json.DistinctCons | gguf-py/gguf/utility.py:168 | a new key in front of distinct keys keeps them distinct |
| Json.ItemsFromDistinct | gguf-py/gguf/utility.py:168 | no key is listed twice among the items |
| Json.Items | gguf-py/gguf/utility.py:168 | dict.items() lists each key of the object once, with the value a lookup finds, and no key the object lacks |
| Json.FirstIndexOf | gguf-py/gguf/utility.py:168 | the index found is the first member with the key |
| Json.AsNumber | gguf-py/gguf/utility.py:177-178 | an integer is itself and a boolean 0 or 1; other values, floats included, have no integer reading |
| Json.AsReal | scripts/compare-logits.py:102 | the values Python subtracts are integers, floats and booleans; a float is its own value and an integer or boolean agrees with its integer reading |
| Json.Iterate | gguf-py/gguf/utility.py:176 | unpacking succeeds on every value but null, booleans and numbers, and a list unpacks to its items |
| StringSort.LessIrreflexive | gguf-py/gguf/utility.py:146 | no string sorts before itself |
| StringSort.LessTransitive | gguf-py/gguf/utility.py:146 | string order is transitive |
| StringSort.LessTotal | gguf-py/gguf/utility.py:146 | of two different strings one sorts before the other |
| StringSort.LessAsymmetric | gguf-py/gguf/utility.py:146 | two strings never each sort before the other |
| StringSort.Insert | examples/merge/parser.hpp:61-62 | inserting into a strictly ascending sequence keeps it strictly ascending and adds exactly the new element |
| StringSort.SortedSet | gguf-py/gguf/utility.py:145-146 | sorted(set(xs)) is strictly ascending and holds exactly the elements of xs |
| StringSort.SortedUnique | gguf-py/gguf/utility.py:145-146 | two strictly ascending sequences with the same elements are equal, so the set's iteration order does not matter |
| StringSort.ElementsEmpty | examples/merge/parser.hpp:61-62 | a sequence has no elements exactly when it is empty |
| StringSort.ElementsCons | examples/merge/parser.hpp:61-62 | the elements of x in front of xs are x and the elements of xs |
| CInt.Abs | tools/mtmd/clip-mobilenet.h:21 | the magnitude is the value or its negation |
| CInt.Quot | tools/mtmd/clip-mobilenet.h:22-23 | C's quotient truncates toward zero: its magnitude is the quotient of the magnitudes, and it is the floor for non-negative operands |
| CInt.Rem | tools/mtmd/clip-mobilenet.h:21 | C's remainder completes b times the quotient to a, is smaller than b in size and has the sign of a |
| CInt.QuotRem | tools/mtmd/clip-mobilenet.h:21-23 | a is b times the quotient plus the remainder of the magnitudes carrying a's sign |
| Bytes.Pow256 | gguf-py/gguf/utility.py:200 | every power of 256 is positive |
| Bytes.LittleEndian | gguf-py/gguf/utility.py:200 | int.from_bytes of k octets is below 256 to the k |
| Bytes.ToLittleEndian | gguf-py/gguf/utility.py:197-200 | encoding to k octets gives k octets |
| Bytes.LittleEndianRoundTrip | gguf-py/gguf/utility.py:197-200 | decoding the k-octet little-endian encoding of a number below 256 to the k gives the number back |
| Bytes.ToLittleEndianRoundTrip | gguf-py/gguf/utility.py:197-200 | encoding the value of k octets back to k octets gives the octets back |
| Bytes.Ascii | tools/mtmd/mtmd-audio.h:313 | the octets of an ASCII tag are its characters' codes, one per character |
| Text.ToUpper | common/jinja/jinja-string.h:135 | a lower-case ASCII letter becomes its upper-case letter and every other character is unchanged |
| Text.ToLower | common/jinja/jinja-string.h:142 | an upper-case ASCII letter becomes its lower-case letter and every other character is unchanged |
| Text.UpperAll | common/jinja/jinja-string.h:135 | upper-casing a text upper-cases each character in place |
| Text.LowerAll | common/jinja/jinja-string.h:142 | lower-casing a text lower-cases each character in place |
| Text.FindFrom | common/jinja/value.cpp:498 | a position found is an occurrence at or after the starting point |
| Text.FindFromSpec | common/jinja/value.cpp:498 | find reports the first occurrence at or after the starting point, and npos only when there is none |
| Text.FindFromFirst | common/jinja/value.cpp:498 | the first occurrence at or after the starting point is the one find reports |
| Text.OccursShift | common/jinja/value.cpp:498 | an occurrence in t at j is an occurrence in u + t at len(u) + j, and back |
| Text.FindFromShift | common/jinja/value.cpp:498 | searching u + t from len(u) finds what searching t finds, shifted by len(u) |
| Text.FindFromShiftFound | common/jinja/value.cpp:498 | the first occurrence in t is found in u + t, shifted by len(u) |
| Text.FindFromShiftMissing | common/jinja/value.cpp:498 | a pattern absent from t is not found in u + t from len(u) |
| Text.FindLast | common/jinja/value.cpp:476 | a position rfind reports is an occurrence |
| Text.FindLastUpTo | common/jinja/value.cpp:476 | a position found is an occurrence at or before the bound |
| Text.FindLastSpec | common/jinja/value.cpp:476 | rfind reports the last occurrence, and npos only when there is none |
| Text.FindLastUpToSpec | common/jinja/value.cpp:476 | the position found is the last occurrence at or before the bound, and none is reported only when there is none |
| Text.LeadingCount | tools/create_mixed_imatrix_dataset.py:23 | the leading run counted is all stripped characters and is followed by a kept one |
| Text.TrailingCount | tools/create_mixed_imatrix_dataset.py:23 | the trailing run counted is all stripped characters and is preceded by a kept one |
| Text.TrimStart | tools/create_mixed_imatrix_dataset.py:23 | lstrip leaves a suffix that starts with a kept character, having removed only stripped ones |
| Text.TrimEnd | tools/create_mixed_imatrix_dataset.py:23 | rstrip leaves a prefix that ends with a kept character, having removed only stripped ones |
| Text.Trim | tools/create_mixed_imatrix_dataset.py:23 | strip leaves the slice between the stripped runs at both ends, starting and ending with a kept character |
| Text.TrimUnchanged | tools/create_mixed_imatrix_dataset.py:23 | text with a kept character at both ends is its own strip |
| Text.TrimIdempotent | tools/create_mixed_imatrix_dataset.py:23 | stripping twice is stripping once |
| Text.Split | tools/create_mixed_imatrix_dataset.py:98 | split gives at least one piece |
| Text.JoinCons | tools/create_mixed_imatrix_dataset.py:98 | joining a piece in front of others puts the delimiter between |
| Text.JoinSnoc | tools/create_mixed_imatrix_dataset.py:98 | joining a piece after others puts the delimiter between |
| Text.SplitJoin | tools/create_mixed_imatrix_dataset.py:98 | joining the pieces of split with the delimiter gives back the text |
| Text.SplitCount | tools/create_mixed_imatrix_dataset.py:98 | split gives one piece more than there are non-overlapping occurrences of the delimiter |
| Text.SplitPiecesFree | tools/create_mixed_imatrix_dataset.py:98 | no piece of split holds the delimiter |
| Text.ReplaceIsSplitJoin | gguf-py/gguf/utility.py:60 | str.replace is joining the split pieces with the replacement |
| Text.ReplaceIdentity | gguf-py/gguf/utility.py:60 | replacing a pattern by itself changes nothing |
| Text.ReplaceRemovesChar | gguf-py/gguf/utility.py:60 | replacing a character by text without it removes it entirely, as replace(' ', '-') removes every space |
| Text.DigitChar | gguf-py/gguf/utility.py:40 | a digit's character is a decimal digit |
| Text.NatToString | gguf-py/gguf/utility.py:40 | str() of a natural number is decimal digits with no leading zero |
| Text.IntToString | common/jinja/jinja-value.h:61 | std::to_string of an integer is non-empty and starts with a minus sign exactly for a negative number |
| Text.NatToStringValue | gguf-py/gguf/utility.py:40 | the decimal digits read back as the number |
| FixedPoint.RoundHalfEven | scripts/compare-logits.py:104 | the rounded integer is at least as close to the number as any other integer, within one half of it, and even on a tie |
| FixedPoint.ScaledRound | scripts/compare-logits.py:104 | the count of 10^-places units is the integer nearest to the scaled magnitude, even on a tie |
| FixedPoint.FixedText | common/jinja/jinja-value.h:71 | the text is non-empty and starts with a minus sign exactly for a negative number |
| FixedPoint.UnitsText | common/jinja/jinja-value.h:71 | the unsigned text starts with a digit |
| FixedPoint.UnitsTextReadsBack | common/jinja/jinja-value.h:71 | the unsigned text of a count of units reads back as that count |
| FixedPoint.PointReadsBack | common/jinja/jinja-value.h:71 | a point put before the last digits does not change the value the digits read back as |
| FixedPoint.FixedTextReadsBack | scripts/compare-logits.py:104 | the text reads back, with its sign, as the number rounded to the nearest multiple of 10^-places, ties to an even last digit |
| FixedPoint.HalfWithFourPlaces | scripts/compare-logits.py:104 | 0.5 with four decimals is "0.5000" |
| FixedPoint.TinyNegativeWithFourPlaces | scripts/compare-logits.py:104 | -0.00001 with four decimals is "-0.0000": the sign survives rounding to zero |
| FixedPoint.ZeroWithFourPlaces | scripts/compare-logits.py:104 | zero units with four decimals is written "0.0000" |

## Left out

Environment and foreign code:

- HTTP (`requests.get`/`head`, redirects, timeouts) is a `Network` parameter that maps one request to a reply or a transport failure. The threads of the parallel fetch are a sequential map over chunk indices, and its results are scanned in index order as the joined threads' list is. The `HF_TOKEN` environment variable is a parameter.
- UTF-8 decoding, `json.loads`, `std::stof`, the WAV decoders (miniaudio, drwav), `gguf.quants.quantize`, `GGUFWriter`, `MimiModel.from_pretrained`, `hf_hub_download` and the safetensors and GGUF readers are parameters or are not modelled. These are library code whose source is not part of this model.
- Tensor arithmetic (ggml graphs and torch operations) is not modelled. The vision, audio and codec models keep only their shapes, index arithmetic and selection logic; the converters keep shapes, dtypes and storage types, not element values or packed bytes.
- Floating-point numerics are left out: the FFT/DFT values, the Hann window, the mel filter coefficients and the log/clamp normalisation of the spectrogram, the sinc interpolation of the resampler, the PCM to float scaling, and the Jinja float arithmetic and its `std::to_string` text.
- Concurrency, processes and servers are left out: the server's locking and proxying, process spawning, and the model-router methods that server-models.h only declares (server-models.cpp is not part of this model).
- Logging, progress output and debug dumps are left out.
- The template engine's evaluator, parser, compiler, type inference and regex-based rewrites are not part of this model.

Modelling choices and weaker contracts:

- MixedDataset.Targets: computes `int(min_multiplier * frac)` in exact rational arithmetic, where the tool uses floats. The two can differ by one line. For ratios 1,1,5 over lengths 2,2,7, the tool's floats give targets 1,1,6, while the model gives 1,1,7 for math.
- MixedDataset.TargetsFit: "the tightest source contributes all its lines" holds for the exact arithmetic, not for the tool's floats, which can lose one line as above.
- MixedDataset.Targets: a float infinity or NaN target becomes the single `NonFiniteTarget` error.
- MixedDataset.PyInt: only the ASCII digits 0-9 count as digits. Python's `int()` also accepts other Unicode decimal digits, such as the Arabic-Indic digit three, and those are not modelled.
- MixedDataset.ReadLinesSpec: lines are the file's raw lines; file opening and the `errors='ignore'` decoding are not modelled.
- HifiQuant.OutlierCount: single precision is modelled as `real`. The thresholds compare exactly and only `roundf` rounds, so float rounding at a threshold is not modelled.
- HifiQuant.OutlierCount: its own contract states only the [2, 8] range and the count for a non-positive layer total. The value itself is stated by the lemmas on neutral importance, small and large models and importance order, not for every input.
- HifiQuant.ImportanceOf: `sqrtf` is a parameter, and NaN inputs are not modelled.
- GgufNaming.NamingConvention: Python's `str.upper` and `str.lower` are modelled as ASCII case mapping, so non-ASCII letters keep their case.
- GgufNaming.FillTemplatedFilename: `str.format` fields with a conversion, a format spec, attribute access or indexing give the `Unsupported` error rather than Python's output.
- GgufNaming.SizeLabelShape: the fixed-point text of `model_weight_count_rounded_notation` comes from a `FixedFormatter` parameter, so the lemma states the label's `NxB` prefix and scale suffix, not its digits.
- Json: a JSON number is an integer or a double, and a double is kept as its exact value. The parsers are oracles, so how a decimal literal is rounded to a double is not modelled. NaN and the infinities, which Python's `json.loads` also accepts, are not represented.
- Safetensors.TensorEntry: a floating-point data offset gives `OffsetsType`. Python would build the tensor with float offsets; files written by the safetensors library always hold integers there.
- FixedPoint.FixedText: a `real` has no negative zero, so a double `-0.0` is written without the minus sign that `std::to_string` and Python print for it.
- SafetensorModel.WeightFiles: a weight map whose values are not all strings gives `BadWeightMap`. The tool would build the set and fail, or succeed, when sorting mixed values.
- MergeParser.ScanInt: `std::stoi` is modelled without its `out_of_range` exception for numbers that do not fit an `int`.
- MergeParser.ParseConfig: a component line with too few parts gives `MalformedComponent`, where the source reads past the vector (undefined behaviour).
- MergeParser.GetModelOptions: a layer tensor name with fewer than three dot-separated parts gives `ShortLayerName`, where `parts[2]` in the source reads past the vector (undefined behaviour). `MergeParser.CollectOptions` has the same stand-in.
- MergeParser.ParseConfig: the two `unordered_map`s whose iteration order decides the order of the emitted instructions are kept as maps, because that order is unspecified.
- MergeParser.GetModelOptions: the tensor names of the input models are a parameter.
- JinjaString.Length: each `char` stands for one byte of the `std::string`, so `length()` counts bytes only for ASCII text. Multi-byte UTF-8 characters are not modelled; the case mapping and whitespace tests work on single bytes in the source too, as the C library functions do in the "C" locale.
- JinjaValue.AsInt: integers are unbounded, so 64-bit overflow in the template engine is not modelled.
- JinjaArgs.EnsureCount: `ensure_count` and `ensure_vals` are declared in a header that is not part of this model. They are modelled with the meaning their callers rely on.
- WhisperAudio.ReadWav: the decoder is a parameter. A decoder that delivers the wrong number of samples is reported as `NotDecodable`.
- WhisperAudio.ChunkSize: a little-endian host is assumed. The source reads the field through a `uint32_t` pointer cast, which gives the little-endian value only on such a host.
- WhisperAudio.StrictCheckNoWrap: the 32-bit wrap of `chunk_size + 8` is modelled; other 32-bit `int` widths in the front end are not.
- WhisperAudio.ResampleGate: only the precondition order and the tap count are modelled, not the interpolation.
- ServerModels.StatusToString: the `"unknown"` default branch cannot be reached, because the model has no out-of-range enumeration values.
- DeepseekWindow: only shapes are modelled, not view contiguity.
- MobilenetGraph: only tensor shapes are modelled. The MSFA feed-forward convolutions change only the channel count, the RMS norms and GELU keep the shape, and the values are not modelled.
- MobilenetGraph.PointwiseConv: the feed-forward weights are taken as 1x1 kernels, as the source's comments say. A larger kernel from the model file would shrink the map, and that is not modelled.
- CompareLogits.NumericCells: the absolute difference is the exact one. Python first rounds `logprob1 - logprob2` to the nearest double, which changes the fourth decimal only when the exact difference lies within that rounding error of a rounding boundary. An integer log-probability above 2^53 is written exactly, where Python converts it to the nearest double first.
- CompareLogits.DumpIsAnswers: the completion endpoint is an oracle, and `raise_for_status` is the only HTTP error modelled.
- CsmConverter.Convert: the vocabulary fields other than the architecture, token list and token types are copied as they are read; the hub download in `main` is not modelled.
- MimiConverter.Convert: an empty `architectures` list gives `WrongArchitecture`, where the tool raises an IndexError.
- MimiConverter.UndoPermuteShape: only the shape of `undo_permute` is modelled, not its element order.
- MimiConverter.CodebookShape: the codebook's dtype after the division follows `embed_sum`; torch's type promotion is not modelled.
- TensorConvert.QuantizeWithFallback: numpy conversion failures are not modelled; the quantizer decides alone whether a type is accepted.

## Findings

| source | as written | input that shows it | evidently intended | confidence | as-written member | corrected member |
|---|---|---|---|---|---|---|
| gguf-py/gguf/utility.py:193-194 | `get_metadata` always requests the first 5 MiB, and the range fetch raises `IOError` when fewer bytes come back | any safetensors file shorter than 5 MiB, for example a 100-byte file whose header fits | read up to 5 MiB (or the file's size) and parse the header | not executed | Safetensors.GetMetadataAsWritten, Safetensors.ShortFileRejected; also Safetensors.GetListTensorsAsWritten, Safetensors.ListTensorsShortFileRejected, SafetensorModel.GetListTensorsHfModelAsWritten, SafetensorModel.HfModelShortFileRejected | Safetensors.GetMetadata, Safetensors.GetListTensors, SafetensorModel.GetListTensorsHfModel |
| common/jinja/value.cpp:552-564 | the string `slice` filter takes its three bounds from `args[1..3]`, and with two arguments reads `args[2]`, past the end; the one-argument branch cannot be reached | `"abcde"\|slice(2)` | the one bound is the stop, as in Python's `s[:2]` | not executed | JinjaSlice.SliceArgsAsWritten, JinjaSlice.SliceArgsOffByOne | JinjaSlice.SliceArgs |
| common/jinja/value.cpp:66-80 | with a negative step the start and stop arguments are ignored: the walk always runs from the last element to the first | `"abcde"\|slice(3, 0, -1)` gives `"edcba"` | Python's `"dcb"` | not executed | JinjaSlice.SliceAsWritten, JinjaSlice.StringSliceBackward | JinjaSlice.Slice |
| common/jinja/jinja-value.cpp:134-136 | `range` reads `args[1]` and `args[2]` whatever the number of arguments | `range(3)` reads past the one argument | `[0, 1, 2]` | not executed | JinjaSlice.RangeOptAsWritten, JinjaSlice.RangeOptOneArgument | JinjaSlice.RangeOpt |
| common/jinja/jinja-value.cpp:459-461 | the array `slice` filter reads `args[1..3]` before it looks at the count | `[1, 2, 3]\|slice(1)` | the absent stop takes its default -1, giving `[2]` | not executed | JinjaSlice.ArraySliceOptAsWritten, JinjaSlice.ArraySliceOptOneBound | JinjaSlice.ArraySliceOpt |
| tools/mtmd/clip-mobilenet.h:265-283 | `add(count, blk)` inserts the same block pointer `count` times into a map keyed by that pointer, so only the first insertion is kept while the block counter still advances | Gemma 3n stage 1, where one pointer is added with count 2 | every block index gets its own map entry | not executed | MobilenetBlocks.Gemma3nRegistryAsWritten | MobilenetBlocks.Gemma3nPositionsCorrected |
| examples/tts/mimi-model.cpp:619-632 | `decode_frame` hands its codes to the residual vector quantizer, which reads row `i` of the code matrix as codebook `i` (lines 566-584); the header comment (lines 31-32 of the same file) describes codebook-major input, but the text-to-speech caller passes one frame after another and `transpose_input` is never called | two frames of two codebooks, `[a0, b0, a1, b1]` in frame order | each codebook receives its own codes; which layout is meant is ambiguous between the comment and the caller | not executed | Mimi.DecodeFrameAsWrittenMixesCodebooks | Mimi.DecodeFrameRows |

=== FILE: bytes.dfy ===
/**
 * Octets and little-endian integers.
 *
 * A byte buffer is a `seq<byte>`.  `LittleEndian` is the value Python's
 * `int.from_bytes(b, byteorder='little')` gives and the value a C reader
 * assembles from consecutive octets; `ToLittleEndian` is its inverse for a
 * fixed width.
 */
module Bytes {

  newtype byte = x: int | 0 <= x < 256

  function Pow256(k: nat): (r: nat)
    ensures r >= 1
  {
    if k == 0 then 1 else 256 * Pow256(k - 1)
  }

  /** Unsigned little-endian value of `bs`: `bs[0]` is the least significant octet. */
  function LittleEndian(bs: seq<byte>): (r: nat)
    ensures r < Pow256(|bs|)
    decreases |bs|
  {
    if |bs| == 0 then 0 else bs[0] as nat + 256 * LittleEndian(bs[1..])
  }

  /** The `k` least significant octets of `n`, least significant first. */
  function ToLittleEndian(n: nat, k: nat): (r: seq<byte>)
    ensures |r| == k
    decreases k
  {
    if k == 0 then [] else [(n % 256) as byte] + ToLittleEndian(n / 256, k - 1)
  }

  lemma {:induction false} LittleEndianRoundTrip(n: nat, k: nat)
    requires n < Pow256(k)
    ensures LittleEndian(ToLittleEndian(n, k)) == n
    decreases k
  {
    if k > 0 {
      var r := ToLittleEndian(n, k);
      assert r[1..] == ToLittleEndian(n / 256, k - 1);
      LittleEndianRoundTrip(n / 256, k - 1);
    }
  }

  lemma {:induction false} ToLittleEndianRoundTrip(bs: seq<byte>)
    ensures ToLittleEndian(LittleEndian(bs), |bs|) == bs
    decreases |bs|
  {
    if |bs| > 0 {
      ToLittleEndianRoundTrip(bs[1..]);
      var n := LittleEndian(bs);
      assert n % 256 == bs[0] as nat;
      assert n / 256 == LittleEndian(bs[1..]);
    }
  }

  /** Octets of an ASCII string (every character below 128). */
  function Ascii(s: string): (r: seq<byte>)
    requires forall i :: 0 <= i < |s| ==> s[i] as int < 128
    ensures |r| == |s| && forall i :: 0 <= i < |s| ==> r[i] as int == s[i] as int
  {
    seq(|s|, i requires 0 <= i < |s| => s[i] as int as byte)
  }
}

=== FILE: c_int.dfy ===
/**
 * C and C++ integer division: `/` rounds toward zero and `%` takes the sign
 * of the dividend.  Dafny's own `/` and `%` are Euclidean, so the two agree
 * only for a non-negative dividend and a positive divisor.
 */
module CInt {
  function Abs(a: int): (r: nat)
    ensures r == a || r == -a
  {
    if a < 0 then -a else a
  }

  /** `a / b` in C. */
  function Quot(a: int, b: int): (q: int)
    requires b != 0
    ensures a >= 0 && b > 0 ==> q == a / b
    ensures Abs(q) == Abs(a) / Abs(b)
  {
    NatDiv(Abs(a), Abs(b));
    var m := Abs(a) / Abs(b);
    if (a < 0) != (b < 0) then -m else m
  }

  lemma NatDiv(x: nat, y: nat)
    requires y > 0
    ensures x / y >= 0
  {
  }

  /** `a % b` in C: it has the sign of `a`, is smaller than `b` in size, and completes
      `b * Quot(a, b)` to `a`. */
  function Rem(a: int, b: int): (r: int)
    requires b != 0
    ensures a == b * Quot(a, b) + r
    ensures Abs(r) < Abs(b)
    ensures a >= 0 ==> 0 <= r
    ensures a <= 0 ==> r <= 0
    ensures a >= 0 && b > 0 ==> r == a % b
  {
    var m := Abs(a) % Abs(b);
    var r := if a < 0 then -m else m;
    QuotRem(a, b);
    r
  }

  lemma QuotRem(a: int, b: int)
    requires b != 0
    ensures a == b * Quot(a, b) + (if a < 0 then -(Abs(a) % Abs(b)) else Abs(a) % Abs(b))
  {
    var q := Abs(a) / Abs(b);
    var m := Abs(a) % Abs(b);
    assert Abs(a) == Abs(b) * q + m;
    if a < 0 && b < 0 {
      assert Quot(a, b) == q;
      assert -a == -b * q + m;
    } else if a < 0 {
      assert Quot(a, b) == -q;
      assert -a == b * q + m;
      assert b * Quot(a, b) == -(b * q);
    } else if b < 0 {
      assert Quot(a, b) == -q;
      assert a == -b * q + m;
      assert b * Quot(a, b) == -(b * q);
    } else {
      assert Quot(a, b) == q;
    }
  }

  /** Euclidean division by a positive divisor has a unique quotient and remainder. */
  lemma DivModUnique(q: int, r: int, d: int)
    requires d > 0 && 0 <= r < d
    ensures (q * d + r) / d == q
    ensures (q * d + r) % d == r
  {
    var x := q * d + r;
    var q2 := x / d;
    var r2 := x % d;
    assert (q - q2) * d == r2 - r;
    if q2 < q {
      MulAtLeast(q - q2, d);
    } else if q2 > q {
      MulAtLeast(q2 - q, d);
    }
  }

  lemma MulAtLeast(k: int, d: int)
    requires k >= 1 && d > 0
    ensures k * d >= d
  {
    assert k * d == (k - 1) * d + d;
    assert (k - 1) * d >= 0;
  }

  /** Row-major indices stay inside the table. */
  lemma IndexBound(i: nat, j: nat, rows: nat, width: nat)
    requires i < rows && j < width
    ensures i * width + j < rows * width
  {
    assert i * width <= (rows - 1) * width by {
      assert (rows - 1) * width - i * width == (rows - 1 - i) * width;
    }
    assert (rows - 1) * width == rows * width - width;
  }

  lemma MulMono(a: nat, b: nat, n: nat)
    requires a <= b
    ensures a * n <= b * n
  {
    assert b * n - a * n == (b - a) * n;
  }

  lemma MulCancelLess(a: nat, b: nat, n: nat)
    requires a * n < b * n
    ensures a < b
  {
    if a >= b {
      MulMono(b, a, n);
      assert false;
    }
  }

  /** Adding the divisor leaves the remainder unchanged. */
  lemma ModAddStep(x: nat, d: nat)
    requires d > 0
    ensures (x + d) % d == x % d
  {
    assert x + d == (x / d + 1) * d + x % d;
    DivModUnique(x / d + 1, x % d, d);
  }
}

=== FILE: compare_logits.dfy ===
/**
 * `scripts/compare-logits.py`: dump the top-1 log-probability an OpenAI-style
 * completion endpoint gives after each growing prefix of a prompt, one JSON
 * response per line, and compare two such dumps as a Markdown table.
 *
 * The endpoint is an oracle from a request to the response text or the HTTP
 * status that `raise_for_status` rejects; `json.loads` is an oracle from a
 * line to a JSON value.  A log-probability is a JSON number, taken as
 * the double's exact value; a row's three numeric cells are both values
 * and their absolute difference written with four decimals.
 */
module CompareLogits {
  import opened Wrappers
  import opened Json
  import opened Text
  import FixedPoint

  // ---------------------------------------------------------------------
  // clean_text
  // ---------------------------------------------------------------------

  /** How `clean_text` writes one character of a token. */
  function EscapeChar(c: char): string {
    if c == '\n' then "\\n"
    else if c == '\t' then "\\t"
    else if c == '\r' then "\\r"
    else if c == '|' then "\\|"
    else [c]
  }

  /** Reference escaping: every character as EscapeChar writes it, left to right. */
  function EscapeAll(s: string): string
    decreases |s|
  {
    if |s| == 0 then "" else EscapeChar(s[0]) + EscapeAll(s[1..])
  }

  lemma EscapeAllOne(c: char)
    ensures EscapeAll([c]) == EscapeChar(c)
  {
    assert [c][1..] == [];
  }

  lemma {:induction false} EscapeAllAppend(a: string, b: string)
    ensures EscapeAll(a + b) == EscapeAll(a) + EscapeAll(b)
    decreases |a|
  {
    if |a| == 0 {
      assert a + b == b;
    } else {
      assert (a + b)[0] == a[0] && (a + b)[1..] == a[1..] + b;
      EscapeAllAppend(a[1..], b);
    }
  }

  /** `clean_text(text)`: four chained `str.replace` calls, the result in single quotes. */
  function CleanText(text: string): (r: string)
    ensures |r| >= 2 && r[0] == '\'' && r[|r| - 1] == '\''
  {
    "'" + ReplaceAll(ReplaceAll(ReplaceAll(ReplaceAll(text, "\n", "\\n"), "\t", "\\t"), "\r", "\\r"), "|", "\\|") + "'"
  }

  /** A one-character `str.replace` as a map over the characters. */
  function CharMap(s: string, c: char, rep: string): string
    decreases |s|
  {
    if |s| == 0 then "" else (if s[0] == c then rep else [s[0]]) + CharMap(s[1..], c, rep)
  }

  lemma {:induction false} CharMapAppend(a: string, b: string, c: char, rep: string)
    ensures CharMap(a + b, c, rep) == CharMap(a, c, rep) + CharMap(b, c, rep)
    decreases |a|
  {
    if |a| == 0 {
      assert a + b == b;
    } else {
      assert (a + b)[0] == a[0];
      assert (a + b)[1..] == a[1..] + b;
      CharMapAppend(a[1..], b, c, rep);
    }
  }

  lemma {:induction false} CharMapAbsent(s: string, c: char, rep: string)
    requires c !in s
    ensures CharMap(s, c, rep) == s
    decreases |s|
  {
    if |s| > 0 {
      assert s[0] != c;
      CharMapAbsent(s[1..], c, rep);
      assert s == [s[0]] + s[1..];
    }
  }

  lemma CharMapOne(x: char, c: char, rep: string)
    ensures CharMap([x], c, rep) == if x == c then rep else [x]
  {
    assert [x][1..] == [];
  }

  /** No one-character occurrence before `i` means no such character before `i`. */
  lemma NoCharBefore(s: string, c: char, i: nat)
    requires i <= |s|
    requires forall j :: 0 <= j < i ==> !OccursAt(s, [c], j)
    ensures forall j :: 0 <= j < i ==> s[j] != c
  {
    forall j | 0 <= j < i ensures s[j] != c {
      assert !OccursAt(s, [c], j);
      assert s[j..j + 1] == [s[j]];
    }
  }

  /** Mapping splits at the first occurrence of the character. */
  lemma CharMapSplit(s: string, i: nat, c: char, rep: string)
    requires i < |s| && s[i] == c
    requires forall j :: 0 <= j < i ==> s[j] != c
    ensures CharMap(s, c, rep) == s[..i] + rep + CharMap(s[i + 1..], c, rep)
  {
    var head := s[..i];
    var rest := s[i + 1..];
    assert c !in head;
    CharMapAbsent(head, c, rep);
    assert s == head + ([c] + rest);
    CharMapAppend(head, [c] + rest, c, rep);
    assert ([c] + rest)[0] == c && ([c] + rest)[1..] == rest;
  }

  /** Replacing a single character is mapping it, character by character. */
  lemma {:induction false} ReplaceCharIsMap(s: string, c: char, rep: string)
    ensures ReplaceAll(s, [c], rep) == CharMap(s, c, rep)
    decreases |s|
  {
    FindFromSpec(s, [c], 0);
    match FindFrom(s, [c], 0)
    case None =>
      NoCharBefore(s, c, |s|);
      assert c !in s;
      CharMapAbsent(s, c, rep);
    case Some(i) =>
      NoCharBefore(s, c, i);
      assert s[i..i + 1] == [c];
      ReplaceCharIsMap(s[i + 1..], c, rep);
      CharMapSplit(s, i, c, rep);
  }

  /** The four stages of clean_text as character maps. */
  function Stages(s: string): string {
    CharMap(CharMap(CharMap(CharMap(s, '\n', "\\n"), '\t', "\\t"), '\r', "\\r"), '|', "\\|")
  }

  lemma StagesAppend(a: string, b: string)
    ensures Stages(a + b) == Stages(a) + Stages(b)
  {
    var a1, b1 := CharMap(a, '\n', "\\n"), CharMap(b, '\n', "\\n");
    CharMapAppend(a, b, '\n', "\\n");
    var a2, b2 := CharMap(a1, '\t', "\\t"), CharMap(b1, '\t', "\\t");
    CharMapAppend(a1, b1, '\t', "\\t");
    var a3, b3 := CharMap(a2, '\r', "\\r"), CharMap(b2, '\r', "\\r");
    CharMapAppend(a2, b2, '\r', "\\r");
    CharMapAppend(a3, b3, '|', "\\|");
  }

  /** No stage touches what an earlier stage wrote. */
  lemma StagesOne(x: char)
    ensures Stages([x]) == EscapeChar(x)
  {
    CharMapOne(x, '\n', "\\n");
    if x == '\n' {
      CharMapAbsent("\\n", '\t', "\\t");
      CharMapAbsent("\\n", '\r', "\\r");
      CharMapAbsent("\\n", '|', "\\|");
    } else {
      CharMapOne(x, '\t', "\\t");
      if x == '\t' {
        CharMapAbsent("\\t", '\r', "\\r");
        CharMapAbsent("\\t", '|', "\\|");
      } else {
        CharMapOne(x, '\r', "\\r");
        if x == '\r' {
          CharMapAbsent("\\r", '|', "\\|");
        } else {
          CharMapOne(x, '|', "\\|");
        }
      }
    }
  }

  lemma {:induction false} StagesCharwise(s: string)
    ensures Stages(s) == EscapeAll(s)
    decreases |s|
  {
    if |s| == 0 {
      CharMapAbsent("", '\n', "\\n");
      CharMapAbsent("", '\t', "\\t");
      CharMapAbsent("", '\r', "\\r");
      CharMapAbsent("", '|', "\\|");
    } else {
      assert s == [s[0]] + s[1..];
      StagesAppend([s[0]], s[1..]);
      StagesOne(s[0]);
      StagesCharwise(s[1..]);
    }
  }

  /** The chained replacements escape each character on its own: no replacement
      rewrites the backslash sequence an earlier one produced. */
  lemma CleanTextCharwise(text: string)
    ensures CleanText(text) == "'" + EscapeAll(text) + "'"
  {
    var a := CharMap(text, '\n', "\\n");
    ReplaceCharIsMap(text, '\n', "\\n");
    var b := CharMap(a, '\t', "\\t");
    ReplaceCharIsMap(a, '\t', "\\t");
    var c := CharMap(b, '\r', "\\r");
    ReplaceCharIsMap(b, '\r', "\\r");
    ReplaceCharIsMap(c, '|', "\\|");
    StagesCharwise(text);
  }

  /** Text that can sit in one Markdown table cell: no line break or tab, and every
      `|` escaped by a backslash. */
  predicate SafeCell(e: string) {
    forall i :: 0 <= i < |e| ==>
      && e[i] != '\n' && e[i] != '\t' && e[i] != '\r'
      && (e[i] == '|' ==> 0 < i && e[i - 1] == '\\')
  }

  lemma {:induction false} EscapeAllSafe(s: string)
    ensures SafeCell(EscapeAll(s))
    ensures |EscapeAll(s)| > 0 ==> EscapeAll(s)[0] != '|'
    decreases |s|
  {
    if |s| > 0 {
      EscapeAllSafe(s[1..]);
      var h := EscapeChar(s[0]);
      var t := EscapeAll(s[1..]);
      assert EscapeAll(s) == h + t;
      forall i | 0 <= i < |h + t|
        ensures (h + t)[i] != '\n' && (h + t)[i] != '\t' && (h + t)[i] != '\r'
        ensures (h + t)[i] == '|' ==> 0 < i && (h + t)[i - 1] == '\\'
      {
        if i >= |h| {
          assert (h + t)[i] == t[i - |h|];
          if i > |h| {
            assert (h + t)[i - 1] == t[i - 1 - |h|];
          }
        }
      }
    }
  }

  /** Every cleaned token is safe in a table cell. */
  lemma CleanTextSafe(text: string)
    ensures SafeCell(CleanText(text))
  {
    CleanTextCharwise(text);
    var e := EscapeAll(text);
    EscapeAllSafe(text);
    var r := "'" + e + "'";
    forall i | 0 <= i < |r|
      ensures r[i] != '\n' && r[i] != '\t' && r[i] != '\r'
      ensures r[i] == '|' ==> 0 < i && r[i - 1] == '\\'
    {
      if 0 < i <= |e| {
        assert r[i] == e[i - 1];
        if i > 1 {
          assert r[i - 1] == e[i - 2];
        }
      }
    }
  }

  /** Text without the four special characters is only quoted. */
  lemma {:induction false} EscapePlain(s: string)
    requires forall i :: 0 <= i < |s| ==> s[i] != '\n' && s[i] != '\t' && s[i] != '\r' && s[i] != '|'
    ensures EscapeAll(s) == s
    decreases |s|
  {
    if |s| > 0 {
      EscapePlain(s[1..]);
      assert s == [s[0]] + s[1..];
    }
  }

  /** The escaping is not reversible: a newline token and the two-character token
      backslash-n are written identically in the report. */
  lemma CleanTextConflates()
    ensures CleanText("\n") == CleanText("\\n")
  {
    CleanTextCharwise("\n");
    CleanTextCharwise("\\n");
    EscapeAllOne('\n');
    var t := "\\n";
    assert t == ['\\'] + ['n'];
    EscapeAllOne('\\');
    EscapeAllOne('n');
    EscapeAllAppend(['\\'], ['n']);
  }

  // ---------------------------------------------------------------------
  // get_token_logprobs
  // ---------------------------------------------------------------------

  /** The Python exceptions a lookup into a parsed response can raise. */
  datatype LookupError = KeyError | IndexError | TypeError

  /** `j[key]` for a string key. */
  function Key(j: Json, key: string): (r: Result<Json, LookupError>)
    ensures r.Ok? <==> j.JObject? && HasKey(j.members, key)
    ensures r.Ok? ==> Get(j.members, key) == Some(r.value)
  {
    match j
    case JObject(m) => if HasKey(m, key) then Ok(Get(m, key).value) else Err(KeyError)
    case _ => Err(TypeError)
  }

  /** `j[0]`: a list's first item or a string's first character; a dict has no key 0. */
  function First(j: Json): (r: Result<Json, LookupError>)
    ensures j.JArray? && |j.items| > 0 ==> r == Ok(j.items[0])
    ensures r.Ok? ==> j.JArray? || j.JString?
  {
    match j
    case JArray(items) => if |items| > 0 then Ok(items[0]) else Err(IndexError)
    case JString(s) => if |s| > 0 then Ok(JString([s[0]])) else Err(IndexError)
    case JObject(_) => Err(KeyError)
    case _ => Err(TypeError)
  }

  /** `key in j`: dict keys, list items, or a substring of a string. */
  function In(key: string, j: Json): (r: Result<bool, LookupError>)
    ensures j.JObject? ==> r == Ok(HasKey(j.members, key))
  {
    match j
    case JObject(m) => Ok(HasKey(m, key))
    case JArray(items) => Ok(JString(key) in items)
    case JString(s) => Ok(Contains(s, key))
    case _ => Err(TypeError)
  }

  /** `get_token_logprobs(data)`: the first token and its log-probability, from
      `content[0].top_logprobs[0]` when the logprobs carry "content" (llama.cpp) and
      from `tokens[0]` / `token_logprobs[0]` otherwise (vLLM). */
  function GetTokenLogprobs(data: Json): (r: Result<(Json, Json), LookupError>)
    ensures r.Ok? ==> data.JObject? && HasKey(data.members, "choices")
  {
    var choices :- Key(data, "choices");
    var choice :- First(choices);
    var logprobs :- Key(choice, "logprobs");
    var llama :- In("content", logprobs);
    if llama then LlamaCppTop(logprobs) else VllmFirst(logprobs)
  }

  /** `content[0].top_logprobs[0]`: the llama.cpp reading of the logprobs object. */
  function LlamaCppTop(logprobs: Json): Result<(Json, Json), LookupError> {
    var content :- Key(logprobs, "content");
    var first :- First(content);
    var tops :- Key(first, "top_logprobs");
    var top :- First(tops);
    var token :- Key(top, "token");
    var logprob :- Key(top, "logprob");
    Ok((token, logprob))
  }

  /** `tokens[0]` and `token_logprobs[0]`: the vLLM reading of the logprobs object. */
  function VllmFirst(logprobs: Json): Result<(Json, Json), LookupError> {
    var tokens :- Key(logprobs, "tokens");
    var tokenLogprobs :- Key(logprobs, "token_logprobs");
    var token :- First(tokens);
    var logprob :- First(tokenLogprobs);
    Ok((token, logprob))
  }

  /** The outer `choices[0].logprobs` of a one-choice response. */
  lemma ResponseLogprobs(lp: seq<(string, Json)>)
    ensures var data := Response(lp);
            Key(data, "choices") == Ok(JArray([JObject([("logprobs", JObject(lp))])]))
            && First(JArray([JObject([("logprobs", JObject(lp))])])) == Ok(JObject([("logprobs", JObject(lp))]))
            && Key(JObject([("logprobs", JObject(lp))]), "logprobs") == Ok(JObject(lp))
  {
    GetOne("logprobs", JObject(lp));
    GetOne("choices", JArray([JObject([("logprobs", JObject(lp))])]));
  }

  /** A one-choice completion response around the given logprobs object. */
  function Response(logprobs: seq<(string, Json)>): Json {
    JObject([("choices", JArray([JObject([("logprobs", JObject(logprobs))])]))])
  }

  /** A llama.cpp-style response whose top candidate is `token` with `logprob`. */
  function LlamaCppResponse(token: Json, logprob: Json): Json {
    Response([("content", JArray([JObject([("top_logprobs",
      JArray([JObject([("token", token), ("logprob", logprob)])]))])]))])
  }

  /** A vLLM-style response with parallel token and log-probability lists. */
  function VllmResponse(tokens: seq<Json>, logprobs: seq<Json>): Json {
    Response([("tokens", JArray(tokens)), ("token_logprobs", JArray(logprobs))])
  }

  lemma GetOne(key: string, v: Json)
    ensures HasKey([(key, v)], key) && Get([(key, v)], key) == Some(v)
  {
    assert [(key, v)][0].0 == key;
  }

  lemma GetOfTwo(k1: string, v1: Json, k2: string, v2: Json)
    requires k1 != k2
    ensures HasKey([(k1, v1), (k2, v2)], k1) && Get([(k1, v1), (k2, v2)], k1) == Some(v1)
    ensures HasKey([(k1, v1), (k2, v2)], k2) && Get([(k1, v1), (k2, v2)], k2) == Some(v2)
    ensures !HasKey([(k1, v1), (k2, v2)], "content") <== k1 != "content" && k2 != "content"
  {
    var m := [(k1, v1), (k2, v2)];
    assert m[0].0 == k1 && m[1].0 == k2;
    assert m[..1] == [(k1, v1)];
    GetOne(k1, v1);
  }

  /** The llama.cpp shape reads back as its top candidate. */
  lemma LlamaCppRoundTrip(token: Json, logprob: Json)
    ensures GetTokenLogprobs(LlamaCppResponse(token, logprob)) == Ok((token, logprob))
  {
    var top := [("token", token), ("logprob", logprob)];
    GetOfTwo("token", token, "logprob", logprob);
    var first := [("top_logprobs", JArray([JObject(top)]))];
    GetOne("top_logprobs", JArray([JObject(top)]));
    var lp := [("content", JArray([JObject(first)]))];
    GetOne("content", JArray([JObject(first)]));
    assert LlamaCppTop(JObject(lp)) == Ok((token, logprob));
    ResponseLogprobs(lp);
  }

  /** The vLLM shape reads back as the first token and the first log-probability. */
  lemma VllmRoundTrip(tokens: seq<Json>, logprobs: seq<Json>)
    requires |tokens| > 0 && |logprobs| > 0
    ensures GetTokenLogprobs(VllmResponse(tokens, logprobs)) == Ok((tokens[0], logprobs[0]))
  {
    var lp := [("tokens", JArray(tokens)), ("token_logprobs", JArray(logprobs))];
    GetOfTwo("tokens", JArray(tokens), "token_logprobs", JArray(logprobs));
    assert VllmFirst(JObject(lp)) == Ok((tokens[0], logprobs[0]));
    ResponseLogprobs(lp);
  }

  /** A "content" key selects the llama.cpp reading, whatever else the logprobs hold. */
  lemma ContentWins(token: Json, logprob: Json, tokens: seq<Json>, logprobs: seq<Json>)
    ensures var lp := [("content", JArray([JObject([("top_logprobs",
                        JArray([JObject([("token", token), ("logprob", logprob)])]))])])),
                       ("tokens", JArray(tokens)), ("token_logprobs", JArray(logprobs))];
            GetTokenLogprobs(Response(lp)) == Ok((token, logprob))
  {
    var top := [("token", token), ("logprob", logprob)];
    GetOfTwo("token", token, "logprob", logprob);
    var first := [("top_logprobs", JArray([JObject(top)]))];
    GetOne("top_logprobs", JArray([JObject(top)]));
    var c := JArray([JObject(first)]);
    var lp := [("content", c), ("tokens", JArray(tokens)), ("token_logprobs", JArray(logprobs))];
    assert Get(lp, "content") == Some(c) by {
      assert lp[..2][..1] == [("content", c)];
      GetOne("content", c);
    }
    assert In("content", JObject(lp)) == Ok(true);
    assert LlamaCppTop(JObject(lp)) == Ok((token, logprob)) by {
      assert Key(JObject(lp), "content") == Ok(c);
    }
    ResponseLogprobs(lp);
  }

  // ---------------------------------------------------------------------
  // Rows of the report
  // ---------------------------------------------------------------------

  /** `json.loads` of one dumped line. */
  type LineParser = string -> Option<Json>

  /**
   * The three numeric cells of a row, `f"{logprob1:.4f}"`, `f"{logprob2:.4f}"`
   * and `f"{abs(logprob1 - logprob2):.4f}"`, or None when `logprob1 - logprob2`
   * raises: Python subtracts integers, floats and booleans only.
   */
  function NumericCells(logprob1: Json, logprob2: Json): (r: Option<(string, string, string)>)
    ensures r.Some? <==> AsReal(logprob1).Some? && AsReal(logprob2).Some?
    ensures r.Some? ==> |r.value.2| >= 1 && r.value.2[0] != '-'
  {
    match (AsReal(logprob1), AsReal(logprob2))
    case (Some(a), Some(b)) =>
      Some((FixedPoint.FixedText(a, 4), FixedPoint.FixedText(b, 4), FixedPoint.FixedText(FixedPoint.Abs(a - b), 4)))
    case _ => None
  }

  /**
   * Each numeric cell reads back as its number rounded to four decimals, and
   * the difference cell is never negative.
   */
  lemma NumericCellsReadBack(logprob1: Json, logprob2: Json, a: real, b: real)
    requires AsReal(logprob1) == Some(a) && AsReal(logprob2) == Some(b)
    ensures var r := NumericCells(logprob1, logprob2);
            var d := FixedPoint.Abs(a - b);
            && r.Some?
            && FixedPoint.ReadFixed(r.value.0, 4) == Some(Rounded(a))
            && FixedPoint.ReadFixed(r.value.1, 4) == Some(Rounded(b))
            && FixedPoint.ReadFixed(r.value.2, 4) == Some(Rounded(d)) && Rounded(d) >= 0.0
  {
    var d := FixedPoint.Abs(a - b);
    assert NumericCells(logprob1, logprob2)
           == Some((FixedPoint.FixedText(a, 4), FixedPoint.FixedText(b, 4), FixedPoint.FixedText(d, 4)));
    CellReadsBack(a);
    CellReadsBack(b);
    CellReadsBack(d);
  }

  /** One numeric cell reads back as its number rounded to four decimals. */
  lemma CellReadsBack(x: real)
    ensures FixedPoint.ReadFixed(FixedPoint.FixedText(x, 4), 4) == Some(Rounded(x))
    ensures x >= 0.0 ==> Rounded(x) >= 0.0
  {
    FixedPoint.FixedTextReadsBack(x, 4);
  }

  /** `x` rounded to the nearest multiple of 0.0001, ties to an even last digit. */
  function Rounded(x: real): real {
    var m := FixedPoint.ScaledRound(x, 4);
    FixedPoint.Decimal(if x < 0.0 then -(m as int) else m, 4)
  }

  /** Why one pair of lines yields no row: the exception `compare_logits` raises there. */
  datatype RowError =
    | NotJson(line: nat, file: nat)
    | BadResponse(line: nat, file: nat, lookup: LookupError)
    | TokenNotText(line: nat, file: nat)
    | NotNumbers(line: nat)

  /** The `assert` on the line counts, or a failing row. */
  datatype ReportError =
    | LineCountMismatch(lines1: nat, lines2: nat)
    | BadLine(cause: RowError)

  /** `not line.strip()`: the line is whitespace only (BlankIsStripEmpty). */
  predicate Blank(line: string) {
    forall i :: 0 <= i < |line| ==> IsPySpace(line[i])
  }

  lemma BlankIsStripEmpty(line: string)
    ensures Blank(line) <==> Trim(line, IsPySpace) == ""
  {
    var a, b :| && 0 <= a <= b <= |line| && Trim(line, IsPySpace) == line[a..b]
                && (forall k :: 0 <= k < a ==> IsPySpace(line[k]))
                && (forall k :: b <= k < |line| ==> IsPySpace(line[k]));
    if !Blank(line) {
      var i :| 0 <= i < |line| && !IsPySpace(line[i]);
      assert a <= i < b;
    }
  }

  /** The row `compare_logits` builds from line `i` of both files. */
  function Row(line1: string, line2: string, i: nat, parse: LineParser)
    : (r: Result<seq<string>, RowError>)
    ensures r.Ok? ==> |r.value| == 5 && SafeCell(r.value[0]) && SafeCell(r.value[2])
    ensures r.Err? ==> r.error.line == i
  {
    var data1 :- parse(line1).OrFail(NotJson(i, 1));
    var data2 :- parse(line2).OrFail(NotJson(i, 2));
    match GetTokenLogprobs(data1)
    case Err(e) => Err(BadResponse(i, 1, e))
    case Ok((token1, logprob1)) =>
      match GetTokenLogprobs(data2)
      case Err(e) => Err(BadResponse(i, 2, e))
      case Ok((token2, logprob2)) =>
        if !token1.JString? then Err(TokenNotText(i, 1))
        else if !token2.JString? then Err(TokenNotText(i, 2))
        else match NumericCells(logprob1, logprob2)
          case None => Err(NotNumbers(i))
          case Some((l1, l2, diff)) => Ok(RowCells(token1.s, l1, token2.s, l2, diff))
  }

  /** The five cells of a row: both cleaned tokens and the three numeric cells. */
  function RowCells(t1: string, l1: string, t2: string, l2: string, diff: string): (r: seq<string>)
    ensures |r| == 5 && SafeCell(r[0]) && SafeCell(r[2])
  {
    CleanTextSafe(t1);
    CleanTextSafe(t2);
    [CleanText(t1), l1, CleanText(t2), l2, diff]
  }

  /** A line from each engine becomes the cleaned tokens and the numeric cells. */
  lemma RowOfResponses(line1: string, line2: string, i: nat, parse: LineParser,
                       t1: string, lp1: Json, tokens: seq<Json>, lps: seq<Json>, a: real, b: real)
    requires parse(line1) == Some(LlamaCppResponse(JString(t1), lp1))
    requires parse(line2) == Some(VllmResponse(tokens, lps))
    requires |tokens| > 0 && |lps| > 0 && tokens[0].JString?
    requires AsReal(lp1) == Some(a) && AsReal(lps[0]) == Some(b)
    ensures Row(line1, line2, i, parse)
            == Ok([CleanText(t1), FixedPoint.FixedText(a, 4), CleanText(tokens[0].s), FixedPoint.FixedText(b, 4),
                   FixedPoint.FixedText(FixedPoint.Abs(a - b), 4)])
  {
    LlamaCppRoundTrip(JString(t1), lp1);
    VllmRoundTrip(tokens, lps);
    assert NumericCells(lp1, lps[0])
           == Some((FixedPoint.FixedText(a, 4), FixedPoint.FixedText(b, 4), FixedPoint.FixedText(FixedPoint.Abs(a - b), 4)));
  }

  /** Indices from `from` on where neither line is blank, in increasing order. */
  function Kept(lines1: seq<string>, lines2: seq<string>, from: nat): (ks: seq<nat>)
    requires |lines1| == |lines2| && from <= |lines1|
    ensures forall k :: 0 <= k < |ks| ==> from <= ks[k] < |lines1| && !Blank(lines1[ks[k]]) && !Blank(lines2[ks[k]])
    ensures forall k, l :: 0 <= k < l < |ks| ==> ks[k] < ks[l]
    decreases |lines1| - from
  {
    if from == |lines1| then []
    else if Blank(lines1[from]) || Blank(lines2[from]) then Kept(lines1, lines2, from + 1)
    else
      var rest := Kept(lines1, lines2, from + 1);
      assert forall k :: 1 <= k < |rest| + 1 ==> ([from] + rest)[k] == rest[k - 1];
      [from] + rest
  }

  /** Every non-blank pair is kept. */
  lemma {:induction false} KeptComplete(lines1: seq<string>, lines2: seq<string>, from: nat, i: nat)
    requires |lines1| == |lines2| && from <= i < |lines1|
    requires !Blank(lines1[i]) && !Blank(lines2[i])
    ensures i in Kept(lines1, lines2, from)
    decreases i - from
  {
    if from < i {
      KeptComplete(lines1, lines2, from + 1, i);
    }
  }

  /** How a pair of lines and its line number become a row of five cells. */
  type RowMaker = f: (string, string, nat) -> Result<seq<string>, RowError>
    | forall a, b, i :: f(a, b, i).Ok? ==> |f(a, b, i).value| == 5
    witness (a: string, b: string, i: nat) => Err(NotNumbers(i))

  /** The entry loop of `compare_logits` over the kept line numbers `ks`, in order: the
      rows, or the error of the first line whose row fails. */
  function Entries(lines1: seq<string>, lines2: seq<string>, ks: seq<nat>, row: RowMaker)
    : (r: Result<seq<seq<string>>, RowError>)
    requires forall k :: 0 <= k < |ks| ==> ks[k] < |lines1| && ks[k] < |lines2|
    ensures r.Ok? ==>
      && |r.value| == |ks|
      && forall k :: 0 <= k < |ks| ==> row(lines1[ks[k]], lines2[ks[k]], ks[k]) == Ok(r.value[k])
    ensures r.Err? ==>
              exists k :: 0 <= k < |ks| && row(lines1[ks[k]], lines2[ks[k]], ks[k]) == Err(r.error)
                && forall l :: 0 <= l < k ==> row(lines1[ks[l]], lines2[ks[l]], ks[l]).Ok?
    decreases |ks|
  {
    if |ks| == 0 then Ok([])
    else
      var i := ks[0];
      assert forall k :: 1 <= k < |ks| ==> ks[1..][k - 1] == ks[k];
      match row(lines1[i], lines2[i], i)
      case Err(e) => Err(e)
      case Ok(cells) =>
        match Entries(lines1, lines2, ks[1..], row)
        case Err(e) =>
          EntriesErrShift(lines1, lines2, ks, row, e);
          Err(e)
        case Ok(rest) =>
          assert forall k :: 1 <= k < |ks| ==> ([cells] + rest)[k] == rest[k - 1];
          Ok([cells] + rest)
  }

  /** A first failing row of `ks[1..]` after a good row `ks[0]` is a first failing row of `ks`. */
  lemma EntriesErrShift(lines1: seq<string>, lines2: seq<string>, ks: seq<nat>, row: RowMaker, e: RowError)
    requires |ks| > 0 && forall k :: 0 <= k < |ks| ==> ks[k] < |lines1| && ks[k] < |lines2|
    requires row(lines1[ks[0]], lines2[ks[0]], ks[0]).Ok?
    requires exists k :: 0 <= k < |ks| - 1 && row(lines1[ks[1..][k]], lines2[ks[1..][k]], ks[1..][k]) == Err(e)
               && forall l :: 0 <= l < k ==> row(lines1[ks[1..][l]], lines2[ks[1..][l]], ks[1..][l]).Ok?
    ensures exists k :: 0 <= k < |ks| && row(lines1[ks[k]], lines2[ks[k]], ks[k]) == Err(e)
              && forall l :: 0 <= l < k ==> row(lines1[ks[l]], lines2[ks[l]], ks[l]).Ok?
  {
    var k :| 0 <= k < |ks| - 1 && row(lines1[ks[1..][k]], lines2[ks[1..][k]], ks[1..][k]) == Err(e)
             && forall l :: 0 <= l < k ==> row(lines1[ks[1..][l]], lines2[ks[1..][l]], ks[1..][l]).Ok?;
    assert forall l :: 1 <= l < k + 1 ==> ks[l] == ks[1..][l - 1];
    assert row(lines1[ks[k + 1]], lines2[ks[k + 1]], ks[k + 1]) == Err(e);
  }

  // ---------------------------------------------------------------------
  // The Markdown table
  // ---------------------------------------------------------------------

  function Max(a: nat, b: nat): nat { if a >= b then a else b }

  /** `max(width, len(entry[j]))` over the rows in order. */
  function ColumnWidth(rows: seq<seq<string>>, j: nat, w: nat): (r: nat)
    requires forall i :: 0 <= i < |rows| ==> j < |rows[i]|
    ensures w <= r
    ensures forall i :: 0 <= i < |rows| ==> |rows[i][j]| <= r
    ensures r == w || exists i :: 0 <= i < |rows| && r == |rows[i][j]|
    decreases |rows|
  {
    if |rows| == 0 then w
    else
      var r := ColumnWidth(rows[1..], j, Max(w, |rows[0][j]|));
      assert forall i :: 1 <= i < |rows| ==> rows[i] == rows[1..][i - 1];
      r
  }

  /** The header row. */
  function Header(name1: string, name2: string): seq<string> {
    [name1, "logprob_1", name2, "logprob_2", "diff (abs)"]
  }

  /** Column widths: the widest of the header cell and every entry's cell. */
  function Widths(header: seq<string>, rows: seq<seq<string>>): (ws: seq<nat>)
    requires forall i :: 0 <= i < |rows| ==> |rows[i]| == |header|
    ensures |ws| == |header|
    ensures forall j :: 0 <= j < |header| ==> |header[j]| <= ws[j]
    ensures forall i, j :: 0 <= i < |rows| && 0 <= j < |header| ==> |rows[i][j]| <= ws[j]
    ensures forall j :: 0 <= j < |header| ==>
              ws[j] == |header[j]| || exists i :: 0 <= i < |rows| && ws[j] == |rows[i][j]|
  {
    seq(|header|, j requires 0 <= j < |header| => ColumnWidth(rows, j, |header[j]|))
  }

  function Repeat(c: char, n: nat): (r: string)
    ensures |r| == n && forall i :: 0 <= i < n ==> r[i] == c
  {
    seq(n, _ => c)
  }

  /** `f"{s:<{w}}"`: left-aligned, padded with spaces to at least `w`. */
  function PadRight(s: string, w: nat): (r: string)
    ensures |r| == Max(|s|, w)
    ensures r[..|s|] == s
    ensures forall i :: |s| <= i < |r| ==> r[i] == ' '
  {
    if |s| < w then s + Repeat(' ', w - |s|) else s
  }

  /** `"| {cell:<{w}} "` for every column. */
  function CellsText(cells: seq<string>, ws: seq<nat>): string
    requires |cells| == |ws|
    decreases |cells|
  {
    if |cells| == 0 then "" else "| " + PadRight(cells[0], ws[0]) + " " + CellsText(cells[1..], ws[1..])
  }

  /** `"|" + "-" * (w + 2)` for every column. */
  function RuleText(ws: seq<nat>): string
    decreases |ws|
  {
    if |ws| == 0 then "" else "|" + Repeat('-', ws[0] + 2) + RuleText(ws[1..])
  }

  function RowLine(cells: seq<string>, ws: seq<nat>): string
    requires |cells| == |ws|
  {
    CellsText(cells, ws) + "|\n"
  }

  function RuleLine(ws: seq<nat>): string {
    RuleText(ws) + "|\n"
  }

  /** Where column `j` starts: the widths of the columns before it, three characters each added. */
  function Offset(ws: seq<nat>, j: nat): nat
    requires j <= |ws|
  {
    if j == 0 then 0 else ws[0] + 3 + Offset(ws[1..], j - 1)
  }

  lemma {:induction false} OffsetBound(ws: seq<nat>, j: nat)
    requires j < |ws|
    ensures Offset(ws, j) + ws[j] + 3 <= Offset(ws, |ws|)
    decreases j
  {
    if j > 0 {
      OffsetBound(ws[1..], j - 1);
    } else {
      assert Offset(ws, |ws|) == ws[0] + 3 + Offset(ws[1..], |ws| - 1);
    }
  }

  /** Every cell fits its column. */
  predicate Fits(cells: seq<string>, ws: seq<nat>) {
    |cells| == |ws| && forall j :: 0 <= j < |ws| ==> |cells[j]| <= ws[j]
  }

  lemma FitsTail(cells: seq<string>, ws: seq<nat>)
    requires Fits(cells, ws) && |ws| > 0
    ensures Fits(cells[1..], ws[1..])
  {
    forall j | 0 <= j < |ws| - 1 ensures |cells[1..][j]| <= ws[1..][j] {
      assert cells[1..][j] == cells[j + 1] && ws[1..][j] == ws[j + 1];
    }
  }

  lemma {:induction false} CellsTextLength(cells: seq<string>, ws: seq<nat>)
    requires Fits(cells, ws)
    ensures |CellsText(cells, ws)| == Offset(ws, |ws|)
    decreases |ws|
  {
    if |ws| > 0 {
      FitsTail(cells, ws);
      CellsTextLength(cells[1..], ws[1..]);
    }
  }

  /** A cell written into `t` is written into `h + t`, shifted by `|h|`. */
  lemma CellAtShift(h: string, t: string, o: nat, cell: string)
    requires CellAt(t, o, cell)
    ensures CellAt(h + t, |h| + o, cell)
  {
    assert (h + t)[|h| + o..|h| + o + |cell|] == t[o..o + |cell|];
  }

  /** The first column: a bar, a space, then the padded cell. */
  lemma CellsTextHead(cells: seq<string>, ws: seq<nat>, tail: string)
    requires |cells| == |ws| > 0 && |cells[0]| <= ws[0]
    ensures var t := "| " + PadRight(cells[0], ws[0]) + " " + tail;
      && |t| == ws[0] + 3 + |tail| && t[0] == '|' && CellAt(t, 2, cells[0])
  {
    var pad := PadRight(cells[0], ws[0]);
    var t := "| " + pad + " " + tail;
    assert t[2..2 + |cells[0]|] == pad[..|cells[0]|];
  }

  /** Bar `j` of a row sits at Offset(ws, j), followed by a space and the cell. */
  lemma {:induction false} CellsTextAt(cells: seq<string>, ws: seq<nat>, j: nat)
    requires Fits(cells, ws) && j < |ws|
    ensures Offset(ws, j) < |CellsText(cells, ws)| && CellsText(cells, ws)[Offset(ws, j)] == '|'
    ensures CellAt(CellsText(cells, ws), Offset(ws, j) + 2, cells[j])
    decreases j
  {
    var tail := CellsText(cells[1..], ws[1..]);
    var head := "| " + PadRight(cells[0], ws[0]) + " ";
    assert CellsText(cells, ws) == head + tail;
    CellsTextHead(cells, ws, tail);
    if j > 0 {
      FitsTail(cells, ws);
      CellsTextAt(cells[1..], ws[1..], j - 1);
      var o := Offset(ws[1..], j - 1);
      assert cells[1..][j - 1] == cells[j];
      assert (head + tail)[|head| + o] == tail[o];
      CellAtShift(head, tail, o + 2, cells[j]);
    }
  }

  lemma {:induction false} RuleTextLength(ws: seq<nat>)
    ensures |RuleText(ws)| == Offset(ws, |ws|)
    decreases |ws|
  {
    if |ws| > 0 {
      RuleTextLength(ws[1..]);
    }
  }

  lemma {:induction false} RuleTextAt(ws: seq<nat>, j: nat)
    requires j < |ws|
    ensures Offset(ws, j) < |RuleText(ws)| && RuleText(ws)[Offset(ws, j)] == '|'
    decreases j
  {
    OffsetBound(ws, j);
    RuleTextLength(ws);
    var head := "|" + Repeat('-', ws[0] + 2);
    var tail := RuleText(ws[1..]);
    assert RuleText(ws) == head + tail;
    if j > 0 {
      RuleTextAt(ws[1..], j - 1);
      assert (head + tail)[|head| + Offset(ws[1..], j - 1)] == tail[Offset(ws[1..], j - 1)];
    }
  }

  /** `cell` is written into `line` from offset `o` on. */
  predicate CellAt(line: string, o: nat, cell: string) {
    o + |cell| <= |line| && line[o..o + |cell|] == cell
  }

  /** A row line: its length, its bars (the last one closing the line) and its cells. */
  lemma RowLineLayout(cells: seq<string>, ws: seq<nat>, j: nat)
    requires Fits(cells, ws) && j <= |ws|
    ensures |RowLine(cells, ws)| == Offset(ws, |ws|) + 2
    ensures Offset(ws, j) < |RowLine(cells, ws)| && RowLine(cells, ws)[Offset(ws, j)] == '|'
    ensures j < |ws| ==> CellAt(RowLine(cells, ws), Offset(ws, j) + 2, cells[j])
  {
    var body := CellsText(cells, ws);
    CellsTextLength(cells, ws);
    if j < |ws| {
      CellsTextAt(cells, ws, j);
      var o := Offset(ws, j) + 2;
      assert (body + "|\n")[Offset(ws, j)] == body[Offset(ws, j)];
      assert (body + "|\n")[o..o + |cells[j]|] == body[o..o + |cells[j]|];
    }
  }

  lemma RuleLineLayout(ws: seq<nat>, j: nat)
    requires j <= |ws|
    ensures |RuleLine(ws)| == Offset(ws, |ws|) + 2
    ensures Offset(ws, j) < |RuleLine(ws)| && RuleLine(ws)[Offset(ws, j)] == '|'
  {
    RuleTextLength(ws);
    if j < |ws| {
      RuleTextAt(ws, j);
      assert (RuleText(ws) + "|\n")[Offset(ws, j)] == RuleText(ws)[Offset(ws, j)];
    }
  }

  /** The lines of the table: header, rule, one line per entry. */
  function TableLines(header: seq<string>, rows: seq<seq<string>>): (lines: seq<string>)
    requires forall i :: 0 <= i < |rows| ==> |rows[i]| == |header|
    ensures |lines| == |rows| + 2
    ensures lines[0] == RowLine(header, Widths(header, rows)) && lines[1] == RuleLine(Widths(header, rows))
    ensures forall i :: 0 <= i < |rows| ==> lines[i + 2] == RowLine(rows[i], Widths(header, rows))
  {
    var ws := Widths(header, rows);
    [RowLine(header, ws), RuleLine(ws)] + seq(|rows|, i requires 0 <= i < |rows| => RowLine(rows[i], ws))
  }

  /** Every line of the table has the same length. */
  lemma TableLengths(header: seq<string>, rows: seq<seq<string>>)
    requires forall i :: 0 <= i < |rows| ==> |rows[i]| == |header|
    ensures var ws := Widths(header, rows);
            var lines := TableLines(header, rows);
            forall k :: 0 <= k < |lines| ==> |lines[k]| == Offset(ws, |ws|) + 2
  {
    var ws := Widths(header, rows);
    var lines := TableLines(header, rows);
    forall k | 0 <= k < |lines| ensures |lines[k]| == Offset(ws, |ws|) + 2 {
      if k == 0 {
        RowLineLayout(header, ws, 0);
      } else if k == 1 {
        RuleLineLayout(ws, 0);
      } else {
        RowLineLayout(rows[k - 2], ws, 0);
      }
    }
  }

  /** Every line of the table has its column bars at the same offsets. */
  lemma TableBars(header: seq<string>, rows: seq<seq<string>>)
    requires forall i :: 0 <= i < |rows| ==> |rows[i]| == |header|
    ensures var ws := Widths(header, rows);
            var lines := TableLines(header, rows);
            forall k, j :: 0 <= k < |lines| && 0 <= j <= |ws| ==>
              Offset(ws, j) < |lines[k]| && lines[k][Offset(ws, j)] == '|'
  {
    var ws := Widths(header, rows);
    var lines := TableLines(header, rows);
    forall k, j | 0 <= k < |lines| && 0 <= j <= |ws|
      ensures Offset(ws, j) < |lines[k]| && lines[k][Offset(ws, j)] == '|'
    {
      if k == 0 {
        RowLineLayout(header, ws, j);
      } else if k == 1 {
        RuleLineLayout(ws, j);
      } else {
        RowLineLayout(rows[k - 2], ws, j);
      }
    }
  }

  /** Entry `i`'s cell `j` starts two characters after bar `j` of line `i + 2`. */
  lemma TableCells(header: seq<string>, rows: seq<seq<string>>)
    requires forall i :: 0 <= i < |rows| ==> |rows[i]| == |header|
    ensures var ws := Widths(header, rows);
            var lines := TableLines(header, rows);
            forall i, j :: 0 <= i < |rows| && 0 <= j < |ws| ==> CellAt(lines[i + 2], Offset(ws, j) + 2, rows[i][j])
  {
    var ws := Widths(header, rows);
    var lines := TableLines(header, rows);
    forall i, j | 0 <= i < |rows| && 0 <= j < |ws|
      ensures CellAt(lines[i + 2], Offset(ws, j) + 2, rows[i][j])
    {
      EntryFits(header, rows, i);
      RowLineLayout(rows[i], ws, j);
    }
  }

  /** Every entry fits the table's column widths. */
  lemma EntryFits(header: seq<string>, rows: seq<seq<string>>, i: nat)
    requires forall i :: 0 <= i < |rows| ==> |rows[i]| == |header|
    requires i < |rows|
    ensures Fits(rows[i], Widths(header, rows))
  {
    var ws := Widths(header, rows);
    forall j | 0 <= j < |ws| ensures |rows[i][j]| <= ws[j] {
    }
  }

  function Concat(parts: seq<string>): string
    decreases |parts|
  {
    if |parts| == 0 then "" else parts[0] + Concat(parts[1..])
  }

  const TITLE: string := "# Logits Comparison Report\n\n"

  /** The row maker `compare_logits` uses. */
  function RowsWith(parse: LineParser): RowMaker
  {
    (a: string, b: string, i: nat) => Row(a, b, i, parse)
  }

  /** `compare_logits`: the report written for two dumps, or the first error raised; `row`
      is how a pair of lines becomes a row (RowsWith for the script's own parsing). */
  function CompareLogits(name1: string, name2: string, lines1: seq<string>, lines2: seq<string>, row: RowMaker)
    : (r: Result<string, ReportError>)
    ensures |lines1| != |lines2| <==> r == Err(LineCountMismatch(|lines1|, |lines2|))
    ensures |lines1| == |lines2| && r.Err? ==> var ks := Kept(lines1, lines2, 0);
      && r.error.BadLine?
      && exists k :: 0 <= k < |ks| && row(lines1[ks[k]], lines2[ks[k]], ks[k]) == Err(r.error.cause)
           && forall l :: 0 <= l < k ==> row(lines1[ks[l]], lines2[ks[l]], ks[l]).Ok?
    ensures r.Ok? ==> var ks := Kept(lines1, lines2, 0);
      exists rows: seq<seq<string>> ::
        && |rows| == |ks|
        && (forall k :: 0 <= k < |ks| ==> row(lines1[ks[k]], lines2[ks[k]], ks[k]) == Ok(rows[k]))
        && r.value == TITLE + Concat(TableLines(Header(name1, name2), rows))
  {
    if |lines1| != |lines2| then Err(LineCountMismatch(|lines1|, |lines2|))
    else
      var ks := Kept(lines1, lines2, 0);
      match Entries(lines1, lines2, ks, row)
      case Err(e) => Err(BadLine(e))
      case Ok(rows) =>
        Ok(TITLE + Concat(TableLines(Header(name1, name2), rows)))
  }

  // ---------------------------------------------------------------------
  // Reading lines back
  // ---------------------------------------------------------------------

  /** `f.readlines()`: the text cut after every newline, which each line keeps. */
  function ReadLines(s: string): (lines: seq<string>)
    decreases |s|
  {
    if |s| == 0 then []
    else match FindFrom(s, "\n", 0)
      case None => [s]
      case Some(i) => [s[..i + 1]] + ReadLines(s[i + 1..])
  }

  /** A line ending in its only newline. */
  predicate IsLine(l: string) {
    |l| > 0 && l[|l| - 1] == '\n' && forall i :: 0 <= i < |l| - 1 ==> l[i] != '\n'
  }

  /** Concatenated lines read back as the same lines. */
  lemma {:induction false} ReadLinesConcat(lines: seq<string>)
    requires forall k :: 0 <= k < |lines| ==> IsLine(lines[k])
    ensures ReadLines(Concat(lines)) == lines
    decreases |lines|
  {
    if |lines| > 0 {
      var l := lines[0];
      var rest := Concat(lines[1..]);
      var s := l + rest;
      assert Concat(lines) == s;
      var i := |l| - 1;
      assert OccursAt(s, "\n", i) by { assert s[i..i + 1] == [l[i]]; }
      forall j | 0 <= j < i ensures !OccursAt(s, "\n", j) {
        assert s[j..j + 1] == [l[j]];
      }
      FindFromFirst(s, "\n", 0, i);
      assert s[..i + 1] == l;
      assert s[i + 1..] == rest;
      ReadLinesConcat(lines[1..]);
    }
  }

  /** A cell holding no newline. */
  predicate OneLine(c: string) {
    forall i :: 0 <= i < |c| ==> c[i] != '\n'
  }

  lemma {:induction false} CellsTextOneLine(cells: seq<string>, ws: seq<nat>)
    requires |cells| == |ws| && forall j :: 0 <= j < |cells| ==> OneLine(cells[j])
    ensures OneLine(CellsText(cells, ws))
    decreases |cells|
  {
    if |cells| > 0 {
      CellsTextOneLine(cells[1..], ws[1..]);
      var p := PadRight(cells[0], ws[0]);
      assert forall i :: 0 <= i < |p| ==> p[i] != '\n' by {
        forall i | 0 <= i < |p| ensures p[i] != '\n' {
          if i < |cells[0]| { assert p[i] == p[..|cells[0]|][i]; }
        }
      }
      var h := "| " + p + " ";
      var t := CellsText(cells[1..], ws[1..]);
      assert CellsText(cells, ws) == h + t;
      forall i | 0 <= i < |h + t| ensures (h + t)[i] != '\n' {
        if i >= |h| { assert (h + t)[i] == t[i - |h|]; }
      }
    }
  }

  lemma {:induction false} RuleTextOneLine(ws: seq<nat>)
    ensures OneLine(RuleText(ws))
    decreases |ws|
  {
    if |ws| > 0 {
      RuleTextOneLine(ws[1..]);
      var h := "|" + Repeat('-', ws[0] + 2);
      var t := RuleText(ws[1..]);
      assert RuleText(ws) == h + t;
      forall i | 0 <= i < |h + t| ensures (h + t)[i] != '\n' {
        if i >= |h| { assert (h + t)[i] == t[i - |h|]; }
      }
    }
  }

  lemma LineOfOneLine(body: string)
    requires OneLine(body)
    ensures IsLine(body + "|\n")
  {
    var l := body + "|\n";
    forall i | 0 <= i < |l| - 1 ensures l[i] != '\n' {
      if i < |body| { assert l[i] == body[i]; }
    }
  }

  /** When no cell holds a newline, reading the report back gives exactly one line per
      entry after the title, header and rule: the file names and the numeric cells
      are the only cells this depends on, as cleaned tokens never hold a newline. */
  lemma ReportReadsBack(header: seq<string>, rows: seq<seq<string>>)
    requires forall i :: 0 <= i < |rows| ==> |rows[i]| == |header|
    requires forall j :: 0 <= j < |header| ==> OneLine(header[j])
    requires forall i, j :: 0 <= i < |rows| && 0 <= j < |header| ==> OneLine(rows[i][j])
    ensures ReadLines(Concat(TableLines(header, rows))) == TableLines(header, rows)
  {
    var ws := Widths(header, rows);
    var lines := TableLines(header, rows);
    forall k | 0 <= k < |lines| ensures IsLine(lines[k]) {
      if k == 1 {
        RuleTextOneLine(ws);
        LineOfOneLine(RuleText(ws));
      } else {
        var cells := if k == 0 then header else rows[k - 2];
        assert lines[k] == RowLine(cells, ws);
        CellsTextOneLine(cells, ws);
        LineOfOneLine(CellsText(cells, ws));
      }
    }
    ReadLinesConcat(lines);
  }

  // ---------------------------------------------------------------------
  // dump_logits
  // ---------------------------------------------------------------------

  /** One completion request: the endpoint, the prompt and the optional bearer token.
      The rest of the payload is fixed: top_k 1, max_tokens 1, logprobs 1, no streaming
      and temperature zero. */
  datatype Completion = Completion(endpoint: string, prompt: string, authorization: Option<string>)

  /** The HTTP endpoint: the response text, or the status `raise_for_status` rejects. */
  type Endpoint = Completion -> Result<string, int>

  /** The Authorization header value sent, only for a non-empty API key. */
  function Authorization(apiKey: Option<string>): (r: Option<string>)
    ensures r.Some? <==> apiKey.Some? && apiKey.value != ""
    ensures r.Some? ==> r.value == "Bearer " + apiKey.value
  {
    if apiKey.Some? && apiKey.value != "" then Some("Bearer " + apiKey.value) else None
  }

  /** `curr_text` after the first `n` words: each word followed by one space. */
  function Accumulated(words: seq<string>, n: nat): string
    requires n <= |words|
  {
    if n == 0 then "" else Accumulated(words, n - 1) + words[n - 1] + " "
  }

  /** The prompts sent: `curr_text.strip()` after each word of `prompt.split(' ')`. */
  function Prompts(prompt: string): (ps: seq<string>)
    ensures |ps| == |Split(prompt, " ")|
  {
    var words := Split(prompt, " ");
    seq(|words|, i requires 0 <= i < |words| => Trim(Accumulated(words, i + 1), IsPySpace))
  }

  lemma {:induction false} AccumulatedPrefix(words: seq<string>, n: nat, m: nat)
    requires n <= m <= |words|
    ensures IsPrefix(Accumulated(words, n), Accumulated(words, m))
    decreases m - n
  {
    if n < m {
      AccumulatedPrefix(words, n, m - 1);
      var a, b := Accumulated(words, n), Accumulated(words, m - 1);
      assert Accumulated(words, m) == b + (words[m - 1] + " ");
      assert (b + (words[m - 1] + " "))[..|a|] == b[..|a|];
    }
  }

  lemma {:induction false} AccumulatedJoin(words: seq<string>, n: nat)
    requires 1 <= n <= |words|
    ensures Accumulated(words, n) == Join(words[..n], " ") + " "
    decreases n
  {
    if n == 1 {
      assert words[..1] == [words[0]];
    } else {
      AccumulatedJoin(words, n - 1);
      assert words[..n] == words[..n - 1] + [words[n - 1]];
      JoinSnoc(words[..n - 1], words[n - 1], " ");
    }
  }

  /** Each request's text before stripping is a prefix of the prompt followed by a space,
      and the last one is all of it. */
  lemma PromptsGrow(prompt: string, i: nat)
    requires i < |Split(prompt, " ")|
    ensures IsPrefix(Accumulated(Split(prompt, " "), i + 1), prompt + " ")
    ensures i + 1 == |Split(prompt, " ")| ==> Accumulated(Split(prompt, " "), i + 1) == prompt + " "
  {
    var words := Split(prompt, " ");
    AccumulatedPrefix(words, i + 1, |words|);
    AccumulatedJoin(words, |words|);
    assert words[..|words|] == words;
    SplitJoin(prompt, " ");
  }

  /** What `dump_logits` leaves behind: the file written so far, and the status that
      stopped it, if one did. */
  datatype Dump = Dump(file: string, stoppedBy: Option<int>)

  /** The request loop from prompt `from` on: one line per response, stopping at the first
      rejected status. */
  function DumpFrom(post: Endpoint, endpoint: string, prompts: seq<string>, auth: Option<string>, from: nat)
    : (d: Dump)
    requires from <= |prompts|
    decreases |prompts| - from
  {
    if from == |prompts| then Dump("", None)
    else match post(Completion(endpoint, prompts[from], auth))
      case Err(status) => Dump("", Some(status))
      case Ok(text) =>
        var rest := DumpFrom(post, endpoint, prompts, auth, from + 1);
        Dump(text + "\n" + rest.file, rest.stoppedBy)
  }

  /** `dump_logits(endpoint, output_path, api_key)`. */
  function DumpLogits(post: Endpoint, endpoint: string, prompt: string, apiKey: Option<string>): Dump {
    DumpFrom(post, endpoint, Prompts(prompt), Authorization(apiKey), 0)
  }

  /** The responses the loop writes, up to the first rejected one. */
  function Answers(post: Endpoint, endpoint: string, prompts: seq<string>, auth: Option<string>, from: nat)
    : (lines: seq<string>)
    requires from <= |prompts|
    ensures |lines| <= |prompts| - from
    decreases |prompts| - from
  {
    if from == |prompts| then []
    else match post(Completion(endpoint, prompts[from], auth))
      case Err(_) => []
      case Ok(text) => [text + "\n"] + Answers(post, endpoint, prompts, auth, from + 1)
  }

  lemma {:induction false} DumpIsAnswers(post: Endpoint, endpoint: string, prompts: seq<string>, auth: Option<string>,
                                         from: nat)
    requires from <= |prompts|
    ensures DumpFrom(post, endpoint, prompts, auth, from).file == Concat(Answers(post, endpoint, prompts, auth, from))
    ensures DumpFrom(post, endpoint, prompts, auth, from).stoppedBy.None? ==>
              |Answers(post, endpoint, prompts, auth, from)| == |prompts| - from
    decreases |prompts| - from
  {
    if from < |prompts| {
      DumpIsAnswers(post, endpoint, prompts, auth, from + 1);
      var a := Answers(post, endpoint, prompts, auth, from);
      if post(Completion(endpoint, prompts[from], auth)).Ok? {
        assert a[1..] == Answers(post, endpoint, prompts, auth, from + 1);
      }
    }
  }

  /** The dump round trip: when every response is a single line, reading the dump back
      gives one line per answered request, in request order, and a dump that was not
      stopped has one line per word of the prompt. */
  lemma DumpReadsBack(post: Endpoint, endpoint: string, prompt: string, apiKey: Option<string>)
    requires forall p :: post(Completion(endpoint, p, Authorization(apiKey))).Ok? ==>
                           OneLine(post(Completion(endpoint, p, Authorization(apiKey))).value)
    ensures var d := DumpLogits(post, endpoint, prompt, apiKey);
            var lines := ReadLines(d.file);
      && (forall k :: 0 <= k < |lines| ==>
            k < |Prompts(prompt)| && |lines[k]| > 0
            && post(Completion(endpoint, Prompts(prompt)[k], Authorization(apiKey))) == Ok(lines[k][..|lines[k]| - 1]))
      && (d.stoppedBy.None? ==> |lines| == |Split(prompt, " ")|)
  {
    var ps := Prompts(prompt);
    var auth := Authorization(apiKey);
    DumpIsAnswers(post, endpoint, ps, auth, 0);
    AnswersAreLines(post, endpoint, ps, auth, 0);
    ReadLinesConcat(Answers(post, endpoint, ps, auth, 0));
  }

  lemma {:induction false} AnswersAreLines(post: Endpoint, endpoint: string, prompts: seq<string>, auth: Option<string>,
                                           from: nat)
    requires from <= |prompts|
    requires forall p :: post(Completion(endpoint, p, auth)).Ok? ==> OneLine(post(Completion(endpoint, p, auth)).value)
    ensures var a := Answers(post, endpoint, prompts, auth, from);
      forall k :: 0 <= k < |a| ==> IsLine(a[k]) && from + k < |prompts|
                                   && post(Completion(endpoint, prompts[from + k], auth)) == Ok(a[k][..|a[k]| - 1])
    decreases |prompts| - from
  {
    if from < |prompts| {
      AnswersAreLines(post, endpoint, prompts, auth, from + 1);
      var r := post(Completion(endpoint, prompts[from], auth));
      if r.Ok? {
        var a := Answers(post, endpoint, prompts, auth, from);
        var l := r.value + "\n";
        assert a[0] == l;
        assert l[..|l| - 1] == r.value;
        forall i | 0 <= i < |l| - 1 ensures l[i] != '\n' {
          assert l[i] == r.value[i];
        }
        forall k | 1 <= k < |a| ensures a[k] == Answers(post, endpoint, prompts, auth, from + 1)[k - 1] {
        }
      }
    }
  }
}

=== FILE: csm_converter.dfy ===
/**
 * `examples/tts/convert_csm_to_gguf.py`: one Sesame CSM safetensors file
 * becomes two GGUF files, a Llama-3.2-1B "backbone" and a Llama-3.2-100M
 * "decoder".  Every tensor of the state dict is renamed, routed to one,
 * both or neither of the components, given a storage type, and quantized
 * once per component pass.
 *
 * Reading the safetensors file and the vocabulary GGUF, downloading from the
 * Hugging Face hub and writing the files are not part of this model: the
 * state dict is a sequence of named tensors, the vocabulary file is the
 * fields the converter reads from it, and an output file is its path, its
 * metadata and its tensors in the order they are added.
 */
module CsmConverter {
  import opened Wrappers
  import opened Text
  import opened TensorConvert

  // ---------------------------------------------------------------------
  // Output file names
  // ---------------------------------------------------------------------

  datatype Component = Backbone | Decoder

  function ComponentName(c: Component): string {
    match c
    case Backbone => "backbone"
    case Decoder => "decoder"
  }

  const PLACEHOLDER: string := "<component>"

  /** `Path.name`: the text after the last `/`. */
  function FileName(path: string): (r: string)
    ensures IsSuffix(r, path)
  {
    match FindLast(path, "/")
    case None => path
    case Some(i) => path[i + 1..]
  }

  /** The `ValueError` raised unless the output file name holds the placeholder. */
  function CheckOutputName(fnameOut: string): (r: Result<(), ConvertError>)
    ensures r.Ok? <==> Contains(FileName(fnameOut), PLACEHOLDER)
    ensures r.Err? ==> r.error == PlaceholderMissing(FileName(fnameOut))
  {
    if Contains(FileName(fnameOut), PLACEHOLDER) then Ok(()) else Err(PlaceholderMissing(FileName(fnameOut)))
  }

  /** `_write_single`: the placeholder replaced, anywhere in the path, by the component. */
  function OutputPath(fnameOut: string, c: Component): string {
    ReplaceAll(fnameOut, PLACEHOLDER, ComponentName(c))
  }

  lemma SuffixContains(s: string, t: string, pat: string)
    requires IsSuffix(t, s) && Contains(t, pat)
    ensures Contains(s, pat)
  {
    var i :| 0 <= i <= |t| && OccursAt(t, pat, i);
    var o := |s| - |t|;
    assert s[o + i..o + i + |pat|] == t[i..i + |pat|];
    assert OccursAt(s, pat, o + i);
  }

  /** Once the name check has passed, the two components are written to different files:
      the paths agree up to the first placeholder and then read "b…" and "d…". */
  lemma OutputPathsDiffer(fnameOut: string)
    requires CheckOutputName(fnameOut).Ok?
    ensures OutputPath(fnameOut, Backbone) != OutputPath(fnameOut, Decoder)
  {
    SuffixContains(fnameOut, FileName(fnameOut), PLACEHOLDER);
    var pieces := Split(fnameOut, PLACEHOLDER);
    SplitCount(fnameOut, PLACEHOLDER);
    var i :| 0 <= i <= |fnameOut| && OccursAt(fnameOut, PLACEHOLDER, i);
    assert FindFrom(fnameOut, PLACEHOLDER, 0).Some? by {
      FindFromSpec(fnameOut, PLACEHOLDER, 0);
    }
    assert |pieces| >= 2;
    ReplaceIsSplitJoin(fnameOut, PLACEHOLDER, "backbone");
    ReplaceIsSplitJoin(fnameOut, PLACEHOLDER, "decoder");
    assert pieces == [pieces[0]] + pieces[1..];
    JoinCons(pieces[0], pieces[1..], "backbone");
    JoinCons(pieces[0], pieces[1..], "decoder");
    var b := pieces[0] + "backbone" + Join(pieces[1..], "backbone");
    var d := pieces[0] + "decoder" + Join(pieces[1..], "decoder");
    assert b[|pieces[0]|] == 'b' && d[|pieces[0]|] == 'd';
  }

  // ---------------------------------------------------------------------
  // Hyper-parameters and vocabulary
  // ---------------------------------------------------------------------

  /** The class attributes of `Llama_3_2_1B` and `Llama_3_2_100M` that reach the file. */
  datatype Hparams = Hparams(vocabSize: nat, numLayers: nat, numHeads: nat, numKvHeads: nat, embedDim: nat,
                             maxSeqLen: nat, intermediateDim: nat, ropeBase: nat, normEps: real)

  const BACKBONE_HPARAMS: Hparams := Hparams(128256, 16, 32, 8, 2048, 2048, 8192, 500000, 0.00001)
  const DECODER_HPARAMS: Hparams := Hparams(65632, 4, 8, 2, 1024, 2048, 8192, 500000, 0.00001)

  /** The fields read from the vocabulary GGUF; None where `reader.get_field` finds nothing. */
  datatype Vocab = Vocab(architecture: Option<string>, tokenizerModel: Option<string>, tokenizerPre: Option<string>,
                         tokens: Option<seq<string>>, tokenTypes: Option<seq<int>>, merges: Option<seq<string>>,
                         bosId: Option<int>, eosId: Option<int>)

  /** The key-value metadata written into one component's file. */
  datatype Metadata = Metadata(
    modelType: string, blockCount: nat, contextLength: nat, feedForwardLength: nat, embeddingLength: nat,
    headCount: nat, headCountKv: nat, ropeFreqBase: nat, ropeDimensionCount: nat, rmsEps: real,
    keyLength: nat, valueLength: nat, vocabSize: nat,
    tokenizerModel: Option<string>, tokenizerPre: Option<string>, tokens: seq<string>, tokenTypes: seq<int>,
    merges: Option<seq<string>>, bosId: Option<int>, eosId: Option<int>)

  function Min(a: nat, b: nat): nat { if a <= b then a else b }

  /** `write_gguf_metadata`: the `assert arch == "llama"`, the fixed keys, and the token list
      and token types cut to the vocabulary size (`None[:n]` raises a TypeError). */
  function WriteMetadata(h: Hparams, vocab: Vocab): (r: Result<Metadata, ConvertError>)
    requires h.numHeads > 0
    ensures r.Ok? <==> vocab.architecture == Some("llama") && vocab.tokens.Some? && vocab.tokenTypes.Some?
    ensures vocab.architecture != Some("llama") ==> r == Err(WrongArchitecture)
    ensures r.Ok? ==> var m := r.value;
      && m.blockCount == h.numLayers && m.headCount == h.numHeads && m.headCountKv == h.numKvHeads
      && m.embeddingLength == h.embedDim && m.contextLength == h.maxSeqLen && m.vocabSize == h.vocabSize
      && m.ropeDimensionCount * h.numHeads <= h.embedDim < (m.ropeDimensionCount + 1) * h.numHeads
      && m.keyLength == m.ropeDimensionCount && m.valueLength == m.ropeDimensionCount
      && |m.tokens| == Min(h.vocabSize, |vocab.tokens.value|) && IsPrefixSeq(m.tokens, vocab.tokens.value)
      && |m.tokenTypes| == Min(h.vocabSize, |vocab.tokenTypes.value|) && IsPrefixSeq(m.tokenTypes, vocab.tokenTypes.value)
  {
    if vocab.architecture != Some("llama") then Err(WrongArchitecture)
    else if vocab.tokens.None? then Err(MissingVocabField("tokenizer.ggml.tokens"))
    else if vocab.tokenTypes.None? then Err(MissingVocabField("tokenizer.ggml.token_type"))
    else
      var headDim := h.embedDim / h.numHeads;
      var tokens := vocab.tokens.value;
      var types := vocab.tokenTypes.value;
      Ok(Metadata("model", h.numLayers, h.maxSeqLen, h.intermediateDim, h.embedDim,
                  h.numHeads, h.numKvHeads, h.ropeBase, headDim, h.normEps, headDim, headDim, h.vocabSize,
                  vocab.tokenizerModel, vocab.tokenizerPre,
                  tokens[..Min(h.vocabSize, |tokens|)], types[..Min(h.vocabSize, |types|)],
                  vocab.merges, vocab.bosId, vocab.eosId))
  }

  predicate IsPrefixSeq<T(==)>(p: seq<T>, s: seq<T>) {
    |p| <= |s| && s[..|p|] == p
  }

  /** Both classes divide the embedding evenly among the heads: 64 per head for the
      backbone and 128 for the decoder, as rope, key and value lengths. */
  lemma HeadDimensions(vocab: Vocab)
    requires WriteMetadata(BACKBONE_HPARAMS, vocab).Ok?
    ensures var b := WriteMetadata(BACKBONE_HPARAMS, vocab).value;
      b.ropeDimensionCount == 64 && b.ropeDimensionCount * b.headCount == b.embeddingLength
    ensures var d := WriteMetadata(DECODER_HPARAMS, vocab).value;
      d.ropeDimensionCount == 128 && d.ropeDimensionCount * d.headCount == d.embeddingLength
  {
    var b := WriteMetadata(BACKBONE_HPARAMS, vocab).value;
    assert 64 * 32 == 2048 && 65 * 32 > 2048;
    assert 128 * 8 == 1024 && 129 * 8 > 1024;
    assert b.ropeDimensionCount * 32 <= 2048 < (b.ropeDimensionCount + 1) * 32;
  }

  // ---------------------------------------------------------------------
  // Tensor names and routing
  // ---------------------------------------------------------------------

  /** `rename_transformer`: ten substring replacements, applied in this order. */
  function RenameTransformer(name: string): string {
    var n := ReplaceAll(name, ".scale", ".weight");
    var n := ReplaceAll(n, "attn.k_proj", "attn_k");
    var n := ReplaceAll(n, "attn.q_proj", "attn_q");
    var n := ReplaceAll(n, "attn.v_proj", "attn_v");
    var n := ReplaceAll(n, "attn.output_proj", "attn_output");
    var n := ReplaceAll(n, "sa_norm", "attn_norm");
    var n := ReplaceAll(n, "mlp.w1", "ffn_gate");
    var n := ReplaceAll(n, "mlp.w2", "ffn_down");
    var n := ReplaceAll(n, "mlp.w3", "ffn_up");
    ReplaceAll(n, "mlp_norm", "ffn_norm")
  }

  /** None of the ten transformer patterns occurs. */
  predicate PlainName(name: string) {
    && !Contains(name, ".scale") && !Contains(name, "attn.k_proj") && !Contains(name, "attn.q_proj")
    && !Contains(name, "attn.v_proj") && !Contains(name, "attn.output_proj") && !Contains(name, "sa_norm")
    && !Contains(name, "mlp.w1") && !Contains(name, "mlp.w2") && !Contains(name, "mlp.w3")
    && !Contains(name, "mlp_norm")
  }

  /** A name outside the transformer vocabulary is not renamed. */
  lemma RenamePlain(name: string)
    requires PlainName(name)
    ensures RenameTransformer(name) == name
  {
    ReplaceAbsent(name, ".scale", ".weight");
    ReplaceAbsent(name, "attn.k_proj", "attn_k");
    ReplaceAbsent(name, "attn.q_proj", "attn_q");
    ReplaceAbsent(name, "attn.v_proj", "attn_v");
    ReplaceAbsent(name, "attn.output_proj", "attn_output");
    ReplaceAbsent(name, "sa_norm", "attn_norm");
    ReplaceAbsent(name, "mlp.w1", "ffn_gate");
    ReplaceAbsent(name, "mlp.w2", "ffn_down");
    ReplaceAbsent(name, "mlp.w3", "ffn_up");
    ReplaceAbsent(name, "mlp_norm", "ffn_norm");
  }

  /** The GGUF name of a tensor and the components it belongs to. */
  datatype Route = Route(name: string, backbone: bool, decoder: bool)

  /** The `if`/`elif` chain of `add_tensor`. */
  function RouteOf(name: string): (r: Route)
    ensures r.backbone && r.decoder ==> name == "projection.weight" && r.name == "csm_proj.weight"
    ensures !r.backbone && !r.decoder ==> r.name == name
  {
    if Contains(name, "audio_embeddings.") then
      Route(ReplaceAll(name, "audio_embeddings.", "audio_embd."), false, true)
    else if Contains(name, "text_embeddings.") then
      Route(ReplaceAll(name, "text_embeddings.", "token_embd."), true, false)
    else if Contains(name, "backbone.") || Contains(name, "codebook0_head.") then
      var n := ReplaceAll(name, "backbone.layers.", "blk.");
      Route(RenameTransformer(ReplaceAll(n, "backbone.norm.scale", "output_norm.weight")), true, false)
    else if Contains(name, "decoder.") then
      var n := ReplaceAll(name, "decoder.layers.", "blk.");
      Route(RenameTransformer(ReplaceAll(n, "decoder.norm.scale", "output_norm.weight")), false, true)
    else if name == "audio_head" then Route("audio_head.weight", false, true)
    else if name == "projection.weight" then Route("csm_proj.weight", true, true)
    else Route(name, false, false)
  }

  /** None of the five prefix families of the chain matches. */
  predicate OutsideFamilies(name: string) {
    && !Contains(name, "audio_embeddings.") && !Contains(name, "text_embeddings.")
    && !Contains(name, "backbone.") && !Contains(name, "codebook0_head.") && !Contains(name, "decoder.")
  }

  lemma ProjectionOutside()
    ensures OutsideFamilies("projection.weight")
  {
    var n := "projection.weight";
    assert 'a' !in n && 'x' !in n && 'b' !in n && 'd' !in n;
    assert 'a' in "audio_embeddings." && 'x' in "text_embeddings." && 'b' in "backbone.";
    assert 'd' in "codebook0_head." && 'd' in "decoder.";
    CharAbsent(n, "audio_embeddings.", 'a');
    CharAbsent(n, "text_embeddings.", 'x');
    CharAbsent(n, "backbone.", 'b');
    CharAbsent(n, "codebook0_head.", 'd');
    CharAbsent(n, "decoder.", 'd');
  }

  lemma AudioHeadOutside()
    ensures OutsideFamilies("audio_head")
  {
    var n := "audio_head";
    assert 'm' !in n && 'x' !in n && 'b' !in n && 'c' !in n;
    assert 'm' in "audio_embeddings." && 'x' in "text_embeddings." && 'b' in "backbone.";
    assert 'c' in "codebook0_head." && 'c' in "decoder.";
    CharAbsent(n, "audio_embeddings.", 'm');
    CharAbsent(n, "text_embeddings.", 'x');
    CharAbsent(n, "backbone.", 'b');
    CharAbsent(n, "codebook0_head.", 'c');
    CharAbsent(n, "decoder.", 'c');
  }

  /** The projection goes to both components under one name. */
  lemma ProjectionRoute()
    ensures RouteOf("projection.weight") == Route("csm_proj.weight", true, true)
  {
    ProjectionOutside();
  }

  /** The audio head goes to the decoder only. */
  lemma AudioHeadRoute()
    ensures RouteOf("audio_head") == Route("audio_head.weight", false, true)
  {
    AudioHeadOutside();
  }

  /** A name in no family and not one of the two special names goes nowhere, unchanged. */
  lemma UnknownRoute(name: string)
    requires OutsideFamilies(name) && name != "audio_head" && name != "projection.weight"
    ensures RouteOf(name) == Route(name, false, false)
  {
  }

  /** Whether the pass for component `c` adds a tensor with this route. */
  predicate Belongs(r: Route, c: Component) {
    (r.backbone && c == Backbone) || (r.decoder && c == Decoder)
  }

  // ---------------------------------------------------------------------
  // add_tensor
  // ---------------------------------------------------------------------

  const AUDIO_HEAD_SHAPE: seq<nat> := [31, 1024, 2051]

  /** For the decoder, `torch.cat` of a zero `(1, 1024, 2051)` block in front (which fails
      unless the trailing dimensions match), the `assert` on `(32, 1024, 2051)`, then
      `transpose(1, 2)`. */
  function PadAudioHead(t: Tensor, name: string): (r: Result<Tensor, ConvertError>)
    ensures r.Ok? <==> t.shape == AUDIO_HEAD_SHAPE
    ensures r.Ok? ==> r.value.shape == [32, 2051, 1024]
    ensures r.Err? ==> r.error == BadShape(name)
  {
    if |t.shape| != 3 || t.shape[1] != 1024 || t.shape[2] != 2051 then Err(BadShape(name))
    else if 1 + t.shape[0] != 32 then Err(BadShape(name))
    else Ok(Tensor([32, 2051, 1024], F32))
  }

  /** The storage type asked for: F32 for 1-D tensors, otherwise the file type's, with Q8_0
      lowered to F16 for the decoder. */
  function RequestedQType(t: Tensor, c: Component, ftype: FileType): (r: Result<QType, ConvertError>)
    ensures |t.shape| == 1 ==> r == Ok(QF32)
    ensures |t.shape| != 1 ==> (r.Err? <==> ftype.OtherFileType?)
    ensures r.Err? ==> r.error == UnsupportedFileType(ftype)
    ensures r.Ok? && c == Decoder ==> r.value != QQ8_0
    ensures r.Ok? && |t.shape| != 1 && c == Backbone ==> Some(r.value) == FileTypeQType(ftype)
  {
    if |t.shape| == 1 then Ok(QF32)
    else match FileTypeQType(ftype)
      case None => Err(UnsupportedFileType(ftype))
      case Some(q) => Ok(if q == QQ8_0 && c == Decoder then QF16 else q)
  }

  /** `add_tensor(name, data_torch, old_dtype, component)`: the tensor this pass writes,
      None when it belongs to the other component or to none, or the error raised. The
      storage type is chosen, and quantization tried, whichever component the tensor
      belongs to. */
  function AddTensor(name: string, t: Tensor, c: Component, ftype: FileType, quant: Quantizer)
    : (r: Result<Option<Written>, ConvertError>)
    ensures r.Ok? ==> (r.value.Some? <==> Belongs(RouteOf(name), c))
    ensures r.Ok? && r.value.Some? ==> r.value.value.name == RouteOf(name).name
    ensures r.Ok? && r.value.Some? && c == Decoder ==> r.value.value.qtype != QQ8_0
    ensures r.Ok? && r.value.Some? && |t.shape| == 1 ==> r.value.value.qtype in {QF32, QF16}
    ensures r.Ok? && r.value.Some? ==>
              r.value.value.shape == if name == "audio_head" && c == Decoder then [32, 2051, 1024] else t.shape
    ensures name == "audio_head" && c == Decoder && t.shape != AUDIO_HEAD_SHAPE ==> r == Err(BadShape(name))
    ensures !(name == "audio_head" && c == Decoder) && |t.shape| != 1 && ftype.OtherFileType? ==>
              r == Err(UnsupportedFileType(ftype))
  {
    var route := RouteOf(name);
    var data :- if name == "audio_head" && c == Decoder then PadAudioHead(t, name) else Ok(t);
    var qtype :- RequestedQType(t, c, ftype);
    var stored :- QuantizeWithFallback(quant, data, qtype, route.name);
    if Belongs(route, c) then Ok(Some(Written(route.name, data.shape, stored))) else Ok(None)
  }

  // ---------------------------------------------------------------------
  // The converter
  // ---------------------------------------------------------------------

  /** One output file: its path, metadata and tensors in the order they were added. */
  datatype Output = Output(path: string, metadata: Metadata, tensors: seq<Written>)

  /** A state-dict entry: tensor name and tensor. */
  type Entry = (string, Tensor)

  /** The body of the inner loop for one component: the dtype cast, then add_tensor. */
  function Step(c: Component, ftype: FileType, quant: Quantizer): Entry -> Result<Option<Written>, ConvertError> {
    (e: Entry) => AddTensor(e.0, CastForNumpy(e.1), c, ftype, quant)
  }

  /** Every tensor a pass writes comes from an entry routed to its component, under the
      routed name; the decoder never stores Q8_0. */
  lemma PassProvenance(stateDict: seq<Entry>, c: Component, ftype: FileType, quant: Quantizer)
    requires Collect(stateDict, Step(c, ftype, quant), 0).Ok?
    ensures var out := Collect(stateDict, Step(c, ftype, quant), 0).value;
      forall w :: w in out ==>
        && (exists i :: 0 <= i < |stateDict| && Belongs(RouteOf(stateDict[i].0), c)
                        && w.name == RouteOf(stateDict[i].0).name)
        && (c == Decoder ==> w.qtype != QQ8_0)
  {
    var step := Step(c, ftype, quant);
    var out := Collect(stateDict, step, 0).value;
    CollectSource(stateDict, step);
    forall w | w in out
      ensures exists i :: 0 <= i < |stateDict| && Belongs(RouteOf(stateDict[i].0), c)
                          && w.name == RouteOf(stateDict[i].0).name
      ensures c == Decoder ==> w.qtype != QQ8_0
    {
      var i :| 0 <= i < |stateDict| && step(stateDict[i]) == Ok(Some(w));
    }
  }

  /** Every entry routed to a component is written by its pass, under the routed name. */
  lemma PassComplete(stateDict: seq<Entry>, c: Component, ftype: FileType, quant: Quantizer)
    requires Collect(stateDict, Step(c, ftype, quant), 0).Ok?
    ensures var out := Collect(stateDict, Step(c, ftype, quant), 0).value;
      forall i :: 0 <= i < |stateDict| && Belongs(RouteOf(stateDict[i].0), c) ==>
        exists w :: w in out && w.name == RouteOf(stateDict[i].0).name
  {
    var step := Step(c, ftype, quant);
    forall i | 0 <= i < |stateDict| && Belongs(RouteOf(stateDict[i].0), c)
      ensures exists w: Written :: w in Collect(stateDict, step, 0).value && w.name == RouteOf(stateDict[i].0).name
    {
      assert step(stateDict[i]).Ok?;
      CollectCovers(stateDict, step, i);
    }
  }

  /** One pass of the outer loop: every state-dict entry for component `c`. */
  function Pass(stateDict: seq<Entry>, c: Component, ftype: FileType, quant: Quantizer)
    : (r: Result<seq<Written>, ConvertError>)
    ensures r.Ok? ==> forall w :: w in r.value ==>
      exists i :: 0 <= i < |stateDict| && Belongs(RouteOf(stateDict[i].0), c) && w.name == RouteOf(stateDict[i].0).name
    ensures r.Ok? && c == Decoder ==> forall w :: w in r.value ==> w.qtype != QQ8_0
    ensures r.Ok? ==> forall i :: 0 <= i < |stateDict| && Belongs(RouteOf(stateDict[i].0), c) ==>
      exists w :: w in r.value && w.name == RouteOf(stateDict[i].0).name
  {
    var r := Collect(stateDict, Step(c, ftype, quant), 0);
    if r.Ok? then
      PassProvenance(stateDict, c, ftype, quant);
      PassComplete(stateDict, c, ftype, quant);
      r
    else r
  }

  /** `CSMModelConverter(...)` followed by `write()`: the name check, the metadata of both
      components, then the backbone pass and the decoder pass over the whole state dict. */
  function Convert(fnameOut: string, vocab: Vocab, stateDict: seq<Entry>, ftype: FileType, quant: Quantizer)
    : (r: Result<(Output, Output), ConvertError>)
    ensures !Contains(FileName(fnameOut), PLACEHOLDER) ==> r == Err(PlaceholderMissing(FileName(fnameOut)))
    ensures r.Ok? ==> r.value.0.path == OutputPath(fnameOut, Backbone) && r.value.1.path == OutputPath(fnameOut, Decoder)
    ensures r.Ok? ==> r.value.0.path != r.value.1.path
    ensures r.Ok? ==> forall w :: w in r.value.1.tensors ==> w.qtype != QQ8_0
    ensures r.Ok? ==> Pass(stateDict, Backbone, ftype, quant) == Ok(r.value.0.tensors)
                      && Pass(stateDict, Decoder, ftype, quant) == Ok(r.value.1.tensors)
  {
    var _ :- CheckOutputName(fnameOut);
    OutputPathsDiffer(fnameOut);
    var bm :- WriteMetadata(BACKBONE_HPARAMS, vocab);
    var dm := WriteMetadata(DECODER_HPARAMS, vocab).value;
    var bt :- Pass(stateDict, Backbone, ftype, quant);
    var dt :- Pass(stateDict, Decoder, ftype, quant);
    Ok((Output(OutputPath(fnameOut, Backbone), bm, bt), Output(OutputPath(fnameOut, Decoder), dm, dt)))
  }

  /** A state dict holding the projection yields it in both files, as `csm_proj.weight`. */
  lemma ProjectionInBoth(fnameOut: string, vocab: Vocab, stateDict: seq<Entry>, ftype: FileType, quant: Quantizer,
                         i: nat)
    requires i < |stateDict| && stateDict[i].0 == "projection.weight"
    requires Convert(fnameOut, vocab, stateDict, ftype, quant).Ok?
    ensures var out := Convert(fnameOut, vocab, stateDict, ftype, quant).value;
      && (exists w :: w in out.0.tensors && w.name == "csm_proj.weight")
      && (exists w :: w in out.1.tensors && w.name == "csm_proj.weight")
  {
    ProjectionRoute();
    assert Belongs(RouteOf(stateDict[i].0), Backbone) && Belongs(RouteOf(stateDict[i].0), Decoder);
  }

  /** A tensor outside every family of the chain is written by neither pass. */
  lemma UnknownTensorSkipped(name: string, t: Tensor, c: Component, ftype: FileType, quant: Quantizer)
    requires OutsideFamilies(name) && name != "audio_head" && name != "projection.weight"
    ensures AddTensor(name, t, c, ftype, quant).Ok? ==> AddTensor(name, t, c, ftype, quant).value.None?
  {
    UnknownRoute(name);
  }
}

=== FILE: deepseek_window.dfy ===
/**
 * The shape arithmetic of the DeepSeek-OCR SAM encoder: windowed attention
 * pads the feature map up to whole windows, cuts it into window x window
 * tiles stacked along the batch axis, and stitches the tiles back together
 * afterwards; the relative-position tables are looked up with index tensors
 * whose shape the lookup checks.  Only tensor shapes are modelled, as
 * (ne0, ne1, ne2, ne3) = (channels, width, height, batch).
 */
module DeepseekWindow {
  import opened Wrappers
  import opened CInt

  datatype Shape = Shape(c: nat, w: nat, h: nat, b: nat)

  /** Number of elements of a tensor of this shape. */
  function NElements(s: Shape): nat {
    s.c * s.w * s.h * s.b
  }

  /** Padding that brings `len` up to a whole number of windows. */
  function WindowPad(len: nat, window: nat): (px: nat)
    requires window > 0
    ensures px < window && (len + px) % window == 0
    ensures px == 0 <==> len % window == 0
  {
    PadCompletes(len, window);
    (window - len % window) % window
  }

  lemma PadCompletes(len: nat, window: nat)
    requires window > 0
    ensures var px := (window - len % window) % window;
            0 <= px < window && (len + px) % window == 0 && (px == 0 <==> len % window == 0)
  {
    var m := len % window;
    var k := len / window;
    assert len == k * window + m;
    if m == 0 {
      DivModUnique(1, 0, window);
      DivModUnique(k, 0, window);
    } else {
      DivModUnique(0, window - m, window);
      assert len + (window - m) == (k + 1) * window;
      DivModUnique(k + 1, 0, window);
    }
  }

  /** The padding is the only amount below one window that completes the last window. */
  lemma WindowPadUnique(len: nat, window: nat, q: nat)
    requires window > 0 && q < window && (len + q) % window == 0
    ensures q == WindowPad(len, window)
  {
    var px := WindowPad(len, window);
    var k := len / window;
    var m := len % window;
    assert len == k * window + m;
    if q < px {
      assert len + q == k * window + (m + q);
      DivModUnique(k, m + q, window);
      assert false;
    } else if q > px {
      var j := (len + px) / window;
      assert len + px == j * window;
      assert len + q == j * window + (q - px);
      DivModUnique(j, q - px, window);
      assert false;
    }
  }

  /** Windows along an axis of length `len`. */
  function WindowCount(len: nat, window: nat): (n: nat)
    requires window > 0
    ensures n * window == len + WindowPad(len, window)
    ensures len > 0 ==> n > 0
  {
    var px := WindowPad(len, window);
    ExactQuotient(len + px, window);
    (len + px) / window
  }

  lemma ExactQuotient(a: nat, d: nat)
    requires d > 0 && a % d == 0
    ensures (a / d) * d == a && (a > 0 ==> a / d > 0)
  {
    assert a == (a / d) * d + a % d;
  }

  /** The steps of `window_partition`: the padding, whether it pads at all, the two
      intermediate reshapes and the result. */
  datatype Partition = Partition(px: nat, py: nat, padded: bool, tiles: Shape, result: Shape)

  function WindowPartition(x: Shape, window: nat): (p: Partition)
    requires window > 0
    ensures p.padded <==> x.w % window != 0 || x.h % window != 0
    ensures p.result.c == x.c && p.result.w == window && p.result.h == window
  {
    var px := WindowPad(x.w, window);
    var py := WindowPad(x.h, window);
    var npw := WindowCount(x.w, window);
    var nph := WindowCount(x.h, window);
    Partition(px, py, px > 0 || py > 0,
              Shape(x.c * window, npw, window, nph * x.b),
              Shape(x.c, window, window, npw * nph * x.b))
  }

  /** Padding, the reshapes and the tiling keep the element count, so the reshapes the
      partition asks ggml for are all valid. */
  lemma PartitionKeepsElements(x: Shape, window: nat)
    requires window > 0
    ensures var p := WindowPartition(x, window);
            var padded := Shape(x.c, x.w + p.px, x.h + p.py, x.b);
            NElements(padded) == NElements(p.tiles) && NElements(p.tiles) == NElements(p.result)
  {
    var p := WindowPartition(x, window);
    var npw := WindowCount(x.w, window);
    var nph := WindowCount(x.h, window);
    var c := x.c;
    var b := x.b;
    assert x.w + p.px == npw * window;
    assert x.h + p.py == nph * window;
    TilesElements(c, window, npw, nph, b);
    ResultElements(c, window, npw, nph, b);
  }

  /** The padded map and the first reshape hold the same product of factors. */
  lemma TilesElements(c: nat, wn: nat, npw: nat, nph: nat, b: nat)
    ensures c * (npw * wn) * (nph * wn) * b == c * wn * npw * wn * (nph * b)
  {
    var base := c * npw * nph * b;
    assert c * (npw * wn) * (nph * wn) * b == base * wn * wn;
    assert c * wn * npw * wn * (nph * b) == base * wn * wn;
  }

  /** The first reshape and the tiles hold the same product of factors. */
  lemma ResultElements(c: nat, wn: nat, npw: nat, nph: nat, b: nat)
    ensures c * wn * npw * wn * (nph * b) == c * wn * wn * (npw * nph * b)
    ensures c * wn * wn * npw * (nph * b) == c * wn * wn * (npw * nph * b)
  {
    var base := c * npw * nph * b;
    assert c * wn * npw * wn * (nph * b) == base * wn * wn;
    assert c * wn * wn * npw * (nph * b) == base * wn * wn;
    assert c * wn * wn * (npw * nph * b) == base * wn * wn;
  }

  datatype ShapeError = DivisionByZero | ReshapeMismatch

  /** `window_unpartition` back to a `w` x `h` map: the batch is inferred by dividing the
      tile count by the windows per map, the tiles are stitched into the padded map and the
      padding is cropped. A map of zero width or height divides by zero; a tile stack whose
      element count does not fit the stitched shape fails ggml's reshape check. */
  function WindowUnpartition(x: Shape, w: nat, h: nat, window: nat): (r: Result<Shape, ShapeError>)
    requires window > 0
    ensures r.Ok? ==> r.value.c == x.c && r.value.w == w && r.value.h == h
    ensures r == Err(DivisionByZero) <==> w == 0 || h == 0
  {
    var npw := WindowCount(w, window);
    var nph := WindowCount(h, window);
    if w == 0 || h == 0 then Err(DivisionByZero)
    else
      MulMono(1, npw, nph);
      NatDiv(x.b, npw * nph);
      var b: nat := x.b / (npw * nph);
      if NElements(x) != NElements(Shape(x.c * window, window, npw, nph * b)) then Err(ReshapeMismatch)
      else Ok(Shape(x.c, w, h, b))
  }

  /** Unpartitioning the result of a partition with the map's own width and height restores
      its shape, batch included. */
  lemma UnpartitionAfterPartition(x: Shape, window: nat)
    requires window > 0 && x.w > 0 && x.h > 0
    ensures WindowUnpartition(WindowPartition(x, window).result, x.w, x.h, window) == Ok(x)
  {
    var p := WindowPartition(x, window);
    var npw := WindowCount(x.w, window);
    var nph := WindowCount(x.h, window);
    var y := p.result;
    MulMono(1, npw, nph);
    var n := npw * nph;
    assert y.b == n * x.b by {
      assert npw * nph * x.b == (npw * nph) * x.b;
    }
    assert n * x.b == x.b * n;
    DivModUnique(x.b, 0, n);
    assert y.b / n == x.b;
    ResultElements(x.c, window, npw, nph, x.b);
    assert NElements(y) == NElements(Shape(x.c * window, window, npw, nph * x.b));
  }

  /** `get_rel_pos`: the lookup asserts the index tensor is `int32` of shape [k_size, q_size],
      resizes the table only when its length is not 2 * max(q_size, k_size) - 1, and gives a
      [C, k_size, q_size] result. */
  datatype RelPos = RelPos(interpolated: bool, tableLength: int, out: (nat, nat, nat))

  datatype RelPosError = IndicesNotInt32 | IndicesShapeMismatch

  function GetRelPos(channels: nat, tableLength: nat, indicesInt32: bool, indices: (nat, nat),
                     qSize: nat, kSize: nat): (r: Result<RelPos, RelPosError>)
    ensures r.Ok? <==> indicesInt32 && indices == (kSize, qSize)
    ensures r.Ok? ==> r.value.out == (channels, kSize, qSize)
    ensures r.Ok? ==> (r.value.interpolated <==> tableLength != 2 * (if qSize > kSize then qSize else kSize) - 1)
    ensures r.Ok? ==> r.value.tableLength == 2 * (if qSize > kSize then qSize else kSize) - 1
  {
    if !indicesInt32 then Err(IndicesNotInt32)
    else if indices.0 != kSize || indices.1 != qSize then Err(IndicesShapeMismatch)
    else
      var maxRelDist := 2 * (if qSize > kSize then qSize else kSize) - 1;
      Ok(RelPos(maxRelDist != tableLength, maxRelDist, (channels, kSize, qSize)))
  }

  /** One SAM layer's attention shapes: a local layer attends within the tiles, a global one
      over the whole map; the relative-position lookups along the width and the height both
      go through the same index tensor. */
  datatype LayerShapes = LayerShapes(attended: Shape, widthTable: RelPos, heightTable: RelPos, output: Shape)

  function SamLayer(x: Shape, global: bool, window: nat, channels: nat, tableW: nat, tableH: nat,
                    globalIndices: (nat, nat)): (r: Result<LayerShapes, RelPosError>)
    requires window > 0 && x.w > 0 && x.h > 0
    ensures !global ==> r.Ok?
    ensures global ==> (r.Ok? <==> globalIndices == (x.w, x.w) && globalIndices == (x.h, x.h))
    ensures r.Ok? ==> r.value.output == x
  {
    var cur := if global then x else WindowPartition(x, window).result;
    var indices := if global then globalIndices else (window, window);
    var rw :- GetRelPos(channels, tableW, true, indices, cur.w, cur.w);
    var rh :- GetRelPos(channels, tableH, true, indices, cur.h, cur.h);
    if global then Ok(LayerShapes(cur, rw, rh, cur))
    else
      UnpartitionAfterPartition(x, window);
      Ok(LayerShapes(cur, rw, rh, WindowUnpartition(cur, x.w, x.h, window).value))
  }

  /** A global layer indexes with the [w, h] tensor built from the patch grid, so its lookups
      succeed exactly on a square grid. */
  lemma GlobalLayerNeedsSquare(x: Shape, window: nat, channels: nat, tableW: nat, tableH: nat)
    requires window > 0 && x.w > 0 && x.h > 0
    ensures SamLayer(x, true, window, channels, tableW, tableH, (x.w, x.h)).Ok? <==> x.w == x.h
  {
  }
}

=== FILE: fixed_point.dfy ===
/**
 * Numbers written with a fixed count of decimals: `printf("%.*f")`,
 * `std::to_string(double)` (six decimals) and Python's `format(x, ".4f")`.
 *
 * The number is the double's exact value, as a `real`.  The last decimal is
 * rounded to nearest, ties to even, as glibc's `printf` and Python's
 * correctly rounded formatting do in the default rounding mode.  A negative
 * number keeps its minus sign even when it rounds to zero.
 */
module FixedPoint {
  import opened Wrappers
  import opened Text

  function Pow10(n: nat): (r: nat)
    ensures r >= 1
  {
    if n == 0 then 1 else 10 * Pow10(n - 1)
  }

  function Abs(x: real): (r: real)
    ensures r >= 0.0 && (r == x || r == -x)
  {
    if x < 0.0 then -x else x
  }

  /** How far the integer `k` is from `s`. */
  function Dist(k: int, s: real): real {
    Abs(k as real - s)
  }

  /** `s` rounded to the nearest integer, ties to the even one. */
  function RoundHalfEven(s: real): (m: int)
    ensures forall k: int :: Dist(m, s) <= Dist(k, s)
    ensures Dist(m, s) <= 0.5
    ensures Dist(m, s) == 0.5 ==> m % 2 == 0
    ensures s >= 0.0 ==> m >= 0
  {
    var n := s.Floor;
    var f := s - n as real;
    var m := if f > 0.5 || (f == 0.5 && n % 2 != 0) then n + 1 else n;
    assert forall k: int :: Dist(m, s) <= Dist(k, s) by {
      forall k: int ensures Dist(m, s) <= Dist(k, s) {
        if k <= n {
          assert Dist(k, s) == s - k as real;
        } else {
          assert Dist(k, s) == k as real - s;
        }
      }
    }
    m
  }

  /** The magnitude of `x` in units of `10^-places`. */
  function Scaled(x: real, places: nat): (s: real)
    ensures s >= 0.0
  {
    Abs(x) * Pow10(places) as real
  }

  /** `Scaled(x, places)` rounded to the nearest integer, ties to even. */
  function ScaledRound(x: real, places: nat): (m: nat)
    ensures forall k: int :: Dist(m, Scaled(x, places)) <= Dist(k, Scaled(x, places))
    ensures Dist(m, Scaled(x, places)) == 0.5 ==> m % 2 == 0
  {
    RoundHalfEven(Scaled(x, places))
  }

  /** `m` units of `10^-places`. */
  function Decimal(m: int, places: nat): (r: real)
    ensures m >= 0 ==> r >= 0.0
  {
    m as real / Pow10(places) as real
  }

  predicate AllDigits(s: string) {
    forall i :: 0 <= i < |s| ==> IsDigit(s[i])
  }

  /** `s` with zeros put in front until it is at least `w` characters long. */
  function PadZeros(s: string, w: nat): (r: string)
    ensures |r| >= w && |r| >= |s|
    ensures AllDigits(s) ==> AllDigits(r)
    decreases w - |s|
  {
    if |s| >= w then s else PadZeros("0" + s, w)
  }

  /**
   * `x` with `places` decimals: an optional minus sign, the integer part
   * without leading zeros (a lone zero below one), then (for a positive
   * count) a point and exactly `places` digits.
   */
  function FixedText(x: real, places: nat): (r: string)
    ensures |r| >= 1 && (r[0] == '-' <==> x < 0.0)
  {
    var unsigned := UnitsText(ScaledRound(x, places), places);
    if x < 0.0 then "-" + unsigned else unsigned
  }

  /** `m` units of `10^-places` written without a sign. */
  function UnitsText(m: nat, places: nat): (r: string)
    ensures |r| >= 1 && IsDigit(r[0])
  {
    PointBefore(PadZeros(NatToString(m), places + 1), places)
  }

  /** A point put before the last `places` digits (none for a count of zero). */
  function PointBefore(d: string, places: nat): (r: string)
    requires |d| >= places + 1 && AllDigits(d)
    ensures |r| >= 1 && IsDigit(r[0])
  {
    if places == 0 then d else d[..|d| - places] + "." + d[|d| - places..]
  }

  /**
   * Reading an unsigned fixed-decimal text back, in units of `10^-places`: a
   * non-empty run of digits and, for a positive count, a point and `places`
   * digits; the value of all the digits taken together.
   */
  function ReadUnits(body: string, places: nat): (r: Option<nat>)
  {
    if places == 0 then
      if |body| >= 1 && AllDigits(body) then Some(DigitsValue(body)) else None
    else
      var n := |body| - places - 1;
      if n < 1 || body[n] != '.' then None
      else
        var digits := body[..n] + body[n + 1..];
        if AllDigits(digits) then Some(DigitsValue(digits)) else None
  }

  /** Reading a fixed-decimal text back: an optional minus sign, then `ReadUnits`. */
  function ReadFixed(t: string, places: nat): (r: Option<real>)
  {
    if |t| > 0 && t[0] == '-' then
      match ReadUnits(t[1..], places)
      case None => None
      case Some(u) => Some(Decimal(-(u as int), places))
    else
      match ReadUnits(t, places)
      case None => None
      case Some(u) => Some(Decimal(u, places))
  }

  /** A leading zero does not change a digit string's value. */
  lemma {:induction false} LeadingZeroValue(s: string)
    requires AllDigits(s)
    ensures DigitsValue("0" + s) == DigitsValue(s)
    decreases |s|
  {
    if |s| > 0 {
      var t := "0" + s;
      assert t[..|t| - 1] == "0" + s[..|s| - 1];
      LeadingZeroValue(s[..|s| - 1]);
    }
  }

  lemma {:induction false} PadZerosValue(s: string, w: nat)
    requires AllDigits(s)
    ensures DigitsValue(PadZeros(s, w)) == DigitsValue(s)
    decreases w - |s|
  {
    if |s| < w {
      LeadingZeroValue(s);
      PadZerosValue("0" + s, w);
    }
  }

  /** The unsigned text of `m` units reads back as `m`. */
  lemma UnitsTextReadsBack(m: nat, places: nat)
    ensures ReadUnits(UnitsText(m, places), places) == Some(m)
  {
    var t := NatToString(m);
    var d := PadZeros(t, places + 1);
    assert DigitsValue(d) == m by {
      NatToStringValue(m);
      PadZerosValue(t, places + 1);
    }
    PointReadsBack(d, places);
  }

  /** Digits with a point put before the last `places` read back as all the digits. */
  lemma PointReadsBack(d: string, places: nat)
    requires |d| >= places + 1 && AllDigits(d)
    ensures ReadUnits(PointBefore(d, places), places) == Some(DigitsValue(d))
  {
    if places > 0 {
      var n := |d| - places;
      var u := d[..n] + "." + d[n..];
      assert |u| - places - 1 == n && u[n] == '.';
      assert u[..n] + u[n + 1..] == d by {
        assert u[..n] == d[..n] && u[n + 1..] == d[n..];
      }
    }
  }

  /**
   * The text `FixedText` writes reads back as `x` rounded to a multiple of
   * `10^-places`: the nearest one to `x`, ties to an even last digit.
   */
  lemma FixedTextReadsBack(x: real, places: nat)
    ensures var m := ScaledRound(x, places);
            ReadFixed(FixedText(x, places), places) == Some(Decimal(if x < 0.0 then -(m as int) else m, places))
  {
    var m := ScaledRound(x, places);
    var unsigned := UnitsText(m, places);
    UnitsTextReadsBack(m, places);
    if x < 0.0 {
      assert ("-" + unsigned)[1..] == unsigned;
    }
  }

  /** A worked case: one half with four decimals. */
  lemma HalfWithFourPlaces()
    ensures FixedText(0.5, 4) == "0.5000"
  {
    assert ScaledRound(0.5, 4) == 5000 by {
      assert Pow10(4) == 10000;
    }
    assert UnitsText(5000, 4) == "0.5000" by {
      assert NatToString(5000) == "5000";
      assert "0" + "5000" == "05000";
      assert PadZeros("5000", 5) == "05000";
    }
  }

  /** A worked case: a small negative number keeps its sign when it rounds to zero. */
  lemma TinyNegativeWithFourPlaces()
    ensures FixedText(-0.00001, 4) == "-0.0000"
  {
    assert ScaledRound(-0.00001, 4) == 0 by {
      assert Pow10(4) == 10000;
    }
    ZeroWithFourPlaces();
  }

  lemma ZeroWithFourPlaces()
    ensures UnitsText(0, 4) == "0.0000"
  {
    assert NatToString(0) == "0";
    assert PadZeros("0", 5) == PadZeros("00", 5) by { assert "0" + "0" == "00"; }
    assert PadZeros("00", 5) == PadZeros("000", 5) by { assert "0" + "00" == "000"; }
    assert PadZeros("000", 5) == PadZeros("0000", 5) by { assert "0" + "000" == "0000"; }
    assert PadZeros("0000", 5) == "00000" by { assert "0" + "0000" == "00000"; }
    var d := "00000";
    assert d[..1] + "." + d[1..] == "0.0000";
  }
}

=== FILE: hifi_quant.dfy ===
/**
 * The layer-adaptive outlier policy of Q4_HIFI quantisation
 * (`ggml_hifi_compute_outlier_count`, `ggml_hifi_compute_tensor_importance`)
 * and the thread-local context slot around it.
 *
 * Single-precision arithmetic is modelled over `real`: the thresholds are
 * compared exactly and no float rounding is modelled, except `roundf`, which
 * is written out (round half away from zero).  `sqrt` is a parameter.
 */
module HifiQuant {
  import opened Wrappers

  const MIN_OUTLIERS: int := 2
  const MAX_OUTLIERS: int := 8

  /** `roundf`: the nearest integer, halves rounded away from zero. */
  function RoundHalfAway(x: real): (r: int)
    ensures 0.0 <= x ==> (r as real) - 0.5 <= x < (r as real) + 0.5
    ensures x < 0.0 ==> (r as real) - 0.5 < x <= (r as real) + 0.5
  {
    if x >= 0.0 then (x + 0.5).Floor else -((-x + 0.5).Floor)
  }

  /** Rounding an integer-valued number gives that integer. */
  lemma RoundOfInteger(n: int)
    ensures RoundHalfAway(n as real) == n
  {
  }

  function Clamp(n: int, lo: int, hi: int): (r: int)
    requires lo <= hi
    ensures lo <= r <= hi
    ensures lo <= n <= hi ==> r == n
    ensures n < lo ==> r == lo
    ensures n > hi ==> r == hi
  {
    if n < lo then lo else if n > hi then hi else n
  }

  /** Position of a layer in the stack: 0 for the first, 1 for the last; a single layer sits at 0.5. */
  function DepthRatio(layer: int, total: int): (d: real)
    requires total > 0
    ensures total > 1 && 0 <= layer <= total - 1 ==> 0.0 <= d <= 1.0
    ensures total > 1 && layer == 0 ==> d == 0.0
    ensures total > 1 && layer == total - 1 ==> d == 1.0
  {
    if total == 1 then 0.5 else layer as real / (total - 1) as real
  }

  /** The count before scaling: 8 for the first 30% of the stack, 7 up to 70%, 5 after. */
  function BaseCount(d: real): (r: int)
    ensures r == 8 <==> d <= 0.30
    ensures r == 7 <==> 0.30 < d <= 0.70
    ensures r == 5 <==> 0.70 < d
  {
    if d <= 0.30 then 8 else if d <= 0.70 then 7 else 5
  }

  /** Deeper layers never get a larger base count. */
  lemma BaseCountMonotone(d1: real, d2: real)
    requires d1 <= d2
    ensures BaseCount(d2) <= BaseCount(d1)
  {
  }

  /** The model-size adjustment. */
  function ScaleFactor(paramsB: real, d: real): (f: real)
    ensures 0.75 <= f <= 1.3
  {
    if paramsB >= 7.0 then
      (if d > 0.70 then 0.75 else if d > 0.50 then 0.9 else 1.0)
    else if paramsB >= 3.0 then
      (if d > 0.70 then 0.80 else if d > 0.50 then 0.95 else 1.0)
    else if paramsB >= 1.5 then
      (if d > 0.70 then 0.85 else 1.0)
    else if paramsB <= 1.0 then
      (if d <= 0.30 then 1.3 else 1.2)
    else 1.0
  }

  /** Only models of at most 1B parameters are boosted; only models of 1.5B and more are reduced,
      and only past the middle of the stack; models between 1B and 1.5B are left alone. */
  lemma ScaleFactorRegions(paramsB: real, d: real)
    ensures ScaleFactor(paramsB, d) > 1.0 <==> paramsB <= 1.0
    ensures ScaleFactor(paramsB, d) < 1.0 <==> paramsB >= 1.5 && (d > 0.70 || (d > 0.50 && paramsB >= 3.0))
    ensures 1.0 < paramsB < 1.5 ==> ScaleFactor(paramsB, d) == 1.0
    ensures d <= 0.50 && paramsB > 1.0 ==> ScaleFactor(paramsB, d) == 1.0
  {
  }

  /** The importance adjustment: a linear boost above 0.7, a linear cut below 0.3, neutral between. */
  function ImportanceFactor(imp: real): (f: real)
    ensures 0.3 <= imp <= 0.7 ==> f == 1.0
    ensures imp > 0.7 ==> f > 1.0
    ensures imp < 0.3 ==> f < 1.0
  {
    if imp > 0.7 then 1.0 + (imp - 0.7)
    else if imp < 0.3 then 0.7 + (imp / 0.3) * 0.3
    else 1.0
  }

  /** For an importance normalised into [0, 1] the factor stays in [0.7, 1.3] and never decreases. */
  lemma ImportanceFactorBounds(imp: real, imp2: real)
    requires 0.0 <= imp <= imp2 <= 1.0
    ensures 0.7 <= ImportanceFactor(imp) <= 1.3
    ensures ImportanceFactor(imp) <= ImportanceFactor(imp2)
  {
  }

  /** `ggml_hifi_compute_outlier_count`. */
  function OutlierCount(layer: int, total: int, importance: real, paramsB: real): (r: int)
    ensures MIN_OUTLIERS <= r <= MAX_OUTLIERS
    ensures total <= 0 ==> r == MAX_OUTLIERS
  {
    if total <= 0 then MAX_OUTLIERS
    else Clamp(RoundHalfAway(RawCount(layer, total, importance, paramsB)), MIN_OUTLIERS, MAX_OUTLIERS)
  }

  /** The unrounded count: the base count scaled by the model-size and importance factors. */
  function RawCount(layer: int, total: int, importance: real, paramsB: real): real
    requires total > 0
  {
    var d := DepthRatio(layer, total);
    (BaseCount(d) as real) * ScaleFactor(paramsB, d) * ImportanceFactor(importance)
  }

  /** `roundf` never decreases. */
  lemma RoundHalfAwayMonotone(x: real, y: real)
    requires x <= y
    ensures RoundHalfAway(x) <= RoundHalfAway(y)
  {
    if x < 0.0 && 0.0 <= y {
      assert RoundHalfAway(x) <= 0;
    }
  }

  /** A more important tensor never gets fewer outliers than a less important one in the same
      layer of the same model, for importances normalised into [0, 1]. */
  lemma OutlierCountImportanceMonotone(layer: int, total: int, imp1: real, imp2: real, paramsB: real)
    requires 0.0 <= imp1 <= imp2 <= 1.0
    ensures OutlierCount(layer, total, imp1, paramsB) <= OutlierCount(layer, total, imp2, paramsB)
  {
    if total > 0 {
      var d := DepthRatio(layer, total);
      var k := (BaseCount(d) as real) * ScaleFactor(paramsB, d);
      var f1, f2 := ImportanceFactor(imp1), ImportanceFactor(imp2);
      ImportanceFactorBounds(imp1, imp2);
      ScaleMono(k, f1, f2);
      RoundHalfAwayMonotone(RawCount(layer, total, imp1, paramsB), RawCount(layer, total, imp2, paramsB));
    }
  }

  lemma ScaleMono(k: real, a: real, b: real)
    requires 0.0 <= k && a <= b
    ensures k * a <= k * b
  {
    assert k * b - k * a == k * (b - a);
  }

  /** With neutral importance and a model size that is not adjusted, the count is the base count. */
  lemma OutlierCountNeutral(layer: int, total: int, importance: real, paramsB: real)
    requires total > 0
    requires 0.3 <= importance <= 0.7
    requires 1.0 < paramsB < 1.5
    ensures OutlierCount(layer, total, importance, paramsB) == BaseCount(DepthRatio(layer, total))
  {
    var d := DepthRatio(layer, total);
    var b := BaseCount(d);
    assert (b as real) * ScaleFactor(paramsB, d) * ImportanceFactor(importance) == b as real;
    RoundOfInteger(b);
  }

  /** Small models keep the maximum in the early layers, whatever the importance in [0.3, 1]. */
  lemma SmallModelEarlyLayersMax(layer: int, total: int, importance: real, paramsB: real)
    requires total > 0 && paramsB <= 1.0 && DepthRatio(layer, total) <= 0.30
    requires 0.3 <= importance
    ensures OutlierCount(layer, total, importance, paramsB) == MAX_OUTLIERS
  {
    var d := DepthRatio(layer, total);
    var f := 8.0 * 1.3 * ImportanceFactor(importance);
    assert f >= 10.4;
    assert RoundHalfAway(f) >= 10;
  }

  /** The last layer of a large model with neutral importance keeps round(5 * 0.75) = 4 outliers. */
  lemma LargeModelLastLayer(total: int, importance: real, paramsB: real)
    requires total > 1 && paramsB >= 7.0 && 0.3 <= importance <= 0.7
    ensures OutlierCount(total - 1, total, importance, paramsB) == 4
  {
    assert DepthRatio(total - 1, total) == 1.0;
    assert RoundHalfAway(3.75) == 4;
  }

  // ---------------------------------------------------------------------
  // Tensor importance from imatrix data
  // ---------------------------------------------------------------------

  function Sum(xs: seq<real>): real
    decreases |xs|
  {
    if |xs| == 0 then 0.0 else Sum(xs[..|xs| - 1]) + xs[|xs| - 1]
  }

  function SumSquares(xs: seq<real>): (r: real)
    ensures r >= 0.0
    decreases |xs|
  {
    if |xs| == 0 then 0.0 else SumSquares(xs[..|xs| - 1]) + xs[|xs| - 1] * xs[|xs| - 1]
  }

  const DEFAULT_IMPORTANCE: real := 0.5
  const MIN_MEAN: real := 0.0000000001

  /** The sums `ggml_hifi_compute_tensor_importance` accumulates over the first `n` values. */
  method Moments(data: seq<real>, n: nat) returns (sum: real, sumSq: real)
    requires n <= |data|
    ensures sum == Sum(data[..n]) && sumSq == SumSquares(data[..n])
    ensures sumSq >= 0.0
  {
    sum, sumSq := 0.0, 0.0;
    var i := 0;
    while i < n
      invariant 0 <= i <= n
      invariant sum == Sum(data[..i]) && sumSq == SumSquares(data[..i])
    {
      assert data[..i + 1][..i] == data[..i];
      sum := sum + data[i];
      sumSq := sumSq + data[i] * data[i];
      i := i + 1;
    }
  }

  /** The importance from a mean and a variance: the coefficient of variation mapped into [0.2, 0.9],
      or the default 0.5 for a near-zero mean or a negative variance. */
  function ImportanceOf(mean: real, variance: real, sqrt: real -> real): (r: real)
    ensures 0.2 <= r <= 0.9
    ensures mean < MIN_MEAN || variance < 0.0 ==> r == DEFAULT_IMPORTANCE
  {
    if mean < MIN_MEAN || variance < 0.0 then DEFAULT_IMPORTANCE
    else
      var cv := sqrt(variance) / mean;
      var imp := 0.2 + 0.7 * (cv / 3.0);
      if imp > 0.9 then 0.9 else if imp < 0.2 then 0.2 else imp
  }

  function Mean(xs: seq<real>): real
    requires |xs| > 0
  {
    Sum(xs) / |xs| as real
  }

  /** The population variance as the source computes it: the mean square less the squared mean. */
  function Variance(xs: seq<real>): real
    requires |xs| > 0
  {
    SumSquares(xs) / |xs| as real - Mean(xs) * Mean(xs)
  }

  /** `ggml_hifi_compute_tensor_importance(data, n)`; a null pointer is `None`. */
  method TensorImportance(data: Option<seq<real>>, n: int, sqrt: real -> real) returns (r: real)
    requires data.Some? && n > 0 ==> n <= |data.value|
    ensures 0.2 <= r <= 0.9
    ensures data.None? || n <= 0 ==> r == DEFAULT_IMPORTANCE
    ensures data.Some? && n > 0 ==>
              r == ImportanceOf(Mean(data.value[..n]), Variance(data.value[..n]), sqrt)
  {
    if data.None? || n <= 0 {
      return DEFAULT_IMPORTANCE;
    }
    var xs := data.value;
    var sum, sumSq := Moments(xs, n);
    var mean := sum / n as real;
    var meanSq := sumSq / n as real;
    assert mean == Mean(xs[..n]);
    var variance := meanSq - mean * mean;
    assert variance == Variance(xs[..n]);
    r := ImportanceOf(mean, variance, sqrt);
  }

  lemma {:induction false} SumsOfConstant(xs: seq<real>, c: real)
    requires forall i :: 0 <= i < |xs| ==> xs[i] == c
    ensures Sum(xs) == |xs| as real * c
    ensures SumSquares(xs) == |xs| as real * (c * c)
    decreases |xs|
  {
    if |xs| > 0 {
      SumsOfConstant(xs[..|xs| - 1], c);
    }
  }

  /** Constant imatrix data has zero variance, so its importance is the minimum 0.2
      (given a `sqrt` that maps 0 to 0). */
  lemma ConstantDataLeastImportant(xs: seq<real>, c: real, sqrt: real -> real)
    requires |xs| > 0 && forall i :: 0 <= i < |xs| ==> xs[i] == c
    requires c >= MIN_MEAN && sqrt(0.0) == 0.0
    ensures ImportanceOf(Mean(xs), Variance(xs), sqrt) == 0.2
  {
    SumsOfConstant(xs, c);
    var n := |xs| as real;
    assert Mean(xs) == c by {
      assert Sum(xs) / n == (n * c) / n;
    }
    assert Variance(xs) == 0.0 by {
      assert SumSquares(xs) / n == (n * (c * c)) / n;
    }
  }

  // ---------------------------------------------------------------------
  // The thread-local context slot
  // ---------------------------------------------------------------------

  /** The quantisation context a thread may install (`ggml_hifi_quant_context`). */
  datatype QuantContext = QuantContext(outlierCount: int, layerImportance: real, layerIdx: int,
                                       totalLayers: int, isActive: bool, modelParamsB: real)

  type ThreadId = nat

  /** Each thread's slot; a thread that never set one reads NULL (`None`). */
  type Slots = map<ThreadId, Option<QuantContext>>

  /** `ggml_hifi_get_context()` on thread `t`. */
  function GetContext(slots: Slots, t: ThreadId): Option<QuantContext> {
    if t in slots then slots[t] else None
  }

  /** `ggml_hifi_set_context(p)` on thread `t`; `None` stands for NULL. */
  function SetContext(slots: Slots, t: ThreadId, p: Option<QuantContext>): (r: Slots)
    ensures t in r
  {
    slots[t := p]
  }

  /** A thread reads back what it last set, NULL included, and other threads are unaffected. */
  lemma SetThenGet(slots: Slots, t: ThreadId, u: ThreadId, p: Option<QuantContext>)
    ensures GetContext(SetContext(slots, t, p), t) == p
    ensures u != t ==> GetContext(SetContext(slots, t, p), u) == GetContext(slots, u)
  {
  }

  /** Before any thread sets a context every thread reads NULL. */
  lemma InitiallyNull(t: ThreadId)
    ensures GetContext(map[], t).None?
  {
  }
}

=== FILE: jinja_args.dfy ===
/**
 * Call arguments of a builtin (`func_args`).
 *
 * `args[0]` is the receiver (the value the filter is applied to), the rest
 * are the call's positional arguments and `name=value` keyword arguments
 * in call order.  `ensure_count` and `ensure_vals` are declared in a header
 * that is not part of this model; their meaning is the one their callers
 * rely on: a count range, and per-position types with per-position
 * "required" flags (every position required when no flags are given).
 */
module JinjaArgs {
  import opened Wrappers
  import opened JinjaValue

  /** The value classes `ensure_vals` and `is_val` test for. */
  datatype Kind = KString | KInt | KFloat | KBool | KArray | KObject

  predicate IsKind(v: Value, k: Kind) {
    match k
    case KString => v.String?
    case KInt => v.Int?
    case KFloat => v.Float?
    case KBool => v.Bool?
    case KArray => v.Array?
    case KObject => v.Object?
  }

  /** `ensure_count(lo, hi)`: between `lo` and `hi` arguments, receiver included. */
  function EnsureCount(args: seq<Value>, lo: nat, hi: nat): (r: Result<(), Error>)
    ensures r.Ok? <==> lo <= |args| <= hi
    ensures r.Err? ==> r.error == ArgCount(lo, hi, |args|)
  {
    if lo <= |args| <= hi then Ok(()) else Err(ArgCount(lo, hi, |args|))
  }

  /** Position `i` satisfies `ensure_vals`: of the right kind if present, present if required. */
  predicate SlotOk(args: seq<Value>, kinds: seq<Kind>, required: seq<bool>, i: nat)
    requires i < |kinds| == |required|
  {
    if i < |args| then IsKind(args[i], kinds[i]) else !required[i]
  }

  function EnsureValsFrom(args: seq<Value>, kinds: seq<Kind>, required: seq<bool>, i: nat): (r: Result<(), Error>)
    requires |kinds| == |required| && i <= |kinds|
    ensures r.Ok? <==> forall j :: i <= j < |kinds| ==> SlotOk(args, kinds, required, j)
    ensures r.Err? ==> exists j :: i <= j < |kinds| && !SlotOk(args, kinds, required, j)
                         && (forall l :: i <= l < j ==> SlotOk(args, kinds, required, l))
                         && r.error == (if j < |args| then ArgType(j) else MissingArg(j))
    decreases |kinds| - i
  {
    if i == |kinds| then Ok(())
    else if !SlotOk(args, kinds, required, i) then
      Err(if i < |args| then ArgType(i) else MissingArg(i))
    else EnsureValsFrom(args, kinds, required, i + 1)
  }

  /**
   * `ensure_vals<T0, T1, ...>(required0, required1, ...)`: the first
   * position that fails decides the error.
   */
  function EnsureVals(args: seq<Value>, kinds: seq<Kind>, required: seq<bool>): (r: Result<(), Error>)
    requires |kinds| == |required|
    ensures r.Ok? <==> forall j :: 0 <= j < |kinds| ==> SlotOk(args, kinds, required, j)
    ensures r.Err? ==> exists j :: 0 <= j < |kinds| && !SlotOk(args, kinds, required, j)
                         && r.error == (if j < |args| then ArgType(j) else MissingArg(j))
  {
    EnsureValsFrom(args, kinds, required, 0)
  }

  /** `ensure_vals<T0, ...>()` without flags: every listed position is required. */
  function Required(kinds: seq<Kind>): (r: seq<bool>)
    ensures |r| == |kinds| && forall j :: 0 <= j < |r| ==> r[j]
  {
    seq(|kinds|, _ => true)
  }

  /** `args.args[i]`; reading past the end is undefined behaviour in the source, an error here. */
  function Arg(args: seq<Value>, i: nat): (r: Result<Value, Error>)
    ensures r.Ok? <==> i < |args|
    ensures r.Ok? ==> r.value == args[i]
    ensures r.Err? ==> r.error == ArgOutOfBounds(i)
  {
    if i < |args| then Ok(args[i]) else Err(ArgOutOfBounds(i))
  }

  predicate KwargAt(args: seq<Value>, i: nat, key: string)
    requires i < |args|
  {
    args[i].Kwarg? && args[i].key == key
  }

  predicate HasKwarg(args: seq<Value>, key: string) {
    exists i | 0 <= i < |args| :: KwargAt(args, i, key)
  }

  /** `get_kwarg(key)`: the value of the first keyword argument named `key`, else undefined. */
  function GetKwarg(args: seq<Value>, key: string): (r: Value)
    ensures HasKwarg(args, key) ==>
              exists i :: 0 <= i < |args| && KwargAt(args, i, key) && r == args[i].val
                && forall j :: 0 <= j < i ==> !KwargAt(args, j, key)
    ensures !HasKwarg(args, key) ==> r == Undefined
    decreases |args|
  {
    if |args| == 0 then Undefined
    else if args[0].Kwarg? && args[0].key == key then
      assert KwargAt(args, 0, key);
      args[0].val
    else
      var r := GetKwarg(args[1..], key);
      assert forall i :: 1 <= i < |args| ==> args[1..][i - 1] == args[i];
      if HasKwarg(args[1..], key) then
        var i :| 0 <= i < |args[1..]| && KwargAt(args[1..], i, key) && r == args[1..][i].val
                 && forall j :: 0 <= j < i ==> !KwargAt(args[1..], j, key);
        assert KwargAt(args, i + 1, key);
        assert forall j :: 0 <= j < i + 1 ==> !KwargAt(args, j, key) by {
          forall j | 0 <= j < i + 1 ensures !KwargAt(args, j, key) {
            if j > 0 { assert !KwargAt(args[1..], j - 1, key); }
          }
        }
        r
      else
        assert !HasKwarg(args, key) by {
          forall i | 0 <= i < |args| ensures !KwargAt(args, i, key) {
            if i > 0 { assert !KwargAt(args[1..], i - 1, key); }
          }
        }
        r
  }

  /** A keyword argument earlier in the call shadows every later one with the same name. */
  lemma {:induction false} FirstKwargWins(a: seq<Value>, b: seq<Value>, key: string)
    requires HasKwarg(a, key)
    ensures GetKwarg(a + b, key) == GetKwarg(a, key)
    decreases |a|
  {
    if a[0].Kwarg? && a[0].key == key {
      assert (a + b)[0] == a[0];
    } else {
      var i :| 0 <= i < |a| && KwargAt(a, i, key);
      assert i > 0;
      assert KwargAt(a[1..], i - 1, key);
      FirstKwargWins(a[1..], b, key);
      assert (a + b)[1..] == a[1..] + b;
      assert (a + b)[0] == a[0];
    }
  }

  /**
   * `get_kwarg_or_pos(key, pos)`: the keyword argument when it is given and
   * defined; otherwise the positional argument `pos` when there is one;
   * otherwise undefined.
   */
  function GetKwargOrPos(args: seq<Value>, key: string, pos: nat): (r: Value)
    ensures (exists i :: 0 <= i < |args| && KwargAt(args, i, key) && !args[i].val.Undefined?
               && (forall j :: 0 <= j < i ==> !KwargAt(args, j, key)) && r == args[i].val)
            || ((!HasKwarg(args, key) || GetKwarg(args, key).Undefined?)
                && r == (if pos < |args| then args[pos] else Undefined))
  {
    var kw := GetKwarg(args, key);
    if kw.Undefined? && pos < |args| then args[pos] else kw
  }

  /** A keyword argument explicitly set to undefined does not hide the positional one. */
  lemma UndefinedKwargFallsBack(v: Value, key: string)
    requires !v.Kwarg?
    ensures GetKwargOrPos([v, Kwarg(key, Undefined)], key, 0) == v
  {
    assert KwargAt([v, Kwarg(key, Undefined)], 1, key);
  }
}

=== FILE: jinja_collections.dfy ===
/**
 * The array, object, boolean and null builtins, `default`, and the
 * conversion of a parsed JSON document into template values.
 *
 * In this value model a clone is the value itself: the variants that
 * return `clone()` (jinja-vm-builtins.cpp) and those that return the
 * stored handle (value.cpp, jinja-value.cpp) give the same value.  How
 * clones share storage is stated in `JinjaStorage`.
 */
module JinjaCollections {
  import opened Wrappers
  import opened Text
  import opened JinjaString
  import opened JinjaValue
  import opened JinjaArgs
  import Json
  import FixedPoint

  // ---------------------------------------------------------------------
  // Arrays: list, first, last, length
  // ---------------------------------------------------------------------

  /** The arguments every array builtin starts with: an array receiver. */
  function Receiver(args: seq<Value>, k: Kind): (r: Result<Value, Error>)
    ensures r.Ok? <==> |args| >= 1 && IsKind(args[0], k)
    ensures r.Ok? ==> r.value == args[0]
    ensures |args| == 0 ==> r == Err(MissingArg(0))
    ensures |args| >= 1 && !IsKind(args[0], k) ==> r == Err(ArgType(0))
  {
    var _ :- EnsureVals(args, [k], [true]);
    assert SlotOk(args, [k], [true], 0);
    Ok(args[0])
  }

  /** `list`: a new array holding the receiver's elements in order. */
  function List(args: seq<Value>): (r: Result<Value, Error>)
    ensures r.Ok? <==> |args| >= 1 && args[0].Array?
    ensures r.Ok? ==> r.value.Array? && |r.value.items| == |args[0].items|
                      && forall i :: 0 <= i < |args[0].items| ==> r.value.items[i] == args[0].items[i]
  {
    var a :- Receiver(args, KArray);
    Ok(Array(seq(|a.items|, i requires 0 <= i < |a.items| => a.items[i])))
  }

  /** `first`: undefined for an empty array, else element 0. */
  function First(args: seq<Value>): (r: Result<Value, Error>)
    ensures r.Ok? <==> |args| >= 1 && args[0].Array?
    ensures r.Ok? && |args[0].items| == 0 ==> r.value == Undefined
    ensures r.Ok? && |args[0].items| > 0 ==> r.value == args[0].items[0]
  {
    var a :- Receiver(args, KArray);
    if |a.items| == 0 then Ok(Undefined) else Ok(a.items[0])
  }

  /** `last`: undefined for an empty array, else element `size - 1`. */
  function Last(args: seq<Value>): (r: Result<Value, Error>)
    ensures r.Ok? <==> |args| >= 1 && args[0].Array?
    ensures r.Ok? && |args[0].items| == 0 ==> r.value == Undefined
    ensures r.Ok? && |args[0].items| > 0 ==> r.value == args[0].items[|args[0].items| - 1]
  {
    var a :- Receiver(args, KArray);
    if |a.items| == 0 then Ok(Undefined) else Ok(a.items[|a.items| - 1])
  }

  /** `length`: the number of elements. */
  function Length(args: seq<Value>): (r: Result<Value, Error>)
    ensures r.Ok? <==> |args| >= 1 && args[0].Array?
    ensures r.Ok? ==> r.value == Int(|args[0].items|)
  {
    var a :- Receiver(args, KArray);
    Ok(Int(|a.items|))
  }

  /** `first` and `last` agree exactly on arrays of at most one element, and on those `list` keeps the length 0 or 1. */
  lemma FirstLastAgree(items: seq<Value>)
    requires |items| <= 1
    ensures First([Array(items)]) == Last([Array(items)])
    ensures Length([Array(items)]).value.i == |List([Array(items)]).value.items|
  {
  }

  /** Appending an element makes it the last one and keeps the first. */
  lemma LastOfAppend(items: seq<Value>, x: Value)
    ensures Last([Array(items + [x])]) == Ok(x)
    ensures |items| > 0 ==> First([Array(items + [x])]) == First([Array(items)])
    ensures Length([Array(items + [x])]) == Ok(Int(|items| + 1))
  {
  }

  // ---------------------------------------------------------------------
  // Objects: get, keys, values, items
  // ---------------------------------------------------------------------

  /** `get(key)`: the stored value for a present key, undefined otherwise. */
  function Get(args: seq<Value>): (r: Result<Value, Error>)
    ensures r.Ok? <==> |args| >= 2 && args[0].Object? && args[1].String?
    ensures r.Ok? && HasKey(args[0].entries, Str(args[1].s)) ==>
              exists i :: 0 <= i < |args[0].entries| && args[0].entries[i] == Entry(Str(args[1].s), r.value)
    ensures r.Ok? && !HasKey(args[0].entries, Str(args[1].s)) ==> r.value == Undefined
  {
    var kinds := [KObject, KString];
    var _ :- EnsureVals(args, kinds, Required(kinds));
    assert SlotOk(args, kinds, Required(kinds), 0);
    assert SlotOk(args, kinds, Required(kinds), 1);
    match Find(args[0].entries, Str(args[1].s))
    case Some(v) => Ok(v)
    case None => Ok(Undefined)
  }

  /** In a map every key is stored once, so `get` of a stored key gives back exactly its value. */
  lemma GetStoredKey(entries: seq<Entry>, i: nat, key: TrackedString)
    requires i < |entries| && Str(key) == entries[i].key
    requires forall j, k :: 0 <= j < k < |entries| ==> entries[j].key != entries[k].key
    ensures Get([Object(entries), String(key)]) == Ok(entries[i].val)
  {
    FindDistinct(entries, i);
  }

  /** `keys`: fresh strings, one per entry, in map order. */
  function Keys(args: seq<Value>): (r: Result<Value, Error>)
    ensures r.Ok? <==> |args| >= 1 && args[0].Object?
    ensures r.Ok? ==> r.value.Array? && |r.value.items| == |args[0].entries|
                      && forall i :: 0 <= i < |r.value.items| ==> r.value.items[i] == StrOf(args[0].entries[i].key)
  {
    var o :- Receiver(args, KObject);
    Ok(Array(seq(|o.entries|, i requires 0 <= i < |o.entries| => StrOf(o.entries[i].key))))
  }

  /** `values`: the stored values in map order. */
  function Values(args: seq<Value>): (r: Result<Value, Error>)
    ensures r.Ok? <==> |args| >= 1 && args[0].Object?
    ensures r.Ok? ==> r.value.Array? && |r.value.items| == |args[0].entries|
                      && forall i :: 0 <= i < |r.value.items| ==> r.value.items[i] == args[0].entries[i].val
  {
    var o :- Receiver(args, KObject);
    Ok(Array(seq(|o.entries|, i requires 0 <= i < |o.entries| => o.entries[i].val)))
  }

  /** `items`: one two-element array `[key, value]` per entry, in map order. */
  function Items(args: seq<Value>): (r: Result<Value, Error>)
    ensures r.Ok? <==> |args| >= 1 && args[0].Object?
    ensures r.Ok? ==> r.value.Array? && |r.value.items| == |args[0].entries|
                      && forall i :: 0 <= i < |r.value.items| ==>
                           r.value.items[i] == Array([StrOf(args[0].entries[i].key), args[0].entries[i].val])
  {
    var o :- Receiver(args, KObject);
    Ok(Array(seq(|o.entries|, i requires 0 <= i < |o.entries| => Array([StrOf(o.entries[i].key), o.entries[i].val]))))
  }

  /** `items` pairs up `keys` and `values` position by position, and `get` of each key finds its value. */
  lemma ItemsZipKeysValues(entries: seq<Entry>)
    requires forall j, k :: 0 <= j < k < |entries| ==> entries[j].key != entries[k].key
    ensures var ks := Keys([Object(entries)]).value.items;
            var vs := Values([Object(entries)]).value.items;
            var its := Items([Object(entries)]).value.items;
            |ks| == |vs| == |its|
            && forall i :: 0 <= i < |its| ==>
                 its[i] == Array([ks[i], vs[i]])
                 && Get([Object(entries), ks[i]]) == Ok(vs[i])
  {
    var ks := Keys([Object(entries)]).value.items;
    forall i | 0 <= i < |entries| ensures Get([Object(entries), ks[i]]) == Ok(entries[i].val) {
      GetStoredKey(entries, i, ks[i].s);
    }
  }

  // ---------------------------------------------------------------------
  // selectattr / rejectattr (jinja-value.cpp)
  // ---------------------------------------------------------------------

  /** The elements of `xs` that satisfy `p`, in order. */
  function Filter(xs: seq<Value>, p: Value -> bool): (r: seq<Value>)
    ensures |r| <= |xs|
    ensures forall i :: 0 <= i < |r| ==> p(r[i])
    ensures forall x :: x in xs && p(x) ==> x in r
    ensures forall x :: x in r ==> x in xs
    decreases |xs|
  {
    if |xs| == 0 then []
    else
      var tail := Filter(xs[1..], p);
      assert forall x :: x in xs ==> x == xs[0] || x in xs[1..];
      if p(xs[0]) then [xs[0]] + tail else tail
  }

  /** Keeping by `p` and keeping by its negation splits the elements exactly. */
  lemma {:induction false} FilterPartition(xs: seq<Value>, p: Value -> bool)
    ensures multiset(Filter(xs, p)) + multiset(Filter(xs, x => !p(x))) == multiset(xs)
    ensures |Filter(xs, p)| + |Filter(xs, x => !p(x))| == |xs|
    decreases |xs|
  {
    if |xs| > 0 {
      FilterPartition(xs[1..], p);
      assert xs == [xs[0]] + xs[1..];
    }
  }

  /** An attribute that counts as set: present, not undefined, and not boolean false. */
  predicate AttrSet(entries: seq<Entry>, attr: string) {
    var v := Find(entries, attr);
    v.Some? && !v.value.Undefined? && !(v.value.Bool? && !v.value.b)
  }

  /** `selectattr` keeps objects whose listed attributes are all set. */
  predicate Selected(item: Value, attrs: seq<string>) {
    item.Object? && forall a :: a in attrs ==> AttrSet(item.entries, a)
  }

  /** `rejectattr` keeps non-objects, and objects none of whose listed attributes is set. */
  predicate NotRejected(item: Value, attrs: seq<string>) {
    !item.Object? || forall a :: a in attrs ==> !AttrSet(item.entries, a)
  }

  /** The attribute names `args[from..]`; the first non-string one is the error. */
  function AttrNames(args: seq<Value>, from: nat): (r: Result<seq<string>, Error>)
    requires from <= |args|
    ensures r.Ok? <==> forall i :: from <= i < |args| ==> args[i].String?
    ensures r.Ok? ==> |r.value| == |args| - from
                      && forall k :: 0 <= k < |r.value| ==> r.value[k] == Str(args[from + k].s)
    ensures r.Err? ==> exists i :: from <= i < |args| && !args[i].String?
                         && (forall j :: from <= j < i ==> args[j].String?) && r.error == ArgType(i)
    decreases |args| - from
  {
    if from == |args| then Ok([])
    else if !args[from].String? then Err(ArgType(from))
    else
      match AttrNames(args, from + 1)
      case Err(e) => Err(e)
      case Ok(rest) =>
        var r := [Str(args[from].s)] + rest;
        assert forall k :: 0 <= k < |r| ==> r[k] == Str(args[from + k].s) by {
          assert r[0] == Str(args[from].s);
          assert forall k :: 1 <= k < |r| ==> r[k] == rest[k - 1];
        }
        Ok(r)
  }

  /** `selectattr(attr...)` on an array. */
  function SelectAttr(args: seq<Value>): (r: Result<Value, Error>)
    ensures |args| == 0 ==> r == Err(ArgOutOfBounds(0))
    ensures |args| >= 1 && !args[0].Array? ==> r == Err(ArgType(0))
    ensures r.Ok? <==> |args| >= 1 && args[0].Array? && AttrNames(args, 1).Ok?
    ensures r.Ok? ==> r.value == Array(Filter(args[0].items, x => Selected(x, AttrNames(args, 1).value)))
  {
    var input :- Arg(args, 0);
    if !input.Array? then Err(ArgType(0))
    else
      var attrs :- AttrNames(args, 1);
      Ok(Array(Filter(input.items, x => Selected(x, attrs))))
  }

  /** `rejectattr(attr...)` on an array. */
  function RejectAttr(args: seq<Value>): (r: Result<Value, Error>)
    ensures |args| == 0 ==> r == Err(ArgOutOfBounds(0))
    ensures |args| >= 1 && !args[0].Array? ==> r == Err(ArgType(0))
    ensures r.Ok? <==> |args| >= 1 && args[0].Array? && AttrNames(args, 1).Ok?
    ensures r.Ok? ==> r.value == Array(Filter(args[0].items, x => NotRejected(x, AttrNames(args, 1).value)))
  {
    var input :- Arg(args, 0);
    if !input.Array? then Err(ArgType(0))
    else
      var attrs :- AttrNames(args, 1);
      Ok(Array(Filter(input.items, x => NotRejected(x, attrs))))
  }

  /** With one attribute, `selectattr` and `rejectattr` split the array's elements exactly. */
  lemma SelectRejectPartition(items: seq<Value>, attr: TrackedString)
    ensures var args := [Array(items), String(attr)];
            SelectAttr(args).Ok? && RejectAttr(args).Ok?
            && multiset(SelectAttr(args).value.items) + multiset(RejectAttr(args).value.items) == multiset(items)
            && |SelectAttr(args).value.items| + |RejectAttr(args).value.items| == |items|
  {
    var args := [Array(items), String(attr)];
    var attrs := AttrNames(args, 1).value;
    assert attrs == [Str(attr)];
    var p := x => Selected(x, attrs);
    var q := x => NotRejected(x, attrs);
    FilterPartition(items, p);
    forall x ensures !p(x) == q(x) {
      if x.Object? {
        assert Selected(x, attrs) == AttrSet(x.entries, Str(attr));
        assert NotRejected(x, attrs) == !AttrSet(x.entries, Str(attr));
      }
    }
    FilterEquiv(items, x => !p(x), q);
  }

  /** Filters by predicates that agree give the same result. */
  lemma {:induction false} FilterEquiv(xs: seq<Value>, p: Value -> bool, q: Value -> bool)
    requires forall x :: p(x) == q(x)
    ensures Filter(xs, p) == Filter(xs, q)
    decreases |xs|
  {
    if |xs| > 0 { FilterEquiv(xs[1..], p, q); }
  }

  /** Without attributes, `selectattr` keeps exactly the objects and `rejectattr` exactly the non-objects. */
  lemma NoAttributes(items: seq<Value>)
    ensures SelectAttr([Array(items)]) == Ok(Array(Filter(items, (x: Value) => x.Object?)))
    ensures RejectAttr([Array(items)]) == Ok(Array(items))
  {
    var none: seq<string> := [];
    assert AttrNames([Array(items)], 1) == Ok(none);
    forall x ensures Selected(x, none) == x.Object? && NotRejected(x, none) { }
    FilterEquiv(items, x => Selected(x, none), (x: Value) => x.Object?);
    FilterEquiv(items, x => NotRejected(x, none), _ => true);
    FilterKeepsAll(items, _ => true);
  }

  /** A filter whose predicate holds everywhere keeps the whole sequence. */
  lemma {:induction false} FilterKeepsAll(xs: seq<Value>, p: Value -> bool)
    requires forall x :: p(x)
    ensures Filter(xs, p) == xs
    decreases |xs|
  {
    if |xs| > 0 {
      FilterKeepsAll(xs[1..], p);
      assert xs == [xs[0]] + xs[1..];
    }
  }

  // ---------------------------------------------------------------------
  // Null receivers
  // ---------------------------------------------------------------------

  /** `list` on null gives an empty array, whatever the arguments. */
  function NullList(args: seq<Value>): (r: Value)
    ensures r.Array? && |r.items| == 0
  {
    Array([])
  }

  /** `selectattr` on null: a separate entry of null's builtin table with the same body as `list`. */
  function NullSelectAttr(args: seq<Value>): (r: Value)
    ensures r.Array? && |r.items| == 0
  {
    NullList(args)
  }

  /** On null the empty array agrees with what `selectattr` gives on an empty array. */
  lemma NullSelectLikeEmpty(attrs: seq<Value>)
    ensures SelectAttr([Array([])] + attrs).Ok? ==> SelectAttr([Array([])] + attrs).value == NullSelectAttr([Null] + attrs)
  {
  }

  // ---------------------------------------------------------------------
  // Booleans: int, float, string
  // ---------------------------------------------------------------------

  /** `int` on a boolean: 1 or 0. */
  function BoolInt(args: seq<Value>): (r: Result<Value, Error>)
    ensures r.Ok? <==> |args| >= 1 && args[0].Bool?
    ensures r.Ok? ==> r.value.Int? && (r.value.i != 0 <==> args[0].b) && 0 <= r.value.i <= 1
  {
    var v :- Receiver(args, KBool);
    Ok(Int(if v.b then 1 else 0))
  }

  /** `float` on a boolean: 1.0 or 0.0, printed by `std::to_string` with six decimals. */
  function BoolFloat(args: seq<Value>): (r: Result<Value, Error>)
    ensures r.Ok? <==> |args| >= 1 && args[0].Bool?
    ensures r.Ok? ==> r.value.Float? && r.value.x == (if args[0].b then 1.0 else 0.0)
  {
    var v :- Receiver(args, KBool);
    Ok(if v.b then Float(1.0, "1.000000") else Float(0.0, "0.000000"))
  }

  /** `string` on a boolean: "True" or "False". */
  function BoolString(args: seq<Value>): (r: Result<Value, Error>)
    ensures r.Ok? <==> |args| >= 1 && args[0].Bool?
    ensures r.Ok? ==> r.value.String? && !AllPartsAreInput(r.value.s)
                      && Str(r.value.s) == (if args[0].b then "True" else "False")
  {
    var v :- Receiver(args, KBool);
    Ok(StrOf(if v.b then "True" else "False"))
  }

  /** The three conversions agree with each other and with the accessors on the same boolean. */
  lemma BoolConversionsAgree(b: bool)
    ensures BoolInt([Bool(b)]).value.i as real == BoolFloat([Bool(b)]).value.x
    ensures Str(BoolString([Bool(b)]).value.s) == Str(AsString(Bool(b)).value)
    ensures AsFloat(BoolInt([Bool(b)]).value) == Ok(BoolFloat([Bool(b)]).value.x)
  {
  }

  // ---------------------------------------------------------------------
  // default (value.cpp)
  // ---------------------------------------------------------------------

  /** `is_undefined() || is_none()`. */
  predicate Missing(v: Value) {
    v.Undefined? || v.Null?
  }

  /**
   * `default(value, fallback[, boolean])`: the fallback replaces a missing
   * value, or, with the boolean flag set, a false boolean.  The flag and,
   * when it is set, the value must be booleans (`as_bool` throws otherwise).
   */
  function Default(args: seq<Value>): (r: Result<Value, Error>)
    ensures !(2 <= |args| <= 3) ==> r == Err(ArgCount(2, 3, |args|))
    ensures r.Ok? <==> 2 <= |args| <= 3 && (|args| == 3 ==> args[2].Bool? && (args[2].b ==> args[0].Bool?))
    ensures r.Ok? ==> r.value == args[0] || r.value == args[1]
    ensures r.Ok? && (|args| == 2 || !args[2].b) ==> r.value == (if Missing(args[0]) then args[1] else args[0])
    ensures r.Ok? && |args| == 3 && args[2].b ==> r.value == (if args[0].b then args[0] else args[1])
  {
    var _ :- EnsureCount(args, 2, 3);
    var checkBool :- if |args| == 3 then AsBool(args[2]) else Ok(false);
    var noValue :- if checkBool then (var b :- AsBool(args[0]); Ok(!b)) else Ok(Missing(args[0]));
    Ok(if noValue then args[1] else args[0])
  }

  /** Applying the same defined fallback twice changes nothing, and the result is never missing. */
  lemma DefaultIdempotent(x: Value, d: Value)
    requires !Missing(d)
    ensures Default([x, d]).Ok? && !Missing(Default([x, d]).value)
    ensures Default([Default([x, d]).value, d]) == Default([x, d])
  {
  }

  // ---------------------------------------------------------------------
  // from_json (jinja-value.cpp)
  // ---------------------------------------------------------------------

  /** `obj->insert(key, v)`: a map assignment, replacing the value of an existing key. */
  function Insert(entries: seq<Entry>, key: string, v: Value): (r: seq<Entry>)
    ensures Find(r, key) == Some(v)
    ensures HasKey(entries, key) ==> |r| == |entries|
    ensures !HasKey(entries, key) ==> r == entries + [Entry(key, v)]
  {
    InsertFinds(entries, key, v);
    Replace(entries, key, v)
  }

  /** The entries with the first entry called `key` given the value `v`, or `key` appended. */
  function Replace(entries: seq<Entry>, key: string, v: Value): (r: seq<Entry>)
    ensures HasKey(entries, key) ==> |r| == |entries|
    ensures !HasKey(entries, key) ==> r == entries + [Entry(key, v)]
    decreases |entries|
  {
    if |entries| == 0 then [Entry(key, v)]
    else
      HasKeyCons(entries, key);
      if entries[0].key == key then [Entry(key, v)] + entries[1..]
      else
        var tail := Replace(entries[1..], key, v);
        assert entries == [entries[0]] + entries[1..];
        [entries[0]] + tail
  }

  lemma {:induction false} InsertFinds(entries: seq<Entry>, key: string, v: Value)
    ensures Find(Replace(entries, key, v), key) == Some(v)
    decreases |entries|
  {
    if |entries| == 0 {
      FindHead(Entry(key, v), [], key);
      assert [Entry(key, v)] + [] == [Entry(key, v)];
    } else if entries[0].key == key {
      FindHead(Entry(key, v), entries[1..], key);
    } else {
      InsertFinds(entries[1..], key, v);
      FindHead(entries[0], Replace(entries[1..], key, v), key);
    }
  }

  /** `Find` on an entry put in front of others. */
  lemma FindHead(e: Entry, rest: seq<Entry>, key: string)
    ensures Find([e] + rest, key) == if e.key == key then Some(e.val) else Find(rest, key)
  {
    assert ([e] + rest)[0] == e && ([e] + rest)[1..] == rest;
  }

  /** Inserting one key leaves every other key's lookup as it was. */
  lemma {:induction false} InsertOthers(entries: seq<Entry>, key: string, v: Value, k: string)
    requires k != key
    ensures Find(Insert(entries, key, v), k) == Find(entries, k)
    decreases |entries|
  {
    if |entries| > 0 && entries[0].key != key {
      InsertOthers(entries[1..], key, v, k);
      var tail := Insert(entries[1..], key, v);
      assert Insert(entries, key, v) == [entries[0]] + tail;
      assert ([entries[0]] + tail)[1..] == tail;
    } else if |entries| > 0 {
      assert Insert(entries, key, v)[1..] == entries[1..];
    }
  }

  lemma HasKeyCons(entries: seq<Entry>, key: string)
    requires |entries| > 0
    ensures HasKey(entries, key) <==> entries[0].key == key || HasKey(entries[1..], key)
  {
    if HasKey(entries[1..], key) {
      var i :| 0 <= i < |entries[1..]| && entries[1..][i].key == key;
      assert entries[i + 1].key == key;
    }
    if HasKey(entries, key) && entries[0].key != key {
      var i :| 0 <= i < |entries| && entries[i].key == key;
      assert entries[1..][i - 1].key == key;
    }
  }

  /**
   * `from_json(j)`: JSON scalars become the matching values; an object with
   * an `"__input__"` member becomes that member's string, marked as user
   * input (an error when it is not a string); any other object is rebuilt
   * key by key.  JSON objects are taken in nlohmann's iteration order.
   */
  function FromJson(j: Json.Json): (r: Result<Value, Error>)
    ensures j.JNull? ==> r == Ok(Null)
    ensures j.JBool? ==> r == Ok(Bool(j.b))
    ensures j.JInt? ==> r == Ok(Int(j.i))
    ensures j.JFloat? ==> r == Ok(Float(j.x, FixedPoint.FixedText(j.x, 6)))
    ensures j.JString? ==> r == Ok(StrOf(j.s))
    ensures j.JArray? && r.Ok? ==> r.value.Array? && |r.value.items| == |j.items|
    ensures j.JObject? && Json.HasKey(j.members, "__input__") ==>
              match Json.Get(j.members, "__input__")
              case Some(JString(s)) => r.Ok? && r.value.String? && Str(r.value.s) == s && AllPartsAreInput(r.value.s)
              case _ => r == Err(MissingInput)
    ensures j.JObject? && !Json.HasKey(j.members, "__input__") && r.Ok? ==> r.value.Object?
    decreases j, 1, 0
  {
    match j
    case JNull => Ok(Null)
    case JBool(b) => Ok(Bool(b))
    case JInt(i) => Ok(Int(i))
    case JFloat(x) => Ok(Float(x, FixedPoint.FixedText(x, 6)))
    case JString(s) => Ok(StrOf(s))
    case JArray(_) =>
      var items :- FromJsonItems(j, 0);
      Ok(Array(items))
    case JObject(members) =>
      if Json.HasKey(members, "__input__") then
        match Json.Get(members, "__input__")
        case Some(JString(s)) => Ok(String(MarkInput(FromText(s, false))))
        case _ => Err(MissingInput)
      else
        var entries :- FromJsonMembers(j, 0, []);
        Ok(Object(entries))
  }

  /** The converted elements `parent.items[from..]`, stopping at the first error. */
  function FromJsonItems(parent: Json.Json, from: nat): (r: Result<seq<Value>, Error>)
    requires parent.JArray? && from <= |parent.items|
    ensures r.Ok? ==> |r.value| == |parent.items| - from
    ensures r.Ok? ==> forall k :: from <= k < |parent.items| ==> FromJson(parent.items[k]) == Ok(r.value[k - from])
    decreases parent, 0, |parent.items| - from
  {
    if from == |parent.items| then Ok([])
    else
      var v :- FromJson(parent.items[from]);
      var rest :- FromJsonItems(parent, from + 1);
      Ok([v] + rest)
  }

  /** The members `parent.members[from..]` inserted into `acc` in order, stopping at the first error. */
  function FromJsonMembers(parent: Json.Json, from: nat, acc: seq<Entry>): (r: Result<seq<Entry>, Error>)
    requires parent.JObject? && from <= |parent.members|
    ensures r.Ok? ==> forall k :: from <= k < |parent.members| ==> FromJson(parent.members[k].1).Ok?
    decreases parent, 0, |parent.members| - from
  {
    if from == |parent.members| then Ok(acc)
    else
      var m := parent.members[from];
      var v :- FromJson(m.1);
      FromJsonMembers(parent, from + 1, Insert(acc, m.0, v))
  }

  /** An object without `"__input__"` gets one entry per distinct key, each found with its converted value. */
  lemma {:induction false} FromJsonMembersFind(parent: Json.Json, from: nat, acc: seq<Entry>, key: string)
    requires parent.JObject? && from <= |parent.members|
    requires FromJsonMembers(parent, from, acc).Ok?
    requires forall k :: from <= k < |parent.members| ==> parent.members[k].0 != key
    ensures Find(FromJsonMembers(parent, from, acc).value, key) == Find(acc, key)
    decreases |parent.members| - from
  {
    if from < |parent.members| {
      var m := parent.members[from];
      FromJsonMembersFind(parent, from + 1, Insert(acc, m.0, FromJson(m.1).value), key);
      InsertOthers(acc, m.0, FromJson(m.1).value, key);
    }
  }

  /** The last member with a key decides its value, as in nlohmann's map assignment. */
  lemma {:induction false} FromJsonMembersLast(parent: Json.Json, from: nat, acc: seq<Entry>, i: nat)
    requires parent.JObject? && from <= i < |parent.members|
    requires FromJsonMembers(parent, from, acc).Ok?
    requires forall k :: i < k < |parent.members| ==> parent.members[k].0 != parent.members[i].0
    ensures Find(FromJsonMembers(parent, from, acc).value, parent.members[i].0)
            == Some(FromJson(parent.members[i].1).value)
    decreases |parent.members| - from
  {
    var m := parent.members[from];
    var acc' := Insert(acc, m.0, FromJson(m.1).value);
    assert FromJsonMembers(parent, from, acc) == FromJsonMembers(parent, from + 1, acc');
    if from == i {
      FromJsonMembersFind(parent, from + 1, acc', m.0);
    } else {
      FromJsonMembersLast(parent, from + 1, acc', i);
    }
  }

  /** `global_from_json`: the document must be an object; every member becomes a context variable. */
  function GlobalFromJson(vars: map<string, Value>, j: Json.Json): (r: Result<map<string, Value>, Error>)
    ensures !j.JObject? ==> r == Err(NotAJsonObject)
    ensures r.Ok? <==> j.JObject? && forall k :: 0 <= k < |j.members| ==> FromJson(j.members[k].1).Ok?
    ensures r.Ok? ==> forall k :: 0 <= k < |j.members| ==> j.members[k].0 in r.value
    ensures r.Ok? ==> forall k :: 0 <= k < |j.members| && (forall l :: k < l < |j.members| ==> j.members[l].0 != j.members[k].0)
                        ==> r.value[j.members[k].0] == FromJson(j.members[k].1).value
    ensures r.Ok? ==> forall key :: key in vars && (forall k :: 0 <= k < |j.members| ==> j.members[k].0 != key)
                        ==> key in r.value && r.value[key] == vars[key]
    ensures r.Ok? ==> forall key :: key in r.value ==> key in vars || exists k :: 0 <= k < |j.members| && j.members[k].0 == key
  {
    if !j.JObject? then Err(NotAJsonObject)
    else
      var rows := Assignments(j);
      GlobalFromFacts(vars, rows, 0);
      AssignmentsMatch(j);
      GlobalFrom(vars, rows, 0)
  }

  /** One assignment per member: its key and its converted value (or the conversion's error). */
  type Assignment = (string, Result<Value, Error>)

  /** The members' assignments, in document order (`from_json` is pure, so converting first changes nothing). */
  function Assignments(j: Json.Json): (rows: seq<Assignment>)
    requires j.JObject?
    ensures |rows| == |j.members|
    ensures forall k :: 0 <= k < |rows| ==> rows[k].0 == j.members[k].0
  {
    seq(|j.members|, k requires 0 <= k < |j.members| => (j.members[k].0, FromJson(j.members[k].1)))
  }

  lemma AssignmentsMatch(j: Json.Json)
    requires j.JObject?
    ensures forall k :: 0 <= k < |j.members| ==> Assignments(j)[k].1 == FromJson(j.members[k].1)
  {
  }

  /** The assignments `ctx.var[key] = from_json(value)` from row `from` on, stopping at the first error. */
  function GlobalFrom(vars: map<string, Value>, rows: seq<Assignment>, from: nat): (r: Result<map<string, Value>, Error>)
    requires from <= |rows|
    ensures r.Ok? <==> forall k :: from <= k < |rows| ==> rows[k].1.Ok?
    decreases |rows| - from
  {
    if from == |rows| then Ok(vars)
    else
      match rows[from].1
      case Err(e) => Err(e)
      case Ok(v) => GlobalFrom(vars[rows[from].0 := v], rows, from + 1)
  }

  /** Every row is assigned, the last one with a key wins, and other variables are kept. */
  lemma GlobalFromFacts(vars: map<string, Value>, rows: seq<Assignment>, from: nat)
    requires from <= |rows|
    ensures var r := GlobalFrom(vars, rows, from);
            r.Ok? ==>
              (forall k :: from <= k < |rows| ==> rows[k].0 in r.value)
              && (forall k :: from <= k < |rows| && (forall l :: k < l < |rows| ==> rows[l].0 != rows[k].0)
                    ==> r.value[rows[k].0] == rows[k].1.value)
              && (forall key :: key in vars && (forall k :: from <= k < |rows| ==> rows[k].0 != key)
                    ==> key in r.value && r.value[key] == vars[key])
              && (forall key :: key in r.value ==> key in vars || exists k :: from <= k < |rows| && rows[k].0 == key)
  {
    GlobalFromKeeps(vars, rows, from);
    GlobalFromAssigns(vars, rows, from);
    GlobalFromOnly(vars, rows, from);
  }

  /** A variable no later row names keeps its value (and so does one assigned earlier). */
  lemma {:induction false} GlobalFromKeeps(vars: map<string, Value>, rows: seq<Assignment>, from: nat)
    requires from <= |rows|
    ensures var r := GlobalFrom(vars, rows, from);
            r.Ok? ==> forall key :: key in vars && (forall k :: from <= k < |rows| ==> rows[k].0 != key)
                        ==> key in r.value && r.value[key] == vars[key]
    decreases |rows| - from
  {
    if from < |rows| && GlobalFrom(vars, rows, from).Ok? {
      GlobalFromKeeps(vars[rows[from].0 := rows[from].1.value], rows, from + 1);
    }
  }

  /** Every row's key is assigned, and the last row with a key decides its value. */
  lemma GlobalFromAssigns(vars: map<string, Value>, rows: seq<Assignment>, from: nat)
    requires from <= |rows|
    ensures var r := GlobalFrom(vars, rows, from);
            r.Ok? ==> forall k :: from <= k < |rows| && (forall l :: k < l < |rows| ==> rows[l].0 != rows[k].0)
                        ==> rows[k].0 in r.value && r.value[rows[k].0] == rows[k].1.value
    ensures var r := GlobalFrom(vars, rows, from);
            r.Ok? ==> forall k :: from <= k < |rows| ==> rows[k].0 in r.value
  {
    if GlobalFrom(vars, rows, from).Ok? {
      forall k | from <= k < |rows| && (forall l :: k < l < |rows| ==> rows[l].0 != rows[k].0)
        ensures rows[k].0 in GlobalFrom(vars, rows, from).value
                && GlobalFrom(vars, rows, from).value[rows[k].0] == rows[k].1.value
      {
        GlobalFromLast(vars, rows, from, k);
      }
      forall k | from <= k < |rows| ensures rows[k].0 in GlobalFrom(vars, rows, from).value {
        GlobalFromDefines(vars, rows, from, k);
      }
    }
  }

  /** The last row with a key decides that key's value. */
  lemma {:induction false} GlobalFromLast(vars: map<string, Value>, rows: seq<Assignment>, from: nat, k: nat)
    requires from <= k < |rows| && GlobalFrom(vars, rows, from).Ok?
    requires forall l :: k < l < |rows| ==> rows[l].0 != rows[k].0
    ensures rows[k].0 in GlobalFrom(vars, rows, from).value
    ensures GlobalFrom(vars, rows, from).value[rows[k].0] == rows[k].1.value
    decreases k - from
  {
    var vars' := vars[rows[from].0 := rows[from].1.value];
    assert GlobalFrom(vars, rows, from) == GlobalFrom(vars', rows, from + 1);
    if from == k {
      GlobalFromKeeps(vars', rows, from + 1);
    } else {
      GlobalFromLast(vars', rows, from + 1, k);
    }
  }

  /** Every row's key ends up defined. */
  lemma {:induction false} GlobalFromDefines(vars: map<string, Value>, rows: seq<Assignment>, from: nat, k: nat)
    requires from <= k < |rows| && GlobalFrom(vars, rows, from).Ok?
    ensures rows[k].0 in GlobalFrom(vars, rows, from).value
    decreases |rows| - k
  {
    if l :| k < l < |rows| && rows[l].0 == rows[k].0 {
      GlobalFromDefines(vars, rows, from, l);
    } else {
      GlobalFromLast(vars, rows, from, k);
    }
  }

  /** Nothing but the old variables and the rows' keys ends up defined. */
  lemma {:induction false} GlobalFromOnly(vars: map<string, Value>, rows: seq<Assignment>, from: nat)
    requires from <= |rows|
    ensures var r := GlobalFrom(vars, rows, from);
            r.Ok? ==> forall key :: key in r.value ==> key in vars || exists k :: from <= k < |rows| && rows[k].0 == key
    decreases |rows| - from
  {
    var r := GlobalFrom(vars, rows, from);
    if from < |rows| && r.Ok? {
      var vars' := vars[rows[from].0 := rows[from].1.value];
      GlobalFromOnly(vars', rows, from + 1);
      assert r == GlobalFrom(vars', rows, from + 1);
      forall key | key in r.value
        ensures key in vars || exists k :: from <= k < |rows| && rows[k].0 == key
      {
        if key == rows[from].0 {
          assert rows[from].0 == key;
        } else if key !in vars {
          var k :| from + 1 <= k < |rows| && rows[k].0 == key;
          assert from <= k;
        }
      }
    }
  }

  /** An `"__input__"` object is how a template receives user input: a single part, flagged as input. */
  lemma InputObjectIsMarked(s: string)
    ensures var r := FromJson(Json.JObject([("__input__", Json.JString(s))]));
            r.Ok? && r.value.String? && |r.value.s.parts| == 1 && r.value.s.parts[0] == Part(true, s)
  {
    var ms := [("__input__", Json.JString(s))];
    assert ms[0].0 == "__input__";
    assert Json.HasKey(ms, "__input__");
    assert Json.Get(ms, "__input__") == Some(Json.JString(s));
  }

  /**
   * A JSON float becomes a float value whose text is `std::to_string` of the
   * number: six decimals that read back as the number rounded to the nearest
   * millionth.
   */
  lemma FloatTextReadsBack(x: real)
    ensures var r := FromJson(Json.JFloat(x));
            var m := FixedPoint.ScaledRound(x, 6);
            && r.Ok? && r.value.Float? && r.value.x == x
            && FixedPoint.ReadFixed(r.value.text, 6) == Some(FixedPoint.Decimal(if x < 0.0 then -(m as int) else m, 6))
  {
    assert FromJson(Json.JFloat(x)) == Ok(Float(x, FixedPoint.FixedText(x, 6)));
    FixedPoint.FixedTextReadsBack(x, 6);
  }
}

=== FILE: jinja_json.dfy ===
/**
 * JSON output of scalar template values (`value_to_json_internal`),
 * with the string escaping of section 7 of RFC 8259.
 *
 * A string is written between double quotes.  `"` and `\` are escaped with
 * a backslash, backspace, form feed, newline, carriage return and tab get
 * their two-character escapes, every other character below U+0020 becomes
 * `\u00xx` in lower-case hex, and everything else is copied.  The source
 * walks the bytes of a UTF-8 string; bytes from 0x80 up are copied as they
 * are, so walking characters instead gives the same text.
 *
 * The partner of the encoder is a decoder for JSON string literals as
 * section 7 of RFC 8259 defines them; decoding what the encoder wrote
 * gives back the original string and stops exactly at the closing quote.
 */
module JinjaJson {
  import opened Wrappers
  import opened Text
  import opened JinjaString
  import opened JinjaValue

  // ---------------------------------------------------------------------
  // Encoder
  // ---------------------------------------------------------------------

  const BACKSPACE: char := 8 as char
  const FORM_FEED: char := 12 as char

  /** The lower-case hex digit of `d`. */
  function HexDigit(d: nat): (c: char)
    requires d < 16
    ensures HexValue(c) == Some(d)
  {
    if d < 10 then ('0' as int + d) as char else ('a' as int + d - 10) as char
  }

  /** What one character becomes inside the quotes. */
  function EscapeChar(c: char): (r: string)
    ensures |r| > 0
    ensures c == '"' || c == '\\' ==> r == ['\\', c]
    ensures c as int < 0x20 ==> r[0] == '\\'
    ensures c as int >= 0x20 && c != '"' && c != '\\' ==> r == [c]
  {
    if c == '"' || c == '\\' then ['\\', c]
    else if c == BACKSPACE then "\\b"
    else if c == FORM_FEED then "\\f"
    else if c == '\n' then "\\n"
    else if c == '\r' then "\\r"
    else if c == '\t' then "\\t"
    else if c as int < 0x20 then "\\u00" + [HexDigit(c as int / 16), HexDigit(c as int % 16)]
    else [c]
  }

  /** The escaped text of `s`, without the quotes. */
  function EscapeBody(s: string): (r: string)
    ensures |r| >= |s|
    decreases |s|
  {
    if |s| == 0 then "" else EscapeChar(s[0]) + EscapeBody(s[1..])
  }

  /** The JSON text of a string value: the escaped text between double quotes. */
  function Quote(s: string): (r: string)
    ensures |r| >= |s| + 2 && r[0] == '"' && r[|r| - 1] == '"'
  {
    "\"" + EscapeBody(s) + "\""
  }

  /** No escape holds a raw control character. */
  lemma EscapeCharClean(c: char)
    ensures forall i :: 0 <= i < |EscapeChar(c)| ==> EscapeChar(c)[i] as int >= 0x20
  {
    if c as int < 0x20 && c !in [BACKSPACE, FORM_FEED, '\n', '\r', '\t'] {
      assert EscapeChar(c) == ['\\', 'u', '0', '0', HexDigit(c as int / 16), HexDigit(c as int % 16)];
    }
  }

  /** The escaped text holds no raw control character and no quote that is not escaped. */
  lemma {:induction false} EscapeBodyIsClean(s: string)
    ensures forall i :: 0 <= i < |EscapeBody(s)| ==> EscapeBody(s)[i] as int >= 0x20
    ensures ParseBody(EscapeBody(s) + "\"").Ok?
    decreases |s|
  {
    EscapedParses(s, "");
    assert EscapeBody(s) + "\"" + "" == EscapeBody(s) + "\"";
    if |s| > 0 {
      EscapeBodyIsClean(s[1..]);
      EscapeCharClean(s[0]);
      var e, rest := EscapeChar(s[0]), EscapeBody(s[1..]);
      assert EscapeBody(s) == e + rest;
      forall i | 0 <= i < |EscapeBody(s)| ensures EscapeBody(s)[i] as int >= 0x20 {
        if i < |e| {
          assert EscapeBody(s)[i] == e[i];
        } else {
          assert EscapeBody(s)[i] == rest[i - |e|];
        }
      }
    }
  }

  // ---------------------------------------------------------------------
  // Decoder (section 7 of RFC 8259)
  // ---------------------------------------------------------------------

  datatype StringError =
    | Unterminated        // the text ends before the closing quote
    | RawControl          // a character below U+0020 appears unescaped
    | BadEscape           // a backslash is followed by no valid escape
    | Surrogate           // `\u` names a UTF-16 surrogate, which is not a character on its own

  /** The value of a hex digit in either case. */
  function HexValue(c: char): (r: Option<nat>)
    ensures r.Some? ==> r.value < 16
    ensures r.Some? <==> IsDigit(c) || 'a' <= c <= 'f' || 'A' <= c <= 'F'
  {
    if IsDigit(c) then Some(c as int - '0' as int)
    else if 'a' <= c <= 'f' then Some(c as int - 'a' as int + 10)
    else if 'A' <= c <= 'F' then Some(c as int - 'A' as int + 10)
    else None
  }

  /** The value of four hex digits. */
  function Hex4(t: string): (r: Option<nat>)
    requires |t| == 4
    ensures r.Some? ==> r.value < 0x10000
  {
    var a := HexValue(t[0]);
    var b := HexValue(t[1]);
    var c := HexValue(t[2]);
    var d := HexValue(t[3]);
    if a.Some? && b.Some? && c.Some? && d.Some? then
      Some(((a.value * 16 + b.value) * 16 + c.value) * 16 + d.value)
    else None
  }

  /** The character a two-character escape `\e` stands for. */
  function SimpleEscape(e: char): (r: Option<char>)
    ensures r.Some? <==> e in "\"\\/bfnrt"
  {
    match e
    case '"' => Some('"')
    case '\\' => Some('\\')
    case '/' => Some('/')
    case 'b' => Some(BACKSPACE)
    case 'f' => Some(FORM_FEED)
    case 'n' => Some('\n')
    case 'r' => Some('\r')
    case 't' => Some('\t')
    case _ => None
  }

  /**
   * One character of a string literal at the start of `t`, the closing quote
   * aside: the character and the number of characters that encode it.
   */
  function ParseChar(t: string): (r: Result<(char, nat), StringError>)
    requires |t| > 0
    ensures r.Ok? ==> 1 <= r.value.1 <= |t|
  {
    if t[0] as int < 0x20 then Err(RawControl)
    else if t[0] != '\\' then Ok((t[0], 1))
    else if |t| < 2 then Err(Unterminated)
    else if t[1] != 'u' then
      var c :- SimpleEscape(t[1]).OrFail(BadEscape);
      Ok((c, 2))
    else if |t| < 6 then Err(Unterminated)
    else
      var code :- Hex4(t[2..6]).OrFail(BadEscape);
      if 0xD800 <= code < 0xE000 then Err(Surrogate) else Ok((code as char, 6))
  }

  /**
   * The text of a string literal whose opening quote has been read: the
   * decoded characters and the index of the closing quote in `t`.
   */
  function ParseBody(t: string): Result<(string, nat), StringError>
    decreases |t|
  {
    if |t| == 0 then Err(Unterminated)
    else if t[0] == '"' then Ok(("", 0))
    else
      var (c, n) :- ParseChar(t);
      var (rest, close) :- ParseBody(t[n..]);
      Ok(([c] + rest, close + n))
  }

  /** A complete string literal at the start of `t`: the decoded text and the length consumed. */
  function ParseString(t: string): (r: Result<(string, nat), StringError>)
    ensures r.Ok? ==> 2 <= r.value.1 <= |t| && t[0] == '"' && t[r.value.1 - 1] == '"'
  {
    if |t| == 0 || t[0] != '"' then Err(Unterminated)
    else
      ParseBodyCloses(t[1..]);
      var (s, close) :- ParseBody(t[1..]);
      Ok((s, close + 2))
  }

  /** A decoded body ends at a closing quote inside the text, and is no longer than what it consumed. */
  lemma {:induction false} ParseBodyCloses(t: string)
    ensures var r := ParseBody(t);
            r.Ok? ==> r.value.1 < |t| && t[r.value.1] == '"' && |r.value.0| <= r.value.1
    decreases |t|
  {
    if |t| > 0 && t[0] != '"' && ParseChar(t).Ok? {
      var n := ParseChar(t).value.1;
      ParseBodyCloses(t[n..]);
    }
  }

  /** ParseBody past one decoded character: that character, then what the rest of the text decodes to. */
  lemma ParseBodyStep(t: string, c: char, n: nat, p: (string, nat))
    requires |t| > 0 && t[0] != '"' && ParseChar(t) == Ok((c, n))
    requires n <= |t| && ParseBody(t[n..]) == Ok(p)
    ensures ParseBody(t) == Ok(([c] + p.0, p.1 + n))
  {
  }

  /** Decoding one escaped character consumes exactly its escape and gives the character back. */
  lemma EscapeCharParses(c: char, tail: string)
    requires ParseBody(tail).Ok?
    ensures ParseBody(EscapeChar(c) + tail)
            == Ok(([c] + ParseBody(tail).value.0, |EscapeChar(c)| + ParseBody(tail).value.1))
  {
    var e := EscapeChar(c);
    var t := e + tail;
    EscapeCharDecodes(c, tail);
    assert t[|e|..] == tail;
    ParseBodyStep(t, c, |e|, ParseBody(tail).value);
  }

  /** The escape of `c` followed by anything reads back as `c`, and never as the closing quote. */
  lemma EscapeCharDecodes(c: char, tail: string)
    ensures var t := EscapeChar(c) + tail;
            t[0] != '"' && ParseChar(t) == Ok((c, |EscapeChar(c)|))
  {
    EscapeCharShape(c);
    var e := EscapeChar(c);
    var t := e + tail;
    if |e| == 1 {
      assert t[0] == c;
    } else if |e| == 2 {
      assert t[0] == '\\' && t[1] == e[1];
    } else {
      var hi, lo := HexDigit(c as int / 16), HexDigit(c as int % 16);
      assert t[0] == '\\' && t[1] == 'u' && t[2..6] == ['0', '0', hi, lo];
      Hex4Control(c as int);
    }
  }

  /** Every escape is the character itself, a two-character escape, or a `\u00xx` escape. */
  lemma EscapeCharShape(c: char)
    ensures var e := EscapeChar(c);
            || (|e| == 1 && e == [c] && c as int >= 0x20 && c != '"' && c != '\\')
            || (|e| == 2 && e == ['\\', e[1]] && e[1] != 'u' && SimpleEscape(e[1]) == Some(c))
            || (|e| == 6 && c as int < 0x20
                && e == ['\\', 'u', '0', '0', HexDigit(c as int / 16), HexDigit(c as int % 16)])
  {
  }

  /** The four hex digits `\u00xx` carries for a control character read back as its code. */
  lemma Hex4Control(d: nat)
    requires d < 0x20
    ensures Hex4(['0', '0', HexDigit(d / 16), HexDigit(d % 16)]) == Some(d)
  {
    var hi, lo := d / 16, d % 16;
    assert HexValue('0') == Some(0);
    assert ((0 * 16 + 0) * 16 + hi) * 16 + lo == hi * 16 + lo == d;
  }

  /** Decoding the escaped text followed by a quote gives the original text, closing at that quote. */
  lemma {:induction false} EscapedParses(s: string, rest: string)
    ensures ParseBody(EscapeBody(s) + "\"" + rest) == Ok((s, |EscapeBody(s)|))
    decreases |s|
  {
    if |s| == 0 {
      ClosingQuoteParses(rest);
      assert EscapeBody(s) + "\"" + rest == "\"" + rest;
    } else {
      EscapedParses(s[1..], rest);
      EscapedParsesStep(s, rest);
    }
  }

  lemma ClosingQuoteParses(rest: string)
    ensures ParseBody("\"" + rest) == Ok(("", 0))
  {
  }

  /** One more escaped character in front keeps the decoding in step. */
  lemma EscapedParsesStep(s: string, rest: string)
    requires |s| > 0
    requires ParseBody(EscapeBody(s[1..]) + "\"" + rest) == Ok((s[1..], |EscapeBody(s[1..])|))
    ensures ParseBody(EscapeBody(s) + "\"" + rest) == Ok((s, |EscapeBody(s)|))
  {
    var e, tail := EscapeChar(s[0]), EscapeBody(s[1..]) + "\"" + rest;
    var x := EscapeBody(s) + "\"" + rest;
    EscapeBodyCons(s, rest);
    EscapeCharDecodes(s[0], tail);
    assert x[|e|..] == tail;
    ParseBodyStep(x, s[0], |e|, (s[1..], |EscapeBody(s[1..])|));
    assert [s[0]] + s[1..] == s;
  }

  /** The escaped text of a non-empty string starts with its first character's escape. */
  lemma EscapeBodyCons(s: string, rest: string)
    requires |s| > 0
    ensures EscapeBody(s) + "\"" + rest == EscapeChar(s[0]) + (EscapeBody(s[1..]) + "\"" + rest)
    ensures |EscapeBody(s)| == |EscapeChar(s[0])| + |EscapeBody(s[1..])|
  {
    var e, b, q := EscapeChar(s[0]), EscapeBody(s[1..]), "\"";
    assert EscapeBody(s) == e + b;
    ConcatAssoc(e, b, q);
    ConcatAssoc(e, b + q, rest);
  }

  lemma ConcatAssoc(a: string, b: string, c: string)
    ensures (a + b) + c == a + (b + c)
  {
  }

  /** The round trip: the literal the encoder writes decodes to the string, and nothing after it is read. */
  lemma QuoteRoundTrip(s: string, rest: string)
    ensures ParseString(Quote(s) + rest) == Ok((s, |Quote(s)|))
  {
    var t := Quote(s) + rest;
    DropOpeningQuote(EscapeBody(s), rest);
    EscapedParses(s, rest);
    assert ParseBody(t[1..]) == Ok((s, |EscapeBody(s)|));
  }

  lemma DropOpeningQuote(b: string, rest: string)
    ensures var t := "\"" + b + "\"" + rest;
            |t| == |b| + 2 + |rest| && t[0] == '"' && t[1..] == b + "\"" + rest
  {
  }

  /** Distinct strings are written as distinct literals. */
  lemma QuoteInjective(a: string, b: string)
    requires Quote(a) == Quote(b)
    ensures a == b
  {
    QuoteRoundTrip(a, "");
    QuoteRoundTrip(b, "");
    assert Quote(a) + "" == Quote(b) + "";
  }

  // ---------------------------------------------------------------------
  // Scalars
  // ---------------------------------------------------------------------

  /**
   * The JSON text of a scalar value: `null` for none and undefined,
   * `true`/`false`, the decimal integer, or the quoted string.  Floats,
   * arrays and objects have no answer here.
   */
  function ScalarToJson(v: Value): (r: Option<string>)
    ensures r.Some? <==> v.Null? || v.Undefined? || v.Bool? || v.Int? || v.String?
    ensures v.Null? || v.Undefined? ==> r == Some("null")
    ensures v.Bool? ==> r == Some(if v.b then "true" else "false")
    ensures v.Int? ==> r == Some(IntToString(v.i)) && ReadIntLiteral(r.value) == Some(v.i)
    ensures v.String? ==> r.Some? && ParseString(r.value) == Ok((Str(v.s), |r.value|))
  {
    match v
    case Null => Some("null")
    case Undefined => Some("null")
    case Bool(b) => Some(if b then "true" else "false")
    case Int(i) =>
      IntLiteralRoundTrip(i);
      Some(IntToString(i))
    case String(s) =>
      QuoteRoundTrip(Str(s), "");
      assert Quote(Str(s)) + "" == Quote(Str(s));
      Some(Quote(Str(s)))
    case _ => None
  }

  /** The value of a non-negative integer literal in the sense of section 6 of RFC 8259:
      one or more digits, without a leading zero unless the literal is `0`. */
  function ReadNatLiteral(t: string): (r: Option<nat>)
  {
    if |t| >= 1 && (forall i :: 0 <= i < |t| ==> IsDigit(t[i])) && (|t| > 1 ==> t[0] != '0')
    then Some(DigitsValue(t))
    else None
  }

  /** The value of an integer literal: an optional minus sign, then a non-negative literal. */
  function ReadIntLiteral(t: string): (r: Option<int>)
  {
    var m := ReadNatLiteral(if |t| > 0 && t[0] == '-' then t[1..] else t);
    if m.None? then None
    else if |t| > 0 && t[0] == '-' then Some(-(m.value as int))
    else Some(m.value as int)
  }

  /** The decimal text written for an integer is an RFC 8259 integer literal that reads back
      as the integer. */
  lemma IntLiteralRoundTrip(n: int)
    ensures ReadIntLiteral(IntToString(n)) == Some(n)
  {
    if n < 0 {
      var t := IntToString(n);
      assert t[1..] == NatToString(-n);
      NatLiteralRoundTrip(-n);
    } else {
      NatLiteralRoundTrip(n);
    }
  }

  lemma NatLiteralRoundTrip(n: nat)
    ensures ReadNatLiteral(NatToString(n)) == Some(n)
  {
    NatToStringValue(n);
  }

  /** Concrete escapes: a quote, a newline and the unit separator U+001F. */
  lemma EscapeExamples()
    ensures Quote("a\"b") == "\"a\\\"b\""
    ensures Quote("\n") == "\"\\n\""
    ensures Quote([31 as char]) == "\"\\u001f\""
  {
    assert EscapeBody("a\"b") == "a" + EscapeBody("\"b");
    assert EscapeBody("\"b") == "\\\"" + EscapeBody("b");
  }
}

=== FILE: jinja_lexer.dfy ===
/**
 * The template tokenizer (`lexer::tokenize`).
 *
 * The source is preprocessed first (`JinjaPreprocess`), then scanned left
 * to right.  Each round of the main loop produces one token or stops at
 * trailing whitespace; `Step` is one round and `Lex` the loop.  Reading at
 * the end of a `std::string` gives its terminating NUL, which `Peek` models;
 * several source loops rely on it to stop.
 *
 * `curly_bracket_depth` is a `size_t`: closing a curly bracket at depth 0
 * wraps it round to `SIZE_MAX`, as the source does.
 */
module JinjaLexer {
  import opened Wrappers
  import opened Text
  import opened JinjaPreprocess

  datatype TokenType =
    | Undefined | Text | NumericLiteral | StringLiteral | Identifier | Equals
    | OpenParen | CloseParen | OpenStatement | CloseStatement | OpenExpression | CloseExpression
    | OpenSquareBracket | CloseSquareBracket | OpenCurlyBracket | CloseCurlyBracket
    | Comma | Dot | Colon | Pipe | CallOperator
    | AdditiveBinaryOperator | MultiplicativeBinaryOperator | ComparisonBinaryOperator
    | UnaryOperator | Comment

  /** A token with its text and the index in the preprocessed source where it starts. */
  datatype Token = Token(t: TokenType, value: string, pos: nat)

  datatype LexError =
    | PreprocessFailed(e: PreprocessError)
    | UnexpectedChar(c: char)
    | MissingCommentEnd
    | EndAfterEscape          // a backslash is the last character
    | UnknownEscape(c: char)
    | EndOfInput              // a string literal runs past the end of the source

  const SIZE_MAX: nat := 0xFFFF_FFFF_FFFF_FFFF
  const NUL: char := 0 as char

  /** `src[pos]`, with the terminating NUL at `pos == |src|`. */
  function Peek(src: string, pos: nat): (c: char)
    ensures pos < |src| ==> c == src[pos]
    ensures pos >= |src| ==> c == NUL
  {
    if pos < |src| then src[pos] else NUL
  }

  /** `is_word`: an ASCII letter, a digit, or `_`. */
  predicate IsWord(c: char) {
    IsAlnum(c) || c == '_'
  }

  // ---------------------------------------------------------------------
  // consume_while and escapes
  // ---------------------------------------------------------------------

  /** `escape_chars`: the character `\c` stands for inside a string literal. */
  function Unescape(c: char): (r: Option<char>)
    ensures r.Some? <==> c in "ntrbfv\\'\""
  {
    match c
    case 'n' => Some('\n')
    case 't' => Some('\t')
    case 'r' => Some('\r')
    case 'b' => Some(8 as char)
    case 'f' => Some(12 as char)
    case 'v' => Some(11 as char)
    case '\\' => Some('\\')
    case '\'' => Some('\'')
    case '"' => Some('"')
    case _ => None
  }

  /**
   * `consume_while(p)` from `pos`: the text read, with escapes replaced,
   * and the index where `p` first fails.  Reading the terminating NUL as
   * an accepted character throws.
   */
  function ConsumeWhile(src: string, pos: nat, p: char -> bool): (r: Result<(string, nat), LexError>)
    requires pos <= |src|
    ensures r.Ok? ==> pos <= r.value.1 <= |src| && !p(Peek(src, r.value.1))
    decreases |src| - pos
  {
    var c := Peek(src, pos);
    if !p(c) then Ok(("", pos))
    else if pos < |src| && c == '\\' then
      if pos + 1 >= |src| then Err(EndAfterEscape)
      else
        match Unescape(src[pos + 1])
        case None => Err(UnknownEscape(src[pos + 1]))
        case Some(u) =>
          var (rest, e) :- ConsumeWhile(src, pos + 2, p);
          Ok(([u] + rest, e))
    else if pos + 1 > |src| then Err(EndOfInput)
    else
      var (rest, e) :- ConsumeWhile(src, pos + 1, p);
      Ok(([c] + rest, e))
  }

  /** The end of the run of characters satisfying `p` that starts at `pos`. */
  function RunEnd(src: string, pos: nat, p: char -> bool): (r: nat)
    requires pos <= |src|
    ensures pos <= r <= |src|
    ensures forall k :: pos <= k < r ==> p(src[k])
    ensures r < |src| ==> !p(src[r])
    decreases |src| - pos
  {
    if pos < |src| && p(src[pos]) then RunEnd(src, pos + 1, p) else pos
  }

  /** For a predicate that rejects `\` and NUL, `consume_while` reads exactly the maximal run. */
  lemma {:induction false} ConsumeRun(src: string, pos: nat, p: char -> bool)
    requires pos <= |src| && !p('\\') && !p(NUL)
    ensures ConsumeWhile(src, pos, p) == Ok((src[pos..RunEnd(src, pos, p)], RunEnd(src, pos, p)))
    decreases |src| - pos
  {
    if pos < |src| && p(src[pos]) {
      ConsumeRun(src, pos + 1, p);
      var e := RunEnd(src, pos, p);
      assert e == RunEnd(src, pos + 1, p);
      assert Peek(src, pos) == src[pos] && src[pos] != '\\';
      assert src[pos..e] == [src[pos]] + src[pos + 1..e];
    } else {
      assert !p(Peek(src, pos)) && RunEnd(src, pos, p) == pos;
      assert src[pos..pos] == "";
    }
  }

  /** A string literal's body ends at a quote: the first one not escaped. */
  lemma StringEndsAtQuote(src: string, pos: nat, q: char)
    requires pos <= |src| && q != NUL
    ensures var r := ConsumeWhile(src, pos, c => c != q);
            r.Ok? ==> r.value.1 < |src| && src[r.value.1] == q
  {
  }

  /** A body without backslashes or quotes that is followed by the quote is read verbatim. */
  lemma {:induction false} PlainStringBody(src: string, pos: nat, q: char, close: nat)
    requires pos <= close < |src| && src[close] == q && q != '\\'
    requires forall k :: pos <= k < close ==> src[k] != q && src[k] != '\\'
    ensures ConsumeWhile(src, pos, c => c != q) == Ok((src[pos..close], close))
    decreases close - pos
  {
    if pos < close {
      PlainStringBody(src, pos + 1, q, close);
      assert src[pos..close] == [src[pos]] + src[pos + 1..close];
    }
  }

  /** A string that never closes and holds no backslash runs into the end of the source. */
  lemma {:induction false} UnterminatedString(src: string, pos: nat, q: char)
    requires pos <= |src| && q != NUL && q != '\\'
    requires forall k :: pos <= k < |src| ==> src[k] != q && src[k] != '\\'
    ensures ConsumeWhile(src, pos, c => c != q) == Err(EndOfInput)
    decreases |src| - pos
  {
    if pos < |src| { UnterminatedString(src, pos + 1, q); }
  }

  /** A backslash in a string: a known escape gives its character, anything else throws. */
  lemma EscapeInString(src: string, pos: nat, q: char)
    requires pos < |src| && src[pos] == '\\' && q != '\\'
    ensures pos + 1 == |src| ==> ConsumeWhile(src, pos, c => c != q) == Err(EndAfterEscape)
    ensures pos + 1 < |src| && Unescape(src[pos + 1]).None? ==>
              ConsumeWhile(src, pos, c => c != q) == Err(UnknownEscape(src[pos + 1]))
    ensures pos + 1 < |src| && Unescape(src[pos + 1]).Some? && ConsumeWhile(src, pos, c => c != q).Ok? ==>
              var r := ConsumeWhile(src, pos, c => c != q).value.0;
              |r| > 0 && r[0] == Unescape(src[pos + 1]).value
  {
  }

  // ---------------------------------------------------------------------
  // The ordered mapping table
  // ---------------------------------------------------------------------

  const TABLE_SIZE: nat := 27

  /** Entry `k` of the ordered mapping table: the text and the token type it gives. */
  function TableEntry(k: nat): (e: (string, TokenType))
    requires k < TABLE_SIZE
    ensures 1 <= |e.0| <= 2 && e.1 != Text && e.1 != Comment
  {
    match k
    case 0 => ("{%", OpenStatement)
    case 1 => ("%}", CloseStatement)
    case 2 => ("{{", OpenExpression)
    case 3 => ("}}", CloseExpression)
    case 4 => ("(", OpenParen)
    case 5 => (")", CloseParen)
    case 6 => ("{", OpenCurlyBracket)
    case 7 => ("}", CloseCurlyBracket)
    case 8 => ("[", OpenSquareBracket)
    case 9 => ("]", CloseSquareBracket)
    case 10 => (",", Comma)
    case 11 => (".", Dot)
    case 12 => (":", Colon)
    case 13 => ("|", Pipe)
    case 14 => ("<=", ComparisonBinaryOperator)
    case 15 => (">=", ComparisonBinaryOperator)
    case 16 => ("==", ComparisonBinaryOperator)
    case 17 => ("!=", ComparisonBinaryOperator)
    case 18 => ("<", ComparisonBinaryOperator)
    case 19 => (">", ComparisonBinaryOperator)
    case 20 => ("+", AdditiveBinaryOperator)
    case 21 => ("-", AdditiveBinaryOperator)
    case 22 => ("~", AdditiveBinaryOperator)
    case 23 => ("*", MultiplicativeBinaryOperator)
    case 24 => ("/", MultiplicativeBinaryOperator)
    case 25 => ("%", MultiplicativeBinaryOperator)
    case _ => ("=", Equals)
  }

  /**
   * `src.substr(pos, |e|) == e` for an entry of one or two characters (every
   * entry of the table is), compared character by character.
   */
  predicate CharsAt(src: string, pos: nat, e: string) {
    1 <= |e| <= 2 && pos + |e| <= |src| && src[pos] == e[0] && (|e| == 2 ==> src[pos + 1] == e[1])
  }

  lemma CharsAtIsSubstring(src: string, pos: nat, e: string)
    requires 1 <= |e| <= 2
    ensures CharsAt(src, pos, e) <==> pos + |e| <= |src| && src[pos..pos + |e|] == e
  {
    if pos + |e| <= |src| && src[pos..pos + |e|] == e {
      assert src[pos..pos + |e|][0] == src[pos];
      if |e| == 2 { assert src[pos..pos + |e|][1] == src[pos + 1]; }
    }
  }

  /**
   * Entry `k` is tried (`}}` is skipped inside a curly literal; it is the one
   * entry of type close-expression) and its text is at `pos`.
   */
  predicate EntryMatches(src: string, pos: nat, depth: nat, k: nat)
    requires k < TABLE_SIZE
  {
    !(TableEntry(k).1 == CloseExpression && depth > 0) && CharsAt(src, pos, TableEntry(k).0)
  }

  /** The close-expression entry is exactly the `}}` entry. */
  lemma CloseExpressionEntry(k: nat)
    requires k < TABLE_SIZE
    ensures TableEntry(k).1 == CloseExpression <==> TableEntry(k).0 == "}}"
  {
  }

  /** The first entry from `k` on that matches. */
  function MatchFrom(src: string, pos: nat, depth: nat, k: nat): (r: Option<nat>)
    requires k <= TABLE_SIZE
    ensures r.Some? ==> k <= r.value < TABLE_SIZE && EntryMatches(src, pos, depth, r.value)
    decreases TABLE_SIZE - k
  {
    if k == TABLE_SIZE then None
    else if EntryMatches(src, pos, depth, k) then Some(k)
    else MatchFrom(src, pos, depth, k + 1)
  }

  /** The entry the search answers is the first that matches from `k` on. */
  lemma {:induction false} MatchFromIsFirst(src: string, pos: nat, depth: nat, k: nat)
    requires k <= TABLE_SIZE && MatchFrom(src, pos, depth, k).Some?
    ensures forall m :: k <= m < MatchFrom(src, pos, depth, k).value ==> !EntryMatches(src, pos, depth, m)
    decreases TABLE_SIZE - k
  {
    if !EntryMatches(src, pos, depth, k) {
      MatchFromIsFirst(src, pos, depth, k + 1);
    }
  }

  /** The search answers nothing exactly when no entry from `k` on matches. */
  lemma {:induction false} MatchFromNone(src: string, pos: nat, depth: nat, k: nat)
    requires k <= TABLE_SIZE
    ensures MatchFrom(src, pos, depth, k).None? <==> forall m :: k <= m < TABLE_SIZE ==> !EntryMatches(src, pos, depth, m)
    decreases TABLE_SIZE - k
  {
    if k < TABLE_SIZE && !EntryMatches(src, pos, depth, k) {
      MatchFromNone(src, pos, depth, k + 1);
    }
  }

  /** An entry that does not match passes the search on to the next one. */
  lemma Skip(src: string, pos: nat, depth: nat, k: nat)
    requires k < TABLE_SIZE && !EntryMatches(src, pos, depth, k)
    ensures MatchFrom(src, pos, depth, k) == MatchFrom(src, pos, depth, k + 1)
  {
  }

  /** The new `curly_bracket_depth` after a table token of type `t`, with `size_t` wrap-around. */
  function NewDepth(depth: nat, t: TokenType): (d: nat)
    requires depth <= SIZE_MAX
    ensures d <= SIZE_MAX
    ensures t == OpenExpression ==> d == 0
    ensures t == OpenCurlyBracket && depth < SIZE_MAX ==> d == depth + 1
    ensures t == CloseCurlyBracket && depth > 0 ==> d == depth - 1
    ensures t != OpenExpression && t != OpenCurlyBracket && t != CloseCurlyBracket ==> d == depth
  {
    if t == OpenExpression then 0
    else if t == OpenCurlyBracket then (depth + 1) % (SIZE_MAX + 1)
    else if t == CloseCurlyBracket then (if depth == 0 then SIZE_MAX else depth - 1)
    else depth
  }

  // ---------------------------------------------------------------------
  // One round of the main loop
  // ---------------------------------------------------------------------

  /** `{` followed by `%`, `{` or `#` at `k`: the start of a tag. */
  predicate OpenerAt(src: string, k: nat) {
    k + 1 < |src| && src[k] == '{' && (src[k + 1] == '%' || src[k + 1] == '{' || src[k + 1] == '#')
  }

  /** `#}` at `k`. */
  predicate CommentCloseAt(src: string, k: nat) {
    k + 1 < |src| && src[k] == '#' && src[k + 1] == '}'
  }

  /** Text is read only after these token types (`undefined` standing for "no token yet"). */
  predicate TextAllowed(last: TokenType) {
    last == Undefined || last == CloseStatement || last == CloseExpression || last == Comment
  }

  /** After these a `+` or `-` is a binary operator. */
  predicate BinaryContext(last: TokenType) {
    last == Identifier || last == NumericLiteral || last == StringLiteral || last == CloseParen || last == CloseSquareBracket
  }

  /** The end of the text that starts at `pos`: the next tag start, or the end of the source. */
  function TextEnd(src: string, pos: nat): (r: nat)
    requires pos <= |src|
    ensures pos <= r <= |src|
    ensures forall k :: pos <= k < r ==> !OpenerAt(src, k)
    ensures r < |src| ==> OpenerAt(src, r)
    decreases |src| - pos
  {
    if pos == |src| || OpenerAt(src, pos) then pos else TextEnd(src, pos + 1)
  }

  /** The comment loop from `p`: the index of the first `#}`, or an error when there is none. */
  function CommentEnd(src: string, p: nat): (r: Result<nat, LexError>)
    requires p <= |src|
    ensures r.Ok? <==> exists k :: p <= k && CommentCloseAt(src, k)
    ensures r.Ok? ==> p <= r.value && CommentCloseAt(src, r.value)
                      && forall k :: p <= k < r.value ==> !CommentCloseAt(src, k)
    ensures r.Err? ==> r.error == MissingCommentEnd
    decreases |src| - p
  {
    if CommentCloseAt(src, p) then Ok(p)
    else if p + 2 >= |src| then Err(MissingCommentEnd)
    else CommentEnd(src, p + 1)
  }

  /** A digit run, then `.` and a second digit run only when a digit follows the `.`. */
  function NumberEnd(src: string, p: nat): (r: nat)
    requires p <= |src|
    ensures p <= r <= |src|
  {
    var e := RunEnd(src, p, IsDigit);
    if e < |src| && src[e] == '.' && e + 1 < |src| && IsDigit(src[e + 1]) then RunEnd(src, e + 1, IsDigit) else e
  }

  /**
   * One round of the main loop at `pos`, after token type `last`: the token
   * produced with the next position and depth, or `None` when only
   * whitespace is left.
   */
  function Step(src: string, pos: nat, last: TokenType, depth: nat): (r: Result<Option<(Token, nat, nat)>, LexError>)
    requires pos < |src| && depth <= SIZE_MAX
    ensures r.Ok? && r.value.Some? ==>
              var (tok, next, d) := r.value.value;
              pos <= tok.pos < next <= |src| && d <= SIZE_MAX
    ensures r.Ok? && r.value.Some? && r.value.value.0.t == Text ==>
              var (tok, next, d) := r.value.value;
              TextAllowed(last) && tok.pos == pos && next == TextEnd(src, pos) && tok.value == src[pos..next] && |tok.value| > 0
    ensures r.Ok? && r.value.None? ==> forall k :: pos <= k < |src| ==> IsCSpace(src[k])
  {
    if TextAllowed(last) && TextEnd(src, pos) > pos then
      var e := TextEnd(src, pos);
      Ok(Some((Token(Text, src[pos..e], pos), e, depth)))
    else if src[pos] == '{' && pos + 1 < |src| && src[pos + 1] == '#' then
      var e :- CommentEnd(src, pos + 2);
      var next: nat := e + 2;
      Ok(Some((Token(Comment, src[pos + 2..e], pos), next, depth)))
    else
      var p := SkipSpace(src, pos);
      if p >= |src| then Ok(None)
      else StepAt(src, p, last, depth)
  }

  /** The rest of a round, at the first non-space character `p`. */
  function StepAt(src: string, p: nat, last: TokenType, depth: nat): (r: Result<Option<(Token, nat, nat)>, LexError>)
    requires p < |src| && depth <= SIZE_MAX
    ensures r.Ok? ==> r.value.Some?
    ensures r.Ok? ==>
              var (tok, next, d) := r.value.value;
              p == tok.pos < next <= |src| && d <= SIZE_MAX && tok.t != Text
  {
    var ch := src[p];
    if (ch == '-' || ch == '+') && (last == Text || last == Undefined) then Err(UnexpectedChar(ch))
    else if (ch == '-' || ch == '+') && !BinaryContext(last) then Ok(Some(SignedToken(src, p, depth)))
    else
      match MatchFrom(src, p, depth, 0)
      case Some(k) => Ok(Some(TableToken(src, p, depth, k)))
      case None => LiteralToken(src, p, depth)
  }

  /** A sign outside an operand context, with the digits that follow it. */
  function SignedToken(src: string, p: nat, depth: nat): (r: (Token, nat, nat))
    requires p < |src|
    ensures p == r.0.pos < r.1 <= |src| && r.2 == depth && r.0.t != Text
  {
    var e := RunEnd(src, p + 1, IsDigit);
    var num := src[p + 1..e];
    (Token(if |num| == 0 then UnaryOperator else NumericLiteral, [src[p]] + num, p), e, depth)
  }

  /** The token of table entry `k`, found at `p`. */
  function TableToken(src: string, p: nat, depth: nat, k: nat): (r: (Token, nat, nat))
    requires k < TABLE_SIZE && depth <= SIZE_MAX && EntryMatches(src, p, depth, k)
    ensures r.0 == Token(TableEntry(k).1, TableEntry(k).0, p) && r.1 == p + |TableEntry(k).0| <= |src|
    ensures r.2 == NewDepth(depth, TableEntry(k).1) && r.0.t != Text
  {
    var next: nat := p + |TableEntry(k).0|;
    (Token(TableEntry(k).1, TableEntry(k).0, p), next, NewDepth(depth, TableEntry(k).1))
  }

  /** A string, number or identifier at `p`, when no table entry matched. */
  function LiteralToken(src: string, p: nat, depth: nat): (r: Result<Option<(Token, nat, nat)>, LexError>)
    requires p < |src|
    ensures r.Ok? ==> r.value.Some?
    ensures r.Ok? ==>
              var (tok, next, d) := r.value.value;
              p == tok.pos < next <= |src| && d == depth && tok.t in {StringLiteral, NumericLiteral, Identifier}
  {
    var ch := src[p];
    if ch == '\'' || ch == '"' then
      var (str, e) :- ConsumeWhile(src, p + 1, c => c != ch);
      assert e < |src| by { StringEndsAtQuote(src, p + 1, ch); }
      var next: nat := e + 1;
      Ok(Some((Token(StringLiteral, str, p), next, depth)))
    else if IsDigit(ch) then
      var e := NumberEnd(src, p);
      var d := RunEnd(src, p, IsDigit);
      var value := if e == d then src[p..d] else src[p..d] + "." + src[d + 1..e];
      Ok(Some((Token(NumericLiteral, value, p), e, depth)))
    else if IsWord(ch) then
      var e := RunEnd(src, p, IsWord);
      Ok(Some((Token(Identifier, src[p..e], p), e, depth)))
    else Err(UnexpectedChar(ch))
  }

  /** The type of the last token, `undefined` before the first. */
  function LastType(ts: seq<Token>): TokenType {
    if |ts| == 0 then Undefined else ts[|ts| - 1].t
  }

  /** The main loop from `pos`, with `acc` produced so far. */
  function Lex(src: string, pos: nat, acc: seq<Token>, depth: nat): (r: Result<seq<Token>, LexError>)
    requires pos <= |src| && depth <= SIZE_MAX
    ensures r.Ok? ==> |r.value| >= |acc| && r.value[..|acc|] == acc
    decreases |src| - pos
  {
    if pos >= |src| then Ok(acc)
    else
      match Step(src, pos, LastType(acc), depth)
      case Err(e) => Err(e)
      case Ok(None) => Ok(acc)
      case Ok(Some((tok, next, d))) =>
        var r := Lex(src, next, acc + [tok], d);
        assert r.Ok? ==> r.value[..|acc|] == (acc + [tok])[..|acc|] by {
          if r.Ok? { assert r.value[..|acc|] == r.value[..|acc| + 1][..|acc|]; }
        }
        r
  }

  /** `lexer::tokenize`: the tokens and the preprocessed source their positions refer to. */
  function Tokenize(input: string, opts: Options): (r: Result<(seq<Token>, string), LexError>)
    ensures opts.lstripBlocks ==> r == Err(PreprocessFailed(LstripNotImplemented))
    ensures r.Ok? ==> forall i :: 0 <= i < |r.value.0| ==> r.value.0[i].pos < |r.value.1|
  {
    match Preprocess(input, opts)
    case Err(e) => Err(PreprocessFailed(e))
    case Ok(src) =>
      LexFacts(src, 0, [], 0);
      match Lex(src, 0, [], 0)
      case Err(e) => Err(e)
      case Ok(tokens) => Ok((tokens, src))
  }

  // ---------------------------------------------------------------------
  // Properties of the whole token sequence
  // ---------------------------------------------------------------------

  /** Every text token follows no token, a closing tag or a comment. */
  predicate TextWellPlaced(ts: seq<Token>) {
    forall i :: 0 <= i < |ts| && ts[i].t == Text ==> TextAllowed(LastType(ts[..i]))
  }

  /** Token positions strictly increase and stay below `bound`. */
  predicate Ordered(ts: seq<Token>, bound: nat) {
    (forall i, j :: 0 <= i < j < |ts| ==> ts[i].pos < ts[j].pos) && (forall i :: 0 <= i < |ts| ==> ts[i].pos < bound)
  }

  /** Appending a token placed after every earlier one keeps both properties. */
  lemma ExtendFacts(acc: seq<Token>, tok: Token, pos: nat, next: nat)
    requires TextWellPlaced(acc) && Ordered(acc, pos)
    requires pos <= tok.pos < next
    requires tok.t == Text ==> TextAllowed(LastType(acc))
    ensures TextWellPlaced(acc + [tok]) && Ordered(acc + [tok], next)
  {
    var acc' := acc + [tok];
    assert acc'[..|acc|] == acc;
    forall i | 0 <= i < |acc'| && acc'[i].t == Text ensures TextAllowed(LastType(acc'[..i])) {
      if i < |acc| { assert acc'[..i] == acc[..i]; }
    }
  }

  lemma {:induction false} LexFacts(src: string, pos: nat, acc: seq<Token>, depth: nat)
    requires pos <= |src| && depth <= SIZE_MAX
    requires TextWellPlaced(acc) && Ordered(acc, pos)
    ensures var r := Lex(src, pos, acc, depth);
            r.Ok? ==> TextWellPlaced(r.value) && Ordered(r.value, |src|)
    decreases |src| - pos
  {
    if pos < |src| {
      match Step(src, pos, LastType(acc), depth)
      case Err(_) =>
      case Ok(None) =>
        assert Ordered(acc, |src|);
      case Ok(Some((tok, next, d))) =>
        ExtendFacts(acc, tok, pos, next);
        LexFacts(src, next, acc + [tok], d);
    }
  }

  /** In a sequence whose text tokens are well placed, no two text tokens are adjacent. */
  lemma WellPlacedNotAdjacent(ts: seq<Token>)
    requires TextWellPlaced(ts)
    ensures forall i :: 0 < i < |ts| ==> !(ts[i - 1].t == Text && ts[i].t == Text)
  {
    forall i | 0 < i < |ts| ensures !(ts[i - 1].t == Text && ts[i].t == Text) {
      assert ts[..i][i - 1] == ts[i - 1];
    }
  }

  /** The tokens of a successful run never hold two text tokens in a row. */
  lemma NoAdjacentText(input: string, opts: Options)
    ensures var r := Tokenize(input, opts);
            r.Ok? ==> forall i :: 0 < i < |r.value.0| ==> !(r.value.0[i - 1].t == Text && r.value.0[i].t == Text)
  {
    var r := Tokenize(input, opts);
    if r.Ok? {
      var src := Preprocess(input, opts).value;
      LexFacts(src, 0, [], 0);
      WellPlacedNotAdjacent(r.value.0);
    }
  }

  // ---------------------------------------------------------------------
  // Properties of one round
  // ---------------------------------------------------------------------

  /** `{# ... #}` is one comment token holding the inner text; without `#}` the lexer throws. */
  lemma CommentStep(src: string, pos: nat, last: TokenType, depth: nat)
    requires pos + 1 < |src| && src[pos] == '{' && src[pos + 1] == '#' && depth <= SIZE_MAX
    ensures var r := Step(src, pos, last, depth);
            && ((exists k :: pos + 2 <= k && CommentCloseAt(src, k)) <==> r.Ok?)
            && (r.Err? ==> r.error == MissingCommentEnd)
            && (r.Ok? ==> (r.value.Some? &&
                 var (tok, next, d) := r.value.value;
                 var e := next - 2;
                 tok == Token(Comment, src[pos + 2..e], pos) && CommentCloseAt(src, e)
                 && (forall k :: pos + 2 <= k < e ==> !CommentCloseAt(src, k)) && d == depth))
  {
    assert TextEnd(src, pos) == pos;
  }

  /** Right after text a sign throws: text always stops at a tag, so in practice this only guards the start. */
  lemma SignAfterText(src: string, p: nat, last: TokenType, depth: nat)
    requires p < |src| && (src[p] == '-' || src[p] == '+') && depth <= SIZE_MAX
    requires last == Text || last == Undefined
    ensures StepAt(src, p, last, depth) == Err(UnexpectedChar(src[p]))
  {
  }

  /** `+` is found at entry 20 of the table: no earlier entry starts with it. */
  lemma PlusMatches(src: string, p: nat, depth: nat)
    requires p < |src| && src[p] == '+'
    ensures MatchFrom(src, p, depth, 0) == Some(20) && TableEntry(20) == ("+", AdditiveBinaryOperator)
  {
    Skip(src, p, depth, 0);
    Skip(src, p, depth, 1);
    Skip(src, p, depth, 2);
    Skip(src, p, depth, 3);
    Skip(src, p, depth, 4);
    Skip(src, p, depth, 5);
    Skip(src, p, depth, 6);
    Skip(src, p, depth, 7);
    Skip(src, p, depth, 8);
    Skip(src, p, depth, 9);
    Skip(src, p, depth, 10);
    Skip(src, p, depth, 11);
    Skip(src, p, depth, 12);
    Skip(src, p, depth, 13);
    Skip(src, p, depth, 14);
    Skip(src, p, depth, 15);
    Skip(src, p, depth, 16);
    Skip(src, p, depth, 17);
    Skip(src, p, depth, 18);
    Skip(src, p, depth, 19);
    assert EntryMatches(src, p, depth, 20);
  }

  /** `-` is found at entry 21 of the table: no earlier entry starts with it. */
  lemma MinusMatches(src: string, p: nat, depth: nat)
    requires p < |src| && src[p] == '-'
    ensures MatchFrom(src, p, depth, 0) == Some(21) && TableEntry(21) == ("-", AdditiveBinaryOperator)
  {
    Skip(src, p, depth, 0);
    Skip(src, p, depth, 1);
    Skip(src, p, depth, 2);
    Skip(src, p, depth, 3);
    Skip(src, p, depth, 4);
    Skip(src, p, depth, 5);
    Skip(src, p, depth, 6);
    Skip(src, p, depth, 7);
    Skip(src, p, depth, 8);
    Skip(src, p, depth, 9);
    Skip(src, p, depth, 10);
    Skip(src, p, depth, 11);
    Skip(src, p, depth, 12);
    Skip(src, p, depth, 13);
    Skip(src, p, depth, 14);
    Skip(src, p, depth, 15);
    Skip(src, p, depth, 16);
    Skip(src, p, depth, 17);
    Skip(src, p, depth, 18);
    Skip(src, p, depth, 19);
    Skip(src, p, depth, 20);
    assert EntryMatches(src, p, depth, 21);
  }

  /** The table answers for every character that is not a sign, and for a sign after an operand. */
  lemma TableStep(src: string, p: nat, last: TokenType, depth: nat)
    requires p < |src| && depth <= SIZE_MAX && MatchFrom(src, p, depth, 0).Some?
    requires src[p] == '-' || src[p] == '+' ==> BinaryContext(last)
    ensures StepAt(src, p, last, depth) == Ok(Some(TableToken(src, p, depth, MatchFrom(src, p, depth, 0).value)))
  {
  }

  /** The token of the `+` or `-` entry is the sign itself, one character long, leaving the depth alone. */
  lemma SignToken(src: string, p: nat, depth: nat, k: nat)
    requires p < |src| && depth <= SIZE_MAX
    requires (k == 20 && src[p] == '+') || (k == 21 && src[p] == '-')
    ensures EntryMatches(src, p, depth, k)
    ensures TableToken(src, p, depth, k) == (Token(AdditiveBinaryOperator, [src[p]], p), p + 1, depth)
  {
    assert TableEntry(k) == ([src[p]], AdditiveBinaryOperator);
  }

  /** After an operand a sign is the binary operator. */
  lemma SignIsBinary(src: string, p: nat, last: TokenType, depth: nat)
    requires p < |src| && (src[p] == '-' || src[p] == '+') && depth <= SIZE_MAX
    requires BinaryContext(last)
    ensures StepAt(src, p, last, depth) == Ok(Some((Token(AdditiveBinaryOperator, [src[p]], p), p + 1, depth)))
  {
    var k: nat := if src[p] == '+' then 20 else 21;
    if k == 20 { PlusMatches(src, p, depth); } else { MinusMatches(src, p, depth); }
    TableStep(src, p, last, depth);
    SignToken(src, p, depth, k);
  }

  /** Elsewhere a sign is unary, or the start of a signed integer literal when digits follow. */
  lemma SignIsUnary(src: string, p: nat, last: TokenType, depth: nat)
    requires p < |src| && (src[p] == '-' || src[p] == '+') && depth <= SIZE_MAX
    requires last != Text && last != Undefined && !BinaryContext(last)
    ensures var r := StepAt(src, p, last, depth);
            r.Ok? &&
            var (tok, next, d) := r.value.value;
            && tok.value[0] == src[p] && tok.value[1..] == src[p + 1..next]
            && (forall k :: p + 1 <= k < next ==> IsDigit(src[k]))
            && (next < |src| ==> !IsDigit(src[next]))
            && (tok.t == NumericLiteral <==> next > p + 1)
            && (tok.t == UnaryOperator <==> next == p + 1)
  {
  }

  /** Inside a curly literal the search passes over `}}` and finds `}`, entry 7. */
  lemma CloseCurlyMatches(src: string, p: nat, depth: nat)
    requires p < |src| && src[p] == '}' && depth > 0
    ensures MatchFrom(src, p, depth, 0) == Some(7) && TableEntry(7) == ("}", CloseCurlyBracket)
  {
    Skip(src, p, depth, 0);
    Skip(src, p, depth, 1);
    Skip(src, p, depth, 2);
    Skip(src, p, depth, 3);
    Skip(src, p, depth, 4);
    Skip(src, p, depth, 5);
    Skip(src, p, depth, 6);
    assert EntryMatches(src, p, depth, 7);
  }

  /** Outside a curly literal `}}` is found whole, entry 3. */
  lemma CloseExpressionMatches(src: string, p: nat, depth: nat)
    requires p + 1 < |src| && src[p] == '}' && src[p + 1] == '}' && depth == 0
    ensures MatchFrom(src, p, depth, 0) == Some(3) && TableEntry(3) == ("}}", CloseExpression)
  {
    Skip(src, p, depth, 0);
    Skip(src, p, depth, 1);
    Skip(src, p, depth, 2);
    assert EntryMatches(src, p, depth, 3);
  }

  /** Inside a curly literal `}}` closes the literal, one bracket at a time; otherwise it ends the expression. */
  lemma CurlyStep(src: string, p: nat, last: TokenType, depth: nat)
    requires p + 1 < |src| && src[p] == '}' && src[p + 1] == '}' && depth <= SIZE_MAX
    ensures depth > 0 ==> StepAt(src, p, last, depth) == Ok(Some((Token(CloseCurlyBracket, "}", p), p + 1, depth - 1)))
    ensures depth == 0 ==> StepAt(src, p, last, depth) == Ok(Some((Token(CloseExpression, "}}", p), p + 2, 0)))
  {
    if depth > 0 {
      CloseCurlyMatches(src, p, depth);
    } else {
      CloseExpressionMatches(src, p, depth);
    }
    TableStep(src, p, last, depth);
  }

  /** `{%` is matched whole, before any one-character entry that is a prefix of it. */
  lemma OpenStatementWins(src: string, p: nat, depth: nat)
    requires p + 1 < |src| && src[p] == '{' && src[p + 1] == '%'
    ensures MatchFrom(src, p, depth, 0) == Some(0) && TableEntry(0) == ("{%", OpenStatement)
  {
    assert EntryMatches(src, p, depth, 0);
  }

  /** `%}` is matched whole, before any one-character entry that is a prefix of it. */
  lemma CloseStatementWins(src: string, p: nat, depth: nat)
    requires p + 1 < |src| && src[p] == '%' && src[p + 1] == '}'
    ensures MatchFrom(src, p, depth, 0) == Some(1) && TableEntry(1) == ("%}", CloseStatement)
  {
    Skip(src, p, depth, 0);
    assert EntryMatches(src, p, depth, 1);
  }

  /** `{{` is matched whole, before any one-character entry that is a prefix of it. */
  lemma OpenExpressionWins(src: string, p: nat, depth: nat)
    requires p + 1 < |src| && src[p] == '{' && src[p + 1] == '{'
    ensures MatchFrom(src, p, depth, 0) == Some(2) && TableEntry(2) == ("{{", OpenExpression)
  {
    Skip(src, p, depth, 0);
    Skip(src, p, depth, 1);
    assert EntryMatches(src, p, depth, 2);
  }

  /** `<=` is matched whole, before any one-character entry that is a prefix of it. */
  lemma LessEqualWins(src: string, p: nat, depth: nat)
    requires p + 1 < |src| && src[p] == '<' && src[p + 1] == '='
    ensures MatchFrom(src, p, depth, 0) == Some(14) && TableEntry(14) == ("<=", ComparisonBinaryOperator)
  {
    Skip(src, p, depth, 0);
    Skip(src, p, depth, 1);
    Skip(src, p, depth, 2);
    Skip(src, p, depth, 3);
    Skip(src, p, depth, 4);
    Skip(src, p, depth, 5);
    Skip(src, p, depth, 6);
    Skip(src, p, depth, 7);
    Skip(src, p, depth, 8);
    Skip(src, p, depth, 9);
    Skip(src, p, depth, 10);
    Skip(src, p, depth, 11);
    Skip(src, p, depth, 12);
    Skip(src, p, depth, 13);
    assert EntryMatches(src, p, depth, 14);
  }

  /** `>=` is matched whole, before any one-character entry that is a prefix of it. */
  lemma GreaterEqualWins(src: string, p: nat, depth: nat)
    requires p + 1 < |src| && src[p] == '>' && src[p + 1] == '='
    ensures MatchFrom(src, p, depth, 0) == Some(15) && TableEntry(15) == (">=", ComparisonBinaryOperator)
  {
    Skip(src, p, depth, 0);
    Skip(src, p, depth, 1);
    Skip(src, p, depth, 2);
    Skip(src, p, depth, 3);
    Skip(src, p, depth, 4);
    Skip(src, p, depth, 5);
    Skip(src, p, depth, 6);
    Skip(src, p, depth, 7);
    Skip(src, p, depth, 8);
    Skip(src, p, depth, 9);
    Skip(src, p, depth, 10);
    Skip(src, p, depth, 11);
    Skip(src, p, depth, 12);
    Skip(src, p, depth, 13);
    Skip(src, p, depth, 14);
    assert EntryMatches(src, p, depth, 15);
  }

  /** `==` is matched whole, before any one-character entry that is a prefix of it. */
  lemma EqualEqualWins(src: string, p: nat, depth: nat)
    requires p + 1 < |src| && src[p] == '=' && src[p + 1] == '='
    ensures MatchFrom(src, p, depth, 0) == Some(16) && TableEntry(16) == ("==", ComparisonBinaryOperator)
  {
    Skip(src, p, depth, 0);
    Skip(src, p, depth, 1);
    Skip(src, p, depth, 2);
    Skip(src, p, depth, 3);
    Skip(src, p, depth, 4);
    Skip(src, p, depth, 5);
    Skip(src, p, depth, 6);
    Skip(src, p, depth, 7);
    Skip(src, p, depth, 8);
    Skip(src, p, depth, 9);
    Skip(src, p, depth, 10);
    Skip(src, p, depth, 11);
    Skip(src, p, depth, 12);
    Skip(src, p, depth, 13);
    Skip(src, p, depth, 14);
    Skip(src, p, depth, 15);
    assert EntryMatches(src, p, depth, 16);
  }

  /** `!=` is matched whole, before any one-character entry that is a prefix of it. */
  lemma NotEqualWins(src: string, p: nat, depth: nat)
    requires p + 1 < |src| && src[p] == '!' && src[p + 1] == '='
    ensures MatchFrom(src, p, depth, 0) == Some(17) && TableEntry(17) == ("!=", ComparisonBinaryOperator)
  {
    Skip(src, p, depth, 0);
    Skip(src, p, depth, 1);
    Skip(src, p, depth, 2);
    Skip(src, p, depth, 3);
    Skip(src, p, depth, 4);
    Skip(src, p, depth, 5);
    Skip(src, p, depth, 6);
    Skip(src, p, depth, 7);
    Skip(src, p, depth, 8);
    Skip(src, p, depth, 9);
    Skip(src, p, depth, 10);
    Skip(src, p, depth, 11);
    Skip(src, p, depth, 12);
    Skip(src, p, depth, 13);
    Skip(src, p, depth, 14);
    Skip(src, p, depth, 15);
    Skip(src, p, depth, 16);
    assert EntryMatches(src, p, depth, 17);
  }
}

=== FILE: jinja_preprocess.dfy ===
/**
 * The template preprocessor that runs before tokenizing (`lexer::preprocess`):
 * it drops one trailing newline, optionally trims the newline after a block
 * tag, applies the `-` whitespace-control markers, and deletes the
 * `{% generation %}` / `{% endgeneration %}` tags.
 *
 * The marker pass (`trim_template_markers_inplace`) rewrites the string in
 * place with a read index `i` and a write index `j`.  `TrimMarkers` is the
 * same pass written as a function that appends to an output text;
 * `TrimMarkersInPlace` is the in-place loop, proved to compute it and to keep
 * the write index at or behind the read index.
 */
module JinjaPreprocess {
  import opened Wrappers
  import opened Text

  // ---------------------------------------------------------------------
  // Whitespace-control markers
  // ---------------------------------------------------------------------

  /** A closing marker `-%}`, `-}}` or `-#}` starts at `i`. */
  predicate IsClosing(s: string, i: nat) {
    i + 2 < |s| && s[i] == '-' && s[i + 2] == '}' && (s[i + 1] == '%' || s[i + 1] == '}' || s[i + 1] == '#')
  }

  /** An opening marker `{%-`, `{{-` or `{#-` starts at `i`. */
  predicate IsOpening(s: string, i: nat) {
    i + 2 < |s| && s[i] == '{' && s[i + 2] == '-' && (s[i + 1] == '%' || s[i + 1] == '{' || s[i + 1] == '#')
  }

  predicate MarkerFree(s: string) {
    forall i: nat :: i < |s| ==> !IsClosing(s, i) && !IsOpening(s, i)
  }

  /** The first index at or after `i` that is not whitespace. */
  function SkipSpace(s: string, i: nat): (r: nat)
    requires i <= |s|
    ensures i <= r <= |s|
    ensures forall k :: i <= k < r ==> IsCSpace(s[k])
    ensures r < |s| ==> !IsCSpace(s[r])
    decreases |s| - i
  {
    if i < |s| && IsCSpace(s[i]) then SkipSpace(s, i + 1) else i
  }

  /** Moving the write index back over the whitespace already written. */
  function DropSpaceEnd(out: string): (r: string)
    ensures IsPrefix(r, out)
    ensures forall m :: |r| <= m < |out| ==> IsCSpace(out[m])
    ensures |r| > 0 ==> !IsCSpace(r[|r| - 1])
    decreases |out|
  {
    if |out| > 0 && IsCSpace(out[|out| - 1]) then DropSpaceEnd(out[..|out| - 1]) else out
  }

  /** The output after an opening marker `{X-` is written. */
  function OpenTag(out: string, x: char): (r: string)
    ensures exists k :: 0 <= k <= |out|
              && (forall m :: k <= m < |out| ==> IsCSpace(out[m]))
              && (k > 0 ==> !IsCSpace(out[k - 1]))
              && r == out[..k] + (if k > 0 && out[k - 1] == '{' then " " else "") + ['{', x]
    ensures |r| <= |out| + 3
  {
    var o := DropSpaceEnd(out);
    assert o == out[..|o|];
    var guarded := if |o| > 0 && o[|o| - 1] == '{' then o + " " else o;
    guarded + ['{', x]
  }

  /** The pass from read position `i` on, with `out` written so far. */
  function TrimFrom(s: string, i: nat, out: string): (r: string)
    requires i <= |s|
    ensures |r| <= |out| + (|s| - i)
    decreases |s| - i
  {
    if i == |s| then out
    else if IsClosing(s, i) then TrimFrom(s, SkipSpace(s, i + 3), out + [s[i + 1], '}'])
    else if IsOpening(s, i) then TrimFrom(s, i + 3, OpenTag(out, s[i + 1]))
    else TrimFrom(s, i + 1, out + [s[i]])
  }

  /** `trim_template_markers_inplace` as a function of its input. */
  function TrimMarkers(s: string): (r: string)
    ensures |r| <= |s|
  {
    TrimFrom(s, 0, "")
  }

  /** Text without markers passes through unchanged. */
  lemma {:induction false} MarkerFreeUnchanged(s: string, i: nat)
    requires i <= |s| && MarkerFree(s)
    ensures TrimFrom(s, i, s[..i]) == s
    decreases |s| - i
  {
    if i < |s| {
      assert !IsClosing(s, i) && !IsOpening(s, i);
      assert s[..i] + [s[i]] == s[..i + 1];
      MarkerFreeUnchanged(s, i + 1);
    }
  }

  lemma TrimMarkersIdentity(s: string)
    requires MarkerFree(s)
    ensures TrimMarkers(s) == s
  {
    MarkerFreeUnchanged(s, 0);
    assert s[..0] == "";
  }

  /** Concrete rewrite: the whitespace after `-%}` goes, the space before it stays. */
  lemma TrimClosingExample()
    ensures TrimMarkers("a -%}  b") == "a %}b"
  {
    var s1 := "a -%}  b";
    assert IsClosing(s1, 2) && SkipSpace(s1, 5) == 7;
    assert TrimFrom(s1, 0, "") == TrimFrom(s1, 2, "a ") == TrimFrom(s1, 7, "a %}");
  }

  /** Concrete rewrite: the whitespace before `{%-` goes. */
  lemma TrimOpeningExample()
    ensures TrimMarkers("x \n{%- y") == "x{% y"
  {
    var s2 := "x \n{%- y";
    assert DropSpaceEnd("x \n") == "x";
    assert OpenTag("x \n", '%') == "x{%";
    assert IsOpening(s2, 3);
    assert !IsClosing(s2, 0) && !IsOpening(s2, 0) && !IsClosing(s2, 1) && !IsOpening(s2, 1);
    assert !IsClosing(s2, 2) && !IsOpening(s2, 2);
    assert s2[0] == 'x' && s2[1] == ' ' && s2[2] == '\n';
    assert "" + [s2[0]] == "x" && "x" + [s2[1]] == "x " && "x " + [s2[2]] == "x \n";
    assert TrimFrom(s2, 0, "") == TrimFrom(s2, 1, "x") == TrimFrom(s2, 2, "x ") == TrimFrom(s2, 3, "x \n");
    assert TrimFrom(s2, 3, "x \n") == TrimFrom(s2, 6, "x{%");
  }

  /** Concrete rewrite: a `{` left before the new tag is kept apart from it by one space. */
  lemma TrimGuardExample()
    ensures TrimMarkers("{ {{-") == "{ {{"
  {
    var s3 := "{ {{-";
    assert DropSpaceEnd("{ ") == "{";
    assert OpenTag("{ ", '{') == "{ {{";
    assert !IsOpening(s3, 0) && IsOpening(s3, 2);
    assert TrimFrom(s3, 0, "") == TrimFrom(s3, 2, "{ ") == TrimFrom(s3, 5, "{ {{");
  }

  /** The state of the in-place pass: the input from `i` on is unread, `buf[..j]` is the output. */
  predicate InPlace(s: string, buf: string, i: nat, j: nat) {
    |buf| == |s| && j <= i <= |s| && buf[i..] == s[i..]
  }

  /**
   * The in-place loop.  Each step reads at the read index `i`, writes at
   * the write index `j`, and keeps `j <= i`, so it never reads what it wrote.
   */
  method TrimMarkersInPlace(s: string) returns (r: string)
    ensures r == TrimMarkers(s)
  {
    var buf := s;
    var j: nat := 0;
    var i: nat := 0;
    var len := |s|;
    while i < len
      invariant InPlace(s, buf, i, j)
      invariant TrimFrom(s, i, buf[..j]) == TrimMarkers(s)
      decreases len - i
    {
      var handled := false;
      if i + 2 < len {
        var c1, c2, c3 := buf[i], buf[i + 1], buf[i + 2];
        assert c1 == s[i] && c2 == s[i + 1] && c3 == s[i + 2] by {
          assert buf[i..][0] == s[i..][0] && buf[i..][1] == s[i..][1] && buf[i..][2] == s[i..][2];
        }
        if c1 == '-' && c3 == '}' && (c2 == '%' || c2 == '}' || c2 == '#') {
          buf, i, j := CloseStep(s, buf, i, j);
          handled := true;
        } else if c1 == '{' && c3 == '-' && (c2 == '%' || c2 == '{' || c2 == '#') {
          buf, i, j := OpenStep(s, buf, i, j);
          handled := true;
        }
      }
      if !handled {
        assert buf[i] == s[i] by { assert buf[i..][0] == s[i..][0]; }
        var out := buf[..j] + [buf[i]];
        buf := buf[j := buf[i]];
        j := j + 1;
        i := i + 1;
        assert buf[..j] == out;
        assert buf[i..] == s[i..] by { assert buf[i..] == buf[i - 1..][1..]; }
      }
    }
    r := buf[..j];
  }

  /** A closing marker: write `X}`, then read past the whitespace after it. */
  method CloseStep(s: string, buf: string, i: nat, j: nat) returns (buf': string, i': nat, j': nat)
    requires InPlace(s, buf, i, j) && IsClosing(s, i)
    ensures InPlace(s, buf', i', j')
    ensures i' == SkipSpace(s, i + 3) && buf'[..j'] == buf[..j] + [s[i + 1], '}']
  {
    assert buf[i + 1] == s[i + 1] by { assert buf[i..][1] == s[i..][1]; }
    var c2 := buf[i + 1];
    var out := buf[..j] + [c2, '}'];
    buf' := buf[j := c2][j + 1 := '}'];
    j' := j + 2;
    assert buf'[..j'] == out;
    i' := i + 3;
    assert buf'[i'..] == s[i'..] by { assert buf'[i'..] == buf[i'..] == buf[i..][3..]; }
    var i0 := i';
    while i' < |s| && IsCSpace(buf'[i'])
      invariant i0 <= i' <= |s|
      invariant buf'[i'..] == s[i'..]
      invariant SkipSpace(s, i') == SkipSpace(s, i0)
      decreases |s| - i'
    {
      assert buf'[i'] == s[i'] by { assert buf'[i'..][0] == s[i'..][0]; }
      assert buf'[i' + 1..] == buf'[i'..][1..];
      assert s[i' + 1..] == s[i'..][1..];
      i' := i' + 1;
    }
    if i' < |s| {
      assert buf'[i'] == s[i'] by { assert buf'[i'..][0] == s[i'..][0]; }
    }
  }

  /** Moving the write index back over trailing whitespace of `buf[..j]`. */
  method BackOverSpace(buf: string, j: nat) returns (j': nat)
    requires j <= |buf|
    ensures j' <= j && buf[..j'] == DropSpaceEnd(buf[..j])
  {
    j' := j;
    while j' > 0 && IsCSpace(buf[j' - 1])
      invariant j' <= j
      invariant DropSpaceEnd(buf[..j']) == DropSpaceEnd(buf[..j])
    {
      assert buf[..j' - 1] == buf[..j'][..j' - 1];
      j' := j' - 1;
    }
    assert DropSpaceEnd(buf[..j']) == buf[..j'];
  }

  /** An opening marker: move the write index back over whitespace, guard a `{`, write `{X`. */
  method OpenStep(s: string, buf: string, i: nat, j: nat) returns (buf': string, i': nat, j': nat)
    requires InPlace(s, buf, i, j) && IsOpening(s, i)
    ensures InPlace(s, buf', i', j')
    ensures i' == i + 3 && buf'[..j'] == OpenTag(buf[..j], s[i + 1])
  {
    assert buf[i + 1] == s[i + 1] by { assert buf[i..][1] == s[i..][1]; }
    var c2 := buf[i + 1];
    buf' := buf;
    j' := BackOverSpace(buf, j);
    if j' > 0 && buf'[j' - 1] == '{' {
      var out := buf'[..j'] + " ";
      buf' := buf'[j' := ' '];
      j' := j' + 1;
      assert buf'[..j'] == out;
    }
    var out := buf'[..j'] + ['{', c2];
    assert out == OpenTag(buf[..j], c2);
    assert j' + 2 <= i + 3;
    assert buf'[i + 3..] == s[i + 3..] by { assert buf'[i + 3..] == buf[i + 3..] == buf[i..][3..]; }
    buf' := buf'[j' := '{'][j' + 1 := c2];
    j' := j' + 2;
    assert buf'[..j'] == out;
    i' := i + 3;
    assert buf'[i'..] == s[i'..];
  }

  // ---------------------------------------------------------------------
  // The preprocessing steps
  // ---------------------------------------------------------------------

  datatype Options = Options(trimBlocks: bool, lstripBlocks: bool)

  datatype PreprocessError = LstripNotImplemented

  /** One trailing newline, if there is one, is removed. */
  function DropFinalNewline(t: string): (r: string)
    ensures |t| > 0 && t[|t| - 1] == '\n' ==> t == r + "\n"
    ensures !(|t| > 0 && t[|t| - 1] == '\n') ==> r == t
  {
    if |t| > 0 && t[|t| - 1] == '\n' then t[..|t| - 1] else t
  }

  /** The end of a block tag followed by a newline at `i`: one of `#}`, `%}`, `-}`, then `\n`. */
  predicate TagNewlineAt(s: string, i: nat) {
    i + 2 < |s| && (s[i] == '#' || s[i] == '%' || s[i] == '-') && s[i + 1] == '}' && s[i + 2] == '\n'
  }

  /** `trim_blocks`: each tag end followed by a newline loses the newline, matches taken left to right. */
  function TrimBlocks(s: string, i: nat): (r: string)
    requires i <= |s|
    ensures |r| <= |s| - i
    ensures (forall k: nat :: i <= k < |s| ==> !TagNewlineAt(s, k)) ==> r == s[i..]
    decreases |s| - i
  {
    if i == |s| then ""
    else if TagNewlineAt(s, i) then s[i..i + 2] + TrimBlocks(s, i + 3)
    else
      var rest := TrimBlocks(s, i + 1);
      assert (forall k: nat :: i <= k < |s| ==> !TagNewlineAt(s, k)) ==> [s[i]] + rest == s[i..] by {
        assert s[i..] == [s[i]] + s[i + 1..];
      }
      [s[i]] + rest
  }

  /**
   * A tag `{%` whitespace `name` whitespace `%}` starting at `i`: its end.
   * The name starts with a letter, so the greedy whitespace run is the only
   * way the pattern can match.
   */
  function MatchTag(s: string, i: nat, name: string): (r: Option<nat>)
    requires i <= |s|
    ensures r.Some? ==> i + 4 + |name| <= r.value <= |s| && s[i..i + 2] == "{%" && s[r.value - 2..r.value] == "%}"
  {
    if i + 2 <= |s| && s[i..i + 2] == "{%" then
      var a := SkipSpace(s, i + 2);
      if a + |name| <= |s| && s[a..a + |name|] == name then
        var b := SkipSpace(s, a + |name|);
        if b + 2 <= |s| && s[b..b + 2] == "%}" then Some(b + 2) else None
      else None
    else None
  }

  /** `regex_replace(s, tag, "")`: every tag found scanning left to right is deleted. */
  function RemoveTag(s: string, i: nat, name: string): (r: string)
    requires i <= |s|
    ensures |r| <= |s| - i
    ensures (forall k: nat :: i <= k <= |s| ==> MatchTag(s, k, name).None?) ==> r == s[i..]
    decreases |s| - i
  {
    if i == |s| then ""
    else
      match MatchTag(s, i, name)
      case Some(e) => RemoveTag(s, e, name)
      case None =>
        var rest := RemoveTag(s, i + 1, name);
        assert s[i..] == [s[i]] + s[i + 1..];
        [s[i]] + rest
  }

  /** `lexer::preprocess`. */
  function Preprocess(t: string, opts: Options): (r: Result<string, PreprocessError>)
    ensures r.Err? <==> opts.lstripBlocks
    ensures r.Err? ==> r.error == LstripNotImplemented
    ensures r.Ok? ==> |r.value| <= |t|
  {
    var s0 := DropFinalNewline(t);
    if opts.lstripBlocks then Err(LstripNotImplemented)
    else
      var s1 := if opts.trimBlocks then TrimBlocks(s0, 0) else s0;
      var s2 := TrimMarkers(s1);
      var s3 := RemoveTag(s2, 0, "generation");
      Ok(RemoveTag(s3, 0, "endgeneration"))
  }

  /** Without a `{` no tag can be found. */
  lemma NoBraceNoTag(s: string, name: string)
    requires forall k: nat :: k < |s| ==> s[k] != '{'
    ensures forall k: nat :: k <= |s| ==> MatchTag(s, k, name).None?
  {
    forall k: nat | k <= |s| ensures MatchTag(s, k, name).None? {
      if k + 2 <= |s| { assert s[k..k + 2][0] == s[k]; }
    }
  }

  /** Plain text keeps everything except one final newline. */
  lemma PreprocessPlainText(t: string, trimBlocks: bool)
    requires MarkerFree(DropFinalNewline(t))
    requires forall k: nat :: k < |t| ==> t[k] != '{' && t[k] != '}'
    ensures Preprocess(t, Options(trimBlocks, false)) == Ok(DropFinalNewline(t))
  {
    var s0 := DropFinalNewline(t);
    assert forall k: nat :: k < |s0| ==> s0[k] == t[k];
    assert forall k: nat :: k < |s0| ==> !TagNewlineAt(s0, k);
    assert s0[0..] == s0;
    var s1 := if trimBlocks then TrimBlocks(s0, 0) else s0;
    assert s1 == s0;
    TrimMarkersIdentity(s0);
    NoBraceNoTag(s0, "generation");
    NoBraceNoTag(s0, "endgeneration");
    assert RemoveTag(s0, 0, "generation") == s0;
    assert RemoveTag(s0, 0, "endgeneration") == s0;
  }

  /** The `generation` tag of the example ends at index 16. */
  lemma GenerationTagExample()
    ensures MatchTag("{% generation %}x", 0, "generation") == Some(16)
  {
    var s0 := "{% generation %}x";
    assert s0[0..2] == "{%";
    assert SkipSpace(s0, 2) == 3 && SkipSpace(s0, 13) == 14;
    assert s0[3..13] == "generation" && s0[14..16] == "%}";
  }

  /** Removing it leaves the text after it. */
  lemma RemoveGenerationExample()
    ensures RemoveTag("{% generation %}x", 0, "generation") == "x"
  {
    var s0 := "{% generation %}x";
    GenerationTagExample();
    assert MatchTag(s0, 16, "generation").None?;
    assert RemoveTag(s0, 17, "generation") == "";
    assert RemoveTag(s0, 16, "generation") == [s0[16]] + "";
  }

  /** A `generation` tag goes, with the whitespace inside it, and so does one trailing newline. */
  lemma PreprocessExample()
    ensures Preprocess("{% generation %}x\n", Options(false, false)) == Ok("x")
  {
    var s0 := "{% generation %}x";
    assert DropFinalNewline("{% generation %}x\n") == s0;
    assert MarkerFree(s0);
    TrimMarkersIdentity(s0);
    RemoveGenerationExample();
    assert MatchTag("x", 0, "endgeneration").None?;
    assert RemoveTag("x", 0, "endgeneration") == "x";
  }
}

=== FILE: jinja_slice.dfy ===
/**
 * Python-style slicing and the `range` builtin.
 *
 * Both `slice` templates (the one taking plain integers and the one taking
 * optional bounds) clamp their bounds and then run the same loop: an index
 * walks from the clamped start towards the clamped stop by `step`, and
 * every index inside the sequence contributes its element.  `range` runs
 * the same counter and collects it.  `Progression` is that counter and
 * `Pick` the element collection.
 */
module JinjaSlice {
  import opened Wrappers
  import opened JinjaString
  import opened JinjaValue
  import opened JinjaArgs

  // ---------------------------------------------------------------------
  // The shared loop
  // ---------------------------------------------------------------------

  /** The values of `i` in `for (i = start; i < stop; i += step)`, or `i > stop` when `step < 0`. */
  function Progression(start: int, stop: int, step: int): (r: seq<int>)
    requires step != 0
    decreases if step > 0 then stop - start else start - stop
  {
    if (step > 0 && start < stop) || (step < 0 && start > stop) then
      [start] + Progression(start + step, stop, step)
    else []
  }

  /** Counting up: `start, start+step, ...`, the last one below `stop` and the next one not. */
  lemma {:induction false} ProgressionUp(start: int, stop: int, step: int)
    requires step > 0
    ensures var r := Progression(start, stop, step);
            (forall k :: 0 <= k < |r| ==> r[k] == start + k * step)
            && (|r| == 0 <==> stop <= start)
            && (|r| > 0 ==> start + (|r| - 1) * step < stop <= start + |r| * step)
    decreases stop - start
  {
    if start < stop {
      var tail := Progression(start + step, stop, step);
      ProgressionUp(start + step, stop, step);
      var r := [start] + tail;
      assert Progression(start, stop, step) == r;
      forall k | 1 <= k < |r| ensures r[k] == start + k * step {
        assert r[k] == tail[k - 1];
        assert (k - 1) * step + step == k * step;
      }
      if |tail| > 0 {
        assert (|tail| - 1) * step + step == |tail| * step;
        assert |tail| * step + step == (|tail| + 1) * step;
      }
    }
  }

  /** Counting down: `start, start+step, ...`, the last one above `stop` and the next one not. */
  lemma {:induction false} ProgressionDown(start: int, stop: int, step: int)
    requires step < 0
    ensures var r := Progression(start, stop, step);
            (forall k :: 0 <= k < |r| ==> r[k] == start + k * step)
            && (|r| == 0 <==> start <= stop)
            && (|r| > 0 ==> start + |r| * step <= stop < start + (|r| - 1) * step)
    decreases start - stop
  {
    if start > stop {
      var tail := Progression(start + step, stop, step);
      ProgressionDown(start + step, stop, step);
      var r := [start] + tail;
      assert Progression(start, stop, step) == r;
      forall k | 1 <= k < |r| ensures r[k] == start + k * step {
        assert r[k] == tail[k - 1];
        assert (k - 1) * step + step == k * step;
      }
      if |tail| > 0 {
        assert (|tail| - 1) * step + step == |tail| * step;
        assert |tail| * step + step == (|tail| + 1) * step;
      }
    }
  }

  /** Every counter value lies between `start` (inclusive) and `stop` (exclusive). */
  lemma {:induction false} ProgressionBounds(start: int, stop: int, step: int)
    requires step != 0
    ensures forall k :: 0 <= k < |Progression(start, stop, step)| ==>
              (step > 0 ==> start <= Progression(start, stop, step)[k] < stop)
              && (step < 0 ==> stop < Progression(start, stop, step)[k] <= start)
    decreases if step > 0 then stop - start else start - stop
  {
    if (step > 0 && start < stop) || (step < 0 && start > stop) {
      ProgressionBounds(start + step, stop, step);
      var tail := Progression(start + step, stop, step);
      var r := [start] + tail;
      assert Progression(start, stop, step) == r;
      forall k | 1 <= k < |r|
        ensures (step > 0 ==> start <= r[k] < stop) && (step < 0 ==> stop < r[k] <= start)
      {
        assert r[k] == tail[k - 1];
        assert (step > 0 ==> start + step <= tail[k - 1] < stop) && (step < 0 ==> stop < tail[k - 1] <= start + step);
      }
    }
  }

  /** Each step moves at least one, so there are at most `|stop - start|` values. */
  lemma {:induction false} ProgressionLength(start: int, stop: int, step: int)
    requires step != 0
    ensures step > 0 ==> |Progression(start, stop, step)| <= (if start < stop then stop - start else 0)
    ensures step < 0 ==> |Progression(start, stop, step)| <= (if start > stop then start - stop else 0)
    decreases if step > 0 then stop - start else start - stop
  {
    if (step > 0 && start < stop) || (step < 0 && start > stop) {
      ProgressionLength(start + step, stop, step);
    }
  }

  /** The loop body: `if (i >= 0 && i < len) result.push_back(array[i])`. */
  function Pick<T>(a: seq<T>, idx: seq<int>): (r: seq<T>)
    ensures |r| <= |idx|
  {
    if |idx| == 0 then []
    else (if 0 <= idx[0] < |a| then [a[idx[0]]] else []) + Pick(a, idx[1..])
  }

  /** When every index is in range, each index contributes exactly its element. */
  lemma {:induction false} PickInRange<T>(a: seq<T>, idx: seq<int>)
    requires forall k :: 0 <= k < |idx| ==> 0 <= idx[k] < |a|
    ensures |Pick(a, idx)| == |idx|
    ensures forall k :: 0 <= k < |idx| ==> Pick(a, idx)[k] == a[idx[k]]
  {
    if |idx| > 0 {
      PickInRange(a, idx[1..]);
      assert Pick(a, idx) == [a[idx[0]]] + Pick(a, idx[1..]);
    }
  }

  // ---------------------------------------------------------------------
  // Bound clamping
  // ---------------------------------------------------------------------

  /** A bound for a forward slice: negative counts from the end, then clamped into `[0, len]`. */
  function ClampUp(x: int, len: nat): (r: int)
    ensures 0 <= r <= len
    ensures 0 <= x <= len ==> r == x
    ensures x < 0 && len + x >= 0 ==> r == len + x
  {
    if x < 0 then (if len + x > 0 then len + x else 0) else (if x < len then x else len)
  }

  /** A start for a backward slice: negative counts from the end, clamped into `[-1, len-1]`. */
  function ClampDownStart(x: int, len: nat): (r: int)
    ensures -1 <= r <= len - 1
    ensures 0 <= x < len ==> r == x
    ensures x < 0 && len + x >= -1 ==> r == len + x
  {
    if x < 0 then (if len + x > -1 then len + x else -1) else (if x < len - 1 then x else len - 1)
  }

  /** A stop for a backward slice: only values below -1 count from the end; -1 means "past index 0". */
  function ClampDownStop(x: int, len: nat): (r: int)
    ensures -1 <= r <= len - 1 || (len == 0 && r == -1)
    ensures -1 <= x < len ==> r == x
  {
    if x < -1 then (if len + x > -1 then len + x else -1) else (if x < len - 1 then x else len - 1)
  }

  // ---------------------------------------------------------------------
  // The two slice templates
  // ---------------------------------------------------------------------

  /** `slice(array, start, stop, step)` with optional bounds: absent bounds take Python's defaults. */
  function Slice<T>(a: seq<T>, start: Option<int>, stop: Option<int>, step: int): (r: seq<T>)
    ensures step == 0 ==> r == []
    ensures |r| <= |a|
  {
    var len := |a|;
    if step == 0 then []
    else if step > 0 then
      var lo := ClampUp(start.GetOr(0), len);
      var hi := ClampUp(stop.GetOr(len), len);
      SliceFacts(a, lo, hi, step);
      Pick(a, Progression(lo, hi, step))
    else
      var lo := ClampDownStart(start.GetOr(len - 1), len);
      var hi := ClampDownStop(stop.GetOr(-1), len);
      SliceFacts(a, lo, hi, step);
      Pick(a, Progression(lo, hi, step))
  }

  /** The loop over clamped bounds visits only indices inside the sequence, so it keeps each one. */
  lemma SliceFacts<T>(a: seq<T>, lo: int, hi: int, step: int)
    requires step != 0
    requires step > 0 ==> 0 <= lo && hi <= |a|
    requires step < 0 ==> -1 <= hi && lo <= |a| - 1
    ensures var p := Progression(lo, hi, step);
            (forall k :: 0 <= k < |p| ==> 0 <= p[k] < |a|)
            && |Pick(a, p)| == |p| <= |a|
            && forall k :: 0 <= k < |p| ==> Pick(a, p)[k] == a[p[k]]
  {
    var p := Progression(lo, hi, step);
    ProgressionBounds(lo, hi, step);
    assert forall k :: 0 <= k < |p| ==> 0 <= p[k] < |a|;
    PickInRange(a, p);
    ProgressionLength(lo, hi, step);
  }

  /** Forward slice: elements `lo, lo+step, ...` below `hi`, with `lo`/`hi` the clamped bounds. */
  lemma SliceForward<T>(a: seq<T>, start: Option<int>, stop: Option<int>, step: int)
    requires step > 0
    ensures var lo := ClampUp(start.GetOr(0), |a|);
            var hi := ClampUp(stop.GetOr(|a|), |a|);
            var r := Slice(a, start, stop, step);
            (forall k :: 0 <= k < |r| ==> 0 <= lo + k * step < |a| && r[k] == a[lo + k * step])
            && (|r| == 0 <==> hi <= lo)
            && (|r| > 0 ==> lo + (|r| - 1) * step < hi <= lo + |r| * step)
  {
    var lo := ClampUp(start.GetOr(0), |a|);
    var hi := ClampUp(stop.GetOr(|a|), |a|);
    var p := Progression(lo, hi, step);
    assert Slice(a, start, stop, step) == Pick(a, p);
    SliceFacts(a, lo, hi, step);
    ProgressionUp(lo, hi, step);
    var r := Pick(a, p);
    forall k | 0 <= k < |r| ensures 0 <= lo + k * step < |a| && r[k] == a[lo + k * step] {
      assert p[k] == lo + k * step;
    }
  }

  /** Backward slice: elements `lo, lo+step, ...` above `hi`, with `lo`/`hi` the clamped bounds. */
  lemma SliceBackward<T>(a: seq<T>, start: Option<int>, stop: Option<int>, step: int)
    requires step < 0
    ensures var lo := ClampDownStart(start.GetOr(|a| - 1), |a|);
            var hi := ClampDownStop(stop.GetOr(-1), |a|);
            var r := Slice(a, start, stop, step);
            (forall k :: 0 <= k < |r| ==> 0 <= lo + k * step < |a| && r[k] == a[lo + k * step])
            && (|r| == 0 <==> lo <= hi)
            && (|r| > 0 ==> lo + |r| * step <= hi < lo + (|r| - 1) * step)
  {
    var lo := ClampDownStart(start.GetOr(|a| - 1), |a|);
    var hi := ClampDownStop(stop.GetOr(-1), |a|);
    var p := Progression(lo, hi, step);
    assert Slice(a, start, stop, step) == Pick(a, p);
    SliceFacts(a, lo, hi, step);
    ProgressionDown(lo, hi, step);
    var r := Pick(a, p);
    forall k | 0 <= k < |r| ensures 0 <= lo + k * step < |a| && r[k] == a[lo + k * step] {
      assert p[k] == lo + k * step;
    }
  }

  /** `a[::1]` is `a` and `a[::-1]` is `a` reversed. */
  lemma SliceDefaults<T>(a: seq<T>)
    ensures Slice(a, None, None, 1) == a
    ensures var r := Slice(a, None, None, -1);
            |r| == |a| && forall k :: 0 <= k < |a| ==> r[k] == a[|a| - 1 - k]
  {
    SliceForward(a, None, None, 1);
    SliceBackward(a, None, None, -1);
    var f := Slice(a, None, None, 1);
    assert |f| == |a|;
  }

  /**
   * `slice(array, start, stop, step)` with plain integer bounds, as
   * written: for a negative step it ignores `start` and `stop` and always
   * walks from the last element down to the first.
   */
  function SliceAsWritten<T>(a: seq<T>, start: int, stop: int, step: int): (r: seq<T>)
    ensures step == 0 ==> r == []
    ensures step > 0 ==> r == Slice(a, Some(start), Some(stop), step)
    ensures step < 0 ==> r == Slice(a, None, None, step)
  {
    var len := |a|;
    if step == 0 then []
    else if step > 0 then
      Pick(a, Progression(ClampUp(start, len), ClampUp(stop, len), step))
    else
      Pick(a, Progression(ClampDownStart(len - 1, len), ClampDownStop(-1, len), step))
  }

  /** For a negative step the bounds make no difference: the whole sequence is walked backwards. */
  lemma SliceAsWrittenIgnoresBounds<T>(a: seq<T>, s1: int, t1: int, s2: int, t2: int, step: int)
    requires step < 0
    ensures SliceAsWritten(a, s1, t1, step) == SliceAsWritten(a, s2, t2, step)
  {
  }

  /** Start 3, stop 0 and step -1 over "abcde" give `"dcb"` with Python's bounds, but `"edcba"` as written. */
  lemma SliceAsWrittenBackwardDiffers()
    ensures SliceAsWritten("abcde", 3, 0, -1) == "edcba"
    ensures Slice("abcde", Some(3), Some(0), -1) == "dcb"
  {
    BackwardAsWritten();
    BackwardWithBounds();
  }

  lemma BackwardAsWritten()
    ensures SliceAsWritten("abcde", 3, 0, -1) == "edcba"
  {
    assert Progression(4, -1, -1) == [4, 3, 2, 1, 0] by {
      assert Progression(-1, -1, -1) == [];
      assert Progression(0, -1, -1) == [0];
      assert Progression(1, -1, -1) == [1, 0];
      assert Progression(2, -1, -1) == [2, 1, 0];
      assert Progression(3, -1, -1) == [3, 2, 1, 0];
    }
    PickInRange("abcde", [4, 3, 2, 1, 0]);
  }

  lemma BackwardWithBounds()
    ensures Slice("abcde", Some(3), Some(0), -1) == "dcb"
  {
    assert Progression(3, 0, -1) == [3, 2, 1] by {
      assert Progression(0, 0, -1) == [];
      assert Progression(1, 0, -1) == [1];
      assert Progression(2, 0, -1) == [2, 1];
    }
    PickInRange("abcde", [3, 2, 1]);
  }

  // ---------------------------------------------------------------------
  // The `slice` builtins of strings and arrays
  // ---------------------------------------------------------------------

  /** Slice bounds read for a call whose receiver must be of kind `receiver`. */
  datatype Bounds = Bounds(start: int, stop: int, step: int)

  /**
   * The argument handling shared by the string and array `slice` builtins
   * with integer bounds, as written: the receiver is `args[0]`, yet the
   * one- and two-bound cases read `args[2]` and `args[3]`, one past the
   * bounds they were given.  Only a call with all three bounds succeeds.
   */
  function SliceArgsAsWritten(args: seq<Value>, receiver: Kind): (r: Result<Bounds, Error>)
    ensures r.Ok? <==> |args| == 4 && IsKind(args[0], receiver)
                       && args[1].Int? && args[2].Int? && args[3].Int? && args[3].i != 0
    ensures r.Ok? ==> r.value == Bounds(args[1].i, args[2].i, args[3].i)
    ensures (|args| == 2 || |args| == 3) && IsKind(args[0], receiver) && args[1].Int?
            && (|args| == 3 ==> args[2].Int?)
            ==> r == Err(ArgOutOfBounds(|args|))
  {
    var _ :- EnsureCount(args, 1, 4);
    SliceValsOk(args, receiver);
    var _ :- EnsureVals(args, [receiver, KInt, KInt, KInt], [true, true, false, false]);
    // `ensure_vals` has already demanded `args[1]`, so the one-argument
    // branch of the source is never taken.
    if |args| == 2 then Err(ArgOutOfBounds(2))        // `stop` is read from `args[2]`
    else if |args| == 3 then Err(ArgOutOfBounds(3))   // `step` is read from `args[3]`
    else
      var b := Bounds(args[1].i, args[2].i, args[3].i);
      if b.step == 0 then Err(StepZero) else Ok(b)
  }

  /** The type check of the integer-bound `slice` builtins: a receiver, then one to three integers. */
  lemma SliceValsOk(args: seq<Value>, receiver: Kind)
    ensures EnsureVals(args, [receiver, KInt, KInt, KInt], [true, true, false, false]).Ok?
            <==> |args| >= 2 && IsKind(args[0], receiver)
                 && forall j :: 1 <= j < |args| && j < 4 ==> args[j].Int?
  {
    var kinds := [receiver, KInt, KInt, KInt];
    var req := [true, true, false, false];
    if |args| >= 2 && IsKind(args[0], receiver) && forall j :: 1 <= j < |args| && j < 4 ==> args[j].Int? {
      forall j | 0 <= j < 4 ensures SlotOk(args, kinds, req, j) {
        if j < |args| && j > 0 { assert args[j].Int?; }
      }
    }
    if EnsureVals(args, kinds, req).Ok? {
      assert SlotOk(args, kinds, req, 0) && SlotOk(args, kinds, req, 1);
      forall j | 1 <= j < |args| && j < 4 ensures args[j].Int? {
        assert SlotOk(args, kinds, req, j);
      }
    }
  }

  /** The argument handling evidently intended: the bounds are the arguments after the receiver. */
  function SliceArgs(args: seq<Value>, receiver: Kind): (r: Result<Bounds, Error>)
    ensures r.Ok? <==> 2 <= |args| <= 4 && IsKind(args[0], receiver)
                       && (forall j :: 1 <= j < |args| ==> args[j].Int?)
                       && (|args| == 4 ==> args[3].i != 0)
    ensures r.Ok? && |args| == 2 ==> r.value == Bounds(0, args[1].i, 1)
    ensures r.Ok? && |args| == 3 ==> r.value == Bounds(args[1].i, args[2].i, 1)
    ensures r.Ok? && |args| == 4 ==> r.value == Bounds(args[1].i, args[2].i, args[3].i)
  {
    var _ :- EnsureCount(args, 1, 4);
    var _ :- EnsureVals(args, [receiver, KInt, KInt, KInt], [true, true, false, false]);
    SliceValsOk(args, receiver);
    var b :=
      if |args| == 2 then Bounds(0, args[1].i, 1)
      else if |args| == 3 then Bounds(args[1].i, args[2].i, 1)
      else Bounds(args[1].i, args[2].i, args[3].i);
    if b.step == 0 then Err(StepZero) else Ok(b)
  }

  /** A two-argument call `s|slice(i)` fails as written and yields `s[:i]` as intended. */
  lemma SliceArgsOffByOne(s: Value, i: int)
    requires s.String?
    ensures SliceArgsAsWritten([s, Int(i)], KString) == Err(ArgOutOfBounds(2))
    ensures SliceArgs([s, Int(i)], KString) == Ok(Bounds(0, i, 1))
  {
    assert SlotOk([s, Int(i)], [KString, KInt, KInt, KInt], [true, true, false, false], 0);
  }

  /** String `slice` (value.cpp): the sliced text, input iff the receiver is all input. */
  function StringSliceAsWritten(args: seq<Value>): (r: Result<Value, Error>)
    ensures r.Ok? <==> SliceArgsAsWritten(args, KString).Ok?
    ensures r.Ok? ==> var b := SliceArgsAsWritten(args, KString).value;
                      r.value == DerivedStr(SliceAsWritten(Str(args[0].s), b.start, b.stop, b.step), args[0].s)
  {
    var b :- SliceArgsAsWritten(args, KString);
    Ok(DerivedStr(SliceAsWritten(Str(args[0].s), b.start, b.stop, b.step), args[0].s))
  }

  /** `"abcde"|slice(3, 0, -1)`: the filter walks the whole string backwards as written. */
  lemma StringSliceBackward()
    ensures var args := [StrOf("abcde"), Int(3), Int(0), Int(-1)];
            && StringSliceAsWritten(args).Ok? && Str(StringSliceAsWritten(args).value.s) == "edcba"
            && StringSlice(args).Ok? && Str(StringSlice(args).value.s) == "dcb"
  {
    var args := [StrOf("abcde"), Int(3), Int(0), Int(-1)];
    assert Str(args[0].s) == "abcde";
    SliceValsOk(args, KString);
    assert SliceArgsAsWritten(args, KString) == Ok(Bounds(3, 0, -1));
    assert SliceArgs(args, KString) == Ok(Bounds(3, 0, -1));
    SliceAsWrittenBackwardDiffers();
  }

  /** The corrected string `slice`: intended argument positions and Python bounds. */
  function StringSlice(args: seq<Value>): (r: Result<Value, Error>)
    ensures r.Ok? <==> SliceArgs(args, KString).Ok?
    ensures r.Ok? ==> var b := SliceArgs(args, KString).value;
                      r.value == DerivedStr(Slice(Str(args[0].s), Some(b.start), Some(b.stop), b.step), args[0].s)
  {
    var b :- SliceArgs(args, KString);
    Ok(DerivedStr(Slice(Str(args[0].s), Some(b.start), Some(b.stop), b.step), args[0].s))
  }

  /** Array `slice` (value.cpp), as written. */
  function ArraySliceAsWritten(args: seq<Value>): (r: Result<Value, Error>)
    ensures r.Ok? <==> SliceArgsAsWritten(args, KArray).Ok?
    ensures r.Ok? ==> var b := SliceArgsAsWritten(args, KArray).value;
                      r.value == Array(SliceAsWritten(args[0].items, b.start, b.stop, b.step))
  {
    var b :- SliceArgsAsWritten(args, KArray);
    Ok(Array(SliceAsWritten(args[0].items, b.start, b.stop, b.step)))
  }

  /** The corrected array `slice`. */
  function ArraySlice(args: seq<Value>): (r: Result<Value, Error>)
    ensures r.Ok? <==> SliceArgs(args, KArray).Ok?
    ensures r.Ok? ==> var b := SliceArgs(args, KArray).value;
                      r.value == Array(Slice(args[0].items, Some(b.start), Some(b.stop), b.step))
  {
    var b :- SliceArgs(args, KArray);
    Ok(Array(Slice(args[0].items, Some(b.start), Some(b.stop), b.step)))
  }

  /** The optional-bound array `slice` builtin's reading of one bound: integers are taken, anything else is `dflt`. */
  function IntOr(v: Value, dflt: int): (r: int)
    ensures v.Int? ==> r == v.i
    ensures !v.Int? ==> r == dflt
  {
    if v.Int? then v.i else dflt
  }

  /**
   * Array `slice` (jinja-value.cpp), as written: it reads `args[1]`,
   * `args[2]` and `args[3]` before looking at the argument count, so every
   * call with fewer than four arguments reads past the end.
   */
  function ArraySliceOptAsWritten(args: seq<Value>): (r: Result<Value, Error>)
    ensures 1 <= |args| < 4 ==> r == Err(ArgOutOfBounds(|args|))
    ensures r.Ok? <==> |args| == 4 && args[0].Array? && IntOr(args[3], 1) != 0
    ensures r.Ok? ==> r.value == Array(Slice(args[0].items, Some(IntOr(args[1], 0)),
                                             Some(IntOr(args[2], -1)), IntOr(args[3], 1)))
  {
    if |args| < 1 || |args| > 4 then Err(ArgCount(1, 4, |args|))
    else
      var a1 :- Arg(args, 1);
      var a2 :- Arg(args, 2);
      var a3 :- Arg(args, 3);
      var start := IntOr(a1, 0);
      var stop := IntOr(a2, -1);
      var step := IntOr(a3, 1);
      if !args[0].Array? then Err(ArgType(0))
      else if step == 0 then Err(StepZero)
      else Ok(Array(Slice(args[0].items, Some(start), Some(stop), step)))
  }

  /** Argument `i` read with a default: absent or not an integer gives `dflt`. */
  function IntArgOr(args: seq<Value>, i: nat, dflt: int): (r: int)
    ensures i < |args| && args[i].Int? ==> r == args[i].i
    ensures !(i < |args| && args[i].Int?) ==> r == dflt
  {
    if i < |args| then IntOr(args[i], dflt) else dflt
  }

  /** The corrected optional-bound array `slice`: an absent bound takes the same default as a non-integer one. */
  function ArraySliceOpt(args: seq<Value>): (r: Result<Value, Error>)
    ensures r.Ok? <==> 1 <= |args| <= 4 && args[0].Array? && IntArgOr(args, 3, 1) != 0
    ensures r.Ok? ==> r.value == Array(Slice(args[0].items, Some(IntArgOr(args, 1, 0)),
                                             Some(IntArgOr(args, 2, -1)), IntArgOr(args, 3, 1)))
    ensures |args| == 4 ==> r == ArraySliceOptAsWritten(args)
  {
    if |args| < 1 || |args| > 4 then Err(ArgCount(1, 4, |args|))
    else
      var start := IntArgOr(args, 1, 0);
      var stop := IntArgOr(args, 2, -1);
      var step := IntArgOr(args, 3, 1);
      if !args[0].Array? then Err(ArgType(0))
      else if step == 0 then Err(StepZero)
      else Ok(Array(Slice(args[0].items, Some(start), Some(stop), step)))
  }

  /** `[1, 2, 3]|slice(1)` reads past the arguments as written; once corrected the absent
      stop takes its default -1, so the result is `[2]`. */
  lemma ArraySliceOptOneBound()
    ensures ArraySliceOptAsWritten([Array([Int(1), Int(2), Int(3)]), Int(1)]) == Err(ArgOutOfBounds(2))
    ensures ArraySliceOpt([Array([Int(1), Int(2), Int(3)]), Int(1)]) == Ok(Array([Int(2)]))
  {
    var a := [Int(1), Int(2), Int(3)];
    assert Progression(1, 2, 1) == [1] by {
      assert Progression(2, 2, 1) == [];
    }
    assert Slice(a, Some(1), Some(-1), 1) == Pick(a, [1]);
    assert Pick(a, [1]) == [Int(2)] by {
      assert [1][1..] == [];
    }
    assert IntArgOr([Array(a), Int(1)], 1, 0) == 1;
  }

  // ---------------------------------------------------------------------
  // `range`
  // ---------------------------------------------------------------------

  function Ints(p: seq<int>): (r: seq<Value>)
    ensures |r| == |p| && forall k :: 0 <= k < |p| ==> r[k] == Int(p[k])
  {
    seq(|p|, k requires 0 <= k < |p| => Int(p[k]))
  }

  /** The counter of `range` once its three numbers are known: step 0 is an error. */
  function RangeOf(start: int, stop: int, step: int): (r: Result<Value, Error>)
    ensures r.Err? <==> step == 0
    ensures r.Err? ==> r.error == StepZero
    ensures r.Ok? ==> r.value == Array(Ints(Progression(start, stop, step)))
  {
    if step == 0 then Err(StepZero) else Ok(Array(Ints(Progression(start, stop, step))))
  }

  /** `range(start, stop, step)` yields `start + k*step` while below (or, for a negative step, above) `stop`. */
  lemma RangeOfSpec(start: int, stop: int, step: int)
    requires step != 0
    ensures var items := RangeOf(start, stop, step).value.items;
            (forall k :: 0 <= k < |items| ==> items[k] == Int(start + k * step))
            && (|items| == 0 <==> (if step > 0 then stop <= start else start <= stop))
            && (|items| > 0 && step > 0 ==> start + (|items| - 1) * step < stop <= start + |items| * step)
            && (|items| > 0 && step < 0 ==> start + |items| * step <= stop < start + (|items| - 1) * step)
  {
    if step > 0 { ProgressionUp(start, stop, step); } else { ProgressionDown(start, stop, step); }
  }

  /** `range` (value.cpp): one, two or three integers; `range(n)` counts from 0. */
  function Range(args: seq<Value>): (r: Result<Value, Error>)
    ensures r.Ok? ==> 1 <= |args| <= 3 && forall j :: 0 <= j < |args| ==> args[j].Int?
    ensures |args| == 1 && args[0].Int? ==> r == RangeOf(0, args[0].i, 1)
    ensures |args| == 2 && args[0].Int? && args[1].Int? ==> r == RangeOf(args[0].i, args[1].i, 1)
    ensures |args| == 3 && args[0].Int? && args[1].Int? && args[2].Int? ==> r == RangeOf(args[0].i, args[1].i, args[2].i)
    ensures !(1 <= |args| <= 3) ==> r == Err(ArgCount(1, 3, |args|))
  {
    var _ :- EnsureCount(args, 1, 3);
    var _ :- EnsureVals(args, [KInt, KInt, KInt], [true, false, false]);
    assert forall j :: 0 <= j < |args| ==> args[j].Int? by {
      forall j | 0 <= j < |args| ensures args[j].Int? {
        assert SlotOk(args, [KInt, KInt, KInt], [true, false, false], j);
      }
    }
    if |args| == 1 then RangeOf(0, args[0].i, 1)
    else if |args| == 2 then RangeOf(args[0].i, args[1].i, 1)
    else RangeOf(args[0].i, args[1].i, args[2].i)
  }

  /** `range(n)` is `[0, 1, ..., n-1]`, empty for `n <= 0`. */
  lemma RangeCountsFromZero(n: int)
    ensures var r := Range([Int(n)]);
            r.Ok? && |r.value.items| == (if n > 0 then n else 0)
            && forall k :: 0 <= k < |r.value.items| ==> r.value.items[k] == Int(k)
  {
    RangeOfSpec(0, n, 1);
    var items := RangeOf(0, n, 1).value.items;
    if |items| > 0 {
      assert |items| - 1 < n <= |items|;
    }
  }

  /**
   * `range` (jinja-value.cpp), as written: non-integers stand for 0, -1
   * and 1, but `args[1]` and `args[2]` are read whatever the count, so one-
   * and two-argument calls read past the end.
   */
  function RangeOptAsWritten(args: seq<Value>): (r: Result<Value, Error>)
    ensures 1 <= |args| < 3 ==> r == Err(ArgOutOfBounds(|args|))
    ensures |args| == 3 ==> r == RangeOf(IntOr(args[0], 0), IntOr(args[1], -1), IntOr(args[2], 1))
    ensures !(1 <= |args| <= 3) ==> r == Err(ArgCount(1, 3, |args|))
  {
    if |args| < 1 || |args| > 3 then Err(ArgCount(1, 3, |args|))
    else
      var a1 :- Arg(args, 1);
      var a2 :- Arg(args, 2);
      var arg0 := IntOr(args[0], 0);
      var arg1 := IntOr(a1, -1);
      var arg2 := IntOr(a2, 1);
      if |args| == 1 then RangeOf(0, arg0, 1)
      else if |args| == 2 then RangeOf(arg0, arg1, 1)
      else RangeOf(arg0, arg1, arg2)
  }

  /** The corrected `range` (jinja-value.cpp): an absent argument is read as its default. */
  function RangeOpt(args: seq<Value>): (r: Result<Value, Error>)
    ensures |args| == 1 ==> r == RangeOf(0, IntArgOr(args, 0, 0), 1)
    ensures |args| == 2 ==> r == RangeOf(IntArgOr(args, 0, 0), IntArgOr(args, 1, -1), 1)
    ensures |args| == 3 ==> r == RangeOptAsWritten(args)
    ensures !(1 <= |args| <= 3) ==> r == Err(ArgCount(1, 3, |args|))
  {
    if |args| < 1 || |args| > 3 then Err(ArgCount(1, 3, |args|))
    else
      var arg0 := IntArgOr(args, 0, 0);
      var arg1 := IntArgOr(args, 1, -1);
      var arg2 := IntArgOr(args, 2, 1);
      if |args| == 1 then RangeOf(0, arg0, 1)
      else if |args| == 2 then RangeOf(arg0, arg1, 1)
      else RangeOf(arg0, arg1, arg2)
  }

  /** `range(3)` fails as written and yields `[0, 1, 2]` once corrected, as in `range` of value.cpp. */
  lemma RangeOptOneArgument()
    ensures RangeOptAsWritten([Int(3)]) == Err(ArgOutOfBounds(1))
    ensures RangeOpt([Int(3)]) == Range([Int(3)])
    ensures RangeOpt([Int(3)]) == Ok(Array([Int(0), Int(1), Int(2)]))
  {
    assert Progression(0, 3, 1) == [0, 1, 2] by {
      assert Progression(3, 3, 1) == [];
      assert Progression(2, 3, 1) == [2];
      assert Progression(1, 3, 1) == [1, 2];
    }
    assert Ints([0, 1, 2]) == [Int(0), Int(1), Int(2)];
  }
}

=== FILE: jinja_storage.dfy ===
/**
 * Storage sharing of `value_t` handles.
 *
 * Arrays and objects keep their contents behind a shared pointer.
 * `clone()` of a container copies only that pointer, so the clone and the
 * original see each other's changes.  `clone()` of a scalar copies the
 * scalar.  The range constructor of `value_array_t` and the map
 * constructor of `value_object_t` allocate fresh storage.  A store maps
 * storage identities to contents; `next` is the first identity not in use.
 */
module JinjaStorage {
  import opened JinjaValue

  /** A `value`: scalars are held directly, containers point into the store. */
  datatype Handle = Scalar(v: Value) | ArrayAt(id: nat) | ObjectAt(id: nat)

  datatype Store = Store(arrays: map<nat, seq<Handle>>, objects: map<nat, seq<(string, Handle)>>, next: nat)

  predicate Valid(st: Store) {
    (forall id :: id in st.arrays ==> id < st.next) && (forall id :: id in st.objects ==> id < st.next)
  }

  /** `size_t(-1)`, the default `end` of the range constructor. */
  const SIZE_MAX: nat := 0xFFFF_FFFF_FFFF_FFFF

  /** `clone()`: a container clone is a new handle on the same storage; a scalar clone copies the scalar. */
  function Clone(h: Handle): (r: Handle)
    ensures r.ArrayAt? <==> h.ArrayAt?
    ensures r.ObjectAt? <==> h.ObjectAt?
    ensures h.ArrayAt? ==> r.id == h.id
    ensures h.ObjectAt? ==> r.id == h.id
    ensures h.Scalar? ==> r.v == h.v
  {
    match h
    case Scalar(v) => Scalar(v)
    case ArrayAt(id) => ArrayAt(id)
    case ObjectAt(id) => ObjectAt(id)
  }

  /** `val_arr->push_back(x)` through a handle on array storage `id`. */
  function PushBack(st: Store, id: nat, x: Handle): (r: Store)
    requires id in st.arrays
    ensures r.arrays == st.arrays[id := st.arrays[id] + [x]] && r.objects == st.objects && r.next == st.next
  {
    st.(arrays := st.arrays[id := st.arrays[id] + [x]])
  }

  /** A push through a clone is seen through the original: they share storage. */
  lemma CloneSharesStorage(st: Store, a: Handle, x: Handle)
    requires a.ArrayAt? && a.id in st.arrays
    ensures Clone(a).id in PushBack(st, Clone(a).id, x).arrays
    ensures PushBack(st, Clone(a).id, x).arrays[a.id] == st.arrays[a.id] + [x]
  {
  }

  /** The constructor's `end`: `size_t(-1)` or anything past the end means the array size. */
  function RangeEnd(size: nat, end: nat): (e: nat)
    ensures e <= size
    ensures end < size && end != SIZE_MAX ==> e == end
  {
    if end == SIZE_MAX || end > size then size else end
  }

  /**
   * `value_array_t(other, start, end)`: fresh storage holding clones of the
   * elements `[start, min(end, size))`, empty when `start > end` or
   * `start >= size`.
   */
  function NewArrayRange(st: Store, src: nat, start: nat, end: nat): (r: (Store, Handle))
    requires Valid(st) && src in st.arrays
    ensures Valid(r.0) && r.1.ArrayAt? && r.1.id !in st.arrays && r.1.id in r.0.arrays
    ensures forall id :: id in st.arrays ==> id in r.0.arrays && r.0.arrays[id] == st.arrays[id]
    ensures r.0.objects == st.objects
    ensures var sz := |st.arrays[src]|;
            var e := if end == SIZE_MAX || end > sz then sz else end;
            |r.0.arrays[r.1.id]| == (if start < e then e - start else 0)
            && forall k :: 0 <= k < |r.0.arrays[r.1.id]| ==>
                 r.0.arrays[r.1.id][k] == Clone(st.arrays[src][start + k])
  {
    var arr := st.arrays[src];
    var e := RangeEnd(|arr|, end);
    var contents :=
      if start > e || start >= |arr| then []
      else seq(e - start, k requires 0 <= k < e - start => Clone(arr[start + k]));
    var id := st.next;
    (Store(st.arrays[id := contents], st.objects, st.next + 1), ArrayAt(id))
  }

  /** A push onto the range copy leaves the source array as it was: the copy has its own storage. */
  lemma RangeCopyIsIndependent(st: Store, src: nat, start: nat, end: nat, x: Handle)
    requires Valid(st) && src in st.arrays
    ensures var (st1, copy) := NewArrayRange(st, src, start, end);
            PushBack(st1, copy.id, x).arrays[src] == st.arrays[src]
  {
    var (st1, copy) := NewArrayRange(st, src, start, end);
    assert copy.id != src;
  }

  /** The default range (start 0, end `size_t(-1)`) clones the whole array. */
  lemma FullRangeClonesAll(st: Store, src: nat)
    requires Valid(st) && src in st.arrays && |st.arrays[src]| > 0
    ensures var (st1, copy) := NewArrayRange(st, src, 0, SIZE_MAX);
            |st1.arrays[copy.id]| == |st.arrays[src]|
  {
  }

  /** `value_object_t(map)`: fresh storage holding a clone of every entry, in the map's order. */
  function NewObjectFrom(st: Store, m: seq<(string, Handle)>): (r: (Store, Handle))
    requires Valid(st)
    ensures Valid(r.0) && r.1.ObjectAt? && r.1.id !in st.objects && r.1.id in r.0.objects
    ensures r.0.arrays == st.arrays
    ensures forall id :: id in st.objects ==> id in r.0.objects && r.0.objects[id] == st.objects[id]
    ensures |r.0.objects[r.1.id]| == |m|
    ensures forall k :: 0 <= k < |m| ==> r.0.objects[r.1.id][k] == (m[k].0, Clone(m[k].1))
  {
    var id := st.next;
    var contents := seq(|m|, k requires 0 <= k < |m| => (m[k].0, Clone(m[k].1)));
    (Store(st.arrays, st.objects[id := contents], st.next + 1), ObjectAt(id))
  }
}

=== FILE: jinja_string.dfy ===
/**
 * The template engine's input-tracking string (`jinja::string`).
 *
 * A string is a list of parts; every part carries its text and an
 * `isInput` flag saying whether it came from user input.  One-to-one
 * transformations (case changes) keep every flag, stripping deletes the
 * parts it empties and keeps the flags of the rest, and concatenation
 * keeps the parts of both operands.
 */
module JinjaString {
  import opened Text

  datatype Part = Part(isInput: bool, val: string)

  datatype TrackedString = TrackedString(parts: seq<Part>)

  /** The text of a list of parts, front to back. */
  function Concat(ps: seq<Part>): string
    decreases |ps|
  {
    if |ps| == 0 then "" else ps[0].val + Concat(ps[1..])
  }

  lemma {:induction false} ConcatAppend(a: seq<Part>, b: seq<Part>)
    ensures Concat(a + b) == Concat(a) + Concat(b)
    decreases |a|
  {
    if |a| > 0 {
      assert (a + b)[0] == a[0];
      assert (a + b)[1..] == a[1..] + b;
      ConcatAppend(a[1..], b);
    } else {
      assert a + b == b;
    }
  }

  lemma ConcatSnoc(ps: seq<Part>, p: Part)
    ensures Concat(ps + [p]) == Concat(ps) + p.val
  {
    ConcatAppend(ps, [p]);
    assert Concat([p]) == p.val + Concat([]);
  }

  /** A character occurs in the text iff it occurs in some part. */
  lemma {:induction false} ConcatChars(ps: seq<Part>, c: char)
    ensures c in Concat(ps) <==> exists k :: 0 <= k < |ps| && c in ps[k].val
    decreases |ps|
  {
    if |ps| > 0 {
      ConcatChars(ps[1..], c);
      if c in Concat(ps[1..]) {
        var k :| 0 <= k < |ps[1..]| && c in ps[1..][k].val;
        assert c in ps[k + 1].val;
      }
      if exists k :: 0 <= k < |ps| && c in ps[k].val {
        var k :| 0 <= k < |ps| && c in ps[k].val;
        if k > 0 {
          assert ps[1..][k - 1] == ps[k];
        }
      }
    }
  }

  /** A string made of one part (the `std::string` and `int` constructors). */
  function FromText(v: string, userInput: bool): (r: TrackedString)
    ensures Str(r) == v && |r.parts| == 1 && r.parts[0].isInput == userInput
  {
    TrackedString([Part(userInput, v)])
  }

  function FromInt(v: int): (r: TrackedString)
    ensures Str(r) == IntToString(v) && !AllPartsAreInput(r)
  {
    FromText(IntToString(v), false)
  }

  /** `str()`: a single part is returned as is, otherwise the parts are streamed in order. */
  function Str(s: TrackedString): (r: string)
    ensures r == Concat(s.parts)
  {
    if |s.parts| == 1 then
      assert Concat(s.parts) == s.parts[0].val + Concat([]);
      s.parts[0].val
    else Concat(s.parts)
  }

  /** `length()`: the part lengths added up in a loop. */
  method Length(s: TrackedString) returns (n: nat)
    ensures n == |Str(s)|
  {
    n := 0;
    var i := 0;
    while i < |s.parts|
      invariant 0 <= i <= |s.parts|
      invariant n == |Concat(s.parts[..i])|
    {
      ConcatSnoc(s.parts[..i], s.parts[i]);
      assert s.parts[..i + 1] == s.parts[..i] + [s.parts[i]];
      n := n + |s.parts[i].val|;
      i := i + 1;
    }
    assert s.parts[..i] == s.parts;
  }

  predicate AllPartsAreInput(s: TrackedString) {
    forall k :: 0 <= k < |s.parts| ==> s.parts[k].isInput
  }

  /** `mark_input()`: every part becomes input, texts unchanged. */
  function MarkInput(s: TrackedString): (r: TrackedString)
    ensures |r.parts| == |s.parts| && AllPartsAreInput(r)
    ensures forall k :: 0 <= k < |s.parts| ==> r.parts[k].val == s.parts[k].val
  {
    TrackedString(seq(|s.parts|, k requires 0 <= k < |s.parts| => Part(true, s.parts[k].val)))
  }

  /**
   * `mark_input_based_on(other)`: every part becomes input when all of
   * `other`'s parts are input; otherwise nothing changes.
   */
  function MarkInputBasedOn(s: TrackedString, other: TrackedString): (r: TrackedString)
    ensures |r.parts| == |s.parts| && Str(r) == Str(s)
    ensures forall k :: 0 <= k < |s.parts| ==>
              r.parts[k].val == s.parts[k].val
              && r.parts[k].isInput == (s.parts[k].isInput || AllPartsAreInput(other))
  {
    var r := if AllPartsAreInput(other) then MarkInput(s) else s;
    assert r.parts == s.parts || (forall k :: 0 <= k < |s.parts| ==> r.parts[k].val == s.parts[k].val);
    SameTexts(r.parts, s.parts);
    r
  }

  /** Parts with the same texts have the same concatenation. */
  lemma {:induction false} SameTexts(a: seq<Part>, b: seq<Part>)
    requires |a| == |b| && forall k :: 0 <= k < |a| ==> a[k].val == b[k].val
    ensures Concat(a) == Concat(b)
    decreases |a|
  {
    if |a| > 0 {
      SameTexts(a[1..], b[1..]);
    }
  }

  /** An `other` without parts counts as all input, so it marks everything. */
  lemma MarkInputBasedOnEmpty(s: TrackedString)
    ensures AllPartsAreInput(MarkInputBasedOn(s, TrackedString([])))
  {
  }

  /** `append(other)`: other's parts follow this string's parts. */
  function Append(s: TrackedString, other: TrackedString): (r: TrackedString)
    ensures Str(r) == Str(s) + Str(other)
    ensures |r.parts| == |s.parts| + |other.parts|
    ensures r.parts[..|s.parts|] == s.parts && r.parts[|s.parts|..] == other.parts
  {
    ConcatAppend(s.parts, other.parts);
    TrackedString(s.parts + other.parts)
  }

  // ---------------------------------------------------------------------
  // Case predicates and transformations
  // ---------------------------------------------------------------------

  predicate PartIsUppercase(p: Part) {
    forall i :: 0 <= i < |p.val| ==> !IsLower(p.val[i])
  }

  predicate PartIsLowercase(p: Part) {
    forall i :: 0 <= i < |p.val| ==> !IsUpper(p.val[i])
  }

  predicate IsUppercase(s: TrackedString) {
    forall k :: 0 <= k < |s.parts| ==> PartIsUppercase(s.parts[k])
  }

  predicate IsLowercase(s: TrackedString) {
    forall k :: 0 <= k < |s.parts| ==> PartIsLowercase(s.parts[k])
  }

  /** `is_uppercase()` holds iff the whole text has no lowercase letter. */
  lemma UppercaseMeansNoLower(s: TrackedString)
    ensures IsUppercase(s) <==> forall i :: 0 <= i < |Str(s)| ==> !IsLower(Str(s)[i])
  {
    var t := Str(s);
    if IsUppercase(s) {
      forall i | 0 <= i < |t| ensures !IsLower(t[i]) {
        ConcatChars(s.parts, t[i]);
        var k :| 0 <= k < |s.parts| && t[i] in s.parts[k].val;
        var j :| 0 <= j < |s.parts[k].val| && s.parts[k].val[j] == t[i];
      }
    } else {
      var k :| 0 <= k < |s.parts| && !PartIsUppercase(s.parts[k]);
      var j :| 0 <= j < |s.parts[k].val| && IsLower(s.parts[k].val[j]);
      ConcatChars(s.parts, s.parts[k].val[j]);
      var i :| 0 <= i < |t| && t[i] == s.parts[k].val[j];
    }
  }

  /** `is_lowercase()` holds iff the whole text has no uppercase letter. */
  lemma LowercaseMeansNoUpper(s: TrackedString)
    ensures IsLowercase(s) <==> forall i :: 0 <= i < |Str(s)| ==> !IsUpper(Str(s)[i])
  {
    var t := Str(s);
    if IsLowercase(s) {
      forall i | 0 <= i < |t| ensures !IsUpper(t[i]) {
        ConcatChars(s.parts, t[i]);
        var k :| 0 <= k < |s.parts| && t[i] in s.parts[k].val;
        var j :| 0 <= j < |s.parts[k].val| && s.parts[k].val[j] == t[i];
      }
    } else {
      var k :| 0 <= k < |s.parts| && !PartIsLowercase(s.parts[k]);
      var j :| 0 <= j < |s.parts[k].val| && IsUpper(s.parts[k].val[j]);
      ConcatChars(s.parts, s.parts[k].val[j]);
      var i :| 0 <= i < |t| && t[i] == s.parts[k].val[j];
    }
  }

  /** `apply_transform(f)`: `f` rewrites every part's text; flags and part count stay. */
  function ApplyTransform(s: TrackedString, f: string -> string): (r: TrackedString)
    ensures |r.parts| == |s.parts|
    ensures forall k :: 0 <= k < |s.parts| ==>
              r.parts[k].isInput == s.parts[k].isInput && r.parts[k].val == f(s.parts[k].val)
  {
    TrackedString(seq(|s.parts|, k requires 0 <= k < |s.parts| => Part(s.parts[k].isInput, f(s.parts[k].val))))
  }

  /** Upper-case the first character and lower-case the rest. */
  function CapitalizeText(v: string): (r: string)
    ensures |r| == |v|
    ensures |v| > 0 ==> r[0] == ToUpper(v[0])
    ensures forall i :: 1 <= i < |v| ==> r[i] == ToLower(v[i])
  {
    if |v| == 0 then v else [ToUpper(v[0])] + LowerAll(v[1..])
  }

  /**
   * The titlecase loop from index `i` on, with `capNext` the state of its
   * "capitalise the next non-space" flag.
   */
  function TitleFrom(v: string, i: nat, capNext: bool): (r: string)
    requires i <= |v|
    decreases |v| - i
  {
    if i == |v| then ""
    else if IsCSpace(v[i]) then [v[i]] + TitleFrom(v, i + 1, true)
    else if capNext then [ToUpper(v[i])] + TitleFrom(v, i + 1, false)
    else [ToLower(v[i])] + TitleFrom(v, i + 1, false)
  }

  /** A character starts a word when it is not a space and follows the start or a space. */
  predicate StartsWord(v: string, i: nat)
    requires i < |v|
  {
    !IsCSpace(v[i]) && (i == 0 || IsCSpace(v[i - 1]))
  }

  lemma {:induction false} TitleFromSpec(v: string, i: nat, capNext: bool)
    requires i <= |v|
    requires capNext <==> (i == 0 || IsCSpace(v[i - 1]))
    ensures |TitleFrom(v, i, capNext)| == |v| - i
    ensures forall j :: i <= j < |v| ==> TitleFrom(v, i, capNext)[j - i] == TitleChar(v, j)
    decreases |v| - i
  {
    if i < |v| {
      var tail := TitleFrom(v, i + 1, IsCSpace(v[i]));
      TitleFromSpec(v, i + 1, IsCSpace(v[i]));
      var r := TitleFrom(v, i, capNext);
      assert r == [TitleChar(v, i)] + tail;
      forall j | i <= j < |v| ensures r[j - i] == TitleChar(v, j) {
        if j > i {
          assert r[j - i] == tail[j - (i + 1)];
        }
      }
    }
  }

  /** What titlecase makes of the character at `j`: spaces kept, word starts upper, the rest lower. */
  function TitleChar(v: string, j: nat): char
    requires j < |v|
  {
    if IsCSpace(v[j]) then v[j]
    else if StartsWord(v, j) then ToUpper(v[j])
    else ToLower(v[j])
  }

  /** Title-case one text: word starts upper-cased, other letters lower-cased, spaces kept. */
  function TitleText(v: string): (r: string)
    ensures |r| == |v|
    ensures forall j :: 0 <= j < |v| ==> r[j] == TitleChar(v, j)
  {
    TitleFromSpec(v, 0, true);
    TitleFrom(v, 0, true)
  }

  function Uppercase(s: TrackedString): (r: TrackedString)
    ensures |r.parts| == |s.parts| && Str(r) == UpperAll(Str(s))
    ensures forall k :: 0 <= k < |s.parts| ==> r.parts[k].isInput == s.parts[k].isInput
  {
    var r := ApplyTransform(s, UpperAll);
    UpperConcat(s.parts, r.parts);
    r
  }

  function Lowercase(s: TrackedString): (r: TrackedString)
    ensures |r.parts| == |s.parts| && Str(r) == LowerAll(Str(s))
    ensures forall k :: 0 <= k < |s.parts| ==> r.parts[k].isInput == s.parts[k].isInput
  {
    var r := ApplyTransform(s, LowerAll);
    LowerConcat(s.parts, r.parts);
    r
  }

  lemma UpperAllAppend(a: string, b: string)
    ensures UpperAll(a + b) == UpperAll(a) + UpperAll(b)
  {
  }

  lemma LowerAllAppend(a: string, b: string)
    ensures LowerAll(a + b) == LowerAll(a) + LowerAll(b)
  {
  }

  /** Upper-casing every part upper-cases the whole text. */
  lemma {:induction false} UpperConcat(a: seq<Part>, b: seq<Part>)
    requires |a| == |b|
    requires forall k :: 0 <= k < |a| ==> b[k].val == UpperAll(a[k].val)
    ensures Concat(b) == UpperAll(Concat(a))
    decreases |a|
  {
    if |a| > 0 {
      UpperConcat(a[1..], b[1..]);
      UpperAllAppend(a[0].val, Concat(a[1..]));
    }
  }

  /** Lower-casing every part lower-cases the whole text. */
  lemma {:induction false} LowerConcat(a: seq<Part>, b: seq<Part>)
    requires |a| == |b|
    requires forall k :: 0 <= k < |a| ==> b[k].val == LowerAll(a[k].val)
    ensures Concat(b) == LowerAll(Concat(a))
    decreases |a|
  {
    if |a| > 0 {
      LowerConcat(a[1..], b[1..]);
      LowerAllAppend(a[0].val, Concat(a[1..]));
    }
  }

  /** `capitalize()`: each part separately gets an upper first letter and lower rest. */
  function Capitalize(s: TrackedString): (r: TrackedString)
    ensures |r.parts| == |s.parts|
    ensures forall k :: 0 <= k < |s.parts| ==>
              r.parts[k].isInput == s.parts[k].isInput && r.parts[k].val == CapitalizeText(s.parts[k].val)
  {
    ApplyTransform(s, CapitalizeText)
  }

  /** `titlecase()`: each part is title-cased on its own, so every part start counts as a word start. */
  function Titlecase(s: TrackedString): (r: TrackedString)
    ensures |r.parts| == |s.parts|
    ensures forall k :: 0 <= k < |s.parts| ==>
              r.parts[k].isInput == s.parts[k].isInput && r.parts[k].val == TitleText(s.parts[k].val)
  {
    ApplyTransform(s, TitleText)
  }

  /** Two parts "ab" and "cd" title-case to "Ab" and "Cd": the second part restarts the word. */
  lemma TitlecaseRestartsPerPart()
    ensures Str(Titlecase(TrackedString([Part(false, "ab"), Part(true, "cd")]))) == "AbCd"
  {
    var s := TrackedString([Part(false, "ab"), Part(true, "cd")]);
    var r := Titlecase(s);
    assert r.parts[0].val == TitleText("ab");
    assert r.parts[1].val == TitleText("cd");
    assert TitleText("ab") == "Ab";
    assert TitleText("cd") == "Cd";
    assert r.parts[1..][1..] == [];
    assert Concat(r.parts[1..]) == r.parts[1].val + Concat([]);
    assert Concat(r.parts) == r.parts[0].val + Concat(r.parts[1..]);
  }

  // ---------------------------------------------------------------------
  // Strip
  // ---------------------------------------------------------------------

  /**
   * The left pass of `strip`: trim the first part; if it becomes empty,
   * delete it and go on with the next one, otherwise stop.
   */
  function StripLeftParts(ps: seq<Part>): (r: seq<Part>)
    decreases |ps|
  {
    if |ps| == 0 then []
    else
      var v := TrimStart(ps[0].val, IsCSpace);
      if |v| == 0 then StripLeftParts(ps[1..])
      else [Part(ps[0].isInput, v)] + ps[1..]
  }

  /** The right pass of `strip`, mirrored from the last part backwards. */
  function StripRightParts(ps: seq<Part>): (r: seq<Part>)
    decreases |ps|
  {
    if |ps| == 0 then []
    else
      var last := ps[|ps| - 1];
      var v := TrimEnd(last.val, IsCSpace);
      if |v| == 0 then StripRightParts(ps[..|ps| - 1])
      else ps[..|ps| - 1] + [Part(last.isInput, v)]
  }

  /** `strip(left, right)`. */
  function Strip(s: TrackedString, left: bool, right: bool): (r: TrackedString)
  {
    if |s.parts| == 0 then s
    else
      var l := if left then StripLeftParts(s.parts) else s.parts;
      TrackedString(if right then StripRightParts(l) else l)
  }

  function Flags(ps: seq<Part>): (r: seq<bool>)
    ensures |r| == |ps| && forall k :: 0 <= k < |ps| ==> r[k] == ps[k].isInput
  {
    seq(|ps|, k requires 0 <= k < |ps| => ps[k].isInput)
  }

  /** Leading spaces of a concatenation: all of `a`'s if `a` is all spaces, then `b`'s. */
  lemma {:induction false} LeadingCountAppend(a: string, b: string, p: char -> bool)
    ensures LeadingCount(a + b, p) ==
              if LeadingCount(a, p) == |a| then |a| + LeadingCount(b, p) else LeadingCount(a, p)
    decreases |a|
  {
    if |a| > 0 {
      assert (a + b)[0] == a[0];
      if p(a[0]) {
        assert (a + b)[1..] == a[1..] + b;
        LeadingCountAppend(a[1..], b, p);
      }
    } else {
      assert a + b == b;
    }
  }

  lemma {:induction false} TrailingCountAppend(a: string, b: string, p: char -> bool)
    ensures TrailingCount(a + b, p) ==
              if TrailingCount(b, p) == |b| then |b| + TrailingCount(a, p) else TrailingCount(b, p)
    decreases |b|
  {
    if |b| > 0 {
      assert (a + b)[|a + b| - 1] == b[|b| - 1];
      if p(b[|b| - 1]) {
        assert (a + b)[..|a + b| - 1] == a + b[..|b| - 1];
        TrailingCountAppend(a, b[..|b| - 1], p);
      }
    } else {
      assert a + b == a;
    }
  }

  lemma TrimStartAppend(a: string, b: string)
    ensures TrimStart(a + b, IsCSpace) ==
              if |TrimStart(a, IsCSpace)| == 0 then TrimStart(b, IsCSpace) else TrimStart(a, IsCSpace) + b
  {
    LeadingCountAppend(a, b, IsCSpace);
  }

  lemma TrimEndAppend(a: string, b: string)
    ensures TrimEnd(a + b, IsCSpace) ==
              if |TrimEnd(b, IsCSpace)| == 0 then TrimEnd(a, IsCSpace) else a + TrimEnd(b, IsCSpace)
  {
    TrailingCountAppend(a, b, IsCSpace);
    var n := TrailingCount(b, IsCSpace);
    if n < |b| {
      assert (a + b)[..|a + b| - n] == a + b[..|b| - n];
    }
  }

  /** The left pass strips exactly the leading whitespace of the whole text. */
  lemma {:induction false} StripLeftText(ps: seq<Part>)
    ensures Concat(StripLeftParts(ps)) == TrimStart(Concat(ps), IsCSpace)
    decreases |ps|
  {
    if |ps| > 0 {
      TrimStartAppend(ps[0].val, Concat(ps[1..]));
      var v := TrimStart(ps[0].val, IsCSpace);
      if |v| == 0 {
        StripLeftText(ps[1..]);
      } else {
        assert ([Part(ps[0].isInput, v)] + ps[1..])[1..] == ps[1..];
      }
    }
  }

  /** The right pass strips exactly the trailing whitespace of the whole text. */
  lemma {:induction false} StripRightText(ps: seq<Part>)
    ensures Concat(StripRightParts(ps)) == TrimEnd(Concat(ps), IsCSpace)
    decreases |ps|
  {
    if |ps| > 0 {
      var init := ps[..|ps| - 1];
      var last := ps[|ps| - 1];
      assert ps == init + [last];
      ConcatSnoc(init, last);
      TrimEndAppend(Concat(init), last.val);
      var v := TrimEnd(last.val, IsCSpace);
      if |v| == 0 {
        StripRightText(init);
      } else {
        ConcatSnoc(init, Part(last.isInput, v));
      }
    }
  }

  /** `strip(true, true).str()` is the text with its leading and trailing whitespace removed. */
  lemma StripText(s: TrackedString)
    ensures Str(Strip(s, true, true)) == Trim(Str(s), IsCSpace)
    ensures Str(Strip(s, true, false)) == TrimStart(Str(s), IsCSpace)
    ensures Str(Strip(s, false, true)) == TrimEnd(Str(s), IsCSpace)
  {
    StripLeftText(s.parts);
    StripRightText(StripLeftParts(s.parts));
    StripRightText(s.parts);
  }

  /**
   * The surviving parts are a contiguous run of the original parts with
   * their flags unchanged; only the first survivor of the left pass had
   * text removed.
   */
  lemma {:induction false} StripLeftFlags(ps: seq<Part>)
    ensures exists i :: 0 <= i <= |ps| && Flags(StripLeftParts(ps)) == Flags(ps[i..])
    decreases |ps|
  {
    if |ps| == 0 {
      assert Flags(StripLeftParts(ps)) == Flags(ps[0..]);
    } else {
      var v := TrimStart(ps[0].val, IsCSpace);
      if |v| == 0 {
        StripLeftFlags(ps[1..]);
        var i :| 0 <= i <= |ps[1..]| && Flags(StripLeftParts(ps[1..])) == Flags(ps[1..][i..]);
        assert ps[1..][i..] == ps[i + 1..];
      } else {
        assert Flags(StripLeftParts(ps)) == Flags(ps[0..]);
      }
    }
  }

  lemma {:induction false} StripRightFlags(ps: seq<Part>)
    ensures exists j :: 0 <= j <= |ps| && Flags(StripRightParts(ps)) == Flags(ps[..j])
    decreases |ps|
  {
    if |ps| == 0 {
      assert Flags(StripRightParts(ps)) == Flags(ps[..0]);
    } else {
      var v := TrimEnd(ps[|ps| - 1].val, IsCSpace);
      if |v| == 0 {
        StripRightFlags(ps[..|ps| - 1]);
        var j :| 0 <= j <= |ps| - 1 && Flags(StripRightParts(ps[..|ps| - 1])) == Flags(ps[..|ps| - 1][..j]);
        assert ps[..|ps| - 1][..j] == ps[..j];
      } else {
        assert Flags(StripRightParts(ps)) == Flags(ps[..|ps|]);
      }
    }
  }

  /** After a full strip the flags are those of a contiguous run `parts[i..j]`. */
  lemma StripFlags(s: TrackedString)
    ensures exists i, j :: 0 <= i <= j <= |s.parts| && Flags(Strip(s, true, true).parts) == Flags(s.parts[i..j])
  {
    var ps := s.parts;
    if |ps| > 0 {
      var l := StripLeftParts(ps);
      assert Strip(s, true, true).parts == StripRightParts(l);
      StripLeftFlags(ps);
      var i :| 0 <= i <= |ps| && Flags(l) == Flags(ps[i..]);
      StripRightFlags(l);
      var j :| 0 <= j <= |l| && Flags(StripRightParts(l)) == Flags(l[..j]);
      var rest := ps[i..];
      assert |l| == |Flags(l)| == |Flags(rest)| == |rest|;
      SameFlagsPrefix(l, rest, j);
      SliceOfSlice(ps, i, j);
      assert i <= i + j <= |ps| && Flags(Strip(s, true, true).parts) == Flags(ps[i..i + j]);
    } else {
      assert Flags(Strip(s, true, true).parts) == Flags(ps[0..0]);
    }
  }

  /** A prefix of a suffix is a middle slice. */
  lemma SliceOfSlice(ps: seq<Part>, i: nat, j: nat)
    requires i + j <= |ps|
    ensures ps[i..][..j] == ps[i..i + j]
  {
  }

  /** Two part lists with the same flags have prefixes with the same flags. */
  lemma SameFlagsPrefix(a: seq<Part>, b: seq<Part>, j: nat)
    requires Flags(a) == Flags(b) && j <= |a|
    ensures Flags(a[..j]) == Flags(b[..j])
  {
    FlagsPrefix(a, j);
    FlagsPrefix(b, j);
  }

  /** The flags of a prefix are the prefix of the flags. */
  lemma FlagsPrefix(ps: seq<Part>, j: nat)
    requires j <= |ps|
    ensures Flags(ps[..j]) == Flags(ps)[..j]
  {
  }

  /** A part emptied by the left pass is deleted: the first surviving part has non-space text first. */
  lemma StripLeftFirstPart(ps: seq<Part>)
    ensures |StripLeftParts(ps)| > 0 ==>
              |StripLeftParts(ps)[0].val| > 0 && !IsCSpace(StripLeftParts(ps)[0].val[0])
    decreases |ps|
  {
    if |ps| > 0 && |TrimStart(ps[0].val, IsCSpace)| == 0 {
      StripLeftFirstPart(ps[1..]);
    }
  }
}

=== FILE: jinja_string_filters.dfy ===
/**
 * The string builtins `split`, `rsplit`, `replace`, `startswith`,
 * `endswith` and the array builtin `join`.
 *
 * The builtins work on the flattened text (`str()`), so every piece they
 * produce is a single fresh part; only the piece holding "what is left" of
 * the receiver inherits its input flag (`mark_input_based_on`).
 */
module JinjaStringFilters {
  import opened Wrappers
  import opened Text
  import opened JinjaString
  import opened JinjaValue
  import opened JinjaArgs

  // ---------------------------------------------------------------------
  // split / rsplit with a split limit
  // ---------------------------------------------------------------------

  /**
   * The `split` loop: while `d` occurs and the limit `k` is not used up,
   * cut off the text before the first occurrence.  A negative `k` never
   * runs out; with an empty `d` that loop would not end, so it is excluded.
   */
  function SplitN(s: string, d: string, k: int): (r: seq<string>)
    requires |d| > 0 || k >= 0
    ensures |r| >= 1
    decreases if |d| > 0 then |s| else 0, k
  {
    match FindFrom(s, d, 0)
    case None => [s]
    case Some(p) => if k == 0 then [s] else [s[..p]] + SplitN(s[p + |d|..], d, k - 1)
  }

  /** Joining the pieces with the delimiter gives back the text. */
  lemma {:induction false} SplitNJoin(s: string, d: string, k: int)
    requires |d| > 0 || k >= 0
    ensures Join(SplitN(s, d, k), d) == s
    decreases if |d| > 0 then |s| else 0, k
  {
    var f := FindFrom(s, d, 0);
    if f.Some? && k != 0 {
      var p := f.value;
      var rest := s[p + |d|..];
      var tail := SplitN(rest, d, k - 1);
      assert SplitN(s, d, k) == [s[..p]] + tail;
      SplitNJoin(rest, d, k - 1);
      JoinCons(s[..p], tail, d);
      assert s == s[..p] + d + rest by {
        assert s[p..p + |d|] == d;
        assert s == s[..p] + s[p..p + |d|] + rest;
      }
    }
  }

  /** A limit `k >= 0` allows at most `k` cuts. */
  lemma {:induction false} SplitNBound(s: string, d: string, k: int)
    requires k >= 0
    ensures |SplitN(s, d, k)| <= k + 1
    decreases k
  {
    match FindFrom(s, d, 0)
    case None =>
    case Some(p) =>
      if k != 0 { SplitNBound(s[p + |d|..], d, k - 1); }
  }

  /** Without a limit, `split` cuts at every occurrence, as `Text.Split` does. */
  lemma {:induction false} SplitNUnlimited(s: string, d: string, k: int)
    requires |d| > 0 && k < 0
    ensures SplitN(s, d, k) == Split(s, d)
    decreases |s|
  {
    match FindFrom(s, d, 0)
    case None =>
    case Some(p) => SplitNUnlimited(s[p + |d|..], d, k - 1);
  }

  /** With an empty delimiter and a limit `k`, the text is preceded by `k` empty pieces. */
  lemma {:induction false} SplitNEmptyDelimiter(s: string, k: nat)
    ensures SplitN(s, "", k) == seq(k, _ => "") + [s]
    decreases k
  {
    assert OccursAt(s, "", 0);
    if k > 0 {
      SplitNEmptyDelimiter(s, k - 1);
      assert s[0..] == s;
      assert seq(k, _ => "") == [""] + seq(k - 1, _ => "");
    }
  }

  /**
   * The `rsplit` loop, with the pieces already in left-to-right order:
   * cut off the text after the last occurrence, then continue on the text
   * before it.
   */
  function RSplitN(s: string, d: string, k: int): (r: seq<string>)
    requires |d| > 0 || k >= 0
    ensures |r| >= 1
    decreases if |d| > 0 then |s| else 0, k
  {
    match FindLast(s, d)
    case None => [s]
    case Some(p) => if k == 0 then [s] else RSplitN(s[..p], d, k - 1) + [s[p + |d|..]]
  }

  lemma {:induction false} RSplitNJoin(s: string, d: string, k: int)
    requires |d| > 0 || k >= 0
    ensures Join(RSplitN(s, d, k), d) == s
    decreases if |d| > 0 then |s| else 0, k
  {
    if FindLast(s, d).Some? && k != 0 {
      RSplitNJoin(s[..FindLast(s, d).value], d, k - 1);
      RSplitNJoinStep(s, d, k);
    }
  }

  lemma RSplitNJoinStep(s: string, d: string, k: int)
    requires (|d| > 0 || k >= 0) && k != 0 && FindLast(s, d).Some?
    requires Join(RSplitN(s[..FindLast(s, d).value], d, k - 1), d) == s[..FindLast(s, d).value]
    ensures Join(RSplitN(s, d, k), d) == s
  {
    var p := FindLast(s, d).value;
    var init := s[..p];
    var rest := s[p + |d|..];
    var front := RSplitN(init, d, k - 1);
    assert RSplitN(s, d, k) == front + [rest];
    JoinSnoc(front, rest, d);
    assert s == init + d + rest by {
      assert s[p..p + |d|] == d;
      assert s == s[..p] + s[p..p + |d|] + rest;
    }
  }

  lemma {:induction false} RSplitNBound(s: string, d: string, k: int)
    requires k >= 0
    ensures |RSplitN(s, d, k)| <= k + 1
    decreases k
  {
    match FindLast(s, d)
    case None =>
    case Some(p) =>
      if k != 0 { RSplitNBound(s[..p], d, k - 1); }
  }

  /** Without a limit, no piece of `rsplit` contains the delimiter. */
  lemma {:induction false} RSplitNPiecesFree(s: string, d: string, k: int)
    requires |d| > 0 && k < 0
    ensures forall i :: 0 <= i < |RSplitN(s, d, k)| ==> !Contains(RSplitN(s, d, k)[i], d)
    decreases |s|
  {
    var r := RSplitN(s, d, k);
    FindLastSpec(s, d);
    match FindLast(s, d)
    case None =>
      forall j | OccursAt(s, d, j) ensures false { }
    case Some(p) =>
      var init := s[..p];
      var tail := s[p + |d|..];
      RSplitNPiecesFree(init, d, k - 1);
      assert r == RSplitN(init, d, k - 1) + [tail];
      forall j | OccursAt(tail, d, j) ensures false {
        assert tail[j..j + |d|] == s[p + |d| + j..p + |d| + j + |d|];
        assert OccursAt(s, d, p + |d| + j);
      }
      forall i | 0 <= i < |r| ensures !Contains(r[i], d) {
        if i < |r| - 1 {
          assert r[i] == RSplitN(init, d, k - 1)[i];
        }
      }
  }

  /** `split` and `rsplit` cut at opposite ends when limited. */
  lemma SplitDirections()
    ensures SplitN("a,b,c", ",", 1) == ["a", "b,c"]
    ensures RSplitN("a,b,c", ",", 1) == ["a,b", "c"]
  {
    var s := "a,b,c";
    assert s[0..1] == "a";
    assert !OccursAt(s, ",", 0);
    assert s[1..2] == ",";
    FindFromFirst(s, ",", 0, 1);
    assert s[..1] == "a" && s[2..] == "b,c";
    assert SplitN(s, ",", 1) == ["a"] + SplitN("b,c", ",", 0);
    assert s[3..4] == ",";
    assert FindLastUpTo(s, ",", 4) == FindLastUpTo(s, ",", 3) by { assert s[4..5] == "c"; }
    assert FindLast(s, ",") == Some(3);
    assert s[..3] == "a,b" && s[4..] == "c";
    assert RSplitN(s, ",", 1) == RSplitN("a,b", ",", 0) + ["c"];
  }

  /** Fresh string values for all pieces; the one at `marked` inherits the receiver's input flag. */
  function PieceValues(pieces: seq<string>, marked: nat, from: TrackedString): (r: seq<Value>)
    requires marked < |pieces|
    ensures |r| == |pieces|
    ensures forall i :: 0 <= i < |r| ==> r[i].String? && Str(r[i].s) == pieces[i] && |r[i].s.parts| == 1
    ensures forall i :: 0 <= i < |r| ==> r[i].s.parts[0].isInput == (i == marked && AllPartsAreInput(from))
  {
    seq(|pieces|, i requires 0 <= i < |pieces| => if i == marked then DerivedStr(pieces[i], from) else StrOf(pieces[i]))
  }

  /** The delimiter argument: `args[1]` as a string when given, else a single space. */
  function DelimiterArg(args: seq<Value>): (r: Result<string, Error>)
    ensures |args| <= 1 ==> r == Ok(" ")
    ensures |args| > 1 ==> (r.Ok? <==> AsString(args[1]).Ok?)
    ensures |args| > 1 && r.Ok? ==> r.value == Str(AsString(args[1]).value)
  {
    if |args| > 1 then
      var t :- AsString(args[1]);
      Ok(Str(t))
    else Ok(" ")
  }

  /** The limit argument: `args[2]` as an integer when given, else -1 (no limit). */
  function LimitArg(args: seq<Value>): (r: Result<int, Error>)
    ensures |args| <= 2 ==> r == Ok(-1)
    ensures |args| > 2 ==> r == AsInt(args[2])
  {
    if |args| > 2 then AsInt(args[2]) else Ok(-1)
  }

  /** The arguments `split` and `rsplit` accept, and the loop terminates on. */
  predicate SplitArgsOk(args: seq<Value>) {
    && 1 <= |args| <= 3 && args[0].String? && DelimiterArg(args).Ok? && LimitArg(args).Ok?
    && (|DelimiterArg(args).value| > 0 || LimitArg(args).value >= 0)
  }

  /**
   * `split` (value.cpp): pieces left to right, the last one marked like the
   * receiver.  An empty delimiter without a limit never terminates.
   */
  function SplitFilter(args: seq<Value>): (r: Result<Value, Error>)
    ensures r.Ok? <==> SplitArgsOk(args)
    ensures r.Ok? ==> (var pieces := SplitN(Str(args[0].s), DelimiterArg(args).value, LimitArg(args).value);
                       r.value == Array(PieceValues(pieces, |pieces| - 1, args[0].s)))
    ensures !(1 <= |args| <= 3) ==> r == Err(ArgCount(1, 3, |args|))
    ensures 1 <= |args| <= 3 && !args[0].String? ==> r == Err(ArgType(0))
    ensures (1 <= |args| <= 3 && args[0].String? && DelimiterArg(args) == Ok("") && LimitArg(args).Ok?
             && LimitArg(args).value < 0) ==> r == Err(Diverges)
  {
    var _ :- EnsureCount(args, 1, 3);
    var _ :- EnsureVals(args, [KString], [true]);
    assert SlotOk(args, [KString], [true], 0);
    var d :- DelimiterArg(args);
    var k :- LimitArg(args);
    if |d| == 0 && k < 0 then Err(Diverges)
    else
      var pieces := SplitN(Str(args[0].s), d, k);
      Ok(Array(PieceValues(pieces, |pieces| - 1, args[0].s)))
  }

  /** `rsplit` (value.cpp): pieces left to right, the first one marked like the receiver. */
  function RSplitFilter(args: seq<Value>): (r: Result<Value, Error>)
    ensures r.Ok? <==> SplitArgsOk(args)
    ensures r.Ok? ==> r.value == Array(PieceValues(RSplitN(Str(args[0].s), DelimiterArg(args).value, LimitArg(args).value), 0, args[0].s))
    ensures !(1 <= |args| <= 3) ==> r == Err(ArgCount(1, 3, |args|))
    ensures 1 <= |args| <= 3 && !args[0].String? ==> r == Err(ArgType(0))
    ensures (1 <= |args| <= 3 && args[0].String? && DelimiterArg(args) == Ok("") && LimitArg(args).Ok?
             && LimitArg(args).value < 0) ==> r == Err(Diverges)
  {
    var _ :- EnsureCount(args, 1, 3);
    var _ :- EnsureVals(args, [KString], [true]);
    assert SlotOk(args, [KString], [true], 0);
    var d :- DelimiterArg(args);
    var k :- LimitArg(args);
    if |d| == 0 && k < 0 then Err(Diverges)
    else Ok(Array(PieceValues(RSplitN(Str(args[0].s), d, k), 0, args[0].s)))
  }

  /**
   * `split` without a limit (jinja-value.cpp and jinja-vm-builtins.cpp):
   * no count check, and an empty delimiter never terminates.
   */
  function SplitAll(args: seq<Value>): (r: Result<Value, Error>)
    ensures r.Ok? ==> |args| >= 1 && args[0].String? && DelimiterArg(args).Ok?
    ensures r.Ok? ==> var d := DelimiterArg(args).value;
                      |d| > 0 && var pieces := Split(Str(args[0].s), d);
                      r.value == Array(PieceValues(pieces, |pieces| - 1, args[0].s))
    ensures |args| >= 1 && args[0].String? && DelimiterArg(args) == Ok("") ==> r == Err(Diverges)
    ensures 1 <= |args| <= 2 ==> r == SplitFilter(args)
  {
    var _ :- EnsureVals(args, [KString], [true]);
    assert SlotOk(args, [KString], [true], 0);
    var d :- DelimiterArg(args);
    if |d| == 0 then Err(Diverges)
    else
      SplitNUnlimited(Str(args[0].s), d, -1);
      var pieces := Split(Str(args[0].s), d);
      Ok(Array(PieceValues(pieces, |pieces| - 1, args[0].s)))
  }

  // ---------------------------------------------------------------------
  // replace
  // ---------------------------------------------------------------------

  /**
   * The in-place `replace` loop: find `pat` from `pos`, overwrite it with
   * `rep`, continue after the inserted text.  It computes `ReplaceAll`:
   * inserted text is never searched again.
   */
  method ReplaceInPlace(s: string, pat: string, rep: string) returns (r: string)
    requires |pat| > 0
    ensures r == ReplaceAll(s, pat, rep)
  {
    var str := s;
    var pos: nat := 0;
    var f := FindFrom(str, pat, pos);
    while f.Some?
      invariant pos <= |str|
      invariant f == FindFrom(str, pat, pos)
      invariant str[..pos] + ReplaceAll(str[pos..], pat, rep) == ReplaceAll(s, pat, rep)
      decreases |str| - pos
    {
      var p := f.value;
      var rest := str[p + |pat|..];
      ReplaceAfter(str, pos, p, pat, rep, str[pos..], str[pos..p], rest);
      var next := str[..p] + rep + rest;
      SpliceAlgebra(str, pos, p, |pat|, rep, rest, next, ReplaceAll(rest, pat, rep), ReplaceAll(str[pos..], pat, rep));
      str := next;
      pos := p + |rep|;
      f := FindFrom(str, pat, pos);
    }
    ReplaceDone(str, pos, pat, rep);
    r := str;
  }

  /** Replacing in the text `t` after `pos` begins with the text `mid` up to the first occurrence `p`. */
  lemma ReplaceAfter(str: string, pos: nat, p: nat, pat: string, rep: string, t: string, mid: string, rest: string)
    requires |pat| > 0 && pos <= |str| && FindFrom(str, pat, pos) == Some(p)
    requires t == str[pos..] && p + |pat| <= |str| && mid == str[pos..p] && rest == str[p + |pat|..]
    ensures ReplaceAll(t, pat, rep) == mid + rep + ReplaceAll(rest, pat, rep)
  {
    FindAfter(str, pos, p, pat, t, mid, rest);
    ReplaceStep(t, pat, rep, mid, rest);
  }

  /** `ReplaceAll` at its first occurrence, with the text before and after it named. */
  lemma ReplaceStep(t: string, pat: string, rep: string, mid: string, rest: string)
    requires |pat| > 0 && FindFrom(t, pat, 0).Some?
    requires t[..FindFrom(t, pat, 0).value] == mid && t[FindFrom(t, pat, 0).value + |pat|..] == rest
    ensures ReplaceAll(t, pat, rep) == mid + rep + ReplaceAll(rest, pat, rep)
  {
    ReplaceUnfold(t, pat, rep);
  }

  lemma FindAfter(str: string, pos: nat, p: nat, pat: string, t: string, mid: string, rest: string)
    requires pos <= |str| && FindFrom(str, pat, pos) == Some(p)
    requires t == str[pos..] && p + |pat| <= |str| && mid == str[pos..p] && rest == str[p + |pat|..]
    ensures pos <= p && FindFrom(t, pat, 0) == Some(p - pos)
    ensures t[..p - pos] == mid && t[p - pos + |pat|..] == rest
  {
    FindFromShift(str, str[..pos], t, pat);
  }

  /** The sequence bookkeeping of one splice, independent of what `tail` is. */
  lemma SpliceAlgebra(str: string, pos: nat, p: nat, n: nat, rep: string, rest: string, next: string, tail: string, whole: string)
    requires pos <= p && p + n <= |str| && n > 0
    requires rest == str[p + n..] && next == str[..p] + rep + rest
    requires whole == str[pos..p] + rep + tail
    ensures p + |rep| <= |next| && |next| - (p + |rep|) < |str| - pos
    ensures next[p + |rep|..] == rest
    ensures next[..p + |rep|] + tail == str[..pos] + whole
  {
    assert next[..p + |rep|] == str[..p] + rep;
    assert str[..p] == str[..pos] + str[pos..p];
  }

  /** `ReplaceAll` at its first occurrence. */
  lemma ReplaceUnfold(t: string, pat: string, rep: string)
    requires |pat| > 0 && FindFrom(t, pat, 0).Some?
    ensures var i := FindFrom(t, pat, 0).value;
            i + |pat| <= |t| && ReplaceAll(t, pat, rep) == t[..i] + rep + ReplaceAll(t[i + |pat|..], pat, rep)
  {
  }

  /** When no occurrence is left after `pos`, the text is final. */
  lemma ReplaceDone(str: string, pos: nat, pat: string, rep: string)
    requires |pat| > 0 && pos <= |str| && FindFrom(str, pat, pos).None?
    ensures str[..pos] + ReplaceAll(str[pos..], pat, rep) == str
  {
    FindFromShift(str, str[..pos], str[pos..], pat);
    assert str[..pos] + str[pos..] == str;
  }

  /**
   * `replace` (value.cpp): a positive count is not implemented, and an empty
   * `old` never terminates (the search keeps finding the empty string).
   */
  function ReplaceFilter(args: seq<Value>): (r: Result<Value, Error>)
    ensures r.Ok? <==> (|args| >= 3 && args[0].String? && args[1].String? && args[2].String?
                        && |Str(args[1].s)| > 0 && (|args| > 3 ==> args[3].Int? && args[3].i <= 0))
    ensures r.Ok? ==> r.value == DerivedStr(ReplaceAll(Str(args[0].s), Str(args[1].s), Str(args[2].s)), args[0].s)
    ensures (|args| > 3 && args[0].String? && args[1].String? && args[2].String? && args[3].Int?
             && args[3].i > 0) ==> r == Err(NotImplemented)
    ensures (|args| >= 3 && args[0].String? && args[1].String? && args[2].String? && |Str(args[1].s)| == 0
             && (|args| > 3 ==> args[3].Int? && args[3].i <= 0)) ==> r == Err(Diverges)
  {
    ReplaceArgs(args);
    var _ :- EnsureVals(args, [KString, KString, KString, KInt], [true, true, true, false]);
    var count := if |args| > 3 then args[3].i else -1;
    if count > 0 then Err(NotImplemented)
    else if |Str(args[1].s)| == 0 then Err(Diverges)
    else Ok(DerivedStr(ReplaceAll(Str(args[0].s), Str(args[1].s), Str(args[2].s)), args[0].s))
  }

  /** The argument check of `replace`: three strings and an optional integer count. */
  lemma ReplaceArgs(args: seq<Value>)
    ensures EnsureVals(args, [KString, KString, KString, KInt], [true, true, true, false]).Ok?
            <==> |args| >= 3 && args[0].String? && args[1].String? && args[2].String?
                 && (|args| > 3 ==> args[3].Int?)
  {
    var kinds, required := [KString, KString, KString, KInt], [true, true, true, false];
    assert SlotOk(args, kinds, required, 0) <==> |args| > 0 && args[0].String?;
    assert SlotOk(args, kinds, required, 1) <==> |args| > 1 && args[1].String?;
    assert SlotOk(args, kinds, required, 2) <==> |args| > 2 && args[2].String?;
    assert SlotOk(args, kinds, required, 3) <==> |args| <= 3 || args[3].Int?;
  }

  /** `replace` without a count (jinja-value.cpp and jinja-vm-builtins.cpp). */
  function ReplaceAllFilter(args: seq<Value>): (r: Result<Value, Error>)
    ensures r.Ok? <==> |args| >= 3 && args[0].String? && args[1].String? && args[2].String?
                       && |Str(args[1].s)| > 0
    ensures r.Ok? ==> r.value == DerivedStr(ReplaceAll(Str(args[0].s), Str(args[1].s), Str(args[2].s)), args[0].s)
    ensures |args| == 3 ==> r == ReplaceFilter(args)
  {
    var kinds := [KString, KString, KString];
    var _ :- EnsureVals(args, kinds, Required(kinds));
    assert SlotOk(args, kinds, Required(kinds), 0);
    assert SlotOk(args, kinds, Required(kinds), 1);
    assert SlotOk(args, kinds, Required(kinds), 2);
    if |Str(args[1].s)| == 0 then Err(Diverges)
    else Ok(DerivedStr(ReplaceAll(Str(args[0].s), Str(args[1].s), Str(args[2].s)), args[0].s))
  }

  // ---------------------------------------------------------------------
  // startswith / endswith
  // ---------------------------------------------------------------------

  /** `string_startswith`: false when the prefix is longer, else compares the leading region. */
  function StartsWith(str: string, prefix: string): (r: bool)
    ensures r <==> exists t :: str == prefix + t
  {
    assert forall t :: str == prefix + t ==> |prefix| <= |str| && str[..|prefix|] == prefix;
    if |str| < |prefix| then false
    else
      assert str == str[..|prefix|] + str[|prefix|..];
      str[..|prefix|] == prefix
  }

  /** `string_endswith`: false when the suffix is longer, else compares the trailing region. */
  function EndsWith(str: string, suffix: string): (r: bool)
    ensures r <==> exists t :: str == t + suffix
  {
    assert forall t :: str == t + suffix ==> |suffix| <= |str| && str[|str| - |suffix|..] == suffix;
    if |str| < |suffix| then false
    else
      var n := |str| - |suffix|;
      assert str == str[..n] + str[n..];
      str[n..] == suffix
  }

  /** `startswith` / `endswith` builtins: both arguments must be strings. */
  function AffixFilter(args: seq<Value>, atEnd: bool): (r: Result<Value, Error>)
    ensures r.Ok? <==> |args| >= 2 && args[0].String? && args[1].String?
    ensures r.Ok? && !atEnd ==> r.value == Bool(StartsWith(Str(args[0].s), Str(args[1].s)))
    ensures r.Ok? && atEnd ==> r.value == Bool(EndsWith(Str(args[0].s), Str(args[1].s)))
  {
    var kinds := [KString, KString];
    var _ :- EnsureVals(args, kinds, Required(kinds));
    assert SlotOk(args, kinds, Required(kinds), 0);
    assert SlotOk(args, kinds, Required(kinds), 1);
    var str := Str(args[0].s);
    var affix := Str(args[1].s);
    Ok(Bool(if atEnd then EndsWith(str, affix) else StartsWith(str, affix)))
  }

  /** A string starts and ends with itself and with the empty string. */
  lemma AffixReflexive(s: string)
    ensures StartsWith(s, s) && EndsWith(s, s) && StartsWith(s, "") && EndsWith(s, "")
  {
    assert s == s + "";
    assert s == "" + s;
  }

  // ---------------------------------------------------------------------
  // join
  // ---------------------------------------------------------------------

  /** An element `join` accepts: a string, or also an int or float when `numbers` is set. */
  predicate Joinable(v: Value, numbers: bool) {
    v.String? || (numbers && (v.Int? || v.Float?))
  }

  /** The text `join` appends for an accepted element (`as_string().str()`). */
  function ItemText(v: Value): (t: string)
    ensures v.String? ==> t == Str(v.s)
    ensures v.Int? ==> t == IntToString(v.i)
    ensures v.Float? ==> t == v.text
  {
    if AsString(v).Ok? then Str(AsString(v).value) else ""
  }

  function ItemTexts(items: seq<Value>): (r: seq<string>)
    ensures |r| == |items| && forall i :: 0 <= i < |items| ==> r[i] == ItemText(items[i])
  {
    seq(|items|, i requires 0 <= i < |items| => ItemText(items[i]))
  }

  /**
   * The array `join` builtin: one or two arguments, the receiver an array,
   * the delimiter `args[1]` when it is a string and "" otherwise; the
   * delimiter goes only between consecutive elements.  `numbers` selects
   * the value.cpp variant, which also accepts integers and floats.
   */
  method JoinFilter(args: seq<Value>, numbers: bool) returns (r: Result<Value, Error>)
    ensures !(1 <= |args| <= 2) ==> r == Err(ArgCount(1, 2, |args|))
    ensures 1 <= |args| <= 2 && !args[0].Array? ==> r == Err(ArgType(0))
    ensures r.Ok? <==> 1 <= |args| <= 2 && args[0].Array?
                       && forall i :: 0 <= i < |args[0].items| ==> Joinable(args[0].items[i], numbers)
    ensures r.Err? && 1 <= |args| <= 2 && args[0].Array? ==>
              exists i :: 0 <= i < |args[0].items| && !Joinable(args[0].items[i], numbers)
                && (forall j :: 0 <= j < i ==> Joinable(args[0].items[j], numbers))
                && r.error == ItemNotJoinable(i)
    ensures r.Ok? ==> var d := if |args| > 1 && args[1].String? then Str(args[1].s) else "";
                      r.value == StrOf(Join(ItemTexts(args[0].items), d))
  {
    if |args| < 1 || |args| > 2 {
      return Err(ArgCount(1, 2, |args|));
    }
    if !args[0].Array? {
      return Err(ArgType(0));
    }
    var arr := args[0].items;
    var delim := if |args| > 1 && args[1].String? then Str(args[1].s) else "";
    var joined := JoinItems(arr, numbers, delim);
    if joined.Err? {
      return Err(ItemNotJoinable(joined.error));
    }
    r := Ok(StrOf(joined.value));
  }

  /** The loop of `join`: the elements' texts with `delim` between them, or the index of the first element it refuses. */
  method JoinItems(arr: seq<Value>, numbers: bool, delim: string) returns (r: Result<string, nat>)
    ensures r.Ok? <==> forall i :: 0 <= i < |arr| ==> Joinable(arr[i], numbers)
    ensures r.Err? ==> r.error < |arr| && !Joinable(arr[r.error], numbers)
                       && forall j :: 0 <= j < r.error ==> Joinable(arr[j], numbers)
    ensures r.Ok? ==> r.value == Join(ItemTexts(arr), delim)
  {
    ghost var texts := ItemTexts(arr);
    var result := "";
    var i := 0;
    while i < |arr|
      invariant 0 <= i <= |arr|
      invariant forall j :: 0 <= j < i ==> Joinable(arr[j], numbers)
      invariant JoinedUpTo(texts, i, delim, result)
    {
      if !Joinable(arr[i], numbers) {
        return Err(i);
      }
      ghost var before := result;
      var piece := ItemText(arr[i]);
      assert piece == texts[i];
      result := result + piece;
      if i < |arr| - 1 {
        result := result + delim;
      }
      JoinedStep(texts, i, delim, before, result);
      i := i + 1;
    }
    assert JoinedUpTo(texts, |arr|, delim, result);
    r := Ok(result);
  }

  /** The text `join` has built after `i` elements: their texts, each followed by `delim` except the very last. */
  predicate JoinedUpTo(texts: seq<string>, i: nat, delim: string, result: string)
    requires i <= |texts|
  {
    if i < |texts| then result == (if i == 0 then "" else Join(texts[..i], delim) + delim)
    else result == Join(texts, delim)
  }

  lemma JoinedStep(texts: seq<string>, i: nat, delim: string, before: string, after: string)
    requires i < |texts| && JoinedUpTo(texts, i, delim, before)
    requires after == before + texts[i] + (if i < |texts| - 1 then delim else "")
    ensures JoinedUpTo(texts, i + 1, delim, after)
  {
    assert texts[..i + 1] == texts[..i] + [texts[i]];
    if i > 0 {
      JoinSnoc(texts[..i], texts[i], delim);
    } else {
      assert texts[..1] == [texts[0]];
    }
    if i + 1 == |texts| {
      assert texts[..i + 1] == texts;
    }
  }

  /** The texts of the piece values are the pieces. */
  lemma PieceTexts(pieces: seq<string>, marked: nat, from: TrackedString)
    requires marked < |pieces|
    ensures ItemTexts(PieceValues(pieces, marked, from)) == pieces
  {
    var vals := PieceValues(pieces, marked, from);
    var texts := ItemTexts(vals);
    forall i | 0 <= i < |pieces| ensures texts[i] == pieces[i] {
      assert vals[i].String? && Str(vals[i].s) == pieces[i];
    }
  }

  /** Joining the pieces of `split` by the same delimiter restores the receiver's text. */
  lemma SplitThenJoin(s: TrackedString, d: string)
    requires |d| > 0
    ensures var pieces := Split(Str(s), d);
            Join(ItemTexts(PieceValues(pieces, |pieces| - 1, s)), d) == Str(s)
  {
    var pieces := Split(Str(s), d);
    PieceTexts(pieces, |pieces| - 1, s);
    SplitJoin(Str(s), d);
  }
}

=== FILE: jinja_value.dfy ===
/**
 * Template values (`value_t` and its subclasses) and their accessors.
 *
 * A value is an immutable tree here: arrays hold their elements and objects
 * their entries directly.  How a container shares its contents with its
 * clones is modelled separately, in `JinjaStorage`.  Integers are
 * unbounded (64-bit overflow is not modelled).  A floating-point value
 * carries its number (the double's exact value) and the text
 * `std::to_string` prints for it, which is `FixedPoint.FixedText(x, 6)`.
 */
module JinjaValue {
  import opened Wrappers
  import opened Text
  import opened JinjaString

  datatype Value =
    | Base                              // a bare `value_t`
    | Undefined
    | Null                              // `value_null` / `value_none`
    | Bool(b: bool)
    | Int(i: int)
    | Float(x: real, text: string)
    | String(s: TrackedString)
    | Array(items: seq<Value>)
    | Object(entries: seq<Entry>)       // in the map's iteration order
    | Kwarg(key: string, val: Value)    // a `name=value` call argument

  datatype Entry = Entry(key: string, val: Value)

  /** The exceptions the accessors and builtins throw. */
  datatype Error =
    | NotAnInt | NotAFloat | NotAString | NotABool | NotAnArray | NotAnObject
    | ArgCount(lo: nat, hi: nat, got: nat)   // `ensure_count` failed
    | ArgType(index: nat)                    // `ensure_vals` or an explicit type test failed
    | ArgOutOfBounds(index: nat)             // `args[index]` read past the end of the vector
    | MissingArg(index: nat)                 // a required argument of `ensure_vals` is absent
    | StepZero
    | NotImplemented
    | Diverges                               // the source loop never terminates on this input
    | ItemNotAnObject
    | ItemNotJoinable(index: nat)            // `join` met an element it cannot print
    | UnknownTest(name: string)
    | MissingInput                           // `"__input__"` is not a string
    | NotAJsonObject

  /** A string value made from plain text (`mk_val<value_string>(std::string)`), not marked as input. */
  function StrOf(t: string): (v: Value)
    ensures v.String? && Str(v.s) == t && !AllPartsAreInput(v.s) && |v.s.parts| == 1
  {
    String(FromText(t, false))
  }

  /** `mk_val<value_string>(t)` followed by `mark_input_based_on(from)`: input iff all of `from` is. */
  function DerivedStr(t: string, from: TrackedString): (v: Value)
    ensures v.String? && Str(v.s) == t && |v.s.parts| == 1
    ensures v.s.parts[0].isInput == AllPartsAreInput(from)
  {
    String(MarkInputBasedOn(FromText(t, false), from))
  }

  /** The text of a string value, or "" for anything else. */
  function TextOf(v: Value): string {
    if v.String? then Str(v.s) else ""
  }

  /** `static_cast<int64_t>` of a double: truncation toward zero. */
  function Truncate(x: real): (r: int)
    ensures 0.0 <= x ==> r as real <= x < r as real + 1.0
    ensures x < 0.0 ==> r as real - 1.0 < x <= r as real
  {
    if x >= 0.0 then x.Floor else -((-x).Floor)
  }

  // ---------------------------------------------------------------------
  // Accessors: `value_t` throws, each subclass answers its own
  // ---------------------------------------------------------------------

  function AsInt(v: Value): (r: Result<int, Error>)
    ensures r.Ok? <==> v.Int? || v.Float?
    ensures v.Int? ==> r == Ok(v.i)
    ensures v.Float? ==> r == Ok(Truncate(v.x))
    ensures r.Err? ==> r.error == NotAnInt
  {
    match v
    case Int(i) => Ok(i)
    case Float(x, _) => Ok(Truncate(x))
    case _ => Err(NotAnInt)
  }

  function AsFloat(v: Value): (r: Result<real, Error>)
    ensures r.Ok? <==> v.Int? || v.Float?
    ensures v.Int? ==> r == Ok(v.i as real)
    ensures v.Float? ==> r == Ok(v.x)
    ensures r.Err? ==> r.error == NotAFloat
  {
    match v
    case Int(i) => Ok(i as real)
    case Float(x, _) => Ok(x)
    case _ => Err(NotAFloat)
  }

  /** `as_string()`: strings themselves, decimal integers, printed floats, "True"/"False". */
  function AsString(v: Value): (r: Result<TrackedString, Error>)
    ensures r.Ok? <==> v.String? || v.Int? || v.Float? || v.Bool?
    ensures v.String? ==> r == Ok(v.s)
    ensures v.Int? ==> r.Ok? && Str(r.value) == IntToString(v.i)
    ensures v.Float? ==> r.Ok? && Str(r.value) == v.text
    ensures v.Bool? ==> r.Ok? && Str(r.value) == (if v.b then "True" else "False")
    ensures r.Err? ==> r.error == NotAString
  {
    match v
    case String(s) => Ok(s)
    case Int(i) => Ok(FromInt(i))
    case Float(_, t) => Ok(FromText(t, false))
    case Bool(b) => Ok(FromText(if b then "True" else "False", false))
    case _ => Err(NotAString)
  }

  function AsBool(v: Value): (r: Result<bool, Error>)
    ensures r.Ok? <==> v.Bool?
    ensures v.Bool? ==> r == Ok(v.b)
  {
    if v.Bool? then Ok(v.b) else Err(NotABool)
  }

  function AsArray(v: Value): (r: Result<seq<Value>, Error>)
    ensures r.Ok? <==> v.Array?
    ensures v.Array? ==> r == Ok(v.items)
  {
    if v.Array? then Ok(v.items) else Err(NotAnArray)
  }

  function AsObject(v: Value): (r: Result<seq<Entry>, Error>)
    ensures r.Ok? <==> v.Object?
    ensures v.Object? ==> r == Ok(v.entries)
  {
    if v.Object? then Ok(v.entries) else Err(NotAnObject)
  }

  /** A bare `value_t` answers no accessor and is neither null nor undefined. */
  lemma BaseAnswersNothing()
    ensures AsInt(Base).Err? && AsFloat(Base).Err? && AsString(Base).Err?
    ensures AsBool(Base).Err? && AsArray(Base).Err? && AsObject(Base).Err?
    ensures !Base.Null? && !Base.Undefined?
  {
  }

  /** `operator==`: not implemented in the source, it answers false for every pair. */
  predicate Equal(a: Value, b: Value) {
    false
  }

  /** `operator!=` is the negation of `operator==`. */
  predicate NotEqual(a: Value, b: Value) {
    !Equal(a, b)
  }

  /** So `==` is not even reflexive, and `!=` holds between a value and itself. */
  lemma EqualityNeverHolds(a: Value, b: Value)
    ensures !Equal(a, a) && NotEqual(a, a)
    ensures !Equal(a, b) && NotEqual(a, b) && NotEqual(b, a)
  {
  }

  // ---------------------------------------------------------------------
  // Object lookup
  // ---------------------------------------------------------------------

  predicate HasKey(entries: seq<Entry>, key: string) {
    exists i | 0 <= i < |entries| :: entries[i].key == key
  }

  /** `obj.find(key)`: the first entry with that key. */
  function Find(entries: seq<Entry>, key: string): (r: Option<Value>)
    ensures r.Some? <==> HasKey(entries, key)
    ensures r.Some? ==> exists i :: 0 <= i < |entries| && entries[i] == Entry(key, r.value)
                          && forall j :: 0 <= j < i ==> entries[j].key != key
    decreases |entries|
  {
    if |entries| == 0 then None
    else if entries[0].key == key then Some(entries[0].val)
    else
      var r := Find(entries[1..], key);
      assert forall i :: 1 <= i < |entries| ==> entries[1..][i - 1] == entries[i];
      if r.Some? then
        var i :| 0 <= i < |entries[1..]| && entries[1..][i] == Entry(key, r.value)
                 && forall j :: 0 <= j < i ==> entries[1..][j].key != key;
        assert entries[i + 1] == Entry(key, r.value);
        r
      else r
  }

  /** With distinct keys, the entry at `i` is what `Find` returns for its key. */
  lemma {:induction false} FindDistinct(entries: seq<Entry>, i: nat)
    requires i < |entries|
    requires forall j, k :: 0 <= j < k < |entries| ==> entries[j].key != entries[k].key
    ensures Find(entries, entries[i].key) == Some(entries[i].val)
    decreases |entries|
  {
    if i > 0 {
      assert entries[0].key != entries[i].key;
      FindDistinct(entries[1..], i - 1);
    }
  }
}

=== FILE: json.dfy ===
/**
 * JSON documents as Python's `json.loads` hands them to the safetensors code.
 *
 * An object keeps its members as they appear in the document, repeated keys
 * included.  `json.loads` turns them into a `dict`: a repeated key keeps the
 * position of its first occurrence and the value of its last one.  `Get` and
 * `Items` are that dict's lookup and item order.  A number without a
 * fraction or exponent is an integer; any other number is a double, kept
 * as its exact value.
 */
module Json {
  import opened Wrappers

  datatype Json =
    | JNull
    | JBool(b: bool)
    | JInt(i: int)
    | JFloat(x: real)
    | JString(s: string)
    | JArray(items: seq<Json>)
    | JObject(members: seq<(string, Json)>)

  predicate HasKey(members: seq<(string, Json)>, key: string) {
    exists i | 0 <= i < |members| :: members[i].0 == key
  }

  /** `d.get(key)`: the value of the last member called `key`. */
  function Get(members: seq<(string, Json)>, key: string): (r: Option<Json>)
    ensures r.Some? <==> HasKey(members, key)
    ensures r.Some? ==> exists i :: 0 <= i < |members| && members[i] == (key, r.value)
                          && forall j :: i < j < |members| ==> members[j].0 != key
    decreases |members|
  {
    if |members| == 0 then None
    else
      var last := members[|members| - 1];
      if last.0 == key then Some(last.1)
      else
        var r := Get(members[..|members| - 1], key);
        assert forall i :: 0 <= i < |members| - 1 ==> members[i] == members[..|members| - 1][i];
        r
  }

  /** The member at `i` is the first one with its key. */
  predicate FirstOfKey(members: seq<(string, Json)>, i: nat)
    requires i < |members|
  {
    forall j | 0 <= j < i :: members[j].0 != members[i].0
  }

  function Keys(items: seq<(string, Json)>): (ks: seq<string>)
    ensures |ks| == |items| && forall i :: 0 <= i < |items| ==> ks[i] == items[i].0
  {
    seq(|items|, i requires 0 <= i < |items| => items[i].0)
  }

  predicate Distinct(ks: seq<string>) {
    forall i, j :: 0 <= i < j < |ks| ==> ks[i] != ks[j]
  }

  /** The dict item contributed by member `from`: one if it is the first with its key. */
  function ItemAt(members: seq<(string, Json)>, from: nat): (r: seq<(string, Json)>)
    requires from < |members|
    ensures |r| <= 1
    ensures |r| == 1 <==> FirstOfKey(members, from)
    ensures |r| == 1 ==> r[0].0 == members[from].0 && Get(members, r[0].0) == Some(r[0].1)
  {
    if FirstOfKey(members, from) then
      var key := members[from].0;
      assert members[from].0 == key;
      assert HasKey(members, key);
      [(key, Get(members, key).value)]
    else []
  }

  function ItemsFrom(members: seq<(string, Json)>, from: nat): (r: seq<(string, Json)>)
    requires from <= |members|
    decreases |members| - from
  {
    if from == |members| then [] else ItemAt(members, from) + ItemsFrom(members, from + 1)
  }

  /** Some member at or after `from` is the first occurrence of `key`. */
  predicate FirstOccursFrom(members: seq<(string, Json)>, from: nat, key: string) {
    exists i | from <= i < |members| :: FirstOfKey(members, i) && members[i].0 == key
  }

  /** Every item carries the dict value of its key, and comes from a first occurrence at or after `from`. */
  lemma {:induction false} ItemsFromSound(members: seq<(string, Json)>, from: nat)
    requires from <= |members|
    ensures forall k :: 0 <= k < |ItemsFrom(members, from)| ==>
      Get(members, ItemsFrom(members, from)[k].0) == Some(ItemsFrom(members, from)[k].1)
    ensures forall k :: 0 <= k < |ItemsFrom(members, from)| ==> FirstOccursFrom(members, from, ItemsFrom(members, from)[k].0)
    decreases |members| - from
  {
    if from < |members| {
      ItemsFromSound(members, from + 1);
      var head := ItemAt(members, from);
      var tail := ItemsFrom(members, from + 1);
      var r := head + tail;
      assert r == ItemsFrom(members, from);
      forall k | 0 <= k < |ItemsFrom(members, from)|
        ensures Get(members, ItemsFrom(members, from)[k].0) == Some(ItemsFrom(members, from)[k].1)
        ensures FirstOccursFrom(members, from, ItemsFrom(members, from)[k].0)
      {
        if k < |head| {
          assert r[k] == head[0];
          assert FirstOfKey(members, from) && members[from].0 == r[k].0;
        } else {
          assert r[k] == tail[k - |head|];
          var i :| from + 1 <= i < |members| && FirstOfKey(members, i) && members[i].0 == tail[k - |head|].0;
          assert from <= i < |members| && FirstOfKey(members, i) && members[i].0 == r[k].0;
        }
      }
    } else {
      assert |ItemsFrom(members, from)| == 0;
    }
  }

  /** Every first occurrence at or after `from` yields an item. */
  lemma {:induction false} ItemsFromComplete(members: seq<(string, Json)>, from: nat)
    requires from <= |members|
    ensures forall i :: from <= i < |members| && FirstOfKey(members, i) ==>
      exists k :: 0 <= k < |ItemsFrom(members, from)| && ItemsFrom(members, from)[k].0 == members[i].0
    decreases |members| - from
  {
    if from < |members| {
      ItemsFromComplete(members, from + 1);
      var head := ItemAt(members, from);
      var tail := ItemsFrom(members, from + 1);
      var r := head + tail;
      assert r == ItemsFrom(members, from);
      forall i | from <= i < |members| && FirstOfKey(members, i)
        ensures exists k :: 0 <= k < |r| && r[k].0 == members[i].0
      {
        if i == from {
          assert r[0] == head[0];
        } else {
          var k :| 0 <= k < |tail| && tail[k].0 == members[i].0;
          assert r[k + |head|] == tail[k];
        }
      }
    }
  }

  /** The key of a first occurrence does not come back later in the items. */
  lemma FirstKeyNotLater(members: seq<(string, Json)>, from: nat, tail: seq<(string, Json)>)
    requires from < |members| && FirstOfKey(members, from)
    requires tail == ItemsFrom(members, from + 1)
    ensures forall k :: 0 <= k < |tail| ==> tail[k].0 != members[from].0
  {
    ItemsFromSound(members, from + 1);
    forall k | 0 <= k < |tail| ensures tail[k].0 != members[from].0 {
      assert FirstOccursFrom(members, from + 1, tail[k].0);
      var i :| from + 1 <= i < |members| && FirstOfKey(members, i) && members[i].0 == tail[k].0;
      assert members[from].0 != members[i].0;
    }
  }

  /** A new key in front of distinct keys keeps them distinct. */
  lemma DistinctCons(item: (string, Json), tail: seq<(string, Json)>)
    requires Distinct(Keys(tail))
    requires forall k :: 0 <= k < |tail| ==> tail[k].0 != item.0
    ensures Distinct(Keys([item] + tail))
  {
    var r := [item] + tail;
    var ks, tks := Keys(r), Keys(tail);
    forall a, b | 0 <= a < b < |ks| ensures ks[a] != ks[b] {
      assert ks[b] == r[b].0 == tail[b - 1].0;
      if a == 0 {
        assert ks[a] == item.0;
      } else {
        assert ks[a] == tks[a - 1] && ks[b] == tks[b - 1];
      }
    }
  }

  /** No key is listed twice. */
  lemma {:induction false} ItemsFromDistinct(members: seq<(string, Json)>, from: nat)
    requires from <= |members|
    ensures Distinct(Keys(ItemsFrom(members, from)))
    decreases |members| - from
  {
    if from < |members| {
      ItemsFromDistinct(members, from + 1);
      var head := ItemAt(members, from);
      var tail := ItemsFrom(members, from + 1);
      assert ItemsFrom(members, from) == head + tail;
      if |head| == 1 {
        FirstKeyNotLater(members, from, tail);
        DistinctCons(head[0], tail);
        assert head + tail == [head[0]] + tail;
      } else {
        assert head + tail == tail;
      }
    }
  }

  /** `d.items()`: each distinct key once, in first-occurrence order, with the value `Get` finds. */
  function Items(members: seq<(string, Json)>): (r: seq<(string, Json)>)
    ensures Distinct(Keys(r))
    ensures forall k :: 0 <= k < |r| ==> Get(members, r[k].0) == Some(r[k].1)
    ensures forall key :: HasKey(members, key) <==> exists k :: 0 <= k < |r| && r[k].0 == key
  {
    var r := ItemsFrom(members, 0);
    ItemsFromSound(members, 0);
    ItemsFromComplete(members, 0);
    ItemsFromDistinct(members, 0);
    forall key | HasKey(members, key) ensures exists k :: 0 <= k < |r| && r[k].0 == key {
      var i :| 0 <= i < |members| && members[i].0 == key;
      var f := FirstIndexOf(members, key, 0, i);
      assert FirstOfKey(members, f);
    }
    r
  }

  /** The first index at or after `from` whose key is `key`, given one at `i`. */
  function FirstIndexOf(members: seq<(string, Json)>, key: string, from: nat, i: nat): (f: nat)
    requires from <= i < |members| && members[i].0 == key
    requires forall j :: 0 <= j < from ==> members[j].0 != key
    ensures f <= i && members[f].0 == key && forall j :: 0 <= j < f ==> members[j].0 != key
    decreases i - from
  {
    if members[from].0 == key then from else FirstIndexOf(members, key, from + 1, i)
  }

  /** Python's numeric view of a JSON scalar: integers, and booleans as 0/1. */
  function AsNumber(j: Json): (r: Option<int>)
    ensures r.Some? <==> j.JInt? || j.JBool?
    ensures j.JInt? ==> r == Some(j.i)
  {
    match j
    case JInt(i) => Some(i)
    case JBool(b) => Some(if b then 1 else 0)
    case _ => None
  }

  /** A Python number as a real: integers, floats, and booleans as 0/1. */
  function AsReal(j: Json): (r: Option<real>)
    ensures r.Some? <==> j.JInt? || j.JBool? || j.JFloat?
    ensures j.JFloat? ==> r == Some(j.x)
    ensures AsNumber(j).Some? ==> r == Some(AsNumber(j).value as real)
  {
    match j
    case JInt(i) => Some(i as real)
    case JBool(b) => Some(if b then 1.0 else 0.0)
    case JFloat(x) => Some(x)
    case _ => None
  }

  /** `iter(j)` as a sequence of JSON values: list items, a string's characters, an object's keys;
      None for the scalars Python refuses to iterate. */
  function Iterate(j: Json): (r: Option<seq<Json>>)
    ensures r.None? <==> j.JNull? || j.JBool? || j.JInt? || j.JFloat?
    ensures j.JArray? ==> r == Some(j.items)
  {
    match j
    case JArray(items) => Some(items)
    case JString(s) => Some(seq(|s|, i requires 0 <= i < |s| => JString([s[i]])))
    case JObject(members) =>
      var ks := Items(members);
      Some(seq(|ks|, i requires 0 <= i < |ks| => JString(ks[i].0)))
    case _ => None
  }
}

=== FILE: merge_parser.dfy ===
/**
 * The configuration parser of the model-merge example: `str_trim`,
 * `str_split`, `get_i_layer`, `get_model_options` and `parse_config`.
 *
 * The tensor names of the input model (read through the library) and the
 * configuration file's text are parameters; `std::stof` is a parameter too,
 * as floating-point parsing is not modelled.  `std::stoi` and the `%d` of
 * `sscanf` share one decimal scanner.  The two `unordered_map`s whose
 * iteration order decides the order of the emitted instructions are kept
 * as maps: that order is unspecified in the source.
 */
module MergeParser {
  import opened Wrappers
  import opened Text
  import opened StringSort

  // ---------------------------------------------------------------------
  // String helpers
  // ---------------------------------------------------------------------

  /** The number of leading characters satisfying `p` is pinned down by its two defining facts. */
  lemma LeadingCountUnique(s: string, p: char -> bool, n: nat)
    requires n <= |s|
    requires forall k :: 0 <= k < n ==> p(s[k])
    requires n < |s| ==> !p(s[n])
    ensures LeadingCount(s, p) == n
  {
    var m := LeadingCount(s, p);

  }

  lemma TrailingCountUnique(s: string, p: char -> bool, n: nat)
    requires n <= |s|
    requires forall k :: |s| - n <= k < |s| ==> p(s[k])
    requires n < |s| ==> !p(s[|s| - n - 1])
    ensures TrailingCount(s, p) == n
  {
    var m := TrailingCount(s, p);

  }

  /** `str_trim`: two index loops; the result is the reference trim over C `isspace`. */
  method StrTrim(s: string) returns (r: string)
    ensures r == Trim(s, IsCSpace)
  {
    var start, end := 0, |s|;
    while start < end && IsCSpace(s[start])
      invariant 0 <= start <= end == |s|
      invariant forall k :: 0 <= k < start ==> IsCSpace(s[k])
    {
      start := start + 1;
    }
    LeadingCountUnique(s, IsCSpace, start);
    ghost var t := s[start..];
    while end > start && IsCSpace(s[end - 1])
      invariant start <= end <= |s|
      invariant forall k :: end <= k < |s| ==> IsCSpace(s[k])
    {
      end := end - 1;
    }
    TrailingCountUnique(t, IsCSpace, |s| - end);
    r := s[start..end];
    assert r == TrimEnd(t, IsCSpace);
  }

  /** `str_split`: cut at each occurrence found from the front, erasing what was consumed;
      the result is the reference split, so joining it gives the input back. */
  method StrSplit(str: string, delimiter: string) returns (output: seq<string>)
    requires |delimiter| > 0
    ensures output == Split(str, delimiter)
    ensures Join(output, delimiter) == str
  {
    var rest := str;
    output := [];
    while FindFrom(rest, delimiter, 0).Some?
      invariant output + Split(rest, delimiter) == Split(str, delimiter)
      decreases |rest|
    {
      var pos := FindFrom(rest, delimiter, 0).value;
      assert Split(rest, delimiter) == [rest[..pos]] + Split(rest[pos + |delimiter|..], delimiter);
      output := output + [rest[..pos]];
      rest := rest[pos + |delimiter|..];
    }
    output := output + [rest];
    SplitJoin(str, delimiter);
  }

  // ---------------------------------------------------------------------
  // Integers: `std::stoi` and the `%d` conversion of `sscanf`
  // ---------------------------------------------------------------------

  /** Leading white space, an optional sign, then at least one digit; what follows is ignored.
      None when no digit follows (`stoi` throws, `sscanf` converts nothing). */
  function ScanInt(s: string): (r: Option<int>)
    ensures |s| > 0 && !IsCSpace(s[0]) && s[0] != '-' && s[0] != '+' ==> r == ScanDigits(s)
  {
    var t := TrimStart(s, IsCSpace);
    assert |s| > 0 && !IsCSpace(s[0]) ==> t == s;
    if |t| > 0 && t[0] == '-' then
      match ScanDigits(t[1..])
      case None => None
      case Some(v) => Some(-v)
    else if |t| > 0 && t[0] == '+' then ScanDigits(t[1..])
    else ScanDigits(t)
  }

  /** The value of the maximal leading run of digits, if there is one. */
  function ScanDigits(body: string): (r: Option<int>)
    ensures r.Some? ==> r.value >= 0
  {
    var n := LeadingCount(body, IsDigit);
    if n == 0 then None else Some(DigitsValue(body[..n]))
  }

  lemma {:induction false} LeadingCountAppend(a: string, b: string, p: char -> bool)
    requires forall k :: 0 <= k < |a| ==> p(a[k])
    requires |b| > 0 && !p(b[0])
    ensures LeadingCount(a + b, p) == |a|
  {
    var s := a + b;
    assert s[|a|] == b[0];
    LeadingCountUnique(s, p, |a|);
  }

  /** The decimal digits of a number, followed by a non-digit, scan back to that number. */
  lemma ScanDigitsOfPrinted(m: nat, rest: string)
    requires |rest| > 0 && !IsDigit(rest[0])
    ensures ScanDigits(NatToString(m) + rest) == Some(m)
  {
    var digits := NatToString(m);
    LeadingCountAppend(digits, rest, IsDigit);
    assert (digits + rest)[..|digits|] == digits;
    NatToStringValue(m);
  }

  /** A minus sign in front of digits negates their value. */
  lemma ScanIntMinus(body: string)
    requires ScanDigits(body).Some?
    ensures ScanInt("-" + body) == Some(-ScanDigits(body).value)
  {
    var s := "-" + body;
    assert !IsCSpace(s[0]);
    LeadingCountUnique(s, IsCSpace, 0);
    assert s[1..] == body;
  }

  /** The printed form of a number, followed by a non-digit, scans back to that number. */
  lemma ScanIntOfPrinted(n: int, rest: string)
    requires |rest| > 0 && !IsDigit(rest[0])
    ensures ScanInt(IntToString(n) + rest) == Some(n)
  {
    if n < 0 {
      ScanNegativeOfPrinted(-n, rest);
      assert IntToString(n) == "-" + NatToString(-n);
    } else {
      ScanNatOfPrinted(n, rest);
    }
  }

  lemma ScanNatOfPrinted(m: nat, rest: string)
    requires |rest| > 0 && !IsDigit(rest[0])
    ensures ScanInt(NatToString(m) + rest) == Some(m)
  {
    var s := NatToString(m) + rest;
    assert s[0] == NatToString(m)[0];
    ScanDigitsOfPrinted(m, rest);
  }

  lemma ScanNegativeOfPrinted(m: nat, rest: string)
    requires m > 0 && |rest| > 0 && !IsDigit(rest[0])
    ensures ScanInt("-" + NatToString(m) + rest) == Some(0 - m)
  {
    ScanDigitsOfPrinted(m, rest);
    assert "-" + NatToString(m) + rest == "-" + (NatToString(m) + rest);
    ScanIntMinus(NatToString(m) + rest);
  }

  // ---------------------------------------------------------------------
  // Tensor names and model options
  // ---------------------------------------------------------------------

  const LAYER_PREFIX: string := "blk."

  /** `get_i_layer`: `sscanf(name, "blk.%d.")`, the number when a conversion happened, else -1.
      The trailing `.` of the format is not needed for the conversion to count. */
  function GetILayer(name: string): (r: int)
    ensures !IsPrefix(LAYER_PREFIX, name) ==> r == -1
  {
    if !IsPrefix(LAYER_PREFIX, name) then -1
    else
      match ScanInt(name[|LAYER_PREFIX|..])
      case None => -1
      case Some(v) => v
  }

  /** The `get_tensor_name` lambda: `blk.<layer>.<unit>.weight`. */
  function TensorName(layer: int, unit: string): string {
    LAYER_PREFIX + IntToString(layer) + "." + unit + ".weight"
  }

  /** A layer tensor name gives back its layer number. */
  lemma LayerOfTensorName(layer: int, unit: string)
    ensures GetILayer(TensorName(layer, unit)) == layer
  {
    var name := TensorName(layer, unit);
    var rest := "." + unit + ".weight";
    assert name == LAYER_PREFIX + (IntToString(layer) + rest);
    assert name[|LAYER_PREFIX|..] == IntToString(layer) + rest;
    ScanIntOfPrinted(layer, rest);
  }

  /** `components_and_units`: the names in order, and the two `std::set`s as ascending sequences. */
  datatype ModelOptions = ModelOptions(tensors: seq<string>, components: seq<string>, units: seq<string>)

  datatype ConfigError =
    | CannotOpen                             // the configuration file cannot be opened
    | ShortLayerName(name: string)           // `parts[2]` of a layer tensor name with fewer than three parts
    | BadNumber(text: string)                // `std::stoi` / `std::stof` found no number
    | ParseError(line: nat, problem: Problem) // `raise_err(i_line, ...)`, reporting line i_line + 1

  datatype Problem =
    | MalformedComponent                     // a `component` line with fewer than three words
    | ComponentLinearArity | ComponentSlerpArity | ComponentCopy
    | InvalidVerb(verb: string)
    | BadFormat                              // a layer line that is not three words
    | LayerNumber                            // `output layer N` out of sequence
    | LinearArity | SlerpArity | CopyArity | CopyModel | RepeatUnsupported
    | UnknownUnit(unit: string)

  /** Is `name` a layer tensor, as `get_model_options` decides it. */
  predicate IsLayerTensor(name: string) {
    GetILayer(name) >= 0
  }

  /** The component a non-layer name contributes, and the unit a layer name contributes. */
  function ComponentOf(name: string): string {
    Split(name, ".")[0]
  }

  function UnitOf(name: string): string
    requires |Split(name, ".")| >= 3
  {
    Split(name, ".")[2]
  }

  /** The loop of `get_model_options`: components of non-layer names and units of layer names,
      in name order; fails on the first layer name with fewer than three parts. */
  function CollectOptions(names: seq<string>): (r: Result<(seq<string>, seq<string>), ConfigError>)
    decreases |names|
  {
    if |names| == 0 then Ok(([], []))
    else
      var name := names[0];
      if !IsLayerTensor(name) then
        var rest :- CollectOptions(names[1..]);
        Ok(([ComponentOf(name)] + rest.0, rest.1))
      else if |Split(name, ".")| < 3 then Err(ShortLayerName(name))
      else
        var rest :- CollectOptions(names[1..]);
        Ok((rest.0, [UnitOf(name)] + rest.1))
  }

  predicate WellFormedNames(names: seq<string>) {
    forall i :: 0 <= i < |names| && IsLayerTensor(names[i]) ==> |Split(names[i], ".")| >= 3
  }

  function ComponentSet(names: seq<string>): set<string> {
    set i | 0 <= i < |names| && !IsLayerTensor(names[i]) :: ComponentOf(names[i])
  }

  function UnitSet(names: seq<string>): set<string>
    requires WellFormedNames(names)
  {
    set i | 0 <= i < |names| && IsLayerTensor(names[i]) :: UnitOf(names[i])
  }

  lemma SetsCons(names: seq<string>)
    requires |names| > 0
    ensures ComponentSet(names) == (if IsLayerTensor(names[0]) then {} else {ComponentOf(names[0])}) + ComponentSet(names[1..])
    ensures WellFormedNames(names) ==> WellFormedNames(names[1..])
    ensures WellFormedNames(names) ==>
              UnitSet(names) == (if IsLayerTensor(names[0]) then {UnitOf(names[0])} else {}) + UnitSet(names[1..])
  {
    var tail := names[1..];
    assert forall i :: 1 <= i < |names| ==> names[i] == tail[i - 1];
    forall x | x in ComponentSet(names) ensures x in (if IsLayerTensor(names[0]) then {} else {ComponentOf(names[0])}) + ComponentSet(tail) {
      var i :| 0 <= i < |names| && !IsLayerTensor(names[i]) && ComponentOf(names[i]) == x;
      if i > 0 { assert tail[i - 1] == names[i]; }
    }
    forall x | x in ComponentSet(tail) ensures x in ComponentSet(names) {
      var i :| 0 <= i < |tail| && !IsLayerTensor(tail[i]) && ComponentOf(tail[i]) == x;
      assert names[i + 1] == tail[i];
    }
    if WellFormedNames(names) {
      forall x | x in UnitSet(names) ensures x in (if IsLayerTensor(names[0]) then {UnitOf(names[0])} else {}) + UnitSet(tail) {
        var i :| 0 <= i < |names| && IsLayerTensor(names[i]) && UnitOf(names[i]) == x;
        if i > 0 { assert tail[i - 1] == names[i]; }
      }
      forall x | x in UnitSet(tail) ensures x in UnitSet(names) {
        var i :| 0 <= i < |tail| && IsLayerTensor(tail[i]) && UnitOf(tail[i]) == x;
        assert names[i + 1] == tail[i];
      }
    }
  }

  /** Collecting succeeds iff every layer name has a unit part; a failure names one of the names. */
  lemma {:induction false} CollectOptionsOk(names: seq<string>)
    ensures CollectOptions(names).Ok? <==> WellFormedNames(names)
    ensures CollectOptions(names).Err? ==> exists i :: 0 <= i < |names| && CollectOptions(names).error == ShortLayerName(names[i])
    decreases |names|
  {
    if |names| > 0 {
      var tail := names[1..];
      CollectOptionsOk(tail);
      assert forall i :: 1 <= i < |names| ==> names[i] == tail[i - 1];
      if !WellFormedNames(names) && !(IsLayerTensor(names[0]) && |Split(names[0], ".")| < 3) {
        var i :| 0 <= i < |names| && IsLayerTensor(names[i]) && |Split(names[i], ".")| < 3;
        assert tail[i - 1] == names[i];
      }
    }
  }

  /** The components collected are the first parts of the non-layer names, the units the third
      parts of the layer names. */
  lemma {:induction false} CollectOptionsSets(names: seq<string>)
    requires CollectOptions(names).Ok?
    ensures Elements(CollectOptions(names).value.0) == ComponentSet(names)
    ensures WellFormedNames(names) && Elements(CollectOptions(names).value.1) == UnitSet(names)
    decreases |names|
  {
    CollectOptionsOk(names);
    if |names| > 0 {
      var tail := names[1..];
      var rest := CollectOptions(tail).value;
      CollectOptionsSets(tail);
      SetsCons(names);
      var r := CollectOptions(names).value;
      if IsLayerTensor(names[0]) {
        assert r == (rest.0, [UnitOf(names[0])] + rest.1);
        ElementsCons(UnitOf(names[0]), rest.1);
      } else {
        assert r == ([ComponentOf(names[0])] + rest.0, rest.1);
        ElementsCons(ComponentOf(names[0]), rest.0);
      }
    }
  }

  /** `get_model_options` over the model's tensor names. */
  function GetModelOptions(names: seq<string>): (r: Result<ModelOptions, ConfigError>)
    ensures r.Ok? ==> r.value.tensors == names
                      && StrictlySorted(r.value.components) && StrictlySorted(r.value.units)
  {
    var parts :- CollectOptions(names);
    Ok(ModelOptions(names, SortedSet(parts.0), SortedSet(parts.1)))
  }

  /** The two sets are exactly the components and units the names contribute. */
  lemma GetModelOptionsSets(names: seq<string>)
    ensures GetModelOptions(names).Ok? <==> WellFormedNames(names)
    ensures GetModelOptions(names).Ok? ==>
              Elements(GetModelOptions(names).value.components) == ComponentSet(names)
              && Elements(GetModelOptions(names).value.units) == UnitSet(names)
  {
    CollectOptionsOk(names);
    if WellFormedNames(names) {
      CollectOptionsSets(names);
    }
  }

  // ---------------------------------------------------------------------
  // Instructions
  // ---------------------------------------------------------------------

  /** The merge method and its numbers; `Unset` is an instruction no verb has touched. */
  datatype Method = Linear(scale0: real, scale1: real) | Slerp(t: real) | Copy | Unset

  /** `llama_merge_inst`. */
  datatype MergeInst = MergeInst(name: string, how: Method, src0: string, src1: string)

  /** An instruction no verb has touched; an entry `operator[]` creates has the empty name. */
  function Untouched(name: string): MergeInst {
    MergeInst(name, Unset, "", "")
  }

  /** The instruction every model component starts with: SLERP at t = 0.5 of `<c>.weight`. */
  function DefaultComponent(c: string): (ins: MergeInst)
    ensures ins.how == Slerp(0.5)
    ensures ins.name == c + ".weight" && ins.src0 == ins.name && ins.src1 == ins.name
  {
    MergeInst(c + ".weight", Slerp(0.5), c + ".weight", c + ".weight")
  }

  function DefaultComponents(components: seq<string>): (m: map<string, MergeInst>)
    ensures m.Keys == Elements(components)
    ensures forall c :: c in m ==> m[c] == DefaultComponent(c)
  {
    map c | c in Elements(components) :: DefaultComponent(c)
  }

  /** `std::stof`, which is not modelled. */
  type FloatParser = string -> Option<real>

  function Stoi(s: string): Result<int, ConfigError> {
    ScanInt(s).OrFail(BadNumber(s))
  }

  function Stof(parse: FloatParser, s: string): Result<real, ConfigError> {
    parse(s).OrFail(BadNumber(s))
  }

  // ---------------------------------------------------------------------
  // The component pass
  // ---------------------------------------------------------------------

  /** One `component <verb> <params>` line: the instruction it stores under `params[0]`. */
  function ComponentLine(parse: FloatParser, lineNo: nat, verb: string, params: seq<string>)
    : (r: Result<(string, MergeInst), ConfigError>)
    requires |params| >= 1
    ensures r.Ok? ==> (verb == "linear" && |params| == 3) || (verb == "slerp" && |params| == 2)
    ensures r.Ok? ==> r.value.0 == params[0] && r.value.1.name == params[0] + ".weight"
                      && r.value.1.src0 == r.value.1.name && r.value.1.src1 == r.value.1.name
    ensures verb == "copy" ==> r == Err(ParseError(lineNo + 1, ComponentCopy))
    ensures verb !in {"linear", "slerp", "copy"} ==> r == Err(ParseError(lineNo + 1, InvalidVerb(verb)))
  {
    var name := params[0] + ".weight";
    if verb == "linear" then
      if |params| != 3 then Err(ParseError(lineNo + 1, ComponentLinearArity))
      else
        var s0 :- Stof(parse, params[1]);
        var s1 :- Stof(parse, params[2]);
        Ok((params[0], MergeInst(name, Linear(s0, s1), name, name)))
    else if verb == "slerp" then
      if |params| != 2 then Err(ParseError(lineNo + 1, ComponentSlerpArity))
      else
        var t :- Stof(parse, params[1]);
        Ok((params[0], MergeInst(name, Slerp(t), name, name)))
    else if verb == "copy" then Err(ParseError(lineNo + 1, ComponentCopy))
    else Err(ParseError(lineNo + 1, InvalidVerb(verb)))
  }

  /** A trimmed line belongs to the component pass iff it starts with `component`. */
  predicate IsComponentLine(line: string) {
    IsPrefix("component", Trim(line, IsCSpace))
  }

  /** One line of the first loop: lines not starting with `component` change nothing. */
  function ComponentStep(parse: FloatParser, lineNo: nat, raw: string, comp: map<string, MergeInst>)
    : (r: Result<map<string, MergeInst>, ConfigError>)
    ensures !IsComponentLine(raw) ==> r == Ok(comp)
    ensures r.Ok? ==> comp.Keys <= r.value.Keys
    ensures r.Err? && r.error.ParseError? ==> r.error.line == lineNo + 1
  {
    if !IsComponentLine(raw) then Ok(comp)
    else
      var parts := Split(Trim(raw, IsCSpace), " ");
      if |parts| < 3 then Err(ParseError(lineNo + 1, MalformedComponent))
      else
        var entry :- ComponentLine(parse, lineNo, parts[1], Split(parts[2], ","));
        Ok(comp[entry.0 := entry.1])
  }

  /** What the first loop does with one line. */
  type ComponentStepper = (nat, string, map<string, MergeInst>) -> Result<map<string, MergeInst>, ConfigError>

  function ComponentSteps(parse: FloatParser): ComponentStepper {
    (lineNo: nat, raw: string, comp: map<string, MergeInst>) => ComponentStep(parse, lineNo, raw, comp)
  }

  /** A line step that skips non-component lines and never drops an entry. */
  ghost predicate ComponentStepSound(step: ComponentStepper) {
    forall lineNo, raw, comp ::
      && (!IsComponentLine(raw) ==> step(lineNo, raw, comp) == Ok(comp))
      && (step(lineNo, raw, comp).Ok? ==> comp.Keys <= step(lineNo, raw, comp).value.Keys)
  }

  lemma ComponentStepsSound(parse: FloatParser)
    ensures ComponentStepSound(ComponentSteps(parse))
  {
    forall lineNo, raw, comp
      ensures !IsComponentLine(raw) ==> ComponentSteps(parse)(lineNo, raw, comp) == Ok(comp)
      ensures ComponentSteps(parse)(lineNo, raw, comp).Ok? ==>
                comp.Keys <= ComponentSteps(parse)(lineNo, raw, comp).value.Keys
    {
      assert ComponentSteps(parse)(lineNo, raw, comp) == ComponentStep(parse, lineNo, raw, comp);
    }
  }

  /** The first loop of `parse_config`, from line `i` on. */
  function ComponentPass(step: ComponentStepper, lines: seq<string>, i: nat, comp: map<string, MergeInst>)
    : (r: Result<map<string, MergeInst>, ConfigError>)
    requires i <= |lines|
    decreases |lines| - i
  {
    if i == |lines| then Ok(comp)
    else
      var next :- step(i, lines[i], comp);
      ComponentPass(step, lines, i + 1, next)
  }

  /** Without component lines the components keep their defaults. */
  lemma {:induction false} ComponentPassNoLines(step: ComponentStepper, lines: seq<string>, i: nat, comp: map<string, MergeInst>)
    requires ComponentStepSound(step)
    requires i <= |lines|
    requires forall k :: i <= k < |lines| ==> !IsComponentLine(lines[k])
    ensures ComponentPass(step, lines, i, comp) == Ok(comp)
    decreases |lines| - i
  {
    if i < |lines| {
      assert step(i, lines[i], comp) == Ok(comp);
      ComponentPassNoLines(step, lines, i + 1, comp);
    }
  }

  /** The component pass only adds or replaces entries: every starting key stays. */
  lemma {:induction false} ComponentPassKeeps(step: ComponentStepper, lines: seq<string>, i: nat, comp: map<string, MergeInst>)
    requires ComponentStepSound(step)
    requires i <= |lines|
    ensures ComponentPass(step, lines, i, comp).Ok? ==> comp.Keys <= ComponentPass(step, lines, i, comp).value.Keys
    decreases |lines| - i
  {
    if i < |lines| {
      var next := step(i, lines[i], comp);
      if next.Ok? {
        ComponentPassKeeps(step, lines, i + 1, next.value);
      }
    }
  }

  // ---------------------------------------------------------------------
  // The layer pass
  // ---------------------------------------------------------------------

  /** How the second loop reads a line. */
  datatype LayerLine =
    | Skipped                                           // empty, `#` comment or component line
    | Malformed                                         // not three space-separated words
    | NewLayer(number: string)                          // `output layer <N>`: `params[0]`
    | Apply(target: string, verb: string, params: seq<string>)

  function ClassifyLayerLine(raw: string): (k: LayerLine)
    ensures k.Skipped? <==> var l := Trim(raw, IsCSpace); |l| == 0 || l[0] == '#' || IsPrefix("component", l)
    ensures k.Apply? ==> |k.params| >= 1 && !(k.target == "output" && k.verb == "layer")
  {
    var line := Trim(raw, IsCSpace);
    if |line| == 0 || line[0] == '#' || IsPrefix("component", line) then Skipped
    else
      var parts := Split(line, " ");
      if |parts| != 3 then Malformed
      else if parts[0] == "output" && parts[1] == "layer" then NewLayer(Split(parts[2], ",")[0])
      else Apply(parts[0], parts[1], Split(parts[2], ","))
  }

  /** A verb applied to one unit's instruction (`apply_verb`): the name is kept, the sources
      are layer tensors of that unit. */
  function ApplyVerb(parse: FloatParser, lineNo: nat, verb: string, params: seq<string>,
                     ins: MergeInst, unit: string)
    : (r: Result<MergeInst, ConfigError>)
    ensures r.Ok? ==> r.value.name == ins.name
    ensures r.Ok? <==>
              || (verb == "linear" && |params| == 4 && Stoi(params[0]).Ok? && Stoi(params[1]).Ok?
                  && Stof(parse, params[2]).Ok? && Stof(parse, params[3]).Ok?)
              || (verb == "slerp" && |params| == 3 && Stoi(params[0]).Ok? && Stoi(params[1]).Ok?
                  && Stof(parse, params[2]).Ok?)
              || (verb == "copy" && |params| == 2 && Stoi(params[0]).Ok? && Stoi(params[1]).Ok?
                  && Stoi(params[0]).value in {0, 1})
    ensures r.Ok? && verb != "copy" ==>
              r.value.src0 == TensorName(Stoi(params[0]).value, unit)
              && r.value.src1 == TensorName(Stoi(params[1]).value, unit)
    ensures r.Ok? && verb == "copy" ==>
              r.value.how == Copy
              && (Stoi(params[0]).value == 0 ==> r.value.src0 == TensorName(Stoi(params[1]).value, unit) && r.value.src1 == "")
              && (Stoi(params[0]).value == 1 ==> r.value.src0 == "" && r.value.src1 == TensorName(Stoi(params[1]).value, unit))
    ensures verb == "repeat" ==> r == Err(ParseError(lineNo + 1, RepeatUnsupported))
    ensures verb !in {"linear", "slerp", "copy", "repeat"} ==> r == Err(ParseError(lineNo + 1, InvalidVerb(verb)))
  {
    if verb == "linear" then
      if |params| != 4 then Err(ParseError(lineNo + 1, LinearArity))
      else
        var a :- Stoi(params[0]);
        var b :- Stoi(params[1]);
        var s0 :- Stof(parse, params[2]);
        var s1 :- Stof(parse, params[3]);
        Ok(MergeInst(ins.name, Linear(s0, s1), TensorName(a, unit), TensorName(b, unit)))
    else if verb == "slerp" then
      if |params| != 3 then Err(ParseError(lineNo + 1, SlerpArity))
      else
        var a :- Stoi(params[0]);
        var b :- Stoi(params[1]);
        var t :- Stof(parse, params[2]);
        Ok(MergeInst(ins.name, Slerp(t), TensorName(a, unit), TensorName(b, unit)))
    else if verb == "repeat" then Err(ParseError(lineNo + 1, RepeatUnsupported))
    else if verb == "copy" then
      if |params| != 2 then Err(ParseError(lineNo + 1, CopyArity))
      else
        var model :- Stoi(params[0]);
        var layer :- Stoi(params[1]);
        if model == 0 then Ok(MergeInst(ins.name, Copy, TensorName(layer, unit), ""))
        else if model == 1 then Ok(MergeInst(ins.name, Copy, "", TensorName(layer, unit)))
        else Err(ParseError(lineNo + 1, CopyModel))
    else Err(ParseError(lineNo + 1, InvalidVerb(verb)))
  }

  /** `layer[u]`: the stored instruction, or the empty one `operator[]` inserts. */
  function Slot(layer: map<string, MergeInst>, u: string): MergeInst {
    if u in layer then layer[u] else Untouched("")
  }

  /** A verb line's action on one unit's instruction. */
  type VerbApplier = (MergeInst, string) -> Result<MergeInst, ConfigError>

  function Verb(parse: FloatParser, lineNo: nat, verb: string, params: seq<string>): VerbApplier {
    (ins, u) => ApplyVerb(parse, lineNo, verb, params, ins, u)
  }

  /** The `all` target: the verb applied to every unit in ascending order. */
  function ApplyAll(apply: VerbApplier, layer: map<string, MergeInst>, units: seq<string>)
    : (r: Result<map<string, MergeInst>, ConfigError>)
    ensures r.Ok? ==> r.value.Keys == layer.Keys + Elements(units)
    decreases |units|
  {
    if |units| == 0 then Ok(layer)
    else
      var u := units[0];
      var ins :- apply(Slot(layer, u), u);
      ApplyAll(apply, layer[u := ins], units[1..])
  }

  /** `all` leaves every entry that is not a unit as it was. */
  lemma {:induction false} ApplyAllOther(apply: VerbApplier, layer: map<string, MergeInst>, units: seq<string>, k: string)
    requires ApplyAll(apply, layer, units).Ok?
    requires k in layer && k !in Elements(units)
    ensures ApplyAll(apply, layer, units).value[k] == layer[k]
    decreases |units|
  {
    if |units| > 0 {
      var u := units[0];
      var ins := apply(Slot(layer, u), u).value;
      assert units[0] in Elements(units);
      assert Elements(units[1..]) <= Elements(units) by {
        forall x | x in Elements(units[1..]) ensures x in Elements(units) {
          var j :| 0 <= j < |units[1..]| && units[1..][j] == x;
          assert units[j + 1] == x;
        }
      }
      ApplyAllOther(apply, layer[u := ins], units[1..], k);
    }
  }

  /** The rest of an ascending list is ascending and does not hold its head. */
  lemma SortedTail(units: seq<string>)
    requires StrictlySorted(units) && |units| > 0
    ensures StrictlySorted(units[1..])
    ensures units[0] !in Elements(units[1..])
    ensures forall j :: 1 <= j < |units| ==> units[j] != units[0]
  {
    var tail := units[1..];
    forall a, b | 0 <= a < b < |tail| ensures Less(tail[a], tail[b]) {
      assert tail[a] == units[a + 1] && tail[b] == units[b + 1];
    }
    forall j | 1 <= j < |units| ensures units[j] != units[0] {
      assert Less(units[0], units[j]);
      if units[j] == units[0] { LessIrreflexive(units[0]); }
    }
    forall j | 0 <= j < |tail| ensures tail[j] != units[0] {
      assert tail[j] == units[j + 1];
    }
  }

  /** A successful `all` has applied the verb to the first unit and continues with the rest. */
  lemma ApplyAllCons(apply: VerbApplier, layer: map<string, MergeInst>, units: seq<string>)
    requires |units| > 0 && ApplyAll(apply, layer, units).Ok?
    ensures apply(Slot(layer, units[0]), units[0]).Ok?
    ensures ApplyAll(apply, layer, units)
            == ApplyAll(apply, layer[units[0] := apply(Slot(layer, units[0]), units[0]).value], units[1..])
  {
  }

  /** `all` gives each unit (the units ascending, so distinct) the verb applied to its own instruction. */
  lemma {:induction false} ApplyAllAt(apply: VerbApplier, layer: map<string, MergeInst>, units: seq<string>, i: nat)
    requires StrictlySorted(units) && i < |units|
    requires ApplyAll(apply, layer, units).Ok?
    ensures apply(Slot(layer, units[i]), units[i]).Ok?
    ensures ApplyAll(apply, layer, units).value[units[i]] == apply(Slot(layer, units[i]), units[i]).value
    decreases i
  {
    var u := units[0];
    ApplyAllCons(apply, layer, units);
    var next := layer[u := apply(Slot(layer, u), u).value];
    SortedTail(units);
    if i == 0 {
      ApplyAllOther(apply, next, units[1..], u);
    } else {
      assert units[1..][i - 1] == units[i];
      assert Slot(next, units[i]) == Slot(layer, units[i]);
      ApplyAllAt(apply, next, units[1..], i - 1);
    }
  }

  lemma ApplyAllNoUnits(apply: VerbApplier, layer: map<string, MergeInst>)
    ensures ApplyAll(apply, layer, []) == Ok(layer)
  {
  }

  /** The mutable locals of the layer loop. */
  datatype LayerState = LayerState(layer: map<string, MergeInst>, isEmpty: bool, iLayer: int,
                                   flushed: seq<map<string, MergeInst>>)

  /** `new_output_layer`: one untouched instruction per unit, named after the new layer. */
  function NewOutputLayer(units: seq<string>, iLayer: int): (m: map<string, MergeInst>)
    ensures m.Keys == Elements(units)
    ensures forall u :: u in m ==> m[u] == Untouched(TensorName(iLayer, u))
  {
    map u | u in Elements(units) :: Untouched(TensorName(iLayer, u))
  }

  /** `push_output_layer`: the current layer is emitted only if some verb touched it. */
  function Flush(st: LayerState): (f: seq<map<string, MergeInst>>)
    ensures st.isEmpty ==> f == st.flushed
    ensures !st.isEmpty ==> f == st.flushed + [st.layer]
  {
    if st.isEmpty then st.flushed else st.flushed + [st.layer]
  }

  /** One line of the layer loop. */
  function LayerStep(parse: FloatParser, units: seq<string>, lineNo: nat, kind: LayerLine, st: LayerState)
    : (r: Result<LayerState, ConfigError>)
    ensures r.Ok? && kind.NewLayer? ==>
              Stoi(kind.number) == Ok(st.iLayer + 1)
              && r.value == LayerState(NewOutputLayer(units, st.iLayer + 1), true, st.iLayer + 1, Flush(st))
    ensures r.Ok? && !kind.NewLayer? ==> r.value.iLayer == st.iLayer && r.value.flushed == st.flushed
    ensures r.Ok? && kind.Apply? ==> !r.value.isEmpty || (kind.target == "all" && |units| == 0)
    ensures kind.Malformed? ==> r == Err(ParseError(lineNo + 1, BadFormat))
    ensures kind.Apply? && kind.target != "all" && kind.target !in Elements(units) ==>
              r == Err(ParseError(lineNo + 1, UnknownUnit(kind.target)))
  {
    match kind
    case Skipped => Ok(st)
    case Malformed => Err(ParseError(lineNo + 1, BadFormat))
    case NewLayer(number) =>
      var n :- Stoi(number);
      if st.iLayer + 1 != n then Err(ParseError(lineNo + 1, LayerNumber))
      else Ok(LayerState(NewOutputLayer(units, n), true, n, Flush(st)))
    case Apply(target, verb, params) =>
      if target == "all" then
        var layer :- ApplyAll(Verb(parse, lineNo, verb, params), st.layer, units);
        Ok(LayerState(layer, st.isEmpty && |units| == 0, st.iLayer, st.flushed))
      else if target !in Elements(units) then Err(ParseError(lineNo + 1, UnknownUnit(target)))
      else
        var ins :- ApplyVerb(parse, lineNo, verb, params, Slot(st.layer, target), target);
        Ok(LayerState(st.layer[target := ins], false, st.iLayer, st.flushed))
  }

  /** What the second loop does with one line. */
  type LayerStepper = (nat, string, LayerState) -> Result<LayerState, ConfigError>

  function LayerSteps(parse: FloatParser, units: seq<string>): LayerStepper {
    (lineNo: nat, raw: string, st: LayerState) => LayerStep(parse, units, lineNo, ClassifyLayerLine(raw), st)
  }

  /** The layer index and the emitted layers grow by one exactly on `output layer` lines. */
  predicate Numbered(r: Result<LayerState, ConfigError>, raw: string, st: LayerState) {
    var d := if ClassifyLayerLine(raw).NewLayer? then 1 else 0;
    r.Ok? ==> r.value.iLayer == st.iLayer + d && |r.value.flushed| <= |st.flushed| + d
  }

  /** A line step that numbers layers and reports errors on its own line. */
  ghost predicate LayerStepSound(step: LayerStepper) {
    forall lineNo, raw, st :: Numbered(step(lineNo, raw, st), raw, st) && OnLine(step(lineNo, raw, st), lineNo)
  }

  lemma LayerStepsSound(parse: FloatParser, units: seq<string>)
    ensures LayerStepSound(LayerSteps(parse, units))
  {
    forall lineNo, raw, st
      ensures Numbered(LayerSteps(parse, units)(lineNo, raw, st), raw, st)
      ensures OnLine(LayerSteps(parse, units)(lineNo, raw, st), lineNo)
    {
      var r := LayerStep(parse, units, lineNo, ClassifyLayerLine(raw), st);
      assert LayerSteps(parse, units)(lineNo, raw, st) == r;
      if r.Err? {
        ApplyErrorLine(parse, units, lineNo, ClassifyLayerLine(raw), st);
      }
    }
  }

  /** The second loop of `parse_config`, from line `i` on. */
  function LayerPass(step: LayerStepper, lines: seq<string>, i: nat, st: LayerState)
    : (r: Result<LayerState, ConfigError>)
    requires i <= |lines|
    decreases |lines| - i
  {
    if i == |lines| then Ok(st)
    else
      var next :- step(i, lines[i], st);
      LayerPass(step, lines, i + 1, next)
  }

  /** Number of `output layer` lines among `lines[i..]`. */
  function CountNewLayers(lines: seq<string>, i: nat): nat
    requires i <= |lines|
    decreases |lines| - i
  {
    if i == |lines| then 0
    else (if ClassifyLayerLine(lines[i]).NewLayer? then 1 else 0) + CountNewLayers(lines, i + 1)
  }

  /** Every successful layer pass has numbered the `output layer` lines consecutively, so the
      final layer index has grown by their count; at most one layer is emitted per such line,
      plus the one in progress. */
  lemma {:induction false} LayerPassNumbering(step: LayerStepper, lines: seq<string>, i: nat, st: LayerState)
    requires LayerStepSound(step)
    requires i <= |lines|
    requires LayerPass(step, lines, i, st).Ok?
    ensures LayerPass(step, lines, i, st).value.iLayer == st.iLayer + CountNewLayers(lines, i)
    ensures |LayerPass(step, lines, i, st).value.flushed| <= |st.flushed| + CountNewLayers(lines, i)
    decreases |lines| - i
  {
    if i < |lines| {
      assert Numbered(step(i, lines[i], st), lines[i], st);
      var next := step(i, lines[i], st).value;
      LayerPassNumbering(step, lines, i + 1, next);
    }
  }

  /** A parse error always names a line of the file (1-based). */
  lemma {:induction false} LayerPassErrorLine(step: LayerStepper, lines: seq<string>, i: nat, st: LayerState)
    requires LayerStepSound(step)
    requires i <= |lines|
    requires LayerPass(step, lines, i, st).Err?
    ensures LayerPass(step, lines, i, st).error.ParseError? ==>
              i < LayerPass(step, lines, i, st).error.line <= |lines|
    decreases |lines| - i
  {
    var r := step(i, lines[i], st);
    if r.Ok? {
      LayerPassErrorLine(step, lines, i + 1, r.value);
    } else {
      assert OnLine(r, i);
    }
  }

  /** A failing layer line reports itself. */
  lemma ApplyErrorLine(parse: FloatParser, units: seq<string>, lineNo: nat, kind: LayerLine, st: LayerState)
    requires LayerStep(parse, units, lineNo, kind, st).Err?
    ensures OnLine(LayerStep(parse, units, lineNo, kind, st), lineNo)
  {
    if kind.Apply? && kind.target == "all" {
      var apply := Verb(parse, lineNo, kind.verb, kind.params);
      forall ins, u ensures OnLine(apply(ins, u), lineNo) {
        assert apply(ins, u) == ApplyVerb(parse, lineNo, kind.verb, kind.params, ins, u);
      }
      ApplyAllErrorLine(apply, lineNo, st.layer, units);
    }
  }

  /** An error, if any, that is a parse error names line `lineNo + 1`. */
  predicate OnLine<T>(r: Result<T, ConfigError>, lineNo: nat) {
    r.Err? && r.error.ParseError? ==> r.error.line == lineNo + 1
  }

  lemma {:induction false} ApplyAllErrorLine(apply: VerbApplier, lineNo: nat, layer: map<string, MergeInst>, units: seq<string>)
    requires forall ins, u :: OnLine(apply(ins, u), lineNo)
    ensures OnLine(ApplyAll(apply, layer, units), lineNo)
    decreases |units|
  {
    if |units| > 0 {
      var u := units[0];
      var ins := apply(Slot(layer, u), u);
      assert OnLine(ins, lineNo);
      if ins.Ok? {
        ApplyAllErrorLine(apply, lineNo, layer[u := ins.value], units[1..]);
      }
    }
  }

  // ---------------------------------------------------------------------
  // parse_config
  // ---------------------------------------------------------------------

  /** What `parse_config` produces: the component instructions, the emitted layers in order
      (each a map from unit to instruction), and `n_layers`. */
  datatype Config = Config(components: map<string, MergeInst>, layers: seq<map<string, MergeInst>>, nLayers: int)

  const INITIAL_LAYER: LayerState := LayerState(map[], true, -1, [])

  /** `parse_config`; `content` is None when the file cannot be opened. */
  function ParseConfig(parse: FloatParser, content: Option<string>, tensorNames: seq<string>)
    : (r: Result<Config, ConfigError>)
    ensures content.None? ==> r == Err(CannotOpen)
  {
    if content.None? then Err(CannotOpen)
    else
      var opt :- GetModelOptions(tensorNames);
      ParseLines(parse, Split(content.value, "\n"), opt)
  }

  /** The two loops of `parse_config` over the lines of the file. */
  function ParseLines(parse: FloatParser, lines: seq<string>, opt: ModelOptions): (r: Result<Config, ConfigError>) {
    var comp :- ComponentPass(ComponentSteps(parse), lines, 0, DefaultComponents(opt.components));
    var st :- LayerPass(LayerSteps(parse, opt.units), lines, 0, INITIAL_LAYER);
    Ok(Config(comp, Flush(st), st.iLayer + 1))
  }

  lemma ParseLinesLayers(parse: FloatParser, lines: seq<string>, opt: ModelOptions)
    requires ParseLines(parse, lines, opt).Ok?
    ensures var cfg := ParseLines(parse, lines, opt).value;
            && cfg.nLayers == CountNewLayers(lines, 0)
            && |cfg.layers| <= CountNewLayers(lines, 0) + 1
            && Elements(opt.components) <= cfg.components.Keys
  {
    ComponentStepsSound(parse);
    LayerStepsSound(parse, opt.units);
    ComponentPassKeeps(ComponentSteps(parse), lines, 0, DefaultComponents(opt.components));
    LayerPassNumbering(LayerSteps(parse, opt.units), lines, 0, INITIAL_LAYER);
  }

  lemma ParseLinesDefaultComponents(parse: FloatParser, lines: seq<string>, opt: ModelOptions)
    requires forall k :: 0 <= k < |lines| ==> !IsComponentLine(lines[k])
    requires ParseLines(parse, lines, opt).Ok?
    ensures ParseLines(parse, lines, opt).value.components == DefaultComponents(opt.components)
  {
    ComponentStepsSound(parse);
    ComponentPassNoLines(ComponentSteps(parse), lines, 0, DefaultComponents(opt.components));
  }

  /** On success, `n_layers` is the number of `output layer` lines, which were numbered 0, 1, ...;
      every model component has an instruction; at most one layer is emitted per `output layer`
      line, plus one for verbs written before the first of them. */
  lemma ParseConfigLayers(parse: FloatParser, content: string, tensorNames: seq<string>)
    requires ParseConfig(parse, Some(content), tensorNames).Ok?
    ensures var lines := Split(content, "\n");
            var cfg := ParseConfig(parse, Some(content), tensorNames).value;
            && cfg.nLayers == CountNewLayers(lines, 0)
            && |cfg.layers| <= CountNewLayers(lines, 0) + 1
            && ComponentSet(tensorNames) <= cfg.components.Keys
  {
    GetModelOptionsSets(tensorNames);
    ParseLinesLayers(parse, Split(content, "\n"), GetModelOptions(tensorNames).value);
  }

  /** A file with no component lines leaves every component at SLERP t = 0.5. */
  lemma ParseConfigDefaultComponents(parse: FloatParser, content: string, tensorNames: seq<string>)
    requires forall k :: 0 <= k < |Split(content, "\n")| ==> !IsComponentLine(Split(content, "\n")[k])
    requires ParseConfig(parse, Some(content), tensorNames).Ok?
    ensures var cfg := ParseConfig(parse, Some(content), tensorNames).value;
            cfg.components.Keys == ComponentSet(tensorNames)
            && forall c :: c in cfg.components ==> cfg.components[c] == DefaultComponent(c)
  {
    GetModelOptionsSets(tensorNames);
    ParseLinesDefaultComponents(parse, Split(content, "\n"), GetModelOptions(tensorNames).value);
  }
}

=== FILE: mimi.dfy ===
/**
 * The integer bookkeeping of the Mimi audio decoder: the padding of its
 * convolutions, the layout of the input codes and their transposition, the
 * split of a code stream into frames with their transformer positions, the
 * residual vector quantizer's choice of codebook per row, and the SEANet
 * decoder's layer list with the weight names it loads.  The tensor
 * arithmetic itself is not modelled.
 */
module Mimi {
  import opened Wrappers
  import opened Text
  import opened CInt

  const SLIDING_WINDOW: nat := 250
  const N_SEMANTIC: nat := 1
  const N_ACOUSTIC: nat := 31
  /** Codes per embedding: one semantic code followed by the acoustic ones. */
  const N_CODES_PER_EMBD: nat := N_SEMANTIC + N_ACOUSTIC
  const N_CODES_PER_FRAME: nat := (SLIDING_WINDOW / 2) * N_CODES_PER_EMBD
  /** Stride of the depthwise transposed convolution in front of the transformer. */
  const UPSAMPLE_STRIDE: nat := 2
  const UPSAMPLING_RATIO: seq<nat> := [8, 6, 5, 4]
  /** Index of the ELU layer that opens each upsampling stage of the SEANet decoder. */
  const REPEATED_PATTERN: seq<nat> := [1, 4, 7, 10]
  const CAUSAL: bool := true
  /** `get_weight` formats names into a buffer of this many bytes, terminator included. */
  const NAME_BUFFER: nat := 128

  lemma FrameConstants()
    ensures N_CODES_PER_EMBD == 32 && N_CODES_PER_FRAME == 4000
    ensures N_CODES_PER_FRAME % N_CODES_PER_EMBD == 0
    ensures UPSAMPLE_STRIDE * (N_CODES_PER_FRAME / N_CODES_PER_EMBD) == SLIDING_WINDOW
  {
  }

  // ---------------------------------------------------------------------
  // div_ceil and convolution padding
  // ---------------------------------------------------------------------

  /** `div_ceil`: C's truncating quotient, plus one when there is a remainder. For a
      non-negative `a` and a positive `b` it is the ceiling of a / b. */
  function DivCeil(a: int, b: int): (r: int)
    requires b != 0
    ensures b > 0 ==> r * b >= a
    ensures a >= 0 && b > 0 ==> (r - 1) * b < a <= r * b
    ensures b > 0 ==> r * b - b < a || a < 0
  {
    var q := Quot(a, b);
    var m := Rem(a, b);
    assert (q + 1) * b == b * q + b;
    assert (q + 1 - 1) * b == b * q;
    assert (q - 1) * b == b * q - b;
    q + (if m != 0 then 1 else 0)
  }

  /** For a negative dividend `div_ceil` is not the ceiling: -3 / 2 gives 0, not -1. */
  lemma DivCeilOfNegative()
    ensures DivCeil(-3, 2) == 0
  {
    assert Quot(-3, 2) == -1;
    assert Rem(-3, 2) == -1;
  }

  lemma DivCeilOfNat(a: nat, b: nat)
    requires b > 0
    ensures DivCeil(a, b) == a / b + (if a % b != 0 then 1 else 0)
  {
  }

  /** Adding one divisor to a non-negative dividend adds one to `div_ceil`. */
  lemma DivCeilShift(a: nat, b: nat)
    requires b > 0
    ensures DivCeil(a + b, b) == DivCeil(a, b) + 1
  {
    DivCeilOfNat(a, b);
    DivCeilOfNat(a + b, b);
    var q := a / b;
    assert a == q * b + a % b;
    assert (q + 1) * b == q * b + b;
    DivModUnique(q + 1, a % b, b);
  }

  /** The padding `mimi_conv_1d` computes. */
  datatype ConvPad = ConvPad(kernelSize: int, pTotal: int, nFrames: int, pExtra: int, pLeft: int, pRight: int)

  /** `mimi_conv_1d`'s padding for a kernel of `taps` taps over `length` samples. The extra
      right padding makes the padded length a whole number of strides plus one kernel;
      causal mode puts all of the regular padding on the left. */
  function Conv1dPadding(taps: int, dilation: int, stride: int, length: int, causal: bool): (p: ConvPad)
    requires stride > 0
    ensures p.kernelSize == (taps - 1) * dilation + 1 && p.pTotal == p.kernelSize - stride
    ensures p.pExtra >= 0
    ensures length >= stride ==> p.pExtra < stride
    ensures p.pLeft + p.pRight == p.pTotal + p.pExtra
    ensures causal ==> p.pLeft == p.pTotal && p.pRight == p.pExtra
    ensures !causal ==> p.pLeft == p.pTotal - Quot(p.pTotal, 2) && p.pRight == Quot(p.pTotal, 2) + p.pExtra
    ensures length + p.pLeft + p.pRight == p.nFrames * stride + p.kernelSize
  {
    var kernelSize := (taps - 1) * dilation + 1;
    var pTotal := kernelSize - stride;
    var pHalf := Quot(pTotal, 2);
    var nFrames := DivCeil(length - kernelSize + pTotal, stride);
    var idealLen := nFrames * stride + kernelSize - pTotal;
    var pExtra := idealLen - length;
    var pRight := (if causal then 0 else pHalf) + pExtra;
    var pLeft := pTotal - (if causal then 0 else pHalf);
    ConvPad(kernelSize, pTotal, nFrames, pExtra, pLeft, pRight)
  }

  /** Output length of an unpadded 1-D convolution (ggml's size rule, taken as given). */
  function ConvOutputLength(padded: int, kernelSize: int, stride: int): int
    requires stride > 0
  {
    (padded - kernelSize) / stride + 1
  }

  /** After the padding, the convolution yields ⌈length / stride⌉ samples, so a stride-1
      convolution keeps the length. */
  lemma ConvOutputFrames(taps: int, dilation: int, stride: nat, length: nat, causal: bool)
    requires stride > 0 && length >= stride
    ensures var p := Conv1dPadding(taps, dilation, stride, length, causal);
            ConvOutputLength(length + p.pLeft + p.pRight, p.kernelSize, stride) == DivCeil(length, stride)
    ensures stride == 1 ==> DivCeil(length, stride) == length
  {
    var p := Conv1dPadding(taps, dilation, stride, length, causal);
    assert p.nFrames == DivCeil(length - stride, stride);
    DivModUnique(p.nFrames, 0, stride);
    DivCeilShift(length - stride, stride);
    DivCeilOfNat(length, stride);
  }

  /** The padding `mimi_conv_transpose_1d` trims (with `trim_right_ratio` 1.0, the causal
      case trims everything on the right). */
  datatype TransposePad = TransposePad(pTotal: int, pLeft: int, pRight: int)

  function ConvTranspose1dPadding(kernelSize: int, stride: int, causal: bool): (p: TransposePad)
    ensures p.pTotal == kernelSize - stride && p.pLeft + p.pRight == p.pTotal
    ensures causal ==> p.pLeft == 0
    ensures !causal ==> p.pRight == Quot(p.pTotal, 2)
  {
    var pTotal := kernelSize - stride;
    var pRight := if causal then pTotal else Quot(pTotal, 2);
    TransposePad(pTotal, pTotal - pRight, pRight)
  }

  /** A transposed convolution yields (length - 1) * stride + kernel samples (ggml's size
      rule); trimming the padding leaves exactly length * stride. */
  function ConvTransposeOutputLength(length: int, kernelSize: int, stride: int): (r: int)
    ensures r == length * stride
  {
    var full := (length - 1) * stride + kernelSize;
    full - ConvTranspose1dPadding(kernelSize, stride, CAUSAL).pTotal
  }

  // ---------------------------------------------------------------------
  // Code layout
  // ---------------------------------------------------------------------

  /** The number of embeddings in a code sequence. */
  function Embeddings(codes: seq<int>): nat {
    |codes| / N_CODES_PER_EMBD
  }

  /** The j-th code of every embedding of a frame-major sequence, in order: the codes that
      codebook j decodes. */
  function Codebook(codes: seq<int>, j: nat): (r: seq<int>)
    requires |codes| % N_CODES_PER_EMBD == 0 && j < N_CODES_PER_EMBD
    ensures |r| == Embeddings(codes)
  {
    var rows := Embeddings(codes);
    seq(rows, i requires 0 <= i < rows =>
      IndexBound(i, j, rows, N_CODES_PER_EMBD); codes[i * N_CODES_PER_EMBD + j])
  }

  /** Row `ir` of a codebook-major sequence. */
  function Row(input: seq<int>, ir: nat): (r: seq<int>)
    requires |input| % N_CODES_PER_EMBD == 0 && ir < N_CODES_PER_EMBD
    ensures |r| == Embeddings(input)
  {
    var n := Embeddings(input);
    MulMono(ir + 1, N_CODES_PER_EMBD, n);
    input[ir * n..(ir + 1) * n]
  }

  lemma RowAt(input: seq<int>, ir: nat, i: nat)
    requires |input| % N_CODES_PER_EMBD == 0 && ir < N_CODES_PER_EMBD && i < Embeddings(input)
    ensures ir * Embeddings(input) + i < |input|
    ensures Row(input, ir)[i] == input[ir * Embeddings(input) + i]
  {
    var n := Embeddings(input);
    var lo := ir * n;
    assert (ir + 1) * n == lo + n;
    MulMono(ir + 1, N_CODES_PER_EMBD, n);
    var row := input[lo..lo + n];
    assert Row(input, ir) == row;
    assert row[i] == input[lo + i];
  }

  lemma SplitIndex(k: nat, rows: nat, width: nat)
    requires rows > 0 && width > 0 && k < rows * width
    ensures k / rows < width && k % rows < rows
    ensures (k % rows) * width + k / rows < rows * width
  {
    assert (k / rows) * rows <= k;
    MulCancelLess(k / rows, width, rows);
    IndexBound(k % rows, k / rows, rows, width);
  }

  /** `transpose_input`: frame-major codes (one semantic code and 31 acoustic codes, per
      embedding) to codebook-major. None when the count is not a whole number of embeddings. */
  function TransposeInput(codes: seq<int>): (r: Option<seq<int>>)
    ensures r.Some? <==> |codes| % N_CODES_PER_EMBD == 0
    ensures r.Some? ==> |r.value| == |codes|
  {
    if |codes| % N_CODES_PER_EMBD != 0 then None
    else if |codes| == 0 then Some([])
    else
      var rows := Embeddings(codes);
      Some(seq(|codes|, k requires 0 <= k < |codes| =>
        SplitIndex(k, rows, N_CODES_PER_EMBD);
        codes[(k % rows) * N_CODES_PER_EMBD + k / rows]))
  }

  /** The inverse layout change, codebook-major to frame-major. */
  function UntransposeInput(input: seq<int>): (r: Option<seq<int>>)
    ensures r.Some? <==> |input| % N_CODES_PER_EMBD == 0
    ensures r.Some? ==> |r.value| == |input|
  {
    if |input| % N_CODES_PER_EMBD != 0 then None
    else if |input| == 0 then Some([])
    else
      var rows := Embeddings(input);
      Some(seq(|input|, k requires 0 <= k < |input| =>
        SplitIndex(k, N_CODES_PER_EMBD, rows);
        input[(k % N_CODES_PER_EMBD) * rows + k / N_CODES_PER_EMBD]))
  }

  /** Position j * rows + i of the transposed codes holds code j of embedding i. */
  lemma TransposeAt(codes: seq<int>, i: nat, j: nat)
    requires |codes| % N_CODES_PER_EMBD == 0 && i < Embeddings(codes) && j < N_CODES_PER_EMBD
    ensures j * Embeddings(codes) + i < |codes|
    ensures TransposeInput(codes).value[j * Embeddings(codes) + i] == codes[i * N_CODES_PER_EMBD + j]
  {
    var rows := Embeddings(codes);
    IndexBound(j, i, N_CODES_PER_EMBD, rows);
    DivModUnique(j, i, rows);
  }

  /** Position i * 32 + j of the untransposed input holds entry i of row j. */
  lemma UntransposeAt(input: seq<int>, i: nat, j: nat)
    requires |input| % N_CODES_PER_EMBD == 0 && i < Embeddings(input) && j < N_CODES_PER_EMBD
    ensures j * Embeddings(input) + i < |input| && i * N_CODES_PER_EMBD + j < |input|
    ensures UntransposeInput(input).value[i * N_CODES_PER_EMBD + j] == input[j * Embeddings(input) + i]
  {
    var rows := Embeddings(input);
    IndexBound(j, i, N_CODES_PER_EMBD, rows);
    IndexBound(i, j, rows, N_CODES_PER_EMBD);
    DivModUnique(i, j, N_CODES_PER_EMBD);
  }

  /** Each row of the transposed codes is the corresponding codebook's codes. */
  lemma TransposeInputRows(codes: seq<int>)
    requires |codes| % N_CODES_PER_EMBD == 0
    ensures forall j :: 0 <= j < N_CODES_PER_EMBD ==> Row(TransposeInput(codes).value, j) == Codebook(codes, j)
  {
    forall j | 0 <= j < N_CODES_PER_EMBD ensures Row(TransposeInput(codes).value, j) == Codebook(codes, j) {
      TransposeInputRow(codes, j);
    }
  }

  lemma TransposeInputRow(codes: seq<int>, j: nat)
    requires |codes| % N_CODES_PER_EMBD == 0 && j < N_CODES_PER_EMBD
    ensures Row(TransposeInput(codes).value, j) == Codebook(codes, j)
  {
    var t := TransposeInput(codes).value;
    var rows := Embeddings(codes);
    assert Embeddings(t) == rows;
    forall i | 0 <= i < rows ensures Row(t, j)[i] == Codebook(codes, j)[i] {
      RowAt(t, j, i);
      TransposeAt(codes, i, j);
    }
  }

  /** Undoing the transposition restores the frame-major codes. */
  lemma TransposeRoundTrip(codes: seq<int>)
    requires |codes| % N_CODES_PER_EMBD == 0
    ensures UntransposeInput(TransposeInput(codes).value) == Some(codes)
  {
    var t := TransposeInput(codes).value;
    var u := UntransposeInput(t).value;
    var rows := Embeddings(codes);
    assert Embeddings(t) == rows;
    forall k | 0 <= k < |codes| ensures u[k] == codes[k] {
      var i := k / N_CODES_PER_EMBD;
      var j := k % N_CODES_PER_EMBD;
      assert k == i * N_CODES_PER_EMBD + j;
      UntransposeAt(t, i, j);
      TransposeAt(codes, i, j);
    }
    assert u == codes;
  }

  /** Transposing undoes the inverse as well, so the transposition is a bijection on
      positions: a length-preserving permutation of the codes. */
  lemma UntransposeRoundTrip(input: seq<int>)
    requires |input| % N_CODES_PER_EMBD == 0
    ensures TransposeInput(UntransposeInput(input).value) == Some(input)
  {
    var u := UntransposeInput(input).value;
    var t := TransposeInput(u).value;
    var rows := Embeddings(input);
    assert Embeddings(u) == rows;
    forall k | 0 <= k < |input| ensures t[k] == input[k] {
      var i := k % rows;
      var j := k / rows;
      assert k == j * rows + i;
      assert j < N_CODES_PER_EMBD by {
        assert j * rows <= k;
        MulCancelLess(j, N_CODES_PER_EMBD, rows);
      }
      TransposeAt(u, i, j);
      UntransposeAt(input, i, j);
    }
    assert t == input;
  }

  // ---------------------------------------------------------------------
  // Residual vector quantizer
  // ---------------------------------------------------------------------

  datatype CodebookRef = Semantic(index: nat) | Acoustic(index: nat)

  /** The codebook RVQ row `ir` is looked up in: the semantic ones first, then the acoustic. */
  function RvqCodebook(ir: nat): (c: CodebookRef)
    ensures c.Semantic? <==> ir < N_SEMANTIC
    ensures c.index + (if c.Acoustic? then N_SEMANTIC else 0) == ir
  {
    if ir < N_SEMANTIC then Semantic(ir) else Acoustic(ir - N_SEMANTIC)
  }

  /** Every semantic and every acoustic codebook is used by exactly one row. */
  lemma RvqCodebookBijective(c: CodebookRef)
    requires c.Semantic? ==> c.index < N_SEMANTIC
    requires c.Acoustic? ==> c.index < N_ACOUSTIC
    ensures exists ir :: 0 <= ir < N_CODES_PER_EMBD && RvqCodebook(ir) == c
    ensures forall ir :: 0 <= ir < N_CODES_PER_EMBD && RvqCodebook(ir) == c ==>
              ir == c.index + (if c.Acoustic? then N_SEMANTIC else 0)
  {
    var ir := c.index + (if c.Acoustic? then N_SEMANTIC else 0);
    assert RvqCodebook(ir) == c;
  }

  datatype RvqRow = RvqRow(codebook: CodebookRef, codes: seq<int>)

  datatype FrameError = NotWholeEmbeddings(nCodes: nat) | WindowExceeded(nPos: nat)

  /** `mimi_residual_vector_quantizer::decode`: row `ir` of the input, read as the
      contiguous block ir * n .. (ir + 1) * n, goes through codebook `ir`. */
  function RvqRows(input: seq<int>): (r: Result<seq<RvqRow>, FrameError>)
    ensures r.Ok? <==> |input| % N_CODES_PER_EMBD == 0
    ensures r.Ok? ==> |r.value| == N_CODES_PER_EMBD
    ensures r.Err? ==> r.error == NotWholeEmbeddings(|input|)
  {
    if |input| % N_CODES_PER_EMBD != 0 then Err(NotWholeEmbeddings(|input|))
    else Ok(seq(N_CODES_PER_EMBD, ir requires 0 <= ir < N_CODES_PER_EMBD => RvqRow(RvqCodebook(ir), Row(input, ir))))
  }

  function FlattenRows(rows: seq<RvqRow>): seq<int> {
    if |rows| == 0 then [] else rows[0].codes + FlattenRows(rows[1..])
  }

  /** The first k rows, each the matching block of the input, cover the first k blocks. */
  lemma {:induction false} RowsPrefix(input: seq<int>, rows: seq<RvqRow>, k: nat)
    requires |input| % N_CODES_PER_EMBD == 0 && k <= |rows| == N_CODES_PER_EMBD
    requires forall ir :: 0 <= ir < |rows| ==> rows[ir].codes == Row(input, ir)
    ensures k * Embeddings(input) <= |input|
    ensures FlattenRows(rows[..k]) == input[..k * Embeddings(input)]
    decreases k
  {
    var n := Embeddings(input);
    MulMono(k, N_CODES_PER_EMBD, n);
    if k == 0 {
      assert rows[..0] == [];
    } else {
      RowsPrefix(input, rows, k - 1);
      var lo := (k - 1) * n;
      assert k * n == lo + n;
      FlattenRowsSnoc(rows[..k - 1], rows[k - 1]);
      assert rows[..k] == rows[..k - 1] + [rows[k - 1]];
      assert rows[k - 1].codes == input[lo..lo + n];
      assert input[..lo + n] == input[..lo] + input[lo..lo + n];
    }
  }

  lemma {:induction false} FlattenRowsSnoc(init: seq<RvqRow>, last: RvqRow)
    ensures FlattenRows(init + [last]) == FlattenRows(init) + last.codes
    decreases |init|
  {
    if |init| == 0 {
      assert init + [last] == [last];
    } else {
      assert (init + [last])[1..] == init[1..] + [last];
      FlattenRowsSnoc(init[1..], last);
    }
  }

  /** The rows cover the input exactly, in order. */
  lemma RvqRowsCover(input: seq<int>)
    requires |input| % N_CODES_PER_EMBD == 0
    ensures FlattenRows(RvqRows(input).value) == input
  {
    var rows := RvqRows(input).value;
    RowsPrefix(input, rows, N_CODES_PER_EMBD);
    assert rows[..N_CODES_PER_EMBD] == rows;
    assert N_CODES_PER_EMBD * Embeddings(input) == |input|;
  }

  // ---------------------------------------------------------------------
  // decode_frame and decode
  // ---------------------------------------------------------------------

  /** What one `decode_frame` call feeds the graph: the RVQ rows and the positions of the
      upsampled embeddings. */
  datatype FramePlan = FramePlan(rows: seq<RvqRow>, positions: seq<int>)

  /** The graph of `decode_frame` on an RVQ input of `input`: two upsampled embeddings per
      embedding, which must fit the sliding window, numbered from `nPast`; the second
      component is the advanced `n_past`. */
  function PlanFrame(input: seq<int>, nPast: int): (r: Result<(FramePlan, int), FrameError>)
    ensures r.Ok? <==> |input| % N_CODES_PER_EMBD == 0 && |input| <= N_CODES_PER_FRAME
    ensures r.Ok? ==> var nPos := UPSAMPLE_STRIDE * Embeddings(input);
                      r.value.0.positions == seq(nPos, i => nPast + i) && r.value.1 == nPast + nPos
  {
    if |input| % N_CODES_PER_EMBD != 0 then Err(NotWholeEmbeddings(|input|))
    else
      // The kernel of `upsample.conv.weight` is read from the model file. The trimmed
      // output length is length * stride whatever the kernel (see the ensures of
      // ConvTransposeOutputLength), so 0 stands in for it here.
      var nPos := ConvTransposeOutputLength(Embeddings(input), 0, UPSAMPLE_STRIDE);
      if nPos > SLIDING_WINDOW then Err(WindowExceeded(nPos))
      else Ok((FramePlan(RvqRows(input).value, seq(nPos, i => nPast + i)), nPast + nPos))
  }

  /** `decode_frame` as written: the frame-major codes go to the quantizer unchanged. */
  function DecodeFrameAsWritten(codes: seq<int>, nPast: int): Result<(FramePlan, int), FrameError> {
    PlanFrame(codes, nPast)
  }

  /** `decode_frame` with the layout change the quantizer expects. */
  function DecodeFrame(codes: seq<int>, nPast: int): Result<(FramePlan, int), FrameError> {
    if |codes| % N_CODES_PER_EMBD != 0 then Err(NotWholeEmbeddings(|codes|))
    else PlanFrame(TransposeInput(codes).value, nPast)
  }

  /** With the transposition, codebook j reads the j-th code of every embedding. */
  lemma DecodeFrameRows(codes: seq<int>, nPast: int)
    requires DecodeFrame(codes, nPast).Ok?
    ensures var rows := DecodeFrame(codes, nPast).value.0.rows;
            |rows| == N_CODES_PER_EMBD
            && forall j :: 0 <= j < N_CODES_PER_EMBD ==>
                 rows[j].codebook == RvqCodebook(j) && rows[j].codes == Codebook(codes, j)
  {
    TransposeInputRows(codes);
  }

  /** As written, the semantic codebook of a two-embedding frame reads the first two codes,
      which are the semantic and the first acoustic code of embedding 0, instead of the two
      semantic codes at positions 0 and 32. */
  lemma DecodeFrameAsWrittenMixesCodebooks(codes: seq<int>)
    requires |codes| == 2 * N_CODES_PER_EMBD && codes[1] != codes[N_CODES_PER_EMBD]
    ensures DecodeFrameAsWritten(codes, 0).Ok?
    ensures var rows := DecodeFrameAsWritten(codes, 0).value.0.rows;
            rows[0].codebook == Semantic(0)
            && rows[0].codes == codes[..2] != Codebook(codes, 0)
  {
    var rows := DecodeFrameAsWritten(codes, 0).value.0.rows;
    assert rows[0].codes == Row(codes, 0);
    assert Codebook(codes, 0)[1] == codes[N_CODES_PER_EMBD];
  }

  function Flatten(frames: seq<seq<int>>): seq<int> {
    if |frames| == 0 then [] else frames[0] + Flatten(frames[1..])
  }

  /** The frames `decode` cuts: consecutive pieces of `N_CODES_PER_FRAME` codes, the last one
      holding what remains. */
  function Frames(codes: seq<int>): (r: seq<seq<int>>)
    ensures Flatten(r) == codes
    ensures forall k :: 0 <= k < |r| ==> 0 < |r[k]| <= N_CODES_PER_FRAME
    ensures forall k :: 0 <= k < |r| - 1 ==> |r[k]| == N_CODES_PER_FRAME
    decreases |codes|
  {
    if |codes| == 0 then []
    else
      var m := if |codes| < N_CODES_PER_FRAME then |codes| else N_CODES_PER_FRAME;
      var rest := Frames(codes[m..]);
      assert codes[..m] + codes[m..] == codes;
      [codes[..m]] + rest
  }

  lemma FramesOne(codes: seq<int>)
    requires 0 < |codes| <= N_CODES_PER_FRAME
    ensures Frames(codes) == [codes]
  {
    var m := |codes|;
    assert codes[m..] == [] && codes[..m] == codes;
  }

  lemma FramesMore(codes: seq<int>)
    requires |codes| > N_CODES_PER_FRAME
    ensures Frames(codes) == [codes[..N_CODES_PER_FRAME]] + Frames(codes[N_CODES_PER_FRAME..])
  {
  }

  /** Every frame is a whole number of embeddings exactly when the whole input is: all
      frames but the last are 4000 = 125 * 32 codes long. */
  lemma {:induction false} FramesWhole(codes: seq<int>)
    ensures AllWhole(Frames(codes)) <==> |codes| % N_CODES_PER_EMBD == 0
    decreases |codes|
  {
    if 0 < |codes| <= N_CODES_PER_FRAME {
      FramesOne(codes);
    } else if |codes| > N_CODES_PER_FRAME {
      FramesWhole(codes[N_CODES_PER_FRAME..]);
      FramesWholeMore(codes);
    }
  }

  predicate AllWhole(frames: seq<seq<int>>) {
    forall k :: 0 <= k < |frames| ==> |frames[k]| % N_CODES_PER_EMBD == 0
  }

  lemma WholeCons(head: seq<int>, tail: seq<seq<int>>)
    requires |head| % N_CODES_PER_EMBD == 0
    ensures AllWhole([head] + tail) <==> AllWhole(tail)
  {
    var f := [head] + tail;
    if AllWhole(tail) {
      forall k | 0 <= k < |f| ensures |f[k]| % N_CODES_PER_EMBD == 0 {
        if k > 0 {
          assert f[k] == tail[k - 1];
        }
      }
    }
    if AllWhole(f) {
      forall k | 0 <= k < |tail| ensures |tail[k]| % N_CODES_PER_EMBD == 0 {
        assert f[k + 1] == tail[k];
      }
    }
  }

  /** A whole frame does not change the remainder modulo one embedding. */
  lemma FrameShift(t: nat)
    ensures (t + N_CODES_PER_FRAME) % N_CODES_PER_EMBD == t % N_CODES_PER_EMBD
  {
    var q := t / N_CODES_PER_EMBD;
    var r := t % N_CODES_PER_EMBD;
    assert t + N_CODES_PER_FRAME == (q + 125) * N_CODES_PER_EMBD + r;
    DivModUnique(q + 125, r, N_CODES_PER_EMBD);
  }

  lemma FramesWholeMore(codes: seq<int>)
    requires |codes| > N_CODES_PER_FRAME
    requires AllWhole(Frames(codes[N_CODES_PER_FRAME..])) <==> |codes[N_CODES_PER_FRAME..]| % N_CODES_PER_EMBD == 0
    ensures AllWhole(Frames(codes)) <==> |codes| % N_CODES_PER_EMBD == 0
  {
    var head := codes[..N_CODES_PER_FRAME];
    var tail := Frames(codes[N_CODES_PER_FRAME..]);
    FramesMore(codes);
    FrameShift(|codes| - N_CODES_PER_FRAME);
    WholeCons(head, tail);
  }

  /** One frame step of `decode`. */
  type FrameDecoder = (seq<int>, int) -> Result<(FramePlan, int), FrameError>

  /** The loop of `decode`: frames in order, `n_past` carried from one to the next. */
  function DecodeFrames(dec: FrameDecoder, frames: seq<seq<int>>, nPast: int): Result<seq<FramePlan>, FrameError>
    decreases |frames|
  {
    if |frames| == 0 then Ok([])
    else
      var step :- dec(frames[0], nPast);
      var rest :- DecodeFrames(dec, frames[1..], step.1);
      Ok([step.0] + rest)
  }

  function Decode(codes: seq<int>): Result<seq<FramePlan>, FrameError> {
    DecodeFrames(DecodeFrame, Frames(codes), 0)
  }

  function DecodeAsWritten(codes: seq<int>): Result<seq<FramePlan>, FrameError> {
    DecodeFrames(DecodeFrameAsWritten, Frames(codes), 0)
  }

  /** A frame step that accepts whole embeddings up to one frame and numbers its upsampled
      embeddings from `n_past`. */
  ghost predicate FrameDecoderSound(dec: FrameDecoder) {
    forall codes, nPast ::
      && (dec(codes, nPast).Ok? <==> |codes| % N_CODES_PER_EMBD == 0 && |codes| <= N_CODES_PER_FRAME)
      && (dec(codes, nPast).Ok? ==>
            var nPos := UPSAMPLE_STRIDE * Embeddings(codes);
            dec(codes, nPast).value.0.positions == seq(nPos, i => nPast + i)
            && dec(codes, nPast).value.1 == nPast + nPos)
  }

  lemma DecodersSound()
    ensures FrameDecoderSound(DecodeFrame)
    ensures FrameDecoderSound(DecodeFrameAsWritten)
  {
    forall codes: seq<int> | |codes| % N_CODES_PER_EMBD == 0
      ensures Embeddings(TransposeInput(codes).value) == Embeddings(codes)
    {
    }
  }

  function AllPositions(plans: seq<FramePlan>): seq<int> {
    if |plans| == 0 then [] else plans[0].positions + AllPositions(plans[1..])
  }

  function CountAll(frames: seq<seq<int>>): nat {
    if |frames| == 0 then 0 else UPSAMPLE_STRIDE * Embeddings(frames[0]) + CountAll(frames[1..])
  }

  /** The loop succeeds exactly when every frame is a whole number of embeddings, and then
      the positions run consecutively from `n_past` over all upsampled embeddings. */
  lemma {:induction false} DecodeFramesSpec(dec: FrameDecoder, frames: seq<seq<int>>, nPast: int)
    requires FrameDecoderSound(dec)
    requires forall k :: 0 <= k < |frames| ==> |frames[k]| <= N_CODES_PER_FRAME
    ensures DecodeFrames(dec, frames, nPast).Ok? <==>
              forall k :: 0 <= k < |frames| ==> |frames[k]| % N_CODES_PER_EMBD == 0
    ensures DecodeFrames(dec, frames, nPast).Ok? ==>
              |DecodeFrames(dec, frames, nPast).value| == |frames|
              && AllPositions(DecodeFrames(dec, frames, nPast).value) == seq(CountAll(frames), i => nPast + i)
    decreases |frames|
  {
    if |frames| > 0 {
      var step := dec(frames[0], nPast);
      DecodeFramesSpec(dec, frames[1..], if step.Ok? then step.value.1 else nPast);
      assert forall k :: 1 <= k < |frames| ==> frames[k] == frames[1..][k - 1];
      if step.Ok? {
        var rest := DecodeFrames(dec, frames[1..], step.value.1);
        if rest.Ok? {
          var nPos := UPSAMPLE_STRIDE * Embeddings(frames[0]);
          assert step.value.1 == nPast + nPos;
          assert DecodeFrames(dec, frames, nPast).value == [step.value.0] + rest.value;
          assert ([step.value.0] + rest.value)[1..] == rest.value;
          assert seq(nPos, i => nPast + i) + seq(CountAll(frames[1..]), i => nPast + nPos + i)
                 == seq(CountAll(frames), i => nPast + i);
        }
      }
    }
  }

  lemma {:induction false} CountAllFlatten(frames: seq<seq<int>>)
    requires forall k :: 0 <= k < |frames| ==> |frames[k]| % N_CODES_PER_EMBD == 0
    ensures CountAll(frames) == UPSAMPLE_STRIDE * Embeddings(Flatten(frames))
    ensures |Flatten(frames)| % N_CODES_PER_EMBD == 0
    decreases |frames|
  {
    if |frames| > 0 {
      CountAllFlatten(frames[1..]);
      var a := |frames[0]|;
      var b := |Flatten(frames[1..])|;
      assert a == N_CODES_PER_EMBD * (a / N_CODES_PER_EMBD);
      assert b == N_CODES_PER_EMBD * (b / N_CODES_PER_EMBD);
      DivModUnique(a / N_CODES_PER_EMBD + b / N_CODES_PER_EMBD, 0, N_CODES_PER_EMBD);
    }
  }

  /** `decode` accepts exactly whole numbers of embeddings; the frames then get the
      positions 0, 1, ... over all 2 * (n / 32) upsampled embeddings, and the frames together
      are the input in order. */
  lemma DecodeSpec(codes: seq<int>)
    ensures Decode(codes).Ok? <==> |codes| % N_CODES_PER_EMBD == 0
    ensures Decode(codes).Ok? ==>
              AllPositions(Decode(codes).value) == seq(UPSAMPLE_STRIDE * Embeddings(codes), i => i)
              && |Decode(codes).value| == |Frames(codes)| && Flatten(Frames(codes)) == codes
  {
    var frames := Frames(codes);
    DecodersSound();
    DecodeFramesSpec(DecodeFrame, frames, 0);
    FramesWhole(codes);
    if |codes| % N_CODES_PER_EMBD == 0 {
      CountAllFlatten(frames);
    }
  }

  // ---------------------------------------------------------------------
  // SEANet decoder layers and get_weight
  // ---------------------------------------------------------------------

  datatype WeightError = WeightNotFound(name: string)

  /** The name `get_weight` looks up: formatted into a 128-byte buffer, so at most 127 chars. */
  function FormattedName(name: string): (r: string)
    ensures |r| < NAME_BUFFER && IsPrefix(r, name)
    ensures |name| < NAME_BUFFER ==> r == name
  {
    if |name| < NAME_BUFFER then name else name[..NAME_BUFFER - 1]
  }

  /** `get_weight`: the tensor of the formatted name, or an error naming it. */
  function GetWeight(loaded: set<string>, name: string): (r: Result<string, WeightError>)
    ensures r.Ok? <==> FormattedName(name) in loaded
    ensures r.Ok? ==> r.value == FormattedName(name)
    ensures r.Err? ==> r.error == WeightNotFound(FormattedName(name))
  {
    var key := FormattedName(name);
    if key in loaded then Ok(key) else Err(WeightNotFound(key))
  }

  /** The lookups of a constructor, in order; the first missing name throws. */
  function GetWeights(loaded: set<string>, names: seq<string>): (r: Result<seq<string>, WeightError>)
    ensures r.Ok? <==> forall k :: 0 <= k < |names| ==> FormattedName(names[k]) in loaded
    ensures r.Ok? ==> |r.value| == |names| && forall k :: 0 <= k < |names| ==> r.value[k] == FormattedName(names[k])
    ensures r.Err? ==> exists k :: 0 <= k < |names| && r.error == WeightNotFound(FormattedName(names[k]))
                                   && FormattedName(names[k]) !in loaded
                                   && forall m :: 0 <= m < k ==> FormattedName(names[m]) in loaded
    decreases |names|
  {
    if |names| == 0 then Ok([])
    else
      var w :- GetWeight(loaded, names[0]);
      var rest :- GetWeights(loaded, names[1..]);
      assert forall k :: 1 <= k < |names| ==> names[k] == names[1..][k - 1];
      Ok([w] + rest)
  }

  function LayerName(i: nat, rest: string): string {
    "decoder.layers." + NatToString(i) + "." + rest
  }

  /** The six weights of upsampling stage `i`: the transposed convolution after the ELU,
      then the two convolutions of the residual block. */
  function StageNames(i: nat): (r: seq<string>)
    requires i < |REPEATED_PATTERN|
    ensures |r| == 6
  {
    var start := REPEATED_PATTERN[i];
    [LayerName(start + 1, "conv.weight"), LayerName(start + 1, "conv.bias"),
     LayerName(start + 2, "block.1.conv.weight"), LayerName(start + 2, "block.1.conv.bias"),
     LayerName(start + 2, "block.3.conv.weight"), LayerName(start + 2, "block.3.conv.bias")]
  }

  /** Every weight the SEANet decoder's constructor looks up, in the order it does. */
  function SeanetWeightNames(): (r: seq<string>)
    ensures |r| == 28
  {
    [LayerName(0, "conv.weight"), LayerName(0, "conv.bias")]
    + StageNames(0) + StageNames(1) + StageNames(2) + StageNames(3)
    + [LayerName(14, "conv.weight"), LayerName(14, "conv.bias")]
  }

  datatype SeanetLayer =
    | Conv(weight: string, bias: string, stride: nat)
    | Elu
    | TransposedConv(weight: string, bias: string, stride: nat)
    | Residual(weight0: string, bias0: string, weight1: string, bias1: string)

  function Stage(w: seq<string>, i: nat): (r: seq<SeanetLayer>)
    requires |w| == 28 && i < 4
  {
    var b := 2 + 6 * i;
    [Elu, TransposedConv(w[b], w[b + 1], UPSAMPLING_RATIO[i]), Residual(w[b + 2], w[b + 3], w[b + 4], w[b + 5])]
  }

  datatype LayerKind = ConvKind(stride: nat) | EluKind | TransposedKind(stride: nat) | ResidualKind

  function KindOf(l: SeanetLayer): LayerKind {
    match l
    case Conv(_, _, s) => ConvKind(s)
    case Elu => EluKind
    case TransposedConv(_, _, s) => TransposedKind(s)
    case Residual(_, _, _, _) => ResidualKind
  }

  function Kinds(layers: seq<SeanetLayer>): (r: seq<LayerKind>)
    ensures |r| == |layers|
  {
    seq(|layers|, k requires 0 <= k < |layers| => KindOf(layers[k]))
  }

  /** The layout of the SEANet decoder: a convolution, four stages of ELU, transposed
      convolution with strides 8, 6, 5, 4 and residual block, then ELU and a convolution. */
  const DECODER_KINDS: seq<LayerKind> :=
    [ConvKind(1)] + StageKinds(8) + StageKinds(6) + StageKinds(5) + StageKinds(4) + [EluKind, ConvKind(1)]

  /** The kinds of one upsampling stage. */
  function StageKinds(ratio: nat): seq<LayerKind> {
    [EluKind, TransposedKind(ratio), ResidualKind]
  }

  lemma {:induction false} KindsAppend(a: seq<SeanetLayer>, b: seq<SeanetLayer>)
    ensures Kinds(a + b) == Kinds(a) + Kinds(b)
  {
  }

  /** The layers the constructor builds from the 28 weights, in order. */
  function DecoderLayers(w: seq<string>): (r: seq<SeanetLayer>)
    requires |w| == 28
  {
    [Conv(w[0], w[1], 1)] + Stage(w, 0) + Stage(w, 1) + Stage(w, 2) + Stage(w, 3)
    + [Elu, Conv(w[26], w[27], 1)]
  }

  lemma DecoderLayersKinds(w: seq<string>)
    requires |w| == 28
    ensures Kinds(DecoderLayers(w)) == DECODER_KINDS
  {
    var first := [Conv(w[0], w[1], 1)];
    var last := [Elu, Conv(w[26], w[27], 1)];
    forall i | 0 <= i < 4 ensures Kinds(Stage(w, i)) == StageKinds(UPSAMPLING_RATIO[i]) {
    }
    assert Kinds(first) == [ConvKind(1)];
    assert Kinds(last) == [EluKind, ConvKind(1)];
    KindsAppend(first + Stage(w, 0) + Stage(w, 1) + Stage(w, 2) + Stage(w, 3), last);
    KindsAppend(first + Stage(w, 0) + Stage(w, 1) + Stage(w, 2), Stage(w, 3));
    KindsAppend(first + Stage(w, 0) + Stage(w, 1), Stage(w, 2));
    KindsAppend(first + Stage(w, 0), Stage(w, 1));
    KindsAppend(first, Stage(w, 0));
  }

  /** `mimi_encoder_decoder`'s constructor: fails on the first weight that is not loaded,
      and otherwise has the fifteen layers of `DECODER_KINDS`. */
  function SeanetDecoder(loaded: set<string>): (r: Result<seq<SeanetLayer>, WeightError>)
    ensures r.Ok? <==> forall k :: 0 <= k < 28 ==> FormattedName(SeanetWeightNames()[k]) in loaded
    ensures r.Ok? ==> Kinds(r.value) == DECODER_KINDS
    ensures r.Err? ==> exists k :: 0 <= k < 28 && r.error == WeightNotFound(FormattedName(SeanetWeightNames()[k]))
  {
    var w :- GetWeights(loaded, SeanetWeightNames());
    DecoderLayersKinds(w);
    Ok(DecoderLayers(w))
  }

  /** The samples a layer of the given kind yields from `length` input samples: a padded
      convolution of stride 1 keeps the length (`ConvOutputFrames`), a trimmed transposed
      convolution multiplies it by its stride (`ConvTransposeOutputLength`). */
  function KindOutputLength(k: LayerKind, length: nat): nat {
    match k
    case ConvKind(s) => if s <= 1 then length else DivCeil(length, s)
    case EluKind => length
    case TransposedKind(s) => length * s
    case ResidualKind => length
  }

  function OutputLength(kinds: seq<LayerKind>, length: nat): nat
    decreases |kinds|
  {
    if |kinds| == 0 then length else OutputLength(kinds[1..], KindOutputLength(kinds[0], length))
  }

  lemma {:induction false} OutputLengthAppend(a: seq<LayerKind>, b: seq<LayerKind>, length: nat)
    ensures OutputLength(a + b, length) == OutputLength(b, OutputLength(a, length))
    decreases |a|
  {
    if |a| == 0 {
      assert a + b == b;
    } else {
      assert (a + b)[1..] == a[1..] + b;
      OutputLengthAppend(a[1..], b, KindOutputLength(a[0], length));
    }
  }

  lemma OutputLengthCons(k: LayerKind, rest: seq<LayerKind>, length: nat)
    ensures OutputLength([k] + rest, length) == OutputLength(rest, KindOutputLength(k, length))
  {
    assert ([k] + rest)[1..] == rest;
  }

  lemma StageUpsamples(ratio: nat, length: nat)
    ensures OutputLength(StageKinds(ratio), length) == length * ratio
  {
    var r: seq<LayerKind> := [];
    assert StageKinds(ratio) == [EluKind] + ([TransposedKind(ratio)] + ([ResidualKind] + r));
    OutputLengthCons(EluKind, [TransposedKind(ratio)] + ([ResidualKind] + r), length);
    OutputLengthCons(TransposedKind(ratio), [ResidualKind] + r, length);
    OutputLengthCons(ResidualKind, r, length * ratio);
  }

  lemma DecoderKindsUpsample(length: nat)
    ensures OutputLength(DECODER_KINDS, length) == 960 * length
  {
    var head := [ConvKind(1)];
    var tail := [EluKind, ConvKind(1)];
    var s8, s6, s5, s4 := StageKinds(8), StageKinds(6), StageKinds(5), StageKinds(4);
    OutputLengthAppend(head + s8 + s6 + s5 + s4, tail, length);
    OutputLengthAppend(head + s8 + s6 + s5, s4, length);
    OutputLengthAppend(head + s8 + s6, s5, length);
    OutputLengthAppend(head + s8, s6, length);
    OutputLengthAppend(head, s8, length);
    assert OutputLength(head, length) == length by { assert head[1..] == []; }
    var l8 := length * 8;
    var l6 := l8 * 6;
    var l5 := l6 * 5;
    var l4 := l5 * 4;
    StageUpsamples(8, length);
    StageUpsamples(6, l8);
    StageUpsamples(5, l6);
    StageUpsamples(4, l5);
    assert l4 == 960 * length;
    assert OutputLength(tail, l4) == l4 by {
      assert tail[1..] == [ConvKind(1)] && tail[1..][1..] == [];
    }
  }

  /** The decoder turns each upsampled embedding into 8 * 6 * 5 * 4 = 960 samples. */
  lemma SeanetUpsamples(loaded: set<string>, length: nat)
    requires SeanetDecoder(loaded).Ok?
    ensures OutputLength(Kinds(SeanetDecoder(loaded).value), length) == 960 * length
  {
    DecoderKindsUpsample(length);
  }
}

=== FILE: mimi_converter.dfy ===
/**
 * `examples/tts/convert_mimi_to_gguf.py`: the Kyutai Mimi audio codec, as
 * loaded by `transformers.MimiModel`, becomes one GGUF file.  Every tensor of
 * the state dict goes through `add_tensor`: attention projections are
 * un-permuted, codebooks are rebuilt from their running sums, bookkeeping
 * tensors are dropped, some tensors change view, long names are shortened
 * and each tensor gets a storage type.
 *
 * `MimiModel.from_pretrained` and the file writing are not part of this
 * model: the model is its configuration and its state dict, a sequence of
 * named tensors with distinct names.
 */
module MimiConverter {
  import opened Wrappers
  import opened Text
  import opened TensorConvert

  /** The parts of `MimiModel.config` the converter reads. */
  datatype MimiConfig = MimiConfig(architectures: seq<string>, numAttentionHeads: nat,
                                   numKeyValueHeads: Option<nat>)

  /** A state-dict entry: tensor name and tensor. */
  type Entry = (string, Tensor)

  /** `state_dict[key]`: the tensor stored under `key`, or None (a KeyError). */
  function Lookup(stateDict: seq<Entry>, key: string): (r: Option<Tensor>)
    ensures r.None? <==> forall i :: 0 <= i < |stateDict| ==> stateDict[i].0 != key
    ensures r.Some? ==> exists i :: 0 <= i < |stateDict| && stateDict[i] == (key, r.value)
    decreases |stateDict|
  {
    if |stateDict| == 0 then None
    else if stateDict[0].0 == key then Some(stateDict[0].1)
    else
      var r := Lookup(stateDict[1..], key);
      assert forall i :: 1 <= i < |stateDict| ==> stateDict[i] == stateDict[1..][i - 1];
      r
  }

  // ---------------------------------------------------------------------
  // Shapes
  // ---------------------------------------------------------------------

  /** The head count `undo_permute` reshapes with: `n_head_kv` when given and different. */
  function PermuteHeads(nHead: nat, nHeadKv: Option<nat>): (h: nat)
    ensures nHeadKv.Some? ==> h == nHeadKv.value
    ensures nHeadKv.None? ==> h == nHead
  {
    if nHeadKv.Some? && nHead != nHeadKv.value then nHeadKv.value else nHead
  }

  /** `undo_permute(weights, n_head, n_head_kv)` on the shape: `shape[0] // h // 2` (a
      ZeroDivisionError for h = 0, an IndexError for a 0-d tensor), then
      `reshape(h, 2, m, *shape[1:])`, which fails unless the element counts agree; the
      swap and the reshape back give the shape it started with. */
  function UndoPermuteShape(shape: seq<nat>, nHead: nat, nHeadKv: Option<nat>, name: string)
    : (r: Result<seq<nat>, ConvertError>)
    ensures r.Ok? ==> r.value == shape
    ensures r.Ok? <==>
      && |shape| > 0 && PermuteHeads(nHead, nHeadKv) > 0
      && var h := PermuteHeads(nHead, nHeadKv);
         Product([h, 2, shape[0] / h / 2] + shape[1..]) == Product(shape)
    ensures r.Err? ==> r.error == BadShape(name)
  {
    var h := PermuteHeads(nHead, nHeadKv);
    if |shape| == 0 || h == 0 then Err(BadShape(name))
    else if Product([h, 2, shape[0] / h / 2] + shape[1..]) != Product(shape) then Err(BadShape(name))
    else Ok(shape)
  }

  lemma {:induction false} ProductCons(x: nat, s: seq<nat>)
    ensures Product([x] + s) == x * Product(s)
  {
    assert ([x] + s)[1..] == s;
  }

  lemma ProductPair(a: nat, b: nat)
    ensures Product([a, b]) == a * b
  {
    assert [a, b][1..] == [b];
    assert [b][1..] == [];
    assert Product([b]) == b * Product([]) == b;
  }

  lemma ProductTriple(a: nat, b: nat, c: nat)
    ensures Product([a, b, c]) == a * b * c
  {
    assert [a, b, c][1..] == [b, c];
    ProductPair(b, c);
  }

  /** Rows that split evenly into 2h groups can always be un-permuted. */
  lemma UndoPermuteEven(shape: seq<nat>, nHead: nat, nHeadKv: Option<nat>, name: string)
    requires |shape| > 0 && PermuteHeads(nHead, nHeadKv) > 0
    requires shape[0] % (2 * PermuteHeads(nHead, nHeadKv)) == 0
    ensures UndoPermuteShape(shape, nHead, nHeadKv, name) == Ok(shape)
  {
    var h := PermuteHeads(nHead, nHeadKv);
    var m := shape[0] / h / 2;
    var rest := shape[1..];
    assert shape[0] == h * 2 * m by {
      var q := shape[0] / (2 * h);
      assert shape[0] == 2 * h * q;
      assert shape[0] / h == 2 * q by { DivExact(shape[0], h, 2 * q); }
      assert m == q by { DivExact(2 * q, 2, q); }
    }
    ProductCons(h, [2, m] + rest);
    assert [h, 2, m] + rest == [h] + ([2, m] + rest);
    ProductCons(2, [m] + rest);
    assert [2, m] + rest == [2] + ([m] + rest);
    ProductCons(m, rest);
    assert [m] + rest == [m] + rest;
    assert shape == [shape[0]] + rest;
    ProductCons(shape[0], rest);
    MulAssoc(h, 2, m, Product(rest));
  }

  lemma DivExact(a: nat, b: nat, q: nat)
    requires b > 0 && a == b * q
    ensures a / b == q
  {
    var d, m := a / b, a % b;
    assert a == b * d + m && 0 <= m < b;
    if q > d {
      assert b * (q - d) == b * q - b * d;
      MulAtLeast(b, q - d);
    } else if q < d {
      assert b * (d - q) == b * d - b * q;
      MulAtLeast(b, d - q);
    }
  }

  lemma {:induction false} MulAtLeast(b: nat, x: nat)
    requires x >= 1
    ensures b * x >= b
    decreases x
  {
    if x > 1 {
      MulAtLeast(b, x - 1);
      assert b * x == b * (x - 1) + b;
    }
  }

  lemma MulAssoc(a: nat, b: nat, c: nat, d: nat)
    ensures a * (b * (c * d)) == (a * b * c) * d
  {
  }

  /** Torch broadcasting: shapes aligned on the right, each pair of dimensions equal or
      one of them 1; None when they clash. */
  function Broadcast(a: seq<nat>, b: seq<nat>): (r: Option<seq<nat>>)
    ensures r.Some? ==> |r.value| == if |a| >= |b| then |a| else |b|
    decreases |a| + |b|
  {
    if |a| == 0 then Some(b)
    else if |b| == 0 then Some(a)
    else
      var x, y := a[|a| - 1], b[|b| - 1];
      if x == y || x == 1 || y == 1 then
        match Broadcast(a[..|a| - 1], b[..|b| - 1])
        case None => None
        case Some(rest) => Some(rest + [if x == 1 then y else x])
      else None
  }

  /** Broadcasting does not depend on the order of the operands. */
  lemma {:induction false} BroadcastSymmetric(a: seq<nat>, b: seq<nat>)
    ensures Broadcast(a, b) == Broadcast(b, a)
    decreases |a| + |b|
  {
    if |a| > 0 && |b| > 0 {
      BroadcastSymmetric(a[..|a| - 1], b[..|b| - 1]);
    }
  }

  /** A shape broadcasts with itself to itself. */
  lemma {:induction false} BroadcastSame(a: seq<nat>)
    ensures Broadcast(a, a) == Some(a)
    decreases |a|
  {
    if |a| > 0 {
      var init := a[..|a| - 1];
      BroadcastSame(init);
      assert Broadcast(a, a) == Some(init + [a[|a| - 1]]);
      assert a == init + [a[|a| - 1]];
    }
  }

  /** `embed_sum / cluster_usage.clamp(min=eps)[:, None]`: the `[:, None]` needs a dimension
      to index and inserts a 1 after the first; the division broadcasts. */
  function CodebookShape(embedSum: seq<nat>, clusterUsage: seq<nat>): (r: Option<seq<nat>>)
    ensures |clusterUsage| == 1 && |embedSum| == 2 && embedSum[0] == clusterUsage[0] ==> r == Some(embedSum)
  {
    if |clusterUsage| == 0 then None
    else
      var usage := [clusterUsage[0], 1] + clusterUsage[1..];
      var r := Broadcast(embedSum, usage);
      if |clusterUsage| == 1 && |embedSum| == 2 && embedSum[0] == clusterUsage[0] then
        var k, d := embedSum[0], embedSum[1];
        assert usage == [k, 1];
        assert embedSum[..1] == [k] && usage[..1] == [k];
        BroadcastSame([k]);
        assert r == Some([k] + [d]);
        assert embedSum == [k] + [d];
        r
      else r
  }

  // ---------------------------------------------------------------------
  // Names
  // ---------------------------------------------------------------------

  /** The name after the codebook step: a `.codebook.initialized` tensor loses `.initialized`. */
  function Renamed(name: string): string {
    if Contains(name, ".codebook.initialized") then ReplaceAll(name, ".initialized", "") else name
  }

  /** Tensors folded into a codebook and never written. */
  predicate Skipped(name: string) {
    Contains(Renamed(name), ".cluster_usage") || Contains(Renamed(name), ".embed_sum")
  }

  /** The name written: `_residual_vector_quantizer` shortened to `_rvq`. */
  function OutName(name: string): string {
    ReplaceAll(Renamed(name), "_residual_vector_quantizer", "_rvq")
  }

  /** `name.endswith(("q_proj.weight", "q_proj.bias"))` and the `k_proj` twin. */
  predicate IsQProj(name: string) { EndsWith(name, "q_proj.weight") || EndsWith(name, "q_proj.bias") }
  predicate IsKProj(name: string) { EndsWith(name, "k_proj.weight") || EndsWith(name, "k_proj.bias") }

  // ---------------------------------------------------------------------
  // add_tensor
  // ---------------------------------------------------------------------

  /** The `.codebook.initialized` step: the codebook rebuilt from the `embed_sum` and
      `cluster_usage` tensors of the same state dict (a KeyError when either is missing);
      any other tensor passes unchanged. */
  function Codebook(stateDict: seq<Entry>, name: string, t: Tensor): (r: Result<Tensor, ConvertError>)
    ensures !Contains(name, ".codebook.initialized") ==> r == Ok(t)
    ensures Contains(name, ".codebook.initialized") ==>
      var sumKey := ReplaceAll(name, ".initialized", ".embed_sum");
      var usageKey := ReplaceAll(name, ".initialized", ".cluster_usage");
      && (Lookup(stateDict, sumKey).None? ==> r == Err(MissingTensor(sumKey)))
      && (Lookup(stateDict, sumKey).Some? && Lookup(stateDict, usageKey).None? ==> r == Err(MissingTensor(usageKey)))
      && (r.Ok? ==> Lookup(stateDict, sumKey).Some? && Lookup(stateDict, usageKey).Some?)
      && (Lookup(stateDict, sumKey).Some? && Lookup(stateDict, usageKey).Some? ==>
            var sum, usage := Lookup(stateDict, sumKey).value, Lookup(stateDict, usageKey).value;
            |sum.shape| == 2 && usage.shape == [sum.shape[0]] ==> r == Ok(sum))
  {
    if !Contains(name, ".codebook.initialized") then Ok(t)
    else
      var sumKey := ReplaceAll(name, ".initialized", ".embed_sum");
      var usageKey := ReplaceAll(name, ".initialized", ".cluster_usage");
      match Lookup(stateDict, sumKey)
      case None => Err(MissingTensor(sumKey))
      case Some(sum) =>
        match Lookup(stateDict, usageKey)
        case None => Err(MissingTensor(usageKey))
        case Some(usage) =>
          match CodebookShape(sum.shape, usage.shape)
          case None => Err(BadShape(name))
          case Some(shape) => Ok(Tensor(shape, sum.dtype))
  }

  /** `.conv.bias`: `view((1, shape[0]))` (an IndexError for a 0-d tensor, a RuntimeError
      unless the element count is `shape[0]`) and a transpose to a column. */
  function ConvBiasShape(shape: seq<nat>, name: string): (r: Result<seq<nat>, ConvertError>)
    ensures r.Ok? <==> |shape| > 0 && Product(shape) == shape[0]
    ensures r.Ok? ==> r.value == [shape[0], 1] && Product(r.value) == Product(shape)
    ensures |shape| == 1 ==> r == Ok([shape[0], 1])
    ensures r.Err? ==> r.error == BadShape(name)
  {
    if |shape| == 1 then
      assert shape[1..] == [];
      ProductPair(shape[0], 1);
      Ok([shape[0], 1])
    else if |shape| == 0 || Product(shape) != shape[0] then Err(BadShape(name))
    else
      ProductPair(shape[0], 1);
      Ok([shape[0], 1])
  }

  /** A quantizer projection: `assert shape[2] == 1` (an IndexError below three dimensions)
      and `view((shape[0], shape[1]))`, which needs the element counts to agree. */
  function QuantizerProjShape(shape: seq<nat>, name: string): (r: Result<seq<nat>, ConvertError>)
    ensures r.Ok? <==> |shape| >= 3 && shape[2] == 1 && Product(shape) == shape[0] * shape[1]
    ensures r.Ok? ==> r.value == shape[..2] && Product(r.value) == Product(shape)
    ensures |shape| == 3 && shape[2] == 1 ==> r == Ok(shape[..2])
    ensures r.Err? ==> r.error == BadShape(name)
  {
    if |shape| == 3 && shape[2] == 1 then
      assert shape == [shape[0], shape[1], 1];
      ProductTriple(shape[0], shape[1], 1);
      assert shape[..2] == [shape[0], shape[1]];
      ProductPair(shape[0], shape[1]);
      Ok(shape[..2])
    else if |shape| < 3 || shape[2] != 1 || Product(shape) != shape[0] * shape[1] then Err(BadShape(name))
    else
      assert shape[..2] == [shape[0], shape[1]];
      ProductPair(shape[0], shape[1]);
      Ok(shape[..2])
  }

  /** The storage type before the quantization attempt: from the file type for a tensor
      that is neither 1-D nor a bias, F32 otherwise, and F16 for every conv kernel. */
  function RequestedQType(t: Tensor, name: string, outName: string, ftype: FileType)
    : (r: Result<QType, ConvertError>)
    ensures Contains(outName, ".conv.weight") && r.Ok? ==> r.value == QF16
    ensures (|t.shape| == 1 || Contains(name, ".bias")) ==> r.Ok? && (r.value == QF32 || r.value == QF16)
    ensures |t.shape| != 1 && !Contains(name, ".bias") ==> (r.Ok? <==> !ftype.OtherFileType?)
    ensures r.Err? ==> r.error == UnsupportedFileType(ftype)
    ensures |t.shape| != 1 && !Contains(name, ".bias") && !Contains(outName, ".conv.weight") && r.Ok? ==>
      r == Ok(FileTypeQType(ftype).value)
  {
    var q :- if |t.shape| != 1 && !Contains(name, ".bias") then
               match FileTypeQType(ftype)
               case None => Err(UnsupportedFileType(ftype))
               case Some(q) => Ok(q)
             else Ok(QF32);
    Ok(if Contains(outName, ".conv.weight") then QF16 else q)
  }

  /** The first half of `add_tensor`: the un-permutation of the attention projections
      (q with n_head twice, k with n_kv_head) and the codebook rebuild. */
  function Prepare(stateDict: seq<Entry>, name: string, t: Tensor, config: MimiConfig)
    : (r: Result<Tensor, ConvertError>)
    ensures r.Ok? && !Contains(name, ".codebook.initialized") ==> r.value == t
    ensures !IsQProj(name) && !IsKProj(name) ==> r == Codebook(stateDict, name, t)
    ensures r.Err? ==> r.error.MissingTensor? || r.error.BadShape?
  {
    var heads := config.numAttentionHeads;
    var afterQ :- if IsQProj(name) then UndoPermuteShape(t.shape, heads, Some(heads), name) else Ok(t.shape);
    var afterK :- if IsKProj(name) then UndoPermuteShape(afterQ, heads, config.numKeyValueHeads, name) else Ok(afterQ);
    Codebook(stateDict, name, t.(shape := afterK))
  }

  /** The second half of `add_tensor` for a tensor that is kept: the view changes, the
      shortened name and the storage type.  `t` is the tensor as it came in, `data` the
      tensor after the first half. */
  function Finish(name: string, t: Tensor, data: Tensor, ftype: FileType, quant: Quantizer)
    : (r: Result<Written, ConvertError>)
    ensures r.Ok? ==> r.value.name == OutName(name)
    ensures r.Ok? && Contains(OutName(name), ".conv.weight") ==> r.value.qtype == QF16
    ensures r.Ok? && (|t.shape| == 1 || Contains(name, ".bias")) ==> r.value.qtype == QF32 || r.value.qtype == QF16
    ensures r.Ok? && |t.shape| != 1 && !Contains(name, ".bias") ==> !ftype.OtherFileType?
    ensures r.Ok? ==> Product(r.value.shape) == Product(data.shape)
    ensures r.Ok? && Contains(Renamed(name), ".conv.bias") &&
            !(Contains(Renamed(name), "quantizer") && Contains(Renamed(name), "_proj.")) ==>
      |data.shape| > 0 && r.value.shape == [data.shape[0], 1]
    ensures r.Ok? && Contains(Renamed(name), "quantizer") && Contains(Renamed(name), "_proj.") ==>
      |r.value.shape| == 2
    ensures r.Err? ==> r.error.UnsupportedFileType? || r.error.QuantizeFailed? || r.error.BadShape?
  {
    var renamed := Renamed(name);
    var biasShape :- if Contains(renamed, ".conv.bias") then ConvBiasShape(data.shape, renamed) else Ok(data.shape);
    var shape :- if Contains(renamed, "quantizer") && Contains(renamed, "_proj.") then QuantizerProjShape(biasShape, renamed)
                 else Ok(biasShape);
    var outName := OutName(name);
    var requested :- RequestedQType(t, name, outName, ftype);
    var stored :- QuantizeWithFallback(quant, data.(shape := shape), requested, outName);
    Ok(Written(outName, shape, stored))
  }

  /** `add_tensor(name, data_torch)`: the tensor written, None for a dropped one, or the
      error the conversion raises. */
  function AddTensor(stateDict: seq<Entry>, name: string, t: Tensor, config: MimiConfig,
                     ftype: FileType, quant: Quantizer): (r: Result<Option<Written>, ConvertError>)
    ensures r.Ok? ==> (r.value.None? <==> Skipped(name))
    ensures r.Ok? && r.value.Some? ==> r.value.value.name == OutName(name)
    ensures r.Ok? && r.value.Some? && Contains(OutName(name), ".conv.weight") ==> r.value.value.qtype == QF16
    ensures r.Ok? && r.value.Some? && (|t.shape| == 1 || Contains(name, ".bias")) ==>
      r.value.value.qtype == QF32 || r.value.value.qtype == QF16
    ensures r.Ok? && r.value.Some? && |t.shape| != 1 && !Contains(name, ".bias") ==> !ftype.OtherFileType?
    ensures r.Ok? && r.value.Some? && !Contains(name, ".codebook.initialized") ==>
      Product(r.value.value.shape) == Product(t.shape)
    ensures r.Ok? && r.value.Some? && Contains(Renamed(name), ".conv.bias") &&
            !(Contains(Renamed(name), "quantizer") && Contains(Renamed(name), "_proj.")) ==>
      |r.value.value.shape| == 2 && r.value.value.shape[1] == 1
    ensures r.Ok? && r.value.Some? && Contains(Renamed(name), "quantizer") && Contains(Renamed(name), "_proj.") ==>
      |r.value.value.shape| == 2
    ensures !IsQProj(name) && !IsKProj(name) && !Contains(name, ".codebook.initialized") && Skipped(name) ==>
      r == Ok(None)
    ensures !IsQProj(name) && !IsKProj(name) && Contains(name, ".codebook.initialized") &&
            Lookup(stateDict, ReplaceAll(name, ".initialized", ".embed_sum")).None? ==>
      r == Err(MissingTensor(ReplaceAll(name, ".initialized", ".embed_sum")))
    ensures r.Err? ==> !r.error.WrongArchitecture? && !r.error.PlaceholderMissing? && !r.error.MissingVocabField?
  {
    var data :- Prepare(stateDict, name, t, config);
    if Skipped(name) then Ok(None)
    else
      var w :- Finish(name, t, data, ftype, quant);
      Ok(Some(w))
  }

  // ---------------------------------------------------------------------
  // The converter
  // ---------------------------------------------------------------------

  /** One pass of the `state_dict().items()` loop: cast, then `add_tensor`. */
  function Step(stateDict: seq<Entry>, config: MimiConfig, ftype: FileType, quant: Quantizer)
    : Entry -> Result<Option<Written>, ConvertError>
  {
    (e: Entry) => AddTensor(stateDict, e.0, CastForNumpy(e.1), config, ftype, quant)
  }

  /** Every tensor written comes from a kept state-dict entry, under its shortened name;
      every conv kernel among them is stored as F16. */
  lemma PassProvenance(stateDict: seq<Entry>, config: MimiConfig, ftype: FileType, quant: Quantizer)
    requires Collect(stateDict, Step(stateDict, config, ftype, quant), 0).Ok?
    ensures var out := Collect(stateDict, Step(stateDict, config, ftype, quant), 0).value;
      forall w :: w in out ==>
        && (exists i :: 0 <= i < |stateDict| && !Skipped(stateDict[i].0) && w.name == OutName(stateDict[i].0))
        && (Contains(w.name, ".conv.weight") ==> w.qtype == QF16)
  {
    var step := Step(stateDict, config, ftype, quant);
    var out := Collect(stateDict, step, 0).value;
    CollectSource(stateDict, step);
    forall w | w in out
      ensures exists i :: 0 <= i < |stateDict| && !Skipped(stateDict[i].0) && w.name == OutName(stateDict[i].0)
      ensures Contains(w.name, ".conv.weight") ==> w.qtype == QF16
    {
      var i :| 0 <= i < |stateDict| && step(stateDict[i]) == Ok(Some(w));
    }
  }

  /** Every kept state-dict entry is written, under its shortened name. */
  lemma PassComplete(stateDict: seq<Entry>, config: MimiConfig, ftype: FileType, quant: Quantizer)
    requires Collect(stateDict, Step(stateDict, config, ftype, quant), 0).Ok?
    ensures var out := Collect(stateDict, Step(stateDict, config, ftype, quant), 0).value;
      forall i :: 0 <= i < |stateDict| && !Skipped(stateDict[i].0) ==>
        exists w :: w in out && w.name == OutName(stateDict[i].0)
  {
    var step := Step(stateDict, config, ftype, quant);
    forall i | 0 <= i < |stateDict| && !Skipped(stateDict[i].0)
      ensures exists w: Written :: w in Collect(stateDict, step, 0).value && w.name == OutName(stateDict[i].0)
    {
      assert step(stateDict[i]).Ok?;
      CollectCovers(stateDict, step, i);
    }
  }

  /** `MimiModelConverter(...)`: the architecture assertion, then every tensor of the state
      dict in order, stopping at the first raise. */
  function Convert(config: MimiConfig, stateDict: seq<Entry>, ftype: FileType, quant: Quantizer)
    : (r: Result<seq<Written>, ConvertError>)
    ensures (r.Err? && r.error == WrongArchitecture) <==>
      (|config.architectures| == 0 || config.architectures[0] != "MimiModel")
    ensures r.Ok? ==> forall w :: w in r.value ==>
      exists i :: 0 <= i < |stateDict| && !Skipped(stateDict[i].0) && w.name == OutName(stateDict[i].0)
    ensures r.Ok? ==> forall i :: 0 <= i < |stateDict| && !Skipped(stateDict[i].0) ==>
      exists w :: w in r.value && w.name == OutName(stateDict[i].0)
    ensures r.Ok? ==> forall w :: w in r.value && Contains(w.name, ".conv.weight") ==> w.qtype == QF16
    ensures r.Ok? ==> |r.value| <= |stateDict|
  {
    if |config.architectures| == 0 || config.architectures[0] != "MimiModel" then Err(WrongArchitecture)
    else
      var r := Collect(stateDict, Step(stateDict, config, ftype, quant), 0);
      if r.Ok? then
        PassProvenance(stateDict, config, ftype, quant);
        PassComplete(stateDict, config, ftype, quant);
        r
      else
        r
  }
}

=== FILE: mixed_dataset.dfy ===
/**
 * The mixed-domain imatrix dataset builder: reading the non-empty lines of
 * each source, choosing how many lines of each source to keep from the
 * requested ratio, and interleaving the kept lines two wikitext, one code,
 * one math at a time.  Files are their sequences of raw lines; the ratio
 * arithmetic, done in floating point by the tool, is done exactly here.
 */
module MixedDataset {
  import opened Wrappers
  import opened Text
  import opened CInt

  // ---------------------------------------------------------------------
  // read_lines
  // ---------------------------------------------------------------------

  /** `line.strip()`. */
  function StripLine(line: string): string {
    Trim(line, IsPySpace)
  }

  /** Every stripped non-empty line, in file order. */
  function NonEmptyStripped(raw: seq<string>): (r: seq<string>)
    ensures |r| <= |raw|
    ensures forall k :: 0 <= k < |r| ==> |r[k]| > 0
    decreases |raw|
  {
    if |raw| == 0 then []
    else
      var s := StripLine(raw[0]);
      if |s| == 0 then NonEmptyStripped(raw[1..]) else [s] + NonEmptyStripped(raw[1..])
  }

  /** The scan of `read_lines` after `kept` lines have been kept; `maxLines == 0` stands for
      a falsy limit (absent or zero). */
  function Scan(raw: seq<string>, maxLines: int, kept: seq<string>): seq<string>
    decreases |raw|
  {
    if |raw| == 0 then kept
    else
      var s := StripLine(raw[0]);
      if |s| == 0 then Scan(raw[1..], maxLines, kept)
      else if maxLines != 0 && |kept| + 1 >= maxLines then kept + [s]
      else Scan(raw[1..], maxLines, kept + [s])
  }

  /** `read_lines(filename, max_lines)` over the file's raw lines. */
  function ReadLines(raw: seq<string>, maxLines: Option<int>): seq<string> {
    Scan(raw, if maxLines.Some? then maxLines.value else 0, [])
  }

  /** How many lines a truthy limit lets through: the limit itself, or a single line for a
      negative limit, which the length check passes at once. */
  function LineCap(maxLines: int): nat {
    if maxLines > 0 then maxLines else 1
  }

  function Min(a: nat, b: nat): nat {
    if a <= b then a else b
  }

  lemma {:induction false} ScanAll(raw: seq<string>, kept: seq<string>)
    ensures Scan(raw, 0, kept) == kept + NonEmptyStripped(raw)
    decreases |raw|
  {
    if |raw| > 0 {
      var s := StripLine(raw[0]);
      if |s| == 0 {
        ScanAll(raw[1..], kept);
      } else {
        ScanAll(raw[1..], kept + [s]);
      }
    }
  }

  lemma {:induction false} ScanLimited(raw: seq<string>, maxLines: int, kept: seq<string>)
    requires maxLines != 0 && |kept| < LineCap(maxLines)
    ensures var all := NonEmptyStripped(raw);
            Scan(raw, maxLines, kept) == kept + all[..Min(LineCap(maxLines) - |kept|, |all|)]
    decreases |raw|
  {
    if |raw| > 0 {
      var s := StripLine(raw[0]);
      var all := NonEmptyStripped(raw);
      var rest := NonEmptyStripped(raw[1..]);
      if |s| == 0 {
        ScanLimited(raw[1..], maxLines, kept);
      } else {
        assert all == [s] + rest;
        if |kept| + 1 >= maxLines {
          assert all[..1] == [s];
        } else {
          ScanLimited(raw[1..], maxLines, kept + [s]);
          ConsPrefix(kept, s, rest, Min(LineCap(maxLines) - |kept| - 1, |rest|));
        }
      }
    }
  }

  lemma ConsPrefix(kept: seq<string>, s: string, rest: seq<string>, n: nat)
    requires n <= |rest|
    ensures (kept + [s]) + rest[..n] == kept + ([s] + rest)[..n + 1]
  {
    assert ([s] + rest)[..n + 1] == [s] + rest[..n];
  }

  /** `read_lines` keeps the stripped non-empty lines in order: all of them without a limit,
      the first `max_lines` with a positive one, and only the first with a negative one. */
  lemma ReadLinesSpec(raw: seq<string>, maxLines: Option<int>)
    ensures var all := NonEmptyStripped(raw);
            var r := ReadLines(raw, maxLines);
            && (maxLines.None? || maxLines.value == 0 ==> r == all)
            && (maxLines.Some? && maxLines.value > 0 ==> r == all[..Min(maxLines.value, |all|)])
            && (maxLines.Some? && maxLines.value < 0 ==> r == all[..Min(1, |all|)])
  {
    if maxLines.None? || maxLines.value == 0 {
      ScanAll(raw, []);
    } else {
      ScanLimited(raw, maxLines.value, []);
    }
  }

  // ---------------------------------------------------------------------
  // Target counts and truncation
  // ---------------------------------------------------------------------

  datatype MixError = ZeroTotalRatio | NonFiniteTarget

  /** The three sources, in the order the tool takes them. */
  datatype Source = Wiki | Code | Math

  /** The ratio of each source with the sign of the total folded in, so that a source takes
      part in the estimate exactly when its fraction of the total is positive. */
  function Normalized(ratios: (int, int, int)): (int, int, int)
    requires ratios.0 + ratios.1 + ratios.2 != 0
  {
    if ratios.0 + ratios.1 + ratios.2 > 0 then ratios else (-ratios.0, -ratios.1, -ratios.2)
  }

  /** `len / frac` for source `i`, compared to source `j`'s: `a` bounds the multiplier no
      more than `b` does. */
  predicate NoLooser(la: nat, ra: int, lb: nat, rb: int)
    requires ra > 0 && rb > 0
  {
    la * rb <= lb * ra
  }

  /** The source whose `len / frac` is the smallest, ties going to the earliest, or None when
      no fraction is positive and the multiplier is infinite. */
  function Tightest(lens: (nat, nat, nat), q: (int, int, int)): (r: Option<Source>)
    ensures r == Some(Wiki) ==> q.0 > 0
    ensures r == Some(Code) ==> q.1 > 0
    ensures r == Some(Math) ==> q.2 > 0
    ensures r.None? <==> q.0 <= 0 && q.1 <= 0 && q.2 <= 0
  {
    var w := q.0 > 0 && (q.1 <= 0 || NoLooser(lens.0, q.0, lens.1, q.1)) && (q.2 <= 0 || NoLooser(lens.0, q.0, lens.2, q.2));
    var c := q.1 > 0 && (q.2 <= 0 || NoLooser(lens.1, q.1, lens.2, q.2));
    if w then Some(Wiki)
    else if c then Some(Code)
    else if q.2 > 0 then Some(Math)
    else None
  }

  function Pick<T>(t: (T, T, T), s: Source): T {
    match s
    case Wiki => t.0
    case Code => t.1
    case Math => t.2
  }

  /** `target_* = int(min_multiplier * frac)`: the multiplier is `len / frac` of the tightest
      source, so each target is that source's length scaled by the ratio of the two ratios,
      truncated toward zero. */
  function Targets(lens: (nat, nat, nat), ratios: (int, int, int)): (r: Result<(int, int, int), MixError>)
    ensures r == Err(ZeroTotalRatio) <==> ratios.0 + ratios.1 + ratios.2 == 0
  {
    if ratios.0 + ratios.1 + ratios.2 == 0 then Err(ZeroTotalRatio)
    else
      var q := Normalized(ratios);
      match Tightest(lens, q)
      case None => Err(NonFiniteTarget)
      case Some(s) =>
        var l := Pick(lens, s);
        var d := Pick(q, s);
        Ok((Quot(l * q.0, d), Quot(l * q.1, d), Quot(l * q.2, d)))
  }

  /** One target: in [0, len] for a positive fraction, 0 for a zero one, at most 0 for a
      negative one. */
  predicate TargetFits(t: int, len: nat, q: int) {
    (q > 0 ==> 0 <= t <= len) && (q == 0 ==> t == 0) && (q < 0 ==> t <= 0)
  }

  /** The estimate is conservative: no source is asked for more lines than it has, and the
      tightest source gives all of its lines. An infinite multiplier (no positive fraction)
      makes `int()` fail. */
  lemma TargetsFit(lens: (nat, nat, nat), ratios: (int, int, int))
    requires ratios.0 + ratios.1 + ratios.2 != 0
    ensures var q := Normalized(ratios);
            var r := Targets(lens, ratios);
            && (r == Err(NonFiniteTarget) <==> q.0 <= 0 && q.1 <= 0 && q.2 <= 0)
            && (r.Ok? ==> TargetFits(r.value.0, lens.0, q.0) && TargetFits(r.value.1, lens.1, q.1)
                          && TargetFits(r.value.2, lens.2, q.2))
            && (r.Ok? ==> exists s :: Pick(q, s) > 0 && Pick(r.value, s) == Pick(lens, s))
  {
    var q := Normalized(ratios);
    var t := Tightest(lens, q);
    if t.Some? {
      var s := t.value;
      var l := Pick(lens, s);
      var d := Pick(q, s);
      TightestBounds(lens, q, s);
      ScaledFits(l, d, lens.0, q.0);
      ScaledFits(l, d, lens.1, q.1);
      ScaledFits(l, d, lens.2, q.2);
      SelfScaled(l, d);
      var r := Targets(lens, ratios).value;
      assert Pick(r, s) == Quot(l * d, d);
    }
  }

  /** The tightest source bounds every source with a positive fraction. */
  lemma TightestBounds(lens: (nat, nat, nat), q: (int, int, int), s: Source)
    requires Tightest(lens, q) == Some(s)
    ensures Pick(q, s) > 0
    ensures q.0 > 0 ==> Pick(lens, s) * q.0 <= lens.0 * Pick(q, s)
    ensures q.1 > 0 ==> Pick(lens, s) * q.1 <= lens.1 * Pick(q, s)
    ensures q.2 > 0 ==> Pick(lens, s) * q.2 <= lens.2 * Pick(q, s)
  {
  }

  /** Scaling by a ratio no looser than the source's own stays within its length. */
  lemma ScaledFits(l: nat, d: int, len: nat, qx: int)
    requires d > 0
    requires qx > 0 ==> l * qx <= len * d
    ensures TargetFits(Quot(l * qx, d), len, qx)
  {
    if qx > 0 {
      var t := (l * qx) / d;
      assert l * qx == t * d + (l * qx) % d;
      if t > len {
        MulMono(len + 1, t, d);
        assert false;
      }
    } else if qx == 0 {
    } else {
      assert l * qx <= 0 by {
        assert l * qx == -(l * (-qx));
      }
    }
  }

  lemma SelfScaled(l: nat, d: int)
    requires d > 0
    ensures Quot(l * d, d) == l
  {
    DivModUnique(l, 0, d);
  }

  /** `lines[:target]`: a negative target counts from the end. */
  function PyPrefix(lines: seq<string>, target: int): (r: seq<string>)
    ensures |r| <= |lines| && r == lines[..|r|]
    ensures target >= 0 ==> |r| == Min(target, |lines|)
    ensures target < 0 ==> |r| == (if |lines| + target > 0 then |lines| + target else 0)
  {
    if target >= 0 then lines[..Min(target, |lines|)]
    else if |lines| + target > 0 then lines[..|lines| + target]
    else []
  }

  // ---------------------------------------------------------------------
  // Interleaving
  // ---------------------------------------------------------------------

  function Clamp(n: nat, cap: nat): (r: nat)
    ensures r <= n && r <= cap && (r == n || r == cap)
  {
    if n <= cap then n else cap
  }

  /** The first `n` lines of `s`, or all of them when there are fewer. */
  function TakeUpTo(s: seq<string>, n: nat): (r: seq<string>)
    ensures |r| == Clamp(|s|, n) && r == s[..|r|]
  {
    if |s| <= n then s else s[..n]
  }

  /** What is left after `TakeUpTo(s, n)`. */
  function DropUpTo(s: seq<string>, n: nat): (r: seq<string>)
    ensures |r| == |s| - Clamp(|s|, n) && TakeUpTo(s, n) + r == s
  {
    if |s| <= n then [] else s[n..]
  }

  /** The interleaving: each round takes up to two wikitext lines, then up to one code line,
      then up to one math line, until all three lists are used up. */
  function Interleave(w: seq<string>, c: seq<string>, m: seq<string>): (r: seq<string>)
    ensures |r| == |w| + |c| + |m|
    decreases |w| + |c| + |m|
  {
    if |w| + |c| + |m| == 0 then []
    else (TakeUpTo(w, 2) + TakeUpTo(c, 1) + TakeUpTo(m, 1)) + Interleave(DropUpTo(w, 2), DropUpTo(c, 1), DropUpTo(m, 1))
  }

  /** Which source each interleaved line comes from, for lists of these lengths. */
  function InterleaveTags(nw: nat, nc: nat, nm: nat): (t: seq<Source>)
    ensures |t| == nw + nc + nm
    decreases nw + nc + nm
  {
    if nw + nc + nm == 0 then []
    else
      (Repeat(Wiki, Clamp(nw, 2)) + Repeat(Code, Clamp(nc, 1)) + Repeat(Math, Clamp(nm, 1)))
      + InterleaveTags(nw - Clamp(nw, 2), nc - Clamp(nc, 1), nm - Clamp(nm, 1))
  }

  function Repeat(s: Source, n: nat): (r: seq<Source>)
    ensures |r| == n && forall k :: 0 <= k < n ==> r[k] == s
  {
    seq(n, k => s)
  }

  /** The lines of `r` whose tag is `s`, in order. */
  function Project(r: seq<string>, tags: seq<Source>, s: Source): seq<string>
    requires |r| == |tags|
    decreases |r|
  {
    if |r| == 0 then []
    else (if tags[0] == s then [r[0]] else []) + Project(r[1..], tags[1..], s)
  }

  lemma {:induction false} ProjectAppend(a: seq<string>, ta: seq<Source>, b: seq<string>, tb: seq<Source>, s: Source)
    requires |a| == |ta| && |b| == |tb|
    ensures Project(a + b, ta + tb, s) == Project(a, ta, s) + Project(b, tb, s)
    decreases |a|
  {
    if |a| > 0 {
      assert (a + b)[1..] == a[1..] + b;
      assert (ta + tb)[1..] == ta[1..] + tb;
      ProjectAppend(a[1..], ta[1..], b, tb, s);
    } else {
      assert a + b == b && ta + tb == tb;
    }
  }

  /** Projecting a run of one tag keeps the whole run or nothing. */
  lemma {:induction false} ProjectRun(x: seq<string>, t: Source, s: Source)
    ensures Project(x, Repeat(t, |x|), s) == (if t == s then x else [])
    decreases |x|
  {
    if |x| > 0 {
      assert Repeat(t, |x|)[1..] == Repeat(t, |x| - 1);
      ProjectRun(x[1..], t, s);
    }
  }

  /** One round's lines, projected on a source, are that source's lines of the round. */
  lemma ProjectRound(x: seq<string>, y: seq<string>, z: seq<string>, s: Source)
    ensures Project(x + y + z, Repeat(Wiki, |x|) + Repeat(Code, |y|) + Repeat(Math, |z|), s)
         == (if s == Wiki then x else if s == Code then y else z)
  {
    ProjectAppend(x, Repeat(Wiki, |x|), y, Repeat(Code, |y|), s);
    ProjectAppend(x + y, Repeat(Wiki, |x|) + Repeat(Code, |y|), z, Repeat(Math, |z|), s);
    ProjectRun(x, Wiki, s);
    ProjectRun(y, Code, s);
    ProjectRun(z, Math, s);
  }

  /** Read along the tags `t`, the lines of `r` are `w`, `c` and `m`. */
  predicate Merged(r: seq<string>, t: seq<Source>, w: seq<string>, c: seq<string>, m: seq<string>) {
    |r| == |t| && Project(r, t, Wiki) == w && Project(r, t, Code) == c && Project(r, t, Math) == m
  }

  /** A round followed by a merge of the rest is a merge of the extended lists. */
  lemma MergeStep(x: seq<string>, y: seq<string>, z: seq<string>, rest: seq<string>, tags: seq<Source>,
                  w: seq<string>, c: seq<string>, m: seq<string>)
    requires Merged(rest, tags, w, c, m)
    ensures Merged((x + y + z) + rest, (Repeat(Wiki, |x|) + Repeat(Code, |y|) + Repeat(Math, |z|)) + tags,
                   x + w, y + c, z + m)
  {
    var t := Repeat(Wiki, |x|) + Repeat(Code, |y|) + Repeat(Math, |z|);
    ProjectAppend(x + y + z, t, rest, tags, Wiki);
    ProjectAppend(x + y + z, t, rest, tags, Code);
    ProjectAppend(x + y + z, t, rest, tags, Math);
    ProjectRound(x, y, z, Wiki);
    ProjectRound(x, y, z, Code);
    ProjectRound(x, y, z, Math);
  }

  /** The interleaving is a merge: read along its tags, the lines of each source are that
      source's list, in order, each line exactly once. */
  lemma {:induction false} InterleaveIsMerge(w: seq<string>, c: seq<string>, m: seq<string>)
    ensures Merged(Interleave(w, c, m), InterleaveTags(|w|, |c|, |m|), w, c, m)
    decreases |w| + |c| + |m|
  {
    if |w| + |c| + |m| > 0 {
      var w', c', m' := DropUpTo(w, 2), DropUpTo(c, 1), DropUpTo(m, 1);
      InterleaveIsMerge(w', c', m');
      MergeStep(TakeUpTo(w, 2), TakeUpTo(c, 1), TakeUpTo(m, 1), Interleave(w', c', m'), InterleaveTags(|w'|, |c'|, |m'|), w', c', m');
    }
  }

  /** After taking up to `n` lines from cursor `i0`, the cursor is at `i`. */
  lemma TakeAt(s: seq<string>, i0: nat, i: nat, n: nat)
    requires i0 <= |s| && i == i0 + Clamp(|s| - i0, n)
    ensures i <= |s| && s[i0..i] == TakeUpTo(s[i0..], n) && s[i..] == DropUpTo(s[i0..], n)
  {
    var t := s[i0..];
    assert TakeUpTo(t, n) == t[..Clamp(|t|, n)];
    assert t[..Clamp(|t|, n)] == s[i0..i];
    assert TakeUpTo(t, n) + DropUpTo(t, n) == t;
    assert s[i0..] == s[i0..i] + s[i..];
  }

  /** One round from the cursors: its lines, then the interleaving of what is left. */
  lemma RoundAt(w: seq<string>, c: seq<string>, m: seq<string>, i0: nat, j0: nat, k0: nat, i: nat, j: nat, k: nat)
    requires i0 <= |w| && j0 <= |c| && k0 <= |m| && (i0 < |w| || j0 < |c| || k0 < |m|)
    requires i == i0 + Clamp(|w| - i0, 2) && j == j0 + Clamp(|c| - j0, 1) && k == k0 + Clamp(|m| - k0, 1)
    ensures i <= |w| && j <= |c| && k <= |m|
    ensures Interleave(w[i0..], c[j0..], m[k0..]) == (w[i0..i] + c[j0..j] + m[k0..k]) + Interleave(w[i..], c[j..], m[k..])
  {
    TakeAt(w, i0, i, 2);
    TakeAt(c, j0, j, 1);
    TakeAt(m, k0, k, 1);
  }

  /** The invariant of the interleaving loop survives one round. */
  lemma LoopStep(w: seq<string>, c: seq<string>, m: seq<string>, before: seq<string>, mixed: seq<string>,
                 i0: nat, j0: nat, k0: nat, i: nat, j: nat, k: nat)
    requires i0 <= |w| && j0 <= |c| && k0 <= |m| && (i0 < |w| || j0 < |c| || k0 < |m|)
    requires i == i0 + Clamp(|w| - i0, 2) && j == j0 + Clamp(|c| - j0, 1) && k == k0 + Clamp(|m| - k0, 1)
    requires before + Interleave(w[i0..], c[j0..], m[k0..]) == Interleave(w, c, m)
    requires mixed == before + (w[i0..i] + c[j0..j] + m[k0..k])
    ensures i <= |w| && j <= |c| && k <= |m|
    ensures mixed + Interleave(w[i..], c[j..], m[k..]) == Interleave(w, c, m)
  {
    RoundAt(w, c, m, i0, j0, k0, i, j, k);
    Regroup(before, w[i0..i] + c[j0..j] + m[k0..k], Interleave(w[i..], c[j..], m[k..]),
            Interleave(w[i0..], c[j0..], m[k0..]), Interleave(w, c, m), mixed);
  }

  lemma Regroup(before: seq<string>, x: seq<string>, rest: seq<string>, a: seq<string>, total: seq<string>, mixed: seq<string>)
    requires a == x + rest && before + a == total && mixed == before + x
    ensures mixed + rest == total
  {
  }

  /** The `for _ in range(n)` loop: append up to `n` lines of `s` from cursor `i`. */
  method AppendUpTo(mixed: seq<string>, s: seq<string>, i: nat, n: nat) returns (mixed': seq<string>, i': nat)
    requires i <= |s|
    ensures i' == i + Clamp(|s| - i, n) && mixed' == mixed + s[i..i']
  {
    mixed', i' := mixed, i;
    var round := 0;
    while round < n
      invariant 0 <= round <= n && i <= i' <= |s| && i' == i + Clamp(|s| - i, round)
      invariant mixed' == mixed + s[i..i']
    {
      if i' < |s| {
        mixed' := mixed' + [s[i']];
        i' := i' + 1;
      }
      round := round + 1;
    }
  }

  /** One pass of the loop body: up to two wikitext lines, then a code line and a math line
      when there are any left. */
  method Round(mixed: seq<string>, w: seq<string>, c: seq<string>, m: seq<string>, i: nat, j: nat, k: nat)
    returns (mixed': seq<string>, i': nat, j': nat, k': nat)
    requires i <= |w| && j <= |c| && k <= |m|
    ensures i' == i + Clamp(|w| - i, 2) && j' == j + Clamp(|c| - j, 1) && k' == k + Clamp(|m| - k, 1)
    ensures mixed' == mixed + (w[i..i'] + c[j..j'] + m[k..k'])
  {
    var afterWiki;
    afterWiki, i' := AppendUpTo(mixed, w, i, 2);
    mixed', j', k' := afterWiki, j, k;
    if j' < |c| {
      mixed' := mixed' + [c[j']];
      j' := j' + 1;
    }
    var afterCode := mixed';
    if k' < |m| {
      mixed' := mixed' + [m[k']];
      k' := k' + 1;
    }
    assert afterCode == afterWiki + c[j..j'];
    assert mixed' == afterCode + m[k..k'];
  }

  /** The loop as written, with the three cursors. */
  method InterleaveLoop(w: seq<string>, c: seq<string>, m: seq<string>) returns (mixed: seq<string>)
    ensures mixed == Interleave(w, c, m)
  {
    mixed := [];
    var i, j, k := 0, 0, 0;
    assert w[0..] == w && c[0..] == c && m[0..] == m;
    while i < |w| || j < |c| || k < |m|
      invariant 0 <= i <= |w| && 0 <= j <= |c| && 0 <= k <= |m|
      invariant mixed + Interleave(w[i..], c[j..], m[k..]) == Interleave(w, c, m)
      decreases |w| - i + |c| - j + |m| - k
    {
      ghost var before := mixed;
      ghost var i0, j0, k0 := i, j, k;
      mixed, i, j, k := Round(mixed, w, c, m, i, j, k);
      LoopStep(w, c, m, before, mixed, i0, j0, k0, i, j, k);
    }
    assert w[i..] == [] && c[j..] == [] && m[k..] == [];
  }

  /** The 2:1:1 pattern: a round with lines left in every list is wikitext, wikitext, code,
      math, and the rest of the tags are those of the shorter lists. */
  lemma FullRound(nw: nat, nc: nat, nm: nat)
    ensures InterleaveTags(nw + 2, nc + 1, nm + 1) == [Wiki, Wiki, Code, Math] + InterleaveTags(nw, nc, nm)
  {
    assert Repeat(Wiki, 2) + Repeat(Code, 1) + Repeat(Math, 1) == [Wiki, Wiki, Code, Math];
  }

  /** `interleave_datasets`: the targets, the truncated lists, and their interleaving. */
  function InterleaveDatasets(w: seq<string>, c: seq<string>, m: seq<string>, ratios: (int, int, int))
    : (r: Result<seq<string>, MixError>)
    ensures r.Err? <==> Targets((|w|, |c|, |m|), ratios).Err?
  {
    var t :- Targets((|w|, |c|, |m|), ratios);
    Ok(Interleave(PyPrefix(w, t.0), PyPrefix(c, t.1), PyPrefix(m, t.2)))
  }

  /** The mixed dataset holds a prefix of each source, each line once, in each source's
      order; its length is the sum of the three prefixes' lengths. */
  lemma InterleaveDatasetsMerge(w: seq<string>, c: seq<string>, m: seq<string>, ratios: (int, int, int))
    requires InterleaveDatasets(w, c, m, ratios).Ok?
    ensures var t := Targets((|w|, |c|, |m|), ratios).value;
            var pw := PyPrefix(w, t.0);
            var pc := PyPrefix(c, t.1);
            var pm := PyPrefix(m, t.2);
            var r := InterleaveDatasets(w, c, m, ratios).value;
            var tags := InterleaveTags(|pw|, |pc|, |pm|);
            && |r| == |pw| + |pc| + |pm|
            && Project(r, tags, Wiki) == pw && Project(r, tags, Code) == pc && Project(r, tags, Math) == pm
            && pw == w[..|pw|] && pc == c[..|pc|] && pm == m[..|pm|]
  {
    var t := Targets((|w|, |c|, |m|), ratios).value;
    InterleaveIsMerge(PyPrefix(w, t.0), PyPrefix(c, t.1), PyPrefix(m, t.2));
  }

  // ---------------------------------------------------------------------
  // Ratio parsing
  // ---------------------------------------------------------------------

  /** Python `int()` digit text: digits, where an underscore may stand between two digits. */
  predicate IsDigitText(b: string) {
    && |b| > 0 && IsDigit(b[0])
    && forall i :: 0 <= i < |b| ==> IsDigit(b[i]) || (b[i] == '_' && DigitFollows(b, i))
  }

  predicate DigitFollows(b: string, i: nat) {
    i + 1 < |b| && IsDigit(b[i + 1])
  }

  function DropUnderscores(b: string): (r: string)
    requires forall i :: 0 <= i < |b| ==> IsDigit(b[i]) || b[i] == '_'
    ensures forall i :: 0 <= i < |r| ==> IsDigit(r[i])
    ensures (forall i :: 0 <= i < |b| ==> IsDigit(b[i])) ==> r == b
    decreases |b|
  {
    if |b| == 0 then ""
    else (if b[0] == '_' then "" else [b[0]]) + DropUnderscores(b[1..])
  }

  /** The value of unsigned digit text, or None when it is not digit text. */
  function DigitTextValue(b: string): (r: Option<nat>)
    ensures r.Some? <==> IsDigitText(b)
  {
    if IsDigitText(b) then
      DigitTextChars(b);
      Some(DigitsValue(DropUnderscores(b)))
    else None
  }

  lemma DigitTextChars(b: string)
    requires IsDigitText(b)
    ensures forall i :: 0 <= i < |b| ==> IsDigit(b[i]) || b[i] == '_'
  {
  }

  /** Python `int(x)` for base-10 ASCII text: surrounding whitespace, an optional sign and
      the digit text; anything else raises ValueError, here None. */
  function PyInt(x: string): (r: Option<int>)
    ensures var t := Trim(x, IsPySpace);
            r.Some? <==> if |t| > 0 && (t[0] == '-' || t[0] == '+') then IsDigitText(t[1..]) else IsDigitText(t)
  {
    var t := Trim(x, IsPySpace);
    var signed := |t| > 0 && (t[0] == '-' || t[0] == '+');
    var d := DigitTextValue(if signed then t[1..] else t);
    if d.None? then None
    else if signed && t[0] == '-' then Some(0 - d.value)
    else Some(d.value)
  }

  /** Decimal digits as Python prints them are digit text with their own value. */
  lemma PrintedDigits(n: nat)
    ensures DigitTextValue(NatToString(n)) == Some(n)
  {
    var d := NatToString(n);
    assert IsDigitText(d);
    NatToStringValue(n);
  }

  /** Python prints an integer in a form `int()` reads back. */
  lemma PyIntOfPrinted(n: int)
    ensures PyInt(IntToString(n)) == Some(n)
  {
    var s := IntToString(n);
    var digits := NatToString(if n < 0 then -n else n);
    assert !IsPySpace(s[0]) && !IsPySpace(s[|s| - 1]);
    TrimUnchanged(s, IsPySpace);
    PrintedDigits(if n < 0 then -n else n);
    if n < 0 {
      assert s[1..] == digits;
    }
  }

  datatype RatioError = NotAnInteger(part: string) | WrongCount(count: nat)

  /** Part `k` is the first whose value is missing. */
  predicate FirstFailure(values: seq<Option<int>>, k: int) {
    0 <= k < |values| && values[k].None? && forall i :: 0 <= i < k ==> values[i].Some?
  }

  /** The values of the parts, the first part that is not an integer raising. */
  function Collect(parts: seq<string>, values: seq<Option<int>>): (r: Result<seq<int>, RatioError>)
    requires |values| == |parts|
    ensures r.Ok? <==> forall k :: 0 <= k < |values| ==> values[k].Some?
    ensures r.Err? ==> exists k :: FirstFailure(values, k) && r.error == NotAnInteger(parts[k])
    ensures r.Ok? ==> |r.value| == |values| && forall k :: 0 <= k < |values| ==> r.value[k] == values[k].value
    decreases |parts|
  {
    if |parts| == 0 then Ok([])
    else if values[0].None? then Err(NotAnInteger(parts[0]))
    else
      var rest := Collect(parts[1..], values[1..]);
      assert forall k :: 1 <= k < |values| ==> values[k] == values[1..][k - 1];
      if rest.Err? then rest else Ok([values[0].value] + rest.value)
  }

  /** `int(x)` of every part. */
  function ParseEach(parts: seq<string>): (r: seq<Option<int>>)
    ensures |r| == |parts| && forall k :: 0 <= k < |parts| ==> r[k] == PyInt(parts[k])
  {
    seq(|parts|, k requires 0 <= k < |parts| => PyInt(parts[k]))
  }

  /** The ratios from the comma-separated parts: a part that is not an integer raises
      first; otherwise a count other than three raises. */
  function RatiosOf(parts: seq<string>, values: seq<Option<int>>): (r: Result<(int, int, int), RatioError>)
    requires |values| == |parts|
    ensures r.Ok? <==> |parts| == 3 && forall k :: 0 <= k < 3 ==> values[k].Some?
    ensures r.Ok? ==> r.value == (values[0].value, values[1].value, values[2].value)
    ensures r.Err? && r.error.WrongCount? <==> |parts| != 3 && forall k :: 0 <= k < |parts| ==> values[k].Some?
  {
    var v :- Collect(parts, values);
    if |v| != 3 then Err(WrongCount(|v|)) else Ok((v[0], v[1], v[2]))
  }

  /** The `--ratio` argument: `int(x)` of each comma-separated part, exactly three of them. */
  function ParseRatios(arg: string): Result<(int, int, int), RatioError> {
    var parts := Split(arg, ",");
    RatiosOf(parts, ParseEach(parts))
  }

  /** The ratios parse exactly when there are three parts and each is an integer; a count
      other than three is reported only when every part is an integer. */
  lemma ParseRatiosSpec(arg: string)
    ensures var parts, r := Split(arg, ","), ParseRatios(arg);
            && (r.Ok? <==> |parts| == 3 && forall k :: 0 <= k < 3 ==> PyInt(parts[k]).Some?)
            && (r.Ok? ==> r.value == (PyInt(parts[0]).value, PyInt(parts[1]).value, PyInt(parts[2]).value))
            && (r.Err? && r.error.WrongCount? <==> |parts| != 3 && forall k :: 0 <= k < |parts| ==> PyInt(parts[k]).Some?)
  {
    var parts := Split(arg, ",");
    var values := ParseEach(parts);
    assert ParseRatios(arg) == RatiosOf(parts, values);
    assert forall k :: 0 <= k < |parts| ==> values[k] == PyInt(parts[k]);
  }

  /** Splitting at a delimiter character absent from the first piece cuts that piece off. */
  lemma SplitAtFirst(a: string, b: string, d: char)
    requires d !in a
    ensures Split(a + [d] + b, [d]) == [a] + Split(b, [d])
  {
    var s := a + [d] + b;
    assert s[|a|..|a| + 1] == [d];
    forall j | 0 <= j < |a| ensures !OccursAt(s, [d], j) {
      assert s[j..j + 1] == [a[j]];
    }
    FindFromFirst(s, [d], 0, |a|);
    assert s[..|a|] == a && s[|a| + 1..] == b;
  }

  lemma SplitWithout(a: string, d: char)
    requires d !in a
    ensures Split(a, [d]) == [a]
  {
    forall j | 0 <= j < |a| ensures !OccursAt(a, [d], j) {
      assert a[j..j + 1] == [a[j]];
    }
  }

  lemma PrintedHasNoComma(n: int)
    ensures ',' !in IntToString(n)
  {
    var s := IntToString(n);
    forall i | 0 <= i < |s| ensures s[i] != ',' {
      if n < 0 && i > 0 {
        assert s[i] == NatToString(-n)[i - 1];
      } else if n >= 0 {
        assert IsDigit(NatToString(n)[i]);
      }
    }
  }

  /** Three printed integers joined with commas split back into the three texts. */
  lemma SplitPrinted(a: int, b: int, c: int)
    ensures var sa, sb, sc := IntToString(a), IntToString(b), IntToString(c);
            Split(sa + "," + sb + "," + sc, ",") == [sa, sb, sc]
  {
    var sa, sb, sc := IntToString(a), IntToString(b), IntToString(c);
    PrintedHasNoComma(a);
    PrintedHasNoComma(b);
    PrintedHasNoComma(c);
    SplitWithout(sc, ',');
    SplitAtFirst(sb, sc, ',');
    assert sa + "," + sb + "," + sc == sa + [','] + (sb + [','] + sc);
    SplitAtFirst(sa, sb + [','] + sc, ',');
  }

  /** Three printed integers joined with commas parse back to the same three values. */
  lemma ParseRatiosOfPrinted(a: int, b: int, c: int)
    ensures ParseRatios(IntToString(a) + "," + IntToString(b) + "," + IntToString(c)) == Ok((a, b, c))
  {
    var sa, sb, sc := IntToString(a), IntToString(b), IntToString(c);
    SplitPrinted(a, b, c);
    PyIntOfPrinted(a);
    PyIntOfPrinted(b);
    PyIntOfPrinted(c);
    ParseThreeParts(sa + "," + sb + "," + sc, sa, sb, sc, a, b, c);
  }

  lemma ParseThreeParts(arg: string, x: string, y: string, z: string, a: int, b: int, c: int)
    requires Split(arg, ",") == [x, y, z]
    requires PyInt(x) == Some(a) && PyInt(y) == Some(b) && PyInt(z) == Some(c)
    ensures ParseRatios(arg) == Ok((a, b, c))
  {
    var parts := [x, y, z];
    var values := ParseEach(parts);
    assert parts[0] == x && parts[1] == y && parts[2] == z;
    ThreeValues(parts, values, a, b, c);
  }

  lemma ThreeValues(parts: seq<string>, values: seq<Option<int>>, a: int, b: int, c: int)
    requires |parts| == 3 && |values| == 3
    requires values[0] == Some(a) && values[1] == Some(b) && values[2] == Some(c)
    ensures RatiosOf(parts, values) == Ok((a, b, c))
  {
  }
}

=== FILE: mobilenet_blocks.dfy ===
/**
 * The MobileNet (Gemma 3n vision tower) block bookkeeping of the multimodal
 * projector: TensorFlow-style SAME padding for a 2-D convolution, the
 * constructor parameters of the universal inverted residual block, the
 * tensor names each block kind loads, and the registry that gives every
 * block its `v.mobilenet.<stage>.<index>.` name prefix.
 */
module MobilenetBlocks {
  import opened Wrappers
  import opened Text
  import opened CInt

  // ---------------------------------------------------------------------
  // SAME padding in conv2d
  // ---------------------------------------------------------------------

  /** Padding of one axis: the total SAME padding and its split. */
  datatype SidePad = SidePad(total: int, left: int, right: int)

  /** `compute_padding_length`: total = (kernel - 1) - (length - 1) % stride in C arithmetic,
      left gets the rounded-down half and right the rounded-up half. */
  function SamePadding(length: int, kernel: int, stride: int): (p: SidePad)
    requires stride > 0
    ensures p.total == (kernel - 1) - Rem(length - 1, stride)
    ensures p.total >= 0 ==> p.left >= 0 && p.left + p.right == p.total && 0 <= p.right - p.left <= 1
    ensures p.total == -1 ==> p.left == 0 && p.right == 0
    ensures p.total <= -2 ==> p.left < 0
  {
    var total := (kernel - 1) - Rem(length - 1, stride);
    HalvesOf(total);
    SidePad(total, Quot(total, 2), Quot(total + 1, 2))
  }

  lemma HalvesOf(t: int)
    ensures t >= 0 ==> Quot(t, 2) >= 0 && Quot(t, 2) + Quot(t + 1, 2) == t
                       && 0 <= Quot(t + 1, 2) - Quot(t, 2) <= 1
    ensures t == -1 ==> Quot(t, 2) == 0 && Quot(t + 1, 2) == 0
    ensures t <= -2 ==> Quot(t, 2) < 0
  {
    if t >= 0 {
      var q := t / 2;
      assert t == 2 * q + t % 2;
      if t % 2 == 0 {
        DivModUnique(q, 1, 2);
        assert t + 1 == q * 2 + 1;
      } else {
        DivModUnique(q + 1, 0, 2);
        assert t + 1 == (q + 1) * 2;
      }
    }
  }

  /** What `conv2d` passes on: the symmetric padding p0/p1 the convolution applies to both
      sides, and the extra right/bottom padding it adds first. */
  datatype Conv2dPad = Conv2dPad(p0: int, p1: int, padRight: int, padBottom: int)

  datatype PadError = LeftoverLeadingPadding

  /** Move the common part of a split into the symmetric padding when both sides are
      positive. */
  function Symmetric(p: SidePad): (r: (int, int, int))
  {
    if p.left > 0 && p.right > 0 then
      var m := if p.left < p.right then p.left else p.right;
      (m, p.left - m, p.right - m)
    else (0, p.left, p.right)
  }

  /** The padding of `conv2d` for a `width` x `height` input: a leftover left or top padding
      fails the source's assertion. */
  function Conv2dPadding(width: int, height: int, kernel: int, stride: int): (r: Result<Conv2dPad, PadError>)
    requires stride > 0
  {
    var (p0, left, right) := Symmetric(SamePadding(width, kernel, stride));
    var (p1, top, bottom) := Symmetric(SamePadding(height, kernel, stride));
    if left != 0 || top != 0 then Err(LeftoverLeadingPadding)
    else Ok(Conv2dPad(p0, p1, right, bottom))
  }

  /** The assertion holds exactly when neither total padding is below -1; then at most one
      extra row or column is padded, and the symmetric and the extra padding make up the
      total. */
  lemma Conv2dPaddingSpec(width: int, height: int, kernel: int, stride: int)
    requires stride > 0
    ensures var r := Conv2dPadding(width, height, kernel, stride);
            var tw := SamePadding(width, kernel, stride).total;
            var th := SamePadding(height, kernel, stride).total;
            && (r.Ok? <==> tw >= -1 && th >= -1)
            && (r.Ok? ==> 0 <= r.value.padRight <= 1 && 0 <= r.value.padBottom <= 1
                          && 2 * r.value.p0 + r.value.padRight == (if tw >= 0 then tw else 0)
                          && 2 * r.value.p1 + r.value.padBottom == (if th >= 0 then th else 0))
  {
  }

  /** With that padding, ggml's convolution size rule gives ceil(length / stride) outputs:
      the SAME output size. */
  lemma SameOutputLength(length: nat, kernel: int, stride: nat)
    requires length >= 1 && kernel >= 1 && stride > 0
    requires SamePadding(length, kernel, stride).total >= -1
    ensures var p := SamePadding(length, kernel, stride);
            var s := Symmetric(p);
            var padded := length + 2 * s.0 + s.2;
            padded - kernel >= 0
            && (padded - kernel) / stride + 1 == (length - 1) / stride + 1
            && ((length - 1) / stride) * stride < length <= ((length - 1) / stride + 1) * stride
  {
    var p := SamePadding(length, kernel, stride);
    var q := (length - 1) / stride;
    var m := (length - 1) % stride;
    assert length - 1 == q * stride + m;
    assert p.total == kernel - 1 - m;
    var s := Symmetric(p);
    var padded := length + 2 * s.0 + s.2;
    if p.total >= 0 {
      assert padded - kernel == q * stride;
      DivModUnique(q, 0, stride);
    } else {
      assert padded - kernel == q * stride + 1;
      assert m == kernel && stride > m;
      DivModUnique(q, 1, stride);
    }
    assert (q + 1) * stride == q * stride + stride;
  }

  // ---------------------------------------------------------------------
  // Blocks
  // ---------------------------------------------------------------------

  /** A ConvNormAct sub-block's parameters. */
  datatype Cna = Cna(stride: nat, filters: nat, expandRatio: real)

  datatype Block =
    | EdgeResidual(kernelSize: nat, filters: nat, erStride: nat)
    | InvertedResidual(startKernel: nat, midKernel: nat, multiscale: bool,
                       dwStart: Cna, dwMid: Cna, dwEnd: Cna, dwProj: Cna)
    | MultiQueryAttention(numHeads: nat, kvDim: nat, kvStrides: nat, avgPoolKv: bool, attnMultiscale: bool)

  /** The `mobilenet_g3n_uir` constructor (its defaults are stride 1, expansion 4 and no
      multiscale). */
  function Uir(startKernel: nat, midKernel: nat, filters: nat, stride: nat, expandRatio: real, multiscale: bool): (b: Block)
    ensures b.InvertedResidual? && b.startKernel == startKernel && b.midKernel == midKernel && b.multiscale == multiscale
  {
    InvertedResidual(startKernel, midKernel, multiscale,
      Cna(stride, filters, expandRatio), Cna(1, filters, expandRatio),
      Cna(1, filters, expandRatio), Cna(1, filters, 1.0))
  }

  /** The sub-blocks of a universal inverted residual block, in load order. */
  function SubBlocks(b: Block): (r: seq<Cna>)
    requires b.InvertedResidual?
    ensures |r| == 4
  {
    [b.dwStart, b.dwMid, b.dwEnd, b.dwProj]
  }

  /** Every sub-block of a constructed UIR block has the block's filters; only the first one
      strides, and the projection never expands. */
  lemma UirSubBlocks(startKernel: nat, midKernel: nat, filters: nat, stride: nat, expandRatio: real, multiscale: bool)
    ensures var subs := SubBlocks(Uir(startKernel, midKernel, filters, stride, expandRatio, multiscale));
            && (forall i :: 0 <= i < 4 ==> subs[i].filters == filters)
            && subs[0].stride == stride
            && (forall i :: 1 <= i < 4 ==> subs[i].stride == 1)
            && (forall i :: 0 <= i < 3 ==> subs[i].expandRatio == expandRatio)
            && subs[3].expandRatio == 1.0
  {
  }

  /** The tensors a ConvNormAct sub-block requests under `prefix`. */
  function CnaTensorNames(prefix: string): (r: seq<string>)
    ensures |r| == 2 && forall i :: 0 <= i < 2 ==> IsPrefix(prefix, r[i])
  {
    [prefix + "bn.weight", prefix + "conv.weight"]
  }

  /** The tensors a block's `load_tensors` requests under `prefix`, in order. */
  function TensorNames(b: Block, prefix: string): (r: seq<string>)
    ensures forall i :: 0 <= i < |r| ==> IsPrefix(prefix, r[i])
    ensures b.EdgeResidual? ==> |r| == 4
    ensures b.InvertedResidual? ==> |r| == 9
    ensures b.MultiQueryAttention? ==> r == []
  {
    match b
    case EdgeResidual(_, _, _) =>
      [prefix + "bn1.weight", prefix + "bn2.weight", prefix + "conv_exp.weight", prefix + "conv_pwl.weight"]
    case InvertedResidual(_, _, _, _, _, _, _) =>
      PrefixedNames(prefix, "dw_start.") + PrefixedNames(prefix, "dw_mid.")
      + PrefixedNames(prefix, "dw_end.") + PrefixedNames(prefix, "dw_proj.")
      + [prefix + "layer_scale.weight"]
    case MultiQueryAttention(_, _, _, _, _) => []
  }

  function PrefixedNames(prefix: string, sub: string): (r: seq<string>)
    ensures |r| == 2 && forall i :: 0 <= i < 2 ==> IsPrefix(prefix, r[i])
  {
    var names := CnaTensorNames(prefix + sub);
    assert forall i :: 0 <= i < 2 ==> names[i] == prefix + (names[i][|prefix|..]);
    names
  }

  /** A UIR block asks for the ConvNormAct tensors of its four sub-blocks, each under its
      own sub-prefix, then for its layer scale. */
  lemma UirTensorNames(b: Block, prefix: string)
    requires b.InvertedResidual?
    ensures TensorNames(b, prefix) == [
      prefix + "dw_start.bn.weight", prefix + "dw_start.conv.weight",
      prefix + "dw_mid.bn.weight", prefix + "dw_mid.conv.weight",
      prefix + "dw_end.bn.weight", prefix + "dw_end.conv.weight",
      prefix + "dw_proj.bn.weight", prefix + "dw_proj.conv.weight",
      prefix + "layer_scale.weight"]
  {
    assert "dw_start." + "bn.weight" == "dw_start.bn.weight" && "dw_start." + "conv.weight" == "dw_start.conv.weight";
    assert "dw_mid." + "bn.weight" == "dw_mid.bn.weight" && "dw_mid." + "conv.weight" == "dw_mid.conv.weight";
    assert "dw_end." + "bn.weight" == "dw_end.bn.weight" && "dw_end." + "conv.weight" == "dw_end.conv.weight";
    assert "dw_proj." + "bn.weight" == "dw_proj.bn.weight" && "dw_proj." + "conv.weight" == "dw_proj.conv.weight";
    SubName(prefix, "dw_start.", "bn.weight");
    SubName(prefix, "dw_start.", "conv.weight");
    SubName(prefix, "dw_mid.", "bn.weight");
    SubName(prefix, "dw_mid.", "conv.weight");
    SubName(prefix, "dw_end.", "bn.weight");
    SubName(prefix, "dw_end.", "conv.weight");
    SubName(prefix, "dw_proj.", "bn.weight");
    SubName(prefix, "dw_proj.", "conv.weight");
  }

  lemma SubName(prefix: string, sub: string, leaf: string)
    ensures (prefix + sub) + leaf == prefix + (sub + leaf)
  {
  }

  // ---------------------------------------------------------------------
  // The block registry
  // ---------------------------------------------------------------------

  /** The name prefix of block `index` of stage `stage`. */
  function BlockPrefix(stage: nat, index: nat): (r: string)
    ensures IsPrefix("v.mobilenet.", r) && r[|r| - 1] == '.'
  {
    "v.mobilenet." + NatToString(stage) + "." + NatToString(index) + "."
  }

  /** Different positions get different prefixes. */
  lemma BlockPrefixInjective(s0: nat, i0: nat, s1: nat, i1: nat)
    requires BlockPrefix(s0, i0) == BlockPrefix(s1, i1)
    ensures s0 == s1 && i0 == i1
  {
    var head := "v.mobilenet.";
    var a := NatToString(s0) + "." + NatToString(i0);
    var b := NatToString(s1) + "." + NatToString(i1);
    assert BlockPrefix(s0, i0) == head + a + ".";
    assert BlockPrefix(s1, i1) == head + b + ".";
    assert a == BlockPrefix(s0, i0)[|head|..|BlockPrefix(s0, i0)| - 1];
    assert b == BlockPrefix(s1, i1)[|head|..|BlockPrefix(s1, i1)| - 1];
    DigitsDotSplit(NatToString(s0), NatToString(i0), NatToString(s1), NatToString(i1));
    NatToStringValue(s0);
    NatToStringValue(s1);
    NatToStringValue(i0);
    NatToStringValue(i1);
  }

  predicate AllDigits(s: string) {
    forall i :: 0 <= i < |s| ==> IsDigit(s[i])
  }

  /** Two digit runs joined by a dot split back uniquely. */
  lemma DigitsDotSplit(a: string, b: string, c: string, d: string)
    requires AllDigits(a) && AllDigits(b) && AllDigits(c) && AllDigits(d)
    requires a + "." + b == c + "." + d
    ensures a == c && b == d
  {
    var x := a + "." + b;
    var y := c + "." + d;
    FirstDot(a, b);
    FirstDot(c, d);
    assert |a| == |c|;
    assert a == x[..|a|] && c == y[..|c|];
    assert b == x[|a| + 1..] && d == y[|c| + 1..];
  }

  /** In a digit run followed by a dot, the dot is the first one. */
  lemma FirstDot(a: string, b: string)
    requires AllDigits(a)
    ensures (a + "." + b)[|a|] == '.'
    ensures forall i :: 0 <= i < |a| ==> (a + "." + b)[i] != '.'
  {
    forall i | 0 <= i < |a| ensures (a + "." + b)[i] != '.' {
      assert (a + "." + b)[i] == a[i];
    }
  }

  /** `mobilenet_g3n`'s construction state: the block map, keyed by block identity (the
      pointer) and holding each block's (stage, index) position, whose prefix is
      `BlockPrefix`; then the running stage and index. The map is kept as its entries in
      insertion order, each key at most once; the source iterates it in pointer order,
      which this model does not fix. */
  type Entries = seq<(nat, (nat, nat))>

  datatype Registry = Registry(blocks: Entries, stage: nat, index: nat)

  /** Whether `blk` already has an entry. */
  predicate Registered(blocks: Entries, blk: nat)
    decreases |blocks|
  {
    |blocks| > 0 && (blocks[|blocks| - 1].0 == blk || Registered(blocks[..|blocks| - 1], blk))
  }

  /** Appending an entry registers its key and keeps every other key's status. */
  lemma RegisteredAppend(blocks: Entries, e: (nat, (nat, nat)), blk: nat)
    ensures Registered(blocks + [e], blk) <==> Registered(blocks, blk) || e.0 == blk
  {
    assert (blocks + [e])[..|blocks|] == blocks;
  }

  /** A key at or above every registered key is not registered. */
  lemma {:induction false} NotRegisteredAbove(blocks: Entries, blk: nat)
    requires KeysBelow(blocks, blk)
    ensures !Registered(blocks, blk)
    decreases |blocks|
  {
    if |blocks| > 0 {
      var init := blocks[..|blocks| - 1];
      assert KeysBelow(init, blk) by {
        forall k | 0 <= k < |init| ensures init[k].0 < blk {
          assert init[k] == blocks[k];
        }
      }
      NotRegisteredAbove(init, blk);
    }
  }

  /** `add(blk)`: `std::map::insert` keeps an existing entry; the index advances anyway. */
  function AddOne(r: Registry, blk: nat): (r': Registry)
    ensures r'.stage == r.stage && r'.index == r.index + 1
    ensures Registered(r.blocks, blk) ==> r'.blocks == r.blocks
    ensures !Registered(r.blocks, blk) ==> r'.blocks == r.blocks + [(blk, (r.stage, r.index))]
  {
    var blocks := if Registered(r.blocks, blk) then r.blocks else r.blocks + [(blk, (r.stage, r.index))];
    Registry(blocks, r.stage, r.index + 1)
  }

  /** Once added, a block keeps the entry it was first given, and afterwards `blk` is
      registered whatever it was before. */
  lemma AddOneKeeps(r: Registry, blk: nat, other: nat)
    ensures r.blocks <= AddOne(r, blk).blocks
    ensures Registered(AddOne(r, blk).blocks, other) <==> Registered(r.blocks, other) || other == blk
  {
    if !Registered(r.blocks, blk) {
      RegisteredAppend(r.blocks, (blk, (r.stage, r.index)), other);
    }
  }

  /** `add(count, blk)` and `add(count, blk0, blk1)`: `count` rounds of adding the listed
      blocks in order. */
  function AddRounds(r: Registry, count: int, blks: seq<nat>): Registry
    decreases if count > 0 then count else 0
  {
    if count <= 0 then r else AddRounds(AddAll(r, blks), count - 1, blks)
  }

  function AddAll(r: Registry, blks: seq<nat>): Registry
    decreases |blks|
  {
    if |blks| == 0 then r else AddAll(AddOne(r, blks[0]), blks[1..])
  }

  /** Re-adding registered blocks only advances the index. */
  lemma {:induction false} AddRoundsRegistered(r: Registry, count: nat, blks: seq<nat>)
    requires forall i :: 0 <= i < |blks| ==> Registered(r.blocks, blks[i])
    ensures AddRounds(r, count, blks) == Registry(r.blocks, r.stage, r.index + count * |blks|)
    decreases count
  {
    if count > 0 {
      AddAllRegistered(r, blks);
      AddRoundsRegistered(AddAll(r, blks), count - 1, blks);
      assert r.index + |blks| + (count - 1) * |blks| == r.index + count * |blks|;
    }
  }

  lemma {:induction false} AddAllRegistered(r: Registry, blks: seq<nat>)
    requires forall i :: 0 <= i < |blks| ==> Registered(r.blocks, blks[i])
    ensures AddAll(r, blks) == Registry(r.blocks, r.stage, r.index + |blks|)
    decreases |blks|
  {
    if |blks| > 0 {
      assert forall i :: 0 <= i < |blks| - 1 ==> blks[1..][i] == blks[i + 1];
      AddAllRegistered(AddOne(r, blks[0]), blks[1..]);
    }
  }

  /** `count` rounds of one new block: it keeps the prefix of the first round only. */
  lemma AddRoundsOne(r: Registry, count: nat, blk: nat)
    requires count >= 1 && !Registered(r.blocks, blk)
    ensures AddRounds(r, count, [blk]) == Registry(r.blocks + [(blk, (r.stage, r.index))], r.stage, r.index + count)
  {
    var r1 := AddAll(r, [blk]);
    assert [blk][1..] == [];
    assert AddAll(AddOne(r, blk), []) == AddOne(r, blk);
    assert r1 == AddOne(r, blk);
    RegisteredAppend(r.blocks, (blk, (r.stage, r.index)), blk);
    AddRoundsRegistered(r1, count - 1, [blk]);
  }

  /** `count` rounds of two new blocks: each keeps its first-round prefix. */
  lemma AddRoundsPair(r: Registry, count: nat, b0: nat, b1: nat)
    requires count >= 1 && b0 != b1 && !Registered(r.blocks, b0) && !Registered(r.blocks, b1)
    ensures AddRounds(r, count, [b0, b1])
         == Registry(r.blocks + [(b0, (r.stage, r.index)), (b1, (r.stage, r.index + 1))], r.stage, r.index + 2 * count)
  {
    var ra := AddOne(r, b0);
    RegisteredAppend(r.blocks, (b0, (r.stage, r.index)), b1);
    RegisteredAppend(r.blocks, (b0, (r.stage, r.index)), b0);
    var rb := AddOne(ra, b1);
    RegisteredAppend(ra.blocks, (b1, (r.stage, r.index + 1)), b0);
    RegisteredAppend(ra.blocks, (b1, (r.stage, r.index + 1)), b1);
    assert [b0, b1][1..] == [b1] && [b1][1..] == [];
    assert AddAll(rb, []) == rb;
    assert AddAll(ra, [b1]) == rb;
    assert AddAll(r, [b0, b1]) == rb;
    assert rb.blocks == r.blocks + [(b0, (r.stage, r.index)), (b1, (r.stage, r.index + 1))];
    AddRoundsRegistered(rb, count - 1, [b0, b1]);
  }

  /** The blocks `mobilenet_g3n`'s constructor allocates, in allocation order; a block's
      position in this list stands for its pointer. */
  const GEMMA3N_BLOCKS: seq<Block> := [
    EdgeResidual(3, 128, 2), EdgeResidual(3, 128, 1),
    Uir(3, 5, 256, 2, 6.0, false), Uir(5, 0, 256, 1, 4.0, false), Uir(3, 0, 256, 1, 4.0, false),
    Uir(5, 0, 256, 1, 4.0, false), Uir(3, 0, 256, 1, 4.0, false),
    Uir(5, 5, 640, 2, 6.0, false), Uir(5, 0, 640, 1, 4.0, false), Uir(0, 0, 640, 1, 1.0, false),
    MultiQueryAttention(12, 64, 2, false, false), Uir(0, 0, 640, 1, 2.0, false),
    MultiQueryAttention(12, 64, 2, false, false), Uir(0, 0, 640, 1, 2.0, true),
    Uir(5, 5, 1280, 2, 6.0, false),
    MultiQueryAttention(16, 96, 1, false, false), Uir(0, 0, 1280, 1, 2.0, false),
    MultiQueryAttention(16, 96, 1, false, false), Uir(0, 0, 1280, 1, 2.0, true)]

  function AtStage(r: Registry, stage: nat): Registry {
    Registry(r.blocks, stage, 0)
  }

  /** The constructor's sequence of `add` calls, as written, one stage at a time. */
  function Gemma3nRegistry(): Registry {
    Stage3(Stage2(Stage1(Stage0(Registry([], 0, 0)))))
  }

  function Stage0(r: Registry): Registry {
    AddRounds(AddOne(AtStage(r, 0), 0), 2, [1])
  }

  function Stage1(r: Registry): Registry {
    AddOne(AddOne(AddOne(AddOne(AddOne(AtStage(r, 1), 2), 3), 4), 5), 6)
  }

  function Stage2(r: Registry): Registry {
    Stage2Tail(AddRounds(AddOne(AtStage(r, 2), 7), 7, [8]))
  }

  function Stage2Tail(r: Registry): Registry {
    var r := AddRounds(AddOne(r, 9), 13, [10, 11]);
    AddOne(AddOne(r, 12), 13)
  }

  function Stage3(r: Registry): Registry {
    var r := AddRounds(AddOne(AtStage(r, 3), 14), 18, [15, 16]);
    AddOne(AddOne(r, 17), 18)
  }

  /** Every key in `blocks` is below `n`. */
  ghost predicate KeysBelow(blocks: Entries, n: nat) {
    forall k :: 0 <= k < |blocks| ==> blocks[k].0 < n
  }

  /** Adding a block with a key above all registered ones appends its entry. */
  lemma AddOneFresh(r: Registry, blk: nat)
    requires KeysBelow(r.blocks, blk)
    ensures AddOne(r, blk) == Registry(r.blocks + [(blk, (r.stage, r.index))], r.stage, r.index + 1)
    ensures KeysBelow(AddOne(r, blk).blocks, blk + 1)
  {
    NotRegisteredAbove(r.blocks, blk);
  }

  lemma AddRoundsOneFresh(r: Registry, count: nat, blk: nat)
    requires count >= 1 && KeysBelow(r.blocks, blk)
    ensures AddRounds(r, count, [blk]) == Registry(r.blocks + [(blk, (r.stage, r.index))], r.stage, r.index + count)
    ensures KeysBelow(AddRounds(r, count, [blk]).blocks, blk + 1)
  {
    NotRegisteredAbove(r.blocks, blk);
    AddRoundsOne(r, count, blk);
  }

  lemma AddRoundsPairFresh(r: Registry, count: nat, b0: nat)
    requires count >= 1 && KeysBelow(r.blocks, b0)
    ensures AddRounds(r, count, [b0, b0 + 1])
         == Registry(r.blocks + [(b0, (r.stage, r.index)), (b0 + 1, (r.stage, r.index + 1))], r.stage, r.index + 2 * count)
    ensures KeysBelow(AddRounds(r, count, [b0, b0 + 1]).blocks, b0 + 2)
  {
    NotRegisteredAbove(r.blocks, b0);
    NotRegisteredAbove(r.blocks, b0 + 1);
    AddRoundsPair(r, count, b0, b0 + 1);
  }

  /** The entries each stage adds, one batch per `add` call that registers something. */
  const STAGE0_ENTRIES: Entries := [(0, (0, 0))] + [(1, (0, 1))]
  const STAGE1_ENTRIES: Entries := [(2, (1, 0)), (3, (1, 1)), (4, (1, 2)), (5, (1, 3)), (6, (1, 4))]
  const STAGE2_HEAD: Entries := [(7, (2, 0))] + [(8, (2, 1))]
  const STAGE2_TAIL: Entries := [(9, (2, 8))] + [(10, (2, 9)), (11, (2, 10))] + [(12, (2, 35))] + [(13, (2, 36))]
  const STAGE2_ENTRIES: Entries := STAGE2_HEAD + STAGE2_TAIL
  const STAGE3_HEAD: Entries := [(14, (3, 0))] + [(15, (3, 1)), (16, (3, 2))]
  const STAGE3_TAIL: Entries := [(17, (3, 37))] + [(18, (3, 38))]
  const STAGE3_ENTRIES: Entries := STAGE3_HEAD + STAGE3_TAIL
  const GEMMA3N_POSITIONS: Entries := STAGE0_ENTRIES + STAGE1_ENTRIES + STAGE2_ENTRIES + STAGE3_ENTRIES

  /** Appending entries one batch after another appends their concatenation. */
  lemma AppendBatches(a: Entries, b: Entries, c: Entries, d: Entries, e: Entries)
    ensures a + b + c + d + e == a + (b + c + d + e)
  {
  }

  lemma AppendTwo(a: Entries, b: Entries, c: Entries)
    ensures a + b + c == a + (b + c)
  {
  }

  lemma Stage0Positions(r: Registry)
    requires r.blocks == []
    ensures Stage0(r) == Registry(STAGE0_ENTRIES, 0, 3) && KeysBelow(Stage0(r).blocks, 2)
  {
    var r0 := AtStage(r, 0);
    AddOneFresh(r0, 0);
    AddRoundsOneFresh(AddOne(r0, 0), 2, 1);
  }

  lemma Stage1Positions(r: Registry)
    requires KeysBelow(r.blocks, 2)
    ensures Stage1(r) == Registry(r.blocks + STAGE1_ENTRIES, 1, 5) && KeysBelow(Stage1(r).blocks, 7)
  {
    var x := AtStage(r, 1);
    AddOneFresh(x, 2);
    x := AddOne(x, 2);
    AddOneFresh(x, 3);
    x := AddOne(x, 3);
    AddOneFresh(x, 4);
    x := AddOne(x, 4);
    AddOneFresh(x, 5);
    x := AddOne(x, 5);
    AddOneFresh(x, 6);
    x := AddOne(x, 6);
    assert x.blocks == r.blocks + STAGE1_ENTRIES;
  }

  /** The head of stage 2: block 7 once, then block 8 seven times. */
  lemma Stage2HeadPositions(r: Registry)
    requires KeysBelow(r.blocks, 7)
    ensures var x := AddRounds(AddOne(AtStage(r, 2), 7), 7, [8]);
            x == Registry(r.blocks + STAGE2_HEAD, 2, 8) && KeysBelow(x.blocks, 9)
  {
    var x := AtStage(r, 2);
    AddOneFresh(x, 7);
    x := AddOne(x, 7);
    AddRoundsOneFresh(x, 7, 8);
    AppendTwo(r.blocks, [(7, (2, 0))], [(8, (2, 1))]);
  }

  lemma Stage2TailPositions(r: Registry)
    requires KeysBelow(r.blocks, 9) && r.stage == 2 && r.index == 8
    ensures Stage2Tail(r) == Registry(r.blocks + STAGE2_TAIL, 2, 37)
    ensures KeysBelow(Stage2Tail(r).blocks, 14)
  {
    var x := r;
    AddOneFresh(x, 9);
    x := AddOne(x, 9);
    AddRoundsPairFresh(x, 13, 10);
    x := AddRounds(x, 13, [10, 11]);
    AddOneFresh(x, 12);
    x := AddOne(x, 12);
    AddOneFresh(x, 13);
    x := AddOne(x, 13);
    AppendBatches(r.blocks, [(9, (2, 8))], [(10, (2, 9)), (11, (2, 10))], [(12, (2, 35))], [(13, (2, 36))]);
  }

  lemma Stage2Positions(r: Registry)
    requires KeysBelow(r.blocks, 7)
    ensures Stage2(r) == Registry(r.blocks + STAGE2_ENTRIES, 2, 37) && KeysBelow(Stage2(r).blocks, 14)
  {
    Stage2HeadPositions(r);
    var x := AddRounds(AddOne(AtStage(r, 2), 7), 7, [8]);
    Stage2TailPositions(x);
    AppendTwo(r.blocks, STAGE2_HEAD, STAGE2_TAIL);
  }

  /** Stage 3's repeated pair: blocks 15 and 16 eighteen times. */
  lemma Stage3PairPositions(x: Registry)
    requires KeysBelow(x.blocks, 15) && x.stage == 3 && x.index == 1
    ensures var y := AddRounds(x, 18, [15, 16]);
            y == Registry(x.blocks + [(15, (3, 1)), (16, (3, 2))], 3, 37) && KeysBelow(y.blocks, 17)
  {
    AddRoundsPairFresh(x, 18, 15);
  }

  /** The head of stage 3: block 14 once, then the repeated pair. */
  lemma Stage3HeadPositions(r: Registry)
    requires KeysBelow(r.blocks, 14)
    ensures var x := AddRounds(AddOne(AtStage(r, 3), 14), 18, [15, 16]);
            x == Registry(r.blocks + STAGE3_HEAD, 3, 37) && KeysBelow(x.blocks, 17)
  {
    var x := AtStage(r, 3);
    AddOneFresh(x, 14);
    x := AddOne(x, 14);
    Stage3PairPositions(x);
    AppendTwo(r.blocks, [(14, (3, 0))], [(15, (3, 1)), (16, (3, 2))]);
  }

  lemma Stage3Positions(r: Registry)
    requires KeysBelow(r.blocks, 14)
    ensures Stage3(r) == Registry(r.blocks + STAGE3_ENTRIES, 3, 39)
  {
    Stage3HeadPositions(r);
    var x := AddRounds(AddOne(AtStage(r, 3), 14), 18, [15, 16]);
    AddOneFresh(x, 17);
    var y := AddOne(x, 17);
    AddOneFresh(y, 18);
    AppendTwo(r.blocks + STAGE3_HEAD, [(17, (3, 37))], [(18, (3, 38))]);
    AppendTwo(r.blocks, STAGE3_HEAD, STAGE3_TAIL);
  }

  /** The keys of `e`, in order, are `start`, `start + 1`, ... */
  ghost predicate KeyedFrom(e: Entries, start: nat) {
    forall k :: 0 <= k < |e| ==> e[k].0 == start + k
  }

  /** No entry of `e` holds position `pos`. */
  ghost predicate Avoids(e: Entries, pos: (nat, nat)) {
    forall k :: 0 <= k < |e| ==> e[k].1 != pos
  }

  lemma KeyedAppend(a: Entries, b: Entries, start: nat, pos: (nat, nat))
    requires KeyedFrom(a, start) && KeyedFrom(b, start + |a|) && Avoids(a, pos) && Avoids(b, pos)
    ensures KeyedFrom(a + b, start) && Avoids(a + b, pos)
  {
    forall k | |a| <= k < |a + b| ensures (a + b)[k] == b[k - |a|] {
    }
  }

  lemma StageEntriesKeyed()
    ensures KeyedFrom(STAGE0_ENTRIES, 0) && Avoids(STAGE0_ENTRIES, (2, 2))
    ensures KeyedFrom(STAGE1_ENTRIES, 2) && Avoids(STAGE1_ENTRIES, (2, 2))
    ensures KeyedFrom(STAGE2_ENTRIES, 7) && Avoids(STAGE2_ENTRIES, (2, 2))
    ensures KeyedFrom(STAGE3_ENTRIES, 14) && Avoids(STAGE3_ENTRIES, (2, 2))
  {
    KeyedAppend(STAGE2_HEAD, STAGE2_TAIL, 7, (2, 2));
    KeyedAppend(STAGE3_HEAD, STAGE3_TAIL, 14, (2, 2));
  }

  /** As written, the constructor registers each of its 19 blocks once, in allocation order,
      under positions that run to 39 in the last stage, the same final index a block per
      repetition would reach: a repeated `add` keeps only its first prefix, so positions
      such as (2, 2) name no block. */
  lemma Gemma3nRegistryAsWritten()
    ensures Gemma3nRegistry() == Registry(GEMMA3N_POSITIONS, 3, GEMMA3N_STAGE_SIZES[3])
    ensures |GEMMA3N_POSITIONS| == |GEMMA3N_BLOCKS|
    ensures KeyedFrom(GEMMA3N_POSITIONS, 0) && Avoids(GEMMA3N_POSITIONS, (2, 2))
  {
    Gemma3nRegistryEntries();
    Gemma3nPositionsKeyed();
  }

  lemma Gemma3nRegistryEntries()
    ensures Gemma3nRegistry() == Registry(GEMMA3N_POSITIONS, 3, 39)
  {
    var r0 := Registry([], 0, 0);
    Stage0Positions(r0);
    var r1 := Stage0(r0);
    Stage1Positions(r1);
    var r2 := Stage1(r1);
    Stage2Positions(r2);
    var r3 := Stage2(r2);
    Stage3Positions(r3);
  }

  lemma Gemma3nPositionsKeyed()
    ensures |GEMMA3N_POSITIONS| == 19
    ensures KeyedFrom(GEMMA3N_POSITIONS, 0) && Avoids(GEMMA3N_POSITIONS, (2, 2))
  {
    StageEntriesKeyed();
    KeyedAppend(STAGE0_ENTRIES, STAGE1_ENTRIES, 0, (2, 2));
    KeyedAppend(STAGE0_ENTRIES + STAGE1_ENTRIES, STAGE2_ENTRIES, 0, (2, 2));
    KeyedAppend(STAGE0_ENTRIES + STAGE1_ENTRIES + STAGE2_ENTRIES, STAGE3_ENTRIES, 0, (2, 2));
  }

  /** The evidently intended registry: every repetition allocates a block of its own, so the
      k-th block added in a stage gets index k. */
  function StagePositions(stage: nat, count: nat): (r: seq<(nat, nat)>)
    ensures |r| == count && forall i :: 0 <= i < count ==> r[i] == (stage, i)
  {
    seq(count, i requires 0 <= i < count => (stage, i))
  }

  /** Stage sizes when every `add` of `count` blocks allocates `count` distinct blocks. */
  const GEMMA3N_STAGE_SIZES: seq<nat> := [1 + 2, 5, 1 + 7 + 1 + 2 * 13 + 2, 1 + 2 * 18 + 2]

  /** The positions of the blocks in allocation order. */
  function Gemma3nPositions(): (r: seq<(nat, nat)>)
  {
    StagePositions(0, GEMMA3N_STAGE_SIZES[0]) + StagePositions(1, GEMMA3N_STAGE_SIZES[1])
    + StagePositions(2, GEMMA3N_STAGE_SIZES[2]) + StagePositions(3, GEMMA3N_STAGE_SIZES[3])
  }

  ghost predicate Injective(p: seq<(nat, nat)>) {
    forall i, j :: 0 <= i < j < |p| ==> p[i] != p[j]
  }

  ghost predicate StagesBelow(p: seq<(nat, nat)>, stage: nat) {
    forall i :: 0 <= i < |p| ==> p[i].0 < stage
  }

  ghost predicate Covers(p: seq<(nat, nat)>, stage: nat, count: nat) {
    forall i :: 0 <= i < count ==> (stage, i) in p
  }

  /** Appending a later stage keeps positions distinct and covers the new stage. */
  lemma AppendStage(p: seq<(nat, nat)>, stage: nat, count: nat)
    requires Injective(p) && StagesBelow(p, stage)
    ensures var q := p + StagePositions(stage, count);
            Injective(q) && StagesBelow(q, stage + 1) && Covers(q, stage, count)
            && forall x :: x in p ==> x in q
  {
    var t := StagePositions(stage, count);
    var q := p + t;
    forall i, j | 0 <= i < j < |q| ensures q[i] != q[j] {
      if j < |p| {
      } else if i < |p| {
        assert q[j] == t[j - |p|];
      } else {
        assert q[i] == t[i - |p|] && q[j] == t[j - |p|];
      }
    }
    forall i | 0 <= i < count ensures (stage, i) in q {
      assert q[|p| + i] == (stage, i);
    }
  }

  /** Four stages laid out one after another occupy every position of each stage once. */
  lemma FourStages(s0: nat, s1: nat, s2: nat, s3: nat)
    ensures var p := StagePositions(0, s0) + StagePositions(1, s1) + StagePositions(2, s2) + StagePositions(3, s3);
            |p| == s0 + s1 + s2 + s3 && Injective(p)
            && Covers(p, 0, s0) && Covers(p, 1, s1) && Covers(p, 2, s2) && Covers(p, 3, s3)
  {
    var p0 := StagePositions(0, s0);
    AppendStage([], 0, s0);
    assert [] + p0 == p0;
    var p1 := p0 + StagePositions(1, s1);
    AppendStage(p0, 1, s1);
    var p2 := p1 + StagePositions(2, s2);
    AppendStage(p1, 2, s2);
    AppendStage(p2, 3, s3);
  }

  /** With a block per repetition, the 84 blocks occupy every position of their stage once:
      every position has a prefix and no two blocks share one. */
  lemma Gemma3nPositionsCorrected()
    ensures var p := Gemma3nPositions();
            |p| == 84 && Injective(p)
            && Covers(p, 0, 3) && Covers(p, 1, 5) && Covers(p, 2, 37) && Covers(p, 3, 39)
  {
    var sizes := GEMMA3N_STAGE_SIZES;
    FourStages(sizes[0], sizes[1], sizes[2], sizes[3]);
  }
}

=== FILE: mobilenet_graph.dfy ===
/**
 * The integer and selection logic of the MobileNetV5 vision graph: which
 * blocks open a stage (and so run with stride 2), which blocks feed the
 * multi-scale fusion adapter (MSFA), which builder a block dispatches to,
 * and the shapes the MSFA resizes, concatenates and pools.  Tensors are
 * their ggml shapes (ne0, ne1, ne2, ne3) = (width, height, channels, batch);
 * the tensor arithmetic itself is not modelled.
 */
module MobilenetGraph {
  import opened Wrappers
  import opened CInt

  /** Whether block `i` comes right after one of the stage ends. */
  function FollowsEnd(i: int, ends: seq<int>): (r: bool)
    ensures r <==> exists k :: 0 <= k < |ends| && i == ends[k] + 1
    decreases |ends|
  {
    if |ends| == 0 then false
    else
      var rest := FollowsEnd(i, ends[1..]);
      assert forall k :: 1 <= k < |ends| ==> ends[k] == ends[1..][k - 1];
      i == ends[0] + 1 || rest
  }

  /** `is_stage_start`: block 0 and every block right after a stage end. */
  predicate IsStageStart(i: int, ends: seq<int>) {
    i == 0 || FollowsEnd(i, ends)
  }

  /** How many stage ends lie before block `i`: the stage block `i` belongs to. */
  function EndsBelow(ends: seq<int>, i: int): (n: nat)
    ensures n <= |ends|
    decreases |ends|
  {
    if |ends| == 0 then 0 else (if ends[0] < i then 1 else 0) + EndsBelow(ends[1..], i)
  }

  /** A block after the first starts a stage exactly when it belongs to a later stage than
      the block before it. */
  lemma {:induction false} StageStartChangesStage(i: int, ends: seq<int>)
    requires i > 0
    ensures EndsBelow(ends, i) >= EndsBelow(ends, i - 1)
    ensures IsStageStart(i, ends) <==> EndsBelow(ends, i) != EndsBelow(ends, i - 1)
    decreases |ends|
  {
    if |ends| > 0 {
      StageStartChangesStage(i, ends[1..]);
      assert FollowsEnd(i, ends) == (i == ends[0] + 1 || FollowsEnd(i, ends[1..]));
    }
  }

  /** The stride block `i` runs with: 2 where a stage starts, 1 elsewhere. */
  function BlockStride(i: int, ends: seq<int>): (s: nat)
    ensures s == 1 || s == 2
    ensures s == 2 <==> i == 0 || exists k :: 0 <= k < |ends| && i == ends[k] + 1
  {
    if IsStageStart(i, ends) then 2 else 1
  }

  /** Past block 0, the stride doubles exactly where the stage changes. */
  lemma StrideAtStageChange(i: int, ends: seq<int>)
    requires i > 0
    ensures BlockStride(i, ends) == 2 <==> EndsBelow(ends, i) != EndsBelow(ends, i - 1)
  {
    StageStartChangesStage(i, ends);
  }

  /** `is_fusion_point`: with at least four stage ends, the ends of stages 2 and 3; otherwise
      only the last block. */
  predicate IsFusionPoint(i: int, ends: seq<int>, total: int) {
    if |ends| >= 4 then i == ends[2] || i == ends[3] else i == total - 1
  }

  ghost predicate Increasing(s: seq<nat>) {
    forall a, b :: 0 <= a < b < |s| ==> s[a] < s[b]
  }

  /** The fusion points among the first `n` blocks, in block order: the order in which the
      block loop collects the intermediate features. */
  function FusionIndices(n: nat, ends: seq<int>, total: int): (r: seq<nat>)
    ensures forall j: nat :: j in r <==> j < n && IsFusionPoint(j, ends, total)
    ensures Increasing(r)
    decreases n
  {
    if n == 0 then []
    else
      var prev := FusionIndices(n - 1, ends, total);
      assert forall a :: 0 <= a < |prev| ==> prev[a] in prev;
      if IsFusionPoint(n - 1, ends, total) then prev + [n - 1] else prev
  }

  /** Blocks with no fusion point among them collect nothing. */
  lemma {:induction false} NoFusionBetween(m: nat, n: nat, ends: seq<int>, total: int)
    requires m <= n
    requires forall j: nat :: m <= j < n ==> !IsFusionPoint(j, ends, total)
    ensures FusionIndices(n, ends, total) == FusionIndices(m, ends, total)
    decreases n
  {
    if n > m {
      NoFusionBetween(m, n - 1, ends, total);
    }
  }

  /** With four or more stage ends inside the network, in order, the MSFA receives the
      outputs of the ends of stages 2 and 3. */
  lemma FusionWithStageEnds(ends: seq<int>, total: nat)
    requires |ends| >= 4 && 0 <= ends[2] < ends[3] < total
    ensures FusionIndices(total, ends, total) == [ends[2] as nat, ends[3] as nat]
  {
    var e2: nat := ends[2];
    var e3: nat := ends[3];
    NoFusionBetween(0, e2, ends, total);
    NoFusionBetween(e2 + 1, e3, ends, total);
    NoFusionBetween(e3 + 1, total, ends, total);
  }

  /** With fewer than four stage ends, the MSFA receives the last block's output only. */
  lemma FusionWithoutStageEnds(ends: seq<int>, total: nat)
    requires |ends| < 4 && total > 0
    ensures FusionIndices(total, ends, total) == [total - 1]
  {
    NoFusionBetween(0, total - 1, ends, total);
  }

  /** The block weights the dispatch looks at. */
  datatype BlockWeights = BlockWeights(hasConvExp: bool, hasAttnQ: bool)

  datatype BlockKind = EdgeResidualKind | AttentionKind | InvertedResidualKind

  /** The dispatch: an expansion conv makes an edge residual, else a query projection makes
      an attention block, else the block is an inverted residual. */
  function KindOf(w: BlockWeights): (k: BlockKind)
    ensures k == EdgeResidualKind <==> w.hasConvExp
    ensures k == AttentionKind <==> !w.hasConvExp && w.hasAttnQ
    ensures k == InvertedResidualKind <==> !w.hasConvExp && !w.hasAttnQ
  {
    if w.hasConvExp then EdgeResidualKind
    else if w.hasAttnQ then AttentionKind
    else InvertedResidualKind
  }

  /** How the loop builds one block: its builder and stride. */
  datatype Step = Step(kind: BlockKind, stride: nat)

  /** The block loop: each block's builder and stride, and the indices of the blocks whose
      outputs are kept for the MSFA. */
  method BuildBlocks(blocks: seq<BlockWeights>, ends: seq<int>) returns (steps: seq<Step>, fused: seq<nat>)
    ensures |steps| == |blocks|
    ensures forall i :: 0 <= i < |blocks| ==> steps[i].kind == KindOf(blocks[i])
    ensures forall i :: 0 <= i < |blocks| ==> (steps[i].stride == 2 <==> IsStageStart(i, ends))
    ensures forall i :: 0 <= i < |blocks| ==> steps[i].stride == 1 || steps[i].stride == 2
    ensures fused == FusionIndices(|blocks|, ends, |blocks|)
  {
    var total := |blocks|;
    steps := [];
    fused := [];
    var i := 0;
    while i < total
      invariant 0 <= i <= total
      invariant |steps| == i
      invariant forall j :: 0 <= j < i ==> steps[j] == Step(KindOf(blocks[j]), BlockStride(j, ends))
      invariant fused == FusionIndices(i, ends, total)
    {
      var stride := if IsStageStart(i, ends) then 2 else 1;
      steps := steps + [Step(KindOf(blocks[i]), stride)];
      if IsFusionPoint(i, ends, total) {
        fused := fused + [i];
      }
      i := i + 1;
    }
  }

  /** A tensor shape (ne0, ne1, ne2, ne3). */
  datatype Shape = Shape(w: nat, h: nat, c: nat, b: nat)

  datatype MsfaError = ZeroWidthFeature | ConcatMismatch | ChannelMismatch

  /** Resizing one intermediate feature to the first feature's resolution: only a narrower
      or shorter feature is upsampled, by the integer factor `hiW / w` on both axes (a
      non-integer ratio only prints a warning). A zero-width feature divides by zero. */
  function ResizeFeature(f: Shape, hiW: nat, hiH: nat): (r: Result<Shape, MsfaError>)
    ensures !(f.w < hiW || f.h < hiH) ==> r == Ok(f)
    ensures r.Err? <==> (f.w < hiW || f.h < hiH) && f.w == 0
    ensures r.Ok? ==> r.value.c == f.c && r.value.b == f.b && r.value.w * f.h == r.value.h * f.w
    ensures r.Ok? && f.w < hiW ==> r.value.w <= hiW && hiW - r.value.w < f.w
    ensures r.Ok? && f.w < hiW ==> (r.value.w == hiW <==> hiW % f.w == 0)
    ensures r.Ok? && f.w > hiW && f.h < hiH ==> r.value.w == 0 && r.value.h == 0
  {
    if f.w < hiW || f.h < hiH then
      if f.w == 0 then Err(ZeroWidthFeature)
      else
        var s := hiW / f.w;
        UpscaleFacts(f, hiW, s);
        Ok(Shape(f.w * s, f.h * s, f.c, f.b))
    else Ok(f)
  }

  lemma UpscaleFacts(f: Shape, hiW: nat, s: nat)
    requires f.w > 0 && s == hiW / f.w
    ensures (f.w * s) * f.h == (f.h * s) * f.w
    ensures f.w * s <= hiW && hiW - f.w * s < f.w
    ensures f.w * s == hiW <==> hiW % f.w == 0
    ensures f.w > hiW ==> s == 0
  {
    assert hiW == s * f.w + hiW % f.w;
    if f.w > hiW {
      DivModUnique(0, hiW, f.w);
    }
  }

  /** `ggml_concat` along the channel axis: every other dimension must agree. */
  function ConcatChannels(a: Shape, b: Shape): (r: Result<Shape, MsfaError>)
    ensures r.Ok? <==> a.w == b.w && a.h == b.h && a.b == b.b
    ensures r.Ok? ==> r.value == Shape(a.w, a.h, a.c + b.c, a.b)
  {
    if a.w == b.w && a.h == b.h && a.b == b.b then Ok(Shape(a.w, a.h, a.c + b.c, a.b))
    else Err(ConcatMismatch)
  }

  /** Resize every feature against the first one's width and height. */
  function ResizeAll(fs: seq<Shape>, hiW: nat, hiH: nat): (r: Result<seq<Shape>, MsfaError>)
    ensures r.Ok? ==> |r.value| == |fs|
    decreases |fs|
  {
    if |fs| == 0 then Ok([])
    else
      var head :- ResizeFeature(fs[0], hiW, hiH);
      var tail :- ResizeAll(fs[1..], hiW, hiH);
      Ok([head] + tail)
  }

  /** Concatenate the resized features onto `acc`, left to right. */
  function ConcatAll(acc: Shape, fs: seq<Shape>): (r: Result<Shape, MsfaError>)
    decreases |fs|
  {
    if |fs| == 0 then Ok(acc)
    else
      var next :- ConcatChannels(acc, fs[0]);
      ConcatAll(next, fs[1..])
  }

  /** The channel counts of `fs`, summed. */
  function SumChannels(fs: seq<Shape>): nat
    decreases |fs|
  {
    if |fs| == 0 then 0 else fs[0].c + SumChannels(fs[1..])
  }

  /** The MSFA's input: the collected features resized to the first one's resolution and
      concatenated along the channels. */
  function MsfaConcat(fs: seq<Shape>): (r: Result<Shape, MsfaError>)
    requires |fs| > 0
  {
    var resized :- ResizeAll(fs, fs[0].w, fs[0].h);
    ConcatAll(resized[0], resized[1..])
  }

  /** Square features whose widths divide the first one's, in one batch, concatenate into
      a map at the first feature's resolution holding all their channels. */
  lemma MsfaSquareFeatures(fs: seq<Shape>)
    requires |fs| > 0
    requires forall i :: 0 <= i < |fs| ==> fs[i].w == fs[i].h && 0 < fs[i].w <= fs[0].w
    requires forall i :: 0 <= i < |fs| ==> fs[0].w % fs[i].w == 0 && fs[i].b == fs[0].b
    ensures MsfaConcat(fs) == Ok(Shape(fs[0].w, fs[0].w, SumChannels(fs), fs[0].b))
  {
    var hi := fs[0].w;
    ResizeSquare(fs, hi, fs[0].b);
    var resized := ResizeAll(fs, hi, hi).value;
    ConcatSquare(Shape(hi, hi, 0, fs[0].b), resized);
    assert [Shape(hi, hi, 0, fs[0].b)] + resized[1..] == [Shape(hi, hi, 0, fs[0].b)] + resized[1..];
    assert resized[0] == Shape(hi, hi, fs[0].c, fs[0].b);
    ConcatFirst(Shape(hi, hi, 0, fs[0].b), resized);
  }

  /** Each qualifying feature resizes to `hi` x `hi` with its own channels. */
  lemma {:induction false} ResizeSquare(fs: seq<Shape>, hi: nat, batch: nat)
    requires forall i :: 0 <= i < |fs| ==> fs[i].w == fs[i].h && 0 < fs[i].w <= hi
    requires forall i :: 0 <= i < |fs| ==> hi % fs[i].w == 0 && fs[i].b == batch
    ensures ResizeAll(fs, hi, hi).Ok?
    ensures forall i :: 0 <= i < |fs| ==> ResizeAll(fs, hi, hi).value[i] == Shape(hi, hi, fs[i].c, batch)
    ensures SumChannels(ResizeAll(fs, hi, hi).value) == SumChannels(fs)
    decreases |fs|
  {
    if |fs| > 0 {
      var f := fs[0];
      assert hi == (hi / f.w) * f.w + hi % f.w;
      var r := ResizeFeature(f, hi, hi);
      assert r == Ok(Shape(hi, hi, f.c, batch)) || r == Ok(f);
      ResizeSquare(fs[1..], hi, batch);
      var rest := ResizeAll(fs[1..], hi, hi).value;
      var all := ResizeAll(fs, hi, hi).value;
      assert all == [r.value] + rest;
      assert all[1..] == rest;
    }
  }

  /** Concatenating `hi` x `hi` maps of one batch adds up their channels. */
  lemma {:induction false} ConcatSquare(acc: Shape, fs: seq<Shape>)
    requires forall i :: 0 <= i < |fs| ==> fs[i].w == acc.w && fs[i].h == acc.h && fs[i].b == acc.b
    ensures ConcatAll(acc, fs) == Ok(Shape(acc.w, acc.h, acc.c + SumChannels(fs), acc.b))
    decreases |fs|
  {
    if |fs| > 0 {
      var next := Shape(acc.w, acc.h, acc.c + fs[0].c, acc.b);
      ConcatSquare(next, fs[1..]);
    }
  }

  /** Starting the fold from the first map equals starting from an empty map of its shape. */
  lemma ConcatFirst(empty: Shape, fs: seq<Shape>)
    requires |fs| > 0 && empty.c == 0
    requires fs[0] == Shape(empty.w, empty.h, fs[0].c, empty.b)
    ensures ConcatAll(fs[0], fs[1..]) == ConcatAll(empty, fs)
  {
  }

  /** A 1x1 convolution weight of the MSFA feed-forward block, by its input and output
      channel counts. */
  datatype Pointwise = Pointwise(cin: nat, cout: nat)

  /** `ggml_conv_2d_direct` with a 1x1 kernel, stride 1, no padding and dilation 1: the
      weight's input channels must be the map's, and the map keeps its resolution and batch
      and takes the weight's output channels. The RMS norm and GELU after it keep the shape. */
  function PointwiseConv(x: Shape, k: Pointwise): (r: Result<Shape, MsfaError>)
    ensures r.Ok? <==> k.cin == x.c
    ensures r.Ok? ==> r.value == Shape(x.w, x.h, k.cout, x.b)
  {
    if k.cin == x.c then Ok(Shape(x.w, x.h, k.cout, x.b)) else Err(ChannelMismatch)
  }

  /** Apply a convolution when its weight is loaded; an absent weight leaves the map alone. */
  function ApplyPointwise(x: Shape, k: Option<Pointwise>): (r: Result<Shape, MsfaError>)
  {
    if k.Some? then PointwiseConv(x, k.value) else Ok(x)
  }

  /** The MSFA feed-forward block: the expansion convolution, then the projection
      convolution, each applied only when its weight is loaded. */
  function MsfaFfn(x: Shape, expand: Option<Pointwise>, project: Option<Pointwise>): (r: Result<Shape, MsfaError>)
  {
    var mid :- ApplyPointwise(x, expand);
    ApplyPointwise(mid, project)
  }

  /** The channel count after the optional convolution `k`. */
  function ChannelsAfter(c: nat, k: Option<Pointwise>): nat {
    if k.Some? then k.value.cout else c
  }

  /** The feed-forward block succeeds exactly when each loaded weight takes the channel count
      it is given, and then keeps the resolution and batch and ends with the channel count of
      the last loaded weight. */
  lemma MsfaFfnSpec(x: Shape, expand: Option<Pointwise>, project: Option<Pointwise>)
    ensures MsfaFfn(x, expand, project).Ok? <==>
            (expand.Some? ==> expand.value.cin == x.c) &&
            (project.Some? ==> project.value.cin == ChannelsAfter(x.c, expand))
    ensures MsfaFfn(x, expand, project).Ok? ==>
            MsfaFfn(x, expand, project).value
            == Shape(x.w, x.h, ChannelsAfter(ChannelsAfter(x.c, expand), project), x.b)
  {
  }

  /** The whole MSFA: the resized features concatenated, passed through the feed-forward
      block, then pooled to the output resolution. The final RMS norm keeps the shape. */
  function Msfa(fs: seq<Shape>, expand: Option<Pointwise>, project: Option<Pointwise>): (r: Result<Shape, MsfaError>)
    requires |fs| > 0
  {
    var cat :- MsfaConcat(fs);
    var ffn :- MsfaFfn(cat, expand, project);
    Ok(FinalPool(ffn))
  }

  /** For square features as in `MsfaSquareFeatures`, an expansion taking all their
      channels and a projection taking the expansion's output, the MSFA yields a map of the
      projection's output channels at the pooled resolution of the first feature: 16 x 16
      when that width is a multiple of 16 above 16. */
  lemma MsfaSquarePipeline(fs: seq<Shape>, e: Pointwise, p: Pointwise)
    requires |fs| > 0
    requires forall i :: 0 <= i < |fs| ==> fs[i].w == fs[i].h && 0 < fs[i].w <= fs[0].w
    requires forall i :: 0 <= i < |fs| ==> fs[0].w % fs[i].w == 0 && fs[i].b == fs[0].b
    requires e.cin == SumChannels(fs) && p.cin == e.cout
    ensures Msfa(fs, Some(e), Some(p)) == Ok(FinalPool(Shape(fs[0].w, fs[0].w, p.cout, fs[0].b)))
    ensures Msfa(fs, Some(e), Some(p)).value.c == p.cout
    ensures fs[0].w > TARGET_OUT_RES && fs[0].w % TARGET_OUT_RES == 0 ==>
            Msfa(fs, Some(e), Some(p)).value.w == TARGET_OUT_RES
            && Msfa(fs, Some(e), Some(p)).value.h == TARGET_OUT_RES
  {
    MsfaSquareFeatures(fs);
    MsfaFfnSpec(Shape(fs[0].w, fs[0].w, SumChannels(fs), fs[0].b), Some(e), Some(p));
  }

  /** An expansion weight that does not take the concatenated channels stops the graph. */
  lemma MsfaExpandMismatch(fs: seq<Shape>, e: Pointwise, project: Option<Pointwise>)
    requires |fs| > 0 && MsfaConcat(fs).Ok? && e.cin != MsfaConcat(fs).value.c
    ensures Msfa(fs, Some(e), project) == Err(ChannelMismatch)
  {
  }

  /** The MSFA's output resolution. */
  const TARGET_OUT_RES: nat := 16

  /** ggml's pooled length for input `ins`, kernel `k`, stride `s` and padding `p`, in C
      integer division. */
  function PoolLength(ins: int, k: int, s: int, p: int): int
    requires s != 0
  {
    Quot(ins + 2 * p - k, s) + 1
  }

  /** The final downsampling: a map wider than 16 by a whole multiple of 16 is average-pooled
      with kernel and stride `w / 16`; an irregular width only prints an error and the map
      passes on unchanged. */
  function FinalPool(x: Shape): (r: Shape)
    ensures x.w <= TARGET_OUT_RES || x.w % TARGET_OUT_RES != 0 ==> r == x
    ensures x.w > TARGET_OUT_RES && x.w % TARGET_OUT_RES == 0
            ==> r.w == TARGET_OUT_RES && r.c == x.c && r.b == x.b && (r.h == 0 <==> x.h == 0)
    ensures x.w > TARGET_OUT_RES && x.w % TARGET_OUT_RES == 0 && x.h >= x.w / TARGET_OUT_RES
            ==> r.h == x.h / (x.w / TARGET_OUT_RES)
  {
    if x.w > TARGET_OUT_RES && x.w % TARGET_OUT_RES == 0 then
      var s := x.w / TARGET_OUT_RES;
      PoolFacts(x.w, x.h, s);
      Shape(PoolLength(x.w, s, s, 0), PoolLength(x.h, s, s, 0), x.c, x.b)
    else x
  }

  lemma PoolFacts(w: nat, h: nat, s: nat)
    requires w > TARGET_OUT_RES && w % TARGET_OUT_RES == 0 && s == w / TARGET_OUT_RES
    ensures s > 0
    ensures PoolLength(w, s, s, 0) == TARGET_OUT_RES
    ensures PoolLength(h, s, s, 0) >= 0 && (PoolLength(h, s, s, 0) == 0 <==> h == 0)
    ensures h >= s ==> PoolLength(h, s, s, 0) == h / s
  {
    assert w == s * TARGET_OUT_RES + w % TARGET_OUT_RES;
    assert w - s == (TARGET_OUT_RES - 1) * s;
    DivModUnique(TARGET_OUT_RES - 1, 0, s);
    if h >= s {
      assert h == (h / s) * s + h % s;
      assert h - s == (h / s - 1) * s + h % s;
      DivModUnique(h / s - 1, h % s, s);
    } else if h == 0 {
      DivModUnique(1, 0, s);
    } else {
      assert Abs(h - s) == s - h;
      DivModUnique(0, s - h, s);
    }
  }
}

=== FILE: naming.dfy ===
/**
 * The GGUF file-naming helpers of `gguf/utility.py`: the `str.format`
 * expansion behind `fill_templated_filename`, the parameter-count label of
 * `size_label`, and `naming_convention`.
 *
 * `str.format` is modelled for the templates these helpers see: literal
 * text, `{{`/`}}` escapes and replacement fields that are empty (automatic
 * numbering), a decimal index, or a bare keyword.  Fields with a conversion,
 * a format spec, attribute access or indexing are reported as `Unsupported`.
 */
module GgufNaming {
  import opened Wrappers
  import opened Text

  // ---------------------------------------------------------------------
  // str.format
  // ---------------------------------------------------------------------

  /** The exception `str.format` raises. */
  datatype FormatError =
    | SingleOpen          // ValueError: Single '{' encountered in format string
    | SingleClose         // ValueError: Single '}' encountered in format string
    | UnclosedField       // ValueError: expected '}' before end of string
    | NumberingSwitch     // ValueError: cannot switch between automatic and manual numbering
    | IndexOutOfRange(index: nat)   // IndexError
    | KeyMissing(key: string)       // KeyError
    | Unsupported(field: string)

  /** The state of automatic field numbering. */
  datatype Numbering = Unset | Auto(next: nat) | Manual

  /** The arguments of `filename.format(lower, outtype=lower, ftype=lower, OUTTYPE=upper, FTYPE=upper)`. */
  datatype FormatArgs = FormatArgs(lower: string, upper: string)

  predicate IsBrace(c: char) { c == '{' || c == '}' }

  predicate BraceFree(s: string) {
    forall i :: 0 <= i < |s| ==> !IsBrace(s[i])
  }

  /** Index of the `}` closing a field opened before `i`, with `depth` braces still open. */
  function FieldEnd(s: string, i: nat, depth: nat): (r: Option<nat>)
    requires depth > 0
    ensures r.Some? ==> i <= r.value < |s| && s[r.value] == '}'
    decreases |s| - i
  {
    if i >= |s| then None
    else if s[i] == '{' then FieldEnd(s, i + 1, depth + 1)
    else if s[i] == '}' then (if depth == 1 then Some(i) else FieldEnd(s, i + 1, depth - 1))
    else FieldEnd(s, i + 1, depth)
  }

  /** A brace-free field body closes at the first `}`. */
  lemma {:induction false} FieldEndFlat(s: string, i: nat, e: nat)
    requires i <= e < |s| && s[e] == '}'
    requires forall k :: i <= k < e ==> !IsBrace(s[k])
    ensures FieldEnd(s, i, 1) == Some(e)
    decreases e - i
  {
    if i < e {
      FieldEndFlat(s, i + 1, e);
    }
  }

  predicate AllDigits(s: string) {
    forall i :: 0 <= i < |s| ==> IsDigit(s[i])
  }

  /** Characters that start a conversion, a format spec, attribute access or indexing. */
  predicate IsFieldSyntax(c: char) {
    c == '{' || c == ':' || c == '!' || c == '.' || c == '['
  }

  predicate IsKeyword(key: string) {
    key == "outtype" || key == "ftype" || key == "OUTTYPE" || key == "FTYPE"
  }

  function KeywordValue(key: string, args: FormatArgs): string
    requires IsKeyword(key)
  {
    if key == "outtype" || key == "ftype" then args.lower else args.upper
  }

  /** The text substituted for one field body, and the numbering state after it.  A keyword
      name has no digit and no field syntax, so testing it first changes no outcome. */
  function Resolve(field: string, args: FormatArgs, st: Numbering): (r: Result<(string, Numbering), FormatError>)
    ensures IsKeyword(field) ==> r == Ok((KeywordValue(field, args), st))
    ensures |field| == 0 ==> (r.Err? <==> st.Manual? || (st.Auto? && st.next > 0))
    ensures r.Ok? ==> r.value.0 in {args.lower, args.upper}
  {
    if |field| == 0 then
      if st.Manual? then Err(NumberingSwitch)
      else
        var index := if st.Auto? then st.next else 0;
        if index == 0 then Ok((args.lower, Auto(1))) else Err(IndexOutOfRange(index))
    else if IsKeyword(field) then Ok((KeywordValue(field, args), st))
    else if exists k | 0 <= k < |field| :: IsFieldSyntax(field[k]) then Err(Unsupported(field))
    else if AllDigits(field) then
      if st.Auto? then Err(NumberingSwitch)
      else
        var index := DigitsValue(field);
        if index == 0 then Ok((args.lower, Manual)) else Err(IndexOutOfRange(index))
    else Err(KeyMissing(field))
  }

  /** `s.format(...)`, scanning left to right so that the first fault met is the one raised. */
  function Format(s: string, args: FormatArgs, st: Numbering): (r: Result<string, FormatError>)
    decreases |s|
  {
    if |s| == 0 then Ok("")
    else if s[0] == '{' then
      if |s| == 1 then Err(SingleOpen)
      else if s[1] == '{' then
        var rest :- Format(s[2..], args, st);
        Ok("{" + rest)
      else
        match FieldEnd(s, 1, 1)
        case None => Err(UnclosedField)
        case Some(e) =>
          var (text, st2) :- Resolve(s[1..e], args, st);
          var rest :- Format(s[e + 1..], args, st2);
          Ok(text + rest)
    else if s[0] == '}' then
      if |s| >= 2 && s[1] == '}' then
        var rest :- Format(s[2..], args, st);
        Ok("}" + rest)
      else Err(SingleClose)
    else
      var rest :- Format(s[1..], args, st);
      Ok([s[0]] + rest)
  }

  /** The template that formats to `s`: every brace doubled. */
  function Escape(s: string): (r: string)
    ensures BraceFree(s) ==> r == s
    ensures |r| >= |s|
    decreases |s|
  {
    if |s| == 0 then ""
    else if IsBrace(s[0]) then [s[0], s[0]] + Escape(s[1..])
    else [s[0]] + Escape(s[1..])
  }

  /** Formatting an escaped text gives the text back, whatever the arguments. */
  lemma {:induction false} FormatEscape(s: string, args: FormatArgs, st: Numbering)
    ensures Format(Escape(s), args, st) == Ok(s)
    decreases |s|
  {
    if |s| > 0 {
      var t := Escape(s);
      FormatEscape(s[1..], args, st);
      if IsBrace(s[0]) {
        assert t[2..] == Escape(s[1..]);
      } else {
        assert t[1..] == Escape(s[1..]);
      }
      assert s == [s[0]] + s[1..];
    }
  }

  /** Brace-free text is copied unchanged. */
  lemma FormatPlain(s: string, args: FormatArgs, st: Numbering)
    requires BraceFree(s)
    ensures Format(s, args, st) == Ok(s)
  {
    FormatEscape(s, args, st);
  }

  /** Brace-free text before a template is copied in front of its expansion, errors included. */
  lemma {:induction false} FormatLiteralPrefix(p: string, t: string, args: FormatArgs, st: Numbering)
    requires BraceFree(p)
    ensures Format(p + t, args, st) == (match Format(t, args, st)
                                        case Ok(v) => Ok(p + v)
                                        case Err(e) => Err(e))
    decreases |p|
  {
    if |p| > 0 {
      var s := p + t;
      assert s[0] == p[0] && !IsBrace(p[0]);
      assert s[1..] == p[1..] + t;
      FormatLiteralPrefix(p[1..], t, args, st);
      match Format(t, args, st)
      case Ok(v) =>
        assert Format(s[1..], args, st) == Ok(p[1..] + v);
        assert [p[0]] + (p[1..] + v) == p + v;
      case Err(e) =>
    } else {
      assert p + t == t;
      match Format(t, args, st)
      case Ok(v) => assert p + v == v;
      case Err(e) =>
    }
  }

  /** A brace-free field that resolves, followed by brace-free text. */
  lemma FormatFieldThenPlain(field: string, q: string, args: FormatArgs, st: Numbering, v: string, st2: Numbering)
    requires |field| > 0 && BraceFree(field) && BraceFree(q)
    requires Resolve(field, args, st) == Ok((v, st2))
    ensures Format("{" + field + "}" + q, args, st) == Ok(v + q)
  {
    var t := "{" + field + "}" + q;
    assert t[0] == '{' && t[1] == field[0] && t[|field| + 1] == '}';
    forall k | 1 <= k < |field| + 1 ensures !IsBrace(t[k]) {
      assert t[k] == field[k - 1];
    }
    FieldEndFlat(t, 1, |field| + 1);
    assert t[1..|field| + 1] == field;
    assert t[|field| + 2..] == q;
    FormatPlain(q, args, st2);
  }

  /** A keyword field between brace-free texts is replaced by its argument. */
  lemma FormatKeywordField(p: string, key: string, q: string, args: FormatArgs, st: Numbering)
    requires BraceFree(p) && BraceFree(q) && IsKeyword(key)
    ensures Format(p + "{" + key + "}" + q, args, st) == Ok(p + KeywordValue(key, args) + q)
  {
    var t := "{" + key + "}" + q;
    var v := KeywordValue(key, args);
    assert p + "{" + key + "}" + q == p + t;
    assert BraceFree(key);
    FormatFieldThenPlain(key, q, args, st, v, st);
    FormatLiteralPrefix(p, t, args, st);
    assert p + (v + q) == p + v + q;
  }

  /** A `}` that is not doubled raises, after any brace-free text. */
  lemma FormatSingleClose(p: string, args: FormatArgs, st: Numbering)
    requires BraceFree(p)
    ensures Format(p + "}", args, st) == Err(SingleClose)
  {
    FormatLiteralPrefix(p, "}", args, st);
  }

  /** A `{` at the very end raises. */
  lemma FormatSingleOpen(p: string, args: FormatArgs, st: Numbering)
    requires BraceFree(p)
    ensures Format(p + "{", args, st) == Err(SingleOpen)
  {
    FormatLiteralPrefix(p, "{", args, st);
  }

  /** A second automatically numbered field asks for a positional argument that is not there. */
  lemma FormatTwoAutoFields(args: FormatArgs, st: Numbering)
    requires !st.Manual?
    requires st.Auto? ==> st.next == 0
    ensures Format("{}{}", args, st) == Err(IndexOutOfRange(1))
  {
    var s := "{}{}";
    assert FieldEnd(s, 1, 1) == Some(1);
    assert s[2..] == "{}";
    assert FieldEnd(s[2..], 1, 1) == Some(1);
    assert s[2..][1..1] == "";
  }

  /** `fill_templated_filename(filename, output_type)`. */
  function FillTemplatedFilename(filename: string, outputType: Option<string>): (r: Result<string, FormatError>)
    ensures BraceFree(filename) ==> r == Ok(filename)
  {
    var args := match outputType
      case Some(t) => FormatArgs(LowerAll(t), UpperAll(t))
      case None => FormatArgs("", "");
    assert BraceFree(filename) ==> Format(filename, args, Unset) == Ok(filename) by {
      if BraceFree(filename) { FormatPlain(filename, args, Unset); }
    }
    Format(filename, args, Unset)
  }

  /** `name.{ftype}.gguf`-style templates receive the lower-cased output type, and
      `{FTYPE}` the upper-cased one; without an output type the field is emptied. */
  lemma FillTemplatedType(p: string, key: string, q: string, outputType: Option<string>)
    requires BraceFree(p) && BraceFree(q) && IsKeyword(key)
    ensures FillTemplatedFilename(p + "{" + key + "}" + q, outputType)
            == Ok(p + (match outputType
                       case None => ""
                       case Some(t) => if key == "ftype" || key == "outtype" then LowerAll(t) else UpperAll(t))
                    + q)
  {
    var args := match outputType
      case Some(t) => FormatArgs(LowerAll(t), UpperAll(t))
      case None => FormatArgs("", "");
    FormatKeywordField(p, key, q, args, Unset);
  }

  // ---------------------------------------------------------------------
  // size_label
  // ---------------------------------------------------------------------

  /** Python's `round(x)` for a real: to the nearest integer, ties to even. */
  function RoundHalfEven(x: real): (r: int)
    ensures r as real - x <= 0.5 && x - r as real <= 0.5
    ensures (x - x.Floor as real) != 0.5 ==> r as real - x < 0.5 && x - r as real < 0.5
    ensures (x - x.Floor as real) == 0.5 ==> r % 2 == 0
  {
    var f := x.Floor;
    var d := x - f as real;
    if d < 0.5 then f
    else if d > 0.5 then f + 1
    else if f % 2 == 0 then f else f + 1
  }

  /** The scale picked by `model_weight_count_rounded_notation`: the count divided
      by the power of ten of its suffix. */
  datatype Scaled = Scaled(value: real, suffix: string)

  function Scale(count: int): (r: Scaled)
    ensures count > 1_000_000_000_000 <==> r.suffix == "T"
    ensures 1_000_000_000 < count <= 1_000_000_000_000 <==> r.suffix == "B"
    ensures 1_000_000 < count <= 1_000_000_000 <==> r.suffix == "M"
    ensures count <= 1_000_000 <==> r.suffix == "K"
    ensures r.suffix == "T" ==> r.value > 1.0
    ensures r.suffix in {"B", "M"} ==> 1.0 < r.value <= 1000.0
    ensures r.suffix == "K" ==> r.value <= 1000.0
  {
    if count > 1_000_000_000_000 then Scaled(count as real / 1_000_000_000_000.0, "T")
    else if count > 1_000_000_000 then Scaled(count as real / 1_000_000_000.0, "B")
    else if count > 1_000_000 then Scaled(count as real / 1_000_000.0, "M")
    else Scaled(count as real / 1000.0, "K")
  }

  /** Decimals shown: enough to reach `minDigits` significant integer digits, never negative.
      `lstrip('0')` makes a rounded value of zero count as no digits at all. */
  function FractionDigits(value: real, minDigits: int): (fix: nat)
    ensures fix <= if minDigits < 0 then 0 else minDigits
    ensures RoundHalfEven(value) == 0 ==> fix == (if minDigits < 0 then 0 else minDigits)
  {
    var digits := TrimStart(IntToString(RoundHalfEven(value)), IsZeroDigit);
    ZeroHasNoDigits();
    if minDigits - |digits| > 0 then minDigits - |digits| else 0
  }

  predicate IsZeroDigit(c: char) { c == '0' }

  lemma ZeroHasNoDigits()
    ensures TrimStart(IntToString(0), IsZeroDigit) == ""
  {
    assert IntToString(0) == "0";
    assert LeadingCount("0", IsZeroDigit) == 1;
  }

  /** Python's `f"{x:.{fix}f}"`; its digit generation is a parameter of the model. */
  type FixedFormatter = (real, nat) -> string

  /** `model_weight_count_rounded_notation(count, min_digits)`. */
  function RoundedNotation(count: int, minDigits: int, fixed: FixedFormatter): (r: string)
    ensures IsSuffix(Scale(count).suffix, r)
  {
    var sc := Scale(count);
    fixed(sc.value, FractionDigits(sc.value, minDigits)) + sc.suffix
  }

  function Abs(x: int): nat { if x < 0 then -x else x }

  /** `size_label(total, shared, expert, expert_count)`. */
  function SizeLabel(totalParams: int, sharedParams: int, expertParams: int, expertCount: int,
                     fixed: FixedFormatter): (r: string)
  {
    if expertCount > 0 then
      IntToString(expertCount) + "x" + RoundedNotation(Abs(sharedParams) + Abs(expertParams), 2, fixed)
    else RoundedNotation(Abs(totalParams), 2, fixed)
  }

  /** A mixture-of-experts label starts with the expert count and an `x`, and otherwise
      the label carries no such prefix unless the formatter writes one. */
  lemma SizeLabelShape(totalParams: int, sharedParams: int, expertParams: int, expertCount: int,
                       fixed: FixedFormatter)
    ensures expertCount > 0 ==>
      IsPrefix(IntToString(expertCount) + "x", SizeLabel(totalParams, sharedParams, expertParams, expertCount, fixed))
    ensures IsSuffix(Scale(if expertCount > 0 then Abs(sharedParams) + Abs(expertParams) else Abs(totalParams)).suffix,
                     SizeLabel(totalParams, sharedParams, expertParams, expertCount, fixed))
  {
    var r := SizeLabel(totalParams, sharedParams, expertParams, expertCount, fixed);
    if expertCount > 0 {
      var p := IntToString(expertCount) + "x";
      var n := RoundedNotation(Abs(sharedParams) + Abs(expertParams), 2, fixed);
      assert r == p + n;
      assert r[..|p|] == p;
      assert r[|r| - |n|..] == n;
    }
  }

  // ---------------------------------------------------------------------
  // naming_convention
  // ---------------------------------------------------------------------

  /** `s.strip().replace(' ', '-')`. */
  function Dashed(s: string): (r: string)
    ensures ' ' !in r
  {
    ReplaceRemovesChar(Trim(s, IsPySpace), ' ', "-");
    ReplaceAll(Trim(s, IsPySpace), " ", "-")
  }

  /** The model-name component: `base_name`, else `model_name`, with spaces and slashes
      turned into dashes; "ggml-model" when neither is given. */
  function NameComponent(modelName: Option<string>, baseName: Option<string>): (r: string)
    ensures ' ' !in r && '/' !in r
    ensures baseName.None? && modelName.None? ==> r == "ggml-model"
  {
    var source := if baseName.Some? then baseName else modelName;
    match source
    case None => "ggml-model"
    case Some(n) =>
      var d := Dashed(n);
      ReplaceRemovesChar(d, '/', "-");
      var r := ReplaceAll(d, "/", "-");
      assert ' ' !in r by {
        ReplaceIsSplitJoin(d, "/", "-");
        NoCharSplitJoin(d, "/", "-", ' ');
      }
      r
  }

  /** Replacing in text without `c` by a replacement without `c` yields text without `c`. */
  lemma NoCharSplitJoin(s: string, pat: string, rep: string, c: char)
    requires |pat| > 0 && c !in s && c !in rep
    ensures c !in Join(Split(s, pat), rep)
  {
    SplitJoin(s, pat);
    SplitPiecesSub(s, pat, c);
    JoinNoChar(Split(s, pat), rep, c);
  }

  /** The pieces of a split are substrings, so they lack any character the text lacks. */
  lemma {:induction false} SplitPiecesSub(s: string, pat: string, c: char)
    requires |pat| > 0 && c !in s
    ensures forall k :: 0 <= k < |Split(s, pat)| ==> c !in Split(s, pat)[k]
    decreases |s|
  {
    match FindFrom(s, pat, 0)
    case None =>
    case Some(i) =>
      var rest := s[i + |pat|..];
      assert c !in s[..i] by {
        forall j | 0 <= j < i ensures s[..i][j] != c { assert s[..i][j] == s[j]; }
      }
      assert c !in rest by {
        forall j | 0 <= j < |rest| ensures rest[j] != c { assert rest[j] == s[i + |pat| + j]; }
      }
      SplitPiecesSub(rest, pat, c);
      var r := Split(s, pat);
      assert r == [s[..i]] + Split(rest, pat);
      forall k | 0 <= k < |r| ensures c !in r[k] {
        if k > 0 { assert r[k] == Split(rest, pat)[k - 1]; }
      }
  }

  lemma {:induction false} JoinNoChar(parts: seq<string>, d: string, c: char)
    requires c !in d
    requires forall k :: 0 <= k < |parts| ==> c !in parts[k]
    ensures c !in Join(parts, d)
    decreases |parts|
  {
    if |parts| > 1 {
      JoinNoChar(parts[1..], d, c);
    }
  }

  /** `f"-{x}"` for a present optional part, "" for an absent one. */
  function Part(x: Option<string>): (r: string)
    ensures x.None? <==> r == ""
    ensures x.Some? ==> r == "-" + x.value
  {
    match x
    case None => ""
    case Some(v) => "-" + v
  }

  function MapOption(x: Option<string>, f: string -> string): (r: Option<string>)
    ensures r.Some? <==> x.Some?
    ensures x.Some? ==> r.value == f(x.value)
  {
    match x
    case None => None
    case Some(v) => Some(f(v))
  }

  /** Everything after the name component, each present part introduced by a dash. */
  function Suffixes(finetune: Option<string>, version: Option<string>, sizeLabel: Option<string>,
                    outputType: Option<string>, modelType: Option<string>): (r: string)
    ensures finetune.None? && version.None? && sizeLabel.None? && outputType.None? && modelType.None? ==> r == ""
    ensures (sizeLabel.None? || ' ' !in sizeLabel.value) ==> ' ' !in r
  {
    var a := Part(sizeLabel);
    var b := Part(MapOption(finetune, Dashed));
    var c := Part(MapOption(version, Dashed));
    var d := Part(MapOption(outputType, EncodingPart));
    var e := Part(MapOption(modelType, Dashed));
    assert ' ' !in b && ' ' !in c && ' ' !in d && ' ' !in e;
    a + b + c + d + e
  }

  /** `naming_convention(model_name, base_name, finetune, version, size_label, output_type, model_type)`. */
  function NamingConvention(modelName: Option<string>, baseName: Option<string>, finetune: Option<string>,
                            version: Option<string>, sizeLabel: Option<string>, outputType: Option<string>,
                            modelType: Option<string>): (r: string)
    ensures IsPrefix(NameComponent(modelName, baseName), r)
    ensures finetune.None? && version.None? && sizeLabel.None? && outputType.None? && modelType.None?
            ==> r == NameComponent(modelName, baseName)
    ensures (sizeLabel.None? || ' ' !in sizeLabel.value) ==> ' ' !in r
  {
    var name := NameComponent(modelName, baseName);
    var tail := Suffixes(finetune, version, sizeLabel, outputType, modelType);
    var r := name + tail;
    assert r[..|name|] == name;
    r
  }

  /** The encoding component: dashed and upper-cased, so it holds no space and no lower-case ASCII letter. */
  function EncodingPart(t: string): (r: string)
    ensures ' ' !in r
    ensures forall i :: 0 <= i < |r| ==> !IsLower(r[i])
  {
    var d := Dashed(t);
    var u := UpperAll(d);
    assert forall i :: 0 <= i < |u| ==> u[i] != ' ' by {
      forall i | 0 <= i < |u| ensures u[i] != ' ' {
        assert d[i] != ' ';
      }
    }
    u
  }

  // ---------------------------------------------------------------------
  // Reading a name back
  // ---------------------------------------------------------------------

  /** A component that the dashing leaves alone and that holds no separator. */
  predicate Plain(s: string) {
    forall i :: 0 <= i < |s| ==> s[i] != '-' && s[i] != '/' && !IsPySpace(s[i])
  }

  /** A text without `c` holds no occurrence of the one-character pattern `[c]`. */
  lemma NoOccurrence(s: string, c: char)
    requires c !in s
    ensures FindFrom(s, [c], 0).None?
  {
    forall j | 0 <= j ensures !OccursAt(s, [c], j) {
      if j + 1 <= |s| { assert s[j..j + 1] == [s[j]]; }
    }
  }

  lemma DashedPlain(s: string)
    requires Plain(s)
    ensures Dashed(s) == s
  {
    TrimUnchanged(s, IsPySpace);
    assert ' ' !in s by { assert IsPySpace(' '); }
    NoOccurrence(s, ' ');
  }

  lemma SplitAtFirstDash(a: string, b: string)
    requires '-' !in a
    ensures Split(a + "-" + b, "-") == [a] + Split(b, "-")
  {
    var s := a + "-" + b;
    assert OccursAt(s, "-", |a|) by { assert s[|a|..|a| + 1] == "-"; }
    forall j | 0 <= j < |a| ensures !OccursAt(s, "-", j) {
      assert s[j..j + 1] == [a[j]];
    }
    FindFromFirst(s, "-", 0, |a|);
    assert s[..|a|] == a;
    assert s[|a| + 1..] == b;
  }

  lemma PlainName(baseName: string, modelName: Option<string>)
    requires Plain(baseName)
    ensures NameComponent(modelName, Some(baseName)) == baseName
  {
    DashedPlain(baseName);
    NoOccurrence(baseName, '/');
  }

  lemma PlainSuffixes(sizeLabel: string, finetune: string, version: string, outputType: string)
    requires Plain(finetune) && Plain(version) && Plain(outputType)
    ensures Suffixes(Some(finetune), Some(version), Some(sizeLabel), Some(outputType), None)
            == "-" + sizeLabel + "-" + finetune + "-" + version + "-" + UpperAll(outputType)
  {
    DashedPlain(finetune);
    DashedPlain(version);
    DashedPlain(outputType);
    var a := Part(Some(sizeLabel));
    var b := Part(MapOption(Some(finetune), Dashed));
    var c := Part(MapOption(Some(version), Dashed));
    var d := Part(MapOption(Some(outputType), EncodingPart));
    var e := Part(MapOption(None, Dashed));
    assert Suffixes(Some(finetune), Some(version), Some(sizeLabel), Some(outputType), None) == a + b + c + d + e;
    assert a == "-" + sizeLabel && b == "-" + finetune && c == "-" + version;
    assert EncodingPart(outputType) == UpperAll(outputType);
    assert d == "-" + UpperAll(outputType) && e == "";
    DashPieces(sizeLabel, finetune, version, UpperAll(outputType));
  }

  lemma DashPieces(a: string, b: string, c: string, d: string)
    ensures ("-" + a) + ("-" + b) + ("-" + c) + ("-" + d) + "" == "-" + a + "-" + b + "-" + c + "-" + d
  {
  }

  lemma PlainConvention(baseName: string, sizeLabel: string, finetune: string, version: string,
                         outputType: string, modelName: Option<string>)
    requires Plain(baseName) && Plain(finetune) && Plain(version) && Plain(outputType)
    ensures NamingConvention(modelName, Some(baseName), Some(finetune), Some(version), Some(sizeLabel),
                             Some(outputType), None)
            == baseName + "-" + (sizeLabel + "-" + (finetune + "-" + (version + "-" + UpperAll(outputType))))
  {
    var name := NameComponent(modelName, Some(baseName));
    var tail := Suffixes(Some(finetune), Some(version), Some(sizeLabel), Some(outputType), None);
    assert NamingConvention(modelName, Some(baseName), Some(finetune), Some(version), Some(sizeLabel),
                            Some(outputType), None) == name + tail;
    PlainName(baseName, modelName);
    PlainSuffixes(sizeLabel, finetune, version, outputType);
    assert name == baseName;
    var d, enc := "-", UpperAll(outputType);
    assert tail == d + sizeLabel + d + finetune + d + version + d + enc;
    SeqAssoc9(baseName, d, sizeLabel, finetune, version, enc);
  }

  lemma SeqAssoc9(a: string, d: string, b: string, c: string, e: string, f: string)
    ensures a + (d + b + d + c + d + e + d + f) == a + d + (b + d + (c + d + (e + d + f)))
  {
  }

  /** A fully specified name of plain components splits on '-' back into base name, size
      label, fine-tune, version and upper-cased encoding, the order the convention fixes. */
  lemma NamingConventionSplitsBack(baseName: string, sizeLabel: string, finetune: string, version: string,
                                   outputType: string, modelName: Option<string>)
    requires Plain(baseName) && Plain(sizeLabel) && Plain(finetune) && Plain(version) && Plain(outputType)
    ensures Split(NamingConvention(modelName, Some(baseName), Some(finetune), Some(version), Some(sizeLabel),
                                   Some(outputType), None), "-")
            == [baseName, sizeLabel, finetune, version, UpperAll(outputType)]
  {
    var enc := UpperAll(outputType);
    assert '-' !in enc by {
      forall i | 0 <= i < |enc| ensures enc[i] != '-' { assert enc[i] == ToUpper(outputType[i]); }
    }
    PlainConvention(baseName, sizeLabel, finetune, version, outputType, modelName);
    SplitFive(baseName, sizeLabel, finetune, version, enc);
  }

  lemma SplitFive(a: string, b: string, c: string, d: string, e: string)
    requires '-' !in a && '-' !in b && '-' !in c && '-' !in d && '-' !in e
    ensures Split(a + "-" + (b + "-" + (c + "-" + (d + "-" + e))), "-") == [a, b, c, d, e]
  {
    SplitFour(b, c, d, e);
    SplitAtFirstDash(a, b + "-" + (c + "-" + (d + "-" + e)));
  }

  lemma SplitFour(b: string, c: string, d: string, e: string)
    requires '-' !in b && '-' !in c && '-' !in d && '-' !in e
    ensures Split(b + "-" + (c + "-" + (d + "-" + e)), "-") == [b, c, d, e]
  {
    SplitThree(c, d, e);
    SplitAtFirstDash(b, c + "-" + (d + "-" + e));
  }

  lemma SplitThree(c: string, d: string, e: string)
    requires '-' !in c && '-' !in d && '-' !in e
    ensures Split(c + "-" + (d + "-" + e), "-") == [c, d, e]
  {
    SplitLast(d, e);
    SplitAtFirstDash(c, d + "-" + e);
  }

  lemma SplitLast(d: string, e: string)
    requires '-' !in d && '-' !in e
    ensures Split(d + "-" + e, "-") == [d, e]
  {
    NoOccurrence(e, '-');
    assert Split(e, "-") == [e];
    SplitAtFirstDash(d, e);
  }
}

=== FILE: remote_fetch.dfy ===
/**
 * The byte-range fetch engine of `SafetensorRemote` (gguf-py/gguf/utility.py).
 *
 * HTTP is an oracle: a `Network` maps one request (method, URL, headers in
 * insertion order) to either a reply (final status after redirects, body) or
 * a transport failure (`requests.RequestException`).  The worker threads of
 * the parallel path become a sequential map over chunk indices whose results
 * are then scanned in index order, exactly as the joined threads' result list
 * is scanned.
 */
module RemoteFetch {
  import opened Wrappers
  import opened Bytes
  import opened Text

  const BASE_DOMAIN: string := "https://huggingface.co"
  const ALIGNMENT: nat := 8
  const MULTITHREAD_THRESHOLD: nat := 100 * 1024 * 1024
  const MULTITHREAD_COUNT: nat := 8
  const USER_AGENT: string := "convert_hf_to_gguf"

  datatype Header = Header(name: string, value: string)
  datatype Method = HttpGet | HttpHead
  datatype Request = Request(verb: Method, url: string, headers: seq<Header>)
  datatype Reply = Reply(status: int, body: seq<byte>)
  datatype Transport = Answered(reply: Reply) | Unreachable
  type Network = Request -> Transport

  /** Every way the remote-safetensors calls can fail, with the Python exception each stands for. */
  datatype Fault =
    | InvalidUrl(url: string)                                  // ValueError
    | InvalidIpv6Url(url: string)                              // ValueError raised by urlparse
    | HttpStatus(status: int)                                  // requests.HTTPError
    | TransportFailure                                         // requests.RequestException
    | ChunkSizeMismatch(index: nat, expected: int, got: nat)   // IOError stored by a worker
    | ChunkMissing(index: nat)                                 // RuntimeError
    | AssembledSizeMismatch(expected: int, got: nat)           // IOError
    | SizeMismatch(expected: int, got: nat)                    // IOError
    | ShortLengthPrefix                                        // ValueError
    | IncompleteMetadata(need: int, got: nat)                  // ValueError
    | NotUtf8                                                  // UnicodeDecodeError
    | MetadataNotJson                                          // ValueError
    | NotAnObject                                              // AttributeError (no .items / .get)
    | InvalidTensorEntry(name: string)                         // ValueError
    | MissingKey(name: string, key: string)                    // ValueError
    | OffsetsArity(name: string)                               // ValueError from tuple unpacking
    | OffsetsType(name: string)                                // TypeError
    | ShapeType(name: string)                                  // TypeError
    | IndexNotJson                                             // json.JSONDecodeError
    | MissingWeightMap                                         // AssertionError
    | BadWeightMap                                             // TypeError/AttributeError
    | NoSafetensors(modelId: string)                           // ValueError

  predicate IsValueError(f: Fault) {
    f.InvalidUrl? || f.InvalidIpv6Url? || f.ShortLengthPrefix? || f.IncompleteMetadata?
    || f.MetadataNotJson? || f.InvalidTensorEntry? || f.MissingKey? || f.OffsetsArity?
    || f.IndexNotJson? || f.NoSafetensors?
  }

  predicate IsIOError(f: Fault) {
    f.ChunkSizeMismatch? || f.AssembledSizeMismatch? || f.SizeMismatch?
  }

  // ---------------------------------------------------------------------
  // URL validation (`urlparse(url).scheme` and `.netloc` both non-empty)
  // ---------------------------------------------------------------------

  predicate IsSchemeChar(c: char) {
    IsAlnum(c) || c == '+' || c == '-' || c == '.'
  }

  predicate IsC0OrSpace(c: char) {
    c <= ' '
  }

  predicate IsUnsafeUrlChar(c: char) {
    c == '\t' || c == '\r' || c == '\n'
  }

  function RemoveUnsafe(s: string): (r: string)
    ensures forall i :: 0 <= i < |r| ==> !IsUnsafeUrlChar(r[i])
    ensures (forall i :: 0 <= i < |s| ==> !IsUnsafeUrlChar(s[i])) ==> r == s
  {
    if |s| == 0 then ""
    else (if IsUnsafeUrlChar(s[0]) then "" else [s[0]]) + RemoveUnsafe(s[1..])
  }

  /** The `scheme:` prefix `urlsplit` accepts: a letter, then scheme characters, before the first ':'. */
  function SchemeLength(u: string): (n: nat)
    ensures n > 0 ==> n < |u| && u[n] == ':' && IsAlpha(u[0])
  {
    match FindFrom(u, ":", 0)
    case None => 0
    case Some(i) =>
      if i > 0 && IsAlpha(u[0]) && (forall k :: 0 <= k < i ==> IsSchemeChar(u[k])) then
        assert OccursAt(u, ":", i);
        assert u[i..i + 1] == ":";
        i
      else 0
  }

  /** Index of the first '/', '?' or '#' at or after `from`, or |s| if none. */
  function NetlocEnd(s: string, from: nat): (e: nat)
    requires from <= |s|
    ensures from <= e <= |s|
    ensures forall k :: from <= k < e ==> s[k] != '/' && s[k] != '?' && s[k] != '#'
    decreases |s| - from
  {
    if from == |s| || s[from] == '/' || s[from] == '?' || s[from] == '#' then from
    else NetlocEnd(s, from + 1)
  }

  datatype SplitUrl = SplitUrl(scheme: string, netloc: string)

  /** The URL after `urlsplit`'s clean-up: leading C0 controls and spaces stripped, tabs and newlines removed. */
  function Scrub(url: string): string {
    RemoveUnsafe(TrimStart(url, IsC0OrSpace))
  }

  /** The network location: what follows a leading "//" up to the first '/', '?' or '#'. */
  function Netloc(rest: string): (r: string)
    ensures r != "" ==> IsPrefix("//", rest)
  {
    if IsPrefix("//", rest) then rest[2..NetlocEnd(rest, 2)] else ""
  }

  /** `urlsplit`'s scheme and network-location parts. */
  function ParseUrl(url: string): (r: Result<SplitUrl, Fault>)
    ensures r.Err? ==> r.error == InvalidIpv6Url(url)
  {
    var u := Scrub(url);
    var n := SchemeLength(u);
    var rest := if n > 0 then u[n + 1..] else u;
    var netloc := Netloc(rest);
    if Contains(netloc, "[") != Contains(netloc, "]") then Err(InvalidIpv6Url(url))
    else Ok(SplitUrl(LowerAll(u[..n]), netloc))
  }

  /** Ok(true) iff both scheme and netloc are present; the urlparse error otherwise. */
  function CheckUrl(url: string): (r: Result<bool, Fault>)
  {
    var p :- ParseUrl(url);
    Ok(p.scheme != "" && p.netloc != "")
  }

  /** The URL check at the head of `get_data_by_range` and `check_file_exist`. */
  function RequireUrl(url: string): (r: Result<(), Fault>)
    ensures r.Ok? <==> CheckUrl(url) == Ok(true)
    ensures CheckUrl(url) == Ok(false) ==> r == Err(InvalidUrl(url))
  {
    match CheckUrl(url)
    case Err(e) => Err(e)
    case Ok(valid) => if valid then Ok(()) else Err(InvalidUrl(url))
  }

  const HUB_PREFIX: string := "https://huggingface.co/"

  lemma HubScheme(t: string)
    ensures SchemeLength(HUB_PREFIX + t) == 5
  {
    var u := HUB_PREFIX + t;
    assert OccursAt(u, ":", 5) by { assert u[5..6] == ":"; }
    forall j | 0 <= j < 5 ensures !OccursAt(u, ":", j) {
      assert u[j..j + 1] == [u[j]];
    }
    FindFromFirst(u, ":", 0, 5);
    assert forall k :: 0 <= k < 5 ==> IsSchemeChar(u[k]);
  }

  lemma HubNetloc(t: string)
    ensures (HUB_PREFIX + t)[6..] == "//huggingface.co/" + t
    ensures NetlocEnd("//huggingface.co/" + t, 2) == 16
  {
    var rest := "//huggingface.co/" + t;
    assert rest[16] == '/';
    assert forall k :: 2 <= k < 16 ==> rest[k] != '/' && rest[k] != '?' && rest[k] != '#';
    NetlocEndSkips(rest, 2, 16);
  }

  lemma NoBracket(s: string, b: char)
    requires forall i :: 0 <= i < |s| ==> s[i] != b
    ensures !Contains(s, [b])
  {
    forall j | 0 <= j <= |s| ensures !OccursAt(s, [b], j) {
      if j < |s| { assert s[j..j + 1] == [s[j]]; }
    }
  }

  lemma ScrubHub(path: string)
    ensures Scrub(HUB_PREFIX + path) == HUB_PREFIX + RemoveUnsafe(path)
  {
    var url := HUB_PREFIX + path;
    assert LeadingCount(url, IsC0OrSpace) == 0 by { assert !IsC0OrSpace(url[0]); }
    assert TrimStart(url, IsC0OrSpace) == url;
    RemoveUnsafePrefix(HUB_PREFIX, path);
  }

  lemma ParseHub(url: string, t: string)
    requires Scrub(url) == HUB_PREFIX + t
    ensures ParseUrl(url) == Ok(SplitUrl("https", "huggingface.co"))
  {
    var u := HUB_PREFIX + t;
    HubScheme(t);
    HubNetlocIs(t);
    HubHostNoBrackets();
    assert u[..5] == "https";
    assert LowerAll("https") == "https";
  }

  lemma HubNetlocIs(t: string)
    ensures Netloc((HUB_PREFIX + t)[6..]) == "huggingface.co"
  {
    HubNetloc(t);
    var rest := "//huggingface.co/" + t;
    assert IsPrefix("//", rest);
    assert rest[2..16] == "huggingface.co";
  }

  lemma HubHostNoBrackets()
    ensures !Contains("huggingface.co", "[") && !Contains("huggingface.co", "]")
  {
    NoBracket("huggingface.co", '[');
    NoBracket("huggingface.co", ']');
  }

  /** Every URL the model resolver builds from BASE_DOMAIN passes the check. */
  lemma BaseUrlValid(path: string)
    ensures RequireUrl(BASE_DOMAIN + "/" + path).Ok?
  {
    var url := BASE_DOMAIN + "/" + path;
    assert url == HUB_PREFIX + path;
    ScrubHub(path);
    ParseHub(url, RemoveUnsafe(path));
  }

  lemma {:induction false} NetlocEndSkips(s: string, from: nat, to: nat)
    requires from <= to <= |s|
    requires forall k :: from <= k < to ==> s[k] != '/' && s[k] != '?' && s[k] != '#'
    ensures NetlocEnd(s, from) == NetlocEnd(s, to)
    decreases |s| - from
  {
    if from < to {
      NetlocEndSkips(s, from + 1, to);
    }
  }

  lemma {:induction false} RemoveUnsafePrefix(p: string, s: string)
    requires forall i :: 0 <= i < |p| ==> !IsUnsafeUrlChar(p[i])
    ensures RemoveUnsafe(p + s) == p + RemoveUnsafe(s)
    decreases |p|
  {
    if |p| > 0 {
      var ps := p + s;
      assert ps[0] == p[0] && !IsUnsafeUrlChar(p[0]);
      assert ps[1..] == p[1..] + s;
      assert RemoveUnsafe(ps) == [p[0]] + RemoveUnsafe(p[1..] + s);
      RemoveUnsafePrefix(p[1..], s);
      assert p == [p[0]] + p[1..];
    } else {
      assert p + s == s;
    }
  }

  // ---------------------------------------------------------------------
  // Headers
  // ---------------------------------------------------------------------

  /** `_get_request_headers`: the user agent, plus a bearer token when HF_TOKEN is set and non-empty. */
  function CommonHeaders(hfToken: Option<string>): (hs: seq<Header>)
    ensures |hs| >= 1 && hs[0] == Header("User-Agent", USER_AGENT)
    ensures |hs| == 2 <==> hfToken.Some? && hfToken.value != ""
    ensures |hs| == 2 ==> hs[1] == Header("Authorization", "Bearer " + hfToken.value)
    ensures |hs| <= 2
  {
    [Header("User-Agent", USER_AGENT)]
    + (if hfToken.Some? && hfToken.value != "" then [Header("Authorization", "Bearer " + hfToken.value)] else [])
  }

  /** Inclusive byte range `bytes=first-last` (section 14.1.2 of RFC 9110). */
  function RangeValue(first: int, last: int): string {
    "bytes=" + IntToString(first) + "-" + IntToString(last)
  }

  /** Open-ended byte range `bytes=first-`. */
  function OpenRangeValue(first: int): string {
    "bytes=" + IntToString(first) + "-"
  }

  /** Value of the first header called `name`. */
  function FindHeader(hs: seq<Header>, name: string): Option<string> {
    if |hs| == 0 then None
    else if hs[0].name == name then Some(hs[0].value)
    else FindHeader(hs[1..], name)
  }

  predicate IsHttpError(status: int) {
    400 <= status < 600
  }

  // ---------------------------------------------------------------------
  // Single-request path
  // ---------------------------------------------------------------------

  /** The Range header of the single-request path, if any. */
  function SingleRange(start: int, size: int): (r: Option<Header>)
    ensures size > -1 ==> r == Some(Header("Range", RangeValue(start, start + size - 1)))
    ensures size <= -1 && start > 0 ==> r == Some(Header("Range", OpenRangeValue(start)))
    ensures size <= -1 && start <= 0 ==> r == None
  {
    if size > -1 then Some(Header("Range", RangeValue(start, start + size - 1)))
    else if start > 0 then Some(Header("Range", OpenRangeValue(start)))
    else None
  }

  function SingleRequest(hfToken: Option<string>, url: string, start: int, size: int): Request {
    var extra := match SingleRange(start, size) case Some(h) => [h] case None => [];
    Request(HttpGet, url, CommonHeaders(hfToken) + extra)
  }

  /** One GET; `raise_for_status`; exact length check when a size was asked for. */
  function FetchSingle(net: Network, hfToken: Option<string>, url: string, start: int, size: int)
    : (r: Result<seq<byte>, Fault>)
    ensures r.Ok? <==> (net(SingleRequest(hfToken, url, start, size)).Answered?
                        && !IsHttpError(net(SingleRequest(hfToken, url, start, size)).reply.status)
                        && (size > -1 ==> |net(SingleRequest(hfToken, url, start, size)).reply.body| == size))
    ensures r.Ok? ==> r.value == net(SingleRequest(hfToken, url, start, size)).reply.body
    ensures r.Err? && r.error.SizeMismatch? ==> size > -1
  {
    match net(SingleRequest(hfToken, url, start, size))
    case Unreachable => Err(TransportFailure)
    case Answered(Reply(status, body)) =>
      if IsHttpError(status) then Err(HttpStatus(status))
      else if size > -1 && |body| != size then Err(SizeMismatch(size, |body|))
      else Ok(body)
  }

  // ---------------------------------------------------------------------
  // Parallel path
  // ---------------------------------------------------------------------

  /** Size of chunk `i` of `n`: `size // n`, plus one for the first `size % n` chunks. */
  function ChunkSize(size: nat, n: nat, i: nat): (c: nat)
    requires n > 0
  {
    size / n + (if i < size % n then 1 else 0)
  }

  /** Offset of chunk `i`: `start` advanced past every earlier chunk (`current_offset`). */
  function ChunkOffset(start: int, size: nat, n: nat, i: nat): int
    requires n > 0
  {
    if i == 0 then start else ChunkOffset(start, size, n, i - 1) + ChunkSize(size, n, i - 1)
  }

  function Min(a: int, b: int): int { if a <= b then a else b }

  lemma {:induction false} ChunkOffsetClosedForm(start: int, size: nat, n: nat, i: nat)
    requires n > 0
    ensures ChunkOffset(start, size, n, i) == start + i * (size / n) + Min(i, size % n)
  {
    if i > 0 {
      ChunkOffsetClosedForm(start, size, n, i - 1);
    }
  }

  lemma ChunkEnd(start: int, size: nat, n: nat)
    requires n > 0
    ensures ChunkOffset(start, size, n, n) == start + size
  {
    ChunkOffsetClosedForm(start, size, n, n);
    assert size == n * (size / n) + size % n;
  }

  /** The chunks tile [start, start+size) exactly, in index order, with sizes differing by at most one. */
  lemma ChunkPartition(start: int, size: nat, n: nat)
    requires n > 0
    ensures ChunkOffset(start, size, n, 0) == start
    ensures ChunkOffset(start, size, n, n) == start + size
    ensures forall i :: 0 <= i < n ==> ChunkOffset(start, size, n, i + 1) == ChunkOffset(start, size, n, i) + ChunkSize(size, n, i)
    ensures forall i, j :: 0 <= i < n && 0 <= j < n ==> ChunkSize(size, n, i) <= ChunkSize(size, n, j) + 1
    ensures forall i, j :: 0 <= i <= j < n ==> ChunkSize(size, n, j) <= ChunkSize(size, n, i)
  {
    ChunkEnd(start, size, n);
  }

  function ChunkRequest(common: seq<Header>, url: string, chunkStart: int, chunkSize: nat): Request {
    Request(HttpGet, url, common + [Header("Range", RangeValue(chunkStart, chunkStart + chunkSize - 1))])
  }

  /** `download_chunk`: what the worker stores for chunk `index` (content or the caught exception). */
  function Worker(net: Network, common: seq<Header>, url: string, chunkStart: int, chunkSize: nat, index: nat)
    : (r: Result<seq<byte>, Fault>)
    ensures r.Ok? ==> |r.value| == chunkSize
    ensures r.Ok? ==> net(ChunkRequest(common, url, chunkStart, chunkSize)).Answered?
                      && r.value == net(ChunkRequest(common, url, chunkStart, chunkSize)).reply.body
    ensures r.Err? && r.error.ChunkSizeMismatch? ==> r.error.index == index && r.error.expected == chunkSize
    ensures r.Err? ==> r.error.TransportFailure? || r.error.HttpStatus? || r.error.ChunkSizeMismatch?
  {
    match net(ChunkRequest(common, url, chunkStart, chunkSize))
    case Unreachable => Err(TransportFailure)
    case Answered(Reply(status, body)) =>
      if IsHttpError(status) then Err(HttpStatus(status))
      else if |body| != chunkSize then Err(ChunkSizeMismatch(index, chunkSize, |body|))
      else Ok(body)
  }

  /** Slot `i` of the result list after all threads are joined; zero-size chunks hold b"". */
  function Slot(net: Network, common: seq<Header>, url: string, start: int, size: nat, n: nat, i: nat)
    : Option<Result<seq<byte>, Fault>>
    requires n > 0
  {
    if ChunkSize(size, n, i) == 0 then Some(Ok([]))
    else Some(Worker(net, common, url, ChunkOffset(start, size, n, i), ChunkSize(size, n, i), i))
  }

  function Slots(net: Network, common: seq<Header>, url: string, start: int, size: nat, n: nat)
    : (rs: seq<Option<Result<seq<byte>, Fault>>>)
    requires n > 0
    ensures |rs| == n
    ensures forall i :: 0 <= i < n ==> rs[i] == Slot(net, common, url, start, size, n, i)
  {
    seq(n, i requires 0 <= i < n => Slot(net, common, url, start, size, n, i))
  }

  /** The ordered scan: raise the first stored exception, else concatenate the parts. */
  function Scan(rs: seq<Option<Result<seq<byte>, Fault>>>, size: nat, n: nat, from: nat): (r: Result<seq<byte>, Fault>)
    requires n > 0 && from <= |rs|
    ensures r.Err? ==> r.error.ChunkMissing? || exists j :: from <= j < |rs| && rs[j] == Some(Err(r.error))
    decreases |rs| - from
  {
    if from == |rs| then Ok([])
    else match rs[from]
      case Some(Err(e)) => Err(e)
      case None =>
        if ChunkSize(size, n, from) > 0 then Err(ChunkMissing(from))
        else Scan(rs, size, n, from + 1)
      case Some(Ok(part)) =>
        var tail :- Scan(rs, size, n, from + 1);
        Ok(part + tail)
  }

  function FetchParallel(net: Network, hfToken: Option<string>, url: string, start: int, size: nat, n: nat)
    : (r: Result<seq<byte>, Fault>)
    requires n > 0
    ensures r.Ok? ==> |r.value| == size
  {
    var data :- Scan(Slots(net, CommonHeaders(hfToken), url, start, size, n), size, n, 0);
    if |data| != size then Err(AssembledSizeMismatch(size, |data|)) else Ok(data)
  }

  /** The parallel path is chosen iff the size reaches the threshold (the worker count is 8 > 1). */
  predicate UsesParallel(size: int) {
    size >= MULTITHREAD_THRESHOLD && MULTITHREAD_COUNT > 1
  }

  /** `SafetensorRemote.get_data_by_range(url, start, size)`. */
  function GetDataByRange(net: Network, hfToken: Option<string>, url: string, start: int, size: int)
    : (r: Result<seq<byte>, Fault>)
    ensures CheckUrl(url) == Ok(false) ==> r == Err(InvalidUrl(url))
    ensures r.Ok? ==> CheckUrl(url) == Ok(true)
    ensures r.Ok? && size > -1 ==> |r.value| == size
    ensures CheckUrl(url) == Ok(true) && !UsesParallel(size) ==>
              (r.Ok? <==> (net(SingleRequest(hfToken, url, start, size)).Answered?
                           && !IsHttpError(net(SingleRequest(hfToken, url, start, size)).reply.status)
                           && (size > -1 ==> |net(SingleRequest(hfToken, url, start, size)).reply.body| == size)))
    ensures r.Ok? && !UsesParallel(size) ==> r.value == net(SingleRequest(hfToken, url, start, size)).reply.body
  {
    var _ :- RequireUrl(url);
    if UsesParallel(size) then FetchParallel(net, hfToken, url, start, size, MULTITHREAD_COUNT)
    else FetchSingle(net, hfToken, url, start, size)
  }

  // ---------------------------------------------------------------------
  // Facts about the ordered scan
  // ---------------------------------------------------------------------

  function Concat(parts: seq<seq<byte>>): seq<byte> {
    if |parts| == 0 then [] else parts[0] + Concat(parts[1..])
  }

  /** Scan succeeds exactly when no slot holds an exception and every empty slot is a zero chunk;
      the result is then the parts in index order. */
  lemma {:induction false} ScanOk(rs: seq<Option<Result<seq<byte>, Fault>>>, size: nat, n: nat, from: nat)
    requires n > 0 && from <= |rs|
    requires forall i :: from <= i < |rs| ==> rs[i].Some? && rs[i].value.Ok?
    ensures Scan(rs, size, n, from) == Ok(Concat(seq(|rs| - from, k requires 0 <= k < |rs| - from => rs[from + k].value.value)))
    decreases |rs| - from
  {
    var parts := seq(|rs| - from, k requires 0 <= k < |rs| - from => rs[from + k].value.value);
    if from < |rs| {
      ScanOk(rs, size, n, from + 1);
      var tail := seq(|rs| - (from + 1), k requires 0 <= k < |rs| - (from + 1) => rs[from + 1 + k].value.value);
      assert parts[1..] == tail;
    }
  }

  /** An exception is raised only if it is the first one in index order. */
  lemma {:induction false} ScanFirstError(rs: seq<Option<Result<seq<byte>, Fault>>>, size: nat, n: nat, from: nat)
    requires n > 0 && from <= |rs|
    requires forall i :: from <= i < |rs| ==> rs[i].Some?
    ensures Scan(rs, size, n, from).Err? ==>
      exists j :: from <= j < |rs| && rs[j] == Some(Err(Scan(rs, size, n, from).error))
                  && forall i :: from <= i < j ==> rs[i].value.Ok?
    decreases |rs| - from
  {
    if from < |rs| && rs[from].value.Ok? {
      ScanFirstError(rs, size, n, from + 1);
    }
  }

  /** Conversely, the first exception in index order is the one raised, whatever the later slots hold. */
  lemma {:induction false} ScanReportsFirstError(rs: seq<Option<Result<seq<byte>, Fault>>>, size: nat, n: nat, from: nat,
                                                 j: nat, e: Fault)
    requires n > 0 && from <= j < |rs|
    requires rs[j] == Some(Err(e))
    requires forall i :: from <= i < j ==> rs[i].Some? && rs[i].value.Ok?
    ensures Scan(rs, size, n, from) == Err(e)
    decreases j - from
  {
    if from < j {
      ScanReportsFirstError(rs, size, n, from + 1, j, e);
    }
  }

  /** The parallel download raises the exception of the first failing chunk. */
  lemma ParallelReportsFirstError(net: Network, hfToken: Option<string>, url: string, start: int, size: nat, n: nat,
                                  j: nat, e: Fault)
    requires 0 < n && j < n
    requires Slot(net, CommonHeaders(hfToken), url, start, size, n, j) == Some(Err(e))
    requires forall i :: 0 <= i < j ==> Slot(net, CommonHeaders(hfToken), url, start, size, n, i).value.Ok?
    ensures FetchParallel(net, hfToken, url, start, size, n) == Err(e)
  {
    var rs := Slots(net, CommonHeaders(hfToken), url, start, size, n);
    ScanReportsFirstError(rs, size, n, 0, j, e);
  }

  /** The defensive final size check of the parallel path can never fire: every
      stored part already has its chunk's exact size. */
  lemma ParallelAssemblyExact(net: Network, hfToken: Option<string>, url: string, start: int, size: nat, n: nat)
    requires n > 0
    ensures FetchParallel(net, hfToken, url, start, size, n).Err? ==>
              !FetchParallel(net, hfToken, url, start, size, n).error.AssembledSizeMismatch?
  {
    var common := CommonHeaders(hfToken);
    var rs := Slots(net, common, url, start, size, n);
    var s := Scan(rs, size, n, 0);
    if s.Ok? {
      SlotsScanLength(net, common, url, start, size, n, 0);
      ChunkPartition(0, size, n);
      ChunkSizeSum(size, n, 0);
      assert |s.value| == size;
    }
  }

  /** Sum of the chunk sizes from index `from` on. */
  function SizesFrom(size: nat, n: nat, from: nat): nat
    requires n > 0 && from <= n
    decreases n - from
  {
    if from == n then 0 else ChunkSize(size, n, from) + SizesFrom(size, n, from + 1)
  }

  lemma {:induction false} ChunkSizeSum(size: nat, n: nat, from: nat)
    requires n > 0 && from <= n
    ensures ChunkOffset(0, size, n, from) + SizesFrom(size, n, from) == ChunkOffset(0, size, n, n)
    decreases n - from
  {
    if from < n {
      ChunkSizeSum(size, n, from + 1);
    }
  }

  lemma SlotsScanLength(net: Network, common: seq<Header>, url: string, start: int, size: nat, n: nat, from: nat)
    requires n > 0 && from <= n
    ensures Scan(Slots(net, common, url, start, size, n), size, n, from).Ok? ==>
              |Scan(Slots(net, common, url, start, size, n), size, n, from).value| == SizesFrom(size, n, from)
  {
    var rs := Slots(net, common, url, start, size, n);
    forall i | from <= i < n
      ensures rs[i].Some? && rs[i].value.Ok? ==> |rs[i].value.value| == ChunkSize(size, n, i)
    {
      assert rs[i] == Slot(net, common, url, start, size, n, i);
    }
    ScanLength(rs, size, n, from);
  }

  /** When every stored part has its chunk's size, a successful scan has the sum of the sizes. */
  lemma {:induction false} ScanLength(rs: seq<Option<Result<seq<byte>, Fault>>>, size: nat, n: nat, from: nat)
    requires n > 0 && |rs| == n && from <= n
    requires forall i :: from <= i < n ==> rs[i].Some? && rs[i].value.Ok? ==> |rs[i].value.value| == ChunkSize(size, n, i)
    ensures Scan(rs, size, n, from).Ok? ==> |Scan(rs, size, n, from).value| == SizesFrom(size, n, from)
    decreases n - from
  {
    if from < n {
      ScanLength(rs, size, n, from + 1);
    }
  }

  // ---------------------------------------------------------------------
  // Reference behaviour: a server that answers ranges from one file
  // ---------------------------------------------------------------------

  function DigitsOnly(s: string): bool {
    forall i :: 0 <= i < |s| ==> IsDigit(s[i])
  }

  /** Reads back a `bytes=first-[last]` value with non-negative bounds. */
  function ParseRangeValue(v: string): Option<(nat, Option<nat>)> {
    if !IsPrefix("bytes=", v) then None
    else
      var rest := v[6..];
      match FindFrom(rest, "-", 0)
      case None => None
      case Some(k) =>
        var a := rest[..k];
        var b := rest[k + 1..];
        if |a| == 0 || !DigitsOnly(a) || !DigitsOnly(b) then None
        else Some((DigitsValue(a), if |b| == 0 then None else Some(DigitsValue(b))))
  }

  lemma FirstDash(a: string, b: string)
    requires DigitsOnly(a)
    ensures FindFrom(a + "-" + b, "-", 0) == Some(|a|)
  {
    var s := a + "-" + b;
    assert OccursAt(s, "-", |a|) by { assert s[|a|..|a| + 1] == "-"; }
    forall j | 0 <= j < |a| ensures !OccursAt(s, "-", j) {
      assert s[j..j + 1] == [a[j]];
    }
    FindFromFirst(s, "-", 0, |a|);
  }

  /** `bytes=A-B` with decimal digits A (at least one) and B reads back as their values. */
  lemma ParseDigitsRange(a: string, b: string)
    requires |a| > 0 && DigitsOnly(a) && DigitsOnly(b)
    ensures ParseRangeValue("bytes=" + (a + "-" + b))
            == Some((DigitsValue(a), if |b| == 0 then None else Some(DigitsValue(b))))
  {
    var rest := a + "-" + b;
    var v := "bytes=" + rest;
    assert v[..6] == "bytes=";
    assert v[6..] == rest;
    FirstDash(a, b);
    assert rest[..|a|] == a;
    assert rest[|a| + 1..] == b;
  }

  /** The Range value written for a chunk reads back as its first and last byte. */
  lemma RangeValueRoundTrip(first: nat, last: nat)
    ensures ParseRangeValue(RangeValue(first, last)) == Some((first, Some(last)))
  {
    var a := NatToString(first);
    var b := NatToString(last);
    assert RangeValue(first, last) == "bytes=" + (a + "-" + b);
    ParseDigitsRange(a, b);
    NatToStringValue(first);
    NatToStringValue(last);
  }

  lemma OpenRangeValueRoundTrip(first: nat)
    ensures ParseRangeValue(OpenRangeValue(first)) == Some((first, None))
  {
    var a := NatToString(first);
    assert OpenRangeValue(first) == "bytes=" + (a + "-" + "");
    ParseDigitsRange(a, "");
    NatToStringValue(first);
  }

  /** A well-behaved server holding `file` at `url`: 206 with the requested bytes for a
      satisfiable range, 416 for an unsatisfiable one, 200 with the whole file without a range. */
  function Serve(file: seq<byte>, fileUrl: string, req: Request): Transport {
    if req.url != fileUrl then Answered(Reply(404, []))
    else if req.verb == HttpHead then Answered(Reply(200, []))
    else match FindHeader(req.headers, "Range")
      case None => Answered(Reply(200, file))
      case Some(v) =>
        match ParseRangeValue(v)
        case None => Answered(Reply(200, file))
        case Some((a, last)) =>
          if a >= |file| then Answered(Reply(416, []))
          else match last
            case None => Answered(Reply(206, file[a..]))
            case Some(b) =>
              if b < a then Answered(Reply(200, file))
              else Answered(Reply(206, file[a..Min(b + 1, |file|)]))
  }

  function FileServer(file: seq<byte>, fileUrl: string): Network {
    (req: Request) => Serve(file, fileUrl, req)
  }

  lemma CommonHeadersNoRange(hfToken: Option<string>, extra: seq<Header>)
    ensures FindHeader(CommonHeaders(hfToken) + extra, "Range") == FindHeader(extra, "Range")
  {
    var c := CommonHeaders(hfToken);
    assert (c + extra)[1..] == c[1..] + extra;
    if |c| == 2 {
      assert (c + extra)[1..][1..] == extra;
    } else {
      assert (c + extra)[1..] == extra;
    }
  }

  /** What the file server answers to the single-request path's GET for a positive size. */
  lemma ServeSingle(file: seq<byte>, url: string, hfToken: Option<string>, start: nat, size: nat)
    requires size > 0
    ensures start >= |file| ==> FileServer(file, url)(SingleRequest(hfToken, url, start, size)) == Answered(Reply(416, []))
    ensures start < |file| ==> FileServer(file, url)(SingleRequest(hfToken, url, start, size))
                                 == Answered(Reply(206, file[start..Min(start + size, |file|)]))
  {
    var req := SingleRequest(hfToken, url, start, size);
    SingleRangeHeader(hfToken, url, start, size);
    ServeRange(file, url, req, start, start + size - 1);
  }

  /** The single request carries one Range header, for the inclusive byte range asked for. */
  lemma SingleRangeHeader(hfToken: Option<string>, url: string, start: nat, size: nat)
    requires size > 0
    ensures var req := SingleRequest(hfToken, url, start, size);
            req.url == url && req.verb == HttpGet
            && FindHeader(req.headers, "Range") == Some(RangeValue(start, start + size - 1))
  {
    var v := RangeValue(start, start + size - 1);
    CommonHeadersNoRange(hfToken, [Header("Range", v)]);
    assert FindHeader([Header("Range", v)], "Range") == Some(v);
  }

  /** The file server on a well-formed inclusive range. */
  lemma ServeRange(file: seq<byte>, url: string, req: Request, a: nat, b: nat)
    requires req.url == url && req.verb == HttpGet && a <= b
    requires FindHeader(req.headers, "Range") == Some(RangeValue(a, b))
    ensures a >= |file| ==> FileServer(file, url)(req) == Answered(Reply(416, []))
    ensures a < |file| ==> FileServer(file, url)(req) == Answered(Reply(206, file[a..Min(b + 1, |file|)]))
  {
    RangeValueRoundTrip(a, b);
    ServeParsedRange(file, url, req, RangeValue(a, b), a, b);
  }

  /** The file server on a Range value that reads back as `bytes=a-b`. */
  lemma ServeParsedRange(file: seq<byte>, url: string, req: Request, v: string, a: nat, b: nat)
    requires req.url == url && req.verb == HttpGet && a <= b
    requires FindHeader(req.headers, "Range") == Some(v)
    requires ParseRangeValue(v) == Some((a, Some(b)))
    ensures a >= |file| ==> FileServer(file, url)(req) == Answered(Reply(416, []))
    ensures a < |file| ==> FileServer(file, url)(req) == Answered(Reply(206, file[a..Min(b + 1, |file|)]))
  {
  }

  /** Against such a server the single-request path returns exactly the requested slice. */
  lemma SingleFromFileServer(file: seq<byte>, url: string, hfToken: Option<string>, start: nat, size: nat)
    requires size > 0 && start + size <= |file|
    ensures FetchSingle(FileServer(file, url), hfToken, url, start, size) == Ok(file[start..start + size])
  {
    ServeSingle(file, url, hfToken, start, size);
  }

  /** Against the file server the ordered scan assembles exactly `file[start:start+size]`. */
  lemma ScanFromFileServer(file: seq<byte>, url: string, common: seq<Header>, start: nat, size: nat, n: nat)
    requires n > 0 && start + size <= |file|
    requires FindHeader(common, "Range").None?
    requires size >= n
    ensures Scan(Slots(FileServer(file, url), common, url, start, size, n), size, n, 0) == Ok(file[start..start + size])
  {
    var offs := Offsets(start, size, n);
    ChunkEnd(start, size, n);
    assert offs[0] == start && offs[n] == start + size;
    SlotsTiles(file, url, common, start, size, n, 0);
    ScanTiles(Slots(FileServer(file, url), common, url, start, size, n), size, n, 0, file, offs);
  }

  /** The chunk offsets 0..n as a sequence. */
  function Offsets(start: int, size: nat, n: nat): (offs: seq<int>)
    requires n > 0
    ensures |offs| == n + 1
    ensures forall i :: 0 <= i <= n ==> offs[i] == ChunkOffset(start, size, n, i)
  {
    seq(n + 1, i requires 0 <= i <= n => ChunkOffset(start, size, n, i))
  }

  /** Against the file server every slot from `from` on holds its chunk of the file. */
  lemma SlotsTiles(file: seq<byte>, url: string, common: seq<Header>, start: nat, size: nat, n: nat, from: nat)
    requires n > 0 && from <= n && start + size <= |file|
    requires FindHeader(common, "Range").None?
    requires size >= n
    ensures forall i :: from <= i < n ==>
              TileAt(Slots(FileServer(file, url), common, url, start, size, n), file, Offsets(start, size, n), i)
  {
    var rs := Slots(FileServer(file, url), common, url, start, size, n);
    var offs := Offsets(start, size, n);
    forall i | from <= i < n ensures TileAt(rs, file, offs, i) {
      SlotFromFileServer(file, url, common, start, size, n, i);
      assert rs[i] == Slot(FileServer(file, url), common, url, start, size, n, i);
    }
  }

  /** Slot `i` holds the bytes of `file` between offsets `i` and `i + 1`. */
  predicate TileAt(rs: seq<Option<Result<seq<byte>, Fault>>>, file: seq<byte>, offs: seq<int>, i: nat)
    requires i < |rs| && i + 1 < |offs|
  {
    0 <= offs[i] <= offs[i + 1] <= |file| && rs[i] == Some(Ok(file[offs[i]..offs[i + 1]]))
  }

  /** When every slot from `from` on holds its tile, the scan joins the tiles. */
  lemma {:induction false} ScanTiles(rs: seq<Option<Result<seq<byte>, Fault>>>, size: nat, n: nat, from: nat,
                                     file: seq<byte>, offs: seq<int>)
    requires n > 0 && |rs| == n && |offs| == n + 1 && from <= n
    requires 0 <= offs[from] && offs[n] <= |file|
    requires forall i :: from <= i < n ==> TileAt(rs, file, offs, i)
    ensures offs[from] <= offs[n]
    ensures Scan(rs, size, n, from) == Ok(file[offs[from]..offs[n]])
    decreases n - from
  {
    if from < n {
      assert TileAt(rs, file, offs, from);
      ScanTiles(rs, size, n, from + 1, file, offs);
      var a, b, c := offs[from], offs[from + 1], offs[n];
      ScanStep(rs, size, n, from, file[a..b], file[b..c]);
      assert file[a..b] + file[b..c] == file[a..c];
    }
  }

  lemma ChunkSizePositive(size: nat, n: nat, i: nat)
    requires 0 < n <= size
    ensures ChunkSize(size, n, i) > 0
  {
    assert size / n >= 1;
  }

  /** Slot `i`, against the file server, holds the file's bytes of chunk `i`. */
  lemma SlotFromFileServer(file: seq<byte>, url: string, common: seq<Header>, start: nat, size: nat, n: nat, i: nat)
    requires n > 0 && i < n && start + size <= |file|
    requires FindHeader(common, "Range").None?
    requires size >= n
    ensures start <= ChunkOffset(start, size, n, i) <= ChunkOffset(start, size, n, i + 1) <= start + size
    ensures Slot(FileServer(file, url), common, url, start, size, n, i)
            == Some(Ok(file[ChunkOffset(start, size, n, i)..ChunkOffset(start, size, n, i + 1)]))
  {
    ChunkEnd(start, size, n);
    ChunkOffsetMonotone(start, size, n, 0, i);
    ChunkOffsetMonotone(start, size, n, i + 1, n);
    ChunkSizePositive(size, n, i);
    var a := ChunkOffset(start, size, n, i);
    var c := ChunkSize(size, n, i);
    assert ChunkOffset(start, size, n, i + 1) == a + c;
    ChunkFromFileServer(file, url, common, a, c, i);
  }

  lemma ScanStep(rs: seq<Option<Result<seq<byte>, Fault>>>, size: nat, n: nat, from: nat, part: seq<byte>, tail: seq<byte>)
    requires n > 0 && from < |rs|
    requires rs[from] == Some(Ok(part))
    requires Scan(rs, size, n, from + 1) == Ok(tail)
    ensures Scan(rs, size, n, from) == Ok(part + tail)
  {
  }

  /** One worker against the file server receives exactly its chunk. */
  lemma ChunkFromFileServer(file: seq<byte>, url: string, common: seq<Header>, a: nat, c: nat, index: nat)
    requires FindHeader(common, "Range").None?
    requires c > 0 && a + c <= |file|
    ensures Worker(FileServer(file, url), common, url, a, c, index) == Ok(file[a..a + c])
  {
    ServeChunk(file, url, common, a, c);
  }

  /** A chunk request carries exactly one Range header, for its inclusive byte range. */
  lemma ChunkRangeHeader(common: seq<Header>, url: string, a: nat, c: nat)
    requires FindHeader(common, "Range").None? && c > 0
    ensures FindHeader(ChunkRequest(common, url, a, c).headers, "Range") == Some(RangeValue(a, a + c - 1))
  {
    var v := RangeValue(a, a + c - 1);
    assert ChunkRequest(common, url, a, c).headers == common + [Header("Range", v)];
    FindHeaderAppend(common, [Header("Range", v)], "Range");
    assert FindHeader([Header("Range", v)], "Range") == Some(v);
  }

  lemma ServeChunk(file: seq<byte>, url: string, common: seq<Header>, a: nat, c: nat)
    requires FindHeader(common, "Range").None?
    requires c > 0 && a + c <= |file|
    ensures FileServer(file, url)(ChunkRequest(common, url, a, c)) == Answered(Reply(206, file[a..a + c]))
  {
    var req := ChunkRequest(common, url, a, c);
    assert req.url == url && req.verb == HttpGet;
    ChunkRangeHeader(common, url, a, c);
    ServeRange(file, url, req, a, a + c - 1);
    assert a < |file| && Min(a + c - 1 + 1, |file|) == a + c;
    assert FileServer(file, url)(req) == Answered(Reply(206, file[a..a + c]));
  }

  lemma {:induction false} ChunkOffsetMonotone(start: int, size: nat, n: nat, i: nat, j: nat)
    requires n > 0 && i <= j
    ensures ChunkOffset(start, size, n, i) <= ChunkOffset(start, size, n, j)
    decreases j - i
  {
    if i < j {
      ChunkOffsetMonotone(start, size, n, i, j - 1);
    }
  }

  lemma {:induction false} FindHeaderAppend(hs: seq<Header>, extra: seq<Header>, name: string)
    requires FindHeader(hs, name).None?
    ensures FindHeader(hs + extra, name) == FindHeader(extra, name)
    decreases |hs|
  {
    if |hs| > 0 {
      assert hs[0].name != name;
      assert (hs + extra)[0] == hs[0];
      assert (hs + extra)[1..] == hs[1..] + extra;
      FindHeaderAppend(hs[1..], extra, name);
    } else {
      assert hs + extra == extra;
    }
  }

  /** Reference property: against a server holding `file`, get_data_by_range returns
      `file[start:start+size]` on both the single and the parallel path. */
  lemma GetDataByRangeFromFileServer(file: seq<byte>, url: string, hfToken: Option<string>, start: nat, size: nat)
    requires RequireUrl(url).Ok?
    requires size > 0 && start + size <= |file|
    ensures GetDataByRange(FileServer(file, url), hfToken, url, start, size) == Ok(file[start..start + size])
  {
    if UsesParallel(size) {
      var n := MULTITHREAD_COUNT;
      var common := CommonHeaders(hfToken);
      assert FindHeader(common, "Range").None? by {
        CommonHeadersNoRange(hfToken, []);
        assert common + [] == common;
      }
      ChunkPartition(start, size, n);
      ScanFromFileServer(file, url, common, start, size, n);
    } else {
      SingleFromFileServer(file, url, hfToken, start, size);
    }
  }

  // ---------------------------------------------------------------------
  // Existence probe
  // ---------------------------------------------------------------------

  function ProbeRequest(hfToken: Option<string>, url: string): Request {
    Request(HttpHead, url, CommonHeaders(hfToken) + [Header("Range", "bytes=0-0")])
  }

  /** `check_file_exist`: URL check, then a HEAD with `Range: bytes=0-0`;
      2xx/3xx means present and a transport failure means absent. */
  function CheckFileExist(net: Network, hfToken: Option<string>, url: string): (r: Result<bool, Fault>)
    ensures CheckUrl(url) == Ok(false) ==> r == Err(InvalidUrl(url))
    ensures r.Ok? ==> CheckUrl(url) == Ok(true)
    ensures CheckUrl(url) == Ok(true) ==>
      r == Ok(net(ProbeRequest(hfToken, url)).Answered?
              && 200 <= net(ProbeRequest(hfToken, url)).reply.status < 400)
  {
    var _ :- RequireUrl(url);
    match net(ProbeRequest(hfToken, url))
    case Unreachable => Ok(false)
    case Answered(reply) => Ok(200 <= reply.status < 400)
  }
}

=== FILE: safetensor_model.dfy ===
/**
 * `SafetensorRemote.get_list_tensors_hf_model`: the tensor table of a Hugging
 * Face model repository, from either its single `model.safetensors` file or
 * the shards listed in `model.safetensors.index.json`.
 */
module SafetensorModel {
  import opened Wrappers
  import opened Json
  import opened RemoteFetch
  import opened Safetensors
  import opened StringSort
  import opened Bytes

  const SINGLE_FILE: string := "model.safetensors"
  const INDEX_FILE: string := "model.safetensors.index.json"

  /** `{BASE_DOMAIN}/{model_id}/resolve/main/{file}`. */
  function RepoFileUrl(modelId: string, file: string): string {
    BASE_DOMAIN + "/" + (modelId + "/resolve/main/" + file)
  }

  /** Repository URLs always pass the URL check, so probing them never raises. */
  lemma RepoFileUrlValid(modelId: string, file: string)
    ensures RequireUrl(RepoFileUrl(modelId, file)).Ok?
  {
    BaseUrlValid(modelId + "/resolve/main/" + file);
  }

  /** The string values of a weight map, or None if one is not a string. */
  function StringValues(items: seq<(string, Json)>): (r: Option<seq<string>>)
    ensures r.Some? <==> forall i :: 0 <= i < |items| ==> items[i].1.JString?
    ensures r.Some? ==> |r.value| == |items| && forall i :: 0 <= i < |items| ==> r.value[i] == items[i].1.s
  {
    if |items| == 0 then Some([])
    else if !items[0].1.JString? then None
    else
      match StringValues(items[1..])
      case None => None
      case Some(rest) => Some([items[0].1.s] + rest)
  }

  /** The files a list of weight-map values names. */
  function FileSet(items: seq<(string, Json)>): set<string> {
    set i | 0 <= i < |items| && items[i].1.JString? :: items[i].1.s
  }

  lemma StringValuesFiles(items: seq<(string, Json)>, files: seq<string>)
    requires StringValues(items) == Some(files)
    ensures Elements(files) == FileSet(items)
  {
    forall y | y in Elements(files) ensures y in FileSet(items) {
      var i :| 0 <= i < |files| && files[i] == y;
      assert items[i].1.s == y;
    }
  }

  /** The shard list: `sorted(set(index["weight_map"].values()))`. */
  function WeightFiles(index: Json): (r: Result<seq<string>, Fault>)
    ensures r.Ok? ==> StrictlySorted(r.value)
    ensures !index.JObject? ==> r == Err(NotAnObject)
    ensures index.JObject? && (Get(index.members, "weight_map").None? || Get(index.members, "weight_map").value.JNull?)
            ==> r == Err(MissingWeightMap)
    ensures r.Ok? ==> index.JObject? && Get(index.members, "weight_map").Some?
                      && Get(index.members, "weight_map").value.JObject?
                      && var items := Items(Get(index.members, "weight_map").value.members);
                         && (forall i :: 0 <= i < |items| ==> items[i].1.JString?)
                         && Elements(r.value) == FileSet(items)
  {
    if !index.JObject? then Err(NotAnObject)
    else
      var wm := Get(index.members, "weight_map");
      if wm.None? || wm.value.JNull? then Err(MissingWeightMap)
      else if !wm.value.JObject? then Err(BadWeightMap)
      else
        var items := Items(wm.value.members);
        match StringValues(items)
        case None => Err(BadWeightMap)
        case Some(files) =>
          StringValuesFiles(items, files);
          Ok(SortedSet(files))
  }

  /** Reads one shard's tensor table from its URL. */
  type ShardReader = string -> Result<map<string, RemoteTensor>, Fault>

  /** `get_list_tensors(url)` with the session's network, token, decoder and parser fixed. */
  function Reader(net: Network, hfToken: Option<string>, decode: Utf8Decoder, parse: JsonParser): ShardReader {
    url => GetListTensors(net, hfToken, decode, parse, url)
  }

  /** The shard loop: each shard's table is merged in, later shards overwriting earlier ones. */
  function MergeShards(read: ShardReader, modelId: string, files: seq<string>, from: nat,
                       acc: map<string, RemoteTensor>)
    : Result<map<string, RemoteTensor>, Fault>
    requires from <= |files|
    decreases |files| - from
  {
    if from == |files| then Ok(acc)
    else
      var table :- read(RepoFileUrl(modelId, files[from]));
      MergeShards(read, modelId, files, from + 1, acc + table)
  }

  /** Right-biased union of tables: the last table holding a key supplies its value. */
  function UnionAll(tables: seq<map<string, RemoteTensor>>): map<string, RemoteTensor>
    decreases |tables|
  {
    if |tables| == 0 then map[] else UnionAll(tables[..|tables| - 1]) + tables[|tables| - 1]
  }

  /** A key is in the union iff some table holds it, and its value is that of the last such table. */
  lemma {:induction false} UnionAllLastWins(tables: seq<map<string, RemoteTensor>>, k: string)
    ensures k in UnionAll(tables) <==> exists i :: 0 <= i < |tables| && k in tables[i]
    ensures k in UnionAll(tables) ==>
      exists i :: 0 <= i < |tables| && k in tables[i] && UnionAll(tables)[k] == tables[i][k]
                  && forall j :: i < j < |tables| ==> k !in tables[j]
    decreases |tables|
  {
    if |tables| > 0 {
      var n := |tables| - 1;
      var init := tables[..n];
      assert UnionAll(tables) == UnionAll(init) + tables[n];
      UnionAllLastWins(init, k);
      assert forall i :: 0 <= i < n ==> init[i] == tables[i];
      if k in tables[n] {
        assert k in UnionAll(tables) && UnionAll(tables)[k] == tables[n][k];
      } else if k in UnionAll(init) {
        var i :| 0 <= i < |init| && k in init[i] && UnionAll(init)[k] == init[i][k]
                 && forall j :: i < j < |init| ==> k !in init[j];
        assert k in tables[i] && UnionAll(tables)[k] == tables[i][k];
        assert forall j :: i < j < |tables| ==> k !in tables[j];
      } else {
        assert k !in UnionAll(tables);
        assert forall i :: 0 <= i < |tables| ==> k !in tables[i];
      }
    }
  }

  /** Every shard can be read. */
  predicate ShardsReadable(read: ShardReader, modelId: string, files: seq<string>) {
    forall i :: 0 <= i < |files| ==> read(RepoFileUrl(modelId, files[i])).Ok?
  }

  /** The shard tables, when every shard can be read. */
  function ShardTables(read: ShardReader, modelId: string, files: seq<string>): (ts: seq<map<string, RemoteTensor>>)
    requires ShardsReadable(read, modelId, files)
    ensures |ts| == |files|
    ensures forall i :: 0 <= i < |files| ==> Ok(ts[i]) == read(RepoFileUrl(modelId, files[i]))
  {
    seq(|files|, i requires 0 <= i < |files| => read(RepoFileUrl(modelId, files[i])).value)
  }

  /** With every shard readable, the merged table is the right-biased union of the shard tables. */
  lemma {:induction false} MergeShardsUnion(read: ShardReader, modelId: string, files: seq<string>, from: nat)
    requires from <= |files|
    requires ShardsReadable(read, modelId, files)
    ensures MergeShards(read, modelId, files, from, UnionAll(ShardTables(read, modelId, files)[..from]))
            == Ok(UnionAll(ShardTables(read, modelId, files)))
    decreases |files| - from
  {
    var ts := ShardTables(read, modelId, files);
    if from == |files| {
      assert ts[..from] == ts;
    } else {
      assert ts[..from + 1][..from] == ts[..from];
      assert UnionAll(ts[..from + 1]) == UnionAll(ts[..from]) + ts[from];
      MergeShardsUnion(read, modelId, files, from + 1);
    }
  }

  /** An unreadable shard aborts the merge with the first failing shard's error. */
  lemma {:induction false} MergeShardsFirstError(read: ShardReader, modelId: string, files: seq<string>, from: nat,
                                                 acc: map<string, RemoteTensor>)
    requires from <= |files|
    ensures MergeShards(read, modelId, files, from, acc).Err? ==>
      exists j :: from <= j < |files|
        && (forall i :: from <= i < j ==> read(RepoFileUrl(modelId, files[i])).Ok?)
        && read(RepoFileUrl(modelId, files[j])) == Err(MergeShards(read, modelId, files, from, acc).error)
    decreases |files| - from
  {
    if from < |files| {
      var t := read(RepoFileUrl(modelId, files[from]));
      if t.Ok? {
        MergeShardsFirstError(read, modelId, files, from + 1, acc + t.value);
      }
    }
  }

  /** Every tensor of a merged table comes from the accumulator or from one of the shard tables read. */
  predicate FromTables(read: ShardReader, modelId: string, files: seq<string>, from: nat,
                       acc: map<string, RemoteTensor>, m: map<string, RemoteTensor>)
    requires from <= |files|
  {
    forall k :: k in m ==>
      (k in acc && m[k] == acc[k])
      || exists i :: from <= i < |files| && read(RepoFileUrl(modelId, files[i])).Ok?
                     && k in read(RepoFileUrl(modelId, files[i])).value
                     && m[k] == read(RepoFileUrl(modelId, files[i])).value[k]
  }

  lemma {:induction false} MergeShardsProvenance(read: ShardReader, modelId: string, files: seq<string>, from: nat,
                                                 acc: map<string, RemoteTensor>)
    requires from <= |files|
    ensures MergeShards(read, modelId, files, from, acc).Ok? ==>
              FromTables(read, modelId, files, from, acc, MergeShards(read, modelId, files, from, acc).value)
    decreases |files| - from
  {
    if from < |files| {
      var t := read(RepoFileUrl(modelId, files[from]));
      if t.Ok? {
        var acc' := acc + t.value;
        MergeShardsProvenance(read, modelId, files, from + 1, acc');
        var r := MergeShards(read, modelId, files, from, acc);
        if r.Ok? {
          var m := r.value;
          forall k | k in m
            ensures (k in acc && m[k] == acc[k])
                    || exists i :: from <= i < |files| && read(RepoFileUrl(modelId, files[i])).Ok?
                                   && k in read(RepoFileUrl(modelId, files[i])).value
                                   && m[k] == read(RepoFileUrl(modelId, files[i])).value[k]
          {
            if k in acc' && m[k] == acc'[k] && k in t.value {
              assert read(RepoFileUrl(modelId, files[from])) == t;
            }
          }
        }
      }
    }
  }

  /** The body of `get_list_tensors_hf_model(model_id)` with the per-file table reader as a
      parameter: probe the single file, else the index, then read the sorted shards. */
  function HfModelWith(read: ShardReader, net: Network, hfToken: Option<string>, decode: Utf8Decoder, parse: JsonParser,
                       modelId: string)
    : (r: Result<map<string, RemoteTensor>, Fault>)
    ensures CheckFileExist(net, hfToken, RepoFileUrl(modelId, SINGLE_FILE)) == Ok(false)
            && CheckFileExist(net, hfToken, RepoFileUrl(modelId, INDEX_FILE)) == Ok(false) ==>
              r == Err(NoSafetensors(modelId))
    ensures r.Ok? ==> forall k :: k in r.value ==>
              exists f :: read(RepoFileUrl(modelId, f)).Ok? && k in read(RepoFileUrl(modelId, f)).value
                          && r.value[k] == read(RepoFileUrl(modelId, f)).value[k]
  {
    var singleUrl := RepoFileUrl(modelId, SINGLE_FILE);
    var single :- CheckFileExist(net, hfToken, singleUrl);
    if single then read(singleUrl)
    else
      var indexUrl := RepoFileUrl(modelId, INDEX_FILE);
      var multi :- CheckFileExist(net, hfToken, indexUrl);
      if !multi then Err(NoSafetensors(modelId))
      else
        var data :- GetDataByRange(net, hfToken, indexUrl, 0, -1);
        var text :- decode(data).OrFail(NotUtf8);
        var index :- parse(text).OrFail(IndexNotJson);
        var files :- WeightFiles(index);
        MergeShardsProvenance(read, modelId, files, 0, map[]);
        MergeShards(read, modelId, files, 0, map[])
  }

  /** `get_list_tensors_hf_model(model_id)` as written, reading every file with the as-written
      `get_list_tensors`. */
  function GetListTensorsHfModelAsWritten(net: Network, hfToken: Option<string>, decode: Utf8Decoder, parse: JsonParser,
                                          modelId: string)
    : (r: Result<map<string, RemoteTensor>, Fault>)
    ensures CheckFileExist(net, hfToken, RepoFileUrl(modelId, SINGLE_FILE)) == Ok(false)
            && CheckFileExist(net, hfToken, RepoFileUrl(modelId, INDEX_FILE)) == Ok(false) ==>
              r == Err(NoSafetensors(modelId))
    ensures r.Ok? ==> forall k :: k in r.value ==> exists f :: r.value[k].url == RepoFileUrl(modelId, f)
  {
    var read := url => GetListTensorsAsWritten(net, hfToken, decode, parse, url);
    HfModelWith(read, net, hfToken, decode, parse, modelId)
  }

  /** `get_list_tensors_hf_model(model_id)` with the corrected `get_list_tensors`. */
  function GetListTensorsHfModel(net: Network, hfToken: Option<string>, decode: Utf8Decoder, parse: JsonParser,
                                 modelId: string)
    : (r: Result<map<string, RemoteTensor>, Fault>)
    ensures CheckFileExist(net, hfToken, RepoFileUrl(modelId, SINGLE_FILE)) == Ok(false)
            && CheckFileExist(net, hfToken, RepoFileUrl(modelId, INDEX_FILE)) == Ok(false) ==>
              r == Err(NoSafetensors(modelId))
    ensures r.Ok? ==> forall k :: k in r.value ==> exists f :: r.value[k].url == RepoFileUrl(modelId, f)
  {
    HfModelWith(Reader(net, hfToken, decode, parse), net, hfToken, decode, parse, modelId)
  }

  /** A repository holding one `model.safetensors` served by a well-behaved server. */
  function SingleFileRepo(file: seq<byte>, modelId: string): Network {
    FileServer(file, RepoFileUrl(modelId, SINGLE_FILE))
  }

  /** As written, a single-file repository whose file is shorter than READ_SIZE cannot be listed. */
  lemma HfModelShortFileRejected(file: seq<byte>, modelId: string, hfToken: Option<string>,
                                 decode: Utf8Decoder, parse: JsonParser)
    requires |file| < READ_SIZE
    ensures GetListTensorsHfModelAsWritten(SingleFileRepo(file, modelId), hfToken, decode, parse, modelId).Err?
  {
    var url := RepoFileUrl(modelId, SINGLE_FILE);
    RepoFileUrlValid(modelId, SINGLE_FILE);
    ListTensorsShortFileRejected(file, url, hfToken, decode, parse);
  }

  /** With the corrected reader the same repository lists the header's tensors. */
  lemma HfModelShortFileRead(file: seq<byte>, modelId: string, hfToken: Option<string>,
                             decode: Utf8Decoder, parse: JsonParser, md: Metadata)
    requires 0 < |file| < READ_SIZE
    requires ParseHeader(file, decode, parse) == Ok(md) && md.doc.JObject?
    requires RowsOk(Rows(Items(md.doc.members), md.dataStart, RepoFileUrl(modelId, SINGLE_FILE)), 0)
    ensures var r := GetListTensorsHfModel(SingleFileRepo(file, modelId), hfToken, decode, parse, modelId);
            r.Ok? && forall k :: k in r.value <==> HasKey(md.doc.members, k) && k != METADATA_KEY
  {
    var url := RepoFileUrl(modelId, SINGLE_FILE);
    RepoFileUrlValid(modelId, SINGLE_FILE);
    ListTensorsShortFileRead(file, url, hfToken, decode, parse, md);
  }

  /** The existence probes never raise: the probed URLs are always well formed. */
  lemma ProbesNeverRaise(net: Network, hfToken: Option<string>, modelId: string)
    ensures CheckFileExist(net, hfToken, RepoFileUrl(modelId, SINGLE_FILE)).Ok?
    ensures CheckFileExist(net, hfToken, RepoFileUrl(modelId, INDEX_FILE)).Ok?
  {
    RepoFileUrlValid(modelId, SINGLE_FILE);
    RepoFileUrlValid(modelId, INDEX_FILE);
  }

  /** The sharded path: when only the index exists and it and every shard can be read,
      the table is the union of the shard tables in sorted shard order, later shards winning. */
  lemma ShardedModelTable(net: Network, hfToken: Option<string>, decode: Utf8Decoder, parse: JsonParser,
                          modelId: string, indexDoc: Json)
    requires CheckFileExist(net, hfToken, RepoFileUrl(modelId, SINGLE_FILE)) == Ok(false)
    requires CheckFileExist(net, hfToken, RepoFileUrl(modelId, INDEX_FILE)) == Ok(true)
    requires GetDataByRange(net, hfToken, RepoFileUrl(modelId, INDEX_FILE), 0, -1).Ok?
    requires decode(GetDataByRange(net, hfToken, RepoFileUrl(modelId, INDEX_FILE), 0, -1).value).Some?
    requires parse(decode(GetDataByRange(net, hfToken, RepoFileUrl(modelId, INDEX_FILE), 0, -1).value).value) == Some(indexDoc)
    requires WeightFiles(indexDoc).Ok?
    requires ShardsReadable(Reader(net, hfToken, decode, parse), modelId, WeightFiles(indexDoc).value)
    ensures GetListTensorsHfModel(net, hfToken, decode, parse, modelId)
            == Ok(UnionAll(ShardTables(Reader(net, hfToken, decode, parse), modelId, WeightFiles(indexDoc).value)))
  {
    var read := Reader(net, hfToken, decode, parse);
    var files := WeightFiles(indexDoc).value;
    var ts := ShardTables(read, modelId, files);
    assert ts[..0] == [];
    MergeShardsUnion(read, modelId, files, 0);
  }
}

=== FILE: safetensors.dfy ===
/**
 * Reading the header of a remote safetensors file (`SafetensorRemote.get_metadata`
 * and `SafetensorRemote.get_list_tensors` in gguf-py/gguf/utility.py).
 *
 * A safetensors file starts with an 8-byte little-endian header length, then
 * that many bytes of UTF-8 JSON, then the tensor data, which starts at the
 * next multiple of 8.  UTF-8 decoding and `json.loads` are parameters.
 */
module Safetensors {
  import opened Wrappers
  import opened Bytes
  import opened Json
  import opened RemoteFetch

  /** How much of the file `get_metadata` asks for. */
  const READ_SIZE: nat := 5 * 1024 * 1024
  const METADATA_KEY: string := "__metadata__"

  /** `bytes.decode('utf-8')`; None is a UnicodeDecodeError. */
  type Utf8Decoder = seq<byte> -> Option<string>
  /** `json.loads`; None is a JSONDecodeError. */
  type JsonParser = string -> Option<Json>

  /** Round `x` up to the next multiple of the alignment. */
  function AlignUp(x: nat): (r: nat)
    ensures r % ALIGNMENT == 0
    ensures x <= r < x + ALIGNMENT
  {
    if x % ALIGNMENT != 0 then x + (ALIGNMENT - x % ALIGNMENT) else x
  }

  /** AlignUp is the least multiple of the alignment that is at least `x`. */
  lemma AlignUpLeast(x: nat, y: nat)
    requires y % ALIGNMENT == 0 && x <= y
    ensures AlignUp(x) <= y
  {

  }

  datatype Framing = Framing(headerBytes: seq<byte>, dataStart: nat)

  /** The length prefix and header bytes of a buffer holding the start of the file. */
  function SplitHeader(raw: seq<byte>): (r: Result<Framing, Fault>)
    ensures |raw| < 8 <==> r == Err(ShortLengthPrefix)
    ensures r.Ok? ==> LittleEndian(raw[..8]) == |r.value.headerBytes|
                      && 8 + |r.value.headerBytes| <= |raw|
                      && raw[8..8 + |r.value.headerBytes|] == r.value.headerBytes
                      && r.value.dataStart == AlignUp(8 + |r.value.headerBytes|)
    ensures |raw| >= 8 && r.Err? ==> r == Err(IncompleteMetadata(8 + LittleEndian(raw[..8]), |raw|))
                                     && |raw| < 8 + LittleEndian(raw[..8])
  {
    if |raw| < 8 then Err(ShortLengthPrefix)
    else
      var n := LittleEndian(raw[..8]);
      var dataStart := AlignUp(8 + n);
      if |raw| < 8 + n then Err(IncompleteMetadata(8 + n, |raw|))
      else Ok(Framing(raw[8..8 + n], dataStart))
  }

  /** What a writer puts at the start of a file: the 8-byte length, the header, then the rest. */
  function Frame(headerBytes: seq<byte>, rest: seq<byte>): (r: seq<byte>)
    requires |headerBytes| < Pow256(8)
    ensures |r| == 8 + |headerBytes| + |rest|
  {
    ToLittleEndian(|headerBytes|, 8) + headerBytes + rest
  }

  /** Splitting a framed buffer recovers the header exactly. */
  lemma FrameRoundTrip(headerBytes: seq<byte>, rest: seq<byte>)
    requires |headerBytes| < Pow256(8)
    ensures SplitHeader(Frame(headerBytes, rest)) == Ok(Framing(headerBytes, AlignUp(8 + |headerBytes|)))
  {
    var raw := Frame(headerBytes, rest);
    assert raw[..8] == ToLittleEndian(|headerBytes|, 8);
    LittleEndianRoundTrip(|headerBytes|, 8);
    assert raw[8..8 + |headerBytes|] == headerBytes;
  }

  /** Conversely, every buffer SplitHeader accepts is a framed header followed by the rest. */
  lemma SplitHeaderFramed(raw: seq<byte>)
    requires SplitHeader(raw).Ok?
    ensures |SplitHeader(raw).value.headerBytes| < Pow256(8)
    ensures raw == Frame(SplitHeader(raw).value.headerBytes, raw[8 + |SplitHeader(raw).value.headerBytes|..])
  {
    var prefix := raw[..8];
    var hb := SplitHeader(raw).value.headerBytes;
    assert |prefix| == 8;
    assert LittleEndian(prefix) == |hb|;
    ToLittleEndianRoundTrip(prefix);
    assert ToLittleEndian(|hb|, 8) == prefix;
    assert raw[8..8 + |hb|] == hb;
    assert raw == prefix + hb + raw[8 + |hb|..];
  }

  datatype Metadata = Metadata(doc: Json, dataStart: nat)

  /** Header parsing of `get_metadata` on the bytes it fetched. */
  function ParseHeader(raw: seq<byte>, decode: Utf8Decoder, parse: JsonParser): (r: Result<Metadata, Fault>)
    ensures r.Ok? ==> SplitHeader(raw).Ok?
                      && r.value.dataStart == SplitHeader(raw).value.dataStart
                      && decode(SplitHeader(raw).value.headerBytes).Some?
                      && parse(decode(SplitHeader(raw).value.headerBytes).value) == Some(r.value.doc)
    ensures (SplitHeader(raw).Ok? && decode(SplitHeader(raw).value.headerBytes).Some?
             && parse(decode(SplitHeader(raw).value.headerBytes).value).Some?) ==> r.Ok?
    ensures r.Err? ==> r.error.ShortLengthPrefix? || r.error.IncompleteMetadata? || r.error.NotUtf8?
                       || r.error.MetadataNotJson?
  {
    var f :- SplitHeader(raw);
    var text :- decode(f.headerBytes).OrFail(NotUtf8);
    var doc :- parse(text).OrFail(MetadataNotJson);
    Ok(Metadata(doc, f.dataStart))
  }

  /** `get_metadata` as written: the first READ_SIZE bytes through get_data_by_range, then the header. */
  function GetMetadataAsWritten(net: Network, hfToken: Option<string>, decode: Utf8Decoder, parse: JsonParser, url: string)
    : (r: Result<Metadata, Fault>)
    ensures r.Ok? ==> GetDataByRange(net, hfToken, url, 0, READ_SIZE).Ok?
                      && r == ParseHeader(GetDataByRange(net, hfToken, url, 0, READ_SIZE).value, decode, parse)
  {
    var raw :- GetDataByRange(net, hfToken, url, 0, READ_SIZE);
    ParseHeader(raw, decode, parse)
  }

  /** Against a server holding a file shorter than READ_SIZE, the exact-size check of
      get_data_by_range raises before the header is looked at: the "not enough data"
      and "incomplete metadata" checks can never fire for such a file. */
  lemma ShortFileRejected(file: seq<byte>, url: string, hfToken: Option<string>, decode: Utf8Decoder, parse: JsonParser)
    requires RequireUrl(url).Ok?
    requires |file| < READ_SIZE
    ensures GetMetadataAsWritten(FileServer(file, url), hfToken, decode, parse, url)
            == (if |file| == 0 then Err(HttpStatus(416)) else Err(SizeMismatch(READ_SIZE, |file|)))
  {
    ServeSingle(file, url, hfToken, 0, READ_SIZE);
    assert !UsesParallel(READ_SIZE);
    if |file| > 0 {
      assert file[0..Min(READ_SIZE, |file|)] == file;
    }
  }

  /** The fetch `get_metadata` evidently intends: at most `size` bytes from the start of the file. */
  function FetchPrefix(net: Network, hfToken: Option<string>, url: string, size: nat): (r: Result<seq<byte>, Fault>)
    ensures r.Ok? ==> |r.value| <= size
    ensures r.Ok? ==> RequireUrl(url).Ok?
    ensures RequireUrl(url).Ok? ==>
      (r.Ok? <==> (net(SingleRequest(hfToken, url, 0, size)).Answered?
                   && !IsHttpError(net(SingleRequest(hfToken, url, 0, size)).reply.status)
                   && |net(SingleRequest(hfToken, url, 0, size)).reply.body| <= size))
  {
    var _ :- RequireUrl(url);
    match net(SingleRequest(hfToken, url, 0, size))
    case Unreachable => Err(TransportFailure)
    case Answered(Reply(status, body)) =>
      if IsHttpError(status) then Err(HttpStatus(status))
      else if |body| > size then Err(SizeMismatch(size, |body|))
      else Ok(body)
  }

  /** `get_metadata` with a short read accepted. */
  function GetMetadata(net: Network, hfToken: Option<string>, decode: Utf8Decoder, parse: JsonParser, url: string)
    : (r: Result<Metadata, Fault>)
    ensures r.Ok? ==> FetchPrefix(net, hfToken, url, READ_SIZE).Ok?
                      && r == ParseHeader(FetchPrefix(net, hfToken, url, READ_SIZE).value, decode, parse)
  {
    var raw :- FetchPrefix(net, hfToken, url, READ_SIZE);
    ParseHeader(raw, decode, parse)
  }

  /** The corrected reader parses the header of any non-empty file, short or long. */
  lemma GetMetadataFromFileServer(file: seq<byte>, url: string, hfToken: Option<string>, decode: Utf8Decoder, parse: JsonParser)
    requires RequireUrl(url).Ok?
    requires |file| > 0
    ensures GetMetadata(FileServer(file, url), hfToken, decode, parse, url)
            == ParseHeader(file[..Min(|file|, READ_SIZE)], decode, parse)
  {
    FetchPrefixFromFileServer(file, url, hfToken, READ_SIZE);
  }

  /** Against a server holding a non-empty file, the prefix fetch returns the file's first `size` bytes. */
  lemma FetchPrefixFromFileServer(file: seq<byte>, url: string, hfToken: Option<string>, size: nat)
    requires RequireUrl(url).Ok?
    requires |file| > 0 && size > 0
    ensures FetchPrefix(FileServer(file, url), hfToken, url, size) == Ok(file[..Min(|file|, size)])
  {
    ServeSingle(file, url, hfToken, 0, size);
    assert file[0..Min(size, |file|)] == file[..Min(|file|, size)];
  }

  /** Where the file is at least READ_SIZE long the two readers agree. */
  lemma GetMetadataAgreesOnLongFiles(file: seq<byte>, url: string, hfToken: Option<string>, decode: Utf8Decoder, parse: JsonParser)
    requires RequireUrl(url).Ok?
    requires |file| >= READ_SIZE
    ensures GetMetadata(FileServer(file, url), hfToken, decode, parse, url)
            == GetMetadataAsWritten(FileServer(file, url), hfToken, decode, parse, url)
  {
    GetMetadataFromFileServer(file, url, hfToken, decode, parse);
    GetDataByRangeFromFileServer(file, url, hfToken, 0, READ_SIZE);
    assert file[0..READ_SIZE] == file[..Min(|file|, READ_SIZE)];
  }

  // ---------------------------------------------------------------------
  // Tensor table
  // ---------------------------------------------------------------------

  datatype RemoteTensor = RemoteTensor(dtype: Json, shape: seq<Json>, offsetStart: int, size: int, url: string)

  /** Tuple unpacking `a, b = v`: TypeError for a non-iterable, ValueError for the wrong length. */
  function Unpack2(name: string, v: Json): (r: Result<(Json, Json), Fault>)
    ensures r.Ok? <==> Iterate(v).Some? && |Iterate(v).value| == 2
    ensures r.Ok? ==> r.value == (Iterate(v).value[0], Iterate(v).value[1])
    ensures Iterate(v).None? ==> r == Err(OffsetsType(name))
    ensures Iterate(v).Some? && |Iterate(v).value| != 2 ==> r == Err(OffsetsArity(name))
  {
    match Iterate(v)
    case None => Err(OffsetsType(name))
    case Some(xs) => if |xs| == 2 then Ok((xs[0], xs[1])) else Err(OffsetsArity(name))
  }

  /** One `name: meta` entry of the header, in the order the source evaluates it. */
  function TensorEntry(name: string, meta: Json, dataStart: nat, url: string): (r: Result<RemoteTensor, Fault>)
    ensures !meta.JObject? ==> r == Err(InvalidTensorEntry(name))
    ensures r.Ok? ==> meta.JObject?
                      && Get(meta.members, "dtype") == Some(r.value.dtype)
                      && HasKey(meta.members, "shape")
                      && Iterate(Get(meta.members, "shape").value) == Some(r.value.shape)
                      && r.value.url == url
    ensures r.Ok? ==> exists a, b :: Get(meta.members, "data_offsets").Some?
                        && Unpack2(name, Get(meta.members, "data_offsets").value) == Ok((a, b))
                        && AsNumber(a).Some? && AsNumber(b).Some?
                        && r.value.offsetStart == dataStart + AsNumber(a).value
                        && r.value.size == AsNumber(b).value - AsNumber(a).value
    ensures r.Err? && r.error.MissingKey? ==> r.error.name == name
  {
    if !meta.JObject? then Err(InvalidTensorEntry(name))
    else
      var m := meta.members;
      var dtype :- Get(m, "dtype").OrFail(MissingKey(name, "dtype"));
      var shape :- Get(m, "shape").OrFail(MissingKey(name, "shape"));
      var offsets :- Get(m, "data_offsets").OrFail(MissingKey(name, "data_offsets"));
      var pair :- Unpack2(name, offsets);
      var first :- AsNumber(pair.0).OrFail(OffsetsType(name));
      var last :- AsNumber(pair.1).OrFail(OffsetsType(name));
      var dims :- Iterate(shape).OrFail(ShapeType(name));
      Ok(RemoteTensor(dtype, dims, dataStart + first, last - first, url))
  }

  /** A header item with the entry the loop body builds from it. */
  type Row = (string, Result<RemoteTensor, Fault>)

  /** The rows of the items: the loop body is pure, so each entry can be built up front. */
  function Rows(items: seq<(string, Json)>, dataStart: nat, url: string): (rows: seq<Row>)
    ensures |rows| == |items|
    ensures forall i :: 0 <= i < |items| ==> rows[i].0 == items[i].0
  {
    seq(|items|, i requires 0 <= i < |items| => (items[i].0, TensorEntry(items[i].0, items[i].1, dataStart, url)))
  }

  /** Row `i` holds the entry built from item `i`. */
  lemma RowEntry(items: seq<(string, Json)>, dataStart: nat, url: string, i: nat)
    requires i < |items|
    ensures Rows(items, dataStart, url)[i].1 == TensorEntry(items[i].0, items[i].1, dataStart, url)
  {
  }

  /** The loop over `metadata.items()`, skipping `__metadata__` and stopping at the first error. */
  function Collect(rows: seq<Row>, from: nat, acc: map<string, RemoteTensor>): Result<map<string, RemoteTensor>, Fault>
    requires from <= |rows|
    decreases |rows| - from
  {
    if from == |rows| then Ok(acc)
    else if rows[from].0 == METADATA_KEY then Collect(rows, from + 1, acc)
    else
      var t :- rows[from].1;
      Collect(rows, from + 1, acc[rows[from].0 := t])
  }

  /** Every tensor row from `from` on was built without error. */
  predicate RowsOk(rows: seq<Row>, from: nat) {
    forall i | from <= i < |rows| :: rows[i].0 != METADATA_KEY ==> rows[i].1.Ok?
  }

  /** With distinct names, the table has one row per non-metadata entry, built from that entry. */
  lemma {:induction false} CollectOk(rows: seq<Row>, from: nat, acc: map<string, RemoteTensor>)
    requires from <= |rows|
    requires forall i, j :: from <= i < j < |rows| ==> rows[i].0 != rows[j].0
    requires RowsOk(rows, from)
    requires forall i :: from <= i < |rows| ==> rows[i].0 !in acc
    ensures Collect(rows, from, acc).Ok?
    ensures var m := Collect(rows, from, acc).value;
      && (forall k :: k in m <==> k in acc || exists i :: from <= i < |rows| && rows[i].0 == k && k != METADATA_KEY)
      && (forall k :: k in acc ==> k in m && m[k] == acc[k])
      && (forall i :: from <= i < |rows| && rows[i].0 != METADATA_KEY ==> rows[i].0 in m && Ok(m[rows[i].0]) == rows[i].1)
    decreases |rows| - from
  {
    if from < |rows| {
      var name := rows[from].0;
      if name == METADATA_KEY {
        CollectOk(rows, from + 1, acc);
      } else {
        var acc' := acc[name := rows[from].1.value];
        CollectOk(rows, from + 1, acc');
        var m := Collect(rows, from, acc).value;
        forall k | k in m ensures k in acc || exists i :: from <= i < |rows| && rows[i].0 == k && k != METADATA_KEY {
          if k == name { assert rows[from].0 == k; }
        }
      }
    }
  }

  /** An error is the error of the first failing tensor row. */
  lemma {:induction false} CollectFirstError(rows: seq<Row>, from: nat, acc: map<string, RemoteTensor>)
    requires from <= |rows|
    ensures Collect(rows, from, acc).Err? ==>
      exists j :: from <= j < |rows| && rows[j].0 != METADATA_KEY
        && rows[j].1 == Err(Collect(rows, from, acc).error) && RowsOk(rows[..j], from)
    decreases |rows| - from
  {
    if from < |rows| {
      var name := rows[from].0;
      if name == METADATA_KEY || rows[from].1.Ok? {
        var acc' := if name == METADATA_KEY then acc else acc[name := rows[from].1.value];
        CollectFirstError(rows, from + 1, acc');
        forall j | from + 1 <= j <= |rows| && RowsOk(rows[..j], from + 1) ensures RowsOk(rows[..j], from) {
          assert rows[..j][from] == rows[from];
        }
      } else {
        assert RowsOk(rows[..from], from);
      }
    }
  }

  /** Rows that all carry `url` give a table whose every row carries `url`. */
  lemma {:induction false} CollectUrls(rows: seq<Row>, from: nat, acc: map<string, RemoteTensor>, url: string)
    requires from <= |rows|
    requires forall i :: from <= i < |rows| && rows[i].1.Ok? ==> rows[i].1.value.url == url
    requires forall k :: k in acc ==> acc[k].url == url
    ensures Collect(rows, from, acc).Ok? ==> forall k :: k in Collect(rows, from, acc).value ==> Collect(rows, from, acc).value[k].url == url
    decreases |rows| - from
  {
    if from < |rows| {
      if rows[from].0 == METADATA_KEY {
        CollectUrls(rows, from + 1, acc, url);
      } else if rows[from].1.Ok? {
        CollectUrls(rows, from + 1, acc[rows[from].0 := rows[from].1.value], url);
      }
    }
  }

  /** The loop of `get_list_tensors` over a parsed header: one row per entry, `__metadata__` skipped. */
  function TableOf(md: Metadata, url: string): (r: Result<map<string, RemoteTensor>, Fault>)
    ensures r.Ok? ==> md.doc.JObject?
    ensures r.Ok? ==> forall k :: k in r.value ==> r.value[k].url == url
  {
    if !md.doc.JObject? then Err(NotAnObject)
    else
      var rows := Rows(Items(md.doc.members), md.dataStart, url);
      var m :- Collect(rows, 0, map[]);
      CollectUrls(rows, 0, map[], url);
      Ok(m)
  }

  /** `get_list_tensors(url)` as written, on top of `get_metadata` as written. */
  function GetListTensorsAsWritten(net: Network, hfToken: Option<string>, decode: Utf8Decoder, parse: JsonParser, url: string)
    : (r: Result<map<string, RemoteTensor>, Fault>)
    ensures r.Ok? ==> GetMetadataAsWritten(net, hfToken, decode, parse, url).Ok?
                      && GetMetadataAsWritten(net, hfToken, decode, parse, url).value.doc.JObject?
    ensures r.Ok? ==> forall k :: k in r.value ==> r.value[k].url == url
  {
    var md :- GetMetadataAsWritten(net, hfToken, decode, parse, url);
    TableOf(md, url)
  }

  /** As written, no tensor table can be listed from a file shorter than READ_SIZE. */
  lemma ListTensorsShortFileRejected(file: seq<byte>, url: string, hfToken: Option<string>, decode: Utf8Decoder, parse: JsonParser)
    requires RequireUrl(url).Ok?
    requires |file| < READ_SIZE
    ensures GetListTensorsAsWritten(FileServer(file, url), hfToken, decode, parse, url)
            == (if |file| == 0 then Err(HttpStatus(416)) else Err(SizeMismatch(READ_SIZE, |file|)))
  {
    ShortFileRejected(file, url, hfToken, decode, parse);
  }

  /** `get_list_tensors(url)`, on top of the corrected `get_metadata`. */
  function GetListTensors(net: Network, hfToken: Option<string>, decode: Utf8Decoder, parse: JsonParser, url: string)
    : (r: Result<map<string, RemoteTensor>, Fault>)
    ensures r.Ok? ==> GetMetadata(net, hfToken, decode, parse, url).Ok?
                      && GetMetadata(net, hfToken, decode, parse, url).value.doc.JObject?
    ensures r.Ok? ==> forall k :: k in r.value ==> r.value[k].url == url
  {
    var md :- GetMetadata(net, hfToken, decode, parse, url);
    TableOf(md, url)
  }

  /** With the corrected reader a short file's table is listed like any other: its keys are
      the header's entries other than `__metadata__`. */
  lemma ListTensorsShortFileRead(file: seq<byte>, url: string, hfToken: Option<string>, decode: Utf8Decoder, parse: JsonParser,
                                 md: Metadata)
    requires RequireUrl(url).Ok?
    requires 0 < |file| < READ_SIZE
    requires ParseHeader(file, decode, parse) == Ok(md) && md.doc.JObject?
    requires RowsOk(Rows(Items(md.doc.members), md.dataStart, url), 0)
    ensures var r := GetListTensors(FileServer(file, url), hfToken, decode, parse, url);
            r.Ok? && forall k :: k in r.value <==> HasKey(md.doc.members, k) && k != METADATA_KEY
  {
    GetMetadataFromFileServer(file, url, hfToken, decode, parse);
    assert file[..Min(|file|, READ_SIZE)] == file;
    ListTensorsTable(md.doc.members, md.dataStart, url);
  }

  /** The rows of a dict's items carry distinct names. */
  lemma RowNamesDistinct(members: seq<(string, Json)>, dataStart: nat, url: string)
    ensures var rows := Rows(Items(members), dataStart, url);
            forall i, j :: 0 <= i < j < |rows| ==> rows[i].0 != rows[j].0
  {
    var items := Items(members);
    var rows := Rows(items, dataStart, url);
    forall i, j | 0 <= i < j < |rows| ensures rows[i].0 != rows[j].0 {
      assert Keys(items)[i] != Keys(items)[j];
    }
  }

  /** Row `i` of a dict's items is the tensor entry of its key's dict value. */
  lemma RowOfKey(members: seq<(string, Json)>, dataStart: nat, url: string, i: nat)
    requires i < |Items(members)|
    ensures var row := Rows(Items(members), dataStart, url)[i];
            HasKey(members, row.0) && row.1 == TensorEntry(row.0, Get(members, row.0).value, dataStart, url)
  {
    var items := Items(members);
    RowEntry(items, dataStart, url, i);
    assert Get(members, items[i].0) == Some(items[i].1);
  }

  /** Tensor table of a header document: every tensor entry becomes a row whose offset is
      relative to the aligned data start, whose size is end minus start, and `__metadata__`
      is not a tensor. */
  lemma ListTensorsTable(members: seq<(string, Json)>, dataStart: nat, url: string)
    requires RowsOk(Rows(Items(members), dataStart, url), 0)
    ensures Collect(Rows(Items(members), dataStart, url), 0, map[]).Ok?
    ensures var m := Collect(Rows(Items(members), dataStart, url), 0, map[]).value;
      && (forall k :: k in m <==> HasKey(members, k) && k != METADATA_KEY)
      && (forall k :: k in m ==> Ok(m[k]) == TensorEntry(k, Get(members, k).value, dataStart, url))
  {
    var items := Items(members);
    var rows := Rows(items, dataStart, url);
    RowNamesDistinct(members, dataStart, url);
    CollectOk(rows, 0, map[]);
    var m := Collect(rows, 0, map[]).value;
    forall k | k in m ensures HasKey(members, k) && Ok(m[k]) == TensorEntry(k, Get(members, k).value, dataStart, url) {
      var i :| 0 <= i < |rows| && rows[i].0 == k && k != METADATA_KEY;
      RowOfKey(members, dataStart, url, i);
      assert Ok(m[k]) == rows[i].1;
    }
    forall k | HasKey(members, k) && k != METADATA_KEY ensures k in m {
      var i :| 0 <= i < |items| && items[i].0 == k;
      assert rows[i].0 == k;
    }
  }

  /** A failing `get_list_tensors` table reports the first tensor entry that could not be built. */
  lemma ListTensorsFirstError(members: seq<(string, Json)>, dataStart: nat, url: string)
    ensures var items := Items(members);
      var r := Collect(Rows(items, dataStart, url), 0, map[]);
      r.Err? ==> exists j ::
                   && 0 <= j < |items| && items[j].0 != METADATA_KEY
                   && TensorEntry(items[j].0, items[j].1, dataStart, url) == Err(r.error)
                   && (forall i :: 0 <= i < j && items[i].0 != METADATA_KEY ==> TensorEntry(items[i].0, items[i].1, dataStart, url).Ok?)
  {
    var items := Items(members);
    var rows := Rows(items, dataStart, url);
    CollectFirstError(rows, 0, map[]);
    var r := Collect(rows, 0, map[]);
    if r.Err? {
      var j :| 0 <= j < |rows| && rows[j].0 != METADATA_KEY && rows[j].1 == Err(r.error) && RowsOk(rows[..j], 0);
      RowEntry(items, dataStart, url, j);
      forall i | 0 <= i < j && items[i].0 != METADATA_KEY ensures TensorEntry(items[i].0, items[i].1, dataStart, url).Ok? {
        assert rows[..j][i] == rows[i];
        RowEntry(items, dataStart, url, i);
      }
    }
  }

  /** `RemoteTensor.data()`: the tensor's bytes, fetched from its file by offset and size. */
  function TensorData(net: Network, hfToken: Option<string>, t: RemoteTensor): (r: Result<seq<byte>, Fault>)
    ensures r.Ok? ==> |r.value| == t.size || t.size <= -1
  {
    GetDataByRange(net, hfToken, t.url, t.offsetStart, t.size)
  }

  /** Served from the file it names, a tensor lying inside the file reads back its byte span. */
  lemma TensorDataFromFileServer(file: seq<byte>, hfToken: Option<string>, dtype: Json, shape: seq<Json>,
                                 start: nat, size: nat, url: string)
    requires RequireUrl(url).Ok?
    requires 0 < size && start + size <= |file|
    ensures TensorData(FileServer(file, url), hfToken, RemoteTensor(dtype, shape, start, size, url))
            == Ok(file[start..start + size])
  {
    GetDataByRangeFromFileServer(file, url, hfToken, start, size);
  }
}

=== FILE: server_models.dfy ===
/**
 * The router's model-status codec (`server_model_status` and its string
 * conversions) and the defaults of a model's metadata record.  The process
 * management, locking and proxying around them are not modelled.
 */
module ServerModels {
  import opened Wrappers

  datatype Status = Unloaded | Loading | Loaded | Failed

  /** The exception `server_model_status_from_string` throws. */
  datatype StatusError = InvalidStatus(text: string)

  const STATUS_NAMES: seq<string> := ["unloaded", "loading", "loaded", "failed"]

  /** `server_model_status_to_string`: every enumerator has its own name. */
  function StatusToString(s: Status): (r: string)
    ensures r in STATUS_NAMES
  {
    match s
    case Unloaded => "unloaded"
    case Loading => "loading"
    case Loaded => "loaded"
    case Failed => "failed"
  }

  /** `server_model_status_from_string`: one of the four names, anything else throws. */
  function StatusFromString(t: string): (r: Result<Status, StatusError>)
    ensures r.Ok? <==> t in STATUS_NAMES
    ensures r.Err? ==> r.error == InvalidStatus(t)
  {
    if t == "unloaded" then Ok(Unloaded)
    else if t == "loading" then Ok(Loading)
    else if t == "loaded" then Ok(Loaded)
    else if t == "failed" then Ok(Failed)
    else Err(InvalidStatus(t))
  }

  /** Parsing the printed name of a status gives the status back. */
  lemma StatusRoundTrip(s: Status)
    ensures StatusFromString(StatusToString(s)) == Ok(s)
  {
  }

  /** Printing a parsed status gives back the accepted name. */
  lemma StatusNameRoundTrip(t: string)
    requires StatusFromString(t).Ok?
    ensures StatusToString(StatusFromString(t).value) == t
  {
  }

  /** Distinct statuses have distinct names. */
  lemma StatusToStringInjective(a: Status, b: Status)
    requires StatusToString(a) == StatusToString(b)
    ensures a == b
  {
    StatusRoundTrip(a);
    StatusRoundTrip(b);
  }

  /** `server_model_meta`. */
  datatype ModelMeta = ModelMeta(name: string, path: string, pathMmproj: string,
                                 inCache: bool, port: int, status: Status)

  /** A value-initialised `server_model_meta`: empty strings, not cached, port 0, unloaded. */
  function DefaultMeta(): (m: ModelMeta)
    ensures m.status == Unloaded && m.port == 0 && !m.inCache
    ensures m.name == "" && m.path == "" && m.pathMmproj == ""
  {
    ModelMeta("", "", "", false, 0, Unloaded)
  }
}

=== FILE: string_sort.dfy ===
/**
 * Python's ordering of `str` values (code point by code point, a proper prefix
 * first) and `sorted(set(xs))`: the distinct elements in ascending order.
 */
module StringSort {

  /** `a < b` on Python strings. */
  predicate Less(a: string, b: string)
    decreases |a|
  {
    if |b| == 0 then false
    else if |a| == 0 then true
    else if a[0] != b[0] then a[0] < b[0]
    else Less(a[1..], b[1..])
  }

  lemma {:induction false} LessIrreflexive(a: string)
    ensures !Less(a, a)
    decreases |a|
  {
    if |a| > 0 {
      LessIrreflexive(a[1..]);
    }
  }

  lemma {:induction false} LessTransitive(a: string, b: string, c: string)
    requires Less(a, b) && Less(b, c)
    ensures Less(a, c)
    decreases |a|
  {
    if |a| > 0 && a[0] == b[0] && b[0] == c[0] {
      LessTransitive(a[1..], b[1..], c[1..]);
    }
  }

  lemma {:induction false} LessTotal(a: string, b: string)
    requires a != b
    ensures Less(a, b) || Less(b, a)
    decreases |a|
  {
    if |a| > 0 && |b| > 0 && a[0] == b[0] {
      assert a == [a[0]] + a[1..] && b == [b[0]] + b[1..];
      LessTotal(a[1..], b[1..]);
    }
  }

  lemma LessAsymmetric(a: string, b: string)
    requires Less(a, b)
    ensures !Less(b, a)
  {
    if Less(b, a) {
      LessTransitive(a, b, a);
      LessIrreflexive(a);
    }
  }

  predicate StrictlySorted(xs: seq<string>) {
    forall i, j :: 0 <= i < j < |xs| ==> Less(xs[i], xs[j])
  }

  function Elements(xs: seq<string>): set<string> {
    set i | 0 <= i < |xs| :: xs[i]
  }

  /** Add `x` to an ascending sequence of distinct strings, keeping it so. */
  function Insert(xs: seq<string>, x: string): (r: seq<string>)
    requires StrictlySorted(xs)
    ensures StrictlySorted(r)
    ensures Elements(r) == Elements(xs) + {x}
    decreases |xs|
  {
    if |xs| == 0 then
      ElementsCons(x, []);
      [x]
    else if x == xs[0] then
      assert Elements(xs) == Elements(xs) + {x} by {
        assert xs[0] == x;
      }
      xs
    else if Less(x, xs[0]) then
      forall j | 0 <= j < |xs| ensures Less(x, xs[j]) {
        if j > 0 { LessTransitive(x, xs[0], xs[j]); }
      }
      ElementsCons(x, xs);
      SortedCons(x, xs);
      [x] + xs
    else
      LessTotal(x, xs[0]);
      var tail := Insert(xs[1..], x);
      ElementsCons(xs[0], xs[1..]);
      assert [xs[0]] + xs[1..] == xs;
      ElementsCons(xs[0], tail);
      InsertHeadLeast(xs, x, tail);
      SortedCons(xs[0], tail);
      [xs[0]] + tail
  }

  /** A sorted sequence stays sorted with a smaller string in front. */
  lemma SortedCons(h: string, t: seq<string>)
    requires StrictlySorted(t)
    requires forall j :: 0 <= j < |t| ==> Less(h, t[j])
    ensures StrictlySorted([h] + t)
  {
    var r := [h] + t;
    forall i, j | 0 <= i < j < |r| ensures Less(r[i], r[j]) {
      assert r[j] == t[j - 1];
      if i > 0 { assert r[i] == t[i - 1]; }
    }
  }

  /** The least element of a sorted sequence stays below everything after an insertion above it. */
  lemma InsertHeadLeast(xs: seq<string>, x: string, tail: seq<string>)
    requires StrictlySorted(xs) && |xs| > 0 && Less(xs[0], x)
    requires Elements(tail) == Elements(xs[1..]) + {x}
    ensures forall j :: 0 <= j < |tail| ==> Less(xs[0], tail[j])
  {
    forall j | 0 <= j < |tail| ensures Less(xs[0], tail[j]) {
      assert tail[j] in Elements(tail);
      if tail[j] != x {
        var i :| 0 <= i < |xs[1..]| && xs[1..][i] == tail[j];
        assert xs[i + 1] == tail[j];
      }
    }
  }

  /** `sorted(set(xs))`. */
  function SortedSet(xs: seq<string>): (r: seq<string>)
    ensures StrictlySorted(r)
    ensures Elements(r) == Elements(xs)
    decreases |xs|
  {
    if |xs| == 0 then []
    else
      var init := SortedSet(xs[..|xs| - 1]);
      var r := Insert(init, xs[|xs| - 1]);
      assert Elements(xs) == Elements(xs[..|xs| - 1]) + {xs[|xs| - 1]} by {
        forall y | y in Elements(xs) ensures y in Elements(xs[..|xs| - 1]) + {xs[|xs| - 1]} {
          var i :| 0 <= i < |xs| && xs[i] == y;
          if i < |xs| - 1 { assert xs[..|xs| - 1][i] == y; }
        }
      }
      r
  }

  /** A strictly sorted sequence is determined by its elements, so the order in which
      a set is iterated before sorting does not matter. */
  lemma {:induction false} SortedUnique(xs: seq<string>, ys: seq<string>)
    requires StrictlySorted(xs) && StrictlySorted(ys)
    requires Elements(xs) == Elements(ys)
    ensures xs == ys
    decreases |xs|
  {
    if |xs| > 0 && |ys| > 0 {
      assert xs[0] == ys[0] by {
        assert xs[0] in Elements(ys);
        assert ys[0] in Elements(xs);
        var i :| 0 <= i < |ys| && ys[i] == xs[0];
        var j :| 0 <= j < |xs| && xs[j] == ys[0];
        if xs[0] != ys[0] {
          assert i > 0 && j > 0;
          LessAsymmetric(ys[0], ys[i]);
        }
      }
      assert Elements(xs[1..]) == Elements(ys[1..]) by {
        forall y | y in Elements(xs[1..]) ensures y in Elements(ys[1..]) {
          var i :| 0 <= i < |xs[1..]| && xs[1..][i] == y;
          assert Less(xs[0], xs[i + 1]);
          assert y in Elements(ys);
          var j :| 0 <= j < |ys| && ys[j] == y;
          if j == 0 { LessIrreflexive(y); }
          assert ys[1..][j - 1] == y;
        }
        forall y | y in Elements(ys[1..]) ensures y in Elements(xs[1..]) {
          var j :| 0 <= j < |ys[1..]| && ys[1..][j] == y;
          assert Less(ys[0], ys[j + 1]);
          assert y in Elements(xs);
          var i :| 0 <= i < |xs| && xs[i] == y;
          if i == 0 { LessIrreflexive(y); }
          assert xs[1..][i - 1] == y;
        }
      }
      SortedUnique(xs[1..], ys[1..]);
      assert xs == [xs[0]] + xs[1..] && ys == [ys[0]] + ys[1..];
    } else {
      ElementsEmpty(xs);
      ElementsEmpty(ys);
    }
  }

  lemma ElementsEmpty(xs: seq<string>)
    ensures Elements(xs) == {} <==> |xs| == 0
  {
    if |xs| > 0 {
      assert xs[0] in Elements(xs);
    }
  }

  lemma ElementsCons(x: string, xs: seq<string>)
    ensures Elements([x] + xs) == {x} + Elements(xs)
  {
    var ys := [x] + xs;
    forall y | y in Elements(xs) ensures y in Elements(ys) {
      var i :| 0 <= i < |xs| && xs[i] == y;
      assert ys[i + 1] == y;
    }
    forall y | y in Elements(ys) ensures y in {x} + Elements(xs) {
      var i :| 0 <= i < |ys| && ys[i] == y;
      if i > 0 { assert xs[i - 1] == y; }
    }
    assert x == ys[0];
  }
}

=== FILE: tensor_convert.dfy ===
/**
 * What the two text-to-speech converters `examples/tts/convert_csm_to_gguf.py`
 * and `examples/tts/convert_mimi_to_gguf.py` share: a tensor with its shape
 * and torch dtype, the dtype cast before conversion, the
 * choice of GGML storage type from the requested file type, the quantization
 * call with its F16 fallback, and the loop over the state dict that stops at
 * the first error.
 *
 * `gguf.quants.quantize` is an oracle saying whether quantizing a tensor to
 * a type raises.  Element values, the packed bytes and the `GGUFWriter`
 * that stores them are not part of this model: a tensor is its shape and
 * dtype, and a written tensor is its name, its shape and its storage type.
 */
module TensorConvert {
  import opened Wrappers
  import opened Text

  /** The torch dtypes the converters tell apart. */
  datatype DType = F16 | F32 | BF16 | OtherDType(name: string)

  /** A torch tensor, by its shape and dtype. */
  datatype Tensor = Tensor(shape: seq<nat>, dtype: DType)

  /** The number of elements of a shape. */
  function Product(shape: seq<nat>): nat
    decreases |shape|
  {
    if |shape| == 0 then 1 else shape[0] * Product(shape[1..])
  }

  /** `if data_torch.dtype not in (torch.float16, torch.float32): data_torch = data_torch.to(torch.float32)`. */
  function CastForNumpy(t: Tensor): (r: Tensor)
    ensures r.dtype == F16 || r.dtype == F32
    ensures r.shape == t.shape
    ensures t.dtype == F16 || t.dtype == F32 ==> r == t
  {
    if t.dtype == F16 || t.dtype == F32 then t else t.(dtype := F32)
  }

  /** `gguf.LlamaFileType`: the four types the command lines offer, and any other value. */
  datatype FileType = AllF32 | MostlyF16 | MostlyBF16 | MostlyQ8_0 | OtherFileType(code: int)

  /** `gguf.GGMLQuantizationType`, as far as the converters use it. */
  datatype QType = QF32 | QF16 | QBF16 | QQ8_0

  /** The storage type a quantizable tensor gets from the file type, or the
      `ValueError("Unsupported file type")` both converters raise. */
  function FileTypeQType(ftype: FileType): (r: Option<QType>)
    ensures r.None? <==> ftype.OtherFileType?
    ensures ftype == AllF32 ==> r == Some(QF32)
    ensures ftype == MostlyF16 ==> r == Some(QF16)
    ensures ftype == MostlyBF16 ==> r == Some(QBF16)
    ensures ftype == MostlyQ8_0 ==> r == Some(QQ8_0)
  {
    match ftype
    case AllF32 => Some(QF32)
    case MostlyF16 => Some(QF16)
    case MostlyBF16 => Some(QBF16)
    case MostlyQ8_0 => Some(QQ8_0)
    case OtherFileType(_) => None
  }

  /** Whether `gguf.quants.quantize(data, qtype)` returns (true) or raises (false). */
  type Quantizer = (Tensor, QType) -> bool

  /** Everything the converters raise, with the tensor name where there is one. */
  datatype ConvertError =
    | PlaceholderMissing(fileName: string)
    | WrongArchitecture
    | MissingVocabField(key: string)
    | UnsupportedFileType(ftype: FileType)
    | QuantizeFailed(tensor: string)
    | MissingTensor(tensor: string)
    | BadShape(tensor: string)

  /** The `try: quantize(data, qtype) except: quantize(data, F16)` step: the type stored,
      or the error of the F16 retry. */
  function QuantizeWithFallback(quant: Quantizer, t: Tensor, qtype: QType, name: string)
    : (r: Result<QType, ConvertError>)
    ensures quant(t, qtype) ==> r == Ok(qtype)
    ensures !quant(t, qtype) ==> (r.Ok? <==> quant(t, QF16))
    ensures !quant(t, qtype) && r.Ok? ==> r.value == QF16
    ensures r.Ok? ==> r.value == qtype || r.value == QF16
    ensures r.Err? ==> r.error == QuantizeFailed(name)
  {
    if quant(t, qtype) then Ok(qtype)
    else if quant(t, QF16) then Ok(QF16)
    else Err(QuantizeFailed(name))
  }

  /** A tensor as handed to `GGUFWriter.add_tensor`: name, shape and storage type. */
  datatype Written = Written(name: string, shape: seq<nat>, qtype: QType)

  // ---------------------------------------------------------------------
  // The conversion loop
  // ---------------------------------------------------------------------

  /** Indices of the items `step` turns into a written tensor, in increasing order. */
  function Picked<A, B, E>(xs: seq<A>, step: A -> Result<Option<B>, E>, from: nat): (ks: seq<nat>)
    requires from <= |xs|
    ensures forall k :: 0 <= k < |ks| ==> from <= ks[k] < |xs| && step(xs[ks[k]]).Ok? && step(xs[ks[k]]).value.Some?
    ensures forall k, l :: 0 <= k < l < |ks| ==> ks[k] < ks[l]
    ensures |ks| <= |xs| - from
    decreases |xs| - from
  {
    if from == |xs| then []
    else
      var rest := Picked(xs, step, from + 1);
      var r := step(xs[from]);
      if r.Ok? && r.value.Some? then
        assert forall k :: 1 <= k < |rest| + 1 ==> ([from] + rest)[k] == rest[k - 1];
        [from] + rest
      else rest
  }

  /** Every item that yields a tensor is picked. */
  lemma {:induction false} PickedComplete<A, B, E>(xs: seq<A>, step: A -> Result<Option<B>, E>, from: nat, i: nat)
    requires from <= i < |xs| && step(xs[i]).Ok? && step(xs[i]).value.Some?
    ensures i in Picked(xs, step, from)
    decreases i - from
  {
    if from < i {
      PickedComplete(xs, step, from + 1, i);
    }
  }

  /** How Picked starts at `from`. */
  lemma PickedCons<A, B, E>(xs: seq<A>, step: A -> Result<Option<B>, E>, from: nat)
    requires from < |xs| && step(xs[from]).Ok?
    ensures var ks := Picked(xs, step, from);
            var tail := Picked(xs, step, from + 1);
      if step(xs[from]).value.Some? then |ks| == |tail| + 1 && ks[0] == from && ks[1..] == tail
      else ks == tail
  {
  }

  /** `for item in xs: step(item)`, stopping at the first raise; the written tensors in order. */
  function Collect<A, B, E>(xs: seq<A>, step: A -> Result<Option<B>, E>, from: nat): (r: Result<seq<B>, E>)
    requires from <= |xs|
    ensures r.Ok? ==> forall i :: from <= i < |xs| ==> step(xs[i]).Ok?
    ensures r.Ok? ==> var ks := Picked(xs, step, from);
      && |r.value| == |ks|
      && forall k :: 0 <= k < |ks| ==> step(xs[ks[k]]) == Ok(Some(r.value[k]))
    ensures r.Err? ==>
      exists i :: from <= i < |xs| && step(xs[i]) == Err(r.error)
        && forall j :: from <= j < i ==> step(xs[j]).Ok?
    decreases |xs| - from
  {
    if from == |xs| then Ok([])
    else
      match step(xs[from])
      case Err(e) => Err(e)
      case Ok(out) =>
        match Collect(xs, step, from + 1)
        case Err(e) => Err(e)
        case Ok(rest) =>
          PickedCons(xs, step, from);
          if out.Some? then
            var r := [out.value] + rest;
            assert forall k :: 1 <= k < |r| ==> r[k] == rest[k - 1];
            Ok(r)
          else
            Ok(rest)
  }

  /** Each tensor Collect returns is what `step` made of some item. */
  lemma CollectSource<A, B, E>(xs: seq<A>, step: A -> Result<Option<B>, E>)
    requires Collect(xs, step, 0).Ok?
    ensures forall w :: w in Collect(xs, step, 0).value ==>
      exists i :: 0 <= i < |xs| && step(xs[i]) == Ok(Some(w))
  {
    var out := Collect(xs, step, 0).value;
    var ks := Picked(xs, step, 0);
    forall w | w in out
      ensures exists i :: 0 <= i < |xs| && step(xs[i]) == Ok(Some(w))
    {
      var k :| 0 <= k < |out| && out[k] == w;
      assert step(xs[ks[k]]) == Ok(Some(w));
    }
  }

  /** Each tensor `step` makes of an item is among those Collect returns. */
  lemma CollectCovers<A, B, E>(xs: seq<A>, step: A -> Result<Option<B>, E>, i: nat)
    requires Collect(xs, step, 0).Ok?
    requires i < |xs| && step(xs[i]).Ok? && step(xs[i]).value.Some?
    ensures step(xs[i]).value.value in Collect(xs, step, 0).value
  {
    var out := Collect(xs, step, 0).value;
    var ks := Picked(xs, step, 0);
    PickedComplete(xs, step, 0, i);
    var k :| 0 <= k < |ks| && ks[k] == i;
    assert out[k] in out;
  }

  // ---------------------------------------------------------------------
  // Text helpers
  // ---------------------------------------------------------------------

  /** A pattern holding a character the string lacks does not occur in it. */
  lemma CharAbsent(s: string, pat: string, c: char)
    requires c in pat && c !in s
    ensures !Contains(s, pat)
  {
  }

  /** `str.replace` leaves a string without the pattern alone. */
  lemma ReplaceAbsent(s: string, pat: string, rep: string)
    requires |pat| > 0 && !Contains(s, pat)
    ensures ReplaceAll(s, pat, rep) == s
  {
  }

  /** `s.endswith(suffix)`. */
  predicate EndsWith(s: string, suffix: string) {
    IsSuffix(suffix, s)
  }
}

=== FILE: text.dfy ===
/**
 * Character classes and substring operations shared by the modules below.
 *
 * Strings are `seq<char>`.  Searching follows `std::string::find`/`rfind`
 * and Python's `str.find`: an empty pattern occurs at every position from 0
 * to the length inclusive.  `Split`, `Join` and `ReplaceAll` are the
 * non-overlapping, left-to-right operations that Python's `str.split(d)` /
 * `str.replace(old, new)` and the C++ loops built on `find` implement.
 */
module Text {
  import opened Wrappers

  // ---------------------------------------------------------------------
  // Character classes
  // ---------------------------------------------------------------------

  /** C `isspace` in the "C" locale: space, \t, \n, \v, \f, \r. */
  predicate IsCSpace(c: char) {
    c == ' ' || c == '\t' || c == '\n' || c == '\U{000B}' || c == '\U{000C}' || c == '\r'
  }

  /** Python `str.isspace` for one character (the Unicode White_Space set Python uses). */
  predicate IsPySpace(c: char) {
    IsCSpace(c) || ('\U{001C}' <= c <= '\U{001F}') || c == '\U{0085}' || c == '\U{00A0}'
    || c == '\U{1680}' || ('\U{2000}' <= c <= '\U{200A}') || c == '\U{2028}' || c == '\U{2029}'
    || c == '\U{202F}' || c == '\U{205F}' || c == '\U{3000}'
  }

  predicate IsDigit(c: char) { '0' <= c <= '9' }
  predicate IsLower(c: char) { 'a' <= c <= 'z' }
  predicate IsUpper(c: char) { 'A' <= c <= 'Z' }
  predicate IsAlpha(c: char) { IsLower(c) || IsUpper(c) }
  predicate IsAlnum(c: char) { IsAlpha(c) || IsDigit(c) }

  /** C `toupper` in the "C" locale. */
  function ToUpper(c: char): (r: char)
    ensures IsLower(c) ==> IsUpper(r) && r as int == c as int - 32
    ensures !IsLower(c) ==> r == c
  {
    if IsLower(c) then (c as int - 32) as char else c
  }

  /** C `tolower` in the "C" locale. */
  function ToLower(c: char): (r: char)
    ensures IsUpper(c) ==> IsLower(r) && r as int == c as int + 32
    ensures !IsUpper(c) ==> r == c
  {
    if IsUpper(c) then (c as int + 32) as char else c
  }

  function UpperAll(s: string): (r: string)
    ensures |r| == |s| && forall i :: 0 <= i < |s| ==> r[i] == ToUpper(s[i])
  {
    seq(|s|, i requires 0 <= i < |s| => ToUpper(s[i]))
  }

  function LowerAll(s: string): (r: string)
    ensures |r| == |s| && forall i :: 0 <= i < |s| ==> r[i] == ToLower(s[i])
  {
    seq(|s|, i requires 0 <= i < |s| => ToLower(s[i]))
  }

  // ---------------------------------------------------------------------
  // Affixes and occurrences
  // ---------------------------------------------------------------------

  predicate IsPrefix(p: string, s: string) {
    |p| <= |s| && s[..|p|] == p
  }

  predicate IsSuffix(p: string, s: string) {
    |p| <= |s| && s[|s| - |p|..] == p
  }

  /** `pat` occurs in `s` starting at index `i`. */
  predicate OccursAt(s: string, pat: string, i: int) {
    0 <= i && i + |pat| <= |s| && s[i..i + |pat|] == pat
  }

  predicate Contains(s: string, pat: string) {
    exists i | 0 <= i <= |s| :: OccursAt(s, pat, i)
  }

  /** First occurrence of `pat` at or after `from` (`std::string::find(pat, from)`). */
  function FindFrom(s: string, pat: string, from: nat): (r: Option<nat>)
    decreases |s| - from
    ensures r.Some? ==> from <= r.value && OccursAt(s, pat, r.value)
  {
    if from + |pat| > |s| then None
    else if s[from..from + |pat|] == pat then Some(from)
    else FindFrom(s, pat, from + 1)
  }

  /** FindFrom reports the first occurrence at or after `from`, and None only when there is none. */
  lemma {:induction false} FindFromSpec(s: string, pat: string, from: nat)
    ensures FindFrom(s, pat, from).Some? ==> forall j :: from <= j < FindFrom(s, pat, from).value ==> !OccursAt(s, pat, j)
    ensures FindFrom(s, pat, from).None? ==> forall j :: from <= j ==> !OccursAt(s, pat, j)
    decreases |s| - from
  {
    if from + |pat| <= |s| && s[from..from + |pat|] != pat {
      FindFromSpec(s, pat, from + 1);
    }
  }

  /** The first occurrence at or after `from` is the one FindFrom reports. */
  lemma {:induction false} FindFromFirst(s: string, pat: string, from: nat, i: nat)
    requires from <= i && OccursAt(s, pat, i)
    requires forall j :: from <= j < i ==> !OccursAt(s, pat, j)
    ensures FindFrom(s, pat, from) == Some(i)
    decreases i - from
  {
    if from < i {
      assert !OccursAt(s, pat, from);
      FindFromFirst(s, pat, from + 1, i);
    }
  }

  /** An occurrence in `t` at `j` is an occurrence in `u + t` at `|u| + j`, and back. */
  lemma OccursShift(u: string, t: string, pat: string, j: nat)
    ensures OccursAt(u + t, pat, |u| + j) <==> OccursAt(t, pat, j)
  {
    if j + |pat| <= |t| {
      assert (u + t)[|u| + j..|u| + j + |pat|] == t[j..j + |pat|];
    }
  }

  /** Searching `w = u + t` from `|u|` finds what searching `t` finds, shifted by `|u|`. */
  lemma FindFromShift(w: string, u: string, t: string, pat: string)
    requires w == u + t
    ensures FindFrom(w, pat, |u|).Some? <==> FindFrom(t, pat, 0).Some?
    ensures FindFrom(t, pat, 0).Some? ==> FindFrom(w, pat, |u|).value == |u| + FindFrom(t, pat, 0).value
  {
    FindFromSpec(t, pat, 0);
    if FindFrom(t, pat, 0).Some? {
      FindFromShiftFound(w, u, t, pat, FindFrom(t, pat, 0).value);
    } else {
      FindFromShiftMissing(w, u, t, pat);
    }
  }

  lemma FindFromShiftFound(w: string, u: string, t: string, pat: string, i: nat)
    requires w == u + t
    requires OccursAt(t, pat, i) && forall j :: 0 <= j < i ==> !OccursAt(t, pat, j)
    ensures FindFrom(w, pat, |u|) == Some(|u| + i)
  {
    OccursShift(u, t, pat, i);
    assert forall j :: |u| <= j < |u| + i ==> !OccursAt(w, pat, j) by {
      forall j | |u| <= j < |u| + i ensures !OccursAt(w, pat, j) {
        OccursShift(u, t, pat, j - |u|);
      }
    }
    FindFromFirst(w, pat, |u|, |u| + i);
  }

  lemma FindFromShiftMissing(w: string, u: string, t: string, pat: string)
    requires w == u + t
    requires FindFrom(t, pat, 0).None?
    ensures FindFrom(w, pat, |u|).None?
  {
    FindFromSpec(t, pat, 0);
    var g := FindFrom(w, pat, |u|);
    if g.Some? {
      OccursShift(u, t, pat, g.value - |u|);
    }
  }

  /** Last occurrence of `pat` (`std::string::rfind(pat)`). */
  function FindLast(s: string, pat: string): (r: Option<nat>)
    ensures r.Some? ==> OccursAt(s, pat, r.value)
  {
    if |pat| > |s| then None else FindLastUpTo(s, pat, |s| - |pat|)
  }

  function FindLastUpTo(s: string, pat: string, hi: nat): (r: Option<nat>)
    requires hi + |pat| <= |s|
    ensures r.Some? ==> r.value <= hi && OccursAt(s, pat, r.value)
  {
    if s[hi..hi + |pat|] == pat then Some(hi)
    else if hi == 0 then None
    else FindLastUpTo(s, pat, hi - 1)
  }

  /** FindLast reports the last occurrence, and None only when there is none. */
  lemma FindLastSpec(s: string, pat: string)
    ensures FindLast(s, pat).Some? ==> forall j :: FindLast(s, pat).value < j ==> !OccursAt(s, pat, j)
    ensures FindLast(s, pat).None? ==> forall j :: !OccursAt(s, pat, j)
  {
    if |pat| <= |s| {
      FindLastUpToSpec(s, pat, |s| - |pat|);
    }
  }

  lemma {:induction false} FindLastUpToSpec(s: string, pat: string, hi: nat)
    requires hi + |pat| <= |s|
    ensures FindLastUpTo(s, pat, hi).Some? ==> forall j :: FindLastUpTo(s, pat, hi).value < j <= hi ==> !OccursAt(s, pat, j)
    ensures FindLastUpTo(s, pat, hi).None? ==> forall j :: j <= hi ==> !OccursAt(s, pat, j)
    decreases hi
  {
    if s[hi..hi + |pat|] != pat && hi > 0 {
      FindLastUpToSpec(s, pat, hi - 1);
    }
  }

  // ---------------------------------------------------------------------
  // Trimming
  // ---------------------------------------------------------------------

  /** Number of leading characters satisfying `p`. */
  function LeadingCount(s: string, p: char -> bool): (n: nat)
    ensures n <= |s|
    ensures forall i :: 0 <= i < n ==> p(s[i])
    ensures n < |s| ==> !p(s[n])
  {
    if |s| == 0 || !p(s[0]) then 0 else 1 + LeadingCount(s[1..], p)
  }

  /** Number of trailing characters satisfying `p`. */
  function TrailingCount(s: string, p: char -> bool): (n: nat)
    ensures n <= |s|
    ensures forall i :: |s| - n <= i < |s| ==> p(s[i])
    ensures n < |s| ==> !p(s[|s| - n - 1])
  {
    if |s| == 0 || !p(s[|s| - 1]) then 0 else 1 + TrailingCount(s[..|s| - 1], p)
  }

  function TrimStart(s: string, p: char -> bool): (r: string)
    ensures IsSuffix(r, s)
    ensures |r| > 0 ==> !p(r[0])
    ensures forall i :: 0 <= i < |s| - |r| ==> p(s[i])
  {
    s[LeadingCount(s, p)..]
  }

  function TrimEnd(s: string, p: char -> bool): (r: string)
    ensures IsPrefix(r, s)
    ensures |r| > 0 ==> !p(r[|r| - 1])
    ensures forall i :: |r| <= i < |s| ==> p(s[i])
  {
    s[..|s| - TrailingCount(s, p)]
  }

  /** Both ends trimmed: the result is the slice `s[i..j]` between the stripped runs. */
  function Trim(s: string, p: char -> bool): (r: string)
    ensures exists i, j ::
              && 0 <= i <= j <= |s| && r == s[i..j]
              && (forall k :: 0 <= k < i ==> p(s[k]))
              && (forall k :: j <= k < |s| ==> p(s[k]))
    ensures |r| > 0 ==> !p(r[0]) && !p(r[|r| - 1])
  {
    var t := TrimStart(s, p);
    var i := |s| - |t|;
    var r := TrimEnd(t, p);
    assert r == s[i..i + |r|];
    r
  }

  /** Text with no stripped character at either end is its own trim. */
  lemma TrimUnchanged(s: string, p: char -> bool)
    requires |s| > 0 ==> !p(s[0]) && !p(s[|s| - 1])
    ensures Trim(s, p) == s
  {
    if |s| > 0 {
      assert LeadingCount(s, p) == 0;
      assert TrailingCount(s, p) == 0;
    }
    assert TrimStart(s, p) == s by {
      assert s[0..] == s;
    }
    assert TrimEnd(s, p) == s by {
      assert s[..|s|] == s;
    }
  }

  lemma TrimIdempotent(s: string, p: char -> bool)
    ensures Trim(Trim(s, p), p) == Trim(s, p)
  {
    var r := Trim(s, p);
    if |r| > 0 {
      assert LeadingCount(r, p) == 0;
      assert TrailingCount(r, p) == 0;
    }
  }

  // ---------------------------------------------------------------------
  // Split, join, replace
  // ---------------------------------------------------------------------

  /** `d.join(parts)`. */
  function Join(parts: seq<string>, d: string): (r: string)
    decreases |parts|
  {
    if |parts| == 0 then ""
    else if |parts| == 1 then parts[0]
    else parts[0] + d + Join(parts[1..], d)
  }

  /** `s.split(d)` for a non-empty delimiter: cut at every non-overlapping occurrence, left to right. */
  function Split(s: string, d: string): (r: seq<string>)
    requires |d| > 0
    decreases |s|
    ensures |r| >= 1
  {
    match FindFrom(s, d, 0)
    case None => [s]
    case Some(i) => [s[..i]] + Split(s[i + |d|..], d)
  }

  /** Number of non-overlapping occurrences of `d` found scanning left to right. */
  function CountOccurrences(s: string, d: string): nat
    requires |d| > 0
    decreases |s|
  {
    match FindFrom(s, d, 0)
    case None => 0
    case Some(i) => 1 + CountOccurrences(s[i + |d|..], d)
  }

  /** `s.replace(pat, rep)` for a non-empty `pat`. */
  function ReplaceAll(s: string, pat: string, rep: string): (r: string)
    requires |pat| > 0
    decreases |s|
  {
    match FindFrom(s, pat, 0)
    case None => s
    case Some(i) => s[..i] + rep + ReplaceAll(s[i + |pat|..], pat, rep)
  }

  lemma JoinCons(h: string, tail: seq<string>, d: string)
    requires |tail| >= 1
    ensures Join([h] + tail, d) == h + d + Join(tail, d)
  {
    assert ([h] + tail)[1..] == tail;
  }

  lemma {:induction false} JoinSnoc(init: seq<string>, t: string, d: string)
    requires |init| >= 1
    ensures Join(init + [t], d) == Join(init, d) + d + t
    decreases |init|
  {
    if |init| == 1 {
      assert init + [t] == [init[0]] + [t];
      JoinCons(init[0], [t], d);
    } else {
      JoinSnoc(init[1..], t, d);
      assert init + [t] == [init[0]] + (init[1..] + [t]);
      JoinCons(init[0], init[1..] + [t], d);
      assert init == [init[0]] + init[1..];
      JoinCons(init[0], init[1..], d);
    }
  }

  lemma {:induction false} SplitJoin(s: string, d: string)
    requires |d| > 0
    ensures Join(Split(s, d), d) == s
    decreases |s|
  {
    match FindFrom(s, d, 0)
    case None =>
    case Some(i) =>
      var rest := s[i + |d|..];
      assert Split(s, d) == [s[..i]] + Split(rest, d);
      SplitJoin(rest, d);
      JoinCons(s[..i], Split(rest, d), d);
      assert s[i..i + |d|] == d;
      assert s == s[..i] + d + rest;
  }

  lemma {:induction false} SplitCount(s: string, d: string)
    requires |d| > 0
    ensures |Split(s, d)| == CountOccurrences(s, d) + 1
    decreases |s|
  {
    match FindFrom(s, d, 0)
    case None =>
    case Some(i) => SplitCount(s[i + |d|..], d);
  }

  lemma {:induction false} SplitPiecesFree(s: string, d: string)
    requires |d| > 0
    ensures forall k :: 0 <= k < |Split(s, d)| ==> !Contains(Split(s, d)[k], d)
    decreases |s|
  {
    var r := Split(s, d);
    FindFromSpec(s, d, 0);
    match FindFrom(s, d, 0)
    case None =>
    case Some(i) =>
      SplitPiecesFree(s[i + |d|..], d);
      var head := s[..i];
      forall j | OccursAt(head, d, j) ensures false {
        assert head[j..j + |d|] == s[j..j + |d|];
        assert OccursAt(s, d, j);
      }
      assert r == [head] + Split(s[i + |d|..], d);
      forall k | 0 <= k < |r| ensures !Contains(r[k], d) {
        if k > 0 {
          assert r[k] == Split(s[i + |d|..], d)[k - 1];
        }
      }
  }

  /** Replacing is joining the split pieces with the replacement. */
  lemma {:induction false} ReplaceIsSplitJoin(s: string, pat: string, rep: string)
    requires |pat| > 0
    ensures ReplaceAll(s, pat, rep) == Join(Split(s, pat), rep)
    decreases |s|
  {
    match FindFrom(s, pat, 0)
    case None =>
    case Some(i) =>
      var rest := s[i + |pat|..];
      ReplaceIsSplitJoin(rest, pat, rep);
      JoinCons(s[..i], Split(rest, pat), rep);
  }

  /** Replacing a pattern by itself changes nothing. */
  lemma {:induction false} ReplaceIdentity(s: string, pat: string)
    requires |pat| > 0
    ensures ReplaceAll(s, pat, pat) == s
  {
    ReplaceIsSplitJoin(s, pat, pat);
    SplitJoin(s, pat);
  }

  /** Replacing a one-character pattern by text without that character removes it entirely. */
  lemma {:induction false} ReplaceRemovesChar(s: string, c: char, rep: string)
    requires c !in rep
    ensures c !in ReplaceAll(s, [c], rep)
    decreases |s|
  {
    FindFromSpec(s, [c], 0);
    match FindFrom(s, [c], 0)
    case None =>
      forall j | 0 <= j < |s| ensures s[j] != c {
        assert !OccursAt(s, [c], j);
        assert s[j..j + 1] == [s[j]];
      }
    case Some(i) =>
      forall j | 0 <= j < i ensures s[j] != c {
        assert !OccursAt(s, [c], j);
        assert s[j..j + 1] == [s[j]];
      }
      ReplaceRemovesChar(s[i + 1..], c, rep);
  }

  // ---------------------------------------------------------------------
  // Integers
  // ---------------------------------------------------------------------

  function DigitChar(d: nat): (c: char)
    requires d < 10
    ensures IsDigit(c)
  {
    ('0' as int + d) as char
  }

  /** Decimal digits of a natural number, most significant first, no leading zeros. */
  function NatToString(n: nat): (r: string)
    ensures |r| >= 1 && forall i :: 0 <= i < |r| ==> IsDigit(r[i])
    ensures |r| > 1 ==> r[0] != '0'
    decreases n
  {
    if n < 10 then [DigitChar(n)] else NatToString(n / 10) + [DigitChar(n % 10)]
  }

  /** Decimal text of an integer as `std::to_string` / Python `str` writes it. */
  function IntToString(n: int): (r: string)
    ensures |r| >= 1
    ensures n < 0 <==> r[0] == '-'
  {
    if n < 0 then "-" + NatToString(-n) else NatToString(n)
  }

  function DigitValue(c: char): nat
    requires IsDigit(c)
  {
    c as int - '0' as int
  }

  function DigitsValue(s: string): nat
    requires forall i :: 0 <= i < |s| ==> IsDigit(s[i])
    decreases |s|
  {
    if |s| == 0 then 0 else DigitsValue(s[..|s| - 1]) * 10 + DigitValue(s[|s| - 1])
  }

  lemma {:induction false} NatToStringValue(n: nat)
    ensures DigitsValue(NatToString(n)) == n
    decreases n
  {
    if n >= 10 {
      NatToStringValue(n / 10);
      var r := NatToString(n);
      assert r[..|r| - 1] == NatToString(n / 10);
    }
  }
}

=== FILE: whisper_audio.dfy ===
/**
 * The integer bookkeeping of the Whisper audio front end: the RIFF/WAVE
 * header checks, the WAV format checks, the precondition order of the sinc
 * resampler, the padding of the signal before the log-mel spectrogram, the
 * frame counts, the columns each worker thread owns, and the index bounds of
 * the DFT/FFT tables and scratch buffers.  Sample values are reals that are
 * only copied; the transforms, the window and the filter coefficients are not
 * modelled.
 */
module WhisperAudio {
  import opened Wrappers
  import opened Bytes
  import opened CInt

  const SAMPLE_RATE: nat := 16000
  const N_FFT: nat := 400
  const HOP_LENGTH: nat := 160
  const CHUNK_SIZE: nat := 30
  /** Entries of the precomputed sine and cosine tables. */
  const SIN_COS_N_COUNT: nat := N_FFT
  /** Worker threads `preprocess_audio` starts. */
  const PREPROCESS_THREADS: nat := 4

  // ---------------------------------------------------------------------
  // RIFF/WAVE header
  // ---------------------------------------------------------------------

  const RIFF: seq<byte> := [0x52, 0x49, 0x46, 0x46]
  const WAVE: seq<byte> := [0x57, 0x41, 0x56, 0x45]

  lemma TagsSpellAscii()
    ensures RIFF == Ascii("RIFF") && WAVE == Ascii("WAVE")
  {
  }

  /** The lenient `is_wav_buffer`: 12 bytes at least, "RIFF" at offset 0, "WAVE" at 8. */
  function IsWavBuffer(buf: seq<byte>): (r: bool)
    ensures r ==> |buf| >= 12
  {
    |buf| >= 12 && buf[..4] == RIFF && buf[8..12] == WAVE
  }

  /** The RIFF chunk size: the little-endian 32-bit field at offset 4. */
  function ChunkSize(buf: seq<byte>): (r: nat)
    requires |buf| >= 8
    ensures r < Pow256(4)
  {
    LittleEndian(buf[4..8])
  }

  /** The strict `is_wav_buffer`: the lenient checks, then chunk size + 8 computed in 32-bit
      unsigned arithmetic must equal the buffer length. */
  function IsWavBufferStrict(buf: seq<byte>): bool {
    IsWavBuffer(buf) && (ChunkSize(buf) + 8) % Pow256(4) == |buf|
  }

  /** The 32-bit wrap-around never admits a buffer: whatever the strict check accepts has a
      chunk size plus 8 equal to its length as a plain number, and for buffers below 4 GiB
      the two conditions coincide. */
  lemma StrictCheckNoWrap(buf: seq<byte>)
    ensures IsWavBufferStrict(buf) ==> IsWavBuffer(buf) && ChunkSize(buf) + 8 == |buf|
    ensures |buf| < Pow256(4) ==>
              (IsWavBufferStrict(buf) <==> IsWavBuffer(buf) && ChunkSize(buf) + 8 == |buf|)
  {
    var P := Pow256(4);
    assert P == 256 * Pow256(3);
    if IsWavBuffer(buf) {
      var c := ChunkSize(buf);
      if c + 8 >= P {
        DivModUnique(1, c + 8 - P, P);
        assert (c + 8) % P < 12;
      } else {
        DivModUnique(0, c + 8, P);
      }
    }
  }

  /** The strict check implies the lenient one; the lenient one also accepts a buffer whose
      size field disagrees with its length. */
  lemma StrictIsStronger(buf: seq<byte>)
    ensures IsWavBufferStrict(buf) ==> IsWavBuffer(buf)
    ensures var b := RIFF + ToLittleEndian(0, 4) + WAVE;
            IsWavBuffer(b) && !IsWavBufferStrict(b)
  {
    var b := RIFF + ToLittleEndian(0, 4) + WAVE;
    HeaderFields(ToLittleEndian(0, 4), []);
    assert b == RIFF + ToLittleEndian(0, 4) + WAVE + [];
    LittleEndianRoundTrip(0, 4);
    StrictCheckNoWrap(b);
  }

  /** The fields of a header assembled from its parts. */
  lemma HeaderFields(size: seq<byte>, rest: seq<byte>)
    requires |size| == 4
    ensures var b := RIFF + size + WAVE + rest;
            |b| == 12 + |rest| && IsWavBuffer(b) && b[4..8] == size
  {
    var b := RIFF + size + WAVE + rest;
    assert b[..4] == RIFF;
    assert b[4..8] == size;
    assert b[8..12] == WAVE;
  }

  /** A header whose size field counts everything after it passes the strict check. */
  lemma StrictAcceptsWellFormed(rest: seq<byte>)
    requires |rest| + 12 < Pow256(4)
    ensures IsWavBufferStrict(RIFF + ToLittleEndian(|rest| + 4, 4) + WAVE + rest)
  {
    var b := RIFF + ToLittleEndian(|rest| + 4, 4) + WAVE + rest;
    HeaderFields(ToLittleEndian(|rest| + 4, 4), rest);
    LittleEndianRoundTrip(|rest| + 4, 4);
    StrictCheckNoWrap(b);
  }

  // ---------------------------------------------------------------------
  // read_wav_from_buf
  // ---------------------------------------------------------------------

  /** What the WAV decoder reports about a stream. */
  datatype WavFormat = WavFormat(channels: nat, sampleRate: nat, bitsPerSample: nat)

  datatype WavError = NotDecodable | NotMonoOrStereo | WrongSampleRate | Not16Bit

  /** The format checks of the header's `read_wav_from_buf`, in their order. */
  function CheckWavFormat(f: WavFormat): (r: Result<WavFormat, WavError>)
    ensures r.Ok? <==> (f.channels == 1 || f.channels == 2) && f.sampleRate == SAMPLE_RATE && f.bitsPerSample == 16
    ensures r == Err(WrongSampleRate) ==> f.channels == 1 || f.channels == 2
    ensures r == Err(Not16Bit) ==> (f.channels == 1 || f.channels == 2) && f.sampleRate == SAMPLE_RATE
  {
    if f.channels != 1 && f.channels != 2 then Err(NotMonoOrStereo)
    else if f.sampleRate != SAMPLE_RATE then Err(WrongSampleRate)
    else if f.bitsPerSample != 16 then Err(Not16Bit)
    else Ok(f)
  }

  /** Mono samples from 16-bit frames, before scaling: the sample itself for mono, the sum of
      the two channels for stereo (the float scaling by 1/32768 or 1/65536 is left out). */
  function MixToMono(pcm16: seq<int>, channels: nat, n: nat): (r: seq<int>)
    requires channels == 1 || channels == 2
    requires |pcm16| == n * channels
    ensures |r| == n
    ensures channels == 1 ==> r == pcm16
  {
    if channels == 1 then pcm16
    else seq(n, i requires 0 <= i < n => IndexBound(i, 1, n, 2); pcm16[2 * i] + pcm16[2 * i + 1])
  }

  /** Stereo mixing reads each frame's two samples: identical channels give twice the sample. */
  lemma MixStereoIdentical(mono: seq<int>)
    ensures var n := |mono|;
            var pcm := seq(2 * n, k requires 0 <= k < 2 * n => mono[k / 2]);
            MixToMono(pcm, 2, n) == seq(n, i requires 0 <= i < n => 2 * mono[i])
  {
    var n := |mono|;
    var pcm := seq(2 * n, k requires 0 <= k < 2 * n => mono[k / 2]);
    var r := MixToMono(pcm, 2, n);
    forall i | 0 <= i < n ensures r[i] == 2 * mono[i] {
      IndexBound(i, 1, n, 2);
      DivModUnique(i, 0, 2);
      DivModUnique(i, 1, 2);
    }
  }

  /** `read_wav_from_buf`: the decoder (an oracle: `None` when the buffer does not open) gives a
      format and the frames' 16-bit samples, channel-interleaved. */
  function ReadWav(decoded: Option<(WavFormat, seq<int>)>, n: nat): (r: Result<seq<int>, WavError>)
    ensures decoded.None? ==> r == Err(NotDecodable)
    ensures decoded.Some? ==>
              (r.Ok? <==> CheckWavFormat(decoded.value.0).Ok? && |decoded.value.1| == n * decoded.value.0.channels)
    ensures r.Ok? ==> |r.value| == n
  {
    match decoded
    case None => Err(NotDecodable)
    case Some((f, pcm16)) =>
      var fmt :- CheckWavFormat(f);
      if |pcm16| != n * fmt.channels then Err(NotDecodable)
      else Ok(MixToMono(pcm16, fmt.channels, n))
  }

  // ---------------------------------------------------------------------
  // resample_sinc preconditions
  // ---------------------------------------------------------------------

  datatype ResampleError = NonPositiveRate | NonPositiveKernel

  /** How `resample_sinc` proceeds: an early result, or the interpolation loop. */
  datatype ResampleStep<T> = Early(samples: seq<T>) | Interpolate

  function ResampleGate<T>(samples: seq<T>, newRate: int, oldRate: int, halfWidth: int): (r: Result<ResampleStep<T>, ResampleError>)
    ensures r == Err(NonPositiveRate) <==> oldRate <= 0 || newRate <= 0
    ensures r == Ok(Early([])) <==> oldRate > 0 && newRate > 0 && |samples| == 0
    ensures r.Ok? && r.value.Early? ==> |samples| == 0 || newRate == oldRate
    ensures r.Ok? && r.value.Early? ==> r.value.samples == samples
    ensures r == Err(NonPositiveKernel) <==> oldRate > 0 && newRate > 0 && |samples| > 0 && newRate != oldRate && halfWidth <= 0
    ensures r == Ok(Interpolate) <==> oldRate > 0 && newRate > 0 && |samples| > 0 && newRate != oldRate && halfWidth > 0
  {
    if oldRate <= 0 || newRate <= 0 then Err(NonPositiveRate)
    else if |samples| == 0 then Ok(Early([]))
    else if newRate == oldRate then Ok(Early(samples))
    else if halfWidth <= 0 then Err(NonPositiveKernel)
    else Ok(Interpolate)
  }

  /** A bad kernel width is only reported when there is something to resample. */
  lemma KernelCheckedLast<T>(samples: seq<T>, rate: int, halfWidth: int)
    requires rate > 0
    ensures ResampleGate(samples, rate, rate, halfWidth) == Ok(Early(samples))
  {
  }

  /** The input indices the kernel for an output sample with floor(center) = c considers:
      `2 * halfWidth` of them, of which only those inside the input contribute. */
  function KernelTaps(c: int, halfWidth: nat, n: nat): (r: seq<nat>)
    ensures forall t :: 0 <= t < |r| ==> r[t] < n && c - halfWidth + 1 <= r[t] <= c + halfWidth
    ensures c - halfWidth + 1 >= 0 && c + halfWidth < n ==> |r| == 2 * halfWidth
  {
    TapsFrom(c - halfWidth + 1, c + halfWidth, n)
  }

  function TapsFrom(k: int, last: int, n: nat): (r: seq<nat>)
    ensures forall t :: 0 <= t < |r| ==> r[t] < n && k <= r[t] <= last
    ensures k >= 0 && last < n ==> |r| == if last >= k then last - k + 1 else 0
    decreases last - k + 1
  {
    if k > last then []
    else if k < 0 || k >= n then TapsFrom(k + 1, last, n)
    else [k as nat] + TapsFrom(k + 1, last, n)
  }

  // ---------------------------------------------------------------------
  // Padding and frame counts of log_mel_spectrogram
  // ---------------------------------------------------------------------

  datatype MelError = UnsupportedFrameSize | FftBinMismatch | InputTooShort

  function Zeros(n: nat): (r: seq<real>)
    ensures |r| == n && forall i :: 0 <= i < n ==> r[i] == 0.0
  {
    seq(n, _ => 0.0)
  }

  function Reverse<T>(s: seq<T>): (r: seq<T>)
    ensures |r| == |s| && forall i :: 0 <= i < |s| ==> r[i] == s[|s| - 1 - i]
  {
    seq(|s|, i requires 0 <= i < |s| => s[|s| - 1 - i])
  }

  /** The padded signal: a reflection of `samples[1..pad + 1]` in front, then the samples, then
      30 seconds plus `pad` of silence. The reflection reads `pad + 1` samples, so a shorter
      input is an error (the source reads past the buffer). */
  function PadSignal(samples: seq<real>, frameSize: nat): (r: Result<seq<real>, MelError>)
    ensures r.Ok? <==> |samples| > frameSize / 2
    ensures r.Ok? ==> |r.value| == |samples| + SAMPLE_RATE * CHUNK_SIZE + 2 * (frameSize / 2)
  {
    var pad := frameSize / 2;
    if |samples| <= pad then Err(InputTooShort)
    else Ok(Reverse(samples[1..pad + 1]) + samples + Zeros(SAMPLE_RATE * CHUNK_SIZE + pad))
  }

  /** The layout of the padded signal: the reflection, the input at offset `pad`, then zeros. */
  lemma PadSignalLayout(samples: seq<real>, frameSize: nat)
    requires |samples| > frameSize / 2
    ensures var p := PadSignal(samples, frameSize).value;
            var pad := frameSize / 2;
            && (forall k :: 0 <= k < pad ==> p[k] == samples[pad - k])
            && p[pad..pad + |samples|] == samples
            && forall k :: pad + |samples| <= k < |p| ==> p[k] == 0.0
  {
    var pad := frameSize / 2;
    var p := PadSignal(samples, frameSize).value;
    var front := Reverse(samples[1..pad + 1]);
    assert p == front + samples + Zeros(SAMPLE_RATE * CHUNK_SIZE + pad);
    forall k | 0 <= k < pad ensures p[k] == samples[pad - k] {
      assert p[k] == front[k];
    }
    assert p[pad..pad + |samples|] == samples;
  }

  /** Number of spectrogram frames (the last frame dropped) and the frame count of the
      semi-padded input, in the source's unsigned and 64-bit signed arithmetic. */
  datatype MelShape = MelShape(nMel: nat, nLen: nat, nLenOrg: int, dataSize: nat)

  function MelFrames(nSamples: nat, frameSize: nat, frameStep: nat, nMel: nat): (m: MelShape)
    requires frameStep > 0 && frameSize <= nSamples + SAMPLE_RATE * CHUNK_SIZE + 2 * (frameSize / 2)
    ensures m.dataSize == m.nMel * m.nLen && m.nMel == nMel
  {
    var padded := nSamples + SAMPLE_RATE * CHUNK_SIZE + 2 * (frameSize / 2);
    var nLen := (padded - frameSize) / frameStep;
    var nLenOrg := 1 + Quot(nSamples + frameSize / 2 - frameSize, frameStep);
    MelShape(nMel, nLen, nLenOrg, nMel * nLen)
  }

  /** With Whisper's frame of 400 and hop of 160, there are (n + 480000) / 160 frames, at least
      the 3000 of the 30-second window, and the semi-padded count is 1 + (n - 200) / 160. */
  lemma WhisperFrames(nSamples: nat, nMel: nat)
    requires nSamples > N_FFT / 2
    ensures var m := MelFrames(nSamples, N_FFT, HOP_LENGTH, nMel);
            m.nLen == (nSamples + 480000) / 160 && m.nLen >= 3000
            && m.nLenOrg == 1 + (nSamples - 200) / 160
  {
    var a := nSamples + 480000;
    assert a == (3000 + nSamples / 160) * 160 + nSamples % 160;
    DivModUnique(3000 + nSamples / 160, nSamples % 160, 160);
  }

  // ---------------------------------------------------------------------
  // Worker threads
  // ---------------------------------------------------------------------

  /** The columns from `i` on, in steps of `step`, below `limit`. */
  function Stride(i: nat, step: nat, limit: nat): (r: seq<nat>)
    requires step > 0
    ensures forall t :: 0 <= t < |r| ==> i <= r[t] < limit
    decreases limit - i
  {
    if i >= limit then [] else [i] + Stride(i + step, step, limit)
  }

  lemma {:induction false} StrideMembers(i: nat, step: nat, limit: nat, c: nat)
    requires step > 0
    ensures c in Stride(i, step, limit) <==> i <= c < limit && (c - i) % step == 0
    decreases limit - i
  {
    if i < limit {
      StrideMembers(i + step, step, limit, c);
      if c >= i + step {
        var d := c - i - step;
        DivModUnique(d / step + 1, d % step, step);
        assert c - i == (d / step + 1) * step + d % step;
      } else if i < c {
        DivModUnique(0, c - i, step);
      }
    }
  }

  /** Where the worker's first loop stops: the first of its columns at or past `limit`. */
  function LoopEnd(i: nat, step: nat, limit: nat): (r: nat)
    requires step > 0
    ensures r >= i && r >= limit && (r - i) % step == 0
    ensures r - step < limit || r == i
    decreases limit - i
  {
    if i >= limit then i
    else
      var e := LoopEnd(i + step, step, limit);
      ModAddStep(e - i - step, step);
      e
  }

  /** Splitting a stride at a bound keeps it: the columns below `mid`, then the rest. */
  lemma {:induction false} StrideSplit(i: nat, step: nat, mid: nat, limit: nat)
    requires step > 0 && mid <= limit
    ensures Stride(i, step, mid) + Stride(LoopEnd(i, step, mid), step, limit) == Stride(i, step, limit)
    decreases mid - i
  {
    if i < mid {
      StrideSplit(i + step, step, mid, limit);
    }
  }

  /** A worker's plan: columns where a frame of signal starts (FFT), then the silent ones,
      which get log10(1e-10). */
  datatype WorkerPlan = WorkerPlan(fftColumns: seq<nat>, silentColumns: seq<nat>)

  function Min(a: int, b: int): int {
    if a < b then a else b
  }

  /** `log_mel_spectrogram_worker_thread` for worker `ith` of `nThreads`, with `nActive`
      samples of signal (input plus front padding) and `nLen` columns. */
  function Worker(ith: nat, nThreads: nat, nActive: nat, frameStep: nat, nLen: nat): (w: WorkerPlan)
    requires nThreads > 0 && frameStep > 0
    ensures w.fftColumns + w.silentColumns == Stride(ith, nThreads, nLen)
    ensures forall t :: 0 <= t < |w.fftColumns| ==> w.fftColumns[t] * frameStep <= nActive
  {
    var mid := Min(nActive / frameStep + 1, nLen);
    StrideSplit(ith, nThreads, mid, nLen);
    StartsInSignal(Stride(ith, nThreads, mid), nActive, frameStep);
    WorkerPlan(Stride(ith, nThreads, mid), Stride(LoopEnd(ith, nThreads, mid), nThreads, nLen))
  }

  /** Columns below `nActive / frameStep + 1` start their frame inside the signal. */
  lemma StartsInSignal(columns: seq<nat>, nActive: nat, frameStep: nat)
    requires frameStep > 0
    requires forall t :: 0 <= t < |columns| ==> columns[t] < nActive / frameStep + 1
    ensures forall t :: 0 <= t < |columns| ==> columns[t] * frameStep <= nActive
  {
    forall t | 0 <= t < |columns| ensures columns[t] * frameStep <= nActive {
      MulMono(columns[t], nActive / frameStep, frameStep);
    }
  }

  /** Every column is written by exactly one worker: the one whose number is the column
      modulo the thread count. */
  lemma ColumnOwner(nThreads: nat, nActive: nat, frameStep: nat, nLen: nat, c: nat, ith: nat)
    requires nThreads > 0 && frameStep > 0 && ith < nThreads
    ensures var w := Worker(ith, nThreads, nActive, frameStep, nLen);
            (c in w.fftColumns + w.silentColumns) <==> c < nLen && c % nThreads == ith
  {
    StrideMembers(ith, nThreads, nLen, c);
    OffsetResidue(c, ith, nThreads);
  }

  /** `c` is `ith` plus a multiple of `n` exactly when its residue modulo `n` is `ith`. */
  lemma OffsetResidue(c: nat, ith: nat, n: nat)
    requires ith < n
    ensures (ith <= c && (c - ith) % n == 0) <==> c % n == ith
  {
    if ith <= c {
      var q := (c - ith) / n;
      var m := (c - ith) % n;
      assert c == q * n + (m + ith);
      if m + ith < n {
        DivModUnique(q, m + ith, n);
      } else {
        assert c == (q + 1) * n + (m + ith - n);
        DivModUnique(q + 1, m + ith - n, n);
      }
    } else {
      DivModUnique(0, c, n);
    }
  }

  /** The frame a worker reads stays inside the padded signal, and the zero fill starts inside
      the FFT input. */
  lemma WorkerReadsInBounds(nSamples: nat, frameSize: nat, frameStep: nat, i: nat, j: nat)
    requires frameStep > 0
    requires i * frameStep <= nSamples + frameSize / 2
    requires j < Min(frameSize, nSamples + frameSize / 2 - i * frameStep)
    ensures i * frameStep + j < nSamples + SAMPLE_RATE * CHUNK_SIZE + 2 * (frameSize / 2)
  {
  }

  /** The output cell of mel band `j` and column `i` lies inside the `n_mel * n_len` data. */
  lemma MelIndexInBounds(nMel: nat, nLen: nat, j: nat, i: nat)
    requires j < nMel && i < nLen
    ensures j * nLen + i < nMel * nLen
  {
    IndexBound(j, i, nMel, nLen);
  }

  // ---------------------------------------------------------------------
  // DFT and FFT
  // ---------------------------------------------------------------------

  /** The table index of term n of DFT bin k for a transform of size N. */
  function DftIndex(N: nat, k: nat, n: nat): (r: int)
    requires N > 0
    ensures 0 <= r < SIN_COS_N_COUNT
  {
    var kn: nat := k * n;
    var a: nat := kn * (SIN_COS_N_COUNT / N);
    Rem(a, SIN_COS_N_COUNT)
  }

  /** The twiddle index of bin k of an even FFT of size N: below 200 for every k < N / 2. */
  function TwiddleIndex(N: nat, k: nat): (r: nat)
    requires N > 0 && N % 2 == 0 && k < N / 2
    ensures r < SIN_COS_N_COUNT / 2
  {
    TwiddleBound(N, k);
    k * (SIN_COS_N_COUNT / N)
  }

  lemma TwiddleBound(N: nat, k: nat)
    requires N > 0 && N % 2 == 0 && k < N / 2
    ensures 0 <= k * (SIN_COS_N_COUNT / N) < SIN_COS_N_COUNT / 2
  {
    NatDiv(SIN_COS_N_COUNT, N);
    var step: nat := SIN_COS_N_COUNT / N;
    var h := N / 2;
    assert N == h + h;
    assert N * step <= SIN_COS_N_COUNT by {
      assert SIN_COS_N_COUNT == N * step + SIN_COS_N_COUNT % N;
    }
    HalfProduct(h, k, step, SIN_COS_N_COUNT);
  }

  /** Below half of `h + h` steps, `k` steps stay below half the total. */
  lemma HalfProduct(h: nat, k: nat, step: nat, total: nat)
    requires k < h && (h + h) * step <= total && total > 0
    ensures 0 <= k * step && 2 * (k * step) < total
  {
    MulMono(k + 1, h, step);
    assert (k + 1) * step == k * step + step;
    assert (h + h) * step == h * step + h * step;
    MulMono(0, k, step);
  }

  /** Entries of the output buffer `fft` writes for size N: the result's 2N, plus the scratch
      of the two half-size transforms at offsets 2N and 3N. */
  function FftOutSpan(N: nat): nat
    requires N > 0
    decreases N
  {
    if N == 1 then 2
    else if N % 2 == 1 then 2 * N
    else 3 * N + FftOutSpan(N / 2)
  }

  /** Entries of the input buffer `fft` touches for size N: the input, plus the half-size
      input copied to offset N and its own scratch. */
  function FftInSpan(N: nat): nat
    requires N > 0
    decreases N
  {
    if N == 1 then 1
    else if N % 2 == 1 then N
    else N + FftInSpan(N / 2)
  }

  /** The output scratch fits in at most 6N entries; the worker allocates 8N. */
  lemma {:induction false} FftOutSpanBound(N: nat)
    requires N > 0
    ensures FftOutSpan(N) <= 6 * N
    decreases N
  {
    if N > 1 && N % 2 == 0 {
      FftOutSpanBound(N / 2);
    }
  }

  /** The input scratch fits in fewer than 2N entries, which the worker allocates. */
  lemma {:induction false} FftInSpanBound(N: nat)
    requires N > 0
    ensures FftInSpan(N) < 2 * N
    decreases N
  {
    if N > 1 && N % 2 == 0 {
      FftInSpanBound(N / 2);
    }
  }

  /** The worker's FFT buffers of 2 and 8 frame sizes cover every transform the frame needs;
      the 201 power values read entries below 402. */
  lemma WorkerBuffersSuffice()
    ensures FftInSpan(N_FFT) <= 2 * N_FFT && FftOutSpan(N_FFT) <= 8 * N_FFT
    ensures 2 * (N_FFT / 2) + 1 < 2 * N_FFT
  {
    FftInSpanBound(N_FFT);
    FftOutSpanBound(N_FFT);
  }

  // ---------------------------------------------------------------------
  // Filter banks and preprocess_audio
  // ---------------------------------------------------------------------

  /** The shape of a mel filter bank: bands, FFT bins and the number of coefficients. */
  datatype FilterShape = FilterShape(nMel: nat, nFft: nat, size: nat)

  function Filters(nMel: nat): (f: FilterShape)
    ensures f.nMel == nMel && f.nFft == 1 + N_FFT / 2 && f.size == f.nMel * f.nFft
  {
    FilterShape(nMel, 201, nMel * 201)
  }

  /** `get_128_bins` (the coefficients themselves are not modelled). */
  function Get128Bins(): (f: FilterShape)
    ensures f.nMel == 128 && f.nFft == 201 && f.size == 128 * 201
  {
    Filters(128)
  }

  /** `get_80_bins` (the coefficients themselves are not modelled). */
  function Get80Bins(): (f: FilterShape)
    ensures f.nMel == 80 && f.nFft == 201 && f.size == 80 * 201
  {
    Filters(80)
  }

  datatype MelPlan = MelPlan(padded: seq<real>, shape: MelShape, workers: seq<WorkerPlan>)

  /** `log_mel_spectrogram` up to the transforms: the asserted frame size and bin count, the
      padding, the frame counts and the worker plans. */
  function LogMelSpectrogram(samples: seq<real>, frameSize: nat, frameStep: nat, nThreads: nat,
                             filters: FilterShape): (r: Result<MelPlan, MelError>)
    requires frameStep > 0 && nThreads > 0
    ensures r.Ok? <==> frameSize == N_FFT && filters.nFft == 1 + frameSize / 2 && |samples| > frameSize / 2
    ensures r.Ok? ==> |r.value.workers| == nThreads && r.value.shape.dataSize == filters.nMel * r.value.shape.nLen
  {
    if frameSize != N_FFT then Err(UnsupportedFrameSize)
    else
      var padded :- PadSignal(samples, frameSize);
      var shape := MelFrames(|samples|, frameSize, frameStep, filters.nMel);
      if filters.nFft != 1 + frameSize / 2 then Err(FftBinMismatch)
      else
        var active := |samples| + frameSize / 2;
        Ok(MelPlan(padded, shape,
          seq(nThreads, ith requires 0 <= ith < nThreads => Worker(ith, nThreads, active, frameStep, shape.nLen))))
  }

  /** `preprocess_audio`: Whisper's frame and hop, four threads, no debug dump. */
  function PreprocessAudio(samples: seq<real>, filters: FilterShape): Result<MelPlan, MelError> {
    LogMelSpectrogram(samples, N_FFT, HOP_LENGTH, PREPROCESS_THREADS, filters)
  }

  /** With either precomputed filter bank, preprocessing fails only on an input of 200
      samples or fewer, and then yields (n + 480000) / 160 columns for four workers. */
  lemma PreprocessAudioSpec(samples: seq<real>, nMel: nat)
    requires nMel == 80 || nMel == 128
    ensures var r := PreprocessAudio(samples, Filters(nMel));
            (r.Ok? <==> |samples| > 200)
            && (r.Ok? ==> r.value.shape.nLen == (|samples| + 480000) / 160 && |r.value.workers| == 4
                          && r.value.shape.dataSize == nMel * r.value.shape.nLen)
  {
    if |samples| > 200 {
      WhisperFrames(|samples|, nMel);
    }
  }
}

=== FILE: wrappers.dfy ===
/**
 * Option and Result types shared by every module of the model.
 *
 * A `Result<T, E>` stands for a call of the original program that either
 * returns a `T` or raises/throws the error described by an `E`.  Both types
 * support Dafny's `:-` elimination so that "raise and abort the caller" reads
 * as it does in the source.
 */
module Wrappers {

  datatype Option<+T> = None | Some(value: T) {
    predicate IsFailure() {
      None?
    }

    function PropagateFailure<U>(): Option<U>
      requires None?
    {
      None
    }

    function Extract(): T
      requires Some?
    {
      value
    }

    function GetOr(default: T): T {
      match this
      case Some(v) => v
      case None => default
    }

    /** The value, or the error `e` when there is none. */
    function OrFail<E>(e: E): (r: Result<T, E>)
      ensures Some? <==> r.Ok?
      ensures Some? ==> r.value == value
      ensures None? ==> r.error == e
    {
      match this
      case Some(v) => Ok(v)
      case None => Err(e)
    }
  }

  datatype Result<+T, +E> = Ok(value: T) | Err(error: E) {
    predicate IsFailure() {
      Err?
    }

    function PropagateFailure<U>(): Result<U, E>
      requires Err?
    {
      Err(error)
    }

    function Extract(): T
      requires Ok?
    {
      value
    }

    function MapError<E2>(f: E -> E2): Result<T, E2> {
      match this
      case Ok(v) => Ok(v)
      case Err(e) => Err(f(e))
    }
  }
}
